=== FILE: README.md ===
# cfge core, modelled in Dafny

cfge is an in-browser tool that shows grammar algorithms step by step:
normal-form conversions, FIRST/FOLLOW sets, parse-table construction, LL/LR
parsing and CYK. This project models the logic under those algorithms as
pure Dafny functions over immutable datatypes and proves what that logic
promises.

The modules follow the program's layers:

- `Highlights` (`highlight.dfy`): the closed set of highlight tags, their
  decay at step boundaries and the precedence rule that settles a requested
  tag against the present one.
- `Objects`, `Text`, `Wrappers` (`objects.dfy`, `text.dfy`, `wrappers.dfy`):
  JavaScript objects as insertion-ordered dictionaries (`Dict`), with the
  enumeration order of array-index keys made explicit; string comparison,
  numerals and the `_` template; `Result` and `Option`.
- `Symbols`, `Words`, `Rules` (`symbols.dfy`, `words.dfy`, `rules.dfy`):
  symbol classification, words with `toString`/`tryParseString`, `get`,
  `slice`, `contains`, `match`, and rules with their tags.
- `Grammars`, `GrammarEdits` (`grammar.dfy`, `grammar_edit.dfy`): grammar
  construction from data, symbol and rule lookup, `toData`, `rehash`, the
  nonterminal and rule walks, rule removal, fresh names, and enumeration and
  unenumeration of nonterminals.
- `ConversionGrammars`, `ConversionFinalize` (`conversion_grammar.dfy`,
  `conversion_finalize.dfy`): the `task*` edits that only ask for a tag,
  and `finalize`/`cleanHighlights`, where removals take effect and tags decay.
- `RichInputs` (`rich_input.dfy`): the guarded grammar edits of the rich
  editor (rename, remove, add and edit symbols and rules, change the start).
- `Staging`, `ParserActions` (`staged.dfy`, `parser_actions.dfy`): staged
  sets and tables whose changes become visible at `finalize`, and the parser
  action sets with their enabled/disabled view and text encodings.
- `LRItems`, `LRStates`, `LRAutomata` (`lr_item.dfy`, `lr_state.dfy`,
  `lr_automaton.dfy`): LR items, item sets with lookahead merging, core
  hashes, and the automaton's states, transitions and state merging.
- `ParserStructures`, `Trees` (`parser_structures.dfy`, `trees.dfy`): the
  parser stack, input and output, and ordered trees with the pre-order
  `after`/`before` threading and its mirror `nextLR`.
- `Controller` (`controller.dfy`): the step timeline: scheduling child
  steps, numbering, running a step, archiving and decaying its snapshot,
  handing it to the next step, hooks and repetition by duplication.
- `Cyk` (`cyk.dfy`): the CYK table layout, its sources, the bottom and
  higher steps, and the verdict.
- `FormChecks`, `ReducedForms`, `LeftRecursion` (`form_checks.dfy`,
  `reduced.dfy`, `left_recursion.dfy`): the `check` predicates of the normal
  forms, the generating and reachable fixpoints of the reduced form, and the
  in-degree elimination that decides left recursion.
- `FirstFollow` (`first_follow.dfy`): `addFirsts4Word` and the round-robin
  FIRST and FOLLOW phases, proved to end in the least sets closed under
  the grammar's rules.
- `LLTables` (`ll_table.dfy`): the LL table, with the rules each cell holds
  and when a cell has a conflict.
- `Derivations` (`derivations.dfy`): leftmost and rightmost derivation
  steps, the meaning given to the rule sequences the parsers emit.
- `LLParsers`, `LRParsers` (`ll_parser.dfy`, `lr_parser.dfy`): the LL and
  LR parser simulations. An accepted LL parse is sound: its emitted rules
  are a leftmost derivation of the input word from the start symbol. LR
  soundness is proved only under hypotheses about the table, which is a
  parameter here:
  - every reduction finds its rule's right side on top of the symbol
    stack (`LRParsers.RunMatches`);
  - the parse accepts with only the start symbol on the stack and all
    input read.

  The program checks neither; tables built from the grammar's LR automaton
  are meant to ensure both, but their construction is not part of this
  model. Under the hypotheses, the emitted rules, read backwards, are a
  rightmost derivation of the input word.
- `ParseTrees` (`parse_tree.dfy`): the CYK parse trees and the leftmost
  and rightmost derivations they display, proved to be derivations of the
  tree's yield by its rules.
- `CfgcFormat` (`cfgc.dfy`): the text form of the context free grammar
  checker tool, with `toCFGCString` and `convertCFGC`. Reading back what a
  valid grammar prints gives its rules, its first left side as start
  symbol, and the symbols its rules use.
- `UserFriendly` (`user_friendly.dfy`): the "N = ... . T = ... . P = ... .
  S = ... ." text form, with `toUserFriendlyString` and
  `convertUserFriendly`. The reader's four patterns are modelled by what
  they capture at the first position where they match. Reading back what a
  valid grammar with terminals and rules prints gives its symbols, start and
  left sides in order, and each rule's symbols; grammars without terminals
  or without rules print texts that the reader refuses.

Failures the program reports by throwing `MyError` or `UserError` are
`Failure` results here. Step programs receive the controller's state as a
value and return the commands they issue, so the timeline is a pure function
of the programs and the initial snapshot.

## Model

| member | source | states |
|---|---|---|
| Highlights.Value | js/Highlight.js:3-7 | a tag's value is its position in the declaration list, so the list at that value holds the tag again |
| Highlights.Get | js/Highlight.js:52-55 | `Highlight.get(n)` is defined exactly for 0..10 and then returns the tag whose value is n |
| Highlights.FromValue | js/Highlight.js:52-55 | a stored value reads back as the tag with that value; an out-of-range value becomes NONE |
| Highlights.Decay | js/Highlight.js:13-21 | decay gives a persistent tag: temporary tags become NONE, persistent tags stay, ATT_NEW becomes ATT_OLD |
| Highlights.WhichShouldStay | js/Highlight.js:57-69 | the tag that stays is always either the original or the requested one |
| Highlights.ValuesAreDeclarationOrder | js/Highlight.js:27-55 | values are 0..10 in declaration order and `get(h.value)` returns h; no two tags share a value |
| Highlights.DecayIdempotent | js/Highlight.js:13-21 | decaying twice is the same as decaying once |
| Highlights.DecayOnlyToNextMoves | js/Highlight.js:13-21 | the only tag that decays to a different tag other than NONE is ATT_NEW |
| Highlights.NotAHighlightKeepsOriginal | js/Highlight.js:62 | a candidate that is not a tag leaves the original |
| Highlights.RemovedIsAbsorbing | js/Highlight.js:63 | REMOVED stays whatever is requested, NONE included |
| Highlights.NoneWinsOverAllButRemoved | js/Highlight.js:63-64 | a NONE request wins over every original except REMOVED |
| Highlights.NewResists | js/Highlight.js:65-68 | NEW keeps out every request except REPLACED, ATT_NEW and NONE; in every other case the request wins |
| Highlights.ApplyIdempotent | js/Highlight.js:57-69 | asking twice for the same tag has the effect of asking once |
| Highlights.ApplyResultAbsorbs | js/Highlight.js:57-69 | applying the winner again to the original gives the same winner, so a rule's mirrored right-side tag stays equal to the rule's tag |
| Highlights.DecayThroughPrecedence | js/Highlight.js:13-69 | requesting the decayed tag through the precedence rule is plain decay, except that REMOVED stays |
| Text.StrLessTotal | js/common.js:60-77 | JavaScript string comparison orders any two different strings one way or the other |
| Text.StrLessTransitive | js/common.js:60-77 | JavaScript string comparison is transitive, so the key comparator is a strict order |
| Symbols.NewTerminal | js/structures/Symbol.js:92-139 | a terminal is built exactly from a valid text whose first character is in the terminal class; anything else is an error |
| Symbols.NewNonterminal | js/structures/Symbol.js:99-166 | a nonterminal is built exactly from a valid text starting with A-Z; anything else is an error |
| Symbols.Create | js/structures/Symbol.js:115-121 | `Symbol.create` succeeds exactly on valid texts, keeps the text, and gives a terminal iff the first character is in the terminal class, never the end marker |
| Symbols.Rename | js/structures/Symbol.js:56-63 | renaming succeeds exactly for a valid text of the same kind, and the symbol keeps its kind |
| Symbols.ExactlyOneKind | js/structures/Symbol.js:15-113 | every valid symbol text is of exactly one of the two kinds |
| Symbols.EndMarkerIsNoSymbol | js/structures/Symbol.js:13-113 | "$" is not a valid symbol text, so the end marker never collides with a grammar symbol |
| Symbols.SymbolTextHasNoSeparator | js/structures/Symbol.js:17-113 | a valid symbol text holds none of the characters that the text formats use as separators |
| Text.Format | js/common.js:47-58 | `_(str)` with no (or an empty) second argument is str itself; otherwise each placeholder takes the next argument, and running out of arguments fails |
| Text.FormatWithoutPlaceholders | js/common.js:47-58 | a template without placeholders comes back unchanged whatever the arguments |
| Text.Tokens | js/structures/Word.js:147 | the blank-separated tokens are nonempty and hold no blank |
| Text.TokensOfJoin | js/structures/Word.js:64-147 | splitting words that were joined with single spaces gives the words back |
| Text.NatToStringParse | js/structures/LRAutomaton.js:55 | a numeral without a leading zero is printed back as it was, so printed state ids and their values correspond one to one |
| Text.NatToStringInjective | js/structures/LRAutomaton.js:55 | two state counts print the same id only when they are equal |
| Words.ResolveAll | js/structures/Word.js:159-164 | the token list resolves exactly when every token resolves, with one symbol per token |
| Words.TryParseString | js/structures/Word.js:138-167 | the eps pattern parses to the empty word; otherwise the text parses iff every blank-separated token resolves, to those symbols in order |
| Words.GrammarFreeLookup | js/structures/Word.js:148-157 | without a grammar a token resolves exactly when it is a valid symbol text, to a symbol of the kind its first character says |
| Words.EpsPatternTokens | js/structures/Word.js:28-144 | text matching the eps pattern holds the single token "eps" |
| Words.ParseToString | js/structures/Word.js:64-167 | a word whose symbols all resolve, and none of which is named "eps", reads back from its printed form unchanged |
| Words.EpsLookalikeReadsAsEmpty | js/structures/Word.js:64-144 | the one-symbol word "eps" prints as the eps pattern and reads back as the empty word |
| Words.ToStringOfParsed | js/structures/Word.js:64-165 | printing a parsed nonempty word gives its tokens joined by single spaces |
| Words.Get | js/structures/Word.js:104-115 | `get(i)` is the i-th symbol inside the word and null outside it |
| Words.Slice | js/structures/Word.js:123-128 | a slice is always a contiguous piece of the word, with JavaScript's clamping and negative bounds counted from the end |
| Words.SliceIsSubsequence | js/structures/Word.js:123-128 | slicing between two valid positions is the subsequence between them, and slicing from 0 copies the word |
| Words.FindFrom | js/structures/Word.js:44-55 | the scan finds the first symbol with the given text, and reports none only when no such symbol exists |
| Words.ContainsIffFound | js/structures/Word.js:44-55 | `contains` holds exactly when the left-to-right scan finds the symbol |
| Words.Classify | js/structures/Word.js:93-102 | each symbol is classed T when terminal, S when it is the start and R otherwise |
| Words.ClassifyTerminalWord | js/structures/Word.js:33-102 | `isTerminal` holds exactly when every class letter is T (vacuously for the empty word) |
| Rules.NewRule | js/structures/Rule.js:3-15 | a rule is built exactly when the left side is a nonterminal; the right word is kept and both tags start at the given tag |
| Rules.HighlightRule | js/structures/Rule.js:31-37 | the rule's tag goes through the precedence rule, the sides stay, and a right-side tag that mirrored the rule's tag still does |
| Rules.SplitRuleText | js/structures/ParserActions.js:83-87 | a rule text splits at its first arrow: the pieces rebuild the text and no earlier arrow exists; no arrow gives nothing |
| Rules.SplitRuleTextInverts | js/structures/Rule.js:39-43 | splitting the printed form of a rule gives back its left text and its right word's printed form |
| Objects.Get | js/structures/Grammar.js:83-103 | a lookup succeeds exactly for a stored key and returns its value |
| Objects.Put | js/common.js:70-74 | storing keeps the position of an existing key and appends a new key at the end |
| Objects.Remove | js/common.js:70-71 | deleting drops the key from the values and from the enumeration order, keeping the other keys in order |
| Objects.Count | js/common.js:38-45 | `getPropertyCount` is the number of stored keys |
| Objects.AnyKey | js/common.js:11-17 | `getAnyPropertyKey` is null exactly for an empty object and otherwise a stored key |
| Objects.AnyValue | js/common.js:3-9 | `getAnyProperty` is null exactly for an empty object and otherwise a stored value |
| Objects.Values | js/common.js:29-36 | the values come out in enumeration order |
| Objects.SortObjectKeys | js/common.js:60-77 | sorting keeps every key with its value and puts the keys in comparator order |
| Objects.SortedUnique | js/common.js:60-77 | two sorted orders of the same keys are equal, so the result does not depend on the browser's sorting algorithm |
| Objects.SortSorted | js/common.js:60-77 | sorting an object whose keys are already in order changes nothing |
| Objects.NumberKeysInOrder | js/structures/LRAutomaton.js:115-127 | printed numbers used as keys enumerate in numeric order, whatever the order they were inserted in |
| Grammars.InitLookup | js/structures/Grammar.js:61-89 | while the constructor runs a text resolves exactly when one of the alphabets holds it, terminals first, and never to the end marker |
| Grammars.KeysToDict | js/structures/Grammar.js:18-31 | the array form is normalised so that every listed text is a key with the value of NONE, and nothing else is |
| Grammars.BuildAlphabet | js/structures/Grammar.js:42-56 | an alphabet is read exactly when every text is valid for its kind; it holds exactly the listed texts, each with the tag its value denotes |
| Grammars.BuildRules | js/structures/Grammar.js:58-70 | the rule groups that are read are keyed by exactly the listed left texts |
| Grammars.BuildGroup | js/structures/Grammar.js:64-69 | a nonempty group is read only under a nonterminal left side |
| Grammars.ReadData | js/structures/Grammar.js:15-31 | object data is read as given; array data is read only when its nonterminal list is nonempty |
| Grammars.Init | js/structures/Grammar.js:10-81 | the constructor fails on unreadable data and otherwise builds the grammar from the object form |
| Grammars.InitObject | js/structures/Grammar.js:40-81 | a built grammar has valid alphabets in the data's order and, as intended, a start symbol among the nonterminals |
| Grammars.BuildParts | js/structures/Grammar.js:40-70 | the part before the start symbol gives valid alphabets in the data's order and keeps the start text as given |
| Grammars.InitObjectAsWritten | js/structures/Grammar.js:40-81 | as written, a built grammar's start text is any symbol of either alphabet |
| Grammars.InitObjectAsWrittenAgrees | js/structures/Grammar.js:72-89 | the written and the intended constructor agree whenever the intended one succeeds or the start is not a terminal, and they differ only by accepting a terminal start |
| Grammars.ResolveStartAsWritten | js/structures/Grammar.js:72-73 | the start text resolves exactly when either alphabet holds it |
| Grammars.TerminalStartAccepted | js/structures/Grammar.js:72-73 | with N = {S}, T = {a} and start "a" the constructor accepts the terminal a as start symbol |
| Grammars.ResolveStart | js/structures/Grammar.js:72-73 | the intended start resolution succeeds exactly for an existing nonterminal |
| Grammars.TryGetSymbol | js/structures/Grammar.js:83-89 | a text resolves exactly when it is a terminal, a nonterminal or "$", looking at terminals first, and to a symbol of that text |
| Grammars.TryGetSymbolExtendsInitLookup | js/structures/Grammar.js:75-89 | after construction the lookup is the constructor's lookup plus the end marker |
| Grammars.TryGetRule | js/structures/Grammar.js:96-103 | a rule is found exactly when the left text has a group holding the right text, and it is that stored rule |
| Grammars.ToData | js/structures/Grammar.js:105-119 | the data form lists the alphabets in order, the start text, and one right text per stored rule of every group |
| Grammars.InitOfToData | js/structures/Grammar.js:15-119 | writing a well-formed grammar out and reading it back gives the same grammar, every tag reset to NONE |
| Grammars.InitOfSameShape | js/structures/Grammar.js:40-81 | object data with the keys of a well-formed grammar reads back as that grammar with the tags the data's values denote |
| Grammars.RuleRightReadsBack | js/structures/Grammar.js:64-68 | the key of a stored rule parses back to its right side |
| Grammars.BuildAlphabetExact | js/structures/Grammar.js:42-56 | reading valid texts gives them back in order, each with the tag its value denotes |
| GrammarEdits.Rehash | js/structures/Grammar.js:128-161 | after a rehash the start text follows the renaming, nonterminals and rule groups are in the rehash order (start first unless it is "N/1"), and no group is empty |
| GrammarEdits.RehashPutsStartFirst | js/structures/Grammar.js:132-146 | when the start symbol is present and not "N/1", it comes first among the nonterminals |
| GrammarEdits.RehashKeepsValid | js/structures/Grammar.js:128-161 | a rehash keeps a grammar well-formed |
| GrammarEdits.RehashIdempotent | js/structures/Grammar.js:128-161 | rehashing twice is rehashing once |
| GrammarEdits.RehashKeepsRules | js/structures/Grammar.js:128-161 | a rehash without renames finds the same rule under every left and right text and keeps the symbols and the start |
| GrammarEdits.RehashRulesIdentity | js/structures/Grammar.js:152-159 | without renames the groups are rebuilt unchanged, except that empty groups are dropped |
| GrammarEdits.DropEmptyGroups | js/structures/Grammar.js:153-154 | exactly the nonempty groups are kept, unchanged |
| GrammarEdits.RehashAlphabetInjective | js/structures/Grammar.js:143-145 | when renamed texts stay apart, the rebuilt alphabet holds one entry per old symbol under its new text, in the old order |
| GrammarEdits.RehashAlphabetOf | js/structures/Grammar.js:143-146 | the nonterminals after a rehash are the rebuilt alphabet, only reordered |
| GrammarEdits.RemoveRulesLeft | js/structures/Grammar.js:200-207 | the group of a nonterminal is deleted and every other group stays; any other symbol changes nothing |
| GrammarEdits.RemoveRulesLeftSpec | js/structures/Grammar.js:200-207 | the grammar stays well-formed and a rule survives exactly when its left side is another one |
| GrammarEdits.DeleteContaining | js/structures/Grammar.js:213-218 | a group keeps exactly the rules whose right side does not contain the symbol |
| GrammarEdits.RemoveRulesContainingRight | js/structures/Grammar.js:209-221 | the start stays and, after the rehash, no group is empty |
| GrammarEdits.RemoveRulesContainingRightSpec | js/structures/Grammar.js:209-221 | the grammar stays well-formed, symbols stay, and a rule survives exactly when its right side does not contain the symbol |
| GrammarEdits.VisitUntil | js/structures/Grammar.js:277-317 | `$.each` visits a prefix: every visited element but the last let it go on, and it stops early only after a callback returned false |
| GrammarEdits.VisitAll | js/structures/Grammar.js:277-280 | a callback that never returns false visits everything |
| GrammarEdits.ForEachNonterminalOrder | js/structures/Grammar.js:269-283 | the walk visits the start first, then every other nonterminal once, leaving out those that read like the start at comparison time |
| GrammarEdits.NonterminalOrder | js/structures/Grammar.js:269-283 | with a callback that renames nothing every nonterminal is visited exactly once, the start first |
| GrammarEdits.AllRules | js/structures/Grammar.js:305-320 | the rule walk passes every stored rule |
| GrammarEdits.ForEachRule | js/structures/Grammar.js:305-320 | a rule walk that stops early visits a prefix of the full walk |
| GrammarEdits.ForEachRuleWithLeft | js/structures/Grammar.js:322-334 | the walk over one left side visits only its rules, and nothing when it has none |
| GrammarEdits.ForEachSymbol | js/structures/Grammar.js:295-303 | the symbol walk visits only symbols of the grammar |
| GrammarEdits.RuleCountForLeft | js/structures/Grammar.js:235-240 | the count is the size of the left side's group, or 0 without one |
| GrammarEdits.AnyRuleForLeft | js/structures/Grammar.js:242-248 | a rule is returned exactly when the left side has rules, and it is one of them |
| GrammarEdits.TryCreate | js/structures/Grammar.js:257-267 | `tryCreate` succeeds exactly when the constructor does, with its grammar |
| GrammarEdits.FreshSuffix | js/structures/Grammar.js:341-342 | the suffix count found is the least from k on that makes the name unused |
| GrammarEdits.MakeUpName | js/structures/Grammar.js:336-344 | the name made up is unused and is the desired name with the fewest "/0" suffixes that make it unused |
| GrammarEdits.SymbolTexts | js/structures/Grammar.js:341 | without a set of used names a text counts as used exactly when the grammar resolves it |
| GrammarEdits.EnumName | js/structures/Grammar.js:351-355 | an enumerated name starts with "N/" |
| GrammarEdits.EnumNameIsNonterminal | js/structures/Grammar.js:355-358 | an enumerated name is a valid nonterminal text, so the rename succeeds |
| GrammarEdits.EnumNameNumber | js/structures/Grammar.js:353-355 | the number after "N/" reads back as i, whatever the padding |
| GrammarEdits.EnumNameInjective | js/structures/Grammar.js:353-355 | different numbers get different names |
| GrammarEdits.EnumNames | js/structures/Grammar.js:351-360 | the first m names are distinct and the j-th is the name of j + 1 |
| GrammarEdits.EnumerateAlong | js/structures/Grammar.js:346-367 | the j-th visited nonterminal gets the (j+1)-th name, the mapping leads each name back to it, and onlyPrepare leaves the grammar alone |
| GrammarEdits.EnumerateAsWritten | js/structures/Grammar.js:269-367 | as written, enumeration with onlyPrepare leaves the grammar alone; the walk compares with the already renamed start |
| GrammarEdits.EnumerateAsWrittenLosesNonterminal | js/structures/Grammar.js:278-362 | with nonterminals S and N/1, as written, the old N/1 is skipped, S becomes N/1, and one nonterminal is lost |
| GrammarEdits.Enumerate | js/structures/Grammar.js:346-367 | enumeration visiting every nonterminal renames by the enumeration renaming and then rehashes, and its mapping has one name per nonterminal |
| GrammarEdits.EnumerateRenamesAll | js/structures/Grammar.js:346-367 | after enumeration every nonterminal survives under its own new name with its tag, the start is the first name, and the count is unchanged |
| GrammarEdits.EnumerateShape | js/structures/Grammar.js:346-367 | after enumeration the start is the first name and there are as many nonterminals as before |
| GrammarEdits.EnumerateKeeps | js/structures/Grammar.js:354-362 | each nonterminal is present under its new name with its old tag |
| GrammarEdits.EnumRenamingApart | js/structures/Grammar.js:354-360 | the enumeration gives the nonterminals pairwise different names |
| GrammarEdits.EnumStartName | js/structures/Grammar.js:274-355 | the start symbol gets the first name |
| GrammarEdits.EnumRenamingAt | js/structures/Grammar.js:355-358 | the j-th visited nonterminal gets the j-th name and the mapping leads back to it |
| GrammarEdits.EnumeratePrepareAgrees | js/structures/Grammar.js:357-361 | onlyPrepare gives the mapping the full enumeration would use and leaves the grammar alone |
| GrammarEdits.EnumerateKeepsExample | js/structures/Grammar.js:346-367 | with every nonterminal visited, the S, N/1 grammar keeps both nonterminals |
| GrammarEdits.MappedKeys | js/structures/Grammar.js:386-391 | the mapped pass takes exactly the visited nonterminals with a truthy mapping |
| GrammarEdits.UnmappedKeys | js/structures/Grammar.js:390 | `restOf` is exactly the visited nonterminals without a truthy mapping |
| GrammarEdits.AuxiliaryPass | js/structures/Grammar.js:375-383 | the auxiliary pass fails exactly when one of its renames is to an invalid text |
| GrammarEdits.MakeUpAll | js/structures/Grammar.js:394-398 | the names made up for the remaining nonterminals are distinct and avoid all names given before |
| GrammarEdits.Unenumerate | js/structures/Grammar.js:369-402 | unenumeration without the auxiliary mapping succeeds exactly when every mapped name is a valid nonterminal text |
| GrammarEdits.UnenumerateKeepsNonterminals | js/structures/Grammar.js:369-402 | under an injective mapping, with every nonterminal visited, unenumeration succeeds, keeps the number of nonterminals and gives each mapped one its name |
| GrammarEdits.UnenumRenamingApart | js/structures/Grammar.js:385-398 | mapped and remaining nonterminals all end with pairwise different names |
| GrammarEdits.UnenumerateAsWrittenLosesNonterminal | js/structures/Grammar.js:278-398 | with nonterminals S and A and the mapping S to A, as written, the old A is skipped, keeps its text, and merges with the renamed S |
| GrammarEdits.UnenumerateAllMapped | js/structures/Grammar.js:386-401 | when the walk meets only mapped nonterminals, unenumeration is the rename by the mapping followed by a rehash |
| GrammarEdits.UnenumerateKeepsExample | js/structures/Grammar.js:369-402 | with every nonterminal visited, the old A of that example is renamed to A/0 and both stay |
| RichInputs.RenameSymbol | js/gui/RichInput.js:25-47 | renaming to the same text returns the existing symbol and fails when there is none; a refused rename changes nothing; a rename succeeds for a good new text exactly when the old symbol of that kind exists, and returns the renamed symbol |
| RichInputs.RenameSymbolSpec | js/gui/RichInput.js:38-45 | a rename keeps the grammar well-formed, gives the symbol its new text everywhere, leaves the other symbols alone, and a renamed start stays the start |
| RichInputs.RemoveSymbol | js/gui/RichInput.js:49-63 | removal is allowed exactly for a non-start nonterminal when another nonterminal remains, or a terminal when another terminal remains; a refusal changes nothing |
| RichInputs.RemoveSymbolSpec | js/gui/RichInput.js:58-61 | an allowed removal keeps the grammar well-formed, takes the symbol out of both alphabets, and keeps exactly the rules that do not mention it on either side |
| RichInputs.TryAddSymbol | js/gui/RichInput.js:65-89 | a symbol is added exactly for a nonempty good new text, at the end of its alphabet; otherwise nothing changes |
| RichInputs.TryAddSymbolSpec | js/gui/RichInput.js:76-89 | an added symbol is found under its text and the grammar stays well-formed |
| RichInputs.TryEditSymbol | js/gui/RichInput.js:91-100 | an edit is a rename; when that is refused a nonempty text keeps the old symbol, and the empty text removes it, returning nothing exactly when the removal is allowed |
| RichInputs.TryAddRule | js/gui/RichInput.js:102-123 | a rule is added exactly when the left side is an existing nonterminal, the right side parses and the pair is absent; the added rule is untagged; a refusal changes nothing |
| RichInputs.TryAddRuleSpec | js/gui/RichInput.js:109-120 | after an addition the new rule is found under its left and right text, every other lookup is unchanged, and the grammar stays well-formed |
| RichInputs.AddThenRemoveRule | js/gui/RichInput.js:102-157 | adding a rule and then removing it restores every rule lookup |
| RichInputs.TryAddRuleLeft | js/gui/RichInput.js:189-197 | adding under a left side that already has a group is refused; otherwise it is `tryAddRule` |
| RichInputs.TryEditRuleRight | js/gui/RichInput.js:125-150 | the edit fails exactly when the old rule is not stored; the empty text returns nothing; an unparsable text keeps the stored rule and changes nothing |
| RichInputs.DeleteRuleSpec | js/gui/RichInput.js:134-146 | deleting a rule removes exactly that rule, keeps every other lookup, and keeps the grammar well-formed |
| RichInputs.EditRuleRightSpec | js/gui/RichInput.js:133-142 | an edit either changes nothing or replaces the old rule by an untagged one with the new right side, keeping every other rule and the grammar well-formed |
| RichInputs.EditedGroup | js/gui/RichInput.js:139-141 | a replacing edit leaves a group without the old right text and with the new rule, and the grammar is rebuilt from it by a rehash |
| RichInputs.RemoveRule | js/gui/RichInput.js:152-157 | removing a rule succeeds exactly when it is stored |
| RichInputs.TryChangeStart | js/gui/RichInput.js:199-214 | the start becomes the new text exactly when it is a valid existing nonterminal; otherwise the old start stays and is returned |
| RichInputs.TryChangeStartSpec | js/gui/RichInput.js:205-210 | changing the start keeps the grammar well-formed, moves the new start to the front (unless it is "N/1"), and changes no rule and no symbol |
| ConversionGrammars.ToConversionData | js/structures/ConversionGrammar.js:10-23 | the conversion data has the grammar's keys in order, each symbol and rule carrying the value of its tag, and the start text |
| ConversionGrammars.ConversionDataRoundTrip | js/structures/ConversionGrammar.js:3-23 | constructing from the conversion data of a well-formed grammar gives back the same grammar: symbols, rules, tags, start, and order |
| ConversionGrammars.TaskAddSymbol | js/structures/ConversionGrammar.js:62-71 | a symbol whose text the grammar already resolves is returned untouched; the symbol returned always has the requested text |
| ConversionGrammars.TaskAddSymbolSpec | js/structures/ConversionGrammar.js:62-71 | a new symbol is tagged NEW and put into the alphabet of its kind, the grammar stays well-formed, and the symbol is found by its text afterwards |
| ConversionGrammars.TaskNewNonterminal | js/structures/ConversionGrammar.js:73-79 | the new nonterminal carries the name `makeUpNewNonterminalName` gives |
| ConversionGrammars.TaskNewNonterminalSpec | js/structures/ConversionGrammar.js:73-79 | for a valid nonterminal text the new nonterminal's name was unused before the call; it is added tagged NEW and the grammar stays well-formed |
| ConversionGrammars.SuffixedIsNonterminal | js/structures/Grammar.js:341-342 | every "/0" suffix of a valid nonterminal text is a valid nonterminal text |
| ConversionGrammars.TaskRemoveSymbol | js/structures/ConversionGrammar.js:81-85 | asking for removal keeps every symbol in its alphabet, in order |
| ConversionGrammars.TaskRemoveSymbolSpec | js/structures/ConversionGrammar.js:81-85 | the symbol's tag goes through the precedence rule with REMOVED, while the rules and every other tag stay |
| ConversionGrammars.TaskAddRule | js/structures/ConversionGrammar.js:87-103 | for an absent pair the rule returned is tagged NEW |
| ConversionGrammars.TaskAddRuleSpec | js/structures/ConversionGrammar.js:87-103 | an absent pair gets one new NEW rule; an existing pair is only asked to become DUPLICATE and never gets a second rule; every other rule stays |
| ConversionGrammars.TaskAddRuleNew | js/structures/ConversionGrammar.js:94-100 | for an absent pair the group grows by exactly one NEW rule and the grammar stays well-formed |
| ConversionGrammars.TaskAddRuleExisting | js/structures/ConversionGrammar.js:96-97 | for an existing pair only that rule's tag is asked to become DUPLICATE |
| ConversionGrammars.TaskRemoveRule | js/structures/ConversionGrammar.js:105-109 | asking for removal keeps every symbol and every group |
| ConversionGrammars.AskRuleTagSpec | js/structures/Rule.js:31-37 | asking one rule for a tag changes that rule's tags only and keeps the grammar well-formed |
| ConversionGrammars.TaskReplaceRule | js/structures/ConversionGrammar.js:111-121 | the rule returned is the added rule asked to become REPLACED |
| ConversionGrammars.TaskReplaceRuleSpec | js/structures/ConversionGrammar.js:111-121 | the old rule is asked to be REMOVED and the new one REPLACED; when both rights are equal the single rule stays REMOVED unless it was NEW |
| ConversionGrammars.ReplaceSameKey | js/Highlight.js:57-69 | a rule asked for REMOVED, then DUPLICATE, then REPLACED ends REMOVED unless it was NEW |
| ConversionFinalize.Settled | js/structures/ConversionGrammar.js:55 | a visited symbol or rule is asked for NONE when cleaning and its decayed tag otherwise; REMOVED stays |
| ConversionFinalize.RuleKeys | js/structures/Grammar.js:305-320 | the rule pass visits exactly the stored (left, right) pairs |
| ConversionFinalize.SymbolPassSpec | js/structures/ConversionGrammar.js:50-57 | after the symbol pass every symbol has been visited once and settled |
| ConversionFinalize.RemovalStep | js/structures/ConversionGrammar.js:51-53 | an allowed removal of a REMOVED symbol settles it and takes exactly the rules that mention it |
| ConversionFinalize.RulePassSpec | js/structures/ConversionGrammar.js:50-58 | after the rule pass every rule present after the symbol pass is settled |
| ConversionFinalize.VisitRuleStep | js/structures/ConversionGrammar.js:51-55 | visiting one rule settles it and changes no other rule |
| ConversionFinalize.FinalizeSpec | js/structures/ConversionGrammar.js:38-60 | finalize keeps the grammar well-formed and the start; a symbol not REMOVED stays with its decayed tag, a REMOVED one is gone or keeps REMOVED when its removal is refused; a rule stays exactly when it was not REMOVED and its symbols stayed, then with its decayed tag |
| ConversionFinalize.FinalizeLeavesSettledTags | js/structures/ConversionGrammar.js:38-60 | after finalize every tag is persistent, except REMOVED on a symbol whose removal was refused |
| ConversionFinalize.CleanHighlightsSpec | js/structures/ConversionGrammar.js:32-60 | cleaning deletes nothing and resets every tag to NONE, except REMOVED, which stays |
| ConversionFinalize.Passes | js/structures/ConversionGrammar.js:44-60 | the walk is the symbol pass followed by the rule pass over what the symbol pass left |
| ConversionGrammars.TaskAddSymbolNew | js/structures/ConversionGrammar.js:62-71 | a symbol the grammar does not know is appended to the alphabet of its kind with the asked tag (NEW when untagged), resolves afterwards, and every rule lookup is unchanged |
| ConversionGrammars.TaskAddRuleFresh | js/structures/ConversionGrammar.js:87-103 | for a pair without a rule the NEW rule is put into the left side's group, and the grammar is rehashed exactly when that group did not exist |
| ConversionGrammars.NewRuleGroup | js/structures/ConversionGrammar.js:94-100 | the group built for an absent pair holds one rule more than before, the new NEW rule under the right side's text, and every other rule of the left side |
| ConversionGrammars.ReplaceAdds | js/structures/ConversionGrammar.js:111-121 | the rule added while replacing is NEW when the right side was absent and the stored rule asked to be DUPLICATE otherwise, and the old rule stays stored when the texts differ |
| Staging.SetName | js/structures/Structures.js:18-32 | an empty name leaves the header as it was; any other name replaces the name and nothing else |
| Staging.SetPriority | js/structures/Structures.js:33-47 | a zero priority is a read and cannot be stored; any other priority replaces the priority and nothing else |
| Staging.FinalizeHeader | js/structures/Structures.js:81-90 | finalize changes only the tag, which takes its decayed value (a removed tag stays removed) and afterwards is persistent or removed |
| Staging.FinalizeHeaderIdempotent | js/structures/Structures.js:81-90 | finalizing a header twice is the same as finalizing it once |
| Staging.Add | js/structures/Structures.js:129-139 | the item is staged under its key at once, made visible only when immediate, and the answer is true exactly when the key was not visible before |
| Staging.Remove | js/structures/Structures.js:140-149 | the key is unstaged at once, hidden only when immediate, and the answer is true exactly when the key was visible before |
| Staging.AnyItem | js/structures/Structures.js:194-200 | there is no item exactly when nothing is visible; otherwise the item returned is a visible one |
| Staging.Finalize | js/structures/Structures.js:201-205 | after finalize the visible set is exactly the staged set, and the tag has decayed |
| Staging.DeferredChangesInvisible | js/structures/Structures.js:129-159 | an add or remove that is not immediate changes no read of the set: contains and length answer as before |
| Staging.FinalizeShowsStaged | js/structures/Structures.js:129-205 | after finalize an added key is contained with its item and a removed key is not, whether or not the change was immediate; other keys show the staged state |
| Staging.ImmediateAgreesWithFinalize | js/structures/Structures.js:129-149 | on a finalized set, an immediate add or remove keeps visible and staged equal |
| Staging.AddTwice | js/structures/Structures.js:129-139 | a second immediate add of the same key reports no change |
| Staging.SetData | js/structures/Structures.js:168-174 | the serialised set has one string per staged item |
| Staging.Fill | js/structures/Structures.js:175-182 | filling from data never changes the structure's id, name, tag or priority |
| Staging.FillSetData | js/structures/Structures.js:168-182 | serialising a set whose items read back from their string forms and filling an empty set from it restores the staged items, in order, as both visible and staged |
| Staging.FillPrefix | js/structures/Structures.js:175-182 | filling the whole data equals filling the remaining data after the first m items have been added |
| Staging.FillStep | js/structures/Structures.js:179-181 | filling one more item of the serialised data adds exactly the next staged item under its key |
| Staging.BlankRow | js/structures/Structures.js:305-310 | a fresh row has one cell per column, each the blank cell named by row and column |
| Staging.NewTableSpec | js/structures/Structures.js:230-248 | a new table is rectangular and each of its cells is the fresh cell named by its row and column id |
| Staging.AddRowSpec | js/structures/Structures.js:299-312 | adding a row keeps the table rectangular; an absent row gets a fresh cell in every column, an existing row is left alone, and every other cell is unchanged |
| Staging.AddColumnSpec | js/structures/Structures.js:319-331 | adding a column keeps the table rectangular; an absent column gets a fresh cell in every row, and every other cell is unchanged |
| Staging.RemoveRowSpec | js/structures/Structures.js:313-318 | removing a row deletes exactly that row's cells and keeps the table rectangular |
| Staging.FinalizeTableSpec | js/structures/Structures.js:365-373 | finalizing a table finalizes every cell where it stands and adds or removes none |
| Staging.RemoveStructure | js/structures/Structures.js:443-447 | the id is gone from the list and every other id maps to what it did before |
| Staging.NewStructure | js/structures/Structures.js:482-488 | afterwards the id maps to the new structure, other ids are unchanged, and replacing an existing id keeps the list's order |
| Staging.FinalizeAll | js/structures/Structures.js:472-477 | every structure is finalized in place; the ids and their order are unchanged |
| ParserActions.RuleFromText | js/structures/ParserActions.js:83-88 | a rule read from text is always a rule the grammar stores under some left and right text |
| ParserActions.Decode | js/structures/ParserActions.js:76-91 | an action is read only from text that starts with one of the six class letters, and goto, shift, accept and error texts always read |
| ParserActions.WordTextHasNoArrow | js/structures/ParserActions.js:145-192 | the text of a word over valid symbols has no arrow, so splitting a rule text at the first arrow recovers its left side |
| ParserActions.DecodeActionText | js/structures/ParserActions.js:76-192 | every action reads back from its own text; reduce and produce actions do when their rule is stored in the grammar |
| ParserActions.RuleTextReadsBack | js/structures/ParserActions.js:83-147 | a stored rule is found again from the text `left -> right` |
| ParserActions.ActionTextInjective | js/structures/ParserActions.js:110-192 | two actions with the same text are the same action, so the text is a faithful set key |
| ParserActions.ContainsAction | js/structures/ParserActions.js:29-34 | an action is contained exactly when it is visible and not disabled |
| ParserActions.EnabledFrom | js/structures/ParserActions.js:55-67 | the actions visited are exactly the visible actions whose texts are not disabled |
| ParserActions.DisableHides | js/structures/ParserActions.js:29-75 | a disabled action is not contained; enabling it again makes `contains` answer as the plain set does |
| ParserActions.EnableUndoesDisable | js/structures/ParserActions.js:68-75 | enabling right after disabling an enabled action restores the disabled map exactly, order included |
| ParserActions.LengthCountsEnabled | js/structures/ParserActions.js:35-67 | when every disabled text names a visible action, `length()` equals the number of actions `forEachItem` visits |
| ParserActions.EnabledCount | js/structures/ParserActions.js:35-39 | the enabled actions among distinct keys number the keys less the disabled ones |
| ParserActions.FinalizeActions | js/structures/Structures.js:201-205 | finalize makes the staged actions visible and keeps the disabled map |
| LRItems.SymbolAfterDot | js/structures/LRItem.js:75-90 | there is a symbol after the dot exactly when the item is not final, and it is the right-side symbol at the dot |
| LRItems.WordAfter | js/structures/LRItem.js:81-85 | for a non-final item, the part of the right side after the symbol at the dot; empty for a final item |
| LRItems.Following | js/structures/LRItem.js:91-97 | there is a following item exactly when the item is not final; it has the same rule and the dot one place further right |
| LRItems.DotSplitsRight | js/structures/LRItem.js:75-97 | for a non-final item, the symbol after the dot followed by the word after it is the rest of the right side, and the following item's rest is that word |
| LRItems.FollowingReachesFinal | js/structures/LRItem.js:86-97 | moving the dot right as many times as there are symbols after it reaches the final item of the same rule |
| LRItems.JsonInjective | js/structures/LRItem.js:29-38 | equal JSON texts of data whose sides contain no quote have equal left sides, right sides and dot positions |
| LRItems.HashIgnoresLookaheads | js/structures/LRItem.js:29-38 | `toString(true)` is equal for two items exactly when they have the same rule sides and dot position, whatever their lookaheads |
| LRItems.FullHashDeterminesKey | js/structures/LRItem.js:29-38 | items with equal full texts have equal keys |
| LRItems.ValidItemQuoteFree | js/structures/LRItem.js:32-34 | an item over valid symbol texts has no quote in its sides, so its JSON text needs no escaping |
| LRItems.ResolveAll | js/structures/LRItem.js:43 | the lookaheads read back are at most as many as the texts, and each is the symbol the grammar gives for one of the texts |
| LRItems.FromData | js/structures/LRItem.js:39-45 | an item is built exactly when the grammar has a rule with the given sides; it then has that rule and the given dot position |
| LRItems.ResolveTexts | js/structures/LRItem.js:36-43 | lookaheads whose texts the grammar resolves to themselves are read back unchanged from their texts |
| LRItems.FromDataToData | js/structures/LRItem.js:29-45 | reading an item back from the data of its full `toString()` gives the same item, when the grammar stores its rule and resolves its lookaheads |
| LRStates.StoreAll | js/structures/LRState.js:104-105 | after the first loop the stored texts are the old ones plus every present lookahead's text, each stored under its own text |
| LRStates.StoreNew | js/structures/LRState.js:106-110 | the second loop stores the texts not stored yet and reports a change exactly when some new lookahead's text was missing; with no change nothing is written |
| LRStates.ValuesByText | js/structures/LRState.js:115 | the symbols listed from a map of symbols by text have exactly the map's texts |
| LRStates.MergeLookaheads | js/structures/LRState.js:101-118 | the merged lookaheads carry exactly the texts of both lists, and the merge reports a change exactly when the new list has a text the present one lacks |
| LRStates.AddItem | js/structures/LRState.js:93-128 | a new key stores the item as it is and answers true; for a present key the stored item's lookahead texts become the union, the answer is whether a text was new, and with nothing new the stored item stays; only that key changes, in the visible map only when immediate |
| LRStates.Merged | js/structures/LRState.js:98-122 | with nothing present the new item is kept and the answer is true; otherwise the lookahead texts are merged and the present item is kept when nothing was new |
| LRStates.AddItemKeyed | js/structures/LRState.js:88-124 | `add` keeps every item stored under its own lookahead-free text |
| LRStates.AddItemTwice | js/structures/LRState.js:93-128 | adding the same item a second time answers false and leaves the staged items as they were |
| LRStates.AddNothingNew | js/structures/LRState.js:101-118 | adding an item whose lookahead texts are all present answers false and leaves the staged items as they were |
| LRStates.ItemHashes | js/structures/LRState.js:129-138 | there is one hash per staged item |
| LRStates.CoreHashEmpty | js/structures/LRState.js:46-51 | the core hash is "[]" exactly when the state has no item sets or an empty core |
| LRStates.SortedHashesAgree | js/structures/LRState.js:50 | two duplicate-free lists holding the same strings sort to the same list |
| LRStates.FullHashesDistinct | js/structures/LRState.js:129-138 | items stored under distinct keys have distinct full texts, so the full hash list has no duplicates |
| LRStates.CoreHashOrderFree | js/structures/LRState.js:46-51 | two states whose cores hold the same items under the same keys have the same core hash, whatever order the items were added in |
| LRStates.FullHashesCovered | js/structures/LRState.js:129-138 | item sets with the same items give the same full hashes |
| LRStates.ForEachItem | js/structures/LRState.js:60-75 | a state without item sets visits nothing; a callback that answers false in the core pass never reaches the non-core items |
| LRStates.ForEachItemVisits | js/structures/LRState.js:60-75 | the visit is the core items up to the first false answer, followed by the non-core items only when the core pass answered true throughout |
| LRStates.VisitStops | js/structures/LRState.js:66-70 | a visit that stops inside a list never reaches what follows it |
| LRStates.VisitPasses | js/structures/LRState.js:70-73 | a visit that passes a whole list goes on into what follows |
| LRStates.FinalizeState | js/structures/LRState.js:40-45 | finalize keeps the state's own tag and makes each item set show its staged items |
| LRStates.FinalizeKeepsHash | js/structures/LRState.js:40-75 | finalizing a state changes neither its core hash nor the items it visits |
| LRAutomata.IdOf | js/structures/LRAutomaton.js:84-90 | a state has an id exactly when its core hash is indexed under a non-empty id, and the id is the indexed one |
| LRAutomata.ContainsState | js/structures/LRAutomaton.js:77-83 | a state is contained exactly when its hash has an id under which a state is stored, and the answer is that stored state |
| LRAutomata.GetState | js/structures/LRAutomaton.js:91-96 | there is a state for an id exactly when one is stored under it, and it is that one |
| LRAutomata.AddState | js/structures/LRAutomaton.js:46-60 | a state whose hash is known is not added and gets its known id; a new state is stored, named and indexed under the current number of states, and nothing else changes |
| LRAutomata.AddStateThenKnown | js/structures/LRAutomaton.js:46-60 | after `addState` the state is found under the id it was given, and adding it again changes nothing |
| LRAutomata.AddStateFresh | js/structures/LRAutomaton.js:54-56 | while ids are the numbers below the state count, a new state never overwrites a stored one, the count grows by one, and the ids stay numbered |
| LRAutomata.AddEdge | js/structures/LRAutomaton.js:72-73 | the symbol is recorded on the from-to edge, creating the row and cell when missing, and every other edge is unchanged |
| LRAutomata.AddStateTransition | js/structures/LRAutomaton.js:61-76 | the transition fails exactly when the from-state is not in the automaton; otherwise the to-state is added, the symbol recorded on the edge, and the answer gives both ids and whether the to-state was new |
| LRAutomata.TransitionKeepsOtherEdges | js/structures/LRAutomaton.js:72-73 | a transition leaves every other edge as it was |
| LRAutomata.AddAll | js/structures/LRAutomaton.js:107-112 | adding a list of items, not immediately, stages exactly their keys and leaves the visible items and the header alone |
| LRAutomata.RedirectRow | js/structures/LRAutomaton.js:118-122 | in one row the entry for the other state moves to the main state and all other entries stay |
| LRAutomata.RedirectTargets | js/structures/LRAutomaton.js:116-122 | every row, in its order, has its entry for the other state moved onto the main state |
| LRAutomata.MoveSources | js/structures/LRAutomaton.js:123-126 | moving fails exactly when the other state has edges and the main state has no row; otherwise the other state's edges join the main row, its row is left empty, and other rows are unchanged |
| LRAutomata.MoveSourcesKeys | js/structures/LRAutomaton.js:123-126 | moving edges adds no row |
| LRAutomata.MoveRow | js/structures/LRAutomaton.js:124 | the listed entries are copied over, entries not listed stay, and no other entry appears |
| LRAutomata.MergeStates | js/structures/LRAutomaton.js:97-104 | when both hashes lead to the same id the automaton is unchanged |
| LRAutomata.MergedState | js/structures/LRAutomaton.js:106-112 | the merged main state keeps its header and stages, in each item set, the keys of its own items plus those of the other state's visible items |
| LRAutomata.MergedEdges | js/structures/LRAutomaton.js:114-127 | the edge loop fails exactly when the sources of the other state cannot be moved |
| LRAutomata.MainRowLast | js/structures/LRAutomaton.js:116-127 | when the other state's row is enumerated before the main state's, the main state's self-loop is the main row's old edge to the other state; otherwise the edges are as the moves left them, and no other row changes |
| LRAutomata.MergedEdgesAvoidOther | js/structures/LRAutomaton.js:114-127 | after the edge loop no edge leads to the other state |
| LRAutomata.MergedEdgesFrame | js/structures/LRAutomaton.js:114-127 | edges between third states are unchanged, and an edge from a third state into the other state now leads to the main state |
| LRAutomata.MergeStatesSpec | js/structures/LRAutomaton.js:97-136 | after a merge the other state's id is gone, the main state holds the merged items under its old id and is found by its new hash, and no edge leads to the other state |
| LRAutomata.MergeStatesFrame | js/structures/LRAutomaton.js:97-136 | a merge leaves every third state and every edge between third states as it was, and an edge from a third state into the other state now leads to the main state |
| LRAutomata.MergeStatesParts | js/structures/LRAutomaton.js:114-135 | a merge that goes through has the edges of the edge loop and the states with the other removed and the merged main stored |
| LRAutomata.LowestIdFirst | js/structures/LRAutomaton.js:116-122 | when the main state has the lower numeric id, its row is enumerated first, so the self-loop rule leaves the moved edges as they are |
| LRAutomata.FinalizeAutomaton | js/structures/LRAutomaton.js:283-286 | finalize finalizes every state where it stands and changes nothing else |
| LRAutomata.FinalizeKeepsIndex | js/structures/LRAutomaton.js:283-286 | finalizing keeps every stored state's core hash, so the hash index still finds every state |
| Cyk.Add | js/parsing/CYK.js:13-20 | the rule's source joins the group of its left side, created and listed last when new; every other group is unchanged |
| Cyk.AddAll | js/parsing/CYK.js:160-162 | adding a list of rules to a field adds exactly their left sides to its nonterminals |
| Cyk.Keyed | js/parsing/CYK.js:114-116 | the rules kept for a key are exactly those whose right side prints as that key |
| Cyk.InverseFrom | js/parsing/CYK.js:113-116 | the index built by the rule loop never holds an empty list |
| Cyk.InverseFromListed | js/parsing/CYK.js:113-116 | under every key the loop appends, in order, exactly the rules printing as that key |
| Cyk.Inverse | js/parsing/CYK.js:113-116 | under each key the index lists exactly the rules whose right side prints as that key, in rule order |
| Cyk.InverseKeys | js/parsing/CYK.js:113-116 | the index has a key exactly for each text some rule's right side prints as |
| Cyk.Row | js/parsing/CYK.js:104-110 | row i of the queue holds exactly the fields of row i from column j to n - i + 1, ascending, and counts them |
| Cyk.Rows | js/parsing/CYK.js:103-111 | rows i to n hold exactly the table's fields of those rows, ascending, and count them |
| Cyk.Layout | js/parsing/CYK.js:100-111 | the queue holds every field of the triangular table exactly once, row by row, n(n + 1)/2 of them |
| Cyk.EarlierInPrefix | js/parsing/CYK.js:100-111 | a field that the queue order puts before the one at position q is among the first q entries |
| Cyk.Sources | js/parsing/CYK.js:22-32 | a field of row i has i - 1 source pairs, the k-th being the field of the first k symbols and that of the remaining i - k |
| Cyk.SourcesBefore | js/parsing/CYK.js:22-111 | both fields of every source pair are in the table and come before the field in the queue |
| Cyk.AddSeconds | js/parsing/CYK.js:171-177 | for one first nonterminal, the loop adds the left sides of the rules printing as it followed by any second nonterminal |
| Cyk.AddFirsts | js/parsing/CYK.js:170-178 | one source pair adds the left sides of the rules printing as any first nonterminal followed by any second |
| Cyk.AddPairs | js/parsing/CYK.js:168-179 | the loop over all source pairs adds exactly the left sides the pairs combine to |
| Cyk.BottomStep | js/parsing/CYK.js:151-163 | a bottom field fails exactly when no rule prints as its symbol; otherwise it holds the left sides of the rules that do |
| Cyk.HigherStep | js/parsing/CYK.js:164-180 | a higher field holds the left sides its source pairs combine to |
| Cyk.InverseCombine | js/parsing/CYK.js:168-179 | combining two nonterminal sets through the index gives the left sides of the binary rules over one nonterminal of each |
| Cyk.PairAgrees | js/parsing/CYK.js:168-179 | source pair k of a field combines to the splits at k of the CYK recurrence |
| Cyk.PairsAgree | js/parsing/CYK.js:168-179 | the source pairs from k on combine to the splits of the recurrence from k on |
| Cyk.PairsStep | js/parsing/CYK.js:168-179 | the pairs from k on contribute pair k's split and then those from k + 1 on |
| Cyk.SourcesTail | js/parsing/CYK.js:25-31 | the first of the source pairs from k on is pair k, and the rest are those from k + 1 on |
| Cyk.AllSourcesReady | js/parsing/CYK.js:22-111 | when the queue reaches a field, every one of its source fields is already filled |
| Cyk.HigherAgrees | js/parsing/CYK.js:164-180 | when the queue reaches a higher field, its step computes exactly the nonterminals deriving its span |
| Cyk.Extend | js/parsing/CYK.js:142-188 | filling the field at the head of the rest of the queue keeps the filled fields a prefix of the queue, each holding the nonterminals deriving its span |
| Cyk.BottomAgrees | js/parsing/CYK.js:151-163 | the rules printing as a symbol have as left sides exactly the nonterminals deriving that one symbol |
| Cyk.SpansNeedSymbols | js/parsing/CYK.js:155-159 | a span derives something only if each of its symbols does |
| Cyk.RestNeedsSymbols | js/parsing/CYK.js:155-159 | the second part of a split that derives something has symbols that derive something |
| Cyk.BinaryNonempty | js/parsing/CYK.js:168-179 | a nonempty combination needs both parts to derive something |
| Cyk.SplitWitness | js/parsing/CYK.js:168-179 | a nonempty set of splits names a split whose two parts both derive something |
| Cyk.NewSession | js/parsing/CYK.js:69-81 | the constructor succeeds exactly for a grammar in strict Chomsky form and keeps the grammar and word |
| Cyk.ParseEpsilon | js/parsing/CYK.js:127-140 | the corrected check: the empty word parses exactly when the start symbol has an epsilon rule |
| Cyk.StartEpsMeans | js/parsing/CYK.js:127-140 | the lookup under the epsilon key finds a rule exactly when the start symbol has an epsilon rule |
| Cyk.EpsKeyIsEmpty | js/parsing/CYK.js:127-140 | in a valid grammar only the empty right side is stored under the epsilon key |
| Cyk.LongWordIsNotEps | js/parsing/CYK.js:127-140 | a right side of two or more symbols never prints as the epsilon text |
| Cyk.ParseEpsilonAsWrittenMeans | js/parsing/CYK.js:127-140 | as written the empty word is reported parsable exactly when the start symbol has the rule S -> 0, whatever its epsilon rules |
| Cyk.ZeroKeyIsZero | js/parsing/CYK.js:131 | in a valid grammar only the single symbol "0" is stored under the key "0" |
| Cyk.LongWordHasSpace | js/parsing/CYK.js:131 | a word of two or more symbols prints with a space after its first symbol |
| Cyk.EpsilonVerdictsDiffer | js/parsing/CYK.js:127-140 | for every valid grammar the as-written and the corrected answers differ exactly when the start symbol has one of S -> eps and S -> 0 but not the other |
| Cyk.Step | js/parsing/CYK.js:142-181 | a step fails exactly on a bottom field whose symbol no rule prints as |
| Cyk.StepAgrees | js/parsing/CYK.js:142-181 | taking fields in queue order, each step computes exactly the nonterminals deriving its span, and a step fails only when the whole word derives nothing |
| Cyk.BottomStepAgrees | js/parsing/CYK.js:151-163 | a bottom step computes the nonterminals deriving its symbol and fails only when no rule prints as it |
| Cyk.BottomStepTransfer | js/parsing/CYK.js:151-163 | a bottom step computes the left sides of the rules listed under its symbol |
| Cyk.NoSymbolNoSpan | js/parsing/CYK.js:155-159 | a symbol that no nonterminal derives makes the whole word underivable |
| Cyk.Execute | js/parsing/CYK.js:91-195 | a nonempty word is parsable exactly when the start symbol derives it; the empty word is answered by the as-written lookup of S -> 0; every filled field holds the nonterminals deriving its span, and the run stops short of n(n + 1)/2 steps only on a word it rejects |
| Cyk.BinaryKeyMeans | js/parsing/CYK.js:173 | in a valid grammar a rule prints as "a b" exactly when its right side is the two symbols a and b |
| Cyk.RightPrintable | js/parsing/CYK.js:114-116 | the symbols of a stored rule print as nonempty tokens without blanks |
| Cyk.EpsilonOnly | js/parsing/CYK.js:74 | the grammar with the single rule S -> eps is well-formed |
| Cyk.ParseEpsilonAsWrittenMissesEpsilon | js/parsing/CYK.js:127-140 | the grammar S -> eps is accepted by the constructor and derives the empty word, yet as written the empty word is reported unparsable |
| LeftRecursion.InCountRemove | js/grammar_forms/NoLeftRecursionForm.js:102-107 | taking one more node out of the in-degree count of b lowers it by one exactly when that node has an edge to b |
| LeftRecursion.InCountAdd | js/grammar_forms/NoLeftRecursionForm.js:92-95 | a new edge a -> b counts once towards b and towards no other node |
| LeftRecursion.EmptyGraph | js/grammar_forms/NoLeftRecursionForm.js:84-87 | the initial graph has every nonterminal, in-degree 0 everywhere and no edge |
| LeftRecursion.AddEdge | js/grammar_forms/NoLeftRecursionForm.js:92-95 | recording an edge adds exactly that edge, a repeated edge is not counted twice, and the in-degrees stay the edge counts |
| LeftRecursion.NewEdgeCounted | js/grammar_forms/NoLeftRecursionForm.js:92-95 | a new edge appended to the successors keeps the graph well-formed and adds exactly that edge |
| LeftRecursion.AddEdges | js/grammar_forms/NoLeftRecursionForm.js:88-96 | the rule loop adds exactly one edge N -> M for each rule N -> M ... whose right side starts with a nonterminal |
| LeftRecursion.EdgesKnown | js/grammar_forms/NoLeftRecursionForm.js:88-96 | in a valid grammar every induced edge joins two nonterminals of the grammar |
| LeftRecursion.GraphOf | js/grammar_forms/NoLeftRecursionForm.js:83-96 | the graph's nodes are the grammar's nonterminals and it has an edge N -> M exactly when some rule N -> M ... exists |
| LeftRecursion.SelfLoopCyclic | js/grammar_forms/NoLeftRecursionForm.js:102-110 | a node with an edge to itself rules out every topological order |
| LeftRecursion.Stuck | js/grammar_forms/NoLeftRecursionForm.js:108-110 | a topological order cannot exist when each node left over has a predecessor left over |
| LeftRecursion.ZeroInDegree | js/grammar_forms/NoLeftRecursionForm.js:97-99 | the first queue holds, once each, exactly the nodes of in-degree 0 |
| LeftRecursion.Decrement | js/grammar_forms/NoLeftRecursionForm.js:104-106 | the successors' in-degrees drop by one, the others stay, and exactly the successors reaching 0 join the queue |
| LeftRecursion.Release | js/grammar_forms/NoLeftRecursionForm.js:103-106 | after releasing a node each in-degree counts the edges from nodes not yet released, and the queue holds exactly the nodes other than it whose count reached 0 |
| LeftRecursion.Pop | js/grammar_forms/NoLeftRecursionForm.js:102-107 | one round takes the queue's head off, numbers it and keeps the loop invariant |
| LeftRecursion.NoneLeft | js/grammar_forms/NoLeftRecursionForm.js:108-110 | the last loop answers true exactly when no in-degree stays positive |
| LeftRecursion.Kahn | js/grammar_forms/NoLeftRecursionForm.js:81-111 | the queue algorithm answers true exactly when the graph is acyclic, that is, has a topological order |
| LeftRecursion.Conclude | js/grammar_forms/NoLeftRecursionForm.js:102-111 | when the queue is empty, no positive in-degree means every node was ordered, and a positive one means no order exists |
| LeftRecursion.NoLeftRecursionCheck | js/grammar_forms/NoLeftRecursionForm.js:47-114 | `check` holds exactly when the grammar's left-corner graph is acyclic |
| LeftRecursion.DirectLeftRecursion | js/grammar_forms/NoLeftRecursionForm.js:47-114 | a rule N -> N ... makes the check fail |
| LeftRecursion.GreibachHasNoLeftRecursion | js/grammar_forms/NoLeftRecursionForm.js:47-114 | a grammar none of whose right sides starts with a nonterminal passes the check |
| ReducedForms.GenPass | js/grammar_forms/ReducedForm.js:194-203 | a pass of the generating loop only adds left sides, and adds every left side of a rule whose nonterminals were all present |
| ReducedForms.GenPassBelow | js/grammar_forms/ReducedForm.js:194-203 | a pass stays inside every closed set that contains its start |
| ReducedForms.GenFix | js/grammar_forms/ReducedForm.js:193-203 | the loop ends with a closed set containing its start |
| ReducedForms.GenFixBelow | js/grammar_forms/ReducedForm.js:193-203 | the loop's result lies inside every closed set containing its start, so it is the least one |
| ReducedForms.GeneratingStep | js/grammar_forms/ReducedForm.js:79-98 | the step adds left sides of rules whose nonterminals are all visible, asks to repeat exactly when the visible set was not closed, and stays inside every closed superset |
| ReducedForms.InitGenerating | js/grammar_forms/ReducedForm.js:61-77 | the first set holds exactly the left sides of rules over terminals only |
| ReducedForms.InitIsFirstStep | js/grammar_forms/ReducedForm.js:61-98 | the first set is what a step from the empty set adds |
| ReducedForms.GenRounds | js/grammar_forms/ReducedForm.js:79-98 | repeating steps while asked ends with a closed set containing the start |
| ReducedForms.GenRoundsBelow | js/grammar_forms/ReducedForm.js:79-98 | the repeated steps stay inside every closed superset |
| ReducedForms.GeneratingAgree | js/grammar_forms/ReducedForm.js:61-203 | the step program and `check` find the same generating set |
| ReducedForms.RemoveNongenerating | js/grammar_forms/ReducedForm.js:100-111 | exactly the nonterminals that are neither generating nor the start are removed |
| ReducedForms.Filter | js/grammar_forms/ReducedForm.js:45-48 | a filtered list keeps exactly the elements that pass |
| ReducedForms.RightNonterminals | js/grammar_forms/ReducedForm.js:144-150 | exactly the nonterminals occurring in the right side |
| ReducedForms.ReachPass | js/grammar_forms/ReducedForm.js:209-216 | a pass of the reachable loop only adds mentioned nonterminals, and adds every nonterminal of a rule whose left side was present |
| ReducedForms.ReachPassBelow | js/grammar_forms/ReducedForm.js:209-216 | a pass stays inside every closed set containing its start |
| ReducedForms.ReachFix | js/grammar_forms/ReducedForm.js:207-216 | the loop ends with a closed set containing its start |
| ReducedForms.ReachFixBelow | js/grammar_forms/ReducedForm.js:207-216 | the loop's result lies inside every closed set containing its start |
| ReducedForms.ReachableStep | js/grammar_forms/ReducedForm.js:135-153 | the step adds the right-side nonterminals of rules whose left side is visible, asks to repeat exactly when the visible set was not closed, and stays inside every closed superset |
| ReducedForms.ReachRounds | js/grammar_forms/ReducedForm.js:135-153 | repeating steps while asked ends with a closed set containing the start |
| ReducedForms.ReachRoundsBelow | js/grammar_forms/ReducedForm.js:135-153 | the repeated steps stay inside every closed superset |
| ReducedForms.ReachableAgree | js/grammar_forms/ReducedForm.js:125-216 | starting from the start symbol, the step program and `check` find the same reachable set |
| ReducedForms.RemoveNonreachable | js/grammar_forms/ReducedForm.js:155-166 | exactly the nonterminals that are not reachable are removed |
| ReducedForms.RemoveSelfRules | js/grammar_forms/ReducedForm.js:40-49 | exactly the rules X -> X are removed |
| ReducedForms.LeftsKnown | js/grammar_forms/ReducedForm.js:193-203 | in a valid grammar every left side is a nonterminal of the grammar |
| ReducedForms.MentionedKnown | js/grammar_forms/ReducedForm.js:207-216 | in a valid grammar every right-side nonterminal is a nonterminal of the grammar |
| ReducedForms.ReducedCheckMeans | js/grammar_forms/ReducedForm.js:179-220 | `check` holds exactly when there is no rule X -> X, every nonterminal other than the start is generating, and every nonterminal is reachable from the start |
| ReducedForms.GenAlmostAll | js/grammar_forms/ReducedForm.js:204-205 | the count test holds exactly when every nonterminal other than the start is generating |
| ReducedForms.AllReached | js/grammar_forms/ReducedForm.js:217 | the count test holds exactly when every nonterminal is reachable |
| FormChecks.AllRulesStored | js/structures/Grammar.js:305-320 | every rule `forEachRule` visits is stored in some group of the rule map |
| FormChecks.RuleStored | js/structures/Grammar.js:305-320 | in a valid grammar a visited rule is the one stored under its own left side and right text, and its right side is not a lookalike of epsilon |
| FormChecks.RuleVisited | js/structures/Grammar.js:305-320 | every stored rule is visited by `forEachRule` |
| FormChecks.Scan | js/grammar_forms/ChomskyForm.js:239-244 | a walk whose callback sets `good = false` and stops at the first failing element ends with `good` true exactly when every element passes |
| FormChecks.ChomskyCheck | js/grammar_forms/ChomskyForm.js:234-245 | the check holds exactly when every right side is two nonterminals, one terminal, or empty |
| FormChecks.StrictChomskyCheck | js/grammar_forms/StrictChomskyForm.js:40-53 | the check holds exactly when every rule is one terminal, two nonterminals (neither the start when the start has an epsilon rule), or an epsilon rule of the start |
| FormChecks.GreibachCheck | js/grammar_forms/GreibachForm.js:333-346 | the check holds exactly when every rule starts with a terminal (followed by no start symbol when the start has an epsilon rule) or is an epsilon rule of the start |
| FormChecks.EpsilonFreeCheck | js/grammar_forms/EpsilonFreeForm.js:179-198 | the check holds exactly when no rule is empty, or every rule is nonempty without the start on its right except an epsilon rule of the start |
| FormChecks.ChainRuleFreeCheck | js/grammar_forms/ChainRuleFreeForm.js:153-164 | the check holds exactly when no right side is a single nonterminal |
| FormChecks.FirstsDistinct | js/grammar_forms/LeftFactoredForm.js:125-131 | the loop over one left side's alternatives passes exactly when no nonempty alternative starts with a seen symbol and no two start with the same symbol |
| FormChecks.Rights | js/grammar_forms/LeftFactoredForm.js:126 | the right sides of the alternatives, in order |
| FormChecks.FirstsDistinctFactored | js/grammar_forms/LeftFactoredForm.js:125-131 | starting from no seen symbol, the loop passes exactly when no two nonempty alternatives share their first symbol |
| FormChecks.LeftFactoredCheck | js/grammar_forms/LeftFactoredForm.js:117-135 | the check holds exactly when no nonterminal has two nonempty alternatives starting with the same symbol |
| FormChecks.StrictChomskyIsChomsky | js/grammar_forms/StrictChomskyForm.js:40-53 | a grammar in strict Chomsky form passes the Chomsky check |
| FormChecks.StrictChomskyIsChainRuleFree | js/grammar_forms/StrictChomskyForm.js:40-53 | a grammar in strict Chomsky form passes the chain-rule-free check |
| FormChecks.StartEpsFound | js/grammar_forms/StrictChomskyForm.js:45 | in a valid grammar an epsilon rule of the start is found by the lookup under the epsilon text |
| FormChecks.StrictChomskyIsEpsilonFree | js/grammar_forms/StrictChomskyForm.js:40-53 | a valid grammar in strict Chomsky form passes the epsilon-free check |
| FormChecks.StrictRuleEpsilonFree | js/grammar_forms/EpsilonFreeForm.js:191-195 | a strict Chomsky rule of a grammar whose start has an epsilon rule has the epsilon-free shape |
| FormChecks.GreibachIsEpsilonFree | js/grammar_forms/GreibachForm.js:333-346 | a valid grammar in Greibach form passes the epsilon-free check |
| FormChecks.GreibachIsChainRuleFree | js/grammar_forms/GreibachForm.js:333-346 | a grammar in Greibach form passes the chain-rule-free check |
| Trees.FindChild | js/algorithm_framework/AlgorithmController.js:41-50 | the node at p followed by index i is child i of the node at p, when it has one |
| Trees.ParentValid | js/algorithm_framework/AlgorithmController.js:36-40 | the parent of a valid node is valid and holds the node as its child at the node's last index |
| Trees.FindFront | js/algorithm_framework/AlgorithmController.js:41-45 | reading a path front first: its first index selects a child of the root and the rest is read in that child |
| Trees.Up | js/algorithm_framework/AlgorithmController.js:76-79 | the climb ends, if at all, at a valid node that is a later sibling on the path from the root to p |
| Trees.Next | js/algorithm_framework/AlgorithmController.js:71-81 | `after()` answers, if anything, a valid non-root node other than the start |
| Trees.Deepest | js/algorithm_framework/AlgorithmController.js:65-68 | following last children ends at a valid leaf |
| Trees.Prev | js/algorithm_framework/AlgorithmController.js:61-70 | `before()` answers exactly for non-root nodes, and its answer is a valid node |
| Trees.UpThenDeepest | js/algorithm_framework/AlgorithmController.js:61-81 | the deepest last descendant of the sibling before the node the climb reaches is the deepest last descendant of p |
| Trees.UpToSibling | js/algorithm_framework/AlgorithmController.js:76-79 | a node with a next sibling climbs to that sibling, whose previous sibling is the node |
| Trees.LastChildDeepest | js/algorithm_framework/AlgorithmController.js:61-81 | from a last child the climb and the descent both pass through the parent |
| Trees.PrevOfNext | js/algorithm_framework/AlgorithmController.js:61-81 | stepping back from the node after p returns to p: `before(after(n)) == n` |
| Trees.DeepestThenUp | js/algorithm_framework/AlgorithmController.js:61-81 | climbing from the deepest last descendant of p ends where climbing from p does |
| Trees.NextOfPrev | js/algorithm_framework/AlgorithmController.js:61-81 | stepping forward from the node before p returns to p: `after(before(n)) == n` |
| Trees.UpLR | js/structures/ParserStructures.js:255-258 | the climb towards a previous sibling ends, if at all, at a valid node |
| Trees.NextLR | js/structures/ParserStructures.js:250-259 | `nextLR()` answers, if anything, a valid node |
| Trees.Mirror | js/structures/ParserStructures.js:240-259 | the mirrored tree has the same item and as many children at the root |
| Trees.MirrorPath | js/structures/ParserStructures.js:240-259 | a node's path in the mirrored tree has the same length |
| Trees.MirrorAt | js/structures/ParserStructures.js:240-259 | the node at the mirrored path of the mirrored tree is the mirror of the node at the path |
| Trees.UpMirrored | js/structures/ParserStructures.js:245-257 | the climb to a previous sibling is the climb to a next sibling read in the mirrored tree |
| Trees.NextLRIsMirroredNext | js/structures/ParserStructures.js:240-259 | `nextLR` is `nextLL` read in the mirrored tree |
| Trees.MirrorLastChild | js/structures/ParserStructures.js:253-254 | `nextLR` of a node with children is its last child, the first child in the mirrored tree |
| Trees.MirrorPathChild | js/structures/ParserStructures.js:240-259 | child i of a node is child n - 1 - i of its mirror |
| Trees.ReplaceBelow | js/structures/ParserStructures.js:212-226 | after replacing the node at p, paths through p read the new subtree |
| Trees.ReplaceAbove | js/structures/ParserStructures.js:212-226 | replacing a node keeps the items and child counts of its ancestors |
| Trees.ReplaceApart | js/structures/ParserStructures.js:212-226 | nodes off the replaced node's branch are untouched |
| Trees.ReplaceOutside | js/structures/ParserStructures.js:212-226 | a replacement outside a node keeps that node's item and child count |
| Trees.ReplaceSameChildren | js/algorithm_framework/AlgorithmController.js:164-169 | replacing a node by one with the same children leaves every node that is neither it nor one of its ancestors as it was |
| Trees.NextOutside | js/algorithm_framework/AlgorithmController.js:71-81 | the node `after()` reaches lies outside the subtree of the node it started from, so rewriting it keeps the start |
| Trees.ReplaceAt | js/structures/ParserStructures.js:212-226 | after the replacement the node at p is the new subtree |
| Trees.SameShapeFind | js/algorithm_framework/AlgorithmController.js:36-60 | trees of the same shape have the same valid paths, and their subtrees there have the same shape |
| Trees.NextSameShape | js/algorithm_framework/AlgorithmController.js:71-81 | `after()` depends only on the tree's shape, not on the items |
| Trees.ReplaceSameShape | js/algorithm_framework/AlgorithmController.js:164-169 | replacing a node by one of the same shape keeps the tree's shape |
| Trees.SetItem | js/algorithm_framework/AlgorithmController.js:164-169 | writing a node's data changes only its item, so the shape is kept |
| Trees.Adopt | js/algorithm_framework/AlgorithmController.js:115-127 | the adopted node becomes the last child of the node at p, whose item and other children are kept |
| Trees.AdoptLinks | js/algorithm_framework/AlgorithmController.js:115-127 | the adopted node's parent is the adopting node and it is its last child |
| Trees.AdoptKeepsSiblings | js/algorithm_framework/AlgorithmController.js:119-122 | when there were children the first child stays and the former last child's next sibling is the adopted node |
| Trees.InsertAfter | js/algorithm_framework/AlgorithmController.js:128-143 | nothing happens at the root; elsewhere the parent keeps its item and gains the new node right after the node |
| Trees.InsertAfterLinks | js/algorithm_framework/AlgorithmController.js:128-143 | after the insertion the node keeps its path and the new node is its next sibling, followed by the former next sibling |
| Trees.UpApart | js/algorithm_framework/AlgorithmController.js:76-79 | the climb from p ends at the next sibling of one of p's ancestors-or-self |
| ParserStructures.Push | js/structures/ParserStructures.js:34-39 | a push appends exactly one entry on top of the old stack, wrapping it exactly when it is a symbol |
| ParserStructures.PeekTop | js/structures/ParserStructures.js:40-47 | there is no top exactly on an empty stack; otherwise the top entry, unwrapped |
| ParserStructures.PeekAfterPush | js/structures/ParserStructures.js:34-47 | a pushed entry is what `peekTop` returns next, symbols included |
| ParserStructures.PopN | js/structures/ParserStructures.js:48-53 | n pops remove the top n entries, or all of them when there are fewer, and keep the rest in order |
| ParserStructures.PopUndoesPush | js/structures/ParserStructures.js:34-53 | popping once undoes a push |
| ParserStructures.PopNTwice | js/structures/ParserStructures.js:48-53 | popping a and then b entries is popping a + b entries |
| ParserStructures.NewInput | js/structures/ParserStructures.js:91-101 | a new input reads from position 0 and holds the word followed by the end marker, or nothing without a word and grammar |
| ParserStructures.Lookahead | js/structures/ParserStructures.js:123-126 | the lookahead exists exactly before the end of the input and is the symbol at the position |
| ParserStructures.Next | js/structures/ParserStructures.js:127-131 | `next` fails exactly at the last position; otherwise it answers the lookahead and moves one on |
| ParserStructures.NextStaysOnInput | js/structures/ParserStructures.js:127-131 | before the last position `next` answers a symbol and stays on the input |
| ParserStructures.ReadWholeWord | js/structures/ParserStructures.js:91-131 | reading a fresh input consumes exactly the word, after which the lookahead is the end marker and a further `next` fails |
| ParserStructures.ReadFrom | js/structures/ParserStructures.js:127-131 | from position j, one call of `next` per remaining word symbol answer the rest of the word and end on the end marker |
| ParserStructures.Emit | js/structures/ParserStructures.js:150-154 | `emitRule` appends the rule to the output and changes nothing else |
| ParserStructures.Reverse | js/structures/ParserStructures.js:159-160 | the reversed list has the same length with the entries in opposite order |
| ParserStructures.ReverseTwice | js/structures/ParserStructures.js:159-160 | reversing twice gives the list back |
| ParserStructures.Finish | js/structures/ParserStructures.js:155-163 | the first `finish` fixes the traversal (LR or LL) and reverses the rules for LR; later calls change nothing |
| ParserStructures.FinishIdempotent | js/structures/ParserStructures.js:155-163 | a second `finish` changes nothing, whatever it is asked |
| ParserStructures.ChildFor | js/structures/ParserStructures.js:219-224 | each right-side symbol gets a childless node, which is a terminal leaf exactly for a terminal |
| ParserStructures.ChildrenFor | js/structures/ParserStructures.js:219-224 | there is one child per right-side symbol, in order |
| ParserStructures.AdoptAll | js/structures/ParserStructures.js:219-239 | adopting a list of nodes appends them in order as children and keeps the node's item |
| ParserStructures.FormRule | js/structures/ParserStructures.js:212-304 | a terminal leaf refuses and nothing changes; any other node records the rule and gains one child per right-side symbol |
| ParserStructures.FormRuleChildren | js/structures/ParserStructures.js:212-304 | on a fresh node, child i stands for right-side symbol i: a terminal as a leaf that refuses any rule, a nonterminal as a node that accepts one |
| Controller.Leaves | js/algorithm_framework/AlgorithmController.js:237-244 | one fresh step per queued program, in order |
| Controller.Current | js/algorithm_framework/AlgorithmController.js:95-114 | the live state when there is one, otherwise the archived state |
| Controller.Issue | js/algorithm_framework/AlgorithmController.js:237-329 | a command keeps the active step in the tree |
| Controller.Apply | js/algorithm_framework/AlgorithmController.js:237-329 | the commands of a program run append every task as a new last child in call order, keep the last truthy hook and the last non-empty name, set the repeat flag once asked, and change nothing else about the step |
| Controller.ApplyOutside | js/algorithm_framework/AlgorithmController.js:115-127 | commands applied to one step leave every step outside its subtree as it was |
| Controller.LastIndexOf | js/algorithm_framework/AlgorithmController.js:159 | the last position of the character, if any, with none of it after |
| Controller.MatchNumbering | js/algorithm_framework/AlgorithmController.js:159 | a match splits the numbering into a prefix and a nonempty run of digits that together give the numbering back |
| Controller.MatchChildNumbering | js/algorithm_framework/AlgorithmController.js:155-163 | a child's numbering matches the pattern again, split after the parent's numbering |
| Controller.MatchDotted | js/algorithm_framework/AlgorithmController.js:159 | a matching numbering followed by a dot and digits matches, split at that dot |
| Controller.LastDot | js/algorithm_framework/AlgorithmController.js:159 | the last dot of `x.d`, where d has no dot, is the one after x |
| Controller.LastIndexSkips | js/algorithm_framework/AlgorithmController.js:159 | appending characters other than c does not move the last occurrence of c |
| Controller.ParentOf | js/algorithm_framework/AlgorithmController.js:161-162 | the parent of a non-root step is a step of the tree |
| Controller.PrevSibling | js/algorithm_framework/AlgorithmController.js:158-160 | the previous sibling of a step that has one is a step of the tree |
| Controller.NumberingOfChild | js/algorithm_framework/AlgorithmController.js:155-163 | when the earlier siblings are numbered in order, the k-th child of a step numbered `p` is numbered `p.k` (`k` under the root), and that numbering matches the pattern again |
| Controller.Init | js/algorithm_framework/AlgorithmController.js:197-222 | the root step holds the initial state and is active, no step has been taken, and there is no result yet |
| Controller.Perform | js/algorithm_framework/AlgorithmController.js:268-279 | the step gets its numbering and the state its program left, the program's tasks become its last children, and its hook, name and repeat flag are those the commands set |
| Controller.RunHook | js/algorithm_framework/AlgorithmController.js:288-290 | the hook's run keeps the step it runs on, with a state |
| Controller.Handover | js/algorithm_framework/AlgorithmController.js:281-290 | after the hand-over some step is active and ready, and the current step is still in the tree |
| Controller.Step | js/algorithm_framework/AlgorithmController.js:268-305 | a step goes through exactly when the active step can be numbered; it then leaves an active, ready step and counts one more step |
| Controller.Performed | js/algorithm_framework/AlgorithmController.js:271-279 | running the program keeps the active step in the tree |
| Controller.RunHookOutside | js/algorithm_framework/AlgorithmController.js:288-290 | the hook changes no step outside the subtree it runs on |
| Controller.HandoverFrame | js/algorithm_framework/AlgorithmController.js:281-290 | the hand-over changes no step outside the subtrees of the current step and of the step after it |
| Controller.HandoverLast | js/algorithm_framework/AlgorithmController.js:281-290 | without a step after it the current step stays active, its state is archived before finalizing, the finalized state is the result, and the hook runs on a copy of the archived state |
| Controller.HandoverNext | js/algorithm_framework/AlgorithmController.js:281-290 | with a step after it, that step becomes active with the finalized state, the current step keeps only the archive, and the hook's state and commands land in the next step |
| Controller.PerformDuplicates | js/algorithm_framework/AlgorithmController.js:268-290 | a non-root step that asked to be repeated gets a fresh copy with its program as its next sibling; otherwise its parent's children stay as they were |
| Controller.StepArchives | js/algorithm_framework/AlgorithmController.js:170-287 | a step archives the state its program left before finalizing; the next step becomes active, or without one the finalized state is the result and the step stays active |
| Controller.StepRunsHookOnNext | js/algorithm_framework/AlgorithmController.js:281-290 | the next step receives the finalized state, and whatever the hook does (its state and its tasks) lands in the next step |
| Controller.HandoverKeepsSiblings | js/algorithm_framework/AlgorithmController.js:281-290 | the hand-over keeps the parent's children and a later sibling's program, numbering and archive |
| Controller.StepDuplicates | js/algorithm_framework/AlgorithmController.js:268-305 | after a step, a non-root step that asked to be repeated has a fresh, unnumbered copy with its program as its next sibling; otherwise its parent's children count is unchanged |
| Controller.Finished | js/algorithm_framework/AlgorithmController.js:331-338 | the first step under the root becomes active, or none when the root queued nothing, and nothing else changes |
| Controller.Run | js/algorithm_framework/AlgorithmController.js:268-305 | a completed run takes at least one step and ends with the first step under the root active exactly when there is one |
| Controller.Execute | js/algorithm_framework/AlgorithmController.js:261-266 | `execute` activates the root and takes at least one step when it completes |
| FirstFollow.FirstOfWordMeans | js/parsing/FirstFollowCompute.js:183-199 | the walk over a word runs off its end exactly when every symbol is a nonterminal whose FIRST cell holds the empty word, and collects an item exactly when some symbol, all of whose predecessors produce epsilon, contributes it: a terminal its own text, a nonterminal its FIRST items other than the empty word |
| FirstFollow.FirstOfWordMonotone | js/parsing/FirstFollowCompute.js:183-199 | a larger FIRST column never makes a word collect fewer items, nor stops it running off its end |
| FirstFollow.AddFirsts4Word | js/parsing/FirstFollowCompute.js:175-206 | `addFirsts4Word` adds FIRST(word), plus the empty word when the word produces epsilon and no `noEps` object is given; with one, its flag is raised exactly when the word produces epsilon; it reports a change exactly when some added item was not yet visible in the output |
| FirstFollow.FollowAddsMeans | js/parsing/FirstFollowCompute.js:150-160 | for a nonterminal s at position i of a rule's right side, the rule adds to FOLLOW(s) every FIRST item of the rest of the right side and, when that rest produces epsilon, every item of the left side's FOLLOW set |
| FirstFollow.QuietRound | js/parsing/FirstFollowCompute.js:77-79 | after a full round of rules without effect from any cursor, no rule of the grammar has an effect: the sets are complete |
| FirstFollow.NextRule | js/parsing/FirstFollowCompute.js:69-97 | a step reports the sets complete exactly when no rule of the grammar would add anything; otherwise it picks a rule with an effect, makes that rule's additions visible and moves the cursor just past it |
| FirstFollow.RunPhase | js/parsing/FirstFollowCompute.js:141-172 | repeating the step keeps the column growing within the grammar's nonterminals and symbols, and ends with a column no rule can change |
| FirstFollow.RunPhaseLeast | js/parsing/FirstFollowCompute.js:141-172 | the repeated step ends below every closed column above its start: each item it adds is forced by the rules |
| FirstFollow.ComputeFirst | js/parsing/FirstFollowCompute.js:45-54 | the FIRST column is closed under every rule, only pairs a left side with a right-side terminal or the empty word, and is contained in every closed column (the least solution) |
| FirstFollow.ComputeFollow | js/parsing/FirstFollowCompute.js:99-118 | the FOLLOW column holds the end marker for the start symbol, is closed under every rule, and is contained in every closed column that holds that end marker |
| FirstFollow.FirstSetsComplete | js/parsing/FirstFollowCompute.js:82-84 | for every rule N -> w, the finished FIRST(N) holds FIRST(w), and the empty word when w produces epsilon |
| FirstFollow.FollowSetsComplete | js/parsing/FirstFollowCompute.js:148-160 | for a nonterminal s at position i of N -> w, the finished FOLLOW(s) holds FIRST(w[i+1..]) without the empty word, and FOLLOW(N) when w[i+1..] produces epsilon |
| LLTables.InitTable | js/parsing/LLParseTableCompute.js:35-49 | the empty table has a cell exactly for each nonterminal row and each terminal or end-marker column, and every cell is empty |
| LLTables.TargetsMeans | js/parsing/LLParseTableCompute.js:93-130 | a rule is entered into column t exactly when some symbol of its right side contributes t to FIRST(right side), or the right side produces epsilon and t is in FOLLOW(left side) |
| LLTables.AddOnce | js/parsing/LLParseTableCompute.js:106-109 | adding a produce action to a cell leaves exactly the earlier actions and the new one, and a duplicate-free cell stays duplicate-free |
| LLTables.ProcessRulesMeans | js/parsing/LLParseTableCompute.js:51-91 | after processing rules in order, a cell holds its earlier actions and a produce action for each processed rule that belongs to it, with no duplicates |
| LLTables.BuildMeans | js/parsing/LLParseTableCompute.js:24-33 | each cell of the finished table holds a produce action exactly for the grammar rules that belong to it, each once, and nothing else |
| LLTables.BuildRowsKeyed | js/parsing/LLParseTableCompute.js:106-129 | every produce action of the finished table sits in the row of its rule's left side |
| LLTables.ConflictMeans | js/parsing/LLParseTableCompute.js:65-91 | a cell holds more than one action exactly when two different rules belong to it, which is an LL(1) conflict |
| LLTables.TargetsPresent | js/parsing/LLParseTableCompute.js:35-49 | with the grammar's nonterminals as rows and its terminals as columns, every cell a rule is entered into exists |
| LLParsers.Init | js/parsing/LLParserAlgorithm.js:45-60 | the stack holds the start symbol alone, and the lookahead is the word's first symbol, or the end marker for the empty word |
| LLParsers.PushAll | js/parsing/LLParserAlgorithm.js:179-181 | pushing a word keeps the stack below and puts the word's symbols above it in order, the last one on top |
| LLParsers.Match | js/parsing/LLParserAlgorithm.js:93-104 | a terminal on top equal to the lookahead is popped while the input advances, failing only past the end marker; a different one ends the parse as unparsable with stack and input untouched |
| LLParsers.Expand | js/parsing/LLParserAlgorithm.js:106-134 | the parse goes on only when the cell of the top and lookahead holds exactly one action, a produce action, whose rule is the one emitted; the input is not touched |
| LLParsers.Step | js/parsing/LLParserAlgorithm.js:70-136 | a finished parse is left alone; acceptance happens only on an empty stack with the end marker as lookahead; a step emits at most one rule |
| LLParsers.Finished | js/parsing/LLParserAlgorithm.js:185-199 | the output is finished exactly when the parse was accepted (or already finished), keeping verdict and rules |
| LLParsers.MatchKeepsInv | js/parsing/LLParserAlgorithm.js:138-148 | consuming a terminal that matches the lookahead keeps the consumed input followed by the stack equal to the leftmost derived form |
| LLParsers.ExpandKeepsInv | js/parsing/LLParserAlgorithm.js:150-182 | replacing the nonterminal on top by its rule's right side, first symbol on top, and emitting the rule is one more leftmost derivation step of the same form |
| LLParsers.StepKeepsInv | js/parsing/LLParserAlgorithm.js:138-182 | when every produce action sits in its rule's row, each step keeps the consumed input followed by the stack, top first, equal to what the emitted rules derive, leftmost, from the start symbol |
| LLParsers.ParseSound | js/parsing/LLParserAlgorithm.js:29-43 | an accepted word has a finished output that, read as a leftmost derivation from the start symbol, yields exactly the word |
| LRParsers.Init | js/parsing/LRParserAlgorithm.js:35-57 | both stacks hold one entry, state 0 is on top of the state stack, and the lookahead is the word's first symbol, or the end marker for the empty word |
| LRParsers.ShiftTo | js/parsing/LRParserAlgorithm.js:119-142 | a shift pushes the lookahead onto the symbol stack and the target state onto the state stack, failing exactly when the input would move past the end marker |
| LRParsers.ReduceBy | js/parsing/LRParserAlgorithm.js:144-201 | a reduction that goes on pops the right side's length off both stacks, pushes the left side as a symbol and one state above the uncovered one, and emits the rule; one that ends the parse emits nothing |
| LRParsers.Pending | js/parsing/LRParserAlgorithm.js:80-85 | the pending action is the single entry of ACTION[top state, lookahead] |
| LRParsers.Step | js/parsing/LRParserAlgorithm.js:67-117 | a finished parse is left alone; acceptance happens only through a single accept action; the parse goes on only through a single shift or reduce action; both stacks keep the same height while the parse goes on |
| LRParsers.Run | js/parsing/LRParserAlgorithm.js:59-65 | repeating steps keeps both stacks at the same height |
| LRParsers.Finished | js/parsing/LRParserAlgorithm.js:204-217 | an accepted parse finishes its output with the emitted rules reversed; any other parse is left as it is |
| LRParsers.ReduceKeepsInv | js/parsing/LRParserAlgorithm.js:144-201 | a reduction whose right side is on top of the symbol stack keeps the stack symbols followed by the unread input derivable, rightmost, into the word by the emitted rules read backwards |
| LRParsers.ShiftKeepsInv | js/parsing/LRParserAlgorithm.js:119-142 | a shift keeps the stack symbols followed by the unread input derivable into the word by the reversed emitted rules |
| LRParsers.StepKeepsInv | js/parsing/LRParserAlgorithm.js:67-117 | a step whose pending reduction, if any, finds its right side on top of the symbol stack keeps the stack symbols followed by the unread input derivable, rightmost, into the word |
| LRParsers.ParseSound | js/parsing/LRParserAlgorithm.js:19-33 | when every reduction finds its right side on top of the symbol stack, an accepted parse with only the start symbol on the stack and all input read has a finished output that is a rightmost derivation of the word from the start symbol |
| ParseTrees.RecursiveDerivation | js/parsing/CYKParseTree.js:37-50 | a node's walk emits one form per node of its subtree; a leftmost walk leaves the subtree's yield appended to the prefix array and the suffix as it was, a rightmost walk leaves it in front of the suffix array and the prefix as it was |
| ParseTrees.DoTheRest | js/parsing/CYKParseTree.js:97-150 | the children's part of a walk emits one form per node below the node, and moves the node's yield into the prefix (leftmost) or the suffix (rightmost) |
| ParseTrees.DerivationForms | js/parsing/CYKParseTree.js:28-36 | the displayed derivation starts with the root's left side and has one form more than the tree has nodes |
| ParseTrees.Yield | js/parsing/CYKParseTree.js:104-108 | each terminal node adds one symbol and the other nodes add none, so a tree yields at most half of its nodes, rounded up |
| ParseTrees.WellFormed | js/parsing/CYK.js:50-63 | a tree built like getRandomTreeFor's, with an epsilon node only for an empty right side, can be walked: every symbol the walk reads exists |
| ParseTrees.YieldIsTerminal | js/parsing/CYKParseTree.js:104-108 | the symbols a well-formed tree produces are all terminals |
| ParseTrees.NodeStep | js/parsing/CYKParseTree.js:44-46 | the form a node emits is its left side, between the current prefix and suffix, rewritten by the node's rule, and that rewrite is a leftmost step when the prefix is terminal and a rightmost step when the suffix is |
| ParseTrees.LeftWalk | js/parsing/CYKParseTree.js:143-145 | from a terminal prefix, a leftmost walk emits a chain of leftmost steps by the rules in preorder (first child first), from prefix, left side, suffix to prefix, yield, suffix |
| ParseTrees.LeftWalkBinary | js/parsing/CYKParseTree.js:143-145 | the same for a binary node: the first child's walk, handed the second child's left side in front of the suffix, is followed by the second child's walk on the grown prefix |
| ParseTrees.RightWalk | js/parsing/CYKParseTree.js:146-148 | from a terminal suffix, a rightmost walk emits a chain of rightmost steps by the rules in preorder with the second child first, from prefix, left side, suffix to prefix, yield, suffix |
| ParseTrees.RightWalkBinary | js/parsing/CYKParseTree.js:146-148 | the same for a binary node: the second child's walk, handed the first child's left side after the prefix, is followed by the first child's walk on the grown suffix |
| ParseTrees.EmittedForms | js/parsing/CYKParseTree.js:32-34 | after the root's left side, the display lists exactly the forms the root's walk emits from empty prefix and suffix |
| ParseTrees.LeftmostDerivation | js/parsing/CYKParseTree.js:28-50 | the leftmost display of a well-formed tree is a leftmost derivation from the root's left side by the tree's rules in preorder, and it ends in the tree's yield, a word of terminals |
| ParseTrees.RightmostDerivation | js/parsing/CYKParseTree.js:28-50 | the rightmost display of a well-formed tree is a rightmost derivation from the root's left side by the tree's rules in preorder with second children first, and it ends in the tree's yield, a word of terminals |
| ParseTrees.DerivationsAgree | js/parsing/CYKParseTree.js:28-36 | the leftmost and the rightmost display of the same tree end in the same word |
| ParseTrees.EpsilonTreeShows | js/parsing/CYK.js:131-135 | the lone epsilon node parseEpsilon builds displays, in either direction, the start symbol and then the right side of whatever rule was looked up, and it yields the empty word |
| ParseTrees.EpsilonTreeAsWritten | js/parsing/CYK.js:131-135 | that display ends in the tree's yield exactly when the rule's right side is empty; with the rule S -> 0 that the program looks up, it ends in the one-symbol word 0 and shows no derivation of the empty word |
| CfgcFormat.ToCfgcString | js/gui/TextInput.js:116-124 | printing succeeds exactly when every left side of the grammar has at least one rule; a left side without rules has no rule to take the left side from, and the program throws |
| CfgcFormat.EmptyGrammarRefused | js/gui/TextInput.js:116-136 | a grammar without rule groups prints as a lone "." and reading that text fails with the rule-list error |
| CfgcFormat.SqueezeFrom | js/gui/TextInput.js:131 | blank squeezing leaves no line break or tab and keeps exactly the non-blank characters of the text |
| CfgcFormat.Squeeze | js/gui/TextInput.js:131 | the squeezed text has no line break, no tab and no two spaces in a row, and keeps exactly the non-blank characters of the input |
| CfgcFormat.SqueezeAround | js/gui/TextInput.js:131 | blank squeezing passes a non-blank character through unchanged and squeezes the text on either side of it independently |
| CfgcFormat.SqueezeJoin | js/gui/TextInput.js:131 | words without blanks joined by single spaces come through blank squeezing unchanged |
| CfgcFormat.SqueezeJoined | js/gui/TextInput.js:131 | squeezing a text joined at a non-blank separator squeezes each piece on its own |
| CfgcFormat.Split | js/gui/TextInput.js:146 | `split` yields at least one piece, and no piece holds the separator |
| CfgcFormat.SplitJoin | js/gui/TextInput.js:146 | splitting at c gives back the pieces joined with c, when no piece holds c |
| CfgcFormat.JoinSplit | js/gui/TextInput.js:146 | joining the pieces split at c with c gives back the text |
| CfgcFormat.FirstArrowEnd | js/gui/TextInput.js:139 | finds the first '>' or '→' of a group, with none before it, and finds none exactly when the group holds neither |
| CfgcFormat.SplitGroup | js/gui/TextInput.js:139 | a group the arrow pattern accepts is its left part, an arrow ("->" or '→') and its right part, both nonempty and free of '>' and '→' |
| CfgcFormat.SplitGroupFinds | js/gui/TextInput.js:139 | every way of writing a group as left part, arrow and right part that the pattern allows is the split found, so the split is unique |
| CfgcFormat.ReadGroupTexts | js/gui/TextInput.js:135-137 | a text that passes the rule-list pattern holds at least one rule group |
| CfgcFormat.SplitAll | js/gui/TextInput.js:137-139 | the groups are read exactly when each of them splits at its arrow, and then the i-th result is the split of the i-th group |
| CfgcFormat.LeftText | js/gui/TextInput.js:140 | a left side that is read is a symbol text |
| CfgcFormat.ReadAlternative | js/gui/TextInput.js:149 | an alternative of spaces only is the empty word; any other is read as a word whose symbols are classified by their text alone |
| CfgcFormat.ReadAlternatives | js/gui/TextInput.js:148-150 | a group's alternatives are read exactly when each of them is a word, and then the i-th word is the reading of the i-th alternative |
| CfgcFormat.ParseGroup | js/gui/TextInput.js:139-150 | a group is read exactly when its left side is a nonterminal text and every alternative is a word, and then it gives that left side and those words |
| CfgcFormat.ParseGroups | js/gui/TextInput.js:138-157 | all groups are read exactly when each one is, and then the i-th result is the reading of the i-th group |
| CfgcFormat.AddSymbolsHas | js/gui/TextInput.js:151-154 | after one word, N has gained exactly the word's nonterminals and T exactly its other symbols, the end marker under its text |
| CfgcFormat.ClassifyHas | js/gui/TextInput.js:148-156 | after a group's alternatives, N has gained exactly their nonterminals and T exactly their other symbols |
| CfgcFormat.AddSymbols | js/gui/TextInput.js:151-154 | the symbols already in N and in T keep their places in enumeration order; one word's symbols can only be appended after them |
| CfgcFormat.Classify | js/gui/TextInput.js:148-156 | the symbols already in N and in T keep their places in enumeration order; a group's alternatives can only append new ones, which ClassifyHas names |
| CfgcFormat.CollectSymbolsHas | js/gui/TextInput.js:138-157 | after all groups, N holds exactly the left sides and the nonterminals of the right sides, T exactly the other symbols of the right sides |
| CfgcFormat.CollectSymbols | js/gui/TextInput.js:138-157 | the starting N and T keep their places in enumeration order while all groups are read; new symbols, which CollectSymbolsHas names, are appended |
| CfgcFormat.AddTextsKeys | js/gui/TextInput.js:155 | right texts that are distinct and new to a group are added to its keys in the order read |
| CfgcFormat.CollectRulesHas | js/gui/TextInput.js:147 | P has a group for exactly the left sides read |
| CfgcFormat.CollectRules | js/gui/TextInput.js:147 | the left sides already in P keep their order; a left side read for the first time is appended after them |
| CfgcFormat.CollectRulesOther | js/gui/TextInput.js:147-155 | reading a group leaves the groups of the other left sides as they were |
| CfgcFormat.CollectRulesLast | js/gui/TextInput.js:147-155 | reading a group adds its right texts to the group already held for its left side, or to a new one |
| CfgcFormat.CollectRulesInOrder | js/gui/TextInput.js:161-164 | when the left sides read are distinct, P lists them in the order read |
| CfgcFormat.CollectRulesGroupOf | js/gui/TextInput.js:147-155 | when the left sides read are distinct, each left side's group holds the texts of that group's own alternatives |
| CfgcFormat.ConvertCfgc | js/gui/TextInput.js:135-136 | a text that does not match the rule-list pattern is refused with the rule-list error |
| CfgcFormat.GroupLineOf | js/gui/TextInput.js:120-122 | the printed line of the i-th group starts with its left side, a nonterminal symbol text, and holds no "." |
| CfgcFormat.AltTextPlain | js/gui/TextInput.js:122 | a printed alternative over symbol texts holds no '.', '>', '→' or vertical bar |
| CfgcFormat.JoinedAlternatives | js/gui/TextInput.js:122 | alternatives joined by a vertical bar with spaces around it hold no "." and no arrow character |
| CfgcFormat.ReadPrinted | js/gui/TextInput.js:123-137 | printed lines without "." pass the rule-list pattern and are read as the squeezed lines, one group each |
| CfgcFormat.LineSides | js/gui/TextInput.js:121-139 | a printed line, squeezed, splits at its arrow into its left side with one space after it and its squeezed alternatives |
| CfgcFormat.LeftTextOf | js/gui/TextInput.js:140 | a left side with at most one space on either side reads as itself |
| CfgcFormat.AlternativesOf | js/gui/TextInput.js:146 | the printed alternatives, squeezed and split at the vertical bar, are each alternative with its surrounding spaces, squeezed |
| CfgcFormat.PrintedGroups | js/gui/TextInput.js:116-139 | the text printed for a valid grammar with rules passes the rule-list pattern and splits into the left side and alternatives of each group, in key order |
| CfgcFormat.RuleFreelyResolved | js/gui/TextInput.js:149 | every rule of a valid grammar holds symbols of the kind their text alone says, is not a lookalike of "eps" and prints as its key |
| CfgcFormat.ReadPadded | js/gui/TextInput.js:149 | a printed alternative with its surrounding spaces reads back as the rule's right side, the empty word included |
| CfgcFormat.ReadGroupAlternatives | js/gui/TextInput.js:146-150 | the alternatives of a printed group read back as the group's right sides, in key order |
| CfgcFormat.ParsePrinted | js/gui/TextInput.js:116-157 | every group of a printed valid grammar reads back as its left side and its right sides, in key order |
| CfgcFormat.CollectedRules | js/gui/TextInput.js:161-164 | the P read back from a printed valid grammar is the grammar's rules in array form: the same left sides in the same order, each with its right texts in order |
| CfgcFormat.ReadRightsUse | js/gui/TextInput.js:151-154 | a symbol occurs in the alternatives read back exactly when some rule of the grammar uses it |
| CfgcFormat.CollectedSymbols | js/gui/TextInput.js:159-160 | N read back holds exactly the left sides and the nonterminals the rules use, T exactly the terminals they use |
| CfgcFormat.CfgcRoundTrip | js/gui/TextInput.js:116-166 | reading back what a valid grammar with rules prints succeeds, with the grammar's rules in array form, the first left side as start symbol, the left sides and used nonterminals as N and the used terminals as T |
| UserFriendly.ToUserFriendlyString | js/gui/TextInput.js:65-77 | printing succeeds exactly when every left side of the grammar has at least one rule; a left side without rules has no rule to take the left side from, and the program throws |
| UserFriendly.PrintedSqueezed | js/gui/TextInput.js:65-84 | once the reader has squeezed its blanks, the printed text of a valid grammar is the four declarations N, T, P and S separated by single spaces, the lists joined by ", " and the rule groups written "left -> alternatives" |
| UserFriendly.ConvertUserFriendly | js/gui/TextInput.js:79-114 | a text that reads has nonempty nonterminal, terminal and rule lists and a nonempty start; no nonterminal or terminal name holds a comma or a space, and every left side read has at least one alternative |
| UserFriendly.SearchLeftmost | js/gui/TextInput.js:87-96 | a declaration pattern finds the match at the first position where one starts, whatever later positions would give |
| UserFriendly.MatchHere | js/gui/TextInput.js:86-96 | a declaration pattern tried at one position captures a nonempty name when it is the start declaration, which needs at least one character before its dot |
| UserFriendly.Search | js/gui/TextInput.js:86-96 | an unanchored search for a declaration, when it finds one, gives a nonempty start name; which match it finds is stated by SearchLeftmost, SearchFinds and SearchNone |
| UserFriendly.SearchNone | js/gui/TextInput.js:87-97 | when the pattern matches at no position, the declaration is not found and the reader reports its error |
| UserFriendly.SearchFinds | js/gui/TextInput.js:87-97 | what a declaration search finds is the match at some position before which no position matches |
| UserFriendly.ListBodyExact | js/gui/TextInput.js:87 | a list group followed by "." is captured exactly, up to the first dot, when none of its comma-separated items is empty |
| UserFriendly.ItemBodyExact | js/gui/TextInput.js:96 | the start group followed by "." is captured exactly when it is nonempty and holds neither comma nor dot |
| UserFriendly.RunsOfJoin | js/gui/TextInput.js:88-91 | matching the runs outside the separator characters in texts joined by a separator made of those characters gives the texts back |
| UserFriendly.RunsOfList | js/gui/TextInput.js:93-106 | splitting a printed list at its separator character gives one item per listed text, in order, each with the spaces next to the separator kept |
| UserFriendly.SplitOfList | js/gui/TextInput.js:94 | no item of a printed list is empty when the list is split at its separator |
| UserFriendly.ReadPrintedRule | js/gui/TextInput.js:103-107 | a printed rule group, with or without the space left after the comma before it, reads as its left side and its alternatives in order, each with the spaces around its bars |
| UserFriendly.ReadRulesSucceeds | js/gui/TextInput.js:103-110 | the rule list reads exactly when every item of it matches the rule pattern |
| UserFriendly.ReadRules | js/gui/TextInput.js:103-110 | a rule list that reads gives every left side it holds at least one alternative |
| UserFriendly.ReadRulesAreRules | js/gui/TextInput.js:103-107 | every item of a rule list that reads matches the rule pattern |
| UserFriendly.ListOfRulesReads | js/gui/TextInput.js:103-110 | a list whose items all match the rule pattern reads |
| UserFriendly.ReadRulesFirstError | js/gui/TextInput.js:103-107 | reading stops at the first item that does not match the rule pattern and reports that item's text |
| UserFriendly.ReadRulesLefts | js/gui/TextInput.js:103-110 | a left side is in the rules read exactly when some item is a rule for it |
| UserFriendly.ReadRulesLast | js/gui/TextInput.js:104-109 | a left side given by several items keeps the alternatives of the last of them |
| UserFriendly.ReadRulesKeys | js/gui/TextInput.js:103-110 | a nonempty rule list that reads gives at least one left side |
| UserFriendly.ReadRulesPrinted | js/gui/TextInput.js:99-110 | items that read as distinct left sides build the rule object of exactly those left sides, in item order, each with its alternatives |
| UserFriendly.UserFriendlyRoundTrip | js/gui/TextInput.js:65-114 | reading back what a valid grammar with terminals and rules prints gives its nonterminals, terminals and start in order, its left sides in order, and for each left side the printed right sides of its rules in order, with the spaces the reader keeps next to the bars |
| UserFriendly.UserFriendlyRoundTripWords | js/gui/TextInput.js:65-114 | after the round trip, each alternative read for a left side splits into the symbol texts of the rule it was printed from, or "eps" for the empty right side |
| UserFriendly.PieceTokens | js/gui/TextInput.js:106-109 | the spaces kept around an alternative add no symbol text to it |
| UserFriendly.WordTokens | js/gui/TextInput.js:74 | a printed right side splits into the texts of its symbols in order, or the single text "eps" for the empty word |
| UserFriendly.NoTerminalsRefused | js/gui/TextInput.js:71-92 | a grammar without terminals prints "T = ." and reading that text back fails with the terminal-list error |
| UserFriendly.NoRulesRefused | js/gui/TextInput.js:72-107 | a grammar without rule groups prints "P = ." and reading that text back fails on the lone space item with the rule syntax error |
| Text.TokensBeforeSpace | js/structures/Word.js:147 | a trailing space adds no blank-separated token |
| UserFriendly.Runs | js/gui/TextInput.js:88 | each run of a global character-class match is nonempty and holds none of the excluded characters |
| UserFriendly.ReadList | js/gui/TextInput.js:87-95 | a declaration list reads only when its declaration is found, and then as nonempty items free of the separator characters; a refusal carries that declaration's error |
| UserFriendly.ListBody | js/gui/TextInput.js:87 | a list group holds no dot and no empty comma-separated item, and the match continues with the dot right after it |
| UserFriendly.ItemBody | js/gui/TextInput.js:96 | the start group is nonempty, holds neither comma nor dot, and the match continues with the dot right after it |
| UserFriendly.AfterEquals | js/gui/TextInput.js:87 | the text after "=" is what follows either "=" or " =" at the match start |
| UserFriendly.LeftAndArrow | js/gui/TextInput.js:104 | a rule's left side is a nonempty run of characters other than ">", ",", "." and space, and the item continues after it with " ->" or "->" |
| UserFriendly.AltGroup | js/gui/TextInput.js:104 | the alternatives group after the arrow is found exactly when the first alternative is nonempty |
| UserFriendly.ReadRule | js/gui/TextInput.js:104-107 | a rule item gives a nonempty left side and at least one alternative, each nonempty and free of bars |
| UserFriendly.RuleSearch | js/gui/TextInput.js:104 | the rule pattern, searched anywhere in an item, captures a nonempty left side whenever it matches |
| UserFriendly.SymbolListRead | js/gui/TextInput.js:70-91 | a printed list of symbol names is a valid list group and reads back as the names in order |
| UserFriendly.GroupListRead | js/gui/TextInput.js:72-94 | the printed rule list splits into one item per rule group in order, each but the first with the space that followed its comma |
| UserFriendly.ConvertRulesFail | js/gui/TextInput.js:103-107 | when all four declarations are found and a rule item does not read, the whole read fails with that item's error |
| UserFriendly.ConvertStopsAtT | js/gui/TextInput.js:87-92 | once the nonterminals read, a terminal list that does not read makes the whole read fail with the terminal-list error |

## Left out

- Rendering: every `toElement`, `toStructureInnerElement`, `drawInto`, `makeHeader`, `colorize`, the dagre and Graphviz automaton drawings and the `open` dialogs only build DOM or SVG, so they have no state to model.
- The GUI files `Menu.js`, `visualComponents.js`, `ParseTableInput.js`, `AlgorithmExplorer.js`, the bootstrap `Loader.js` and the error log of `MyError.js` are user interface; a call into `MyError` or a thrown `UserError` is a `Failure` result here.
- `Grammar.changed`, the `_lastChange` dates, step reporting to the explorer, `setupAlgorithmImplementation` and the `Current.*` globals are notifications and registration with no effect on the modelled state.
- The `setTimeout` batching in `AlgorithmController.step` and the timed CYK steps are run as plain synchronous loops; cooperative yielding changes no state.
- Controller.Run: takes a fuel bound, because a step program may repeat forever; with too little fuel the run is a `Failure`, where the program would go on stepping.
- `CYKField.getRandomTreeFor` (js/parsing/CYK.js:50-63) picks one of the possible subtrees with `Math.random`; randomness is not modelled, so `ParseTrees` takes the chosen tree as a parameter and states the derivations of every well-formed tree.
- ParseTrees.LeftmostDerivation: requires `ParseTrees.WellFormed`, which admits an epsilon node only with an empty right side (the rule S -> eps of the corrected `parseEpsilon`); the epsilon tree the program builds holds the rule keyed "0" and displays S then 0, which is no derivation of the empty word; `ParseTrees.EpsilonTreeShows` and `ParseTrees.EpsilonTreeAsWritten` state that display instead. The same holds for `ParseTrees.RightmostDerivation` and `ParseTrees.DerivationsAgree`.
- ParseTrees.RecursiveDerivation: requires `ParseTrees.Readable` (a terminal node's rule has a right side of length at least one, a binary node's of at least two); CYK only builds nodes from rules of the shapes A -> a and A -> B C, and on any other tree the program reads `undefined` from `Word.get` and pushes it into the form.
- The SLR, CLR and LALR table computations (`SLRParseTableCompute.js`, `CLRParseTableCompute.js`, `LALRParseTableCompute.js`, about 450 lines) are not modelled, for scope: each is a step program that runs the FIRST/FOLLOW computation, item closure, goto-set creation and reduction filling through the algorithm controller, and a model of it would repeat those programs' step bookkeeping. The LR items, states, automaton, state merging and parser action sets they are built from are modelled, and the LR parser simulation takes any LR table as a parameter.
- Rule and table highlighting with `ATT_TEMP` in the FIRST/FOLLOW, LL table and parser programs, and their step titles, only colour the display and are not modelled.
- Each FIRST/FOLLOW step, LL table step and parser step is taken together with the sub-steps it schedules (`addRightFirsts`, `addLeftFollows`, `actionConsumeTerminal`, `actionProduce*`, `actionShift*`, `actionReduce*`); nothing else runs between them.
- FirstFollow: a terminal named "eps" has the same text as the empty word, which the symbol sets key by that text, so the program and the model alike mistake one for the other; LLTables.TargetsMeans requires a right side without such a terminal.
- LLTables.Build: leaves out the cell `PT[N, "eps"]` for a terminal named "eps" in FIRST(right side), which `addRightFirsts` (js/parsing/LLParseTableCompute.js:106-109) fills; the model drops the text "eps" from the FIRST targets whatever it stands for.
- The LR parser's `prompt` for the input word is a parameter of `LRParsers.Init`, and the LL parser's adopted input is a parameter of `LLParsers.Init`; both parsers read the table as `ParserActions.Cells`, the enabled actions of each cell in set order.
- A table lookup with a row or column the table does not have returns `undefined` in the program, and the following `length()` throws; the parsers report it as a `Failure`.
- LRParsers.ParseSound: holds under the hypothesis that every reduction finds its rule's right side on top of the symbol stack (`LRParsers.RunMatches`), because the program never compares the symbol stack with the rule; this holds for tables built from the grammar's LR automaton, whose construction is not part of this model.
- UserFriendly.UserFriendlyRoundTrip: requires the grammar to have a terminal and a rule group, because "T = ." and "P = ." do not read back (`UserFriendly.NoTerminalsRefused`, `UserFriendly.NoRulesRefused`); it states each alternative read back as the printed right side with the spaces the reader keeps next to the bars, and its symbols through `UserFriendly.UserFriendlyRoundTripWords`, because `convertUserFriendly` returns the alternatives as raw texts.
- The regular expressions of `convertUserFriendly` (js/gui/TextInput.js:87-107) are modelled by what each captures at the first position where it matches, with the backtracking spelled out for these four patterns only; no general regular-expression engine is modelled.
- CfgcFormat.CfgcRoundTrip: states the nonterminal and terminal lists of the read data by membership, not by order; the order of `o.N` and `o.T` follows JavaScript key enumeration of the `n`/`t` maps built while reading (js/gui/TextInput.js:145-160), which the model keeps as insertion order (see Enumeration order below).
- CfgcFormat.CfgcRoundTrip: requires every rule group to be nonempty and the grammar to have a rule, because `toCFGCString` throws on an empty group (`getAnyProperty` of no rights) and an empty rule list reads back as a failure (`CfgcFormat.EmptyGrammarRefused`); the read start is the first group's left side, as js/gui/TextInput.js:144 takes it, which equals the grammar's start only when the start's group comes first.
- The step programs of the epsilon-free, chain-rule-free, Chomsky, strict Chomsky, Greibach and left-factored conversions (`EpsilonFreeForm.js`, `ChainRuleFreeForm.js`, `ChomskyForm.js`, `StrictChomskyForm.js`, `GreibachForm.js`, `LeftFactoredForm.js`, about 1100 lines) are not modelled, for scope: they schedule the same edits one rule at a time through the algorithm controller with highlighting between steps. What they are made of is modelled: each form's `check` predicate, the conversion edits (`task*`) and `finalize`, and the reduced form's generating and reachable fixpoints.
- `FrameworkDemoForm.js` is registered only behind `if (false)` and is dead code.
- `LRItem.prototype.highlight` reads an undeclared variable and is left out; `tryEditAllRuleLeft` (js/gui/RichInput.js:159-187) is not modelled, because its merge guard does not catch `UserError` and its behaviour on a collision is not a stable contract.
- `Structure.fromData` dispatches through `window[data.type]`; the model uses a datatype tag per structure kind instead, and the generic `toData`/`fromData` of tables and automata is not modelled beyond the staged sets, LR items and parser actions.
- JavaScript objects are modelled as insertion-ordered dictionaries. Properties inherited from `Object.prototype` (`constructor`, `toString`, ...) are truthy on lookup in JavaScript, so a symbol or rule with such a name is found where the model answers none; `Grammars.TryGetSymbol`, `Grammars.TryGetRule`, `RichInputs.TryAddRule` and the left-factored check answer as if no inherited properties existed.
- Enumeration order: in JavaScript, keys that are array indices ("0", "1", ...) enumerate first, ascending, before the other keys in insertion order. The model makes that order explicit where it decides the result (`Objects.EnumeratesBefore`, used by `LRAutomata.MergeStates`); elsewhere a `Dict` keeps insertion order, so alphabets, rule groups and lookahead lists with terminals such as "0" or "1" are listed in insertion order where the program would list those terminals first.
- LRStates.MergeLookaheads: keeps the present lookaheads first and appends the new ones, while `$.map` over the merged object in js/structures/LRState.js:115 lists integer-like terminal texts first; the set of lookaheads is the same, only their order (and so a full-lookahead hash) can differ.
- LRStates.AddItem: inherits the lookahead order of `LRStates.MergeLookaheads` described above.
- String order: `Text.StrLess` compares characters by code. JavaScript's `sort` compares UTF-16 code units; the two agree on every text a symbol can hold, since symbol characters are ASCII.
- Aliasing: the program mutates stored objects in place (a grammar's symbols are shared by its rules, `mergeStates` edits the main state object the automaton holds). The model rebuilds values, so a rename reaches every occurrence through an explicit renaming, and nothing outside the structure sees an in-place edit.
- LRAutomata.MergeStates: fails when either id is unknown, where js/structures/LRAutomaton.js:106-135 carries on with `undefined` and leaves a broken automaton.
- LRItems.FromData: fails when the rule named in the data does not exist, where js/structures/LRItem.js:39-45 builds an item whose rule is null.
- GrammarEdits.Enumerate: requires the start to be a nonterminal; a grammar with a terminal start (possible through the accepted terminal start in the Findings) is not enumerated.
- Start symbol: `Grammars.Valid`, and with it every member that requires it, `FormChecks.LeftFactoredCheck`, `ReducedForms.RemoveNongenerating` and `ReducedForms.RemoveNonreachable` assume the start is a nonterminal; a grammar whose start is a terminal, which `Grammars.InitObjectAsWritten` accepts (see Findings), lies outside those contracts.

## Findings

| source | as written | input that shows it | evidently intended | confidence | as-written member | corrected member |
|---|---|---|---|---|---|---|
| js/structures/Grammar.js:72-73 | the start symbol is resolved with `tryGetSymbol`, which looks among the terminals first, so a terminal start is accepted although the error message asks for an existing nonterminal | data with nonterminal S, terminal a and start "a" | only an existing nonterminal is accepted as the start | not executed | Grammars.InitObjectAsWritten, Grammars.TerminalStartAccepted, Grammars.InitObjectAsWrittenAgrees | Grammars.InitObject, Grammars.ResolveStart |
| js/structures/Grammar.js:269-362 | `enumerateNonterminals` renames while walking, and the walk compares each nonterminal with the start's current text, which the first rename has just changed to "N/1"; an old nonterminal already called "N/1" is then skipped as if it were the start, and two nonterminals end up sharing one name | nonterminals S (start) and N/1 | every nonterminal gets its own enumerated name | not executed | GrammarEdits.EnumerateAsWritten, GrammarEdits.EnumerateAsWrittenLosesNonterminal | GrammarEdits.Enumerate, GrammarEdits.EnumerateRenamesAll, GrammarEdits.EnumerateKeepsExample |
| js/structures/Grammar.js:269-398 | `unenumerateNonterminals` has the same walk: once the start is renamed to a name another nonterminal holds, that nonterminal is skipped, is neither mapped nor given a fresh name, and is merged into the start | nonterminals S (start) and A, mapping S to A | the old A is renamed out of the way (to A/0) and both nonterminals survive | not executed | GrammarEdits.Unenumerate, GrammarEdits.UnenumerateAsWrittenLosesNonterminal | GrammarEdits.Unenumerate, GrammarEdits.UnenumerateKeepsNonterminals, GrammarEdits.UnenumerateKeepsExample |
| js/parsing/CYK.js:127-140 | the empty word is looked up as the rule keyed "0", while an empty right side is stored under "eps", so the empty word is never derivable from S -> eps; when a rule S -> 0 is found instead, the epsilon tree built from it displays S then 0 for the empty word | the grammar S -> eps with the empty word | the empty word is derivable exactly when the start has an eps rule | not executed | Cyk.ParseEpsilonAsWritten, Cyk.ParseEpsilonAsWrittenMissesEpsilon, Cyk.EpsilonVerdictsDiffer, ParseTrees.EpsilonTreeShows, ParseTrees.EpsilonTreeAsWritten | Cyk.ParseEpsilon, Cyk.StartEpsMeans, ParseTrees.LeftmostDerivation, ParseTrees.RightmostDerivation |

=== FILE: cfgc.dfy ===
/** The text form of js/gui/TextInput.js that the context free grammar
    checker tool reads: one rule group "L -> r1 | r2 | ..." per left side,
    each ended by ".", the empty word written as nothing. `toCFGCString`
    prints a grammar in it and `convertCFGC` reads such a text back into
    grammar data in array form. */
module CfgcFormat {
  import opened Wrappers
  import opened Text
  import opened Symbols
  import opened Words
  import opened Rules
  import opened Objects
  import opened Grammars

  /** The one-character arrow "→" the reader accepts besides "->". */
  const ArrowChar: char := '→'

  const RuleListError: string := "Rule list is missing or has incorrect syntax"
  const LeftSideError: string := "Rule left side must be a nonterminal symbol"
  const WordError: string := "This is not a valid word"

  // ---------------------------------------------------------------------
  // Text helpers: whitespace squeezing and `split`.

  /** `replace(/[ \n\t]+/g, " ")` from a point where `run` says whether a
      replaced blank run is still going on. */
  function SqueezeFrom(s: string, run: bool): (r: string)
    ensures forall i :: 0 <= i < |r| ==> r[i] != '\n' && r[i] != '\t'
    ensures forall i :: 0 <= i < |r| - 1 ==> r[i] != ' ' || r[i + 1] != ' '
    ensures run && |r| > 0 ==> r[0] != ' '
    ensures forall c :: !IsBlank(c) ==> (c in r <==> c in s)
    decreases |s|
  {
    if |s| == 0 then ""
    else if IsBlank(s[0]) then
      var rest := SqueezeFrom(s[1..], true);
      assert forall c :: !IsBlank(c) ==> (c in s <==> c in s[1..]) by {
        assert s == [s[0]] + s[1..];
      }
      (if run then "" else " ") + rest
    else
      var rest := SqueezeFrom(s[1..], false);
      assert s == [s[0]] + s[1..];
      [s[0]] + rest
  }

  /** `s.replace(/[ \n\t]+/g, " ")`: every run of blanks becomes one space. */
  function Squeeze(s: string): (r: string)
    ensures forall i :: 0 <= i < |r| ==> r[i] != '\n' && r[i] != '\t'
    ensures forall i :: 0 <= i < |r| - 1 ==> r[i] != ' ' || r[i + 1] != ' '
    ensures forall c :: !IsBlank(c) ==> (c in r <==> c in s)
  {
    SqueezeFrom(s, false)
  }

  /** Squeezing passes a non-blank character through and starts afresh
      after it. */
  lemma {:induction false} SqueezeAround(a: string, c: char, b: string, run: bool)
    requires !IsBlank(c)
    ensures SqueezeFrom(a + [c] + b, run) == SqueezeFrom(a, run) + [c] + SqueezeFrom(b, false)
    decreases |a|
  {
    var s := a + [c] + b;
    if |a| == 0 {
      assert s == [c] + b;
      assert s[1..] == b;
    } else {
      assert s[0] == a[0] && s[1..] == a[1..] + [c] + b;
      var next := IsBlank(a[0]);
      SqueezeAround(a[1..], c, b, next);
      var head := if IsBlank(a[0]) then (if run then "" else " ") else [a[0]];
      AppendAssoc(head, SqueezeFrom(a[1..], next), [c]);
      AppendAssoc(head, SqueezeFrom(a[1..], next) + [c], SqueezeFrom(b, false));
    }
  }

  /** A word without blanks passes through unchanged. */
  lemma {:induction false} SqueezeWord(w: string, rest: string, run: bool)
    requires |w| > 0 && NoBlank(w)
    ensures SqueezeFrom(w + rest, run) == w + SqueezeFrom(rest, false)
    decreases |w|
  {
    var s := w + rest;
    assert s[0] == w[0] && s[1..] == w[1..] + rest;
    if |w| > 1 {
      SqueezeWord(w[1..], rest, false);
      AppendAssoc([w[0]], w[1..], SqueezeFrom(rest, false));
      assert [w[0]] + w[1..] == w;
    } else {
      assert w[1..] + rest == rest;
      assert [w[0]] == w;
    }
  }

  /** Words joined by single spaces are already squeezed. */
  lemma {:induction false} SqueezeJoin(parts: seq<string>, rest: string, run: bool)
    requires |parts| > 0 && forall i :: 0 <= i < |parts| ==> |parts[i]| > 0 && NoBlank(parts[i])
    ensures SqueezeFrom(Join(parts, " ") + rest, run) == Join(parts, " ") + SqueezeFrom(rest, false)
    decreases |parts|
  {
    if |parts| == 1 {
      SqueezeWord(parts[0], rest, run);
    } else {
      var tail := Join(parts[1..], " ");
      AppendAssoc(parts[0], " ", tail);
      AppendAssoc(parts[0], " " + tail, rest);
      AppendAssoc(" ", tail, rest);
      SqueezeWord(parts[0], " " + (tail + rest), run);
      SqueezeJoin(parts[1..], rest, true);
      assert (" " + (tail + rest))[1..] == tail + rest;
    }
  }

  /** `s.split(c)`. */
  function Split(s: string, c: char): (r: seq<string>)
    ensures |r| >= 1
    ensures forall i :: 0 <= i < |r| ==> c !in r[i]
    decreases |s|
  {
    if |s| == 0 then [""]
    else
      var rest := Split(s[1..], c);
      if s[0] == c then [""] + rest
      else
        assert forall i :: 1 <= i < |rest| ==> c !in rest[i];
        [[s[0]] + rest[0]] + rest[1..]
  }

  /** A text without the separator is one piece. */
  lemma {:induction false} SplitNone(s: string, c: char)
    requires c !in s
    ensures Split(s, c) == [s]
    decreases |s|
  {
    if |s| > 0 {
      assert s[1..] == s[1..];
      SplitNone(s[1..], c);
      assert [s[0]] + s[1..] == s;
    }
  }

  /** The first separator ends the first piece. */
  lemma {:induction false} SplitAt(a: string, c: char, b: string)
    requires c !in a
    ensures Split(a + [c] + b, c) == [a] + Split(b, c)
    decreases |a|
  {
    var s := a + [c] + b;
    if |a| == 0 {
      assert s == [c] + b && s[1..] == b;
    } else {
      assert s[0] == a[0] && s[1..] == a[1..] + [c] + b;
      SplitAt(a[1..], c, b);
      assert [a[0]] + a[1..] == a;
    }
  }

  /** Splitting at c undoes joining with c. */
  lemma {:induction false} SplitJoin(parts: seq<string>, c: char)
    requires |parts| > 0 && forall i :: 0 <= i < |parts| ==> c !in parts[i]
    ensures Split(Join(parts, [c]), c) == parts
    decreases |parts|
  {
    if |parts| == 1 {
      SplitNone(parts[0], c);
    } else {
      SplitJoin(parts[1..], c);
      SplitAt(parts[0], c, Join(parts[1..], [c]));
      assert [parts[0]] + parts[1..] == parts;
    }
  }

  /** Joining with c undoes splitting at c. */
  lemma {:induction false} JoinSplit(s: string, c: char)
    ensures Join(Split(s, c), [c]) == s
    decreases |s|
  {
    if |s| > 0 {
      var rest := Split(s[1..], c);
      JoinSplit(s[1..], c);
      if s[0] == c {
        assert Split(s, c) == [""] + rest;
        assert ([""] + rest)[1..] == rest;
        assert s == [c] + s[1..];
      } else {
        var parts := Split(s, c);
        assert parts[1..] == rest[1..];
        if |rest| == 1 {
          assert s == [s[0]] + rest[0];
        } else {
          assert rest == [rest[0]] + rest[1..];
          AppendAssoc([s[0]], rest[0], [c] + Join(rest[1..], [c]));
          AppendAssoc(rest[0], [c], Join(rest[1..], [c]));
          AppendAssoc([s[0]] + rest[0], [c], Join(rest[1..], [c]));
          assert s == [s[0]] + s[1..];
        }
      }
    }
  }

  /** Squeezing the pieces of a text joined with a non-blank separator is
      squeezing the joined text. */
  lemma {:induction false} SqueezeJoined(parts: seq<string>, c: char)
    requires |parts| > 0 && !IsBlank(c)
    ensures Squeeze(Join(parts, [c])) == Join(SqueezeAll(parts), [c])
    decreases |parts|
  {
    if |parts| > 1 {
      SqueezeAround(parts[0], c, Join(parts[1..], [c]), false);
      SqueezeJoined(parts[1..], c);
      assert SqueezeAll(parts)[1..] == SqueezeAll(parts[1..]);
    }
  }

  function SqueezeAll(parts: seq<string>): (r: seq<string>)
    ensures |r| == |parts| && forall i :: 0 <= i < |r| ==> r[i] == Squeeze(parts[i])
  {
    seq(|parts|, i requires 0 <= i < |parts| => Squeeze(parts[i]))
  }

  // ---------------------------------------------------------------------
  // Printing: `toCFGCString`.

  /** An alternative as printed: the empty word as nothing. */
  function AltText(r: Rule): string {
    if |r.right| == 0 then "" else ToString(r.right)
  }

  function AltTexts(group: Dict<Rule>): (r: seq<string>)
    ensures |r| == |group.keys|
    ensures forall i :: 0 <= i < |r| ==> r[i] == AltText(group.values[group.keys[i]])
  {
    seq(|group.keys|, i requires 0 <= i < |group.keys| => AltText(group.values[group.keys[i]]))
  }

  /** One rule group: the left side of its first rule, then the
      alternatives separated by " | ". */
  function GroupLine(group: Dict<Rule>): string
    requires |group.keys| > 0
  {
    group.values[group.keys[0]].left + " -> " + Join(AltTexts(group), " | ")
  }

  predicate NoEmptyGroup(g: Grammar) {
    forall L :: L in g.p.values ==> |g.p.values[L].keys| > 0
  }

  function Lines(g: Grammar): (r: seq<string>)
    requires NoEmptyGroup(g)
    ensures |r| == |g.p.keys|
    ensures forall i :: 0 <= i < |r| ==> r[i] == GroupLine(g.p.values[g.p.keys[i]])
  {
    seq(|g.p.keys|, i requires 0 <= i < |g.p.keys| => GroupLine(g.p.values[g.p.keys[i]]))
  }

  /** `toCFGCString`: the groups in key order, each ended by ".", separated
      by line breaks. A left side without rules has no rule to read the
      left side from, and the call throws. */
  function ToCfgcString(g: Grammar): (r: Result<string>)
    ensures r.Success? <==> NoEmptyGroup(g)
  {
    if NoEmptyGroup(g) then Success(Join(Lines(g), ".\n") + ".")
    else Failure("getAnyProperty(rights) is null")
  }

  // ---------------------------------------------------------------------
  // Reading: `convertCFGC`.

  /** The characters a rule group cannot hold except in its arrow. */
  predicate IsArrowEnd(c: char) {
    c == '>' || c == ArrowChar
  }

  predicate NoArrowEnd(s: string) {
    '>' !in s && ArrowChar !in s
  }

  /** The position of the first '>' or '→'. */
  function FirstArrowEnd(s: string): (r: Option<nat>)
    ensures r.None? <==> NoArrowEnd(s)
    ensures r.Some? ==> r.value < |s| && IsArrowEnd(s[r.value]) && NoArrowEnd(s[..r.value])
    decreases |s|
  {
    if |s| == 0 then None
    else if IsArrowEnd(s[0]) then Some(0)
    else match FirstArrowEnd(s[1..])
      case None =>
        assert s == [s[0]] + s[1..];
        None
      case Some(i) =>
        assert s[..i + 1] == [s[0]] + s[1..][..i];
        Some(i + 1)
  }

  function Sides(l: string, r: string): Option<(string, string)> {
    if |l| > 0 && |r| > 0 && NoArrowEnd(r) then Some((l, r)) else None
  }

  /** A rule group without its final ".", split by the pattern
      `([^.>→]+)(?:->|→)([^.>→]+)` into left side and alternatives. The
      group holds no "." already; the first '>' or '→' must be the arrow. */
  function SplitGroup(grp: string): (r: Option<(string, string)>)
    ensures r.Some? ==> |r.value.0| > 0 && |r.value.1| > 0
                        && NoArrowEnd(r.value.0) && NoArrowEnd(r.value.1)
    ensures r.Some? ==> grp == r.value.0 + "->" + r.value.1 || grp == r.value.0 + [ArrowChar] + r.value.1
  {
    match FirstArrowEnd(grp)
    case None => None
    case Some(i) =>
      if grp[i] == ArrowChar then
        assert grp == grp[..i] + [ArrowChar] + grp[i + 1..];
        Sides(grp[..i], grp[i + 1..])
      else if i > 0 && grp[i - 1] == '-' then
        assert grp == grp[..i - 1] + "->" + grp[i + 1..];
        assert grp[..i - 1] == grp[..i][..i - 1];
        Sides(grp[..i - 1], grp[i + 1..])
      else None
  }

  /** Every decomposition the pattern allows is the one SplitGroup finds. */
  lemma SplitGroupFinds(l: string, arrow: string, r: string)
    requires arrow == "->" || arrow == [ArrowChar]
    requires |l| > 0 && |r| > 0 && NoArrowEnd(l) && NoArrowEnd(r)
    ensures SplitGroup(l + arrow + r) == Some((l, r))
  {
    var grp := l + arrow + r;
    var i := |l| + |arrow| - 1;
    assert grp[..i] == l + arrow[..|arrow| - 1];
    assert NoArrowEnd(grp[..i]);
    assert IsArrowEnd(grp[i]);
    var j := FirstArrowEnd(grp).value;
    assert j == i;
    assert grp[i + 1..] == r;
    if arrow == "->" {
      assert grp[..i - 1] == l;
    } else {
      assert grp[..i] == l;
    }
  }

  /** The pieces of a whole text: `^(?:G\.)+ *$` holds when every piece
      before the last "." is a rule group and only spaces follow it; the
      global match of `G\.` then yields exactly those groups. */
  function ReadGroupTexts(s: string): (r: Option<seq<(string, string)>>)
    ensures r.Some? ==> |r.value| > 0
  {
    var pieces := Split(s, '.');
    var groups := pieces[..|pieces| - 1];
    if |groups| == 0 || !AllSpaces(pieces[|pieces| - 1]) then None
    else SplitAll(groups)
  }

  function SplitAll(groups: seq<string>): (r: Option<seq<(string, string)>>)
    ensures r.Some? <==> forall i :: 0 <= i < |groups| ==> SplitGroup(groups[i]).Some?
    ensures r.Some? ==> |r.value| == |groups|
                        && forall i :: 0 <= i < |groups| ==> Some(r.value[i]) == SplitGroup(groups[i])
    decreases |groups|
  {
    if |groups| == 0 then Some([])
    else match SplitGroup(groups[0])
      case None => None
      case Some(first) =>
        match SplitAll(groups[1..])
        case None =>
          assert exists i :: 0 <= i < |groups| - 1 && SplitGroup(groups[1..][i]).None?;
          None
        case Some(rest) => Some([first] + rest)
  }

  /** The left side pattern `^ ?(strRE) ?$`: one symbol text with at most
      one space on either side. */
  function LeftText(l: string): (r: Option<string>)
    ensures r.Some? ==> Check(r.value)
  {
    var a := if |l| > 0 && l[0] == ' ' then 1 else 0;
    var b := if |l| > a && l[|l| - 1] == ' ' then |l| - 1 else |l|;
    if Check(l[a..b]) then Some(l[a..b]) else None
  }

  /** One alternative: spaces only stand for the empty word, anything else
      is read by `Word.tryCreate` without a grammar. */
  function ReadAlternative(x: string): (r: Option<Word>)
    ensures AllSpaces(x) ==> r == Some([])
    ensures !AllSpaces(x) ==> r == TryParseString(x, GrammarFreeLookup)
  {
    assert LeadingSpaces(EpsText) == 0;
    TryParseString(if AllSpaces(x) then EpsText else x, GrammarFreeLookup)
  }

  function ReadAlternatives(alts: seq<string>): (r: Result<seq<Word>>)
    ensures r.Success? <==> forall i :: 0 <= i < |alts| ==> ReadAlternative(alts[i]).Some?
    ensures r.Success? ==> |r.value| == |alts|
                           && forall i :: 0 <= i < |alts| ==> Some(r.value[i]) == ReadAlternative(alts[i])
    decreases |alts|
  {
    if |alts| == 0 then Success([])
    else match ReadAlternative(alts[0])
      case None => Failure(WordError + ": " + alts[0])
      case Some(w) =>
        match ReadAlternatives(alts[1..])
        case Failure(e) =>
          assert exists i :: 0 <= i < |alts| - 1 && ReadAlternative(alts[1..][i]).None?;
          Failure(e)
        case Success(rest) => Success([w] + rest)
  }

  /** A rule group as read: its left side and its alternatives. */
  datatype ParsedGroup = ParsedGroup(left: string, rights: seq<Word>)

  /** Reads one group: the left side must be a nonterminal text, and every
      alternative a word. */
  function ParseGroup(l: string, r: string): (res: Result<ParsedGroup>)
    ensures res.Success? <==> LeftText(l).Some? && IsNonterminalText(LeftText(l).value)
                              && ReadAlternatives(Split(r, '|')).Success?
    ensures res.Success? ==> res.value.left == LeftText(l).value
                             && res.value.rights == ReadAlternatives(Split(r, '|')).value
  {
    match LeftText(l)
    case None => Failure(LeftSideError + ": " + l)
    case Some(left) =>
      if !IsNonterminalText(left) then Failure(LeftSideError + ": " + l)
      else
        match ReadAlternatives(Split(r, '|'))
        case Failure(e) => Failure(e)
        case Success(rights) => Success(ParsedGroup(left, rights))
  }

  function ParseGroups(groups: seq<(string, string)>): (r: Result<seq<ParsedGroup>>)
    ensures r.Success? <==> forall i :: 0 <= i < |groups| ==> ParseGroup(groups[i].0, groups[i].1).Success?
    ensures r.Success? ==> |r.value| == |groups|
                           && forall i :: 0 <= i < |groups| ==> Success(r.value[i]) == ParseGroup(groups[i].0, groups[i].1)
    decreases |groups|
  {
    if |groups| == 0 then Success([])
    else match ParseGroup(groups[0].0, groups[0].1)
      case Failure(e) => Failure(e)
      case Success(first) =>
        match ParseGroups(groups[1..])
        case Failure(e) =>
          assert exists i :: 0 <= i < |groups| - 1 && ParseGroup(groups[1..][i].0, groups[1..][i].1).Failure?;
          Failure(e)
        case Success(rest) => Success([first] + rest)
  }

  /** The reader fills three objects: N and T used as sets of symbol texts,
      and P mapping each left side to the set of its right texts. No step
      that writes one of them reads another, so the model fills N and T in
      one pass over the groups and P in a second; each object receives its
      keys in the order the single loop gives them. */

  /** `forEachSymbol`: nonterminals go to N, every other symbol to T. */
  /** e lists d's keys first, in their order, and perhaps more after them. */
  predicate KeysExtend<V>(d: Dict<V>, e: Dict<V>) {
    |d.keys| <= |e.keys| && e.keys[..|d.keys|] == d.keys
  }

  lemma KeysExtendPut<V>(d: Dict<V>, e: Dict<V>, k: string, v: V)
    requires KeysExtend(d, e)
    ensures KeysExtend(d, Put(e, k, v))
  {
    if k !in e.values {
      assert (e.keys + [k])[..|d.keys|] == e.keys[..|d.keys|];
    }
  }

  lemma KeysExtendTrans<V>(d: Dict<V>, e: Dict<V>, f: Dict<V>)
    requires KeysExtend(d, e) && KeysExtend(e, f)
    ensures KeysExtend(d, f)
  {
    assert f.keys[..|d.keys|] == f.keys[..|e.keys|][..|d.keys|];
  }

  function AddSymbols(w: Word, n: Dict<bool>, t: Dict<bool>): (r: (Dict<bool>, Dict<bool>))
    ensures KeysExtend(n, r.0) && KeysExtend(t, r.1)
    decreases |w|
  {
    if |w| == 0 then (n, t)
    else
      var s := w[|w| - 1];
      var before := AddSymbols(w[..|w| - 1], n, t);
      KeysExtendPut(n, before.0, s.Text(), true);
      KeysExtendPut(t, before.1, s.Text(), true);
      if s.Nonterminal? then (Put(before.0, s.Text(), true), before.1)
      else (before.0, Put(before.1, s.Text(), true))
  }

  /** N gains the nonterminals of w, T its other symbols. */
  lemma {:induction false} AddSymbolsHas(w: Word, n: Dict<bool>, t: Dict<bool>, x: string)
    ensures x in AddSymbols(w, n, t).0.values <==> x in n.values || Nonterminal(x) in w
    ensures x in AddSymbols(w, n, t).1.values <==> x in t.values || Terminal(x) in w
                                                   || (x == EndMarkerText && EndMarker in w)
    decreases |w|
  {
    if |w| > 0 {
      var s := w[|w| - 1];
      var before := AddSymbols(w[..|w| - 1], n, t);
      AddSymbolsHas(w[..|w| - 1], n, t, x);
      LastOf(w);
      if s.Nonterminal? {
        assert AddSymbols(w, n, t) == (Put(before.0, s.Text(), true), before.1);
      } else {
        assert AddSymbols(w, n, t) == (before.0, Put(before.1, s.Text(), true));
      }
    }
  }

  /** A nonempty sequence holds what its front holds and its last element. */
  lemma LastOf<T>(s: seq<T>)
    requires |s| > 0
    ensures forall x :: x in s <==> x in s[..|s| - 1] || x == s[|s| - 1]
  {
    assert s == s[..|s| - 1] + [s[|s| - 1]];
  }

  /** The words one after another. */
  function Flatten(ws: seq<Word>): Word
    decreases |ws|
  {
    if |ws| == 0 then [] else Flatten(ws[..|ws| - 1]) + ws[|ws| - 1]
  }

  /** The text of each word, in order. */
  function WordTexts(ws: seq<Word>): (r: seq<string>)
    ensures |r| == |ws|
    decreases |ws|
  {
    if |ws| == 0 then [] else WordTexts(ws[..|ws| - 1]) + [ToString(ws[|ws| - 1])]
  }

  /** The alternatives of one group, in order: their symbols are
      classified into N and T. */
  function Classify(ws: seq<Word>, n: Dict<bool>, t: Dict<bool>): (r: (Dict<bool>, Dict<bool>))
    ensures KeysExtend(n, r.0) && KeysExtend(t, r.1)
    decreases |ws|
  {
    if |ws| == 0 then (n, t)
    else
      var k := |ws| - 1;
      var before := Classify(ws[..k], n, t);
      var r := AddSymbols(ws[k], before.0, before.1);
      KeysExtendTrans(n, before.0, r.0);
      KeysExtendTrans(t, before.1, r.1);
      r
  }

  /** N gains the nonterminals of the alternatives, T their other symbols. */
  lemma {:induction false} ClassifyHas(ws: seq<Word>, n: Dict<bool>, t: Dict<bool>, x: string)
    ensures x in Classify(ws, n, t).0.values <==> x in n.values || Nonterminal(x) in Flatten(ws)
    ensures x in Classify(ws, n, t).1.values <==>
              x in t.values || Terminal(x) in Flatten(ws) || (x == EndMarkerText && EndMarker in Flatten(ws))
    decreases |ws|
  {
    if |ws| > 0 {
      var k := |ws| - 1;
      ClassifyHas(ws[..k], n, t, x);
      var before := Classify(ws[..k], n, t);
      AddSymbolsHas(ws[k], before.0, before.1, x);
    }
  }


  /** The left sides of the groups, in order. */
  function Lefts(pgs: seq<ParsedGroup>): (r: seq<string>)
    ensures |r| == |pgs|
    decreases |pgs|
  {
    if |pgs| == 0 then [] else Lefts(pgs[..|pgs| - 1]) + [pgs[|pgs| - 1].left]
  }

  /** Every right side of every group, one after another. */
  function AllRights(pgs: seq<ParsedGroup>): Word
    decreases |pgs|
  {
    if |pgs| == 0 then [] else AllRights(pgs[..|pgs| - 1]) + Flatten(pgs[|pgs| - 1].rights)
  }

  /** N and T over all groups: each left side joins N before the symbols
      of its alternatives are classified. */
  function CollectSymbols(pgs: seq<ParsedGroup>, n: Dict<bool>, t: Dict<bool>): (r: (Dict<bool>, Dict<bool>))
    ensures KeysExtend(n, r.0) && KeysExtend(t, r.1)
    decreases |pgs|
  {
    if |pgs| == 0 then (n, t)
    else
      var k := |pgs| - 1;
      var before := CollectSymbols(pgs[..k], n, t);
      var withLeft := Put(before.0, pgs[k].left, true);
      var r := Classify(pgs[k].rights, withLeft, before.1);
      KeysExtendPut(n, before.0, pgs[k].left, true);
      KeysExtendTrans(n, withLeft, r.0);
      KeysExtendTrans(t, before.1, r.1);
      r
  }

  /** N holds the left sides and the nonterminals of the right sides, T
      the other symbols of the right sides. */
  lemma {:induction false} CollectSymbolsHas(pgs: seq<ParsedGroup>, n: Dict<bool>, t: Dict<bool>, x: string)
    ensures x in CollectSymbols(pgs, n, t).0.values <==>
              x in n.values || x in Lefts(pgs) || Nonterminal(x) in AllRights(pgs)
    ensures x in CollectSymbols(pgs, n, t).1.values <==>
              x in t.values || Terminal(x) in AllRights(pgs) || (x == EndMarkerText && EndMarker in AllRights(pgs))
    decreases |pgs|
  {
    if |pgs| > 0 {
      var k := |pgs| - 1;
      CollectSymbolsHas(pgs[..k], n, t, x);
      var before := CollectSymbols(pgs[..k], n, t);
      ClassifyHas(pgs[k].rights, Put(before.0, pgs[k].left, true), before.1, x);
    }
  }


  /** `group[right] = true`: an object used as a set, seen as its keys in
      insertion order. */
  function AddText(group: seq<string>, x: string): (r: seq<string>)
    ensures forall y :: y in r <==> y in group || y == x
  {
    if x in group then group else group + [x]
  }

  /** The texts of the alternatives of one group, in order. */
  function AddTexts(ws: seq<Word>, group: seq<string>): (r: seq<string>)
    ensures forall x :: x in r <==> x in group || x in WordTexts(ws)
    decreases |ws|
  {
    if |ws| == 0 then group
    else
      var k := |ws| - 1;
      AddText(AddTexts(ws[..k], group), ToString(ws[k]))
  }

  /** P over all groups: the group of a left side is created on its first
      use and gains the texts of the alternatives. */
  function CollectRules(pgs: seq<ParsedGroup>, p: Dict<seq<string>>): (r: Dict<seq<string>>)
    ensures KeysExtend(p, r)
    decreases |pgs|
  {
    if |pgs| == 0 then p
    else
      var k := |pgs| - 1;
      var p' := CollectRules(pgs[..k], p);
      var left := pgs[k].left;
      KeysExtendPut(p, p', left, AddTexts(pgs[k].rights, Objects.Get(p', left).GetOr([])));
      Put(p', left, AddTexts(pgs[k].rights, Objects.Get(p', left).GetOr([])))
  }

  /** Left sides that are the first of some distinct keys, in order. */
  predicate LeftsFollow(pgs: seq<ParsedGroup>, keys: seq<string>) {
    Distinct(keys) && |pgs| <= |keys| && forall j :: 0 <= j < |pgs| ==> pgs[j].left == keys[j]
  }

  lemma LeftsFollowPrefix(pgs: seq<ParsedGroup>, keys: seq<string>)
    requires LeftsFollow(pgs, keys) && |pgs| > 0
    ensures LeftsFollow(pgs[..|pgs| - 1], keys)
  {
  }

  /** With distinct left sides, P gains them in order ... */
  lemma {:induction false} CollectRulesInOrder(pgs: seq<ParsedGroup>, keys: seq<string>)
    requires LeftsFollow(pgs, keys)
    ensures CollectRules(pgs, Empty()).keys == keys[..|pgs|]
    decreases |pgs|
  {
    if |pgs| > 0 {
      LeftsFollowPrefix(pgs, keys);
      CollectRulesInOrder(pgs[..|pgs| - 1], keys);
      LastIsNew(pgs, keys);
      CollectRulesNextKey(pgs, keys);
    }
  }

  lemma CollectRulesNextKey(pgs: seq<ParsedGroup>, keys: seq<string>)
    requires 0 < |pgs| <= |keys| && pgs[|pgs| - 1].left == keys[|pgs| - 1]
    requires CollectRules(pgs[..|pgs| - 1], Empty()).keys == keys[..|pgs| - 1]
    requires keys[|pgs| - 1] !in CollectRules(pgs[..|pgs| - 1], Empty()).values
    ensures CollectRules(pgs, Empty()).keys == keys[..|pgs|]
  {
    var k := |pgs| - 1;
    var before := CollectRules(pgs[..k], Empty());
    var left := pgs[k].left;
    assert CollectRules(pgs, Empty()) == Put(before, left, AddTexts(pgs[k].rights, Objects.Get(before, left).GetOr([])));
    PutNew(before, left, AddTexts(pgs[k].rights, Objects.Get(before, left).GetOr([])), keys, k);
  }

  lemma PutNew<V>(d: Dict<V>, x: string, v: V, keys: seq<string>, k: nat)
    requires k < |keys| && d.keys == keys[..k] && x == keys[k] && x !in d.values
    ensures Put(d, x, v).keys == keys[..k + 1]
  {
    assert keys[..k + 1] == keys[..k] + [keys[k]];
  }



  /** The last left side is not among the earlier ones. */
  lemma LastIsNew(pgs: seq<ParsedGroup>, keys: seq<string>)
    requires LeftsFollow(pgs, keys) && |pgs| > 0
    requires CollectRules(pgs[..|pgs| - 1], Empty()).keys == keys[..|pgs| - 1]
    ensures pgs[|pgs| - 1].left !in CollectRules(pgs[..|pgs| - 1], Empty()).values
  {
    var k := |pgs| - 1;
    var before := CollectRules(pgs[..k], Empty());
    assert forall j :: 0 <= j < k ==> before.keys[j] == keys[j];
  }

  /** ... each with the texts of its right sides. */
  lemma {:induction false} CollectRulesGroupOf(pgs: seq<ParsedGroup>, keys: seq<string>, i: nat)
    requires LeftsFollow(pgs, keys) && i < |pgs|
    ensures Objects.Get(CollectRules(pgs, Empty()), keys[i]) == Some(AddTexts(pgs[i].rights, []))
    decreases |pgs|
  {
    if i < |pgs| - 1 {
      LeftsFollowPrefix(pgs, keys);
      CollectRulesGroupOf(pgs[..|pgs| - 1], keys, i);
      CollectRulesEarlier(pgs, keys, i);
    } else {
      CollectRulesGroupOfLast(pgs, keys);
    }
  }

  lemma CollectRulesGroupOfLast(pgs: seq<ParsedGroup>, keys: seq<string>)
    requires LeftsFollow(pgs, keys) && |pgs| > 0
    ensures Objects.Get(CollectRules(pgs, Empty()), keys[|pgs| - 1]) == Some(AddTexts(pgs[|pgs| - 1].rights, []))
  {
    LeftsFollowPrefix(pgs, keys);
    CollectRulesInOrder(pgs[..|pgs| - 1], keys);
    LastIsNew(pgs, keys);
    CollectRulesFirst(pgs);
  }

  lemma CollectRulesEarlier(pgs: seq<ParsedGroup>, keys: seq<string>, i: nat)
    requires LeftsFollow(pgs, keys) && i < |pgs| - 1
    requires Objects.Get(CollectRules(pgs[..|pgs| - 1], Empty()), keys[i])
             == Some(AddTexts(pgs[..|pgs| - 1][i].rights, []))
    ensures Objects.Get(CollectRules(pgs, Empty()), keys[i]) == Some(AddTexts(pgs[i].rights, []))
  {
    assert pgs[..|pgs| - 1][i] == pgs[i];
    CollectRulesOther(pgs, Empty(), keys[i]);
  }

  /** A left side met for the first time gets a group of its texts. */
  lemma CollectRulesFirst(pgs: seq<ParsedGroup>)
    requires |pgs| > 0 && pgs[|pgs| - 1].left !in CollectRules(pgs[..|pgs| - 1], Empty()).values
    ensures Objects.Get(CollectRules(pgs, Empty()), pgs[|pgs| - 1].left) == Some(AddTexts(pgs[|pgs| - 1].rights, []))
  {
    CollectRulesLast(pgs, Empty());
  }

  /** P holds exactly the left sides it started with and those of the
      groups. */
  lemma {:induction false} CollectRulesHas(pgs: seq<ParsedGroup>, p: Dict<seq<string>>, x: string)
    ensures x in CollectRules(pgs, p).values <==> x in p.values || x in Lefts(pgs)
    decreases |pgs|
  {
    if |pgs| > 0 {
      CollectRulesHas(pgs[..|pgs| - 1], p, x);
    }
  }

  /** One more group leaves the other left sides' groups alone ... */
  lemma CollectRulesOther(pgs: seq<ParsedGroup>, p: Dict<seq<string>>, x: string)
    requires |pgs| > 0 && x != pgs[|pgs| - 1].left
    ensures Objects.Get(CollectRules(pgs, p), x) == Objects.Get(CollectRules(pgs[..|pgs| - 1], p), x)
  {
  }

  /** ... and adds its texts to the group of its own left side. */
  lemma CollectRulesLast(pgs: seq<ParsedGroup>, p: Dict<seq<string>>)
    requires |pgs| > 0
    ensures var last := pgs[|pgs| - 1];
            Objects.Get(CollectRules(pgs, p), last.left)
              == Some(AddTexts(last.rights, Objects.Get(CollectRules(pgs[..|pgs| - 1], p), last.left).GetOr([])))
  {
  }

  /** `convertCFGC`: squeeze the blanks, check the group pattern, read every
      group, then list the collected objects' keys. The start symbol is the
      first group's left side. */
  function ConvertCfgc(str: string): (r: Result<ArrayData>)
    ensures ReadGroupTexts(Squeeze(str)).None? ==> r == Failure(RuleListError)
  {
    match ReadGroupTexts(Squeeze(str))
    case None => Failure(RuleListError)
    case Some(groups) =>
      match ParseGroups(groups)
      case Failure(e) => Failure(e)
      case Success(pgs) =>
        var (n, t) := CollectSymbols(pgs, Empty(), Empty());
        var p := CollectRules(pgs, Empty());
        Success(ArrayData(n.keys, t.keys, p, pgs[0].left))
  }

  // ---------------------------------------------------------------------
  // The round trip: reading a printed grammar gives its rules back.

  /** Holds none of the characters the reader splits at. */
  predicate Plain(s: string) {
    '.' !in s && '|' !in s && NoArrowEnd(s)
  }

  lemma SymbolTextIsPlain(text: string)
    requires Check(text)
    ensures Plain(text) && |text| > 0 && NoBlank(text)
  {
    forall i | 0 <= i < |text| ensures !IsBlank(text[i]) && text[i] != '.' && text[i] != '|' && !IsArrowEnd(text[i]) {
      assert SymbolChar(text[i]);
    }
  }

  /** The alternatives of a line joined by " | " hold no dot and no arrow. */
  lemma JoinedAlternatives(alts: seq<string>)
    requires forall j :: 0 <= j < |alts| ==> Plain(alts[j])
    ensures '.' !in Join(alts, " | ") && NoArrowEnd(Join(alts, " | "))
  {
    JoinAvoids(alts, " | ", '.');
    JoinAvoids(alts, " | ", '>');
    JoinAvoids(alts, " | ", ArrowChar);
  }

  lemma JoinFirst(q: string, p: string, rest: seq<string>, sep: string)
    ensures Join([q + p] + rest, sep) == q + Join([p] + rest, sep)
  {
    if |rest| > 0 {
      assert ([q + p] + rest)[1..] == rest && ([p] + rest)[1..] == rest;
      AppendAssoc(q, p, sep);
      AppendAssoc(q, p + sep, Join(rest, sep));
    }
  }

  /** Each text with a line break in front. */
  function Broken(ys: seq<string>): (r: seq<string>)
    ensures |r| == |ys| && forall i :: 0 <= i < |r| ==> r[i] == "\n" + ys[i]
  {
    seq(|ys|, i requires 0 <= i < |ys| => "\n" + ys[i])
  }

  /** Lines joined by ".\n" and ended by "." are the pieces between the
      dots: the first line, the others after their line break, and nothing
      after the last dot. */
  lemma {:induction false} JoinLines(a: string, ys: seq<string>)
    ensures Join([a] + ys, ".\n") + "." == Join([a] + Broken(ys) + [""], ".")
    decreases |ys|
  {
    if |ys| == 0 {
      assert [a] + Broken(ys) + [""] == [a, ""];
      assert ([a, ""])[1..] == [""];
    } else {
      var y, rest := ys[0], ys[1..];
      JoinLines(y, rest);
      var tail := Broken(rest) + [""];
      assert [y] + Broken(rest) + [""] == [y] + tail;
      assert ys == [y] + rest;
      var l := Join([y] + rest, ".\n");
      assert l + "." == Join([y] + tail, ".");
      JoinLinesFront(a, ys);
      JoinBrokenFront(a, y, rest);
      DotBreak(a, l);
    }
  }

  lemma JoinLinesFront(a: string, ys: seq<string>)
    requires |ys| > 0
    ensures Join([a] + ys, ".\n") == a + ".\n" + Join([ys[0]] + ys[1..], ".\n")
  {
    assert ([a] + ys)[1..] == ys == [ys[0]] + ys[1..];
  }

  lemma JoinBrokenFront(a: string, y: string, rest: seq<string>)
    ensures Join([a] + Broken([y] + rest) + [""], ".")
            == a + "." + ("\n" + Join([y] + (Broken(rest) + [""]), "."))
  {
    var tail := Broken(rest) + [""];
    var parts := ["\n" + y] + tail;
    BrokenCons(y, rest);
    assert [a] + Broken([y] + rest) + [""] == [a] + parts;
    JoinCons(a, parts, ".");
    JoinFirst("\n", y, tail, ".");
  }

  lemma BrokenCons(y: string, rest: seq<string>)
    ensures Broken([y] + rest) == ["\n" + y] + Broken(rest)
  {
    assert ([y] + rest)[1..] == rest;
  }

  lemma JoinCons(a: string, parts: seq<string>, sep: string)
    requires |parts| > 0
    ensures Join([a] + parts, sep) == a + sep + Join(parts, sep)
  {
    assert ([a] + parts)[1..] == parts;
  }

  lemma DotBreak(a: string, l: string)
    ensures a + ".\n" + l + "." == a + "." + ("\n" + (l + "."))
  {
  }



  /** The alternatives as split at '|': each with the space before it and,
      but for the last, the space after it. */
  function Padded(alts: seq<string>): (r: seq<string>)
    requires |alts| > 0
    ensures |r| == |alts|
    ensures forall j :: 0 <= j < |r| ==> r[j] == " " + alts[j] + (if j < |r| - 1 then " " else "")
    decreases |alts|
  {
    if |alts| == 1 then
      assert " " + alts[0] + "" == " " + alts[0];
      [" " + alts[0]]
    else
      var rest := Padded(alts[1..]);
      assert forall j :: 1 <= j < |alts| ==> ([" " + alts[0] + " "] + rest)[j] == rest[j - 1];
      [" " + alts[0] + " "] + rest
  }

  lemma {:induction false} PadJoin(alts: seq<string>)
    requires |alts| > 0
    ensures " " + Join(alts, " | ") == Join(Padded(alts), "|")
    decreases |alts|
  {
    if |alts| > 1 {
      var rest := Join(alts[1..], " | ");
      PadJoin(alts[1..]);
      var p := Padded(alts);
      assert p == [" " + alts[0] + " "] + Padded(alts[1..]);
      assert p[1..] == Padded(alts[1..]);
      calc {
        " " + Join(alts, " | ");
        " " + (alts[0] + " | " + rest);
        { AppendAssoc(alts[0], " | ", rest); AppendAssoc(" ", alts[0], " | " + rest);
          AppendAssoc(" " + alts[0], " ", "|" + (" " + rest)); }
        (" " + alts[0] + " ") + "|" + (" " + rest);
      }
    } else {
      assert Padded(alts) == [" " + alts[0]];
    }
  }

  lemma SqueezeArrow(x: string, z: string)
    ensures Squeeze(x + "->" + z) == Squeeze(x) + "->" + Squeeze(z)
  {
    assert x + "->" + z == x + ['-'] + ("" + ['>'] + z);
    SqueezeAround(x, '-', "" + ['>'] + z, false);
    SqueezeAround("", '>', z, false);
    assert SqueezeFrom("", false) == "";
    AppendAssoc(Squeeze(x) + ['-'], ['>'], Squeeze(z));
  }

  lemma SqueezeLeft(pre: string, L: string)
    requires pre == "" || pre == "\n"
    requires |L| > 0 && NoBlank(L)
    ensures Squeeze(pre + L + " ") == (if pre == "" then "" else " ") + L + " "
  {
    var X := pre + L + " ";
    if pre == "" {
      assert X == L + " ";
      SqueezeWord(L, " ", false);
    } else {
      assert X == "\n" + (L + " ") && X[1..] == L + " ";
      SqueezeWord(L, " ", true);
      AppendAssoc(" ", L, " ");
    }
  }

  /** Squeezing " " + j keeps the leading space and adds no character the
      reader splits at. */
  lemma SqueezedPlain(j: string)
    requires '.' !in j && NoArrowEnd(j)
    ensures var b := Squeeze(" " + j); |b| > 0 && b[0] == ' ' && '.' !in b && NoArrowEnd(b)
  {
    assert (" " + j)[1..] == j;
  }

  lemma LineText(x: string, j: string)
    ensures x + " -> " + j == (x + " ") + "->" + (" " + j)
  {
    assert " -> " == " " + "->" + " ";
    AppendAssoc(x, " ", "->");
    AppendAssoc(x + " ", "->", " ");
    AppendAssoc(x, " " + "->", " ");
    AppendAssoc(x + " " + "->", " ", j);
  }

  /** A printed line, squeezed, splits into its left side (with one space
      after it, and one before it when a line break preceded it) and its
      squeezed alternatives. */
  lemma LineSides(pre: string, L: string, alts: seq<string>)
    requires pre == "" || pre == "\n"
    requires Check(L) && |alts| > 0 && forall j :: 0 <= j < |alts| ==> Plain(alts[j])
    ensures SplitGroup(Squeeze(pre + (L + " -> " + Join(alts, " | "))))
            == Some(((if pre == "" then "" else " ") + L + " ", Squeeze(" " + Join(alts, " | "))))
  {
    var J := Join(alts, " | ");
    AppendAssoc(pre, L + " -> ", J);
    AppendAssoc(pre, L, " -> ");
    JoinedAlternatives(alts);
    SymbolTextIsPlain(L);
    var X := pre + L + " ";
    var Z := " " + J;
    LineText(pre + L, J);
    SqueezeArrow(X, Z);
    SqueezeLeft(pre, L);
    var A := (if pre == "" then "" else " ") + L + " ";
    var B := Squeeze(Z);
    SqueezedPlain(J);
    SplitGroupFinds(A, "->", B);
  }

  /** The group of the i-th left side. */
  function GroupAt(g: Grammar, i: nat): Dict<Rule>
    requires i < |g.p.keys|
  {
    g.p.values[g.p.keys[i]]
  }

  /** The right sides of a group, in key order. */
  function Rights(group: Dict<Rule>): (r: seq<Word>)
    ensures |r| == |group.keys|
    ensures forall j :: 0 <= j < |r| ==> r[j] == group.values[group.keys[j]].right
  {
    seq(|group.keys|, j requires 0 <= j < |group.keys| => group.values[group.keys[j]].right)
  }

  /** What the reader finds between the dots of a printed grammar: the left
      side of each line with the spaces around it, and the squeezed
      alternatives. */
  function PrintedSides(g: Grammar): (r: seq<(string, string)>)
    ensures |r| == |g.p.keys|
  {
    seq(|g.p.keys|, i requires 0 <= i < |g.p.keys| =>
      ((if i == 0 then "" else " ") + g.p.keys[i] + " ", Squeeze(" " + Join(AltTexts(GroupAt(g, i)), " | "))))
  }

  /** A word over symbol texts prints without the characters the reader
      splits at. */
  lemma AltTextPlain(r: Rule)
    requires forall i :: 0 <= i < |r.right| ==> Check(r.right[i].Text())
    ensures Plain(AltText(r))
  {
    if |r.right| > 0 {
      var texts := Texts(r.right);
      forall i | 0 <= i < |texts| ensures Plain(texts[i]) {
        SymbolTextIsPlain(texts[i]);
      }
      JoinAvoids(texts, " ", '.');
      JoinAvoids(texts, " ", '|');
      JoinAvoids(texts, " ", '>');
      JoinAvoids(texts, " ", ArrowChar);
    }
  }

  /** In a valid grammar every symbol of a right side is a symbol text. */
  lemma RightTextsCheck(g: Grammar, L: string, k: string)
    requires Valid(g) && L in g.p.values && k in g.p.values[L].values
    ensures var r := g.p.values[L].values[k];
            r.left == L && forall i :: 0 <= i < |r.right| ==> Check(r.right[i].Text())
  {
    var r := g.p.values[L].values[k];
    assert RuleWellFormed(g.n, g.t, L, k, r);
    forall i | 0 <= i < |r.right| ensures Check(r.right[i].Text()) {
      assert InitLookup(g.n, g.t, r.right[i].Text()) == Some(r.right[i]);
    }
  }

  /** The alternatives of every group of a valid grammar are plain. */
  lemma AltTextsPlain(g: Grammar, i: nat)
    requires Valid(g) && i < |g.p.keys|
    ensures forall j :: 0 <= j < |AltTexts(GroupAt(g, i))| ==> Plain(AltTexts(GroupAt(g, i))[j])
  {
    var L := g.p.keys[i];
    var group := GroupAt(g, i);
    forall j | 0 <= j < |group.keys| ensures Plain(AltTexts(group)[j]) {
      RightTextsCheck(g, L, group.keys[j]);
      AltTextPlain(group.values[group.keys[j]]);
    }
  }

  /** The line of a group starts with its own left side. */
  lemma GroupLineOf(g: Grammar, i: nat)
    requires Valid(g) && NoEmptyGroup(g) && i < |g.p.keys|
    ensures Lines(g)[i] == g.p.keys[i] + " -> " + Join(AltTexts(GroupAt(g, i)), " | ")
    ensures Check(g.p.keys[i]) && IsNonterminalText(g.p.keys[i])
    ensures '.' !in Lines(g)[i]
  {
    var L := g.p.keys[i];
    var group := GroupAt(g, i);
    RightTextsCheck(g, L, group.keys[0]);
    AltTextsPlain(g, i);
    JoinedAlternatives(AltTexts(group));
    SymbolTextIsPlain(L);
    ArrowLineAvoids(L, Join(AltTexts(group), " | "), '.');
  }

  /** A character found on neither side of a group line is not in it. */
  lemma ArrowLineAvoids(left: string, alts: string, c: char)
    requires c !in left && c !in alts && c !in " -> "
    ensures c !in left + " -> " + alts
  {
  }

  /** The pieces between the dots of a printed grammar, before squeezing. */
  function Pieces(lines: seq<string>): (r: seq<string>)
    requires |lines| > 0
    ensures |r| == |lines| + 1 && r[0] == lines[0] && r[|lines|] == ""
    ensures forall i :: 1 <= i < |lines| ==> r[i] == "\n" + lines[i]
  {
    [lines[0]] + Broken(lines[1..]) + [""]
  }

  /** Lines without dots, joined and ended the printed way and squeezed,
      split at their dots into the squeezed pieces. */
  lemma PiecesRead(lines: seq<string>)
    requires |lines| > 0 && forall i :: 0 <= i < |lines| ==> '.' !in lines[i]
    ensures var sq := SqueezeAll(Pieces(lines));
            Split(Squeeze(Join(lines, ".\n") + "."), '.') == sq && sq[|lines|] == ""
  {
    PiecesJoin(lines);
    var P := Pieces(lines);
    SqueezeJoined(P, '.');
    var sq := SqueezeAll(P);
    PiecesNoDot(lines);
    SplitJoin(sq, '.');
    assert sq[|lines|] == Squeeze("") == "";
  }

  lemma PiecesJoin(lines: seq<string>)
    requires |lines| > 0
    ensures Join(lines, ".\n") + "." == Join(Pieces(lines), ".")
  {
    var a, ys := lines[0], lines[1..];
    assert [a] + ys == lines;
    JoinLines(a, ys);
  }

  lemma PiecesNoDot(lines: seq<string>)
    requires |lines| > 0 && forall i :: 0 <= i < |lines| ==> '.' !in lines[i]
    ensures forall i :: 0 <= i < |lines| + 1 ==> '.' !in SqueezeAll(Pieces(lines))[i]
  {
    var P := Pieces(lines);
    forall i | 0 <= i < |P| ensures '.' !in SqueezeAll(P)[i] {
      if 0 < i < |lines| {
        assert P[i] == "\n" + lines[i];
      }
      assert '.' !in P[i];
    }
  }

  /** Lines without dots, printed the way `toCFGCString` ends them, are
      read as the squeezed lines (after the first, with their line break). */
  lemma ReadPrinted(lines: seq<string>)
    requires |lines| > 0 && forall i :: 0 <= i < |lines| ==> '.' !in lines[i]
    ensures ReadGroupTexts(Squeeze(Join(lines, ".\n") + ".")) == SplitAll(SqueezeAll(Pieces(lines))[..|lines|])
  {
    PiecesRead(lines);
  }

  lemma SplitAllIs(groups: seq<string>, sides: seq<(string, string)>)
    requires |groups| == |sides| && forall i :: 0 <= i < |groups| ==> SplitGroup(groups[i]) == Some(sides[i])
    ensures SplitAll(groups) == Some(sides)
  {
    var r := SplitAll(groups);
    assert r.Some? && |r.value| == |sides|;
    assert forall i :: 0 <= i < |groups| ==> r.value[i] == sides[i];
    assert r.value == sides;
  }

  /** The reader splits a printed grammar into the sides of its lines. */
  lemma PrintedGroups(g: Grammar)
    requires Valid(g) && NoEmptyGroup(g) && |g.p.keys| > 0
    ensures ReadGroupTexts(Squeeze(ToCfgcString(g).value)) == Some(PrintedSides(g))
  {
    var lines := Lines(g);
    forall i | 0 <= i < |lines| ensures '.' !in lines[i] {
      GroupLineOf(g, i);
    }
    ReadPrinted(lines);
    var groups := SqueezeAll(Pieces(lines))[..|lines|];
    forall i | 0 <= i < |groups| ensures SplitGroup(groups[i]) == Some(PrintedSides(g)[i]) {
      PrintedSide(g, i);
    }
    SplitAllIs(groups, PrintedSides(g));
  }

  lemma PrintedSide(g: Grammar, i: nat)
    requires Valid(g) && NoEmptyGroup(g) && i < |g.p.keys|
    ensures SplitGroup(SqueezeAll(Pieces(Lines(g)))[i]) == Some(PrintedSides(g)[i])
  {
    var lines := Lines(g);
    GroupLineOf(g, i);
    AltTextsPlain(g, i);
    var pre := if i == 0 then "" else "\n";
    assert Pieces(lines)[i] == pre + lines[i];
    LineSides(pre, g.p.keys[i], AltTexts(GroupAt(g, i)));
  }

  /** A left side with at most one space on either side reads as itself. */
  lemma LeftTextOf(pre: string, L: string)
    requires pre == "" || pre == " "
    requires Check(L)
    ensures LeftText(pre + L + " ") == Some(L)
  {
    SymbolTextIsPlain(L);
    var l := pre + L + " ";
    assert L[0] != ' ';
    if pre == "" {
      assert l[0] == L[0];
      assert l[..|l| - 1] == L;
    } else {
      assert l[1..|l| - 1] == L;
    }
  }

  /** The alternatives of a printed line, squeezed and split at '|', are
      the padded alternatives, squeezed. */
  lemma AlternativesOf(alts: seq<string>)
    requires |alts| > 0 && forall j :: 0 <= j < |alts| ==> Plain(alts[j])
    ensures Split(Squeeze(" " + Join(alts, " | ")), '|') == SqueezeAll(Padded(alts))
  {
    PadJoin(alts);
    var pad := Padded(alts);
    SqueezeJoined(pad, '|');
    forall j | 0 <= j < |pad| ensures '|' !in SqueezeAll(pad)[j] {
      assert '|' !in pad[j];
    }
    SplitJoin(SqueezeAll(pad), '|');
  }

  /** Every symbol of w is what the grammar-free lookup creates from its
      text. */
  predicate FreelyResolved(w: Word) {
    forall i :: 0 <= i < |w| ==> GrammarFreeLookup(w[i].Text()) == Some(w[i])
  }

  /** The rules of a valid grammar use symbols of the kind their text
      says. */
  lemma RuleFreelyResolved(g: Grammar, L: string, k: string)
    requires Valid(g) && L in g.p.values && k in g.p.values[L].values
    ensures FreelyResolved(g.p.values[L].values[k].right)
    ensures !IsEpsLookalike(g.p.values[L].values[k].right)
    ensures ToString(g.p.values[L].values[k].right) == k
  {
    var r := g.p.values[L].values[k];
    assert RuleWellFormed(g.n, g.t, L, k, r);
    forall i | 0 <= i < |r.right| ensures GrammarFreeLookup(r.right[i].Text()) == Some(r.right[i]) {
      var text := r.right[i].Text();
      assert InitLookup(g.n, g.t, text) == Some(r.right[i]);
      if text in g.t.values {
        assert ValidText(text, true);
      } else {
        assert ValidText(text, false);
        ExactlyOneKind(text);
      }
    }
  }

  /** One alternative as printed, padded and squeezed, reads back as the
      right side it came from. */
  lemma ReadPadded(r: Rule, after: string)
    requires after == "" || after == " "
    requires FreelyResolved(r.right) && !IsEpsLookalike(r.right)
    ensures ReadAlternative(Squeeze(" " + AltText(r) + after)) == Some(r.right)
  {
    if |r.right| == 0 {
      var x := " " + AltText(r) + after;
      assert AllSpaces(x);
      SqueezeSpaces(x, false);
    } else {
      var texts := Texts(r.right);
      forall i | 0 <= i < |texts| ensures |texts[i]| > 0 && NoBlank(texts[i]) {
        assert Check(texts[i]);
        SymbolTextIsPlain(texts[i]);
      }
      SqueezedWord(texts, after);
      ReadWordText(r.right, " " + (Join(texts, " ") + after), after);
    }
  }

  lemma {:induction false} SqueezeSpaces(s: string, run: bool)
    requires AllSpaces(s)
    ensures AllSpaces(SqueezeFrom(s, run))
    decreases |s|
  {
    if |s| > 0 {
      SqueezeSpaces(s[1..], true);
    }
  }

  /** Text with tokens other than the single "eps" is neither blank nor the
      epsilon pattern. */
  lemma NeitherSpacesNorEps(y: string)
    requires |Tokens(y)| > 0 && Tokens(y) != [EpsText]
    ensures !AllSpaces(y) && !IsEpsPattern(y)
  {
    if AllSpaces(y) {
      AllSpacesHaveNoTokens(y);
    }
    if IsEpsPattern(y) {
      EpsPatternTokens(y);
    }
  }

  /** A printed nonempty word with a space before it and at most one after
      it is already squeezed. */
  lemma SqueezedWord(texts: seq<string>, after: string)
    requires after == "" || after == " "
    requires |texts| > 0 && forall i :: 0 <= i < |texts| ==> |texts[i]| > 0 && NoBlank(texts[i])
    ensures Squeeze(" " + Join(texts, " ") + after) == " " + (Join(texts, " ") + after)
  {
    var q := Join(texts, " ");
    var x := " " + q + after;
    assert x == " " + (q + after) && x[1..] == q + after;
    SqueezeJoin(texts, after, true);
    assert SqueezeFrom(after, false) == after;
  }

  /** The text of a nonempty word, with a space before it and blanks after
      it, reads back as the word without a grammar. */
  lemma ReadWordText(w: Word, y: string, after: string)
    requires |w| > 0 && FreelyResolved(w) && !IsEpsLookalike(w)
    requires AllSpaces(after) && (|after| == 0 || IsBlank(after[0]))
    requires y == " " + (Join(Texts(w), " ") + after)
    ensures ReadAlternative(y) == Some(w)
  {
    var texts := Texts(w);
    forall i | 0 <= i < |texts| ensures |texts[i]| > 0 && NoBlank(texts[i]) {
      assert Check(texts[i]);
      SymbolTextIsPlain(texts[i]);
    }
    TokensOfJoinThen(texts, after);
    AllSpacesHaveNoTokens(after);
    assert y[1..] == Join(texts, " ") + after;
    assert Tokens(y) == texts;
    ReadTokens(w, y);
  }

  /** Text whose tokens are the symbol texts of w reads as w, unless w is
      the lone "eps" symbol. */
  lemma ReadTokens(w: Word, y: string)
    requires |w| > 0 && FreelyResolved(w) && !IsEpsLookalike(w)
    requires Tokens(y) == Texts(w)
    ensures ReadAlternative(y) == Some(w)
  {
    assert Texts(w) != [EpsText];
    NeitherSpacesNorEps(y);
    var texts := Tokens(y);
    assert forall i :: 0 <= i < |texts| ==> GrammarFreeLookup(texts[i]) == Some(w[i]);
    var r := TryParseString(y, GrammarFreeLookup);
    assert r.Some? && |r.value| == |w|;
    assert forall i :: 0 <= i < |w| ==> r.value[i] == w[i];
    assert r.value == w;
  }

  /** The alternatives of a printed group read back as its right sides, in
      key order. */
  lemma ReadGroupAlternatives(g: Grammar, i: nat)
    requires Valid(g) && NoEmptyGroup(g) && i < |g.p.keys|
    ensures ReadAlternatives(Split(PrintedSides(g)[i].1, '|')) == Success(Rights(GroupAt(g, i)))
  {
    var L := g.p.keys[i];
    var group := GroupAt(g, i);
    var alts := AltTexts(group);
    AltTextsPlain(g, i);
    AlternativesOf(alts);
    var pieces := SqueezeAll(Padded(alts));
    var rights := Rights(group);
    forall j | 0 <= j < |pieces| ensures ReadAlternative(pieces[j]) == Some(rights[j]) {
      var k := group.keys[j];
      RuleFreelyResolved(g, L, k);
      ReadPadded(group.values[k], if j < |alts| - 1 then " " else "");
    }
    var r := ReadAlternatives(pieces);
    assert r.Success? && |r.value| == |rights|;
    assert forall j :: 0 <= j < |rights| ==> r.value[j] == rights[j];
    assert r.value == rights;
  }

  /** The groups a valid grammar prints, as the reader parses them. */
  function Expected(g: Grammar): (r: seq<ParsedGroup>)
    ensures |r| == |g.p.keys|
  {
    seq(|g.p.keys|, i requires 0 <= i < |g.p.keys| => ParsedGroup(g.p.keys[i], Rights(GroupAt(g, i))))
  }

  lemma ParseGroupAt(g: Grammar, i: nat)
    requires Valid(g) && NoEmptyGroup(g) && i < |g.p.keys|
    ensures ParseGroup(PrintedSides(g)[i].0, PrintedSides(g)[i].1) == Success(Expected(g)[i])
  {
    var L := g.p.keys[i];
    assert ValidText(L, false);
    LeftTextOf(if i == 0 then "" else " ", L);
    ReadGroupAlternatives(g, i);
  }

  /** Every printed group parses, to its left side and right sides. */
  lemma ParsePrinted(g: Grammar)
    requires Valid(g) && NoEmptyGroup(g)
    ensures ParseGroups(PrintedSides(g)) == Success(Expected(g))
  {
    var sides := PrintedSides(g);
    forall i | 0 <= i < |sides| ensures ParseGroup(sides[i].0, sides[i].1) == Success(Expected(g)[i]) {
      ParseGroupAt(g, i);
    }
    var r := ParseGroups(sides);
    assert r.Success? && |r.value| == |g.p.keys|;
    assert forall i :: 0 <= i < |sides| ==> r.value[i] == Expected(g)[i];
    assert r.value == Expected(g);
  }

  /** Right sides with distinct texts, none already in the group, are
      appended to the group's keys in order. */
  lemma {:induction false} AddTextsKeys(ws: seq<Word>, group: seq<string>)
    requires Distinct(WordTexts(ws)) && forall x :: x in WordTexts(ws) ==> x !in group
    ensures AddTexts(ws, group) == group + WordTexts(ws)
    decreases |ws|
  {
    if |ws| > 0 {
      var k := |ws| - 1;
      var before := WordTexts(ws[..k]);
      assert WordTexts(ws) == before + [ToString(ws[k])];
      assert forall x :: x in before ==> x in WordTexts(ws);
      assert ToString(ws[k]) !in before by {
        assert WordTexts(ws)[k] == ToString(ws[k]);
        assert forall j :: 0 <= j < k ==> before[j] == WordTexts(ws)[j];
      }
      assert Distinct(before) by {
        assert forall j :: 0 <= j < k ==> before[j] == WordTexts(ws)[j];
      }
      AddTextsKeys(ws[..k], group);
      AppendAssoc(group, before, [ToString(ws[k])]);
    }
  }

  lemma PutOther<V>(d: Dict<V>, k: string, v: V, other: string)
    requires other != k
    ensures Objects.Get(Put(d, k, v), other) == Objects.Get(d, other)
  {
  }

  // ---------------------------------------------------------------------
  // The collected objects of a printed grammar.

  lemma {:induction false} LeftsAre(pgs: seq<ParsedGroup>, keys: seq<string>)
    requires |pgs| == |keys| && forall i :: 0 <= i < |pgs| ==> pgs[i].left == keys[i]
    ensures Lefts(pgs) == keys
    decreases |pgs|
  {
    if |pgs| > 0 {
      var k := |pgs| - 1;
      LeftsAre(pgs[..k], keys[..k]);
      assert keys == keys[..k] + [keys[k]];
    }
  }

  /** The texts of a group's right sides are its keys. */
  lemma RightsTexts(g: Grammar, i: nat)
    requires Valid(g) && i < |g.p.keys|
    ensures WordTexts(Rights(GroupAt(g, i))) == GroupAt(g, i).keys
  {
    var group := GroupAt(g, i);
    var ws := Rights(group);
    forall j | 0 <= j < |ws| ensures ToString(ws[j]) == group.keys[j] {
      RuleFreelyResolved(g, g.p.keys[i], group.keys[j]);
    }
    WordTextsAre(ws, group.keys);
  }

  lemma {:induction false} WordTextsAre(ws: seq<Word>, texts: seq<string>)
    requires |ws| == |texts| && forall j :: 0 <= j < |ws| ==> ToString(ws[j]) == texts[j]
    ensures WordTexts(ws) == texts
    decreases |ws|
  {
    if |ws| > 0 {
      var k := |ws| - 1;
      WordTextsAre(ws[..k], texts[..k]);
      assert texts == texts[..k] + [texts[k]];
    }
  }

  /** pgs lists the groups of g in key order, as the reader parses them. */
  predicate Describes(pgs: seq<ParsedGroup>, g: Grammar) {
    |pgs| == |g.p.keys|
    && forall i :: 0 <= i < |pgs| ==> pgs[i] == ParsedGroup(g.p.keys[i], Rights(GroupAt(g, i)))
  }

  /** The rules read back from a printed valid grammar are its array form's
      rules. */
  lemma CollectedRules(g: Grammar, pgs: seq<ParsedGroup>)
    requires Valid(g) && Describes(pgs, g)
    ensures CollectRules(pgs, Empty()) == ToData(g).p
  {
    var p := CollectRules(pgs, Empty());
    var want := ToData(g).p;
    CollectedKeys(g, pgs);
    forall L | L in want.values ensures L in p.values && p.values[L] == want.values[L] {
      var i := IndexOf(g.p.keys, L);
      CollectedGroup(g, pgs, i);
    }
    SameDicts(p, want);
  }

  lemma CollectedKeys(g: Grammar, pgs: seq<ParsedGroup>)
    requires Valid(g) && Describes(pgs, g)
    ensures CollectRules(pgs, Empty()).keys == ToData(g).p.keys
  {
    CollectRulesInOrder(pgs, g.p.keys);
    assert g.p.keys[..|pgs|] == g.p.keys;
  }

  /** Dicts with the same keys and the same value under each are equal. */
  lemma SameDicts<V>(a: Dict<V>, b: Dict<V>)
    requires a.keys == b.keys
    requires forall k :: k in b.values ==> k in a.values && a.values[k] == b.values[k]
    ensures a == b
  {
    assert a.values.Keys == b.values.Keys;
    assert a.values == b.values;
  }

  /** The position of a key. */
  function IndexOf(keys: seq<string>, x: string): (i: nat)
    requires x in keys
    ensures i < |keys| && keys[i] == x
  {
    if keys[0] == x then 0 else 1 + IndexOf(keys[1..], x)
  }

  lemma CollectedGroup(g: Grammar, pgs: seq<ParsedGroup>, i: nat)
    requires Valid(g) && Describes(pgs, g) && i < |g.p.keys|
    ensures Objects.Get(CollectRules(pgs, Empty()), g.p.keys[i]) == Some(RightTexts(GroupAt(g, i)))
  {
    GroupTexts(g, i);
    assert pgs[i].rights == Rights(GroupAt(g, i));
    DescribesFollows(g, pgs);
    CollectedTexts(pgs, g.p.keys, i, RightTexts(GroupAt(g, i)));
  }

  lemma DescribesFollows(g: Grammar, pgs: seq<ParsedGroup>)
    requires Describes(pgs, g)
    ensures LeftsFollow(pgs, g.p.keys)
  {
  }

  /** The texts of a group's right sides, collected, are its keys. */
  lemma GroupTexts(g: Grammar, i: nat)
    requires Valid(g) && i < |g.p.keys|
    ensures AddTexts(Rights(GroupAt(g, i)), []) == RightTexts(GroupAt(g, i))
  {
    RightsTexts(g, i);
    AddTextsKeys(Rights(GroupAt(g, i)), []);
  }

  /** With distinct left sides, each group of P holds the texts of its
      right sides. */
  lemma CollectedTexts(pgs: seq<ParsedGroup>, keys: seq<string>, i: nat, texts: seq<string>)
    requires LeftsFollow(pgs, keys) && i < |pgs| && AddTexts(pgs[i].rights, []) == texts
    ensures Objects.Get(CollectRules(pgs, Empty()), keys[i]) == Some(texts)
  {
    CollectRulesGroupOf(pgs, keys, i);
  }

  // ---------------------------------------------------------------------
  // The collected symbols of a printed grammar.

  /** s occurs in the right side of some rule of g. */
  ghost predicate Uses(g: Grammar, s: Symbol) {
    exists L, k :: L in g.p.values && k in g.p.values[L].values && s in g.p.values[L].values[k].right
  }

  lemma {:induction false} InFlatten(ws: seq<Word>, s: Symbol)
    ensures s in Flatten(ws) <==> exists j :: 0 <= j < |ws| && s in ws[j]
    decreases |ws|
  {
    if |ws| > 0 {
      var k := |ws| - 1;
      InFlatten(ws[..k], s);
      assert forall j :: 0 <= j < k ==> ws[..k][j] == ws[j];
    }
  }

  lemma {:induction false} InAllRights(pgs: seq<ParsedGroup>, s: Symbol)
    ensures s in AllRights(pgs) <==> exists i :: 0 <= i < |pgs| && s in Flatten(pgs[i].rights)
    decreases |pgs|
  {
    if |pgs| > 0 {
      var k := |pgs| - 1;
      InAllRights(pgs[..k], s);
      assert forall i :: 0 <= i < k ==> pgs[..k][i] == pgs[i];
    }
  }

  /** The right sides the reader finds hold exactly the symbols the
      grammar's rules use. */
  lemma ReadRightsUse(g: Grammar, pgs: seq<ParsedGroup>, s: Symbol)
    requires Describes(pgs, g)
    ensures s in AllRights(pgs) <==> Uses(g, s)
  {
    InAllRights(pgs, s);
    if s in AllRights(pgs) {
      var i :| 0 <= i < |pgs| && s in Flatten(pgs[i].rights);
      InFlatten(pgs[i].rights, s);
      var j :| 0 <= j < |pgs[i].rights| && s in pgs[i].rights[j];
      ReadRightUse(g, pgs, s, i, j);
    }
    if Uses(g, s) {
      var L, k :| L in g.p.values && k in g.p.values[L].values && s in g.p.values[L].values[k].right;
      var i := IndexOf(g.p.keys, L);
      var j := IndexOf(GroupAt(g, i).keys, k);
      assert s in pgs[i].rights[j];
      InFlatten(pgs[i].rights, s);
    }
  }

  lemma ReadRightUse(g: Grammar, pgs: seq<ParsedGroup>, s: Symbol, i: nat, j: nat)
    requires Describes(pgs, g) && i < |pgs| && j < |pgs[i].rights| && s in pgs[i].rights[j]
    ensures Uses(g, s)
  {
    var group := GroupAt(g, i);
    assert g.p.keys[i] in g.p.values;
    assert group.keys[j] in group.values;
    assert s in g.p.values[g.p.keys[i]].values[group.keys[j]].right;
  }


  /** No rule of a valid grammar uses the end marker. */
  lemma NoEndMarkerUsed(g: Grammar)
    requires Valid(g)
    ensures !Uses(g, EndMarker)
  {
  }

  // ---------------------------------------------------------------------
  // The round trip.

  /** The text a grammar prints reads back through the group reader. */
  lemma ConvertPrinted(g: Grammar)
    requires Valid(g) && NoEmptyGroup(g) && |g.p.keys| > 0
    ensures var (n, t) := CollectSymbols(Expected(g), Empty(), Empty());
            ConvertCfgc(ToCfgcString(g).value)
              == Success(ArrayData(n.keys, t.keys, CollectRules(Expected(g), Empty()), g.p.keys[0]))
  {
    PrintedGroups(g);
    ParsePrinted(g);
  }

  /** Reading back what `toCFGCString` prints for a valid grammar with
      rules gives its rules in array form, the first group's left side as
      start symbol, the left sides and used nonterminals as N, and the used
      terminals as T. */
  lemma CfgcRoundTrip(g: Grammar)
    requires Valid(g) && NoEmptyGroup(g) && |g.p.keys| > 0
    ensures ToCfgcString(g).Success?
    ensures var r := ConvertCfgc(ToCfgcString(g).value);
            && r.Success? && r.value.p == ToData(g).p && r.value.s == g.p.keys[0]
            && (forall x :: x in r.value.n <==> x in g.p.values || Uses(g, Nonterminal(x)))
            && (forall x :: x in r.value.t <==> Uses(g, Terminal(x)))
  {
    var pgs := Expected(g);
    ConvertPrinted(g);
    assert Describes(pgs, g);
    CollectedRules(g, pgs);
    CollectedSymbols(g, pgs);
  }

  /** N and T read back from the groups of a valid grammar. */
  lemma CollectedSymbols(g: Grammar, pgs: seq<ParsedGroup>)
    requires Valid(g) && Describes(pgs, g)
    ensures var (n, t) := CollectSymbols(pgs, Empty(), Empty());
            && (forall x :: x in n.keys <==> x in g.p.values || Uses(g, Nonterminal(x)))
            && (forall x :: x in t.keys <==> Uses(g, Terminal(x)))
  {
    LeftsAre(pgs, g.p.keys);
    NoEndMarkerUsed(g);
    ReadRightsUse(g, pgs, EndMarker);
    var (n, t) := CollectSymbols(pgs, Empty(), Empty());
    forall x ensures (x in n.keys <==> x in g.p.values || Uses(g, Nonterminal(x)))
                     && (x in t.keys <==> Uses(g, Terminal(x))) {
      CollectSymbolsHas(pgs, Empty(), Empty(), x);
      ReadRightsUse(g, pgs, Nonterminal(x));
      ReadRightsUse(g, pgs, Terminal(x));
    }
  }

  /** A grammar without rule groups prints as a lone "." and is refused on
      reading, so the round trip needs at least one group. */
  lemma EmptyGrammarRefused(g: Grammar)
    requires |g.p.keys| == 0
    ensures ToCfgcString(g) == Success(".")
    ensures ConvertCfgc(ToCfgcString(g).value) == Failure(RuleListError)
  {
    assert NoEmptyGroup(g);
    assert Lines(g) == [];
    assert Join(Lines(g), ".\n") + "." == ".";
    assert Squeeze(".") == ".";
    assert Split(".", '.') == ["", ""];
  }
}

=== FILE: controller.dfy ===
/** The step engine of js/algorithm_framework/AlgorithmController.js.

    Every algorithm runs as a tree of steps (`ACTNode`s). A step's program
    runs against the state handed to it, may queue sub-tasks (children of
    the step), set a hook, ask to be repeated and name itself. The
    controller visits the steps in chronological (pre-order) order: it
    numbers the step, runs it, duplicates it when asked to, archives the
    state, hands the finalized state to the next step and only then runs
    the hook, so that whatever the hook does lands in the next step.

    A program is modelled as a function from the state it runs on to the
    commands it issues and the state it leaves; the state itself (the
    conversion grammar and the structures) is a type parameter, and so is
    its `finalize`. */
module Controller {
  import opened Wrappers
  import opened Text
  import opened Trees

  // ---------------------------------------------------------------------
  // What a program asks of the controller.

  /** `c.task(program)`, `c.hook(program)`, `c.willRepeat()` and
      `c.myNameIs(name)`. A hook of `None` is a falsy argument. */
  datatype Command<P> = Task(program: P) | SetHook(hook: Option<P>) | WillRepeat | MyNameIs(name: string)

  /** A program run on a state returns the commands it issued, in order,
      and the state it leaves behind. */
  type Program<!P, !S> = (P, S) -> (seq<Command<P>>, S)

  /** The programs of the `task` calls, in call order. */
  function Tasks<P>(cmds: seq<Command<P>>): seq<P>
    decreases |cmds|
  {
    if |cmds| == 0 then []
    else
      var c := cmds[|cmds| - 1];
      Tasks(cmds[..|cmds| - 1]) + (if c.Task? then [c.program] else [])
  }

  /** The hook after the calls: the last truthy `hook(program)` wins. */
  function HookAfter<P>(cmds: seq<Command<P>>, h: Option<P>): Option<P>
    decreases |cmds|
  {
    if |cmds| == 0 then h
    else
      var c := cmds[|cmds| - 1];
      if c.SetHook? && c.hook.Some? then c.hook else HookAfter(cmds[..|cmds| - 1], h)
  }

  /** The name after the calls: the last non-empty `myNameIs(name)` wins. */
  function NameAfter<P>(cmds: seq<Command<P>>, n: string): string
    decreases |cmds|
  {
    if |cmds| == 0 then n
    else
      var c := cmds[|cmds| - 1];
      if c.MyNameIs? && c.name != "" then c.name else NameAfter(cmds[..|cmds| - 1], n)
  }

  /** Whether `willRepeat()` was among the calls. */
  predicate Repeats<P>(cmds: seq<Command<P>>)
    decreases |cmds|
  {
    |cmds| > 0 && (cmds[|cmds| - 1].WillRepeat? || Repeats(cmds[..|cmds| - 1]))
  }

  // ---------------------------------------------------------------------
  // ACTNode

  /** The data of an `ACTNode`: its name and numbering, its program, hook
      and repeat flag, the live state it works on and the archived copy
      `getFinalizedState` keeps. */
  datatype ActData<P, S> = ActData(name: string, numbering: string, program: P, hook: Option<P>,
                                   willRepeat: bool, live: Option<S>, archived: Option<S>)

  type ActTree<P, S> = Tree<ActData<P, S>>

  const MissingName: string := "# name is missing...? #"

  /** `new ACTNode(program)`. */
  function Fresh<P, S>(program: P): ActTree<P, S> {
    Node(ActData(MissingName, "", program, None, false, None, None), [])
  }

  function Leaves<P, S>(ps: seq<P>): (r: seq<ActTree<P, S>>)
    ensures |r| == |ps|
    ensures forall i :: 0 <= i < |ps| ==> r[i] == Fresh(ps[i])
  {
    seq(|ps|, i requires 0 <= i < |ps| => Fresh(ps[i]))
  }

  /** `grammar()` / `structures()`: the live state, or, once it has been
      dropped, a fresh copy of the archived one. */
  function Current<P, S>(d: ActData<P, S>): (r: Option<S>)
    ensures d.live.Some? ==> r == d.live
    ensures d.live.None? ==> r == d.archived
  {
    if d.live.Some? then d.live else d.archived
  }

  /** One command applied to the node at p. */
  function Issue<P, S>(t: ActTree<P, S>, p: Path, c: Command<P>): (r: ActTree<P, S>)
    requires ValidPath(t, p)
    ensures ValidPath(r, p)
  {
    var d := At(t, p).item;
    match c
    case Task(q) => Adopt(t, p, Fresh(q))
    case SetHook(h) => if h.Some? then SetItem(t, p, d.(hook := h)) else t
    case WillRepeat => SetItem(t, p, d.(willRepeat := true))
    case MyNameIs(n) => if n != "" then SetItem(t, p, d.(name := n)) else t
  }

  /** The commands of one program run, applied in order to the node at p:
      every task becomes a new last child, in call order; the hook and the
      name are the last ones set; the repeat flag, once set, stays set;
      nothing else about the node changes. */
  function Apply<P, S>(t: ActTree<P, S>, p: Path, cmds: seq<Command<P>>): (r: ActTree<P, S>)
    requires ValidPath(t, p)
    ensures ValidPath(r, p)
    ensures At(r, p).children == At(t, p).children + Leaves(Tasks(cmds))
    ensures At(r, p).item == At(t, p).item.(hook := HookAfter(cmds, At(t, p).item.hook),
                                            willRepeat := At(t, p).item.willRepeat || Repeats(cmds),
                                            name := NameAfter(cmds, At(t, p).item.name))
    decreases |cmds|
  {
    if |cmds| == 0 then t
    else Issue(Apply(t, p, cmds[..|cmds| - 1]), p, cmds[|cmds| - 1])
  }

  /** Commands applied to one node leave every node outside its subtree
      where it was. */
  lemma {:induction false} ApplyOutside<P, S>(t: ActTree<P, S>, p: Path, q: Path, cmds: seq<Command<P>>)
    requires ValidPath(t, p) && ValidPath(t, q) && Outside(p, q)
    ensures Keeps(t, Apply(t, p, cmds), q)
    decreases |cmds|
  {
    if |cmds| > 0 {
      var t1 := Apply(t, p, cmds[..|cmds| - 1]);
      ApplyOutside(t, p, q, cmds[..|cmds| - 1]);
      var d := At(t1, p).item;
      match cmds[|cmds| - 1]
      case Task(x) =>
        ReplaceOutside(t1, p, q, Node(d, At(t1, p).children + [Fresh(x)]));
      case SetHook(h) =>
        ReplaceOutside(t1, p, q, Node(d.(hook := h), At(t1, p).children));
      case WillRepeat =>
        ReplaceOutside(t1, p, q, Node(d.(willRepeat := true), At(t1, p).children));
      case MyNameIs(n) =>
        ReplaceOutside(t1, p, q, Node(d.(name := n), At(t1, p).children));
    }
  }

  // ---------------------------------------------------------------------
  // Numbering

  function LastIndexOf(s: string, c: char): (r: Option<nat>)
    ensures r.Some? ==> r.value < |s| && s[r.value] == c
    ensures r.Some? ==> forall j :: r.value < j < |s| ==> s[j] != c
    ensures r.None? ==> NoChar(s, c)
    decreases |s|
  {
    if |s| == 0 then None
    else if s[|s| - 1] == c then Some(|s| - 1)
    else LastIndexOf(s[..|s| - 1], c)
  }

  /** The match of `^((?:[0-9]+\.)*)([0-9]+)$`: the dotted numbers up to
      and including the last dot, and the number after it. */
  function MatchNumbering(s: string): (r: Option<(string, string)>)
    ensures r.Some? ==> r.value.0 + r.value.1 == s && |r.value.1| > 0 && AllDigits(r.value.1)
    decreases |s|
  {
    match LastIndexOf(s, '.')
    case None => if |s| > 0 && AllDigits(s) then Some(("", s)) else None
    case Some(i) =>
      if i + 1 < |s| && AllDigits(s[i + 1..]) && MatchNumbering(s[..i]).Some?
      then Some((s[..i + 1], s[i + 1..]))
      else None
  }

  /** The numbering of the k-th child (counted from 1) of a node numbered
      `parent`. */
  function ChildNumbering(parent: string, k: nat): string {
    (if parent == "" then "" else parent + ".") + NatToString(k)
  }

  lemma DigitsHaveNoDot(s: string)
    requires AllDigits(s)
    ensures NoChar(s, '.')
  {
  }

  /** A child's numbering matches the pattern again, splitting at the
      parent's numbering. */
  lemma MatchChildNumbering(parent: string, k: nat)
    requires parent == "" || MatchNumbering(parent).Some?
    ensures MatchNumbering(ChildNumbering(parent, k))
            == Some((if parent == "" then "" else parent + ".", NatToString(k)))
  {
    var d := NatToString(k);
    DigitsHaveNoDot(d);
    if parent == "" {
      assert ChildNumbering(parent, k) == d;
      assert LastIndexOf(d, '.').None?;
    } else {
      MatchDotted(parent, d);
    }
  }

  lemma MatchDotted(parent: string, d: string)
    requires MatchNumbering(parent).Some?
    requires |d| > 0 && AllDigits(d)
    ensures MatchNumbering(parent + "." + d) == Some((parent + ".", d))
  {
    var s := parent + "." + d;
    var n := |parent|;
    DigitsHaveNoDot(d);
    LastDot(parent, d);
    assert s[..n] == parent;
    assert s[n + 1..] == d;
    assert s[..n + 1] == parent + ".";
  }

  lemma LastDot(x: string, d: string)
    requires NoChar(d, '.')
    ensures LastIndexOf(x + "." + d, '.') == Some(|x|)
  {
    LastIndexSkips(x + ".", d, '.');
    assert (x + ".")[|x|] == '.';
  }

  /** Appending characters other than c does not move its last occurrence. */
  lemma {:induction false} LastIndexSkips(a: string, b: string, c: char)
    requires NoChar(b, c)
    ensures LastIndexOf(a + b, c) == LastIndexOf(a, c)
    decreases |b|
  {
    if |b| == 0 {
      assert a + b == a;
    } else {
      var s := a + b;
      assert s[|s| - 1] == b[|b| - 1];
      assert s[..|s| - 1] == a + b[..|b| - 1];
      LastIndexSkips(a, b[..|b| - 1], c);
    }
  }

  function ParentOf<P, S>(t: ActTree<P, S>, p: Path): (r: Path)
    requires ValidPath(t, p) && |p| > 0
    ensures ValidPath(t, r) && r == Parent(p)
  {
    ParentValid(t, p);
    Parent(p)
  }

  function PrevSibling<P, S>(t: ActTree<P, S>, p: Path): (r: Path)
    requires ValidPath(t, p) && |p| > 0 && Last(p) > 0
    ensures ValidPath(t, r) && r == Parent(p) + [Last(p) - 1]
  {
    ParentValid(t, p);
    ChildValid(t, Parent(p), Last(p) - 1);
    Parent(p) + [Last(p) - 1]
  }

  /** `createNumbering()`: the previous sibling's numbering with its last
      number increased; a first child extends its parent's numbering by
      ".1" ("1" under an unnumbered parent); the root keeps its own. A
      previous sibling whose numbering does not match the pattern makes
      the source fail. */
  function CreateNumbering<P, S>(t: ActTree<P, S>, p: Path): Option<string>
    requires ValidPath(t, p)
  {
    if |p| == 0 then Some(At(t, p).item.numbering)
    else if Last(p) > 0 then
      match MatchNumbering(At(t, PrevSibling(t, p)).item.numbering)
      case None => None
      case Some(m) => Some(m.0 + NatToString(ParseNat(m.1) + 1))
    else
      var l := At(t, ParentOf(t, p)).item.numbering;
      Some(if l != "" then l + ".1" else "1")
  }

  /** Children numbered in order get consecutive numbers under their
      parent's: the k-th child (from 1) is numbered `parent.k`, and that
      numbering matches the pattern again. */
  lemma NumberingOfChild<P, S>(t: ActTree<P, S>, p: Path)
    requires ValidPath(t, p) && |p| > 0
    requires var l := At(t, ParentOf(t, p)).item.numbering; l == "" || MatchNumbering(l).Some?
    requires Last(p) > 0 ==>
      At(t, PrevSibling(t, p)).item.numbering == ChildNumbering(At(t, ParentOf(t, p)).item.numbering, Last(p))
    ensures CreateNumbering(t, p) == Some(ChildNumbering(At(t, ParentOf(t, p)).item.numbering, Last(p) + 1))
    ensures MatchNumbering(CreateNumbering(t, p).value).Some?
  {
    var l := At(t, ParentOf(t, p)).item.numbering;
    var k := Last(p);
    if k > 0 {
      var prev := At(t, PrevSibling(t, p)).item.numbering;
      MatchChildNumbering(l, k);
      ParseNatToString(k);
      var m := MatchNumbering(prev).value;
      assert m.0 + NatToString(ParseNat(m.1) + 1) == ChildNumbering(l, k + 1);
      assert CreateNumbering(t, p) == Some(ChildNumbering(l, k + 1));
    } else {
      assert NatToString(1) == "1";
      assert l != "" ==> (l + ".") + "1" == l + ".1";
      assert l == "" ==> "" + "1" == "1";
      assert CreateNumbering(t, p) == Some(ChildNumbering(l, k + 1));
    }
    MatchChildNumbering(l, k + 1);
  }

  // ---------------------------------------------------------------------
  // AlgorithmController

  /** The controller: the step tree, the active step, the step counter and
      the state the last step left behind (`Current.__debugResult__`). */
  datatype Ctl<P, S> = Ctl(tree: ActTree<P, S>, active: Option<Path>, stepIndex: nat, result: Option<S>)

  /** The active step exists and has a state to run on. */
  predicate Ready<P, S>(c: Ctl<P, S>) {
    c.active.Some? && ValidPath(c.tree, c.active.value) && Current(At(c.tree, c.active.value).item).Some?
  }

  /** `init`: a root step holding the initial state is active and no step
      has been taken. */
  function Init<P, S>(root: P, s: S): (r: Ctl<P, S>)
    ensures Ready(r) && r.active == Some([]) && r.stepIndex == 0 && r.result.None?
    ensures r.tree.children == [] && r.tree.item.program == root && r.tree.item.live == Some(s)
  {
    var f := Fresh(root);
    Ctl(Node(f.item.(live := Some(s)), []), Some([]), 0, None)
  }

  /** The commands the active step's program issues and the state it leaves. */
  function Ran<P, S>(c: Ctl<P, S>, run: Program<P, S>): (seq<Command<P>>, S)
    requires Ready(c)
  {
    var d := At(c.tree, c.active.value).item;
    run(d.program, Current(d).value)
  }

  /** The first steps of `step` once the program has run: the step gets
      its numbering and the state the program left, the program's commands
      take effect, and a step that asked to be repeated is `duplicate`d
      (the root never is). */
  function Perform<P, S>(t: ActTree<P, S>, cur: Path, num: string, out: (seq<Command<P>>, S)): (r: ActTree<P, S>)
    requires ValidPath(t, cur)
    ensures ValidPath(r, cur)
    ensures At(r, cur).children == At(t, cur).children + Leaves(Tasks(out.0))
    ensures var d := At(t, cur).item;
      At(r, cur).item == d.(numbering := num, live := Some(out.1), hook := HookAfter(out.0, d.hook),
                            willRepeat := d.willRepeat || Repeats(out.0), name := NameAfter(out.0, d.name))
  {
    var d := At(t, cur).item;
    var t1 := Apply(SetItem(t, cur, d.(numbering := num, live := Some(out.1))), cur, out.0);
    if |cur| > 0 && At(t1, cur).item.willRepeat then
      InsertAfterLinks(t1, cur, Fresh(d.program));
      InsertAfter(t1, cur, Fresh(d.program))
    else t1
  }

  /** The hook, run on the step at a: its commands go to that step and the
      state it leaves becomes that step's state. */
  function RunHook<P, S>(t: ActTree<P, S>, a: Path, h: Option<P>, run: Program<P, S>): (r: ActTree<P, S>)
    requires ValidPath(t, a) && Current(At(t, a).item).Some?
    ensures ValidPath(r, a) && Current(At(r, a).item).Some?
  {
    if h.None? then t
    else
      var d := At(t, a).item;
      var out := run(h.value, Current(d).value);
      Apply(SetItem(t, a, d.(live := Some(out.1))), a, out.0)
  }

  /** The rest of `step`: `getFinalizedState` archives the state and drops
      the live one; the finalized state goes to `after()`, which becomes
      the active step (without one, it is the result); then the hook runs
      on the active step. */
  function Handover<P, S>(t: ActTree<P, S>, cur: Path, fin: S -> S, run: Program<P, S>,
                          index: nat, result: Option<S>): (r: Ctl<P, S>)
    requires ValidPath(t, cur) && At(t, cur).item.live.Some?
    ensures Ready(r) && ValidPath(r.tree, cur)
  {
    var d := At(t, cur).item;
    var pre := d.live.value;
    var t3 := SetItem(t, cur, d.(archived := Some(pre), live := None));
    match Next(t3, cur)
    case None =>
      Ctl(RunHook(t3, cur, d.hook, run), Some(cur), index, Some(fin(pre)))
    case Some(n) =>
      var t4 := SetItem(t3, n, At(t3, n).item.(live := Some(fin(pre))));
      NextOutside(t3, cur);
      ReplaceOutside(t3, n, cur, Node(At(t3, n).item.(live := Some(fin(pre))), At(t3, n).children));
      RunHookOutside(t4, n, d.hook, run, cur);
      Ctl(RunHook(t4, n, d.hook, run), Some(n), index, result)
  }

  /** `step()`: number the active step, run its program, and hand over. */
  function Step<P, S>(c: Ctl<P, S>, run: Program<P, S>, fin: S -> S): (r: Result<Ctl<P, S>>)
    requires Ready(c)
    ensures r.Success? <==> CreateNumbering(c.tree, c.active.value).Some?
    ensures r.Success? ==> Ready(r.value) && ValidPath(r.value.tree, c.active.value)
    ensures r.Success? ==> r.value.stepIndex == c.stepIndex + 1
  {
    var cur := c.active.value;
    match CreateNumbering(c.tree, cur)
    case None => Failure("the previous step's numbering does not match")
    case Some(num) =>
      Success(Handover(Perform(c.tree, cur, num, Ran(c, run)), cur, fin, run, c.stepIndex + 1, c.result))
  }

  /** The tree once the active step's program has run, before the hand-over. */
  function Performed<P, S>(c: Ctl<P, S>, run: Program<P, S>): (r: ActTree<P, S>)
    requires Ready(c) && CreateNumbering(c.tree, c.active.value).Some?
    ensures ValidPath(r, c.active.value)
  {
    Perform(c.tree, c.active.value, CreateNumbering(c.tree, c.active.value).value, Ran(c, run))
  }

  // ---------------------------------------------------------------------
  // Frame lemmas

  lemma RunHookOutside<P, S>(t: ActTree<P, S>, a: Path, h: Option<P>, run: Program<P, S>, q: Path)
    requires ValidPath(t, a) && Current(At(t, a).item).Some? && ValidPath(t, q) && Outside(a, q)
    ensures Keeps(t, RunHook(t, a, h, run), q)
  {
    if h.Some? {
      var d := At(t, a).item;
      var out := run(h.value, Current(d).value);
      var s := Node(d.(live := Some(out.1)), At(t, a).children);
      ReplaceOutside(t, a, q, s);
      ApplyOutside(SetItem(t, a, d.(live := Some(out.1))), a, q, out.0);
    }
  }

  /** The hand-over changes no step outside the subtrees of the current
      step and of the step after it. */
  lemma HandoverFrame<P, S>(t: ActTree<P, S>, cur: Path, fin: S -> S, run: Program<P, S>,
                            index: nat, result: Option<S>, q: Path)
    requires ValidPath(t, cur) && At(t, cur).item.live.Some? && ValidPath(t, q) && Outside(cur, q)
    requires Next(t, cur).Some? ==> Outside(Next(t, cur).value, q)
    ensures Keeps(t, Handover(t, cur, fin, run, index, result).tree, q)
  {
    var d := At(t, cur).item;
    var pre := d.live.value;
    var t3 := SetItem(t, cur, d.(archived := Some(pre), live := None));
    ReplaceOutside(t, cur, q, Node(d.(archived := Some(pre), live := None), At(t, cur).children));
    NextSameShape(t3, t, cur);
    match Next(t3, cur)
    case None =>
      RunHookOutside(t3, cur, d.hook, run, q);
    case Some(n) =>
      var x := At(t3, n).item.(live := Some(fin(pre)));
      ReplaceOutside(t3, n, q, Node(x, At(t3, n).children));
      RunHookOutside(SetItem(t3, n, x), n, d.hook, run, q);
  }

  /** Without a step after it, the current step stays active, its state is
      archived before finalizing, the finalized state is the result, and
      the hook runs on a copy of the archived state. */
  lemma HandoverLast<P, S>(t: ActTree<P, S>, cur: Path, fin: S -> S, run: Program<P, S>,
                           index: nat, result: Option<S>)
    requires ValidPath(t, cur) && At(t, cur).item.live.Some? && Next(t, cur).None?
    ensures var r := Handover(t, cur, fin, run, index, result);
      var d := At(t, cur).item;
      r.active == Some(cur) && r.result == Some(fin(d.live.value))
      && At(r.tree, cur).item.archived == d.live
      && At(r.tree, cur).item.live == (if d.hook.None? then None else Some(run(d.hook.value, d.live.value).1))
  {
    var d := At(t, cur).item;
    var t3 := SetItem(t, cur, d.(archived := d.live, live := None));
    NextSameShape(t3, t, cur);
  }

  /** With a step after it, that step becomes active and receives the
      finalized state; the current step keeps only the archived state; the
      hook then runs on the next step's state, and its commands apply to
      the next step. */
  lemma HandoverNext<P, S>(t: ActTree<P, S>, cur: Path, fin: S -> S, run: Program<P, S>,
                           index: nat, result: Option<S>)
    requires ValidPath(t, cur) && At(t, cur).item.live.Some? && Next(t, cur).Some?
    ensures var r := Handover(t, cur, fin, run, index, result);
      var d := At(t, cur).item;
      var n := Next(t, cur).value;
      var st := fin(d.live.value);
      r.active == Some(n) && r.result == result
      && At(r.tree, cur).item.archived == d.live && At(r.tree, cur).item.live == None
      && ValidPath(r.tree, n)
      && (d.hook.None? ==> At(r.tree, n) == Node(At(t, n).item.(live := Some(st)), At(t, n).children))
      && (d.hook.Some? ==>
            var out := run(d.hook.value, st);
            var e := At(t, n).item;
            At(r.tree, n).children == At(t, n).children + Leaves(Tasks(out.0))
            && At(r.tree, n).item == e.(live := Some(out.1), hook := HookAfter(out.0, e.hook),
                                        willRepeat := e.willRepeat || Repeats(out.0),
                                        name := NameAfter(out.0, e.name)))
  {
    var d := At(t, cur).item;
    var pre := d.live.value;
    var y := d.(archived := Some(pre), live := None);
    var t3 := SetItem(t, cur, y);
    NextSameShape(t3, t, cur);
    var n := Next(t, cur).value;
    NextOutside(t, cur);
    ReplaceSameChildren(t, cur, Node(y, At(t, cur).children), n);
    assert At(t3, n) == At(t, n);
    var x := At(t3, n).item.(live := Some(fin(pre)));
    var t4 := SetItem(t3, n, x);
    ReplaceOutside(t3, n, cur, Node(x, At(t3, n).children));
    RunHookOutside(t4, n, d.hook, run, cur);
  }

  /** Running the program leaves the parent's children as they were, except
      that a step that asked to be repeated gets a fresh copy of itself, with
      the same program, as its next sibling. */
  lemma PerformDuplicates<P, S>(t: ActTree<P, S>, cur: Path, num: string, out: (seq<Command<P>>, S))
    requires ValidPath(t, cur) && |cur| > 0
    ensures var rep := At(t, cur).item.willRepeat || Repeats(out.0);
      var r := Perform(t, cur, num, out);
      var q := Parent(cur) + [Last(cur) + 1];
      ValidPath(t, Parent(cur)) && ValidPath(r, Parent(cur))
      && |At(r, Parent(cur)).children| == |At(t, Parent(cur)).children| + (if rep then 1 else 0)
      && (rep ==> ValidPath(r, q) && At(r, q) == Fresh(At(t, cur).item.program) && Up(r, cur) == Some(q))
  {
    var d := At(t, cur).item;
    var x := d.(numbering := num, live := Some(out.1));
    var t0 := SetItem(t, cur, x);
    ParentValid(t, cur);
    assert Outside(cur, Parent(cur));
    ReplaceOutside(t, cur, Parent(cur), Node(x, At(t, cur).children));
    ApplyOutside(t0, cur, Parent(cur), out.0);
    var t1 := Apply(t0, cur, out.0);
    if At(t1, cur).item.willRepeat {
      InsertAfterLinks(t1, cur, Fresh(d.program));
    }
  }

  // ---------------------------------------------------------------------
  // What one step does

  /** `getFinalizedState` archives the state the program left, before it is
      finalized; the step after the current one (if any) becomes active and
      the current step drops its live state; without one, the finalized
      state is the result and the current step stays active. */
  lemma StepArchives<P, S>(c: Ctl<P, S>, run: Program<P, S>, fin: S -> S)
    requires Ready(c) && Step(c, run, fin).Success?
    ensures var r := Step(c, run, fin).value;
      var cur := c.active.value;
      var pre := Ran(c, run).1;
      var after := Next(Performed(c, run), cur);
      At(r.tree, cur).item.archived == Some(pre)
      && (after.None? ==> r.active == Some(cur) && r.result == Some(fin(pre)))
      && (after.Some? ==> r.active == after && r.result == c.result && At(r.tree, cur).item.live == None)
  {
    var t := Performed(c, run);
    var cur := c.active.value;
    if Next(t, cur).Some? {
      HandoverNext(t, cur, fin, run, c.stepIndex + 1, c.result);
    } else {
      HandoverLast(t, cur, fin, run, c.stepIndex + 1, c.result);
    }
  }

  /** The hook runs only after the hand-over: the next step receives the
      finalized state, and whatever the hook does (its state changes and
      its commands) lands in the next step. */
  lemma StepRunsHookOnNext<P, S>(c: Ctl<P, S>, run: Program<P, S>, fin: S -> S)
    requires Ready(c) && Step(c, run, fin).Success?
    requires Next(Performed(c, run), c.active.value).Some?
    ensures var r := Step(c, run, fin).value;
      var t := Performed(c, run);
      var n := Next(t, c.active.value).value;
      var h := At(t, c.active.value).item.hook;
      var st := fin(Ran(c, run).1);
      ValidPath(r.tree, n) && r.active == Some(n)
      && (h.None? ==> At(r.tree, n).item == At(t, n).item.(live := Some(st)))
      && (h.Some? ==>
            var out := run(h.value, st);
            At(r.tree, n).item.live == Some(out.1)
            && At(r.tree, n).children == At(t, n).children + Leaves(Tasks(out.0)))
  {
    HandoverNext(Performed(c, run), c.active.value, fin, run, c.stepIndex + 1, c.result);
  }

  /** The hand-over keeps the parent's children count, and a sibling right
      after the current step keeps its program, numbering and archive. */
  lemma HandoverKeepsSiblings<P, S>(t: ActTree<P, S>, cur: Path, fin: S -> S, run: Program<P, S>,
                                    index: nat, result: Option<S>)
    requires ValidPath(t, cur) && At(t, cur).item.live.Some? && |cur| > 0
    ensures var r := Handover(t, cur, fin, run, index, result);
      var q := Parent(cur) + [Last(cur) + 1];
      Keeps(t, r.tree, Parent(cur))
      && (ValidPath(t, q) ==>
            ValidPath(r.tree, q) && At(r.tree, q).item.program == At(t, q).item.program
            && At(r.tree, q).item.numbering == At(t, q).item.numbering
            && At(r.tree, q).item.archived == At(t, q).item.archived)
  {
    var q := Parent(cur) + [Last(cur) + 1];
    ParentValid(t, cur);
    assert Outside(cur, Parent(cur));
    if Next(t, cur).Some? {
      NextOutside(t, cur);
      OutsideParent(Next(t, cur).value, cur);
    }
    HandoverFrame(t, cur, fin, run, index, result, Parent(cur));
    if ValidPath(t, q) {
      assert Outside(cur, q) by {
        assert cur[..|cur|] == cur;
      }
      if Next(t, cur) == Some(q) {
        HandoverNext(t, cur, fin, run, index, result);
      } else {
        if Next(t, cur).Some? {
          NextOutside(t, cur);
        }
        HandoverFrame(t, cur, fin, run, index, result, q);
      }
    }
  }

  /** A step other than the root that asked to be repeated gets a fresh
      copy with its program as its next sibling, which is still there, not
      yet run, after the step; a step that did not ask leaves its parent's
      children as they were. */
  lemma StepDuplicates<P, S>(c: Ctl<P, S>, run: Program<P, S>, fin: S -> S)
    requires Ready(c) && Step(c, run, fin).Success? && |c.active.value| > 0
    ensures var r := Step(c, run, fin).value;
      var cur := c.active.value;
      var d := At(c.tree, cur).item;
      var rep := d.willRepeat || Repeats(Ran(c, run).0);
      var q := Parent(cur) + [Last(cur) + 1];
      ValidPath(c.tree, Parent(cur)) && ValidPath(r.tree, Parent(cur))
      && |At(r.tree, Parent(cur)).children| == |At(c.tree, Parent(cur)).children| + (if rep then 1 else 0)
      && (rep ==> ValidPath(r.tree, q) && At(r.tree, q).item.program == d.program
                  && At(r.tree, q).item.numbering == "" && At(r.tree, q).item.archived.None?)
  {
    var cur := c.active.value;
    PerformDuplicates(c.tree, cur, CreateNumbering(c.tree, cur).value, Ran(c, run));
    HandoverKeepsSiblings(Performed(c, run), cur, fin, run, c.stepIndex + 1, c.result);
  }

  // ---------------------------------------------------------------------
  // Running the whole tree

  /** `finished()`: the first step under the root becomes active (none
      when the root queued nothing). */
  function Finished<P, S>(c: Ctl<P, S>): (r: Ctl<P, S>)
    ensures r.active.Some? <==> |c.tree.children| > 0
    ensures r.active.Some? ==> r.active.value == [0] && ValidPath(r.tree, [0])
    ensures r.tree == c.tree && r.result == c.result
  {
    if |c.tree.children| > 0 then
      ChildValid(c.tree, [], 0);
      c.(active := Some([0]))
    else c.(active := None)
  }

  /** Steps until a step has nothing after it, then `finished()`. After
      each step the source asks `after()` of the step just taken, so a hook
      on the last step that queues a task makes the controller take the
      same active step again. The fuel bounds the number of steps. */
  function Run<P, S>(c: Ctl<P, S>, run: Program<P, S>, fin: S -> S, fuel: nat): (r: Result<Ctl<P, S>>)
    requires Ready(c)
    ensures r.Success? ==> r.value.stepIndex > c.stepIndex
    ensures r.Success? ==> (r.value.active.Some? <==> |r.value.tree.children| > 0)
    decreases fuel
  {
    if fuel == 0 then Failure("out of fuel")
    else match Step(c, run, fin)
      case Failure(e) => Failure(e)
      case Success(c1) =>
        if Next(c1.tree, c.active.value).Some? then
          match Run(c1, run, fin, fuel - 1)
          case Failure(e) => Failure(e)
          case Success(c2) => Success(c2)
        else Success(Finished(c1))
  }

  /** `execute()`: the root becomes active and the steps run. */
  function Execute<P, S>(c: Ctl<P, S>, run: Program<P, S>, fin: S -> S, fuel: nat): (r: Result<Ctl<P, S>>)
    requires c.active.Some? ==> Ready(c)
    requires Current(c.tree.item).Some?
    ensures r.Success? ==> r.value.stepIndex > c.stepIndex
  {
    Run(c.(active := Some([])), run, fin, fuel)
  }
}

=== FILE: conversion_finalize.dfy ===
/** `modifyHighlights` of a conversion grammar: `finalize` makes the edits a
    step asked for take effect (REMOVED symbols and rules go, every other tag
    decays), `cleanHighlights` only resets the tags
    (js/structures/ConversionGrammar.js). */
module ConversionFinalize {
  import opened Wrappers
  import opened Highlights
  import opened Objects
  import opened Symbols
  import opened Words
  import opened Rules
  import opened Grammars
  import opened GrammarEdits
  import opened RichInputs
  import opened ConversionGrammars

  // ----- the visits -----

  /** The tag a visited symbol or rule that stays is asked to take. */
  function Settled(h: Highlight, clean: bool): (r: Highlight)
    ensures r == (if h == REMOVED then REMOVED else if clean then NONE else Decay(h))
  {
    DecayThroughPrecedence(h);
    Apply(h, if clean then NONE else Decay(h))
  }

  /** A visit deletes what is tagged REMOVED, unless it only cleans. */
  predicate Deletes(h: Highlight, clean: bool) {
    h == REMOVED && !clean
  }

  /** The symbol handler: a REMOVED symbol goes through `removeSymbol` (which
      may refuse), any other symbol takes its settled tag. */
  function VisitSymbol(g: Grammar, s: Symbol, clean: bool): Grammar {
    var a := Alphabet(g, KindOf(s));
    var x := s.Text();
    if x !in a.values then g
    else if Deletes(a.values[x], clean) && RemoveSymbol(g, s).value then RemoveSymbol(g, s).grammar
    else SetAlphabet(g, KindOf(s), Put(a, x, Settled(a.values[x], clean)))
  }

  function VisitSymbols(g: Grammar, xs: seq<Symbol>, clean: bool): Grammar
    decreases |xs|
  {
    if xs == [] then g else VisitSymbols(VisitSymbol(g, xs[0], clean), xs[1..], clean)
  }

  function AsSymbols(kind: Kind, xs: seq<string>): (r: seq<Symbol>)
    ensures |r| == |xs| && forall i :: 0 <= i < |xs| ==> r[i] == SymbolOf(kind, xs[i])
  {
    seq(|xs|, i requires 0 <= i < |xs| => SymbolOf(kind, xs[i]))
  }

  /** `forEachSymbol(handler)`: the start symbol, the other nonterminals as
      they were keyed when the walk began, then the terminals as keyed when
      the nonterminal walk ended. */
  function SymbolPass(g: Grammar, clean: bool): Grammar {
    var g1 := VisitSymbols(g, AsSymbols(NonterminalKind, ForEachNonterminalOrder(g, g.start)), clean);
    VisitSymbols(g1, AsSymbols(TerminalKind, g1.t.keys), clean)
  }

  /** The (left side, right key) pairs of the rules in `forEachRule` order. */
  function RuleKeys(lefts: seq<string>, p: map<string, Dict<Rule>>): (r: seq<(string, string)>)
    ensures forall L, k :: (L, k) in r <==> L in lefts && L in p && k in p[L].values
    decreases |lefts|
  {
    if lefts == [] then []
    else
      var here := if lefts[0] in p then GroupKeys(lefts[0], p[lefts[0]].keys) else [];
      here + RuleKeys(lefts[1..], p)
  }

  function GroupKeys(L: string, keys: seq<string>): (r: seq<(string, string)>)
    ensures |r| == |keys| && forall i :: 0 <= i < |keys| ==> r[i] == (L, keys[i])
  {
    seq(|keys|, i requires 0 <= i < |keys| => (L, keys[i]))
  }

  /** The rule handler: a REMOVED rule goes through `removeRule`, any other
      rule takes its settled tag. */
  function VisitRule(g: Grammar, L: string, k: string, clean: bool): Result<Grammar> {
    match TryGetRule(g, L, k)
    case None => Success(g)
    case Some(rule) =>
      if Deletes(rule.tag, clean) then RemoveRule(g, rule)
      else Success(AskRuleTag(g, L, k, if clean then NONE else Decay(rule.tag)))
  }

  function VisitRules(g: Grammar, ks: seq<(string, string)>, clean: bool): Result<Grammar>
    decreases |ks|
  {
    if ks == [] then Success(g)
    else
      var g' :- VisitRule(g, ks[0].0, ks[0].1, clean);
      VisitRules(g', ks[1..], clean)
  }

  /** `modifyHighlights(clean)`: every symbol, then every rule present after
      the symbols were handled. */
  function ModifyHighlights(g: Grammar, clean: bool): Result<Grammar> {
    var g1 := SymbolPass(g, clean);
    VisitRules(g1, RuleKeys(g1.p.keys, g1.p.values), clean)
  }

  function Finalize(g: Grammar): Result<Grammar> {
    ModifyHighlights(g, false)
  }

  function CleanHighlights(g: Grammar): Result<Grammar> {
    ModifyHighlights(g, true)
  }

  // ----- what a pass keeps -----

  /** The rule's left side and every symbol of its right side are in the
      grammar's alphabets. */
  predicate SymbolsPresent(g: Grammar, rule: Rule) {
    rule.left in g.n.values
    && forall i :: 0 <= i < |rule.right| ==> rule.right[i].Text() in g.n.values || rule.right[i].Text() in g.t.values
  }

  /** What a visited symbol that had tag h0 has become in alphabet a. */
  predicate SymbolSettled(h0: Highlight, a: Dict<Highlight>, x: string, clean: bool) {
    if Deletes(h0, clean) then x !in a.values || a.values[x] == REMOVED
    else x in a.values && a.values[x] == Settled(h0, clean)
  }

  /** Alphabet a0 after the symbols in D were visited: nothing new, the
      unvisited ones untouched, the visited ones settled. */
  predicate AlphabetAfter(a0: Dict<Highlight>, a: Dict<Highlight>, D: set<string>, clean: bool) {
    (forall x :: x in a.values ==> x in a0.values)
    && (forall x :: x in a0.values && x !in D ==> x in a.values && a.values[x] == a0.values[x])
    && (forall x :: x in a0.values && x in D ==> SymbolSettled(a0.values[x], a, x, clean))
  }

  /** The rules of g are exactly those of g0 whose symbols are all still
      there. */
  ghost predicate RulesFollowSymbols(g0: Grammar, g: Grammar) {
    forall L, k :: TryGetRule(g, L, k)
                   == if TryGetRule(g0, L, k).Some? && SymbolsPresent(g, TryGetRule(g0, L, k).value)
                      then TryGetRule(g0, L, k) else None
  }

  ghost predicate SymbolPassAfter(g0: Grammar, g: Grammar, D: set<string>, clean: bool) {
    Valid(g) && g.start == g0.start
    && AlphabetAfter(g0.n, g.n, D, clean) && AlphabetAfter(g0.t, g.t, D, clean)
    && RulesFollowSymbols(g0, g)
  }

  /** The rule an untouched rule becomes once visited. */
  function SettledRule(r: Option<Rule>, clean: bool): Option<Rule> {
    match r
    case None => None
    case Some(rule) =>
      if Deletes(rule.tag, clean) then None
      else Some(HighlightRule(rule, if clean then NONE else Decay(rule.tag)))
  }

  ghost predicate RulePassAfter(g1: Grammar, g: Grammar, D: set<(string, string)>, clean: bool) {
    Valid(g) && g.n.values == g1.n.values && g.t.values == g1.t.values && g.start == g1.start
    && forall L, k :: TryGetRule(g, L, k)
                      == if (L, k) in D then SettledRule(TryGetRule(g1, L, k), clean) else TryGetRule(g1, L, k)
  }

  // ----- the symbol pass -----

  /** Every rule of a well-formed grammar has its symbols in the grammar. */
  lemma StoredRulesPresent(g: Grammar)
    requires Valid(g)
    ensures RulesFollowSymbols(g, g)
  {
    forall L, k | TryGetRule(g, L, k).Some? ensures SymbolsPresent(g, TryGetRule(g, L, k).value) {
      var rule := TryGetRule(g, L, k).value;
      assert RuleWellFormed(g.n, g.t, L, k, rule);
    }
  }

  /** Retagging a visited symbol settles it in its alphabet. */
  lemma AlphabetRetag(a0: Dict<Highlight>, a: Dict<Highlight>, D: set<string>, x: string, clean: bool)
    requires AlphabetAfter(a0, a, D, clean) && x in a0.values && x !in D
    requires Deletes(a.values[x], clean) ==> Settled(a.values[x], clean) == REMOVED
    ensures AlphabetAfter(a0, Put(a, x, Settled(a.values[x], clean)), D + {x}, clean)
  {
  }

  /** Removing a visited symbol settles it in its alphabet. */
  lemma AlphabetRemove(a0: Dict<Highlight>, a: Dict<Highlight>, a': Dict<Highlight>, D: set<string>, x: string, clean: bool)
    requires AlphabetAfter(a0, a, D, clean) && x in a0.values && x !in D && Deletes(a0.values[x], clean)
    requires a'.values == a.values - {x}
    ensures AlphabetAfter(a0, a', D + {x}, clean)
  {
  }

  /** A symbol of the other alphabet leaves this one as it was. */
  lemma AlphabetOther(a0: Dict<Highlight>, a: Dict<Highlight>, a': Dict<Highlight>, D: set<string>, x: string, clean: bool)
    requires AlphabetAfter(a0, a, D, clean) && x !in a0.values
    requires a'.values == a.values - {x} || a'.values == a.values
    ensures AlphabetAfter(a0, a', D + {x}, clean)
  {
    forall y | y in a0.values
      ensures y != x && (y in a'.values <==> y in a.values) && (y in a'.values ==> a'.values[y] == a.values[y])
    {
    }
    forall y | y in a0.values && y in D + {x} ensures SymbolSettled(a0.values[y], a', y, clean) {
      assert SymbolSettled(a0.values[y], a, y, clean);
    }
  }

  /** Rules depend on the alphabets' texts only. */
  lemma RulesSameTexts(g0: Grammar, g: Grammar, g': Grammar)
    requires RulesFollowSymbols(g0, g)
    requires g'.p == g.p && g'.n.values.Keys == g.n.values.Keys && g'.t.values.Keys == g.t.values.Keys
    ensures RulesFollowSymbols(g0, g')
  {
    forall L, k ensures TryGetRule(g', L, k) == TryGetRule(g, L, k) {
    }
    forall rule: Rule ensures SymbolsPresent(g', rule) == SymbolsPresent(g, rule) {
    }
  }

  /** Retagging a symbol in place settles it and changes nothing else. */
  lemma RetagStep(g0: Grammar, g: Grammar, D: set<string>, kind: Kind, x: string, clean: bool)
    requires Valid(g0) && SymbolPassAfter(g0, g, D, clean)
    requires x in Alphabet(g0, kind).values && x !in D
    ensures var a := Alphabet(g, kind);
            SymbolPassAfter(g0, SetAlphabet(g, kind, Put(a, x, Settled(a.values[x], clean))), D + {x}, clean)
  {
    var a := Alphabet(g, kind);
    var a' := Put(a, x, Settled(a.values[x], clean));
    var g' := SetAlphabet(g, kind, a');
    AlphabetsDisjoint(g0.n, g0.t, x);
    SameTextsKeepValid(g, g');
    RulesSameTexts(g0, g, g');
    AlphabetRetag(Alphabet(g0, kind), a, D, x, clean);
    if kind == NonterminalKind {
      AlphabetOther(g0.t, g.t, g'.t, D, x, clean);
    } else {
      AlphabetOther(g0.n, g.n, g'.n, D, x, clean);
    }
  }

  /** What the removal of x does to one stored rule of g0. */
  lemma RemovalKeepsRule(g0: Grammar, g: Grammar, g': Grammar, s: Symbol, L: string, k: string)
    requires Valid(g0) && RulesFollowSymbols(g0, g)
    requires g'.n.values == g.n.values - {s.Text()} && g'.t.values == g.t.values - {s.Text()}
    requires TryGetRule(g', L, k).Some?
             <==> TryGetRule(g, L, k).Some? && L != s.Text() && !Contains(g.p.values[L].values[k].right, s)
    requires TryGetRule(g', L, k).Some? ==> TryGetRule(g', L, k) == TryGetRule(g, L, k)
    ensures TryGetRule(g', L, k)
            == if TryGetRule(g0, L, k).Some? && SymbolsPresent(g', TryGetRule(g0, L, k).value)
               then TryGetRule(g0, L, k) else None
  {
    assert TryGetRule(g, L, k)
           == if TryGetRule(g0, L, k).Some? && SymbolsPresent(g, TryGetRule(g0, L, k).value)
              then TryGetRule(g0, L, k) else None;
    if TryGetRule(g0, L, k).Some? {
      var rule := TryGetRule(g0, L, k).value;
      assert RuleWellFormed(g0.n, g0.t, L, k, rule);
      if SymbolsPresent(g', rule) {
        assert SymbolsPresent(g, rule);
        assert !Contains(rule.right, s);
      } else if TryGetRule(g, L, k).Some? {
        LostSymbolIsRemoved(g, g', rule, s);
      }
    }
  }

  /** A rule whose symbols were all present before the removal of s and are
      not all present after it mentions s. */
  lemma LostSymbolIsRemoved(g: Grammar, g': Grammar, rule: Rule, s: Symbol)
    requires g'.n.values == g.n.values - {s.Text()} && g'.t.values == g.t.values - {s.Text()}
    requires SymbolsPresent(g, rule) && !SymbolsPresent(g', rule)
    ensures rule.left == s.Text() || Contains(rule.right, s)
  {
    if rule.left != s.Text() {
      var i :| 0 <= i < |rule.right| && !(rule.right[i].Text() in g'.n.values || rule.right[i].Text() in g'.t.values);
      assert Equals(rule.right[i], s);
    }
  }

  /** A symbol removal that is not refused settles the symbol and takes
      exactly the rules that mention it. */
  lemma RemovalStep(g0: Grammar, g: Grammar, D: set<string>, kind: Kind, x: string, clean: bool)
    requires Valid(g0) && SymbolPassAfter(g0, g, D, clean)
    requires x in Alphabet(g0, kind).values && x !in D
    requires Deletes(Alphabet(g, kind).values[x], clean) && RemoveSymbol(g, SymbolOf(kind, x)).value
    ensures SymbolPassAfter(g0, RemoveSymbol(g, SymbolOf(kind, x)).grammar, D + {x}, clean)
  {
    var s := SymbolOf(kind, x);
    var g' := RemoveSymbol(g, s).grammar;
    AlphabetsDisjoint(g0.n, g0.t, x);
    assert Constructible(s);
    RemoveSymbolSpec(g, s, "", "");
    forall L, k
      ensures TryGetRule(g', L, k)
              == if TryGetRule(g0, L, k).Some? && SymbolsPresent(g', TryGetRule(g0, L, k).value)
                 then TryGetRule(g0, L, k) else None
    {
      RemoveSymbolSpec(g, s, L, k);
      RemovalKeepsRule(g0, g, g', s, L, k);
    }
    if kind == NonterminalKind {
      AlphabetRemove(g0.n, g.n, g'.n, D, x, clean);
      AlphabetOther(g0.t, g.t, g'.t, D, x, clean);
    } else {
      AlphabetRemove(g0.t, g.t, g'.t, D, x, clean);
      AlphabetOther(g0.n, g.n, g'.n, D, x, clean);
    }
  }

  lemma VisitSymbolStep(g0: Grammar, g: Grammar, D: set<string>, kind: Kind, x: string, clean: bool)
    requires Valid(g0) && SymbolPassAfter(g0, g, D, clean)
    requires x in Alphabet(g0, kind).values && x !in D
    ensures SymbolPassAfter(g0, VisitSymbol(g, SymbolOf(kind, x), clean), D + {x}, clean)
  {
    var s := SymbolOf(kind, x);
    assert KindOf(s) == kind && s.Text() == x;
    var a := Alphabet(g, kind);
    if Deletes(a.values[x], clean) && RemoveSymbol(g, s).value {
      RemovalStep(g0, g, D, kind, x, clean);
    } else {
      RetagStep(g0, g, D, kind, x, clean);
    }
  }

  /** Visiting xs after D leaves every symbol of E = D + xs visited. */
  lemma {:induction false} VisitSymbolsSpec(g0: Grammar, g: Grammar, D: set<string>, E: set<string>, kind: Kind,
                                             xs: seq<string>, clean: bool)
    requires Valid(g0) && SymbolPassAfter(g0, g, D, clean) && Distinct(xs)
    requires forall i :: 0 <= i < |xs| ==> xs[i] in Alphabet(g0, kind).values && xs[i] !in D
    requires forall x :: x in E <==> x in D || x in xs
    ensures SymbolPassAfter(g0, VisitSymbols(g, AsSymbols(kind, xs), clean), E, clean)
    decreases |xs|
  {
    if xs == [] {
      assert E == D;
    } else {
      VisitSymbolStep(g0, g, D, kind, xs[0], clean);
      TailFacts(xs, D, Alphabet(g0, kind).values.Keys);
      VisitSymbolsUnfold(g, kind, xs, clean);
      VisitSymbolsSpec(g0, VisitSymbol(g, SymbolOf(kind, xs[0]), clean), D + {xs[0]}, E, kind, xs[1..], clean);
    }
  }

  lemma VisitSymbolsUnfold(g: Grammar, kind: Kind, xs: seq<string>, clean: bool)
    requires xs != []
    ensures VisitSymbols(g, AsSymbols(kind, xs), clean)
            == VisitSymbols(VisitSymbol(g, SymbolOf(kind, xs[0]), clean), AsSymbols(kind, xs[1..]), clean)
  {
    assert AsSymbols(kind, xs)[1..] == AsSymbols(kind, xs[1..]);
  }

  /** After the symbol pass every symbol has been visited once. */
  lemma SymbolPassSpec(g: Grammar, clean: bool)
    requires Valid(g)
    ensures SymbolPassAfter(g, SymbolPass(g, clean), g.n.values.Keys + g.t.values.Keys, clean)
  {
    var D := g.n.values.Keys;
    var g1 := NonterminalPass(g, clean);
    forall y | y in g.t.values ensures y !in D {
      AlphabetsDisjoint(g.n, g.t, y);
    }
    UnvisitedAlphabet(g.t, g1.t, D, clean);
    VisitSymbolsSpec(g, g1, D, g.n.values.Keys + g.t.values.Keys, TerminalKind, g1.t.keys, clean);
  }

  lemma NonterminalPass(g: Grammar, clean: bool) returns (g1: Grammar)
    requires Valid(g)
    ensures g1 == VisitSymbols(g, AsSymbols(NonterminalKind, ForEachNonterminalOrder(g, g.start)), clean)
    ensures SymbolPassAfter(g, g1, g.n.values.Keys, clean)
  {
    StoredRulesPresent(g);
    var xs := ForEachNonterminalOrder(g, g.start);
    assert xs == NonterminalOrder(g);
    VisitSymbolsSpec(g, g, {}, g.n.values.Keys, NonterminalKind, xs, clean);
    g1 := VisitSymbols(g, AsSymbols(NonterminalKind, xs), clean);
  }

  /** An alphabet none of whose symbols was visited is as it was. */
  lemma UnvisitedAlphabet(a0: Dict<Highlight>, a: Dict<Highlight>, D: set<string>, clean: bool)
    requires AlphabetAfter(a0, a, D, clean)
    requires forall x :: x in a0.values ==> x !in D
    ensures a.values == a0.values
  {
  }

  // ----- the rule pass -----

  lemma DistinctConcat<T>(a: seq<T>, b: seq<T>)
    requires Distinct(a) && Distinct(b) && forall x :: x in a ==> x !in b
    ensures Distinct(a + b)
  {
    forall i, j | 0 <= i < j < |a + b| ensures (a + b)[i] != (a + b)[j] {
      if j >= |a| && i < |a| {
        assert (a + b)[i] in a && (a + b)[j] in b;
      }
    }
  }

  lemma {:induction false} RuleKeysDistinct(lefts: seq<string>, p: map<string, Dict<Rule>>)
    requires Distinct(lefts)
    ensures Distinct(RuleKeys(lefts, p))
    decreases |lefts|
  {
    if lefts != [] {
      var here := if lefts[0] in p then GroupKeys(lefts[0], p[lefts[0]].keys) else [];
      RuleKeysDistinct(lefts[1..], p);
      assert lefts[0] !in lefts[1..];
      assert RuleKeys(lefts, p) == here + RuleKeys(lefts[1..], p);
      DistinctConcat(here, RuleKeys(lefts[1..], p));
    }
  }

  /** Visiting one rule settles it and changes no other rule. */
  lemma VisitRuleStep(g1: Grammar, g: Grammar, D: set<(string, string)>, L: string, k: string, clean: bool)
    requires RulePassAfter(g1, g, D, clean) && (L, k) !in D
    ensures VisitRule(g, L, k, clean).Success?
    ensures RulePassAfter(g1, VisitRule(g, L, k, clean).value, D + {(L, k)}, clean)
  {
    assert TryGetRule(g, L, k) == TryGetRule(g1, L, k);
    match TryGetRule(g, L, k)
    case None =>
    case Some(rule) =>
      assert RuleWellFormed(g.n, g.t, L, k, rule);
      if Deletes(rule.tag, clean) {
        DeletionStep(g1, g, D, rule, clean);
      } else {
        RetagRuleStep(g1, g, D, L, k, clean);
      }
  }

  lemma DeletionStep(g1: Grammar, g: Grammar, D: set<(string, string)>, rule: Rule, clean: bool)
    requires RulePassAfter(g1, g, D, clean) && (rule.left, ToString(rule.right)) !in D
    requires TryGetRule(g, rule.left, ToString(rule.right)) == Some(rule) && Deletes(rule.tag, clean)
    ensures RemoveRule(g, rule).Success?
    ensures RulePassAfter(g1, RemoveRule(g, rule).value, D + {(rule.left, ToString(rule.right))}, clean)
  {
    var r := RemoveRule(g, rule).value;
    DeleteRuleSpec(g, rule, "", "");
    forall L', k' ensures TryGetRule(r, L', k')
                          == if (L', k') in D + {(rule.left, ToString(rule.right))}
                             then SettledRule(TryGetRule(g1, L', k'), clean) else TryGetRule(g1, L', k') {
      DeletionPoint(g1, g, D, rule, clean, L', k');
    }
  }

  /** One lookup after a deletion: the deleted key now reads as its settled
      (absent) form and every other key reads as before. */
  lemma DeletionPoint(g1: Grammar, g: Grammar, D: set<(string, string)>, rule: Rule, clean: bool, L': string, k': string)
    requires Valid(g) && (rule.left, ToString(rule.right)) !in D
    requires TryGetRule(g, rule.left, ToString(rule.right)) == Some(rule) == TryGetRule(g1, rule.left, ToString(rule.right))
    requires Deletes(rule.tag, clean)
    requires TryGetRule(g, L', k')
             == if (L', k') in D then SettledRule(TryGetRule(g1, L', k'), clean) else TryGetRule(g1, L', k')
    ensures RemoveRule(g, rule).Success?
    ensures TryGetRule(RemoveRule(g, rule).value, L', k')
            == if (L', k') in D + {(rule.left, ToString(rule.right))}
               then SettledRule(TryGetRule(g1, L', k'), clean) else TryGetRule(g1, L', k')
  {
    DeleteRuleSpec(g, rule, L', k');
    DeletionValue(TryGetRule(g, L', k'), TryGetRule(RemoveRule(g, rule).value, L', k'), TryGetRule(g1, L', k'),
                  (L', k'), (rule.left, ToString(rule.right)), D, rule, clean);
  }

  /** The bookkeeping of `DeletionPoint` on the looked-up values alone. */
  lemma DeletionValue(before: Option<Rule>, after: Option<Rule>, orig: Option<Rule>, x: (string, string),
                      key: (string, string), D: set<(string, string)>, rule: Rule, clean: bool)
    requires key !in D && Deletes(rule.tag, clean)
    requires x != key ==> after == before
    requires x == key ==> after.None? && orig == Some(rule)
    requires before == if x in D then SettledRule(orig, clean) else orig
    ensures after == if x in D + {key} then SettledRule(orig, clean) else orig
  { }

  lemma RetagRuleStep(g1: Grammar, g: Grammar, D: set<(string, string)>, L: string, k: string, clean: bool)
    requires RulePassAfter(g1, g, D, clean) && (L, k) !in D
    requires TryGetRule(g, L, k).Some? && !Deletes(TryGetRule(g, L, k).value.tag, clean)
    ensures var h := if clean then NONE else Decay(TryGetRule(g, L, k).value.tag);
            RulePassAfter(g1, AskRuleTag(g, L, k, h), D + {(L, k)}, clean)
  {
    var h := if clean then NONE else Decay(TryGetRule(g, L, k).value.tag);
    var r := AskRuleTag(g, L, k, h);
    AskRuleTagSpec(g, L, k, h, L, k);
    forall L', k' ensures TryGetRule(r, L', k')
                          == if (L', k') in D + {(L, k)} then SettledRule(TryGetRule(g1, L', k'), clean) else TryGetRule(g1, L', k') {
      RetagRulePoint(g1, g, D, L, k, clean, L', k');
    }
  }

  lemma RetagRulePoint(g1: Grammar, g: Grammar, D: set<(string, string)>, L: string, k: string, clean: bool, L': string, k': string)
    requires Valid(g) && (L, k) !in D && TryGetRule(g, L, k) == TryGetRule(g1, L, k)
    requires TryGetRule(g, L', k')
             == if (L', k') in D then SettledRule(TryGetRule(g1, L', k'), clean) else TryGetRule(g1, L', k')
    requires TryGetRule(g, L, k).Some? && !Deletes(TryGetRule(g, L, k).value.tag, clean)
    ensures var h := if clean then NONE else Decay(TryGetRule(g, L, k).value.tag);
            TryGetRule(AskRuleTag(g, L, k, h), L', k')
            == if (L', k') in D + {(L, k)} then SettledRule(TryGetRule(g1, L', k'), clean) else TryGetRule(g1, L', k')
  {
    var h := if clean then NONE else Decay(TryGetRule(g, L, k).value.tag);
    AskRuleTagSpec(g, L, k, h, L', k');
  }

  lemma {:induction false} VisitRulesSpec(g1: Grammar, g: Grammar, D: set<(string, string)>, E: set<(string, string)>,
                                           ks: seq<(string, string)>, clean: bool)
    requires RulePassAfter(g1, g, D, clean) && Distinct(ks)
    requires forall i :: 0 <= i < |ks| ==> ks[i] !in D
    requires forall x :: x in E <==> x in D || x in ks
    ensures VisitRules(g, ks, clean).Success?
    ensures RulePassAfter(g1, VisitRules(g, ks, clean).value, E, clean)
    decreases |ks|
  {
    if ks == [] {
      assert E == D;
    } else {
      VisitRuleStep(g1, g, D, ks[0].0, ks[0].1, clean);
      TailFacts(ks, D, E);
      VisitRulesSpec(g1, VisitRule(g, ks[0].0, ks[0].1, clean).value, D + {ks[0]}, E, ks[1..], clean);
    }
  }

  lemma TailFacts<T>(xs: seq<T>, D: set<T>, A: set<T>)
    requires Distinct(xs) && xs != []
    requires forall i :: 0 <= i < |xs| ==> xs[i] in A && xs[i] !in D
    ensures Distinct(xs[1..])
    ensures forall i :: 0 <= i < |xs[1..]| ==> xs[1..][i] in A && xs[1..][i] !in D + {xs[0]}
    ensures forall x :: x in xs <==> x == xs[0] || x in xs[1..]
  {
    forall i | 0 <= i < |xs[1..]| ensures xs[1..][i] !in D + {xs[0]} {
      assert xs[1..][i] == xs[i + 1];
    }
    assert xs == [xs[0]] + xs[1..];
  }

  /** After the rule pass every rule present after the symbol pass is
      settled. */
  lemma RulePassSpec(g1: Grammar, clean: bool, L: string, k: string)
    requires Valid(g1)
    ensures VisitRules(g1, RuleKeys(g1.p.keys, g1.p.values), clean).Success?
    ensures var r := VisitRules(g1, RuleKeys(g1.p.keys, g1.p.values), clean).value;
            && Valid(r) && r.n.values == g1.n.values && r.t.values == g1.t.values && r.start == g1.start
            && TryGetRule(r, L, k) == SettledRule(TryGetRule(g1, L, k), clean)
  {
    var ks := RuleKeys(g1.p.keys, g1.p.values);
    RuleKeysDistinct(g1.p.keys, g1.p.values);
    var E := set x | x in ks;
    VisitRulesSpec(g1, g1, {}, E, ks, clean);
  }

  // ----- finalize and cleanHighlights -----

  /** `finalize` of a well-formed grammar succeeds with a well-formed grammar
      and the same start symbol, and adds no symbol. A symbol not tagged
      REMOVED stays with its decayed tag; a REMOVED one is gone, or keeps
      REMOVED when `removeSymbol` refused it. A rule stays exactly when it
      was not REMOVED and all its symbols stayed, and then carries its
      decayed tag. */
  lemma FinalizeSpec(g: Grammar, x: string, L: string, k: string)
    requires Valid(g)
    ensures Finalize(g).Success?
    ensures var r := Finalize(g).value;
            && Valid(r) && r.start == g.start
            && (x in r.n.values ==> x in g.n.values) && (x in r.t.values ==> x in g.t.values)
            && (x in g.n.values && g.n.values[x] != REMOVED ==> x in r.n.values && r.n.values[x] == Decay(g.n.values[x]))
            && (x in g.n.values && g.n.values[x] == REMOVED ==> x !in r.n.values || r.n.values[x] == REMOVED)
            && (x in g.t.values && g.t.values[x] != REMOVED ==> x in r.t.values && r.t.values[x] == Decay(g.t.values[x]))
            && (x in g.t.values && g.t.values[x] == REMOVED ==> x !in r.t.values || r.t.values[x] == REMOVED)
            && TryGetRule(r, L, k)
               == if TryGetRule(g, L, k).Some? && TryGetRule(g, L, k).value.tag != REMOVED
                     && SymbolsPresent(r, TryGetRule(g, L, k).value)
                  then Some(HighlightRule(TryGetRule(g, L, k).value, Decay(TryGetRule(g, L, k).value.tag)))
                  else None
  {
    FinalizeSymbols(g, x);
    FinalizeRules(g, L, k);
  }

  /** The grammar after the symbol pass, and what the rule pass keeps of it. */
  lemma Passes(g: Grammar, clean: bool, L: string, k: string) returns (g1: Grammar)
    requires Valid(g)
    ensures g1 == SymbolPass(g, clean)
    ensures SymbolPassAfter(g, g1, g.n.values.Keys + g.t.values.Keys, clean)
    ensures ModifyHighlights(g, clean).Success?
    ensures var r := ModifyHighlights(g, clean).value;
            && Valid(r) && r.n.values == g1.n.values && r.t.values == g1.t.values && r.start == g.start
            && TryGetRule(r, L, k) == SettledRule(TryGetRule(g1, L, k), clean)
  {
    SymbolPassSpec(g, clean);
    g1 := SymbolPass(g, clean);
    RulePassSpec(g1, clean, L, k);
  }

  lemma FinalizeSymbols(g: Grammar, x: string)
    requires Valid(g)
    ensures Finalize(g).Success?
    ensures var r := Finalize(g).value;
            && Valid(r) && r.start == g.start
            && (x in r.n.values ==> x in g.n.values) && (x in r.t.values ==> x in g.t.values)
            && (x in g.n.values ==> SymbolSettled(g.n.values[x], r.n, x, false))
            && (x in g.t.values ==> SymbolSettled(g.t.values[x], r.t, x, false))
  {
    var g1 := Passes(g, false, "", "");
    var r := Finalize(g).value;
    var D := g.n.values.Keys + g.t.values.Keys;
    if x in g.n.values {
      assert x in D;
      assert SymbolSettled(g.n.values[x], g1.n, x, false);
      SettledSameValues(g.n.values[x], g1.n, r.n, x, false);
    }
    if x in g.t.values {
      assert x in D;
      assert SymbolSettled(g.t.values[x], g1.t, x, false);
      SettledSameValues(g.t.values[x], g1.t, r.t, x, false);
    }
  }

  lemma SettledSameValues(h: Highlight, a: Dict<Highlight>, b: Dict<Highlight>, x: string, clean: bool)
    requires a.values == b.values
    ensures SymbolSettled(h, a, x, clean) == SymbolSettled(h, b, x, clean)
  {
  }

  lemma FinalizeRules(g: Grammar, L: string, k: string)
    requires Valid(g)
    ensures Finalize(g).Success?
    ensures var r := Finalize(g).value;
            TryGetRule(r, L, k)
            == if TryGetRule(g, L, k).Some? && TryGetRule(g, L, k).value.tag != REMOVED
                  && SymbolsPresent(r, TryGetRule(g, L, k).value)
               then Some(HighlightRule(TryGetRule(g, L, k).value, Decay(TryGetRule(g, L, k).value.tag)))
               else None
  {
    var g1 := Passes(g, false, L, k);
    var r := Finalize(g).value;
    if TryGetRule(g, L, k).Some? {
      assert SymbolsPresent(r, TryGetRule(g, L, k).value) == SymbolsPresent(g1, TryGetRule(g, L, k).value);
    }
  }

  /** After `finalize` no tag asks for anything any more: a symbol's tag is
      persistent, or REMOVED on a symbol whose removal was refused, and a
      rule's tag is persistent. */
  lemma FinalizeLeavesSettledTags(g: Grammar, x: string, L: string, k: string)
    requires Valid(g)
    ensures Finalize(g).Success?
    ensures var r := Finalize(g).value;
            && (x in r.n.values ==> DecayTypeOf(r.n.values[x]) == Persistent || r.n.values[x] == REMOVED)
            && (x in r.t.values ==> DecayTypeOf(r.t.values[x]) == Persistent || r.t.values[x] == REMOVED)
            && (TryGetRule(r, L, k).Some? ==> DecayTypeOf(TryGetRule(r, L, k).value.tag) == Persistent)
  {
    FinalizeSpec(g, x, L, k);
    if TryGetRule(g, L, k).Some? {
      DecayThroughPrecedence(TryGetRule(g, L, k).value.tag);
    }
  }

  /** `cleanHighlights` of a well-formed grammar deletes nothing: both
      alphabets and every rule stay, and every tag becomes NONE except
      REMOVED, which stays. */
  lemma CleanHighlightsSpec(g: Grammar, x: string, L: string, k: string)
    requires Valid(g)
    ensures CleanHighlights(g).Success?
    ensures var r := CleanHighlights(g).value;
            && Valid(r) && r.start == g.start
            && r.n.values.Keys == g.n.values.Keys && r.t.values.Keys == g.t.values.Keys
            && (x in g.n.values ==> r.n.values[x] == (if g.n.values[x] == REMOVED then REMOVED else NONE))
            && (x in g.t.values ==> r.t.values[x] == (if g.t.values[x] == REMOVED then REMOVED else NONE))
            && TryGetRule(r, L, k)
               == if TryGetRule(g, L, k).Some? then Some(HighlightRule(TryGetRule(g, L, k).value, NONE)) else None
  {
    CleanSymbols(g, x);
    CleanRules(g, L, k);
  }

  /** An alphabet whose symbols were all visited by a cleaning pass has the
      same texts, each with its cleaned tag. */
  lemma CleanedAlphabet(a0: Dict<Highlight>, a: Dict<Highlight>, D: set<string>)
    requires AlphabetAfter(a0, a, D, true) && forall x :: x in a0.values ==> x in D
    ensures a.values.Keys == a0.values.Keys
    ensures forall x :: x in a0.values ==> a.values[x] == Settled(a0.values[x], true)
  {
    forall x | x in a0.values ensures x in a.values && a.values[x] == Settled(a0.values[x], true) {
      assert SymbolSettled(a0.values[x], a, x, true);
    }
  }

  lemma CleanSymbols(g: Grammar, x: string)
    requires Valid(g)
    ensures CleanHighlights(g).Success?
    ensures var r := CleanHighlights(g).value;
            && Valid(r) && r.start == g.start
            && r.n.values.Keys == g.n.values.Keys && r.t.values.Keys == g.t.values.Keys
            && (x in g.n.values ==> r.n.values[x] == Settled(g.n.values[x], true))
            && (x in g.t.values ==> r.t.values[x] == Settled(g.t.values[x], true))
  {
    var g1 := Passes(g, true, "", "");
    var D := g.n.values.Keys + g.t.values.Keys;
    CleanedAlphabet(g.n, g1.n, D);
    CleanedAlphabet(g.t, g1.t, D);
  }

  lemma CleanRules(g: Grammar, L: string, k: string)
    requires Valid(g)
    ensures CleanHighlights(g).Success?
    ensures TryGetRule(CleanHighlights(g).value, L, k)
            == if TryGetRule(g, L, k).Some? then Some(HighlightRule(TryGetRule(g, L, k).value, NONE)) else None
  {
    var g1 := Passes(g, true, L, k);
    var D := g.n.values.Keys + g.t.values.Keys;
    CleanedAlphabet(g.n, g1.n, D);
    CleanedAlphabet(g.t, g1.t, D);
    StoredRulesPresent(g);
    if TryGetRule(g, L, k).Some? {
      var rule := TryGetRule(g, L, k).value;
      assert SymbolsPresent(g, rule);
      assert SymbolsPresent(g1, rule);
    }
  }
}

=== FILE: conversion_grammar.dfy ===
/** A grammar being converted by a normal-form algorithm: a step only asks
    for its edits by tagging symbols and rules, and the edits take effect
    when the step is finalized (js/structures/ConversionGrammar.js). */
module ConversionGrammars {
  import opened Wrappers
  import opened Highlights
  import opened Objects
  import opened Symbols
  import opened Words
  import opened Rules
  import opened Grammars
  import opened GrammarEdits
  import opened RichInputs

  // ----- the object form with tags -----

  function TagValue(h: Highlight): int { Value(h) }

  function RuleTagValue(r: Rule): int { Value(r.tag) }

  function GroupTagValues(group: Dict<Rule>): Dict<int> { MapValues(group, RuleTagValue) }

  /** `toConversionData()`: the object form, every symbol and rule carrying
      the value of its tag. */
  function ToConversionData(g: Grammar): (o: ObjectData)
    ensures SameShape(g, o)
    ensures forall x :: x in g.n.values ==> o.n.values[x] == Value(g.n.values[x])
    ensures forall x :: x in g.t.values ==> o.t.values[x] == Value(g.t.values[x])
    ensures forall L, k :: L in g.p.values && k in g.p.values[L].values ==>
              o.p.values[L].values[k] == Value(g.p.values[L].values[k].tag)
  {
    ObjectData(MapValues(g.n, TagValue), MapValues(g.t, TagValue), MapValues(g.p, GroupTagValues), g.start)
  }

  /** Reading the tag values of an alphabet back gives the alphabet. */
  lemma ReadTagsOfValues(d: Dict<Highlight>)
    ensures ReadTags(d.keys, MapValues(d, TagValue).values) == d
  {
    forall k | k in d.values ensures FromValue(Value(d.values[k])) == d.values[k] {
      FromValueOfValue(d.values[k]);
    }
  }

  /** Reading the tag values of a group of mirrored rules back gives the
      group. */
  lemma RetagGroupOfValues(group: Dict<Rule>)
    requires forall k :: k in group.values ==> Mirrored(group.values[k])
    ensures RetaggedPrefix(group, |group.keys|, GroupTagValues(group).values) == group
  {
    var vals := GroupTagValues(group).values;
    forall k | k in group.values ensures Retag(group.values[k], FromValue(vals[k])) == group.values[k] {
      FromValueOfValue(group.values[k].tag);
    }
    assert RetagMap(group, vals) == group.values;
    assert group.keys[..|group.keys|] == group.keys;
    RestrictAll(group);
  }

  lemma RetagGroupsOfValues(g: Grammar)
    requires Valid(g)
    ensures RetagGroups(g.p, |g.p.keys|, ToConversionData(g).p.values) == g.p
  {
    var o := ToConversionData(g);
    forall L | L in g.p.values
      ensures RetaggedPrefix(g.p.values[L], |g.p.values[L].keys|, o.p.values[L].values) == g.p.values[L]
    {
      assert o.p.values[L] == GroupTagValues(g.p.values[L]);
      RetagGroupOfValues(g.p.values[L]);
    }
    assert GroupsMap(g.p, o.p.values) == g.p.values;
    assert g.p.keys[..|g.p.keys|] == g.p.keys;
    RestrictAll(g.p);
  }

  /** `new ConversionGrammar(g.toConversionData())` reproduces a well-formed
      grammar: its symbols, rules, tags and start symbol, in order. */
  lemma ConversionDataRoundTrip(g: Grammar)
    requires Valid(g)
    ensures Init(ObjectForm(ToConversionData(g))) == Success(g)
  {
    var o := ToConversionData(g);
    InitOfSameShape(g, o);
    ReadTagsOfValues(g.n);
    ReadTagsOfValues(g.t);
    RetagGroupsOfValues(g);
  }

  // ----- requesting edits -----

  function SetAlphabet(g: Grammar, kind: Kind, a: Dict<Highlight>): (r: Grammar)
    ensures Alphabet(r, kind) == a
    ensures kind == TerminalKind ==> r.n == g.n
    ensures kind == NonterminalKind ==> r.t == g.t
    ensures r.p == g.p && r.start == g.start
  {
    if kind == TerminalKind then g.(t := a) else g.(n := a)
  }

  function KindOf(s: Symbol): Kind {
    if s.Nonterminal? then NonterminalKind else TerminalKind
  }

  /** `taskAddSymbol(symbol)`: a symbol the grammar already knows by text is
      returned as it is; otherwise the symbol, asked to become NEW, is
      appended to the alphabet of its kind. `tag` is the tag the symbol
      object carries when it is passed in. */
  function TaskAddSymbol(g: Grammar, s: Symbol, tag: Highlight): (r: Outcome<Symbol>)
    ensures TryGetSymbol(g, s.Text()).Some? ==> r == Outcome(g, TryGetSymbol(g, s.Text()).value)
    ensures r.value.Text() == s.Text()
  {
    match TryGetSymbol(g, s.Text())
    case Some(existing) => Outcome(g, existing)
    case None =>
      var a := Alphabet(g, KindOf(s));
      Outcome(SetAlphabet(g, KindOf(s), Put(a, s.Text(), Apply(tag, NEW))), s)
  }

  /** A symbol is added to a well-formed grammar exactly when no symbol of its
      text exists; then it is the last of its alphabet, tagged as NEW asks,
      and nothing else changes; in every case the grammar stays well-formed
      and the symbol is found by its text afterwards. */
  lemma TaskAddSymbolSpec(g: Grammar, s: Symbol, tag: Highlight, L: string, k: string)
    requires Valid(g) && Constructible(s)
    ensures var r := TaskAddSymbol(g, s, tag);
            && Valid(r.grammar)
            && TryGetSymbol(r.grammar, s.Text()) == Some(r.value)
            && (r.grammar != g <==> TryGetSymbol(g, s.Text()).None?)
            && TryGetRule(r.grammar, L, k) == TryGetRule(g, L, k)
    ensures TryGetSymbol(g, s.Text()).None? ==>
              var a := Alphabet(TaskAddSymbol(g, s, tag).grammar, KindOf(s));
              && a.keys == Alphabet(g, KindOf(s)).keys + [s.Text()]
              && a.values[s.Text()] == Apply(tag, NEW)
              && (tag == NONE ==> a.values[s.Text()] == NEW)
  {
    if TryGetSymbol(g, s.Text()).None? {
      TaskAddSymbolNew(g, s, tag, L, k);
    } else {
      TryGetSymbolExtendsInitLookup(g, s.Text());
    }
  }

  /** The branch of `TaskAddSymbolSpec` that adds the symbol. */
  lemma TaskAddSymbolNew(g: Grammar, s: Symbol, tag: Highlight, L: string, k: string)
    requires Valid(g) && Constructible(s) && TryGetSymbol(g, s.Text()).None?
    ensures var r := TaskAddSymbol(g, s, tag);
            && Valid(r.grammar)
            && TryGetSymbol(r.grammar, s.Text()) == Some(r.value)
            && r.grammar != g
            && TryGetRule(r.grammar, L, k) == TryGetRule(g, L, k)
    ensures var a := Alphabet(TaskAddSymbol(g, s, tag).grammar, KindOf(s));
            && a.keys == Alphabet(g, KindOf(s)).keys + [s.Text()]
            && a.values[s.Text()] == Apply(tag, NEW)
            && (tag == NONE ==> a.values[s.Text()] == NEW)
  {
    var x := s.Text();
    ExactlyOneKind(x);
    var a := Put(Alphabet(g, KindOf(s)), x, Apply(tag, NEW));
    AddToAlphabetKeepsValid(g, x, KindOf(s), a);
    assert x in Alphabet(TaskAddSymbol(g, s, tag).grammar, KindOf(s)).values;
  }

  /** Adding a valid text that neither alphabet holds keeps a grammar
      well-formed. */
  lemma AddToAlphabetKeepsValid(g: Grammar, x: string, kind: Kind, a: Dict<Highlight>)
    requires Valid(g) && x !in g.n.values && x !in g.t.values
    requires ValidText(x, kind == TerminalKind)
    requires a.values.Keys == Alphabet(g, kind).values.Keys + {x}
    ensures Valid(SetAlphabet(g, kind, a))
  {
    var g' := SetAlphabet(g, kind, a);
    forall L, k | L in g'.p.values && k in g'.p.values[L].values
      ensures RuleWellFormed(g'.n, g'.t, L, k, g'.p.values[L].values[k])
    {
      var rule := g'.p.values[L].values[k];
      assert RuleWellFormed(g.n, g.t, L, k, rule);
      forall i | 0 <= i < |rule.right| ensures InitLookup(g'.n, g'.t, rule.right[i].Text()) == Some(rule.right[i]) {
        var y := rule.right[i].Text();
        assert y in g.n.values || y in g.t.values;
        AlphabetsDisjoint(g.n, g.t, y);
      }
    }
  }

  /** Retagging keeps the texts of both alphabets and so keeps a grammar
      well-formed. */
  lemma SameTextsKeepValid(g: Grammar, g': Grammar)
    requires Valid(g)
    requires g'.n.values.Keys == g.n.values.Keys && g'.t.values.Keys == g.t.values.Keys
    requires g'.p == g.p && g'.start == g.start
    ensures Valid(g')
  {
    forall L, k | L in g'.p.values && k in g'.p.values[L].values
      ensures RuleWellFormed(g'.n, g'.t, L, k, g'.p.values[L].values[k])
    {
      var rule := g'.p.values[L].values[k];
      assert RuleWellFormed(g.n, g.t, L, k, rule);
      forall i | 0 <= i < |rule.right| ensures InitLookup(g'.n, g'.t, rule.right[i].Text()) == Some(rule.right[i]) {
        assert InitLookup(g.n, g.t, rule.right[i].Text()) == Some(rule.right[i]);
      }
    }
  }

  /** Every "/0" suffix of a valid nonterminal text is a valid nonterminal
      text. */
  lemma {:induction false} SuffixedIsNonterminal(desired: string, k: nat)
    requires Check(desired) && IsNonterminalText(desired)
    ensures Check(Suffixed(desired, k)) && IsNonterminalText(Suffixed(desired, k))
    ensures Suffixed(desired, k)[0] == desired[0]
  {
    if k > 0 {
      SuffixedIsNonterminal(desired, k - 1);
      var prev := Suffixed(desired, k - 1);
      assert Suffixed(desired, k) == prev + "/0";
      assert SymbolChar('/') && SymbolChar('0');
    }
  }

  /** `taskNewNonterminal(text)`: a NEW nonterminal under the name the
      fresh-name heuristic makes up from `text`; the constructor refuses a
      name that is not a valid nonterminal. */
  function TaskNewNonterminal(g: Grammar, text: string): (r: Result<Outcome<Symbol>>)
    ensures r.Success? ==> r.value.value == Nonterminal(MakeUpName(text, SymbolTexts(g)))
  {
    var s :- NewNonterminal(MakeUpName(text, SymbolTexts(g)));
    Success(TaskAddSymbol(g, s, NONE))
  }

  /** A valid nonterminal text always yields a new nonterminal: its name was
      unused before the call, and afterwards it is the last nonterminal,
      tagged NEW, in a grammar that stays well-formed. */
  lemma TaskNewNonterminalSpec(g: Grammar, text: string)
    requires Valid(g) && Check(text) && IsNonterminalText(text)
    ensures TaskNewNonterminal(g, text).Success?
    ensures var r := TaskNewNonterminal(g, text).value;
            var x := r.value.Text();
            && x !in SymbolTexts(g)
            && Valid(r.grammar)
            && r.grammar.n.keys == g.n.keys + [x]
            && r.grammar.n.values[x] == NEW
            && r.grammar.t == g.t && r.grammar.p == g.p && r.grammar.start == g.start
  {
    var name := MakeUpName(text, SymbolTexts(g));
    var k: nat :| name == Suffixed(text, k) && forall j :: 0 <= j < k ==> Suffixed(text, j) in SymbolTexts(g);
    SuffixedIsNonterminal(text, k);
    TaskAddSymbolSpec(g, Nonterminal(name), NONE, "", "");
  }

  /** The tag of x in an alphabet, asked to become h; nothing else changes. */
  function AskTag(a: Dict<Highlight>, x: string, h: Highlight): (r: Dict<Highlight>)
    ensures r.keys == a.keys && r.values.Keys == a.values.Keys
  {
    if x in a.values then Put(a, x, Apply(a.values[x], h)) else a
  }

  /** `taskRemoveSymbol(symbol)`: only asks for REMOVED; the symbol stays in
      its alphabet until the step is finalized. */
  function TaskRemoveSymbol(g: Grammar, s: Symbol): (r: Grammar)
    ensures r.n.keys == g.n.keys && r.t.keys == g.t.keys
  {
    SetAlphabet(g, KindOf(s), AskTag(Alphabet(g, KindOf(s)), s.Text(), REMOVED))
  }

  /** Removal is only requested: both alphabets keep their members, the
      symbol's tag is what REMOVED asks for (a NEW symbol resists it), and
      the rules and every other tag stay. */
  lemma TaskRemoveSymbolSpec(g: Grammar, s: Symbol, y: string)
    requires Valid(g)
    ensures var r := TaskRemoveSymbol(g, s);
            && Valid(r)
            && r.n.values.Keys == g.n.values.Keys && r.t.values.Keys == g.t.values.Keys
            && r.p == g.p && r.start == g.start
            && (y in Alphabet(g, KindOf(s)).values ==>
                  Alphabet(r, KindOf(s)).values[y]
                  == (if y == s.Text() then Apply(Alphabet(g, KindOf(s)).values[y], REMOVED)
                      else Alphabet(g, KindOf(s)).values[y]))
  {
    SameTextsKeepValid(g, TaskRemoveSymbol(g, s));
  }

  /** The rule stored under (left, key), asked to take tag h. */
  function AskRuleTag(g: Grammar, left: string, key: string, h: Highlight): (r: Grammar)
    ensures r.n == g.n && r.t == g.t && r.start == g.start && r.p.keys == g.p.keys
  {
    match TryGetRule(g, left, key)
    case None => g
    case Some(rule) =>
      var group := g.p.values[left];
      g.(p := Put(g.p, left, Put(group, key, HighlightRule(rule, h))))
  }

  /** Asking a tag changes that one rule's tags and nothing else. */
  lemma AskRuleTagSpec(g: Grammar, left: string, key: string, h: Highlight, L: string, k: string)
    requires Valid(g)
    ensures Valid(AskRuleTag(g, left, key, h))
    ensures TryGetRule(AskRuleTag(g, left, key, h), L, k)
            == if (L, k) == (left, key) && TryGetRule(g, L, k).Some? then Some(HighlightRule(TryGetRule(g, L, k).value, h))
               else TryGetRule(g, L, k)
  {
    match TryGetRule(g, left, key)
    case None =>
    case Some(rule) =>
      var group := g.p.values[left];
      var rule' := HighlightRule(rule, h);
      assert RuleWellFormed(g.n, g.t, left, key, rule');
      PutRuleWellFormed(g, left, group, key, rule');
      PutGroupSpec(g, left, Put(group, key, rule'), L, k);
  }

  /** `taskAddRule(left, right)`: a new (left, right) pair becomes a NEW rule
      (a new left side's group is ordered in by a rehash); for a pair that
      exists, its rule is only asked to become DUPLICATE. */
  function TaskAddRule(g: Grammar, left: string, right: Word): (r: Outcome<Rule>)
    ensures left !in g.p.values || ToString(right) !in g.p.values[left].values ==> r.value.tag == NEW
  {
    var leftWasNew := left !in g.p.values;
    var group := if leftWasNew then Empty() else g.p.values[left];
    var key := ToString(right);
    if key in group.values then
      Outcome(AskRuleTag(g, left, key, DUPLICATE), HighlightRule(group.values[key], DUPLICATE))
    else
      var rule := Rule(left, right, NEW, NEW);
      var g' := g.(p := Put(g.p, left, Put(group, key, rule)));
      Outcome(if leftWasNew then Rehash(g', NoRenaming) else g', rule)
  }

  /** A right side a well-formed grammar can store: every symbol is one of
      its alphabets', and the word prints as something other than "eps". */
  predicate RightOver(g: Grammar, right: Word) {
    !IsEpsLookalike(right)
    && forall i :: 0 <= i < |right| ==> InitLookup(g.n, g.t, right[i].Text()) == Some(right[i])
  }

  /** In a well-formed grammar, `taskAddRule` never makes a second rule for
      the same pair: the pair's rule is found afterwards, NEW when it is new
      and asked to be DUPLICATE otherwise, the group grows by one exactly when
      the pair was absent, and every other rule stays. */
  lemma TaskAddRuleSpec(g: Grammar, left: string, right: Word, L: string, k: string)
    requires Valid(g) && left in g.n.values && RightOver(g, right)
    ensures var r := TaskAddRule(g, left, right);
            var key := ToString(right);
            && Valid(r.grammar)
            && TryGetRule(r.grammar, left, key) == Some(r.value)
            && (TryGetRule(g, left, key).None? ==>
                  r.value == Rule(left, right, NEW, NEW)
                  && RuleCountForLeft(r.grammar, left) == RuleCountForLeft(g, left) + 1)
            && (TryGetRule(g, left, key).Some? ==>
                  r.value == HighlightRule(TryGetRule(g, left, key).value, DUPLICATE)
                  && RuleCountForLeft(r.grammar, left) == RuleCountForLeft(g, left))
            && ((L, k) != (left, key) ==> TryGetRule(r.grammar, L, k) == TryGetRule(g, L, k))
            && r.grammar.n.values == g.n.values && r.grammar.t == g.t && r.grammar.start == g.start
  {
    if TryGetRule(g, left, ToString(right)).Some? {
      TaskAddRuleExisting(g, left, right, L, k);
    } else {
      TaskAddRuleNew(g, left, right, L, k);
    }
  }

  lemma TaskAddRuleExisting(g: Grammar, left: string, right: Word, L: string, k: string)
    requires Valid(g) && TryGetRule(g, left, ToString(right)).Some?
    ensures var r := TaskAddRule(g, left, right);
            var key := ToString(right);
            && r.grammar == AskRuleTag(g, left, key, DUPLICATE)
            && Valid(r.grammar)
            && TryGetRule(r.grammar, left, key) == Some(r.value)
            && r.value == HighlightRule(TryGetRule(g, left, key).value, DUPLICATE)
            && RuleCountForLeft(r.grammar, left) == RuleCountForLeft(g, left)
            && ((L, k) != (left, key) ==> TryGetRule(r.grammar, L, k) == TryGetRule(g, L, k))
  {
    var key := ToString(right);
    AskRuleTagSpec(g, left, key, DUPLICATE, L, k);
    AskRuleTagSpec(g, left, key, DUPLICATE, left, key);
    var group := g.p.values[left];
    assert Put(group, key, HighlightRule(group.values[key], DUPLICATE)).values.Keys == group.values.Keys;
  }

  lemma TaskAddRuleNew(g: Grammar, left: string, right: Word, L: string, k: string)
    requires Valid(g) && left in g.n.values && RightOver(g, right)
    requires TryGetRule(g, left, ToString(right)).None?
    ensures Valid(TaskAddRule(g, left, right).grammar)
    ensures TaskAddRule(g, left, right).value == Rule(left, right, NEW, NEW)
    ensures TryGetRule(TaskAddRule(g, left, right).grammar, left, ToString(right)) == Some(Rule(left, right, NEW, NEW))
    ensures RuleCountForLeft(TaskAddRule(g, left, right).grammar, left) == RuleCountForLeft(g, left) + 1
    ensures (L, k) != (left, ToString(right)) ==> TryGetRule(TaskAddRule(g, left, right).grammar, L, k) == TryGetRule(g, L, k)
    ensures TaskAddRule(g, left, right).grammar.n.values == g.n.values && TaskAddRule(g, left, right).grammar.t == g.t
    ensures TaskAddRule(g, left, right).grammar.start == g.start
  {
    var group', rehash := NewRuleGroup(g, left, right);
    TaskAddRuleFresh(g, left, right);
    UpdateGroupSpec(g, left, group', rehash, L, k);
    UpdateGroupSpec(g, left, group', rehash, left, ToString(right));
    RehashCountOfNew(g, left, group', rehash);
  }

  /** The group `taskAddRule` builds for a new pair, and the grammar it
      builds from it. */
  lemma NewRuleGroup(g: Grammar, left: string, right: Word) returns (group': Dict<Rule>, rehash: bool)
    requires Valid(g) && left in g.n.values && RightOver(g, right)
    requires TryGetRule(g, left, ToString(right)).None?
    ensures GroupWellFormed(g.n, g.t, left, group') && |group'.values| == RuleCountForLeft(g, left) + 1
    ensures Objects.Get(group', ToString(right)) == Some(Rule(left, right, NEW, NEW))
    ensures forall k :: k != ToString(right) ==> Objects.Get(group', k) == TryGetRule(g, left, k)
    ensures rehash == (left !in g.p.values)
    ensures group' == Put(if rehash then Empty() else g.p.values[left], ToString(right), Rule(left, right, NEW, NEW))
  {
    var key := ToString(right);
    rehash := left !in g.p.values;
    var group := if rehash then Empty() else g.p.values[left];
    var rule := Rule(left, right, NEW, NEW);
    assert RuleWellFormed(g.n, g.t, left, key, rule);
    PutRuleWellFormed(g, left, group, key, rule);
    group' := Put(group, key, rule);
    Objects.PutFresh(group, key, rule, RuleCountForLeft(g, left));
  }

  /** For a pair with no rule yet, `taskAddRule` puts the NEW rule into the
      left side's group. */
  lemma TaskAddRuleFresh(g: Grammar, left: string, right: Word)
    requires Valid(g) && TryGetRule(g, left, ToString(right)).None?
    ensures var group := if left !in g.p.values then Empty() else g.p.values[left];
            var g' := g.(p := Put(g.p, left, Put(group, ToString(right), Rule(left, right, NEW, NEW))));
            TaskAddRule(g, left, right)
            == Outcome(if left !in g.p.values then Rehash(g', NoRenaming) else g', Rule(left, right, NEW, NEW))
  {
  }

  lemma RehashCountOfNew(g: Grammar, left: string, group: Dict<Rule>, rehash: bool)
    requires Valid(g) && left in g.n.values && GroupWellFormed(g.n, g.t, left, group)
    requires |group.values| > 0
    ensures var g' := g.(p := Put(g.p, left, group));
            var r := if rehash then Rehash(g', NoRenaming) else g';
            RuleCountForLeft(r, left) == |group.values|
  {
    var g' := g.(p := Put(g.p, left, group));
    PutGroupSpec(g, left, group, left, "");
    if rehash {
      RehashIdentity(g');
    }
  }

  /** `taskRemoveRule(rule)`: only asks for REMOVED. */
  function TaskRemoveRule(g: Grammar, rule: Rule): (r: Grammar)
    ensures r.n == g.n && r.t == g.t && r.start == g.start && r.p.keys == g.p.keys
  {
    AskRuleTag(g, rule.left, ToString(rule.right), REMOVED)
  }

  /** `taskReplaceRule(oldRule, newRight)`: the old rule is asked to be
      REMOVED, the new right side is added under the same left side, and the
      rule added is asked to be REPLACED. */
  function TaskReplaceRule(g: Grammar, prev: Rule, newRight: Word): (r: Outcome<Rule>)
    ensures r.value.tag == Apply(TaskAddRule(TaskRemoveRule(g, prev), prev.left, newRight).value.tag, REPLACED)
  {
    var added := TaskAddRule(TaskRemoveRule(g, prev), prev.left, newRight);
    Outcome(AskRuleTag(added.grammar, prev.left, ToString(newRight), REPLACED), HighlightRule(added.value, REPLACED))
  }

  /** Replacing a rule of a well-formed grammar by a different right side
      leaves the old rule in place, asked to be REMOVED, and stores a rule for
      the new right side whose tag is REPLACED unless that rule already
      existed and was REMOVED. Replacing a rule by its own right side leaves
      the single rule REMOVED, unless it was NEW. */
  lemma TaskReplaceRuleSpec(g: Grammar, prev: Rule, newRight: Word)
    requires Valid(g) && TryGetRule(g, prev.left, ToString(prev.right)) == Some(prev)
    requires RightOver(g, newRight)
    ensures var r := TaskReplaceRule(g, prev, newRight);
            && Valid(r.grammar)
            && TryGetRule(r.grammar, prev.left, ToString(newRight)) == Some(r.value)
            && (ToString(newRight) != ToString(prev.right) ==>
                  && TryGetRule(r.grammar, prev.left, ToString(prev.right)) == Some(HighlightRule(prev, REMOVED))
                  && (TryGetRule(g, prev.left, ToString(newRight)).None? ==> r.value.tag == REPLACED))
            && (ToString(newRight) == ToString(prev.right) ==>
                  r.value.tag == (if prev.tag == NEW then REPLACED else REMOVED))
  {
    var added := ReplaceAdds(g, prev, newRight);
    var left, key, nkey := prev.left, ToString(prev.right), ToString(newRight);
    var g1 := TaskRemoveRule(g, prev);
    AskRuleTagSpec(added.grammar, left, nkey, REPLACED, left, nkey);
    AskRuleTagSpec(g, left, key, REMOVED, left, key);
    assert TryGetRule(g1, left, key) == Some(HighlightRule(prev, REMOVED));
    if nkey != key {
      AskRuleTagSpec(g, left, key, REMOVED, left, nkey);
      AskRuleTagSpec(added.grammar, left, nkey, REPLACED, left, key);
      if TryGetRule(g, left, nkey).None? {
        assert added.value.tag == NEW;
      }
    } else {
      ReplaceSameKey(prev.tag, added.value.tag);
    }
  }

  /** A rule asked to be REMOVED, then DUPLICATE, then REPLACED ends REMOVED
      unless it was NEW. */
  lemma ReplaceSameKey(was: Highlight, now: Highlight)
    requires now == Apply(Apply(was, REMOVED), DUPLICATE)
    ensures Apply(now, REPLACED) == (if was == NEW then REPLACED else REMOVED)
  {
  }

  /** The middle step of a replacement: the new right side added to the
      grammar in which the old rule was asked to be REMOVED. */
  lemma ReplaceAdds(g: Grammar, prev: Rule, newRight: Word) returns (added: Outcome<Rule>)
    requires Valid(g) && prev.left in g.n.values && RightOver(g, newRight)
    requires TryGetRule(TaskRemoveRule(g, prev), prev.left, ToString(prev.right)).Some?
    ensures added == TaskAddRule(TaskRemoveRule(g, prev), prev.left, newRight)
    ensures TaskReplaceRule(g, prev, newRight)
            == Outcome(AskRuleTag(added.grammar, prev.left, ToString(newRight), REPLACED), HighlightRule(added.value, REPLACED))
    ensures Valid(added.grammar)
    ensures TryGetRule(added.grammar, prev.left, ToString(newRight)) == Some(added.value)
    ensures TryGetRule(TaskRemoveRule(g, prev), prev.left, ToString(newRight)).None? ==> added.value.tag == NEW
    ensures TryGetRule(TaskRemoveRule(g, prev), prev.left, ToString(newRight)).Some? ==>
              added.value == HighlightRule(TryGetRule(TaskRemoveRule(g, prev), prev.left, ToString(newRight)).value, DUPLICATE)
    ensures ToString(newRight) != ToString(prev.right) ==>
              TryGetRule(added.grammar, prev.left, ToString(prev.right))
              == TryGetRule(TaskRemoveRule(g, prev), prev.left, ToString(prev.right))
  {
    var g1 := TaskRemoveRule(g, prev);
    AskRuleTagSpec(g, prev.left, ToString(prev.right), REMOVED, prev.left, ToString(newRight));
    added := TaskAddRule(g1, prev.left, newRight);
    TaskAddRuleSpec(g1, prev.left, newRight, prev.left, ToString(prev.right));
  }
}

=== FILE: cyk.dfy ===
/** The CYK parser of js/parsing/CYK.js: a triangular table whose field
    (i, j) collects the nonterminals deriving the i symbols of the word that
    start at position j (both counted from 1), filled row by row from an
    inverse rule index. */
module Cyk {
  import opened Wrappers
  import opened Objects
  import opened Highlights
  import opened Symbols
  import opened Text
  import opened Words
  import opened Rules
  import opened Grammars
  import opened FormChecks
  import opened ReducedForms

  /** A field of the table: row i, cell j. */
  datatype Pos = Pos(i: nat, j: nat)

  /** One entry of a field's source list: the rule that put its left side
      there and, above the bottom row, the pair of fields it combined. */
  datatype Source = Source(rule: Rule, pair: Option<(Pos, Pos)>)

  /** `CYKField.data`: per nonterminal text, in first-added order, the
      sources that produced it. */
  type Field = Dict<seq<Source>>

  /** The fields filled so far. A field not filled yet is empty. */
  type Table = map<Pos, Field>

  /** `invRules`: rules grouped by the text of their right side. */
  type RuleIndex = Dict<seq<Rule>>

  /** `getNonterminals`, as a set; `contains(n)` is membership in it. */
  function Nonterminals(f: Field): set<string> {
    f.values.Keys
  }

  function GetField(T: Table, p: Pos): Field {
    if p in T then T[p] else Empty()
  }

  // ---------------------------------------------------------------------
  // Fields

  function SourcesOf(f: Field, n: string): seq<Source> {
    if n in f.values then f.values[n] else []
  }

  /** `CYKField.add`: the rule's source joins the group of its left side,
      which is created (and listed last) when it is new. */
  function Add(f: Field, x: Rule, pair: Option<(Pos, Pos)>): (r: Field)
    ensures Nonterminals(r) == Nonterminals(f) + {x.left}
    ensures SourcesOf(r, x.left) == SourcesOf(f, x.left) + [Source(x, pair)]
    ensures forall n :: n != x.left ==> SourcesOf(r, n) == SourcesOf(f, n)
    ensures r.keys == if x.left in f.values then f.keys else f.keys + [x.left]
  {
    Put(f, x.left, SourcesOf(f, x.left) + [Source(x, pair)])
  }

  /** Adding the rules of xs one after the other. */
  function AddAll(f: Field, xs: seq<Rule>, pair: Option<(Pos, Pos)>): (r: Field)
    ensures Nonterminals(r) == Nonterminals(f) + Lefts(xs)
    decreases |xs|
  {
    if |xs| == 0 then f
    else
      assert Lefts(xs) == {xs[0].left} + Lefts(xs[1..]) by {
        assert forall x :: x in xs <==> x == xs[0] || x in xs[1..];
      }
      AddAll(Add(f, xs[0], pair), xs[1..], pair)
  }

  // ---------------------------------------------------------------------
  // The inverse rule index

  /** The rules of `rules` whose right side prints as key, in order. */
  function Keyed(rules: seq<Rule>, key: string): (r: seq<Rule>)
    ensures forall x {:trigger x in r} :: x in r <==> x in rules && ToString(x.right) == key
    decreases |rules|
  {
    if |rules| == 0 then []
    else (if ToString(rules[0].right) == key then [rules[0]] else []) + Keyed(rules[1..], key)
  }

  /** What the index lists under key; `invRules[key] || []`. */
  function Listed(inv: RuleIndex, key: string): seq<Rule> {
    if key in inv.values then inv.values[key] else []
  }

  /** Every list of the index holds at least one rule. */
  predicate NoEmptyLists(d: RuleIndex) {
    forall k :: k in d.values ==> |d.values[k]| > 0
  }

  /** The loop over the rules that builds `invRules`: each rule is appended
      to the list under its right side's text. */
  function InverseFrom(d: RuleIndex, rules: seq<Rule>): (r: RuleIndex)
    requires NoEmptyLists(d)
    ensures NoEmptyLists(r)
    decreases |rules|
  {
    if |rules| == 0 then d
    else
      var key := ToString(rules[0].right);
      InverseFrom(Put(d, key, Listed(d, key) + [rules[0]]), rules[1..])
  }

  lemma {:induction false} InverseFromListed(d: RuleIndex, rules: seq<Rule>, k: string)
    requires NoEmptyLists(d)
    ensures Listed(InverseFrom(d, rules), k) == Listed(d, k) + Keyed(rules, k)
    decreases |rules|
  {
    if |rules| > 0 {
      var x := rules[0];
      var key := ToString(x.right);
      var d' := Put(d, key, Listed(d, key) + [x]);
      var e := if key == k then [x] else [];
      InverseFromCons(d, rules);
      InverseFromListed(d', rules[1..], k);
      ListedAfterPut(d, x, k);
      KeyedCons(rules, k);
      AppendAssoc(Listed(d, k), e, Keyed(rules[1..], k));
    } else {
      assert Listed(d, k) + [] == Listed(d, k);
    }
  }

  lemma InverseFromCons(d: RuleIndex, rules: seq<Rule>)
    requires NoEmptyLists(d) && |rules| > 0
    ensures var key := ToString(rules[0].right);
            var d' := Put(d, key, Listed(d, key) + [rules[0]]);
            NoEmptyLists(d') && InverseFrom(d, rules) == InverseFrom(d', rules[1..])
  {
  }

  lemma KeyedCons(rules: seq<Rule>, k: string)
    requires |rules| > 0
    ensures Keyed(rules, k) == (if ToString(rules[0].right) == k then [rules[0]] else []) + Keyed(rules[1..], k)
  {
  }

  lemma ListedAfterPut(d: RuleIndex, x: Rule, k: string)
    ensures var key := ToString(x.right);
            Listed(Put(d, key, Listed(d, key) + [x]), k) == Listed(d, k) + (if key == k then [x] else [])
  {
  }

  /** `invRules` for the rules in `forEachRule` order: under each key
      exactly the rules whose right side prints as that key. */
  function Inverse(rules: seq<Rule>): (r: RuleIndex)
    ensures forall k :: Listed(r, k) == Keyed(rules, k)
  {
    var r := InverseFrom(Empty(), rules);
    forall k ensures Listed(r, k) == Keyed(rules, k) {
      InverseFromListed(Empty(), rules, k);
    }
    r
  }

  /** The index has a key exactly for each text that some rule's right side
      prints as. */
  lemma InverseKeys(rules: seq<Rule>)
    ensures forall k :: k in Inverse(rules).values <==> exists x :: x in rules && ToString(x.right) == k
  {
    var r := Inverse(rules);
    assert NoEmptyLists(r);
    forall k ensures k in r.values <==> exists x :: x in rules && ToString(x.right) == k {
      assert Listed(r, k) == Keyed(rules, k);
      if k in r.values {
        assert |r.values[k]| > 0;
        var x := Keyed(rules, k)[0];
        assert x in Keyed(rules, k);
      }
      if x :| x in rules && ToString(x.right) == k {
        assert x in Keyed(rules, k);
      }
    }
  }

  // ---------------------------------------------------------------------
  // The reference: the CYK recurrence

  /** Left sides of the rules whose right side prints as the single token t. */
  function UnitLefts(rules: seq<Rule>, t: string): set<string> {
    set x | x in rules && ToString(x.right) == t :: x.left
  }

  /** The index key of the two-symbol word a b: `new Word([n1, n2])` printed. */
  function PairKey(a: string, b: string): string {
    a + " " + b
  }

  /** Left sides of the rules whose right side prints as "a b" for some a
      in A and b in B. */
  function BinaryLefts(rules: seq<Rule>, A: set<string>, B: set<string>): set<string> {
    set x | x in rules && BinaryOver(x, A, B) :: x.left
  }

  /** The rule's right side prints as a pair with its first text in A and
      its second in B. */
  predicate BinaryOver(x: Rule, A: set<string>, B: set<string>) {
    exists a, b :: a in A && b in B && ToString(x.right) == PairKey(a, b)
  }

  /** The nonterminals deriving the i symbols of w from position j on: for
      one symbol, the left sides of the rules printing as it; for more,
      every split into a first part of k symbols and the rest, combined
      by a rule A B. */
  ghost function Spans(rules: seq<Rule>, w: Word, i: nat, j: nat): set<string>
    decreases i, i + 1
  {
    if i == 0 || j == 0 || j - 1 + i > |w| then {}
    else if i == 1 then UnitLefts(rules, w[j - 1].Text())
    else SplitsFrom(rules, w, i, j, 1)
  }

  /** The splits k, k + 1, ..., i - 1 of the span (i, j). */
  ghost function SplitsFrom(rules: seq<Rule>, w: Word, i: nat, j: nat, k: nat): set<string>
    decreases i, i - k
  {
    if k < 1 || k >= i then {}
    else BinaryLefts(rules, Spans(rules, w, k, j), Spans(rules, w, i - k, j + k)) + SplitsFrom(rules, w, i, j, k + 1)
  }

  lemma SplitsFromUnfold(rules: seq<Rule>, w: Word, i: nat, j: nat, k: nat)
    requires 1 <= k < i
    ensures SplitsFrom(rules, w, i, j, k)
            == BinaryLefts(rules, Spans(rules, w, k, j), Spans(rules, w, i - k, j + k)) + SplitsFrom(rules, w, i, j, k + 1)
  {
  }

  // ---------------------------------------------------------------------
  // The table layout

  /** The fields of the table for a word of n symbols. */
  predicate InTable(n: nat, p: Pos) {
    1 <= p.i <= n && 1 <= p.j <= n - p.i + 1
  }

  /** Row-by-row order. */
  predicate Before(p: Pos, q: Pos) {
    p.i < q.i || (p.i == q.i && p.j < q.j)
  }

  predicate Ascending(s: seq<Pos>) {
    forall a, b :: 0 <= a < b < |s| ==> Before(s[a], s[b])
  }

  /** Fields i, j .. (n - i + 1) of row i. */
  function Row(n: nat, i: nat, j: nat): (r: seq<Pos>)
    requires 1 <= j
    ensures forall p :: p in r <==> p.i == i && j <= p.j <= n - i + 1
    ensures Ascending(r)
    ensures i <= n && j <= n - i + 1 ==> |r| == n - i + 2 - j
    decreases n + 1 - j
  {
    if i > n || j > n - i + 1 then []
    else
      var rest := Row(n, i, j + 1);
      assert forall p :: p in [Pos(i, j)] + rest <==> p == Pos(i, j) || p in rest;
      [Pos(i, j)] + rest
  }

  function Tri(m: nat): nat {
    m * (m + 1) / 2
  }

  lemma TriStep(m: nat)
    requires m > 0
    ensures Tri(m) == m + Tri(m - 1)
  {
    assert m * (m + 1) == 2 * m + (m - 1) * m;
  }

  lemma AscendingConcat(s: seq<Pos>, t: seq<Pos>)
    requires Ascending(s) && Ascending(t)
    requires forall p, q :: p in s && q in t ==> Before(p, q)
    ensures Ascending(s + t)
  {
    forall a, b | 0 <= a < b < |s + t| ensures Before((s + t)[a], (s + t)[b]) {
      if b < |s| {
      } else if a >= |s| {
        assert (s + t)[a] == t[a - |s|] && (s + t)[b] == t[b - |s|];
      } else {
        assert (s + t)[a] in s && (s + t)[b] in t;
      }
    }
  }

  /** Rows i .. n, each from its first field. */
  function Rows(n: nat, i: nat): (r: seq<Pos>)
    requires 1 <= i
    ensures forall p :: p in r <==> InTable(n, p) && i <= p.i
    ensures Ascending(r)
    ensures i <= n + 1 ==> |r| == Tri(n + 1 - i)
    decreases n + 1 - i
  {
    if i > n then []
    else
      var row := Row(n, i, 1);
      var rest := Rows(n, i + 1);
      AscendingConcat(row, rest);
      TriStep(n + 1 - i);
      assert forall p :: p in row + rest <==> p in row || p in rest;
      row + rest
  }

  /** The queue of fields `execute` builds: row by row, every field of the
      table exactly once, n(n + 1)/2 of them. */
  function Layout(n: nat): (r: seq<Pos>)
    ensures forall p :: p in r <==> InTable(n, p)
    ensures Ascending(r)
    ensures |r| == n * (n + 1) / 2
  {
    Rows(n, 1)
  }

  /** A field that comes before the one at position q of an ascending queue
      sits among the first q entries. */
  lemma EarlierInPrefix(L: seq<Pos>, q: nat, p: Pos)
    requires Ascending(L) && q < |L| && p in L && Before(p, L[q])
    ensures p in L[..q]
  {
    var a :| 0 <= a < |L| && L[a] == p;
    if a >= q {
      assert false;
    }
    assert L[..q][a] == p;
  }

  /** `getSources`: for k = 1 .. i - 1, the field of the first k symbols
      and the field of the remaining i - k. */
  function Sources(p: Pos): (r: seq<(Pos, Pos)>)
    ensures |r| == if p.i >= 1 then p.i - 1 else 0
    ensures forall c :: 0 <= c < |r| ==> r[c] == (Pos(c + 1, p.j), Pos(p.i - (c + 1), p.j + (c + 1)))
  {
    var m := if p.i >= 1 then p.i - 1 else 0;
    seq(m, c requires 0 <= c < m => (Pos(c + 1, p.j), Pos(p.i - c - 1, p.j + c + 1)))
  }

  /** Both sources of a field are fields of the table that the queue
      fills before it. */
  lemma SourcesBefore(n: nat, p: Pos, k: nat)
    requires InTable(n, p) && 1 <= k < p.i
    ensures InTable(n, Pos(k, p.j)) && Before(Pos(k, p.j), p)
    ensures InTable(n, Pos(p.i - k, p.j + k)) && Before(Pos(p.i - k, p.j + k), p)
  {
  }

  // ---------------------------------------------------------------------
  // The steps

  /** Left sides of the rules the index lists under "a b" for a in A and
      b in B. */
  function Combine(inv: RuleIndex, A: set<string>, B: set<string>): set<string> {
    set a, b, x {:trigger x in Listed(inv, PairKey(a, b))} | a in A && b in B && x in Listed(inv, PairKey(a, b)) :: x.left
  }

  lemma CombineSingle(inv: RuleIndex, a: string, b: string)
    ensures Combine(inv, {a}, {b}) == Lefts(Listed(inv, PairKey(a, b)))
  {
  }

  lemma CombineUnionA(inv: RuleIndex, A1: set<string>, A2: set<string>, B: set<string>)
    ensures Combine(inv, A1 + A2, B) == Combine(inv, A1, B) + Combine(inv, A2, B)
  {
  }

  lemma CombineUnionB(inv: RuleIndex, A: set<string>, B1: set<string>, B2: set<string>)
    ensures Combine(inv, A, B1 + B2) == Combine(inv, A, B1) + Combine(inv, A, B2)
  {
  }

  function Elements(s: seq<string>): set<string> {
    set a | a in s
  }

  lemma ElementsCons(s: seq<string>)
    requires |s| > 0
    ensures Elements(s) == {s[0]} + Elements(s[1..])
  {
    assert forall a :: a in s <==> a == s[0] || a in s[1..];
  }

  /** The innermost loops for one n1: for each n2, the rules keyed "n1 n2". */
  function AddSeconds(f: Field, inv: RuleIndex, n1: string, seconds: seq<string>, pair: Option<(Pos, Pos)>): (r: Field)
    ensures Nonterminals(r) == Nonterminals(f) + Combine(inv, {n1}, Elements(seconds))
    decreases |seconds|
  {
    if |seconds| == 0 then f
    else
      var f' := AddAll(f, Listed(inv, PairKey(n1, seconds[0])), pair);
      ElementsCons(seconds);
      CombineSingle(inv, n1, seconds[0]);
      CombineUnionB(inv, {n1}, {seconds[0]}, Elements(seconds[1..]));
      AddSeconds(f', inv, n1, seconds[1..], pair)
  }

  /** The loops over one source pair: every n1 of the first field with
      every n2 of the second. */
  function AddFirsts(f: Field, inv: RuleIndex, firsts: seq<string>, seconds: seq<string>, pair: Option<(Pos, Pos)>): (r: Field)
    ensures Nonterminals(r) == Nonterminals(f) + Combine(inv, Elements(firsts), Elements(seconds))
    decreases |firsts|
  {
    if |firsts| == 0 then f
    else
      var f' := AddSeconds(f, inv, firsts[0], seconds, pair);
      ElementsCons(firsts);
      CombineUnionA(inv, {firsts[0]}, Elements(firsts[1..]), Elements(seconds));
      AddFirsts(f', inv, firsts[1..], seconds, pair)
  }

  /** What a list of source pairs contributes. */
  function PairsLefts(T: Table, inv: RuleIndex, pairs: seq<(Pos, Pos)>): set<string>
    decreases |pairs|
  {
    if |pairs| == 0 then {}
    else Combine(inv, Nonterminals(GetField(T, pairs[0].0)), Nonterminals(GetField(T, pairs[0].1)))
         + PairsLefts(T, inv, pairs[1..])
  }

  /** The loop over `getSources()`. */
  function AddPairs(f: Field, T: Table, inv: RuleIndex, pairs: seq<(Pos, Pos)>): (r: Field)
    ensures Nonterminals(r) == Nonterminals(f) + PairsLefts(T, inv, pairs)
    decreases |pairs|
  {
    if |pairs| == 0 then f
    else
      var first := GetField(T, pairs[0].0);
      var second := GetField(T, pairs[0].1);
      assert Elements(first.keys) == Nonterminals(first) && Elements(second.keys) == Nonterminals(second);
      AddPairs(AddFirsts(f, inv, first.keys, second.keys, Some(pairs[0])), T, inv, pairs[1..])
  }

  /** The step for a field of the bottom row: the rules printing as the
      symbol under it, or None when there is none and parsing stops. */
  function BottomStep(inv: RuleIndex, w: Word, p: Pos): (r: Option<Field>)
    requires 1 <= p.j <= |w|
    ensures r.None? <==> w[p.j - 1].Text() !in inv.values
    ensures r.Some? ==> Nonterminals(r.value) == Lefts(Listed(inv, w[p.j - 1].Text()))
    ensures r.None? ==> Lefts(Listed(inv, w[p.j - 1].Text())) == {}
  {
    match Objects.Get(inv, w[p.j - 1].Text())
    case None => None
    case Some(rs) => Some(AddAll(Empty(), rs, None))
  }

  /** The step for a higher field. */
  function HigherStep(T: Table, inv: RuleIndex, p: Pos): (r: Field)
    ensures Nonterminals(r) == PairsLefts(T, inv, Sources(p))
  {
    AddPairs(Empty(), T, inv, Sources(p))
  }

  // ---------------------------------------------------------------------
  // Agreement of the steps with the recurrence

  lemma InverseCombine(rules: seq<Rule>, A: set<string>, B: set<string>)
    ensures Combine(Inverse(rules), A, B) == BinaryLefts(rules, A, B)
  {
    var inv := Inverse(rules);
    forall N | N in BinaryLefts(rules, A, B) ensures N in Combine(inv, A, B) {
      var x :| x in rules && BinaryOver(x, A, B) && x.left == N;
      var a, b :| a in A && b in B && ToString(x.right) == PairKey(a, b);
      assert x in Listed(inv, PairKey(a, b));
    }
    forall N | N in Combine(inv, A, B) ensures N in BinaryLefts(rules, A, B) {
      var a, b, x :| a in A && b in B && x in Listed(inv, PairKey(a, b)) && x.left == N;
      assert x in Keyed(rules, PairKey(a, b));
      assert BinaryOver(x, A, B);
    }
  }

  /** Every filled field holds exactly the nonterminals deriving its span. */
  ghost predicate Filled(rules: seq<Rule>, w: Word, T: Table) {
    forall p :: p in T ==> Nonterminals(T[p]) == Spans(rules, w, p.i, p.j)
  }

  /** Field q is filled, with the nonterminals deriving its span. */
  ghost predicate Ready(rules: seq<Rule>, w: Word, T: Table, i: nat, j: nat) {
    Pos(i, j) in T && Nonterminals(T[Pos(i, j)]) == Spans(rules, w, i, j)
  }

  /** Source pair k of p combines to the splits at k of the recurrence. */
  lemma PairAgrees(rules: seq<Rule>, w: Word, T: Table, p: Pos, k: nat)
    requires 1 <= k < p.i && PairReady(rules, w, T, p, k)
    ensures Combine(Inverse(rules), Nonterminals(GetField(T, Pos(k, p.j))), Nonterminals(GetField(T, Pos(p.i - k, p.j + k))))
            == BinaryLefts(rules, Spans(rules, w, k, p.j), Spans(rules, w, p.i - k, p.j + k))
  {
    var A, B := Pos(k, p.j), Pos(p.i - k, p.j + k);
    ReadyField(rules, w, T, k, p.j);
    ReadyField(rules, w, T, p.i - k, p.j + k);
    InverseCombine(rules, Spans(rules, w, k, p.j), Spans(rules, w, p.i - k, p.j + k));
    CombineCongruence(Inverse(rules), Nonterminals(GetField(T, A)), Nonterminals(GetField(T, B)),
                      Spans(rules, w, k, p.j), Spans(rules, w, p.i - k, p.j + k));
  }

  lemma ReadyField(rules: seq<Rule>, w: Word, T: Table, i: nat, j: nat)
    requires Ready(rules, w, T, i, j)
    ensures Nonterminals(GetField(T, Pos(i, j))) == Spans(rules, w, i, j)
  {
  }

  lemma CombineCongruence(inv: RuleIndex, A: set<string>, B: set<string>, A': set<string>, B': set<string>)
    requires A == A' && B == B'
    ensures Combine(inv, A, B) == Combine(inv, A', B')
  {
  }

  /** Both fields of the source pair k of p are ready. */
  ghost predicate PairReady(rules: seq<Rule>, w: Word, T: Table, p: Pos, k: nat)
    requires k < p.i
  {
    Ready(rules, w, T, k, p.j) && Ready(rules, w, T, p.i - k, p.j + k)
  }

  /** Both fields of the source pairs k .. i - 1 of p are ready. */
  ghost predicate SourcesReady(rules: seq<Rule>, w: Word, T: Table, p: Pos, k: nat)
    decreases p.i - k
  {
    k >= p.i || (PairReady(rules, w, T, p, k) && SourcesReady(rules, w, T, p, k + 1))
  }

  lemma {:induction false} PairsAgree(rules: seq<Rule>, w: Word, T: Table, p: Pos, k: nat, pairs: seq<(Pos, Pos)>)
    requires 1 <= k <= p.i && pairs == Sources(p)[k - 1..]
    requires SourcesReady(rules, w, T, p, k)
    ensures PairsLefts(T, Inverse(rules), pairs) == SplitsFrom(rules, w, p.i, p.j, k)
    decreases p.i - k
  {
    if k < p.i {
      SourcesTail(p, k, pairs);
      PairsAgree(rules, w, T, p, k + 1, pairs[1..]);
      PairAgrees(rules, w, T, p, k);
      PairsStep(rules, w, T, p, k, pairs);
    } else {
      assert pairs == [];
    }
  }

  /** Pair k followed by the pairs after it contribute the splits from k
      on, given that pair k contributes the splits at k and the pairs after
      it those from k + 1 on. */
  lemma PairsStep(rules: seq<Rule>, w: Word, T: Table, p: Pos, k: nat, pairs: seq<(Pos, Pos)>)
    requires 1 <= k < p.i && |pairs| > 0 && pairs[0] == (Pos(k, p.j), Pos(p.i - k, p.j + k))
    requires Combine(Inverse(rules), Nonterminals(GetField(T, Pos(k, p.j))), Nonterminals(GetField(T, Pos(p.i - k, p.j + k))))
            == BinaryLefts(rules, Spans(rules, w, k, p.j), Spans(rules, w, p.i - k, p.j + k))
    requires PairsLefts(T, Inverse(rules), pairs[1..]) == SplitsFrom(rules, w, p.i, p.j, k + 1)
    ensures PairsLefts(T, Inverse(rules), pairs) == SplitsFrom(rules, w, p.i, p.j, k)
  {
    SplitsFromUnfold(rules, w, p.i, p.j, k);
  }

  /** The first of the source pairs from k on is pair k. */
  lemma SourcesTail(p: Pos, k: nat, pairs: seq<(Pos, Pos)>)
    requires 1 <= k < p.i && pairs == Sources(p)[k - 1..]
    ensures |pairs| > 0 && pairs[0] == (Pos(k, p.j), Pos(p.i - k, p.j + k))
    ensures pairs[1..] == Sources(p)[k..]
  {
  }

  lemma {:induction false} AllSourcesReady(rules: seq<Rule>, w: Word, T: Table, p: Pos, k: nat)
    requires forall c :: k <= c < p.i ==> PairReady(rules, w, T, p, c)
    ensures SourcesReady(rules, w, T, p, k)
    decreases p.i - k
  {
    if k < p.i {
      AllSourcesReady(rules, w, T, p, k + 1);
    }
  }

  /** When the queue reaches a higher field, both fields of each of its
      source pairs are filled, so the step computes the span's set. */
  lemma HigherAgrees(rules: seq<Rule>, w: Word, T: Table, queue: seq<Pos>, q: nat)
    requires Ascending(queue) && (forall p :: p in queue <==> InTable(|w|, p))
    requires q < |queue| && queue[q].i > 1
    requires forall p :: p in T <==> p in queue[..q]
    requires Filled(rules, w, T)
    ensures Nonterminals(HigherStep(T, Inverse(rules), queue[q])) == Spans(rules, w, queue[q].i, queue[q].j)
  {
    var p := queue[q];
    assert InTable(|w|, p);
    forall c | 1 <= c < p.i ensures PairReady(rules, w, T, p, c) {
      SourcesBefore(|w|, p, c);
      EarlierInPrefix(queue, q, Pos(c, p.j));
      EarlierInPrefix(queue, q, Pos(p.i - c, p.j + c));
    }
    AllSourcesReady(rules, w, T, p, 1);
    PairsAgree(rules, w, T, p, 1, Sources(p));
  }

  /** Filling the field at the head of the rest of the queue keeps the
      table in step with the queue. */
  lemma Extend(rules: seq<Rule>, w: Word, T: Table, queue: seq<Pos>, q: nat, field: Field, T': Table)
    requires Ascending(queue) && q < |queue|
    requires forall p :: p in T <==> p in queue[..q]
    requires Filled(rules, w, T)
    requires Nonterminals(field) == Spans(rules, w, queue[q].i, queue[q].j)
    requires T' == T[queue[q] := field]
    ensures forall p :: p in T' <==> p in queue[..q + 1]
    ensures Filled(rules, w, T')
  {
    assert queue[..q + 1] == queue[..q] + [queue[q]];
  }

  lemma BottomAgrees(rules: seq<Rule>, w: Word, j: nat)
    requires 1 <= j <= |w|
    ensures Lefts(Listed(Inverse(rules), w[j - 1].Text())) == Spans(rules, w, 1, j)
  {
  }

  /** A span derives something only if every one of its symbols does: so a
      symbol that no rule prints as makes the whole word unparsable. */
  lemma {:induction false} SpansNeedSymbols(rules: seq<Rule>, w: Word, i: nat, j: nat, c: nat)
    requires j <= c < j + i && Spans(rules, w, i, j) != {}
    ensures Spans(rules, w, 1, c) != {}
    decreases i, 1
  {
    if i > 1 {
      SplitWitness(rules, w, i, j, 1);
      var k :| 1 <= k < i && Spans(rules, w, k, j) != {} && Spans(rules, w, i - k, j + k) != {};
      if c < j + k {
        SpansNeedSymbols(rules, w, k, j, c);
      } else {
        RestNeedsSymbols(rules, w, i, j, k, c);
      }
    }
  }

  /** The same for the second part of a split at k. */
  lemma {:induction false} RestNeedsSymbols(rules: seq<Rule>, w: Word, i: nat, j: nat, k: nat, c: nat)
    requires 1 <= k < i && j + k <= c < j + i && Spans(rules, w, i - k, j + k) != {}
    ensures Spans(rules, w, 1, c) != {}
    decreases i, 0
  {
    SpansNeedSymbols(rules, w, i - k, j + k, c);
  }

  lemma BinaryNonempty(rules: seq<Rule>, A: set<string>, B: set<string>)
    requires BinaryLefts(rules, A, B) != {}
    ensures A != {} && B != {}
  {
    var N :| N in BinaryLefts(rules, A, B);
    var x :| x in rules && BinaryOver(x, A, B) && x.left == N;
    var a, b :| a in A && b in B && ToString(x.right) == PairKey(a, b);
  }

  /** A split that contributes to a nonempty set of splits: a first part
      of m symbols and the rest, both deriving something. */
  lemma {:induction false} SplitWitness(rules: seq<Rule>, w: Word, i: nat, j: nat, k: nat)
    requires SplitsFrom(rules, w, i, j, k) != {}
    ensures exists m :: 1 <= k <= m < i && Spans(rules, w, m, j) != {} && Spans(rules, w, i - m, j + m) != {}
    decreases i - k
  {
    var A, B := Spans(rules, w, k, j), Spans(rules, w, i - k, j + k);
    if BinaryLefts(rules, A, B) != {} {
      BinaryNonempty(rules, A, B);
    } else {
      SplitWitness(rules, w, i, j, k + 1);
    }
  }

  // ---------------------------------------------------------------------
  // The parser

  /** A parsing session: a grammar in strict Chomsky form and a word. */
  datatype Session = Session(grammar: Grammar, word: Word)

  /** The outcome of `execute`: whether the word parses, the table as far
      as it was filled, and the step counters. */
  datatype Run = Run(parsable: bool, table: Table, steps: nat, total: nat)

  /** The constructor refuses a grammar that is not in strict Chomsky form. */
  function NewSession(g: Grammar, w: Word): (r: Result<Session>)
    ensures r.Success? <==> StrictChomskyCheck(g)
    ensures r.Success? ==> r.value.grammar == g && r.value.word == w
  {
    if StrictChomskyCheck(g) then Success(Session(g, w)) else Failure("CYK given grammar not in strict Chomsky")
  }

  /** `parseEpsilon`: the empty word parses iff the start symbol has an
      epsilon rule (stored under the key "eps"). */
  function ParseEpsilon(g: Grammar): (r: bool)
    requires Valid(g)
    ensures r <==> exists x :: x in RulesOf(g) && StartEps(g, x)
  {
    StartEpsMeans(g);
    HasStartEps(g)
  }

  lemma StartEpsMeans(g: Grammar)
    requires Valid(g)
    ensures HasStartEps(g) <==> exists x :: x in RulesOf(g) && StartEps(g, x)
  {
    if HasStartEps(g) {
      var x := TryGetRule(g, g.start, EpsText).value;
      RuleVisited(g, g.start, EpsText);
      assert RuleWellFormed(g.n, g.t, g.start, EpsText, x);
      EpsKeyIsEmpty(x.right);
    } else if e :| e in RulesOf(g) && StartEps(g, e) {
      StartEpsFound(g, e);
    }
  }

  /** Only the empty word is stored under the key "eps": a single symbol
      "eps" is refused, and two or more symbols print with a space. */
  lemma EpsKeyIsEmpty(w: Word)
    requires ToString(w) == EpsText && !IsEpsLookalike(w)
    ensures |w| == 0
  {
    if |w| >= 2 {
      LongWordIsNotEps(w);
      assert false;
    }
  }

  /** A word of two or more symbols prints with a space in it, which the
      text "eps" does not have. */
  lemma LongWordIsNotEps(w: Word)
    requires |w| >= 2
    ensures ToString(w) != EpsText
  {
    var t := Texts(w);
    JoinHasSpace(t);
    assert ToString(w)[|t[0]|] == ' ';
    assert forall j :: 0 <= j < |EpsText| ==> EpsText[j] != ' ';
  }

  lemma JoinHasSpace(t: seq<string>)
    requires |t| >= 2
    ensures |t[0]| < |Join(t, " ")| && Join(t, " ")[|t[0]|] == ' '
  {
    assert Join(t, " ") == t[0] + " " + Join(t[1..], " ");
  }

  /** `parseEpsilon` as written looks the start symbol's epsilon rule up
      under the key "0", which is where a rule S -> 0 is stored. */
  function ParseEpsilonAsWritten(g: Grammar): bool {
    TryGetRule(g, g.start, "0").Some?
  }

  /** A rule S -> 0 of the start symbol, with "0" a single symbol. */
  predicate StartZero(g: Grammar, r: Rule) {
    r.left == g.start && Texts(r.right) == ["0"]
  }

  /** As written, the empty word is reported parsable iff the start symbol
      has the rule S -> 0, whatever its epsilon rules. */
  lemma ParseEpsilonAsWrittenMeans(g: Grammar)
    requires Valid(g)
    ensures ParseEpsilonAsWritten(g) <==> exists x :: x in RulesOf(g) && StartZero(g, x)
  {
    if ParseEpsilonAsWritten(g) {
      var x := TryGetRule(g, g.start, "0").value;
      RuleVisited(g, g.start, "0");
      assert RuleWellFormed(g.n, g.t, g.start, "0", x);
      ZeroKeyIsZero(x.right);
      assert StartZero(g, x);
    } else if x :| x in RulesOf(g) && StartZero(g, x) {
      RuleStored(g, x);
      assert false;
    }
  }

  /** Only the single symbol "0" is stored under the key "0". */
  lemma ZeroKeyIsZero(w: Word)
    requires ToString(w) == "0"
    ensures Texts(w) == ["0"]
  {
    if |w| >= 2 {
      LongWordHasSpace(w);
      assert false;
    } else if |w| == 0 {
      assert false;
    } else {
      assert Join(Texts(w), " ") == Texts(w)[0];
    }
  }

  /** A word of two or more symbols prints with a space after its first
      symbol. */
  lemma LongWordHasSpace(w: Word)
    requires |w| >= 2
    ensures |w[0].Text()| < |ToString(w)| && ToString(w)[|w[0].Text()|] == ' '
  {
    JoinHasSpace(Texts(w));
  }

  /** For every valid grammar the two lookups disagree exactly when the
      start symbol has one of S -> eps and S -> 0 but not the other: an
      epsilon rule alone is missed, and S -> 0 alone makes the empty word
      parsable. */
  lemma EpsilonVerdictsDiffer(g: Grammar)
    requires Valid(g)
    ensures ParseEpsilon(g) != ParseEpsilonAsWritten(g)
            <==> ((exists x :: x in RulesOf(g) && StartEps(g, x)) != (exists x :: x in RulesOf(g) && StartZero(g, x)))
  {
    ParseEpsilonAsWrittenMeans(g);
  }

  /** `step()` on field p: a bottom field takes the rules printing as its
      symbol, and fails when there is none; a higher field combines the
      nonterminals of each pair of its sources. */
  function Step(inv: RuleIndex, w: Word, T: Table, p: Pos): (r: Option<Field>)
    requires InTable(|w|, p)
    ensures r.None? <==> p.i == 1 && w[p.j - 1].Text() !in inv.values
  {
    if p.i == 1 then BottomStep(inv, w, p) else Some(HigherStep(T, inv, p))
  }

  /** Filling the fields in layout order, each step computes exactly the
      nonterminals deriving its span; and a step fails only when the whole
      word derives nothing. */
  lemma StepAgrees(rules: seq<Rule>, w: Word, T: Table, queue: seq<Pos>, q: nat)
    requires Ascending(queue) && (forall p :: p in queue <==> InTable(|w|, p))
    requires q < |queue|
    requires forall p :: p in T <==> p in queue[..q]
    requires Filled(rules, w, T)
    ensures var r := Step(Inverse(rules), w, T, queue[q]);
            && (r.Some? ==> Nonterminals(r.value) == Spans(rules, w, queue[q].i, queue[q].j))
            && (r.None? ==> Spans(rules, w, |w|, 1) == {})
  {
    var p := queue[q];
    assert InTable(|w|, p);
    if p.i == 1 {
      assert p == Pos(1, p.j);
      BottomStepAgrees(rules, w, p.j);
      if Step(Inverse(rules), w, T, p).None? {
        NoSymbolNoSpan(rules, w, p.j);
      }
    } else {
      HigherAgrees(rules, w, T, queue, q);
    }
  }

  /** A bottom step computes the nonterminals printing as its symbol, and
      fails only when no rule prints as it. */
  lemma BottomStepAgrees(rules: seq<Rule>, w: Word, j: nat)
    requires 1 <= j <= |w|
    ensures var r := BottomStep(Inverse(rules), w, Pos(1, j));
            && (r.Some? ==> Nonterminals(r.value) == Spans(rules, w, 1, j))
            && (r.None? ==> Spans(rules, w, 1, j) == {})
  {
    BottomAgrees(rules, w, j);
    BottomStepTransfer(Inverse(rules), w, j, Spans(rules, w, 1, j));
  }

  /** A bottom step over any index computes a set equal to the one its
      listed rules' left sides form. */
  lemma BottomStepTransfer(inv: RuleIndex, w: Word, j: nat, S: set<string>)
    requires 1 <= j <= |w| && Lefts(Listed(inv, w[j - 1].Text())) == S
    ensures var r := BottomStep(inv, w, Pos(1, j));
            && (r.Some? ==> Nonterminals(r.value) == S)
            && (r.None? ==> S == {})
  {
  }

  /** A symbol that derives from nothing makes the whole word derive nothing. */
  lemma NoSymbolNoSpan(rules: seq<Rule>, w: Word, j: nat)
    requires 1 <= j <= |w| && Spans(rules, w, 1, j) == {}
    ensures Spans(rules, w, |w|, 1) == {}
  {
    if Spans(rules, w, |w|, 1) != {} {
      SpansNeedSymbols(rules, w, |w|, 1, j);
      assert false;
    }
  }

  /** `execute()` followed by the steps until the queue is empty or a step
      fails, and `stepsFinished()`: a nonempty word is parsable iff the
      start symbol derives it (the empty word goes to `parseEpsilon` as
      written), every filled field holds the nonterminals deriving
      its span, and the step counter stops short of the total only when
      the word cannot be parsed. */
  method Execute(s: Session) returns (run: Run)
    requires Valid(s.grammar)
    ensures |s.word| == 0 ==> (run.parsable <==> exists x :: x in RulesOf(s.grammar) && StartZero(s.grammar, x))
    ensures |s.word| == 0 ==> run.steps == run.total == 1
    ensures |s.word| > 0 ==> (run.parsable <==> s.grammar.start in Spans(RulesOf(s.grammar), s.word, |s.word|, 1))
    ensures |s.word| > 0 ==> run.total == |s.word| * (|s.word| + 1) / 2 && run.steps <= run.total
    ensures Filled(RulesOf(s.grammar), s.word, run.table)
    ensures forall p :: p in run.table ==> InTable(|s.word|, p)
    ensures run.steps < run.total ==> !run.parsable
  {
    var g, w := s.grammar, s.word;
    var n := |w|;
    if n == 0 {
      ParseEpsilonAsWrittenMeans(g);
      return Run(ParseEpsilonAsWritten(g), map[], 1, 1);
    }
    var rules := RulesOf(g);
    var queue := Layout(n);
    var inv := Inverse(rules);
    var T: Table := map[];
    var q := 0;
    while q < |queue|
      invariant 0 <= q <= |queue|
      invariant forall p :: p in T <==> p in queue[..q]
      invariant Filled(rules, w, T)
    {
      var p := queue[q];
      StepAgrees(rules, w, T, queue, q);
      var r := Step(inv, w, T, p);
      if r.None? {
        return Run(false, T, q + 1, |queue|);
      }
      Extend(rules, w, T, queue, q, r.value, T[p := r.value]);
      T := T[p := r.value];
      q := q + 1;
    }
    assert Pos(n, 1) in queue[..q] by {
      assert queue[..q] == queue;
    }
    run := Run(g.start in Nonterminals(T[Pos(n, 1)]), T, |queue|, |queue|);
  }

  // ---------------------------------------------------------------------
  // What the keys mean in a valid grammar

  /** In a valid grammar a rule prints as "a b", for tokens a and b, iff
      its right side is exactly the two symbols a and b. */
  lemma BinaryKeyMeans(g: Grammar, x: Rule, a: string, b: string)
    requires Valid(g) && x in RulesOf(g)
    requires |a| > 0 && NoBlank(a) && |b| > 0 && NoBlank(b)
    ensures ToString(x.right) == PairKey(a, b) <==> Texts(x.right) == [a, b]
  {
    assert Join([a, b], " ") == PairKey(a, b) by {
      assert Join([b], " ") == b;
    }
    TokensOfJoin([a, b]);
    if |x.right| == 0 {
      assert EpsText[3..] == [];
      EpsPatternTokens(EpsText);
    } else {
      RightPrintable(g, x);
      TokensOfJoin(Texts(x.right));
    }
  }

  /** The symbols of a stored rule print as tokens. */
  lemma RightPrintable(g: Grammar, x: Rule)
    requires Valid(g) && x in RulesOf(g)
    ensures forall c :: 0 <= c < |Texts(x.right)| ==> |Texts(x.right)[c]| > 0 && NoBlank(Texts(x.right)[c])
  {
    RuleStored(g, x);
    var L := x.left;
    var k := ToString(x.right);
    assert RuleWellFormed(g.n, g.t, L, k, g.p.values[L].values[k]);
    forall c | 0 <= c < |x.right| ensures Printable(x.right[c]) {
      assert InitLookup(g.n, g.t, x.right[c].Text()) == Some(x.right[c]);
      ValidTextIsPrintable(x.right[c]);
    }
  }

  // ---------------------------------------------------------------------
  // The epsilon lookup as written

  /** The smallest strict Chomsky grammar with an epsilon rule: S -> eps. */
  function EpsilonOnly(): (g: Grammar)
    ensures Valid(g)
  {
    var x := Rule("S", [], NONE, NONE);
    var group: Dict<Rule> := RawDict(["eps"], map["eps" := x]);
    var groups: map<string, Dict<Rule>> := map["S" := group];
    var p: Dict<Dict<Rule>> := RawDict(["S"], groups);
    var g := Grammar(RawDict(["S"], map["S" := NONE]), Empty(), p, "S");
    assert ValidText("S", false);
    assert RuleWellFormed(g.n, g.t, "S", "eps", x);
    g
  }

  /** As written, the grammar S -> eps is accepted by the constructor yet
      the empty word is reported unparsable, although the start symbol's
      epsilon rule derives it. */
  lemma ParseEpsilonAsWrittenMissesEpsilon()
    ensures var g := EpsilonOnly();
            && StrictChomskyCheck(g)
            && ParseEpsilon(g)
            && !ParseEpsilonAsWritten(g)
  {
    var g := EpsilonOnly();
    var x := Rule("S", [], NONE, NONE);
    assert Values(g.p.values["S"]) == [x];
    assert RulesOf(g) == [x];
    assert StartEps(g, x);
  }
}

=== FILE: derivations.dfy ===
/** Leftmost and rightmost derivations over sentential forms: the meaning
    of the rule sequences the LL and LR parser simulations emit
    (js/parsing/LLParserAlgorithm.js, js/parsing/LRParserAlgorithm.js).
    A derivation step rewrites the leftmost (rightmost) nonterminal of the
    form by a rule for it. */
module Derivations {
  import opened Wrappers
  import opened Symbols
  import opened Words
  import opened Rules

  /** No symbol of the form is a nonterminal. */
  predicate NoNonterminal(f: Word) {
    forall j :: 0 <= j < |f| ==> !f[j].Nonterminal?
  }

  /** The position of the leftmost nonterminal, if any. */
  function Leftmost(f: Word): (r: Option<nat>)
    ensures r.None? <==> NoNonterminal(f)
    ensures r.Some? ==> r.value < |f| && f[r.value].Nonterminal? && NoNonterminal(f[..r.value])
    decreases |f|
  {
    if |f| == 0 then None
    else if f[0].Nonterminal? then Some(0)
    else match Leftmost(f[1..])
      case None => None
      case Some(i) =>
        assert f[..i + 1] == [f[0]] + f[1..][..i];
        Some(i + 1)
  }

  /** The position of the rightmost nonterminal, if any. */
  function Rightmost(f: Word): (r: Option<nat>)
    ensures r.None? <==> NoNonterminal(f)
    ensures r.Some? ==> r.value < |f| && f[r.value].Nonterminal? && NoNonterminal(f[r.value + 1..])
    decreases |f|
  {
    if |f| == 0 then None
    else if f[|f| - 1].Nonterminal? then Some(|f| - 1)
    else match Rightmost(f[..|f| - 1])
      case None => None
      case Some(i) =>
        assert f[i + 1..] == f[..|f| - 1][i + 1..] + [f[|f| - 1]];
        Some(i)
  }

  /** Rewriting position i by rule x, when the symbol there is x's left side. */
  function RewriteAt(f: Word, i: nat, x: Rule): Option<Word>
    requires i < |f|
  {
    if f[i] == Nonterminal(x.left) then Some(f[..i] + x.right + f[i + 1..]) else None
  }

  /** One leftmost derivation step by rule x. */
  function LeftStep(f: Word, x: Rule): Option<Word> {
    match Leftmost(f)
    case None => None
    case Some(i) => RewriteAt(f, i, x)
  }

  /** One rightmost derivation step by rule x. */
  function RightStep(f: Word, x: Rule): Option<Word> {
    match Rightmost(f)
    case None => None
    case Some(i) => RewriteAt(f, i, x)
  }

  /** The leftmost nonterminal lies past a prefix without nonterminals. */
  lemma {:induction false} LeftmostSkip(u: Word, w: Word)
    requires NoNonterminal(u)
    ensures Leftmost(u + w) == match Leftmost(w) case None => None case Some(i) => Some(|u| + i)
    decreases |u|
  {
    if |u| > 0 {
      assert (u + w)[0] == u[0] && (u + w)[1..] == u[1..] + w;
      LeftmostSkip(u[1..], w);
    } else {
      assert u + w == w;
    }
  }

  /** The rightmost nonterminal lies before a suffix without nonterminals. */
  lemma {:induction false} RightmostSkip(w: Word, v: Word)
    requires NoNonterminal(v)
    ensures Rightmost(w + v) == Rightmost(w)
    decreases |v|
  {
    if |v| > 0 {
      var f := w + v;
      assert f[|f| - 1] == v[|v| - 1] && f[..|f| - 1] == w + v[..|v| - 1];
      RightmostSkip(w, v[..|v| - 1]);
    } else {
      assert w + v == w;
    }
  }

  /** A leftmost step by x rewrites u A v into u x.right v exactly when u
      has no nonterminal and A is x's left side. */
  lemma LeftStepMeans(u: Word, a: Symbol, v: Word, x: Rule)
    requires NoNonterminal(u) && a.Nonterminal?
    ensures LeftStep(u + [a] + v, x) == if a == Nonterminal(x.left) then Some(u + x.right + v) else None
  {
    var f := u + [a] + v;
    assert f == u + ([a] + v);
    LeftmostSkip(u, [a] + v);
    assert Leftmost([a] + v) == Some(0);
    assert f[..|u|] == u && f[|u| + 1..] == v;
  }

  /** A rightmost step by x rewrites u A v into u x.right v exactly when v
      has no nonterminal and A is x's left side. */
  lemma RightStepMeans(u: Word, a: Symbol, v: Word, x: Rule)
    requires NoNonterminal(v) && a.Nonterminal?
    ensures RightStep(u + [a] + v, x) == if a == Nonterminal(x.left) then Some(u + x.right + v) else None
  {
    var f := u + [a] + v;
    RightmostSkip(u + [a], v);
    assert (u + [a])[..|u|] == u;
    assert Rightmost(u + [a]) == Some(|u|);
    assert f[..|u|] == u && f[|u| + 1..] == v;
  }

  /** The form reached from f by the rules in order, each a leftmost step;
      none when some rule does not apply. */
  function DeriveLeft(f: Word, rules: seq<Rule>): Option<Word>
    decreases |rules|
  {
    if |rules| == 0 then Some(f)
    else match DeriveLeft(f, rules[..|rules| - 1])
      case None => None
      case Some(g) => LeftStep(g, rules[|rules| - 1])
  }

  /** The form reached from f by the rules in order, each a rightmost step. */
  function DeriveRight(f: Word, rules: seq<Rule>): Option<Word>
    decreases |rules|
  {
    if |rules| == 0 then Some(f)
    else match RightStep(f, rules[0])
      case None => None
      case Some(g) => DeriveRight(g, rules[1..])
  }

  /** Appending a rule continues a leftmost derivation by one step. */
  lemma DeriveLeftSnoc(f: Word, rules: seq<Rule>, x: Rule, g: Word)
    requires DeriveLeft(f, rules) == Some(g)
    ensures DeriveLeft(f, rules + [x]) == LeftStep(g, x)
  {
    assert (rules + [x])[..|rules|] == rules;
  }

  /** Prepending a rule starts a rightmost derivation with one step. */
  lemma DeriveRightCons(f: Word, x: Rule, rules: seq<Rule>, g: Word)
    requires RightStep(f, x) == Some(g)
    ensures DeriveRight(f, [x] + rules) == DeriveRight(g, rules)
  {
    assert ([x] + rules)[1..] == rules;
  }

  /** A derivation that reaches a form without nonterminals cannot go on:
      any further rule fails in either discipline. */
  lemma StuckAtSentence(f: Word, x: Rule)
    requires NoNonterminal(f)
    ensures LeftStep(f, x).None? && RightStep(f, x).None?
  {
  }

  /** One step of either discipline: leftmost when `leftmost` holds. */
  function StepBy(leftmost: bool, f: Word, x: Rule): Option<Word> {
    if leftmost then LeftStep(f, x) else RightStep(f, x)
  }

  /** The latest form of a derivation from f that has emitted `forms`. */
  function Last(f: Word, forms: seq<Word>): Word {
    if |forms| == 0 then f else forms[|forms| - 1]
  }

  /** `forms` lists the forms of a derivation from f by `rules`, one per
      rule, each one step of the discipline from the form before it. */
  predicate Chain(leftmost: bool, f: Word, rules: seq<Rule>, forms: seq<Word>) {
    |forms| == |rules|
    && forall k :: 0 <= k < |rules| ==> StepBy(leftmost, Last(f, forms[..k]), rules[k]) == Some(forms[k])
  }

  lemma ChainOne(leftmost: bool, f: Word, x: Rule, g: Word)
    requires StepBy(leftmost, f, x) == Some(g)
    ensures Chain(leftmost, f, [x], [g]) && Last(f, [g]) == g
  {
    assert [g][..0] == [];
  }

  lemma LastAppend(f: Word, a: seq<Word>, b: seq<Word>)
    ensures Last(f, a + b) == Last(Last(f, a), b)
  {
    if |b| == 0 {
      assert a + b == a;
    }
  }

  /** Two derivations, the second starting where the first ends, make one. */
  lemma ChainAppend(leftmost: bool, f: Word, a: seq<Rule>, fa: seq<Word>, b: seq<Rule>, fb: seq<Word>)
    requires Chain(leftmost, f, a, fa) && Chain(leftmost, Last(f, fa), b, fb)
    ensures Chain(leftmost, f, a + b, fa + fb)
    ensures Last(f, fa + fb) == Last(Last(f, fa), fb)
  {
    forall k | 0 <= k < |a + b|
      ensures StepBy(leftmost, Last(f, (fa + fb)[..k]), (a + b)[k]) == Some((fa + fb)[k])
    {
      if k < |a| {
        ChainAppendFirst(leftmost, f, a, fa, b, fb, k);
      } else {
        ChainAppendSecond(leftmost, f, a, fa, b, fb, k);
      }
    }
    LastAppend(f, fa, fb);
  }

  /** A step of the joined derivation taken from the first one. */
  lemma ChainAppendFirst(leftmost: bool, f: Word, a: seq<Rule>, fa: seq<Word>, b: seq<Rule>, fb: seq<Word>, k: nat)
    requires Chain(leftmost, f, a, fa) && |fb| == |b| && k < |a|
    ensures StepBy(leftmost, Last(f, (fa + fb)[..k]), (a + b)[k]) == Some((fa + fb)[k])
  {
    assert (fa + fb)[..k] == fa[..k];
    assert (a + b)[k] == a[k] && (fa + fb)[k] == fa[k];
  }

  /** A step of the joined derivation taken from the second one. */
  lemma ChainAppendSecond(leftmost: bool, f: Word, a: seq<Rule>, fa: seq<Word>, b: seq<Rule>, fb: seq<Word>, k: nat)
    requires Chain(leftmost, Last(f, fa), b, fb) && |fa| == |a| && |a| <= k < |a| + |b|
    ensures StepBy(leftmost, Last(f, (fa + fb)[..k]), (a + b)[k]) == Some((fa + fb)[k])
  {
    var j := k - |a|;
    assert (fa + fb)[..k] == fa + fb[..j];
    assert (a + b)[k] == b[j] && (fa + fb)[k] == fb[j];
    LastAppend(f, fa, fb[..j]);
  }

  /** A leftmost chain is what DeriveLeft computes. */
  lemma {:induction false} ChainDerivesLeft(f: Word, rules: seq<Rule>, forms: seq<Word>)
    requires Chain(true, f, rules, forms)
    ensures DeriveLeft(f, rules) == Some(Last(f, forms))
    decreases |rules|
  {
    if |rules| > 0 {
      var n := |rules| - 1;
      forall k | 0 <= k < n
        ensures StepBy(true, Last(f, forms[..n][..k]), rules[..n][k]) == Some(forms[..n][k])
      {
        assert forms[..n][..k] == forms[..k];
      }
      ChainDerivesLeft(f, rules[..n], forms[..n]);
    }
  }

  /** A rightmost chain is what DeriveRight computes. */
  lemma {:induction false} ChainDerivesRight(f: Word, rules: seq<Rule>, forms: seq<Word>)
    requires Chain(false, f, rules, forms)
    ensures DeriveRight(f, rules) == Some(Last(f, forms))
    decreases |rules|
  {
    if |rules| > 0 {
      assert forms[..0] == [];
      var g := forms[0];
      assert StepBy(false, Last(f, forms[..0]), rules[0]) == Some(g);
      forall k | 0 <= k < |rules| - 1
        ensures StepBy(false, Last(g, forms[1..][..k]), rules[1..][k]) == Some(forms[1..][k])
      {
        assert StepBy(false, Last(f, forms[..k + 1]), rules[k + 1]) == Some(forms[k + 1]);
        assert Last(g, forms[1..][..k]) == Last(f, forms[..k + 1]);
      }
      assert Chain(false, g, rules[1..], forms[1..]);
      ChainDerivesRight(g, rules[1..], forms[1..]);
      assert Last(g, forms[1..]) == Last(f, forms);
    }
  }

  /** A step from `start` to `form`, then a derivation from `form`, then one
      from where that ends, make one derivation from `start`. */
  lemma ChainCompose(leftmost: bool, start: Word, x: Rule, form: Word,
                     a: seq<Rule>, fa: seq<Word>, b: seq<Rule>, fb: seq<Word>)
    requires StepBy(leftmost, start, x) == Some(form)
    requires Chain(leftmost, form, a, fa) && Chain(leftmost, Last(form, fa), b, fb)
    ensures Chain(leftmost, start, [x] + a + b, [form] + fa + fb)
    ensures Last(start, [form] + fa + fb) == Last(Last(form, fa), fb)
  {
    ChainOne(leftmost, start, x, form);
    ChainAppend(leftmost, start, [x], [form], a, fa);
    LastAppend(start, [form], fa);
    ChainAppend(leftmost, start, [x] + a, [form] + fa, b, fb);
  }
}

=== FILE: first_follow.dfy ===
/** The FIRST and FOLLOW computation (js/parsing/FirstFollowCompute.js).

    A cell of the FIRST/FOLLOW table is a symbol set, and a symbol set keys
    its items by their text; the empty word is stored under its text "eps"
    and the end marker under "$". A column of the table is modelled as the
    set of its (nonterminal, item text) pairs.

    Each step of the program tries the rules round-robin from a cursor and
    skips the rules that would change nothing. The first rule with an effect
    has its additions staged; they become visible when the step is archived,
    and the step asks to be repeated. The sets are complete after a full
    round of rules without effect. */
module FirstFollow {
  import opened Symbols
  import opened Words
  import opened Rules
  import ReducedForms

  type Column = set<(string, string)>

  /** The item texts in nonterminal n's cell of a column. */
  function Cell(c: Column, n: string): (r: set<string>)
    ensures forall x :: x in r <==> (n, x) in c
  {
    set p | p in c && p.0 == n :: p.1
  }

  // ---------------------------------------------------------------------
  // FIRST of a word

  /** Every symbol of w is a nonterminal whose FIRST cell holds the empty
      word. */
  predicate EpsProducing(first: Column, w: Word) {
    forall i :: 0 <= i < |w| ==> w[i].Nonterminal? && (w[i].name, EpsText) in first
  }

  /** What symbol w[i] contributes to FIRST(w) once every symbol before it
      is epsilon-producing: a terminal its own text, a nonterminal the
      texts of its FIRST cell other than the empty word. */
  predicate Contributes(first: Column, w: Word, i: int, x: string)
    requires 0 <= i < |w|
  {
    EpsProducing(first, w[..i])
    && if w[i].Nonterminal? then x != EpsText && (w[i].name, x) in first
       else x == w[i].Text()
  }

  /** The walk of `addFirsts4Word` over the word: the item texts it adds
      (the empty word aside) and whether it ran off the end of the word. */
  function FirstOfWord(first: Column, w: Word): (r: (set<string>, bool))
    decreases |w|
  {
    if |w| == 0 then ({}, true)
    else if w[0].Nonterminal? then
      var own := Cell(first, w[0].name) - {EpsText};
      if (w[0].name, EpsText) in first then
        var rest := FirstOfWord(first, w[1..]);
        (own + rest.0, rest.1)
      else (own, false)
    else ({w[0].Text()}, false)
  }

  /** A symbol produces epsilon when it is a nonterminal whose FIRST cell
      holds the empty word. */
  predicate HeadEps(first: Column, w: Word)
    requires |w| > 0
  {
    w[0].Nonterminal? && (w[0].name, EpsText) in first
  }

  lemma EpsProducingCons(first: Column, w: Word)
    requires |w| > 0
    ensures EpsProducing(first, w) <==> HeadEps(first, w) && EpsProducing(first, w[1..])
  {
    if HeadEps(first, w) && EpsProducing(first, w[1..]) {
      forall i | 0 <= i < |w| ensures w[i].Nonterminal? && (w[i].name, EpsText) in first {
        if i > 0 { assert w[i] == w[1..][i - 1]; }
      }
    }
    if EpsProducing(first, w) {
      forall i | 0 <= i < |w| - 1
        ensures w[1..][i].Nonterminal? && (w[1..][i].name, EpsText) in first
      {
        assert w[1..][i] == w[i + 1];
      }
    }
  }

  /** A later symbol contributes to w exactly when the head produces
      epsilon and it contributes to the rest of w. */
  lemma ContributesShift(first: Column, w: Word, i: int, x: string)
    requires 0 < i < |w|
    ensures Contributes(first, w, i, x) <==> HeadEps(first, w) && Contributes(first, w[1..], i - 1, x)
  {
    assert w[..i][1..] == w[1..][..i - 1];
    assert w[..i][0] == w[0];
    assert w[1..][i - 1] == w[i];
    EpsProducingCons(first, w[..i]);
  }

  lemma ContributesHead(first: Column, w: Word, x: string)
    requires |w| > 0
    ensures Contributes(first, w, 0, x) <==>
              if w[0].Nonterminal? then x != EpsText && (w[0].name, x) in first else x == w[0].Text()
  {
    assert w[..0] == [];
  }

  /** The walk agrees with the definition of FIRST: it runs off the end
      exactly for an epsilon-producing word, and adds x exactly when some
      symbol, all of whose predecessors produce epsilon, contributes x. */
  lemma {:induction false} FirstOfWordMeans(first: Column, w: Word)
    ensures FirstOfWord(first, w).1 <==> EpsProducing(first, w)
    ensures forall x :: x in FirstOfWord(first, w).0 <==>
              exists i :: 0 <= i < |w| && Contributes(first, w, i, x)
    decreases |w|
  {
    if |w| > 0 {
      FirstOfWordMeans(first, w[1..]);
      EpsProducingCons(first, w);
      var r := FirstOfWord(first, w);
      var rest := FirstOfWord(first, w[1..]);
      forall x ensures x in r.0 <==> exists i :: 0 <= i < |w| && Contributes(first, w, i, x) {
        ContributesHead(first, w, x);
        if x in r.0 {
          if !Contributes(first, w, 0, x) {
            assert HeadEps(first, w) && x in rest.0;
            var j :| 0 <= j < |w| - 1 && Contributes(first, w[1..], j, x);
            ContributesShift(first, w, j + 1, x);
          }
        }
        if i :| 0 < i < |w| && Contributes(first, w, i, x) {
          ContributesShift(first, w, i, x);
        }
      }
    }
  }

  /** Growing the FIRST column grows what a word collects. */
  lemma {:induction false} FirstOfWordMonotone(first: Column, bigger: Column, w: Word)
    requires first <= bigger
    ensures FirstOfWord(first, w).0 <= FirstOfWord(bigger, w).0
    ensures FirstOfWord(first, w).1 ==> FirstOfWord(bigger, w).1
    decreases |w|
  {
    if |w| > 0 && w[0].Nonterminal? && (w[0].name, EpsText) in first {
      FirstOfWordMonotone(first, bigger, w[1..]);
    }
  }

  /** The outcome of `addFirsts4Word`: the texts added to the output, the
      returned change flag and the `noEps` flag. */
  datatype Addition = Addition(added: set<string>, change: bool, wasEps: bool)

  /** `addFirsts4Word(c, word, output, noEps)` against an output whose
      visible items are `visible`: it adds FIRST(word), and the empty word
      when the whole word produces epsilon and no `noEps` object is given;
      with one, its flag is raised instead. It reports a change iff some
      added text was not visible, which is what `add` returns. */
  function AddFirsts4Word(first: Column, w: Word, visible: set<string>, noEps: bool): (r: Addition)
    ensures r.added == FirstOfWord(first, w).0 + (if EpsProducing(first, w) && !noEps then {EpsText} else {})
    ensures r.change <==> exists x :: x in r.added && x !in visible
    ensures r.wasEps <==> noEps && EpsProducing(first, w)
  {
    FirstOfWordMeans(first, w);
    var (items, eps) := FirstOfWord(first, w);
    var added := items + (if eps && !noEps then {EpsText} else {});
    Addition(added, !(added <= visible), eps && noEps)
  }

  // ---------------------------------------------------------------------
  // The effect of one rule

  /** The pairs that put the texts xs into n's cell. */
  function Into(n: string, xs: set<string>): (r: Column)
    ensures forall p :: p in r <==> p.0 == n && p.1 in xs
  {
    set x | x in xs :: (n, x)
  }

  /** `nextRule4First` on one rule: FIRST(right) is added to the left
      side's FIRST cell. */
  function FirstAdds(first: Column, x: Rule): Column {
    Into(x.left, AddFirsts4Word(first, x.right, Cell(first, x.left), false).added)
  }

  /** What the nonterminal at position i of x's right side receives in the
      FOLLOW phase: FIRST of the rest of the right side without the empty
      word, and the left side's visible FOLLOW cell when that rest produces
      epsilon. */
  function FollowAddsAt(first: Column, follow: Column, x: Rule, i: int): Column
    requires 0 <= i < |x.right|
  {
    if !x.right[i].Nonterminal? then {}
    else
      var s := x.right[i].name;
      var a := AddFirsts4Word(first, x.right[i + 1..], Cell(follow, s), true);
      Into(s, a.added) + (if a.wasEps then Into(s, Cell(follow, x.left)) else {})
  }

  /** `nextRule4Follow` on one rule: the additions of every position of the
      right side, all read against the visible FOLLOW column. */
  function FollowAddsFrom(first: Column, follow: Column, x: Rule, i: nat): Column
    requires i <= |x.right|
    decreases |x.right| - i
  {
    if i == |x.right| then {}
    else FollowAddsAt(first, follow, x, i) + FollowAddsFrom(first, follow, x, i + 1)
  }

  function FollowAdds(first: Column, follow: Column, x: Rule): Column {
    FollowAddsFrom(first, follow, x, 0)
  }

  /** The FOLLOW additions of a rule, position by position. */
  lemma {:induction false} FollowAddsFromMeans(first: Column, follow: Column, x: Rule, i: nat)
    requires i <= |x.right|
    ensures forall p :: p in FollowAddsFrom(first, follow, x, i) <==>
              exists j :: i <= j < |x.right| && p in FollowAddsAt(first, follow, x, j)
    decreases |x.right| - i
  {
    if i < |x.right| {
      FollowAddsFromMeans(first, follow, x, i + 1);
    }
  }

  /** FOLLOW(s) for the nonterminal s at position i of a rule gains FIRST
      of the rest without the empty word, and the left side's FOLLOW when
      that rest produces epsilon. */
  lemma FollowAddsMeans(first: Column, follow: Column, x: Rule, i: int, t: string)
    requires 0 <= i < |x.right| && x.right[i].Nonterminal?
    ensures var s := x.right[i].name;
            var rest := x.right[i + 1..];
            && (t in FirstOfWord(first, rest).0 ==> (s, t) in FollowAdds(first, follow, x))
            && (EpsProducing(first, rest) && (x.left, t) in follow ==> (s, t) in FollowAdds(first, follow, x))
  {
    FollowAddsFromMeans(first, follow, x, 0);
    var s := x.right[i].name;
    var rest := x.right[i + 1..];
    var a := AddFirsts4Word(first, rest, Cell(follow, s), true);
    if t in FirstOfWord(first, rest).0 {
      assert (s, t) in FollowAddsAt(first, follow, x, i);
    }
    if EpsProducing(first, rest) && (x.left, t) in follow {
      assert a.wasEps;
      assert (s, t) in FollowAddsAt(first, follow, x, i);
    }
  }

  /** Growing the FOLLOW column grows a rule's FOLLOW additions. */
  lemma {:induction false} FollowAddsMonotone(first: Column, follow: Column, bigger: Column, x: Rule, i: nat)
    requires follow <= bigger && i <= |x.right|
    ensures FollowAddsFrom(first, follow, x, i) <= FollowAddsFrom(first, bigger, x, i)
    decreases |x.right| - i
  {
    if i < |x.right| {
      FollowAddsMonotone(first, follow, bigger, x, i + 1);
    }
  }

  // ---------------------------------------------------------------------
  // Both phases

  /** The FIRST phase, or the FOLLOW phase over a finished FIRST column. */
  datatype Phase = FirstPhase | FollowPhase(first: Column)

  function Adds(ph: Phase, c: Column, x: Rule): Column {
    match ph
    case FirstPhase => FirstAdds(c, x)
    case FollowPhase(first) => FollowAdds(first, c, x)
  }

  /** A rule has an effect when one of its additions is not visible yet,
      which is the flag the program tests. */
  predicate Effect(ph: Phase, c: Column, x: Rule) {
    !(Adds(ph, c, x) <= c)
  }

  /** No rule would change the column: the sets are complete. */
  predicate Closed(ph: Phase, c: Column, rules: seq<Rule>) {
    forall k :: 0 <= k < |rules| ==> !Effect(ph, c, rules[k])
  }

  lemma AddsMonotone(ph: Phase, c: Column, bigger: Column, x: Rule)
    requires c <= bigger
    ensures Adds(ph, c, x) <= Adds(ph, bigger, x)
  {
    match ph
    case FirstPhase =>
      FirstOfWordMonotone(c, bigger, x.right);
      FirstOfWordMeans(c, x.right);
      FirstOfWordMeans(bigger, x.right);
    case FollowPhase(first) =>
      FollowAddsMonotone(first, c, bigger, x, 0);
  }

  /** The j-th rule before the cursor, going round: `(cur - 1 - j) mod n`. */
  function Before(cur: nat, n: nat, j: nat): (r: nat)
    ensures cur < n && j < n ==> r < n
  {
    if j < cur then cur - 1 - j else if cur + n >= j + 1 then cur + n - 1 - j else 0
  }

  /** The last q rules tried before the cursor had no effect. */
  predicate Quiet(ph: Phase, c: Column, rules: seq<Rule>, cur: nat, q: nat) {
    forall j :: 0 <= j < q && j < |rules| && cur < |rules| ==> !Effect(ph, c, rules[Before(cur, |rules|, j)])
  }

  /** A full round of quiet rules covers every rule. */
  lemma QuietRound(ph: Phase, c: Column, rules: seq<Rule>, cur: nat)
    requires |rules| > 0 ==> cur < |rules|
    requires Quiet(ph, c, rules, cur, |rules|)
    ensures Closed(ph, c, rules)
  {
    forall k | 0 <= k < |rules| ensures !Effect(ph, c, rules[k]) {
      var j := if k < cur then cur - 1 - k else cur + |rules| - 1 - k;
      assert Before(cur, |rules|, j) == k;
    }
  }

  /** Skipping a rule without effect extends the quiet run by one. */
  lemma QuietStep(ph: Phase, c: Column, rules: seq<Rule>, cur: nat, q: nat)
    requires cur < |rules| && Quiet(ph, c, rules, cur, q) && !Effect(ph, c, rules[cur])
    ensures Quiet(ph, c, rules, (cur + 1) % |rules|, q + 1)
  {
    var next := (cur + 1) % |rules|;
    assert next == if cur + 1 == |rules| then 0 else cur + 1;
    forall j | 0 <= j < q + 1 && j < |rules|
      ensures !Effect(ph, c, rules[Before(next, |rules|, j)])
    {
      if j > 0 {
        assert Before(next, |rules|, j) == Before(cur, |rules|, j - 1);
      }
    }
  }

  /** The outcome of one step: complete, or the column after the staged
      additions of the rule at `rule` became visible, with the cursor after
      that rule. */
  datatype Visit = Complete | Effective(column: Column, cursor: nat, rule: nat)

  /** One step of `nextRule4First` or `nextRule4Follow`: from the cursor,
      rules without effect are skipped (counting them in `noChange`) until
      one has an effect or a full round was quiet. */
  function NextRule(ph: Phase, c: Column, rules: seq<Rule>, cur: nat, noChange: nat): (v: Visit)
    requires |rules| > 0 ==> cur < |rules|
    requires noChange <= |rules| && Quiet(ph, c, rules, cur, noChange)
    ensures v.Complete? <==> Closed(ph, c, rules)
    ensures v.Effective? ==>
              && v.rule < |rules| && Effect(ph, c, rules[v.rule])
              && v.column == c + Adds(ph, c, rules[v.rule])
              && v.cursor == (v.rule + 1) % |rules|
    decreases |rules| - noChange
  {
    if noChange >= |rules| then
      QuietRound(ph, c, rules, cur);
      Complete
    else
      var next := (cur + 1) % |rules|;
      if Effect(ph, c, rules[cur]) then
        Effective(c + Adds(ph, c, rules[cur]), next, cur)
      else
        QuietStep(ph, c, rules, cur, noChange);
        NextRule(ph, c, rules, next, noChange + 1)
  }

  // ---------------------------------------------------------------------
  // Repeating the step

  function Lefts(rules: seq<Rule>): set<string> {
    ReducedForms.Lefts(rules)
  }

  /** The texts of the terminals on right sides. */
  function TerminalTexts(rules: seq<Rule>): set<string> {
    set x, i | x in rules && 0 <= i < |x.right| && !x.right[i].Nonterminal? :: x.right[i].Text()
  }

  /** The nonterminals on right sides. */
  function RightNonterminals(rules: seq<Rule>): set<string> {
    set x, i | x in rules && 0 <= i < |x.right| && x.right[i].Nonterminal? :: x.right[i].name
  }

  function Pairs(ns: set<string>, xs: set<string>): (r: Column)
    ensures forall p :: p in r <==> p.0 in ns && p.1 in xs
  {
    set n, x | n in ns && x in xs :: (n, x)
  }

  /** Every pair a phase can ever add: FIRST cells of left sides hold
      terminal texts and the empty word; FOLLOW cells of the nonterminals
      on right sides, and of the start, hold terminal texts and "$". */
  function Universe(ph: Phase, rules: seq<Rule>, start: string): Column {
    match ph
    case FirstPhase => Pairs(Lefts(rules), TerminalTexts(rules) + {EpsText})
    case FollowPhase(_) => Pairs(RightNonterminals(rules) + {start}, TerminalTexts(rules) + {EndMarkerText})
  }

  /** A FOLLOW phase starts from a FIRST column the FIRST phase can build. */
  predicate PhaseFits(ph: Phase, rules: seq<Rule>) {
    ph.FollowPhase? ==> forall p :: p in ph.first ==> p.1 in TerminalTexts(rules) + {EpsText}
  }

  /** What FIRST collects from a suffix of a right side stays among the
      terminal texts, when the FIRST column does. */
  lemma {:induction false} FirstOfSuffixWithin(first: Column, rules: seq<Rule>, x: Rule, i: nat)
    requires x in rules && i <= |x.right|
    requires forall p :: p in first ==> p.1 in TerminalTexts(rules) + {EpsText}
    ensures FirstOfWord(first, x.right[i..]).0 <= TerminalTexts(rules)
    decreases |x.right| - i
  {
    var w := x.right[i..];
    if |w| > 0 {
      assert w[0] == x.right[i];
      if w[0].Nonterminal? {
        if (w[0].name, EpsText) in first {
          FirstOfSuffixWithin(first, rules, x, i + 1);
          assert w[1..] == x.right[i + 1..];
        }
      }
    }
  }

  lemma FirstAddsWithin(c: Column, rules: seq<Rule>, x: Rule)
    requires x in rules && c <= Universe(FirstPhase, rules, "")
    ensures FirstAdds(c, x) <= Universe(FirstPhase, rules, "")
  {
    assert x.right[0..] == x.right;
    FirstOfSuffixWithin(c, rules, x, 0);
  }

  lemma FollowAddsAtWithin(first: Column, c: Column, rules: seq<Rule>, start: string, x: Rule, j: nat)
    requires x in rules && j < |x.right| && PhaseFits(FollowPhase(first), rules)
    requires c <= Universe(FollowPhase(first), rules, start)
    ensures FollowAddsAt(first, c, x, j) <= Universe(FollowPhase(first), rules, start)
  {
    if x.right[j].Nonterminal? {
      var s := x.right[j].name;
      assert s in RightNonterminals(rules);
      FirstOfSuffixWithin(first, rules, x, j + 1);
      var a := AddFirsts4Word(first, x.right[j + 1..], Cell(c, s), true);
      assert Into(s, a.added) <= Universe(FollowPhase(first), rules, start);
      forall t | t in Cell(c, x.left) ensures t in TerminalTexts(rules) + {EndMarkerText} {
        assert (x.left, t) in Universe(FollowPhase(first), rules, start);
      }
    }
  }

  lemma FollowAddsWithin(first: Column, c: Column, rules: seq<Rule>, start: string, x: Rule)
    requires x in rules && PhaseFits(FollowPhase(first), rules)
    requires c <= Universe(FollowPhase(first), rules, start)
    ensures FollowAdds(first, c, x) <= Universe(FollowPhase(first), rules, start)
  {
    FollowAddsFromMeans(first, c, x, 0);
    forall p | p in FollowAdds(first, c, x) ensures p in Universe(FollowPhase(first), rules, start) {
      var j :| 0 <= j < |x.right| && p in FollowAddsAt(first, c, x, j);
      FollowAddsAtWithin(first, c, rules, start, x, j);
    }
  }

  lemma AddsWithin(ph: Phase, c: Column, rules: seq<Rule>, start: string, k: nat)
    requires k < |rules| && PhaseFits(ph, rules) && c <= Universe(ph, rules, start)
    ensures Adds(ph, c, rules[k]) <= Universe(ph, rules, start)
  {
    match ph
    case FirstPhase => FirstAddsWithin(c, rules, rules[k]);
    case FollowPhase(first) => FollowAddsWithin(first, c, rules, start, rules[k]);
  }

  /** The step repeated while it asks to: the column after the phase. */
  function RunPhase(ph: Phase, c: Column, rules: seq<Rule>, start: string, cur: nat): (r: Column)
    requires |rules| > 0 ==> cur < |rules|
    requires PhaseFits(ph, rules) && c <= Universe(ph, rules, start)
    ensures c <= r <= Universe(ph, rules, start)
    ensures Closed(ph, r, rules)
    decreases |Universe(ph, rules, start) - c|
  {
    match NextRule(ph, c, rules, cur, 0)
    case Complete => c
    case Effective(c', cur', k) =>
      AddsWithin(ph, c, rules, start, k);
      ReducedForms.Shrinks(Universe(ph, rules, start), c, c');
      RunPhase(ph, c', rules, start, cur')
  }

  /** A step below a closed column stays below it. */
  lemma StepBelow(ph: Phase, c: Column, X: Column, rules: seq<Rule>, k: nat)
    requires k < |rules| && c <= X && Closed(ph, X, rules)
    ensures c + Adds(ph, c, rules[k]) <= X
  {
    AddsMonotone(ph, c, X, rules[k]);
    assert !Effect(ph, X, rules[k]);
  }

  /** The phase ends in the least closed column above its start: every
      pair it adds is forced by the rules. */
  lemma {:induction false} RunPhaseLeast(ph: Phase, c: Column, rules: seq<Rule>, start: string, cur: nat, X: Column)
    requires |rules| > 0 ==> cur < |rules|
    requires PhaseFits(ph, rules) && c <= Universe(ph, rules, start)
    requires c <= X && Closed(ph, X, rules)
    ensures RunPhase(ph, c, rules, start, cur) <= X
    decreases |Universe(ph, rules, start) - c|
  {
    match NextRule(ph, c, rules, cur, 0)
    case Complete =>
    case Effective(c', cur', k) =>
      AddsWithin(ph, c, rules, start, k);
      ReducedForms.Shrinks(Universe(ph, rules, start), c, c');
      StepBelow(ph, c, X, rules, k);
      RunPhaseLeast(ph, c', rules, start, cur', X);
  }

  // ---------------------------------------------------------------------
  // The program

  /** `computeFirst`: all FIRST cells start empty and the FIRST phase runs
      from the first rule. */
  function ComputeFirst(rules: seq<Rule>): (r: Column)
    ensures Closed(FirstPhase, r, rules)
    ensures r <= Universe(FirstPhase, rules, "")
    ensures forall X :: Closed(FirstPhase, X, rules) ==> r <= X
  {
    var r := RunPhase(FirstPhase, {}, rules, "", 0);
    forall X | Closed(FirstPhase, X, rules) ensures r <= X {
      RunPhaseLeast(FirstPhase, {}, rules, "", 0, X);
    }
    r
  }

  /** `computeFollow`: `initFollow` puts the end marker into the start
      symbol's FOLLOW cell, then the FOLLOW phase runs over the finished
      FIRST column. */
  function ComputeFollow(first: Column, rules: seq<Rule>, start: string): (r: Column)
    requires PhaseFits(FollowPhase(first), rules)
    ensures (start, EndMarkerText) in r
    ensures Closed(FollowPhase(first), r, rules)
    ensures forall X :: Closed(FollowPhase(first), X, rules) && (start, EndMarkerText) in X ==> r <= X
  {
    var init := {(start, EndMarkerText)};
    var r := RunPhase(FollowPhase(first), init, rules, start, 0);
    forall X | Closed(FollowPhase(first), X, rules) && (start, EndMarkerText) in X ensures r <= X {
      RunPhaseLeast(FollowPhase(first), init, rules, start, 0, X);
    }
    r
  }

  /** The FIRST column `computeFirst` builds fits the FOLLOW phase. */
  lemma FirstFits(rules: seq<Rule>)
    ensures PhaseFits(FollowPhase(ComputeFirst(rules)), rules)
  {
  }

  /** The finished FIRST sets satisfy their defining equations: a rule
      N -> w puts into FIRST(N) everything FIRST(w) holds, and the empty
      word when w produces epsilon. */
  lemma FirstSetsComplete(rules: seq<Rule>, k: nat, t: string)
    requires k < |rules|
    ensures var first := ComputeFirst(rules);
            var x := rules[k];
            && (t in FirstOfWord(first, x.right).0 ==> (x.left, t) in first)
            && (EpsProducing(first, x.right) ==> (x.left, EpsText) in first)
  {
    var first := ComputeFirst(rules);
    var x := rules[k];
    assert !Effect(FirstPhase, first, x);
  }

  /** The finished FOLLOW sets satisfy theirs: for a nonterminal s at
      position i of N -> w, FOLLOW(s) holds FIRST(w[i+1..]) without the
      empty word, and FOLLOW(N) when w[i+1..] produces epsilon. */
  lemma FollowSetsComplete(rules: seq<Rule>, start: string, k: nat, i: nat, t: string)
    requires k < |rules| && i < |rules[k].right| && rules[k].right[i].Nonterminal?
    ensures var first := ComputeFirst(rules);
            var follow := ComputeFollow(first, rules, start);
            var x := rules[k];
            var s := x.right[i].name;
            && (t in FirstOfWord(first, x.right[i + 1..]).0 ==> (s, t) in follow)
            && (EpsProducing(first, x.right[i + 1..]) && (x.left, t) in follow ==> (s, t) in follow)
  {
    var first := ComputeFirst(rules);
    FirstFits(rules);
    var follow := ComputeFollow(first, rules, start);
    var x := rules[k];
    assert !Effect(FollowPhase(first), follow, x);
    FollowAddsMeans(first, follow, x, i, t);
  }
}

=== FILE: form_checks.dfy ===
/** The `check` predicates of the normal forms (the files under js/grammar_forms), each
    of which decides, rule by rule, whether a grammar is already in its form,
    and the implications between them. The two checks that run a fixpoint
    or a graph algorithm live in ReducedChecks and LeftRecursionChecks. */
module FormChecks {
  import opened Objects
  import opened Symbols
  import opened Words
  import opened Rules
  import opened Grammars
  import opened GrammarEdits

  /** The rules of g in `forEachRule` order. */
  function RulesOf(g: Grammar): seq<Rule> {
    AllRules(g.p.keys, g.p.values)
  }

  /** Every rule `forEachRule` visits is stored in some group of the map. */
  lemma {:induction false} AllRulesStored(keys: seq<string>, p: map<string, Dict<Rule>>, r: Rule)
    requires forall k :: k in keys ==> k in p
    requires r in AllRules(keys, p)
    ensures exists L, k :: L in keys && k in p[L].values && p[L].values[k] == r
    decreases |keys|
  {
    var vs := Values(p[keys[0]]);
    if r in vs {
      var i :| 0 <= i < |vs| && vs[i] == r;
      assert p[keys[0]].keys[i] in p[keys[0]].values;
    } else {
      assert r in AllRules(keys[1..], p);
      AllRulesStored(keys[1..], p, r);
      var L, k :| L in keys[1..] && k in p[L].values && p[L].values[k] == r;
      assert L in keys;
    }
  }

  /** In a valid grammar, a rule `forEachRule` visits is the one stored under
      its own left side and right text. */
  lemma RuleStored(g: Grammar, r: Rule)
    requires Valid(g) && r in RulesOf(g)
    ensures r.left in g.p.values && ToString(r.right) in g.p.values[r.left].values
    ensures g.p.values[r.left].values[ToString(r.right)] == r
    ensures !IsEpsLookalike(r.right)
  {
    AllRulesStored(g.p.keys, g.p.values, r);
    var L, k :| L in g.p.keys && k in g.p.values[L].values && g.p.values[L].values[k] == r;
    assert RuleWellFormed(g.n, g.t, L, k, r);
  }

  /** Every rule stored in a group is visited by `forEachRule`. */
  lemma RuleVisited(g: Grammar, L: string, k: string)
    requires L in g.p.values && k in g.p.values[L].values
    ensures g.p.values[L].values[k] in RulesOf(g)
  {
    var i :| 0 <= i < |g.p.keys| && g.p.keys[i] == L;
  }

  // ---------------------------------------------------------------------
  // The scan `forEachRule` and `forEachNonterminal` make

  /** A walk with a callback that answers `good = false` and stops at the
      first element failing `ok`: the value of `good` afterwards. */
  function Scan<X>(s: seq<X>, ok: X -> bool): (r: bool)
    ensures r <==> forall i :: 0 <= i < |s| ==> ok(s[i])
  {
    var visited := VisitUntil(s, ok);
    if |visited| < |s| then false
    else
      assert visited == s;
      if |s| > 0 && !ok(s[|s| - 1]) then false
      else
        assert forall i :: 0 <= i < |s| - 1 ==> ok(visited[i]);
        true
  }

  // ---------------------------------------------------------------------
  // The shapes `Word.match` tests right sides against

  /** "NN": two nonterminals. */
  predicate ClassNN(c: seq<SymbolClass>) {
    |c| == 2 && c[0] != T && c[1] != T
  }

  /** "RR": two nonterminals other than the start symbol. */
  predicate ClassRR(c: seq<SymbolClass>) {
    |c| == 2 && c[0] == R && c[1] == R
  }

  /** "T": a single terminal. */
  predicate ClassT(c: seq<SymbolClass>) {
    |c| == 1 && c[0] == T
  }

  /** "[RT]+": nonempty, without the start symbol. */
  predicate ClassRTPlus(c: seq<SymbolClass>) {
    |c| > 0 && forall i :: 0 <= i < |c| ==> c[i] != S
  }

  /** "T[RT]*" (noStart) or "T[SRT]*". */
  predicate ClassTThen(c: seq<SymbolClass>, noStart: bool) {
    |c| > 0 && c[0] == T && (noStart ==> forall i :: 1 <= i < |c| ==> c[i] != S)
  }

  /** "N": a single nonterminal. */
  predicate ClassN(c: seq<SymbolClass>) {
    |c| == 1 && c[0] != T
  }

  /** `left == grammar.getStarting() && right.length() == 0`. */
  predicate StartEps(g: Grammar, r: Rule) {
    r.left == g.start && |r.right| == 0
  }

  /** Whether the start symbol has an epsilon rule, looked up by its text. */
  predicate HasStartEps(g: Grammar) {
    TryGetRule(g, g.start, EpsText).Some?
  }

  /** Whether a symbol is the start symbol as `match` sees it. */
  predicate IsStart(g: Grammar, s: Symbol) {
    !IsTerminal(s) && s.Text() == g.start
  }

  /** The rule shapes of the forms, stated on symbols. */
  predicate SingleTerminal(w: Word) {
    |w| == 1 && IsTerminal(w[0])
  }

  predicate TwoNonterminals(w: Word) {
    |w| == 2 && !IsTerminal(w[0]) && !IsTerminal(w[1])
  }

  predicate AvoidsStart(g: Grammar, w: Word, from: nat) {
    forall i :: from <= i < |w| ==> !IsStart(g, w[i])
  }

  predicate ChomskyShape(x: Rule) {
    |x.right| == 0 || SingleTerminal(x.right) || TwoNonterminals(x.right)
  }

  predicate StrictChomskyShape(g: Grammar, eps: bool, x: Rule) {
    SingleTerminal(x.right) || (TwoNonterminals(x.right) && (eps ==> AvoidsStart(g, x.right, 0)))
    || StartEps(g, x)
  }

  predicate GreibachShape(g: Grammar, eps: bool, x: Rule) {
    (|x.right| > 0 && IsTerminal(x.right[0]) && (eps ==> AvoidsStart(g, x.right, 1)))
    || StartEps(g, x)
  }

  predicate EpsilonFreeShape(g: Grammar, x: Rule) {
    (|x.right| > 0 && AvoidsStart(g, x.right, 0)) || StartEps(g, x)
  }

  predicate ChainRule(x: Rule) {
    |x.right| == 1 && !IsTerminal(x.right[0])
  }

  // ---------------------------------------------------------------------
  // ChomskyForm.check: every right is NN, T or empty

  predicate ChomskyRule(g: Grammar, r: Rule) {
    var c := Classify(r.right, g.start);
    ClassNN(c) || ClassT(c) || |c| == 0
  }

  function ChomskyCheck(g: Grammar): (r: bool)
    ensures r <==> forall x :: x in RulesOf(g) ==> ChomskyShape(x)
  {
    var c := (x: Rule) => ChomskyRule(g, x);
    assert forall x :: c(x) <==> ChomskyShape(x);
    Scan(RulesOf(g), c)
  }

  // ---------------------------------------------------------------------
  // StrictChomskyForm.check

  predicate StrictChomskyRule(g: Grammar, eps: bool, r: Rule) {
    var c := Classify(r.right, g.start);
    (if eps then ClassRR(c) else ClassNN(c)) || ClassT(c) || StartEps(g, r)
  }

  /** With an epsilon rule for the start symbol, every rule is two
      nonterminals other than the start, a terminal, or that epsilon rule;
      without one, every rule is two nonterminals or a terminal (or an
      epsilon rule of the start stored under another key). */
  function StrictChomskyCheck(g: Grammar): (r: bool)
    ensures r <==> forall x :: x in RulesOf(g) ==> StrictChomskyShape(g, HasStartEps(g), x)
  {
    var eps := HasStartEps(g);
    var c := (x: Rule) => StrictChomskyRule(g, eps, x);
    assert forall x :: c(x) <==> StrictChomskyShape(g, eps, x);
    Scan(RulesOf(g), c)
  }

  // ---------------------------------------------------------------------
  // GreibachForm.check

  predicate GreibachRule(g: Grammar, eps: bool, r: Rule) {
    ClassTThen(Classify(r.right, g.start), eps) || StartEps(g, r)
  }

  /** Every right starts with a terminal followed by anything but the start
      symbol when it has an epsilon rule, or is the start's epsilon rule. */
  function GreibachCheck(g: Grammar): (r: bool)
    ensures r <==> forall x :: x in RulesOf(g) ==> GreibachShape(g, HasStartEps(g), x)
  {
    var eps := HasStartEps(g);
    var c := (x: Rule) => GreibachRule(g, eps, x);
    assert forall x :: c(x) <==> GreibachShape(g, eps, x);
    Scan(RulesOf(g), c)
  }

  // ---------------------------------------------------------------------
  // EpsilonFreeForm.check

  predicate EpsilonFreeRule(g: Grammar, r: Rule) {
    ClassRTPlus(Classify(r.right, g.start)) || StartEps(g, r)
  }

  /** No epsilon rule at all; or every rule is nonempty without the start
      symbol on its right, except the start's own epsilon rule. */
  function EpsilonFreeCheck(g: Grammar): (r: bool)
    ensures r <==> (forall x :: x in RulesOf(g) ==> |x.right| > 0)
                   || (forall x :: x in RulesOf(g) ==> EpsilonFreeShape(g, x))
  {
    var noEps := Scan(RulesOf(g), (x: Rule) => |x.right| != 0);
    if noEps then true
    else
      var c := (x: Rule) => EpsilonFreeRule(g, x);
      assert forall x :: c(x) <==> EpsilonFreeShape(g, x);
      Scan(RulesOf(g), c)
  }

  // ---------------------------------------------------------------------
  // ChainRuleFreeForm.check

  /** No right is a single nonterminal. */
  function ChainRuleFreeCheck(g: Grammar): (r: bool)
    ensures r <==> forall x :: x in RulesOf(g) ==> !ChainRule(x)
  {
    var c := (x: Rule) => !ClassN(Classify(x.right, g.start));
    assert forall x :: c(x) <==> !ChainRule(x);
    Scan(RulesOf(g), c)
  }

  // ---------------------------------------------------------------------
  // LeftFactoredForm.check

  /** The loop over one left side's alternatives: `firsts` holds the texts
      of the first symbols seen so far; it answers false at the first
      nonempty alternative whose first symbol was seen before. */
  function FirstsDistinct(rights: seq<Word>, firsts: set<string>): (r: bool)
    ensures r <==> (forall i :: 0 <= i < |rights| && |rights[i]| > 0 ==> rights[i][0].Text() !in firsts)
                   && forall i, j :: 0 <= i < j < |rights| && |rights[i]| > 0 && |rights[j]| > 0
                                     ==> rights[i][0].Text() != rights[j][0].Text()
    decreases |rights|
  {
    if |rights| == 0 then true
    else if |rights[0]| == 0 then
      var r := FirstsDistinct(rights[1..], firsts);
      assert forall i :: 1 <= i < |rights| ==> rights[i] == rights[1..][i - 1];
      r
    else
      var f := rights[0][0].Text();
      if f in firsts then false
      else
        var r := FirstsDistinct(rights[1..], firsts + {f});
        assert forall i :: 1 <= i < |rights| ==> rights[i] == rights[1..][i - 1];
        r
  }

  function Rights(rs: seq<Rule>): (r: seq<Word>)
    ensures |r| == |rs| && forall i :: 0 <= i < |rs| ==> r[i] == rs[i].right
  {
    seq(|rs|, i requires 0 <= i < |rs| => rs[i].right)
  }

  /** The alternatives of one left side, in storage order. */
  function Alternatives(g: Grammar, L: string): seq<Rule> {
    if L in g.p.values then Values(g.p.values[L]) else []
  }

  /** No two nonempty alternatives start with the same symbol. */
  predicate Factored(alts: seq<Rule>) {
    forall i, j :: 0 <= i < j < |alts| && |alts[i].right| > 0 && |alts[j].right| > 0
                   ==> alts[i].right[0].Text() != alts[j].right[0].Text()
  }

  lemma FirstsDistinctFactored(alts: seq<Rule>)
    ensures FirstsDistinct(Rights(alts), {}) <==> Factored(alts)
  {
  }

  /** For every nonterminal, in `forEachNonterminal` order, no two nonempty
      alternatives start with the same symbol; epsilon alternatives do not
      take part. */
  function LeftFactoredCheck(g: Grammar): (r: bool)
    requires g.start in g.n.values
    ensures r <==> forall L :: L in g.n.values ==> Factored(Alternatives(g, L))
  {
    var order := NonterminalOrder(g);
    var go := (L: string) => FirstsDistinct(Rights(Alternatives(g, L)), {});
    assert forall L :: go(L) <==> Factored(Alternatives(g, L)) by {
      forall L ensures go(L) <==> Factored(Alternatives(g, L)) {
        FirstsDistinctFactored(Alternatives(g, L));
      }
    }
    assert forall L :: L in g.n.values <==> L in order;
    Scan(order, go)
  }

  // ---------------------------------------------------------------------
  // How the forms relate

  /** Strict Chomsky form is Chomsky form. */
  lemma StrictChomskyIsChomsky(g: Grammar)
    requires StrictChomskyCheck(g)
    ensures ChomskyCheck(g)
  {
  }

  /** Strict Chomsky form is free of chain rules. */
  lemma StrictChomskyIsChainRuleFree(g: Grammar)
    requires StrictChomskyCheck(g)
    ensures ChainRuleFreeCheck(g)
  {
  }

  /** An epsilon rule of the start symbol in a valid grammar is found by
      its text. */
  lemma StartEpsFound(g: Grammar, x: Rule)
    requires Valid(g) && x in RulesOf(g) && StartEps(g, x)
    ensures HasStartEps(g)
  {
    RuleStored(g, x);
  }

  /** In a valid grammar, strict Chomsky form is epsilon-free form: the only
      possible epsilon rule is the start's, and then the start symbol is on
      no right side. */
  lemma StrictChomskyIsEpsilonFree(g: Grammar)
    requires Valid(g) && StrictChomskyCheck(g)
    ensures EpsilonFreeCheck(g)
  {
    if e :| e in RulesOf(g) && |e.right| == 0 {
      StartEpsFound(g, e);
      forall x | x in RulesOf(g) ensures EpsilonFreeShape(g, x) {
        StrictRuleEpsilonFree(g, x);
      }
    }
  }

  lemma StrictRuleEpsilonFree(g: Grammar, x: Rule)
    requires StrictChomskyShape(g, true, x)
    ensures EpsilonFreeShape(g, x)
  {
  }

  /** In a valid grammar, Greibach form is epsilon-free form. */
  lemma GreibachIsEpsilonFree(g: Grammar)
    requires Valid(g) && GreibachCheck(g)
    ensures EpsilonFreeCheck(g)
  {
    if e :| e in RulesOf(g) && |e.right| == 0 {
      StartEpsFound(g, e);
      forall x | x in RulesOf(g) ensures EpsilonFreeShape(g, x) {
        assert GreibachShape(g, true, x);
      }
    }
  }

  /** Greibach form is free of chain rules. */
  lemma GreibachIsChainRuleFree(g: Grammar)
    requires GreibachCheck(g)
    ensures ChainRuleFreeCheck(g)
  {
  }
}

=== FILE: grammar.dfy ===
/** The grammar: nonterminal and terminal alphabets (symbol text to tag),
    rules grouped by left side and keyed by the text of their right side, and
    the start symbol; its data-object form and the constructor that reads it
    back (js/structures/Grammar.js). */
module Grammars {
  import opened Wrappers
  import opened Text
  import opened Highlights
  import opened Objects
  import opened Symbols
  import opened Words
  import opened Rules

  /** `_N`, `_T`, `_P` and `_S`. Every symbol object is stored under its own
      text, so an alphabet maps a symbol text to the symbol's tag. */
  datatype Grammar = Grammar(n: Dict<Highlight>, t: Dict<Highlight>, p: Dict<Dict<Rule>>, start: string)

  /** The object form of a grammar's data: tag values by symbol text, and
      tag values of rules by left text and right text. */
  datatype ObjectData = ObjectData(n: Dict<int>, t: Dict<int>, p: Dict<Dict<int>>, s: string)

  /** The array form that `toData` produces: symbol texts, and right texts by
      left text. */
  datatype ArrayData = ArrayData(n: seq<string>, t: seq<string>, p: Dict<seq<string>>, s: string)

  datatype GrammarData = ObjectForm(obj: ObjectData) | ArrayForm(arr: ArrayData)

  /** A text the constructor of the given kind accepts. */
  predicate ValidText(text: string, terminal: bool) {
    Check(text) && (if terminal then IsTerminalText(text) else IsNonterminalText(text))
  }

  predicate ValidAlphabets(n: Dict<Highlight>, t: Dict<Highlight>) {
    (forall k :: k in n.values ==> ValidText(k, false))
    && (forall k :: k in t.values ==> ValidText(k, true))
  }

  lemma AlphabetsDisjoint(n: Dict<Highlight>, t: Dict<Highlight>, k: string)
    requires ValidAlphabets(n, t)
    ensures !(k in n.values && k in t.values)
  {
    if k in n.values && k in t.values {
      ExactlyOneKind(k);
    }
  }

  /** Symbol lookup while the constructor runs: the end marker does not exist
      yet, so only the two alphabets are searched, terminals first. */
  function InitLookup(n: Dict<Highlight>, t: Dict<Highlight>, text: string): (r: Option<Symbol>)
    ensures r.Some? <==> text in t.values || text in n.values
    ensures r.Some? ==> r.value.Text() == text && !r.value.EndMarker?
    ensures r.Some? ==> (r.value.Terminal? <==> text in t.values)
  {
    if text in t.values then Some(Terminal(text))
    else if text in n.values then Some(Nonterminal(text))
    else None
  }

  /** The same lookup as a value, for the word parser. */
  function Lookup(n: Dict<Highlight>, t: Dict<Highlight>): string -> Option<Symbol> {
    text => InitLookup(n, t, text)
  }

  /** Every key mapped to the value of NONE, duplicates merged (the array
      form's normalisation). */
  function KeysToDict(keys: seq<string>): (d: Dict<int>)
    ensures forall k :: k in d.values <==> k in keys
    ensures forall k :: k in d.values ==> d.values[k] == Value(NONE)
    ensures Distinct(keys) ==> d.keys == keys
    decreases |keys|
  {
    if |keys| == 0 then Empty()
    else
      var init := keys[..|keys| - 1];
      assert keys == init + [keys[|keys| - 1]];
      assert Distinct(keys) ==> Distinct(init) && keys[|keys| - 1] !in init;
      Put(KeysToDict(init), keys[|keys| - 1], Value(NONE))
  }

  /** The array form read as object form, every tag NONE. */
  function Normalize(a: ArrayData): ObjectData {
    ObjectData(KeysToDict(a.n), KeysToDict(a.t), MapValues(a.p, KeysToDict), a.s)
  }

  /** One alphabet: each text must be valid for its kind; the tag is read
      back from its value (an unknown value gives NONE). */
  function BuildAlphabet(keys: seq<string>, vals: map<string, int>, terminal: bool): (r: Result<Dict<Highlight>>)
    requires forall k :: k in keys ==> k in vals
    ensures r.Success? <==> forall i :: 0 <= i < |keys| ==> ValidText(keys[i], terminal)
    ensures r.Success? ==> forall k :: k in r.value.values <==> k in keys
    ensures r.Success? ==> forall k :: k in r.value.values ==> r.value.values[k] == FromValue(vals[k])
    ensures r.Success? && Distinct(keys) ==> r.value.keys == keys
    decreases |keys|
  {
    if |keys| == 0 then Success(Empty())
    else
      var init := keys[..|keys| - 1];
      var k := keys[|keys| - 1];
      assert keys == init + [k];
      assert Distinct(keys) ==> Distinct(init) && k !in init;
      var prev :- BuildAlphabet(init, vals, terminal);
      if ValidText(k, terminal) then Success(Put(prev, k, FromValue(vals[k])))
      else Failure("not a valid symbol: " + k)
  }

  /** A rule with both tags set to h. */
  function Retag(r: Rule, h: Highlight): (r': Rule)
    ensures r'.left == r.left && r'.right == r.right && Mirrored(r')
  {
    r.(tag := h, rightTag := h)
  }

  /** One rule group: every right text must parse over the alphabets and the
      left side must be a nonterminal; a rule is stored under the text of its
      parsed right side. */
  function BuildGroup(left: Symbol, keys: seq<string>, vals: map<string, int>,
                      n: Dict<Highlight>, t: Dict<Highlight>): (r: Result<Dict<Rule>>)
    requires forall k :: k in keys ==> k in vals
    ensures r.Success? && |keys| > 0 ==> left.Nonterminal?
    decreases |keys|
  {
    if |keys| == 0 then Success(Empty())
    else
      var init := keys[..|keys| - 1];
      var k := keys[|keys| - 1];
      var prev :- BuildGroup(left, init, vals, n, t);
      match TryParseString(k, Lookup(n, t))
      case None => Failure("The right side must be a valid word over the alphabets")
      case Some(w) =>
        var rule :- NewRule(left, w, FromValue(vals[k]));
        Success(Put(prev, ToString(w), rule))
  }

  /** All rule groups: each left text must name a symbol; the group of a
      terminal is accepted only while it holds no rule. */
  function BuildRules(keys: seq<string>, vals: map<string, Dict<int>>,
                      n: Dict<Highlight>, t: Dict<Highlight>): (r: Result<Dict<Dict<Rule>>>)
    requires forall k :: k in keys ==> k in vals
    ensures r.Success? ==> forall k :: k in r.value.values <==> k in keys
    decreases |keys|
  {
    if |keys| == 0 then Success(Empty())
    else
      var init := keys[..|keys| - 1];
      var k := keys[|keys| - 1];
      assert keys == init + [k];
      var prev :- BuildRules(init, vals, n, t);
      match InitLookup(n, t, k)
      case None => Failure("The left side must be an existing nonterminal")
      case Some(left) =>
        var group :- BuildGroup(left, vals[k].keys, vals[k].values, n, t);
        Success(Put(prev, k, group))
  }

  /** The start symbol as the constructor resolves it: any symbol of either
      alphabet is accepted, a terminal included. */
  function ResolveStartAsWritten(n: Dict<Highlight>, t: Dict<Highlight>, text: string): (r: Option<Symbol>)
    ensures r.Some? <==> text in t.values || text in n.values
  {
    InitLookup(n, t, text)
  }

  /** A terminal is accepted as the start symbol, although the constructor's
      own message demands an existing nonterminal. */
  lemma TerminalStartAccepted()
    ensures ResolveStartAsWritten(RawDict(["S"], map["S" := NONE]), RawDict(["a"], map["a" := NONE]), "a")
            == Some(Terminal("a"))
  {
  }

  /** The start symbol as intended: an existing nonterminal. */
  function ResolveStart(n: Dict<Highlight>, text: string): (r: Result<string>)
    ensures r.Success? <==> text in n.values
    ensures r.Success? ==> r.value == text
  {
    if text in n.values then Success(text)
    else Failure("The start symbol must be a valid existing nonterminal")
  }

  /** The object the constructor reads: array form is normalised when its
      nonterminal list is nonempty; with an empty list the array is read as an
      object and the constructor always fails. */
  function ReadData(d: GrammarData): (r: Option<ObjectData>)
    ensures d.ObjectForm? ==> r == Some(d.obj)
    ensures d.ArrayForm? ==> (r.Some? <==> |d.arr.n| > 0)
  {
    match d
    case ObjectForm(o) => Some(o)
    case ArrayForm(a) => if |a.n| > 0 then Some(Normalize(a)) else None
  }

  /** `new Grammar(data)` / `init(data)`: nonterminals, then terminals, then
      rules, then the start symbol; any invalid part makes it fail. */
  function Init(d: GrammarData): (r: Result<Grammar>)
    ensures ReadData(d).None? ==> r.Failure?
    ensures ReadData(d).Some? ==> r == InitObject(ReadData(d).value)
  {
    match ReadData(d)
    case None => Failure("bad Grammar construction")
    case Some(o) => InitObject(o)
  }

  /** The constructor on object data. */
  function InitObject(o: ObjectData): (r: Result<Grammar>)
    ensures r.Success? ==> ValidAlphabets(r.value.n, r.value.t)
    ensures r.Success? ==> r.value.start in r.value.n.values && r.value.start == o.s
    ensures r.Success? ==> r.value.n.keys == o.n.keys && r.value.t.keys == o.t.keys
  {
    var g :- BuildParts(o);
    var s :- ResolveStart(g.n, o.s);
    Success(g.(start := s))
  }

  /** The part of the constructor before the start symbol: both alphabets
      and the rules, in that order; the start text is kept as given. */
  function BuildParts(o: ObjectData): (r: Result<Grammar>)
    ensures r.Success? ==> ValidAlphabets(r.value.n, r.value.t) && r.value.start == o.s
    ensures r.Success? ==> r.value.n.keys == o.n.keys && r.value.t.keys == o.t.keys
  {
    if o.s == "" then Failure("bad Grammar construction")
    else
      var n :- BuildAlphabet(o.n.keys, o.n.values, false);
      var t :- BuildAlphabet(o.t.keys, o.t.values, true);
      var p :- BuildRules(o.p.keys, o.p.values, n, t);
      Success(Grammar(n, t, p, o.s))
  }

  /** The constructor on object data as written: the start symbol is
      resolved like any symbol, so a terminal is accepted. */
  function InitObjectAsWritten(o: ObjectData): (r: Result<Grammar>)
    ensures r.Success? ==> ValidAlphabets(r.value.n, r.value.t)
    ensures r.Success? ==> r.value.start == o.s && (o.s in r.value.n.values || o.s in r.value.t.values)
  {
    var g :- BuildParts(o);
    var s :- match ResolveStartAsWritten(g.n, g.t, o.s)
             case None => Failure("The start symbol must be a valid existing nonterminal")
             case Some(sym) => Success(sym.Text());
    Success(g.(start := s))
  }

  /** For every object the two constructors agree except on one kind of
      input: the constructor as written also accepts a terminal start
      symbol, and that is the only thing it accepts beyond the intended
      one. */
  lemma InitObjectAsWrittenAgrees(o: ObjectData)
    ensures InitObject(o).Success? ==> InitObjectAsWritten(o) == InitObject(o)
    ensures InitObjectAsWritten(o).Failure? ==> InitObject(o).Failure?
    ensures InitObjectAsWritten(o).Success? && InitObject(o).Failure? ==>
              var g := InitObjectAsWritten(o).value;
              o.s in g.t.values && o.s !in g.n.values
    ensures InitObjectAsWritten(o).Success? && o.s !in InitObjectAsWritten(o).value.t.values ==>
              InitObject(o) == InitObjectAsWritten(o)
  {
    var b := BuildParts(o);
    if b.Success? {
      AlphabetsDisjoint(b.value.n, b.value.t, o.s);
    }
  }

  /** `tryGetSymbol(text)`: terminals first, then nonterminals, then the end
      marker. */
  function TryGetSymbol(g: Grammar, text: string): (r: Option<Symbol>)
    ensures r.Some? <==> text in g.t.values || text in g.n.values || text == EndMarkerText
    ensures r.Some? ==> r.value.Text() == text
    ensures r.Some? && r.value.Nonterminal? ==> text in g.n.values
    ensures r.Some? && r.value.EndMarker? ==> text !in g.t.values && text !in g.n.values
  {
    if text in g.t.values then Some(Terminal(text))
    else if text in g.n.values then Some(Nonterminal(text))
    else if text == EndMarkerText then Some(EndMarker)
    else None
  }

  /** After construction the lookup also knows the end marker, which valid
      alphabets never contain. */
  lemma TryGetSymbolExtendsInitLookup(g: Grammar, text: string)
    requires ValidAlphabets(g.n, g.t)
    ensures TryGetSymbol(g, text) == (if text == EndMarkerText then Some(EndMarker)
                                      else InitLookup(g.n, g.t, text))
  {
    if text == EndMarkerText {
      EndMarkerIsNoSymbol();
    }
  }

  /** `tryGetRule(left, right)`, both sides given as text. */
  function TryGetRule(g: Grammar, left: string, right: string): (r: Option<Rule>)
    ensures r.Some? <==> left in g.p.values && right in g.p.values[left].values
    ensures r.Some? ==> r.value == g.p.values[left].values[right]
  {
    match Objects.Get(g.p, left)
    case None => None
    case Some(group) => Objects.Get(group, right)
  }

  /** A rule stored under key k of the group of L, in a grammar that can be
      written out and read back: its sides agree with its keys, its tags
      mirror each other, and its right side is over the alphabets. */
  predicate RuleWellFormed(n: Dict<Highlight>, t: Dict<Highlight>, L: string, k: string, r: Rule) {
    r.left == L && k == ToString(r.right) && Mirrored(r) && !IsEpsLookalike(r.right)
    && forall i :: 0 <= i < |r.right| ==> InitLookup(n, t, r.right[i].Text()) == Some(r.right[i])
  }

  predicate GroupWellFormed(n: Dict<Highlight>, t: Dict<Highlight>, L: string, group: Dict<Rule>) {
    forall k :: k in group.values ==> RuleWellFormed(n, t, L, k, group.values[k])
  }

  /** The invariant of a grammar built by the constructor and kept by the
      editing operations. */
  predicate Valid(g: Grammar) {
    ValidAlphabets(g.n, g.t)
    && g.start in g.n.values
    && forall L :: L in g.p.values ==> L in g.n.values && GroupWellFormed(g.n, g.t, L, g.p.values[L])
  }

  /** The right texts of a group, in order. */
  function RightTexts(group: Dict<Rule>): (r: seq<string>)
    ensures |r| == |group.keys|
    ensures forall i :: 0 <= i < |r| ==> r[i] == ToString(group.values[group.keys[i]].right)
  {
    seq(|group.keys|, i requires 0 <= i < |group.keys| => ToString(group.values[group.keys[i]].right))
  }

  /** `toData()`: the array form. */
  function ToData(g: Grammar): (d: ArrayData)
    ensures d.n == g.n.keys && d.t == g.t.keys && d.s == g.start
    ensures d.p.keys == g.p.keys
    ensures forall L :: L in g.p.values ==> L in d.p.values && |d.p.values[L]| == |g.p.values[L].keys|
  {
    ArrayData(g.n.keys, g.t.keys, MapValues(g.p, RightTexts), g.start)
  }

  /** The grammar with every symbol and rule tag reset to NONE. */
  function ClearTags(g: Grammar): (r: Grammar)
    ensures r.n.keys == g.n.keys && r.n.values.Keys == g.n.values.Keys
    ensures r.t.keys == g.t.keys && r.t.values.Keys == g.t.values.Keys
    ensures r.p.keys == g.p.keys && r.start == g.start
    ensures forall k :: k in r.n.values ==> r.n.values[k] == NONE
  {
    Grammar(MapValues(g.n, ClearTag), MapValues(g.t, ClearTag), MapValues(g.p, ClearGroup), g.start)
  }

  function ClearTag(h: Highlight): Highlight { NONE }

  function ClearRule(r: Rule): Rule { Retag(r, NONE) }

  function ClearGroup(group: Dict<Rule>): Dict<Rule> { MapValues(group, ClearRule) }

  // ----- reading data back -----

  lemma FromValueOfValue(h: Highlight)
    ensures FromValue(Value(h)) == h
  {
    ValuesAreDeclarationOrder(h);
  }

  /** The tags the values of the given keys denote. */
  function ReadTags(keys: seq<string>, vals: map<string, int>): RawDict<Highlight>
    requires forall k :: k in keys ==> k in vals
  {
    RawDict(keys, map k | k in keys :: FromValue(vals[k]))
  }

  /** Reading an alphabet whose texts are all valid gives back the texts in
      order, each with the tag its value denotes. */
  lemma {:induction false} BuildAlphabetExact(keys: seq<string>, vals: map<string, int>, terminal: bool)
    requires forall k :: k in keys ==> k in vals
    requires Distinct(keys)
    requires forall i :: 0 <= i < |keys| ==> ValidText(keys[i], terminal)
    ensures BuildAlphabet(keys, vals, terminal)
            == Success(ReadTags(keys, vals))
  {
    var r := BuildAlphabet(keys, vals, terminal);
    assert r.Success?;
    assert r.value.values == map k | k in keys :: FromValue(vals[k]);
  }

  /** The key of a well-formed rule parses back to its right side. */
  lemma RuleRightReadsBack(n: Dict<Highlight>, t: Dict<Highlight>, L: string, k: string, rule: Rule)
    requires ValidAlphabets(n, t) && RuleWellFormed(n, t, L, k, rule)
    ensures TryParseString(k, Lookup(n, t)) == Some(rule.right)
  {
    forall i | 0 <= i < |rule.right|
      ensures Printable(rule.right[i]) && Lookup(n, t)(rule.right[i].Text()) == Some(rule.right[i])
    {
      assert InitLookup(n, t, rule.right[i].Text()) == Some(rule.right[i]);
      Words.ValidTextIsPrintable(rule.right[i]);
    }
    ParseToString(rule.right, Lookup(n, t));
  }

  /** One step of reading a group: the last right text is parsed and its
      rule stored under the printed word. */
  lemma BuildGroupStep(left: Symbol, keys: seq<string>, vals: map<string, int>,
                       n: Dict<Highlight>, t: Dict<Highlight>, prev: Dict<Rule>, w: Word)
    requires |keys| > 0 && forall k :: k in keys ==> k in vals
    requires left.Nonterminal?
    requires BuildGroup(left, keys[..|keys| - 1], vals, n, t) == Success(prev)
    requires TryParseString(keys[|keys| - 1], Lookup(n, t)) == Some(w)
    ensures BuildGroup(left, keys, vals, n, t)
            == Success(Put(prev, ToString(w), Rule(left.name, w, FromValue(vals[keys[|keys| - 1]]),
                                                   FromValue(vals[keys[|keys| - 1]]))))
  {
  }

  /** Every rule of a group retagged with the tag its value denotes. */
  function RetagMap(group: Dict<Rule>, vals: map<string, int>): (F: map<string, Rule>)
    requires forall k :: k in group.values ==> k in vals
    ensures F.Keys == group.values.Keys
  {
    map k | k in group.values :: Retag(group.values[k], FromValue(vals[k]))
  }

  /** The first m rules of a group, retagged with the tags the values denote. */
  function RetaggedPrefix(group: Dict<Rule>, m: nat, vals: map<string, int>): (d: Dict<Rule>)
    requires m <= |group.keys|
    requires forall k :: k in group.values ==> k in vals
    ensures d.keys == group.keys[..m]
  {
    DistinctPrefix(group.keys, m);
    Restrict(group.keys[..m], RetagMap(group, vals))
  }

  /** Reading back the right texts of a well-formed group (in any prefix)
      gives the same rules, retagged with the tags the values denote. */
  lemma {:induction false} BuildGroupExact(n: Dict<Highlight>, t: Dict<Highlight>, L: string,
                                           group: Dict<Rule>, m: nat, vals: map<string, int>)
    requires ValidAlphabets(n, t)
    requires GroupWellFormed(n, t, L, group)
    requires m <= |group.keys|
    requires forall k :: k in group.values ==> k in vals
    ensures BuildGroup(Nonterminal(L), group.keys[..m], vals, n, t) == Success(RetaggedPrefix(group, m, vals))
    decreases m
  {
    if m > 0 {
      BuildGroupExact(n, t, L, group, m - 1, vals);
      var k := group.keys[m - 1];
      assert RuleWellFormed(n, t, L, k, group.values[k]);
      BuildGroupExactStep(n, t, L, group, m, vals);
    }
  }

  lemma BuildGroupExactStep(n: Dict<Highlight>, t: Dict<Highlight>, L: string,
                            group: Dict<Rule>, m: nat, vals: map<string, int>)
    requires ValidAlphabets(n, t)
    requires 0 < m <= |group.keys|
    requires forall k :: k in group.values ==> k in vals
    requires RuleWellFormed(n, t, L, group.keys[m - 1], group.values[group.keys[m - 1]])
    requires BuildGroup(Nonterminal(L), group.keys[..m - 1], vals, n, t) == Success(RetaggedPrefix(group, m - 1, vals))
    ensures BuildGroup(Nonterminal(L), group.keys[..m], vals, n, t) == Success(RetaggedPrefix(group, m, vals))
  {
    var keys := group.keys[..m];
    var k := group.keys[m - 1];
    assert keys[..m - 1] == group.keys[..m - 1] && keys[m - 1] == k;
    var rule := group.values[k];
    RuleRightReadsBack(n, t, L, k, rule);
    BuildGroupStep(Nonterminal(L), keys, vals, n, t, RetaggedPrefix(group, m - 1, vals), rule.right);
    RetaggedPrefixStep(group, m, vals);
  }

  /** Extending the retagged prefix by one key stores that key's rule. */
  lemma RetaggedPrefixStep(group: Dict<Rule>, m: nat, vals: map<string, int>)
    requires 0 < m <= |group.keys|
    requires forall k :: k in group.values ==> k in vals
    ensures var k := group.keys[m - 1];
            Put(RetaggedPrefix(group, m - 1, vals), k, Retag(group.values[k], FromValue(vals[k])))
            == RetaggedPrefix(group, m, vals)
  {
    DistinctPrefix(group.keys, m - 1);
    DistinctPrefix(group.keys, m);
    RestrictStep(group.keys, m, RetagMap(group, vals));
  }

  /** Object data whose keys are exactly those of g: the data written out
      from g with some choice of tag values. */
  predicate SameShape(g: Grammar, o: ObjectData) {
    o.n.keys == g.n.keys && o.t.keys == g.t.keys && o.p.keys == g.p.keys && o.s == g.start
    && forall L :: L in g.p.values ==> o.p.values[L].keys == g.p.values[L].keys
  }

  /** Every group of p, rule by rule, retagged from the tag values of data
      with the same keys. */
  function GroupsMap(p: Dict<Dict<Rule>>, pvals: map<string, Dict<int>>): (F: map<string, Dict<Rule>>)
    requires forall L :: L in p.values ==> L in pvals && pvals[L].keys == p.values[L].keys
    ensures F.Keys == p.values.Keys
  {
    map L | L in p.values :: RetaggedPrefix(p.values[L], |p.values[L].keys|, pvals[L].values)
  }

  function RetagGroups(p: Dict<Dict<Rule>>, m: nat, pvals: map<string, Dict<int>>): (d: Dict<Dict<Rule>>)
    requires m <= |p.keys|
    requires forall L :: L in p.values ==> L in pvals && pvals[L].keys == p.values[L].keys
    ensures d.keys == p.keys[..m]
  {
    DistinctPrefix(p.keys, m);
    Restrict(p.keys[..m], GroupsMap(p, pvals))
  }

  /** g with every tag read from the values of data of the same shape. */
  function RetagFrom(g: Grammar, o: ObjectData): (r: Grammar)
    requires SameShape(g, o)
  {
    Grammar(ReadTags(g.n.keys, o.n.values),
            ReadTags(g.t.keys, o.t.values),
            RetagGroups(g.p, |g.p.keys|, o.p.values), g.start)
  }

  lemma {:induction false} BuildRulesExact(n: Dict<Highlight>, t: Dict<Highlight>, p: Dict<Dict<Rule>>,
                                           m: nat, pvals: map<string, Dict<int>>)
    requires ValidAlphabets(n, t)
    requires forall L :: L in p.values ==> L in n.values && GroupWellFormed(n, t, L, p.values[L])
    requires m <= |p.keys|
    requires forall L :: L in p.values ==> L in pvals && pvals[L].keys == p.values[L].keys
    ensures BuildRules(p.keys[..m], pvals, n, t) == Success(RetagGroups(p, m, pvals))
    decreases m
  {
    if m > 0 {
      BuildRulesExact(n, t, p, m - 1, pvals);
      var L := p.keys[m - 1];
      AlphabetsDisjoint(n, t, L);
      var group := p.values[L];
      assert group.keys[..|group.keys|] == group.keys;
      BuildGroupExact(n, t, L, group, |group.keys|, pvals[L].values);
      BuildRulesExactStep(n, t, p, m, pvals);
    }
  }

  lemma BuildRulesExactStep(n: Dict<Highlight>, t: Dict<Highlight>, p: Dict<Dict<Rule>>,
                            m: nat, pvals: map<string, Dict<int>>)
    requires 0 < m <= |p.keys|
    requires forall L :: L in p.values ==> L in pvals && pvals[L].keys == p.values[L].keys
    requires InitLookup(n, t, p.keys[m - 1]) == Some(Nonterminal(p.keys[m - 1]))
    requires BuildRules(p.keys[..m - 1], pvals, n, t) == Success(RetagGroups(p, m - 1, pvals))
    requires var L := p.keys[m - 1];
             BuildGroup(Nonterminal(L), pvals[L].keys, pvals[L].values, n, t)
             == Success(RetaggedPrefix(p.values[L], |p.values[L].keys|, pvals[L].values))
    ensures BuildRules(p.keys[..m], pvals, n, t) == Success(RetagGroups(p, m, pvals))
  {
    var keys := p.keys[..m];
    var L := p.keys[m - 1];
    assert keys[..m - 1] == p.keys[..m - 1] && keys[m - 1] == L;
    RetagGroupsStep(p, m, pvals);
  }

  lemma RetagGroupsStep(p: Dict<Dict<Rule>>, m: nat, pvals: map<string, Dict<int>>)
    requires 0 < m <= |p.keys|
    requires forall L :: L in p.values ==> L in pvals && pvals[L].keys == p.values[L].keys
    ensures var L := p.keys[m - 1];
            Put(RetagGroups(p, m - 1, pvals), L, RetaggedPrefix(p.values[L], |p.values[L].keys|, pvals[L].values))
            == RetagGroups(p, m, pvals)
  {
    DistinctPrefix(p.keys, m - 1);
    DistinctPrefix(p.keys, m);
    RestrictStep(p.keys, m, GroupsMap(p, pvals));
  }

  /** Rule well-formedness depends only on which texts the alphabets hold. */
  lemma GroupsOverRetaggedAlphabets(g: Grammar, n: Dict<Highlight>, t: Dict<Highlight>)
    requires Valid(g)
    requires n.values.Keys == g.n.values.Keys && t.values.Keys == g.t.values.Keys
    ensures ValidAlphabets(n, t)
    ensures forall L :: L in g.p.values ==> L in n.values && GroupWellFormed(n, t, L, g.p.values[L])
  {
    forall L, k | L in g.p.values && k in g.p.values[L].values
      ensures RuleWellFormed(n, t, L, k, g.p.values[L].values[k])
    {
      var r := g.p.values[L].values[k];
      assert RuleWellFormed(g.n, g.t, L, k, r);
      forall i | 0 <= i < |r.right|
        ensures InitLookup(n, t, r.right[i].Text()) == Some(r.right[i])
      {
        assert InitLookup(g.n, g.t, r.right[i].Text()) == Some(r.right[i]);
      }
    }
  }

  /** Data of the same shape as a well-formed grammar, in object form, reads
      back as that grammar with the tags the data's values denote. */
  lemma InitOfSameShape(g: Grammar, o: ObjectData)
    requires Valid(g) && SameShape(g, o)
    ensures InitObject(o) == Success(RetagFrom(g, o))
  {
    var n := ReadTags(g.n.keys, o.n.values);
    var t := ReadTags(g.t.keys, o.t.values);
    InitAlphabets(g, o);
    GroupsOverRetaggedAlphabets(g, n, t);
    assert o.p.keys[..|o.p.keys|] == o.p.keys;
    BuildRulesExact(n, t, g.p, |g.p.keys|, o.p.values);
    InitObjectOfParts(o, n, t, RetagGroups(g.p, |g.p.keys|, o.p.values));
  }

  /** The constructor succeeds with the parts it built when the start symbol
      is among the nonterminals. */
  lemma InitObjectOfParts(o: ObjectData, n: Dict<Highlight>, t: Dict<Highlight>, p: Dict<Dict<Rule>>)
    requires BuildAlphabet(o.n.keys, o.n.values, false) == Success(n)
    requires BuildAlphabet(o.t.keys, o.t.values, true) == Success(t)
    requires BuildRules(o.p.keys, o.p.values, n, t) == Success(p)
    requires o.s in n.values && o.s != ""
    ensures InitObject(o) == Success(Grammar(n, t, p, o.s))
  {
  }

  lemma InitAlphabets(g: Grammar, o: ObjectData)
    requires Valid(g) && SameShape(g, o)
    ensures BuildAlphabet(o.n.keys, o.n.values, false)
            == Success(ReadTags(g.n.keys, o.n.values))
    ensures BuildAlphabet(o.t.keys, o.t.values, true)
            == Success(ReadTags(g.t.keys, o.t.values))
  {
    assert forall i :: 0 <= i < |o.n.keys| ==> o.n.keys[i] in g.n.values;
    assert forall i :: 0 <= i < |o.t.keys| ==> o.t.keys[i] in g.t.values;
    BuildAlphabetExact(o.n.keys, o.n.values, false);
    BuildAlphabetExact(o.t.keys, o.t.values, true);
  }

  /** In a well-formed group every rule is stored under its printed right
      side, so the right texts written out are the group's keys. */
  lemma RightTextsAreKeys(n: Dict<Highlight>, t: Dict<Highlight>, L: string, group: Dict<Rule>)
    requires GroupWellFormed(n, t, L, group)
    ensures RightTexts(group) == group.keys
  {
    forall i | 0 <= i < |group.keys| ensures RightTexts(group)[i] == group.keys[i] {
      assert RuleWellFormed(n, t, L, group.keys[i], group.values[group.keys[i]]);
    }
  }

  /** The array form of a well-formed grammar normalises to object data of
      the same shape, every value that of NONE. */
  lemma NormalizedToDataShape(g: Grammar)
    requires Valid(g)
    ensures ReadData(ArrayForm(ToData(g))) == Some(Normalize(ToData(g)))
    ensures SameShape(g, Normalize(ToData(g)))
    ensures var o := Normalize(ToData(g));
            (forall k :: k in o.n.values ==> o.n.values[k] == Value(NONE))
            && (forall k :: k in o.t.values ==> o.t.values[k] == Value(NONE))
            && (forall L, k :: L in o.p.values && k in o.p.values[L].values ==> o.p.values[L].values[k] == Value(NONE))
  {
    assert g.start in g.n.keys;
    forall L | L in g.p.values
      ensures Normalize(ToData(g)).p.values[L].keys == g.p.values[L].keys
    {
      RightTextsAreKeys(g.n, g.t, L, g.p.values[L]);
    }
  }

  /** Writing a well-formed grammar out in array form and reading it back
      gives the same grammar with every tag reset. */
  lemma InitOfToData(g: Grammar)
    requires Valid(g)
    ensures Init(ArrayForm(ToData(g))) == Success(ClearTags(g))
  {
    var o := Normalize(ToData(g));
    NormalizedToDataShape(g);
    InitOfSameShape(g, o);
    RetagFromNone(g, o);
  }

  /** Reading tags from data whose every value is that of NONE clears them. */
  lemma RetagFromNone(g: Grammar, o: ObjectData)
    requires SameShape(g, o)
    requires forall k :: k in o.n.values ==> o.n.values[k] == Value(NONE)
    requires forall k :: k in o.t.values ==> o.t.values[k] == Value(NONE)
    requires forall L, k :: L in o.p.values && k in o.p.values[L].values ==> o.p.values[L].values[k] == Value(NONE)
    ensures RetagFrom(g, o) == ClearTags(g)
  {
    AlphabetNone(g.n, o.n);
    AlphabetNone(g.t, o.t);
    RulesNone(g.p, o.p);
  }

  lemma RulesNone(p: Dict<Dict<Rule>>, pvals: Dict<Dict<int>>)
    requires pvals.keys == p.keys
    requires forall L :: L in p.values ==> pvals.values[L].keys == p.values[L].keys
    requires forall L, k :: L in pvals.values && k in pvals.values[L].values ==> pvals.values[L].values[k] == Value(NONE)
    ensures RetagGroups(p, |p.keys|, pvals.values) == MapValues(p, ClearGroup)
  {
    forall L | L in p.values
      ensures RetaggedPrefix(p.values[L], |p.values[L].keys|, pvals.values[L].values) == ClearGroup(p.values[L])
    {
      RetagGroupNone(p.values[L], pvals.values[L]);
    }
    assert p.keys[..|p.keys|] == p.keys;
  }

  lemma AlphabetNone(d: Dict<Highlight>, vals: Dict<int>)
    requires vals.keys == d.keys
    requires forall k :: k in vals.values ==> vals.values[k] == Value(NONE)
    ensures ReadTags(d.keys, vals.values) == MapValues(d, ClearTag)
  {
    FromValueOfValue(NONE);
  }

  lemma RetagGroupNone(group: Dict<Rule>, vals: Dict<int>)
    requires vals.keys == group.keys
    requires forall k :: k in vals.values ==> vals.values[k] == Value(NONE)
    ensures RetaggedPrefix(group, |group.keys|, vals.values) == ClearGroup(group)
  {
    FromValueOfValue(NONE);
    assert group.keys[..|group.keys|] == group.keys;
  }
}

=== FILE: grammar_edit.dfy ===
/** The grammar's maintenance operations: re-keying and re-ordering after
    renames and deletions, removal of rules by symbol, iteration order over
    nonterminals, fresh names, and enumeration of nonterminals as N/i
    (js/structures/Grammar.js). */
module GrammarEdits {
  import opened Wrappers
  import opened Text
  import opened Highlights
  import opened Objects
  import opened Symbols
  import opened Words
  import opened Rules
  import opened Grammars

  // ----- renaming -----

  /** Symbol objects are shared between the alphabets, the rules and the
      start symbol, so renaming an object renames every occurrence at once;
      a renaming gives the new text of each renamed object by its old text,
      separately for nonterminals and terminals. */
  datatype Renaming = Renaming(nt: map<string, string>, t: map<string, string>)

  const NoRenaming := Renaming(map[], map[])

  function RenameText(f: map<string, string>, x: string): string {
    if x in f then f[x] else x
  }

  function RenameSymbol(ren: Renaming, s: Symbol): (r: Symbol)
    ensures r.Nonterminal? <==> s.Nonterminal?
    ensures r.Terminal? <==> s.Terminal?
  {
    match s
    case Nonterminal(x) => Nonterminal(RenameText(ren.nt, x))
    case Terminal(x) => Terminal(RenameText(ren.t, x))
    case EndMarker => EndMarker
  }

  function RenameWord(ren: Renaming, w: Word): (r: Word)
    ensures |r| == |w| && forall i :: 0 <= i < |w| ==> r[i] == RenameSymbol(ren, w[i])
  {
    seq(|w|, i requires 0 <= i < |w| => RenameSymbol(ren, w[i]))
  }

  function RenameRule(ren: Renaming, r: Rule): (r': Rule)
    ensures r'.tag == r.tag && r'.rightTag == r.rightTag
  {
    r.(left := RenameText(ren.nt, r.left), right := RenameWord(ren, r.right))
  }

  lemma RenameNothing(w: Word)
    ensures RenameWord(NoRenaming, w) == w
  {
  }

  // ----- rehash -----

  /** The comparator of `rehash`: the start symbol first, then natural
      order; when the start symbol is "N/1", plain natural order. */
  function RehashOrder(start: string): KeyOrder {
    if start != "N/1" then KeyFirst(start) else Natural
  }

  /** An alphabet rebuilt under the current texts of its symbols, in the old
      order; of two symbols that now share a text, the later one is kept at
      the earlier one's position. */
  function RehashAlphabet(keys: seq<string>, vals: map<string, Highlight>, f: map<string, string>): (r: Dict<Highlight>)
    requires forall k :: k in keys ==> k in vals
    decreases |keys|
  {
    if |keys| == 0 then Empty()
    else
      var init := keys[..|keys| - 1];
      var k := keys[|keys| - 1];
      assert keys == init + [k];
      var prev := RehashAlphabet(init, vals, f);
      Put(prev, RenameText(f, k), vals[k])
  }

  /** A rule group rebuilt under the current text of each right side. */
  function RehashGroup(keys: seq<string>, vals: map<string, Rule>, ren: Renaming): (r: Dict<Rule>)
    requires forall k :: k in keys ==> k in vals
    ensures |keys| > 0 ==> |r.keys| > 0
    decreases |keys|
  {
    if |keys| == 0 then Empty()
    else
      var init := keys[..|keys| - 1];
      var k := keys[|keys| - 1];
      assert keys == init + [k];
      var prev := RehashGroup(init, vals, ren);
      var rule := RenameRule(ren, vals[k]);
      Put(prev, ToString(rule.right), rule)
  }

  /** The rule groups rebuilt: an empty group is dropped; a group is stored
      under the current left side of its first rule, replacing an earlier
      group stored there. */
  function RehashRules(keys: seq<string>, vals: map<string, Dict<Rule>>, ren: Renaming): (r: Dict<Dict<Rule>>)
    requires forall k :: k in keys ==> k in vals
    ensures forall L :: L in r.values ==> |r.values[L].keys| > 0
    decreases |keys|
  {
    if |keys| == 0 then Empty()
    else
      var init := keys[..|keys| - 1];
      var k := keys[|keys| - 1];
      assert keys == init + [k];
      var prev := RehashRules(init, vals, ren);
      var group := vals[k];
      if |group.keys| == 0 then prev
      else
        var left := RenameText(ren.nt, group.values[group.keys[0]].left);
        Put(prev, left, RehashGroup(group.keys, group.values, ren))
  }

  /** `rehash()` after the objects were renamed by ren. */
  function Rehash(g: Grammar, ren: Renaming): (r: Grammar)
    ensures r.start == RenameText(ren.nt, g.start)
    ensures SortedBy(RehashOrder(r.start), r.n.keys) && SortedBy(RehashOrder(r.start), r.p.keys)
    ensures forall L :: L in r.p.values ==> |r.p.values[L].keys| > 0
  {
    var s := RenameText(ren.nt, g.start);
    var n := RehashAlphabet(g.n.keys, g.n.values, ren.nt);
    var t := RehashAlphabet(g.t.keys, g.t.values, ren.t);
    var p := RehashRules(g.p.keys, g.p.values, ren);
    Grammar(SortObjectKeys(n, RehashOrder(s)), t, SortObjectKeys(p, RehashOrder(s)), s)
  }

  /** After a rehash the start symbol, when it is a nonterminal, comes first
      in the nonterminal order (for "N/1" because nothing smaller is
      present is not promised). */
  lemma RehashPutsStartFirst(g: Grammar, ren: Renaming)
    requires RenameText(ren.nt, g.start) != "N/1"
    requires RenameText(ren.nt, g.start) in Rehash(g, ren).n.values
    ensures Rehash(g, ren).n.keys[0] == Rehash(g, ren).start
  {
    var r := Rehash(g, ren);
    assert r.start in r.n.keys;
    KeyFirstIsFirst(r.start, r.n.keys);
  }

  // ----- rehash without renaming -----

  /** Without renames an alphabet with distinct keys is rebuilt unchanged. */
  lemma {:induction false} RehashAlphabetIdentity(keys: seq<string>, vals: map<string, Highlight>)
    requires forall k :: k in keys ==> k in vals
    requires Distinct(keys)
    ensures RehashAlphabet(keys, vals, map[]) == Restrict(keys, vals)
    decreases |keys|
  {
    if |keys| > 0 {
      var init := keys[..|keys| - 1];
      DistinctPrefix(keys, |keys| - 1);
      RehashAlphabetIdentity(init, vals);
      assert Distinct(init);
      RehashAlphabetIdentityStep(keys, vals);
    }
  }

  lemma RehashAlphabetIdentityStep(keys: seq<string>, vals: map<string, Highlight>)
    requires forall k :: k in keys ==> k in vals
    requires Distinct(keys) && |keys| > 0
    requires var init := keys[..|keys| - 1];
             Distinct(init) && RehashAlphabet(init, vals, map[]) == Restrict(init, vals)
    ensures RehashAlphabet(keys, vals, map[]) == Restrict(keys, vals)
  {
    var m := |keys|;
    DistinctPrefix(keys, m);
    assert keys[..m] == keys;
    RestrictStep(keys, m, vals);
  }

  /** Without renames a well-formed group is rebuilt unchanged. */
  lemma {:induction false} RehashGroupIdentity(n: Dict<Highlight>, t: Dict<Highlight>, L: string,
                                               group: Dict<Rule>, m: nat)
    requires GroupWellFormed(n, t, L, group)
    requires m <= |group.keys|
    ensures Distinct(group.keys[..m])
    ensures RehashGroup(group.keys[..m], group.values, NoRenaming) == Restrict(group.keys[..m], group.values)
    decreases m
  {
    DistinctPrefix(group.keys, m);
    if m > 0 {
      RehashGroupIdentity(n, t, L, group, m - 1);
      var k := group.keys[m - 1];
      assert RuleWellFormed(n, t, L, k, group.values[k]);
      RehashGroupIdentityStep(group, m);
    }
  }

  lemma RehashGroupIdentityStep(group: Dict<Rule>, m: nat)
    requires 0 < m <= |group.keys|
    requires ToString(group.values[group.keys[m - 1]].right) == group.keys[m - 1]
    requires Distinct(group.keys[..m - 1]) && Distinct(group.keys[..m])
    requires RehashGroup(group.keys[..m - 1], group.values, NoRenaming) == Restrict(group.keys[..m - 1], group.values)
    ensures RehashGroup(group.keys[..m], group.values, NoRenaming) == Restrict(group.keys[..m], group.values)
  {
    var k := group.keys[m - 1];
    PrefixInit(group.keys, m);
    var rule := group.values[k];
    RenameNothing(rule.right);
    assert RenameRule(NoRenaming, rule) == rule;
    RestrictStep(group.keys, m, group.values);
  }

  /** The keys of the nonempty groups, in order. */
  function NonEmptyKeys(keys: seq<string>, vals: map<string, Dict<Rule>>): (r: seq<string>)
    requires forall k :: k in keys ==> k in vals
    ensures forall k :: k in r <==> k in keys && |vals[k].keys| > 0
    ensures Distinct(keys) ==> Distinct(r)
    decreases |keys|
  {
    if |keys| == 0 then []
    else
      var init := keys[..|keys| - 1];
      var k := keys[|keys| - 1];
      assert keys == init + [k];
      assert Distinct(keys) ==> Distinct(init) && k !in init by {
        if Distinct(keys) {
          DistinctPrefix(keys, |keys| - 1);
          DistinctPrefixStep(keys, |keys|);
        }
      }
      if |vals[k].keys| == 0 then NonEmptyKeys(init, vals) else NonEmptyKeys(init, vals) + [k]
  }

  /** The keys of the nonempty groups among the first m. */
  function NonEmptyPrefix(p: Dict<Dict<Rule>>, m: nat): (r: seq<string>)
    requires m <= |p.keys|
    ensures Distinct(r)
    ensures forall k :: k in r <==> k in p.keys[..m] && |p.values[k].keys| > 0
  {
    DistinctPrefix(p.keys, m);
    NonEmptyKeys(p.keys[..m], p.values)
  }

  /** The rule groups without the empty ones. */
  function DropEmptyGroups(p: Dict<Dict<Rule>>): (r: Dict<Dict<Rule>>)
    ensures forall L :: L in r.values <==> L in p.values && |p.values[L].keys| > 0
    ensures forall L :: L in r.values ==> r.values[L] == p.values[L]
  {
    assert p.keys[..|p.keys|] == p.keys;
    Restrict(NonEmptyPrefix(p, |p.keys|), p.values)
  }

  /** Without renames the groups of a well-formed grammar are rebuilt
      unchanged, except that empty groups are dropped. */
  lemma {:induction false} RehashRulesIdentity(g: Grammar, m: nat)
    requires Valid(g)
    requires m <= |g.p.keys|
    ensures RehashRules(g.p.keys[..m], g.p.values, NoRenaming) == Restrict(NonEmptyPrefix(g.p, m), g.p.values)
    decreases m
  {
    if m > 0 {
      RehashRulesIdentity(g, m - 1);
      GroupRebuilt(g, g.p.keys[m - 1]);
      RehashRulesIdentityStep(g.p, m);
    }
  }

  /** Without renames a stored group is rebuilt unchanged, under the left
      side of its first rule. */
  lemma GroupRebuilt(g: Grammar, L: string)
    requires Valid(g) && L in g.p.values
    ensures var group := g.p.values[L];
            |group.keys| > 0 ==>
              group.values[group.keys[0]].left == L
              && RehashGroup(group.keys, group.values, NoRenaming) == group
  {
    var group := g.p.values[L];
    if |group.keys| > 0 {
      assert GroupWellFormed(g.n, g.t, L, group);
      assert RuleWellFormed(g.n, g.t, L, group.keys[0], group.values[group.keys[0]]);
      RehashGroupIdentity(g.n, g.t, L, group, |group.keys|);
      assert group.keys[..|group.keys|] == group.keys;
      RestrictAll(group);
    }
  }

  lemma RehashRulesIdentityStep(p: Dict<Dict<Rule>>, m: nat)
    requires 0 < m <= |p.keys|
    requires RehashRules(p.keys[..m - 1], p.values, NoRenaming) == Restrict(NonEmptyPrefix(p, m - 1), p.values)
    requires var group := p.values[p.keys[m - 1]];
             |group.keys| > 0 ==>
               group.values[group.keys[0]].left == p.keys[m - 1]
               && RehashGroup(group.keys, group.values, NoRenaming) == group
    ensures RehashRules(p.keys[..m], p.values, NoRenaming) == Restrict(NonEmptyPrefix(p, m), p.values)
  {
    var L := p.keys[m - 1];
    NonEmptyPrefixStep(p, m);
    RehashRulesStep(p.keys, m, p.values, NoRenaming);
    if |p.values[L].keys| > 0 {
      KeptGroupStep(p, m);
    }
  }

  /** The step of `RehashRulesIdentityStep` for a nonempty group. */
  lemma KeptGroupStep(p: Dict<Dict<Rule>>, m: nat)
    requires 0 < m <= |p.keys| && |p.values[p.keys[m - 1]].keys| > 0
    ensures Put(Restrict(NonEmptyPrefix(p, m - 1), p.values), p.keys[m - 1], p.values[p.keys[m - 1]])
            == Restrict(NonEmptyPrefix(p, m - 1) + [p.keys[m - 1]], p.values)
  {
    var ks := NonEmptyPrefix(p, m - 1);
    var L := p.keys[m - 1];
    NonEmptyPrefixStep(p, m);
    assert (ks + [L])[..|ks|] == ks;
    RestrictStep(ks + [L], |ks| + 1, p.values);
  }

  /** `rehash()` of a well-formed grammar without renames: nonterminals and
      rule groups are re-sorted, empty groups are dropped, and nothing else
      changes. */
  lemma RehashIdentity(g: Grammar)
    requires Valid(g)
    ensures var o := RehashOrder(g.start);
            Rehash(g, NoRenaming)
            == Grammar(SortObjectKeys(g.n, o), g.t, SortObjectKeys(DropEmptyGroups(g.p), o), g.start)
  {
    RehashAlphabetIdentity(g.n.keys, g.n.values);
    RestrictAll(g.n);
    RehashAlphabetIdentity(g.t.keys, g.t.values);
    RestrictAll(g.t);
    RehashRulesIdentity(g, |g.p.keys|);
    assert g.p.keys[..|g.p.keys|] == g.p.keys;
  }

  /** A rehash keeps a grammar well-formed. */
  lemma RehashKeepsValid(g: Grammar)
    requires Valid(g)
    ensures Valid(Rehash(g, NoRenaming))
  {
    RehashIdentity(g);
  }

  /** Rehashing twice is rehashing once. */
  lemma RehashIdempotent(g: Grammar)
    requires Valid(g)
    ensures Rehash(Rehash(g, NoRenaming), NoRenaming) == Rehash(g, NoRenaming)
  {
    var r := Rehash(g, NoRenaming);
    var o := RehashOrder(g.start);
    RehashIdentity(g);
    RehashKeepsValid(g);
    RehashIdentity(r);
    SortSorted(r.n, o);
    NoEmptyGroupsKept(r.p);
    RestrictAll(r.p);
    SortSorted(r.p, o);
  }

  /** Without empty groups there is nothing to drop. */
  lemma NoEmptyGroupsKept(p: Dict<Dict<Rule>>)
    requires forall L :: L in p.values ==> |p.values[L].keys| > 0
    ensures DropEmptyGroups(p) == Restrict(p.keys, p.values)
  {
    assert p.keys[..|p.keys|] == p.keys;
    NonEmptyKeysAll(p.keys, p.values);
  }

  lemma {:induction false} NonEmptyKeysAll(keys: seq<string>, vals: map<string, Dict<Rule>>)
    requires forall k :: k in keys ==> k in vals && |vals[k].keys| > 0
    ensures NonEmptyKeys(keys, vals) == keys
    decreases |keys|
  {
    if |keys| > 0 {
      var init := keys[..|keys| - 1];
      assert keys == init + [keys[|keys| - 1]];
      NonEmptyKeysAll(init, vals);
    }
  }

  lemma NonEmptyPrefixStep(p: Dict<Dict<Rule>>, m: nat)
    requires 0 < m <= |p.keys|
    ensures var L := p.keys[m - 1];
            NonEmptyPrefix(p, m)
            == if |p.values[L].keys| > 0 then NonEmptyPrefix(p, m - 1) + [L] else NonEmptyPrefix(p, m - 1)
  {
    assert p.keys[..m][..m - 1] == p.keys[..m - 1];
  }

  lemma RehashRulesStep(keys: seq<string>, m: nat, vals: map<string, Dict<Rule>>, ren: Renaming)
    requires 0 < m <= |keys|
    requires forall k :: k in keys ==> k in vals
    ensures var group := vals[keys[m - 1]];
            RehashRules(keys[..m], vals, ren)
            == if |group.keys| == 0 then RehashRules(keys[..m - 1], vals, ren)
               else Put(RehashRules(keys[..m - 1], vals, ren), RenameText(ren.nt, group.values[group.keys[0]].left),
                        RehashGroup(group.keys, group.values, ren))
  {
    assert keys[..m][..m - 1] == keys[..m - 1];
  }

  // ----- renaming without collisions -----

  /** The texts of keys after a renaming, in order. */
  function RenameAll(f: map<string, string>, keys: seq<string>): (r: seq<string>)
    ensures |r| == |keys| && forall i :: 0 <= i < |keys| ==> r[i] == RenameText(f, keys[i])
  {
    seq(|keys|, i requires 0 <= i < |keys| => RenameText(f, keys[i]))
  }

  /** When the renaming keeps the texts apart, the rebuilt alphabet has one
      entry per old symbol, under its new text, in the old order. */
  lemma {:induction false} RehashAlphabetInjective(keys: seq<string>, vals: map<string, Highlight>, f: map<string, string>)
    requires forall k :: k in keys ==> k in vals
    requires Distinct(RenameAll(f, keys))
    ensures RehashAlphabet(keys, vals, f).keys == RenameAll(f, keys)
    ensures forall i :: 0 <= i < |keys| ==> RehashAlphabet(keys, vals, f).values[RenameAll(f, keys)[i]] == vals[keys[i]]
    decreases |keys|
  {
    if |keys| > 0 {
      var m := |keys|;
      var init := keys[..m - 1];
      var R := RenameAll(f, keys);
      assert RenameAll(f, init) == R[..m - 1];
      DistinctPrefix(R, m - 1);
      DistinctPrefixStep(R, m);
      RehashAlphabetInjective(init, vals, f);
      var prev := RehashAlphabet(init, vals, f);
      RehashAlphabetStep(prev.keys, prev.values, R, keys, vals);
    }
  }

  /** The last step of `RehashAlphabet`, on plain keys and values: a fresh
      text appended after the earlier ones completes the renamed order. */
  lemma RehashAlphabetStep(pk: seq<string>, pv: map<string, Highlight>, R: seq<string>, keys: seq<string>, vals: map<string, Highlight>)
    requires |R| == |keys| > 0 && forall k :: k in keys ==> k in vals
    requires pk == R[..|R| - 1] && R[|R| - 1] !in pk
    requires forall i :: 0 <= i < |R| - 1 ==> R[i] in pv && pv[R[i]] == vals[keys[i]]
    ensures pk + [R[|R| - 1]] == R
    ensures forall i :: 0 <= i < |R| ==> pv[R[|R| - 1] := vals[keys[|R| - 1]]][R[i]] == vals[keys[i]]
  {
    assert R == R[..|R| - 1] + [R[|R| - 1]];
  }

  // ----- removing rules -----

  /** `removeRulesLeft(n)`: the rules with left side n are deleted when n is
      a nonterminal; any other symbol changes nothing. */
  function RemoveRulesLeft(g: Grammar, s: Symbol): (r: Grammar)
    ensures r.n == g.n && r.t == g.t && r.start == g.start
    ensures s.Nonterminal? ==> s.name !in r.p.values && r.p.keys == Without(g.p.keys, s.name)
    ensures !s.Nonterminal? ==> r.p == g.p
    ensures forall L :: L in r.p.values ==> L in g.p.values && r.p.values[L] == g.p.values[L]
  {
    if s.Nonterminal? then g.(p := Remove(g.p, s.name)) else g
  }

  /** Removing the rules of a left side keeps a grammar well-formed, and a
      rule survives exactly when its left side is another one. */
  lemma RemoveRulesLeftSpec(g: Grammar, s: Symbol, L: string, k: string)
    requires Valid(g)
    ensures Valid(RemoveRulesLeft(g, s))
    ensures TryGetRule(RemoveRulesLeft(g, s), L, k).Some?
            <==> TryGetRule(g, L, k).Some? && !(s.Nonterminal? && s.name == L)
    ensures TryGetRule(RemoveRulesLeft(g, s), L, k).Some? ==> TryGetRule(RemoveRulesLeft(g, s), L, k) == TryGetRule(g, L, k)
  {
  }

  /** The keys of the rules of a group whose right side does not contain s. */
  function KeysWithout(keys: seq<string>, vals: map<string, Rule>, s: Symbol): (r: seq<string>)
    requires forall k :: k in keys ==> k in vals
    ensures forall k :: k in r <==> k in keys && !Contains(vals[k].right, s)
    ensures Distinct(keys) ==> Distinct(r)
    decreases |keys|
  {
    if |keys| == 0 then []
    else
      var init := keys[..|keys| - 1];
      var k := keys[|keys| - 1];
      assert keys == init + [k];
      assert Distinct(keys) ==> Distinct(init) && k !in init by {
        if Distinct(keys) {
          DistinctPrefix(keys, |keys| - 1);
          DistinctPrefixStep(keys, |keys|);
        }
      }
      if Contains(vals[k].right, s) then KeysWithout(init, vals, s) else KeysWithout(init, vals, s) + [k]
  }

  /** A group with the rules that contain s on the right deleted. */
  function DeleteContaining(group: Dict<Rule>, s: Symbol): (r: Dict<Rule>)
    ensures forall k :: k in r.values <==> k in group.values && !Contains(group.values[k].right, s)
    ensures forall k :: k in r.values ==> r.values[k] == group.values[k]
  {
    Restrict(KeysWithout(group.keys, group.values, s), group.values)
  }

  /** `removeRulesContainingRight(symbol)`: every rule with symbol in its
      right side is deleted, then the grammar is rehashed. */
  function RemoveRulesContainingRight(g: Grammar, s: Symbol): (r: Grammar)
    ensures r.start == g.start
    ensures forall L :: L in r.p.values ==> |r.p.values[L].keys| > 0
  {
    Rehash(g.(p := MapValues(g.p, (group: Dict<Rule>) => DeleteContaining(group, s))), NoRenaming)
  }

  /** A grammar that is well-formed except possibly for rules that contain
      s on the right, as after s left the alphabets. */
  predicate ValidExceptContaining(g: Grammar, s: Symbol) {
    ValidAlphabets(g.n, g.t)
    && g.start in g.n.values
    && forall L :: L in g.p.values ==>
         L in g.n.values
         && forall k :: k in g.p.values[L].values && !Contains(g.p.values[L].values[k].right, s) ==>
              RuleWellFormed(g.n, g.t, L, k, g.p.values[L].values[k])
  }

  /** A rehash without renames changes no rule and no symbol. */
  lemma RehashKeepsRules(g: Grammar, L: string, k: string)
    requires Valid(g)
    ensures TryGetRule(Rehash(g, NoRenaming), L, k) == TryGetRule(g, L, k)
    ensures Rehash(g, NoRenaming).n.values == g.n.values && Rehash(g, NoRenaming).t == g.t
    ensures Rehash(g, NoRenaming).start == g.start
  {
    RehashIdentity(g);
  }

  /** In a well-formed grammar a rule survives `removeRulesContainingRight`
      exactly when it does not contain the symbol, and the grammar stays
      well-formed. */
  lemma RemoveRulesContainingRightSpec(g: Grammar, s: Symbol, L: string, k: string)
    requires ValidExceptContaining(g, s)
    ensures Valid(RemoveRulesContainingRight(g, s))
    ensures RemoveRulesContainingRight(g, s).n.values == g.n.values
    ensures RemoveRulesContainingRight(g, s).t == g.t
    ensures TryGetRule(RemoveRulesContainingRight(g, s), L, k).Some?
            <==> TryGetRule(g, L, k).Some? && !Contains(g.p.values[L].values[k].right, s)
    ensures TryGetRule(RemoveRulesContainingRight(g, s), L, k).Some? ==>
              TryGetRule(RemoveRulesContainingRight(g, s), L, k) == TryGetRule(g, L, k)
  {
    var g' := g.(p := MapValues(g.p, (group: Dict<Rule>) => DeleteContaining(group, s)));
    assert Valid(g');
    RehashIdentity(g');
    RehashKeepsValid(g');
  }

  // ----- iteration -----

  /** `$.each` with a callback: the elements visited, up to and including
      the first one for which the callback returns false. */
  function VisitUntil<T>(s: seq<T>, go: T -> bool): (r: seq<T>)
    ensures r <= s
    ensures forall i :: 0 <= i < |r| - 1 ==> go(r[i])
    ensures |r| < |s| ==> |r| > 0 && !go(r[|r| - 1])
  {
    if |s| == 0 then []
    else if !go(s[0]) then [s[0]]
    else [s[0]] + VisitUntil(s[1..], go)
  }

  /** A callback that never returns false visits everything. */
  lemma {:induction false} VisitAll<T>(s: seq<T>, go: T -> bool)
    requires forall x :: x in s ==> go(x)
    ensures VisitUntil(s, go) == s
  {
    if |s| > 0 {
      VisitAll(s[1..], go);
    }
  }

  lemma {:induction false} WithoutPresent(s: seq<string>, k: string)
    requires Distinct(s) && k in s
    ensures |Without(s, k)| == |s| - 1
    decreases |s|
  {
    if s[0] != k {
      WithoutPresent(s[1..], k);
    }
  }

  /** The order of `forEachNonterminal` when the start symbol reads x by the
      time the others are compared with it: the start symbol first, then the
      other keys in order, leaving out every key that reads x. */
  function ForEachNonterminalOrder(g: Grammar, x: string): (r: seq<string>)
    ensures |r| > 0 && r[0] == g.start
    ensures forall k :: k in r[1..] <==> k in g.n.keys && k != g.start && k != x
    ensures Distinct(r)
  {
    var rest := Without(Without(g.n.keys, g.start), x);
    assert g.start !in rest;
    [g.start] + rest
  }

  /** `forEachNonterminal` with a callback that renames nothing. */
  function NonterminalOrder(g: Grammar): (r: seq<string>)
    requires g.start in g.n.values
    ensures Distinct(r) && |r| == |g.n.keys| && r[0] == g.start
    ensures forall k :: k in r <==> k in g.n.values
  {
    var r := ForEachNonterminalOrder(g, g.start);
    WithoutPresent(g.n.keys, g.start);
    assert Without(Without(g.n.keys, g.start), g.start) == Without(g.n.keys, g.start);
    assert r == [g.start] + Without(g.n.keys, g.start);
    r
  }

  /** The rules of the grammar in `forEachRule` order. */
  function AllRules(keys: seq<string>, p: map<string, Dict<Rule>>): (r: seq<Rule>)
    requires forall k :: k in keys ==> k in p
    ensures forall i :: 0 <= i < |keys| ==> forall k :: k in p[keys[i]].values ==> p[keys[i]].values[k] in r
    decreases |keys|
  {
    if |keys| == 0 then []
    else
      var rest := AllRules(keys[1..], p);
      assert forall i :: 1 <= i < |keys| ==> keys[i] == keys[1..][i - 1];
      Values(p[keys[0]]) + rest
  }

  /** `forEachRule`: rules group by group until the callback returns false. */
  function ForEachRule(g: Grammar, go: Rule -> bool): (r: seq<Rule>)
    ensures r <= AllRules(g.p.keys, g.p.values)
  {
    VisitUntil(AllRules(g.p.keys, g.p.values), go)
  }

  /** `forEachRuleWithLeft`: the rules of one left side until the callback
      returns false; nothing when there are none. */
  function ForEachRuleWithLeft(g: Grammar, left: string, go: Rule -> bool): (r: seq<Rule>)
    ensures left !in g.p.values ==> r == []
    ensures forall x :: x in r ==> x in g.p.values[left].values.Values
  {
    if left in g.p.values then VisitUntil(Values(g.p.values[left]), go) else []
  }

  /** `forEachSymbol`: the nonterminal walk, then the terminal walk, each
      stopping on its own. */
  function ForEachSymbol(g: Grammar, go: string -> bool): (r: seq<string>)
    requires g.start in g.n.values
    ensures forall x :: x in r ==> x in g.n.values || x in g.t.values
  {
    VisitUntil(NonterminalOrder(g), go) + VisitUntil(g.t.keys, go)
  }

  // ----- counts -----

  /** `getRuleCountForLeft(left)`. */
  function RuleCountForLeft(g: Grammar, left: string): (r: nat)
    ensures left in g.p.values ==> r == |g.p.values[left].values|
    ensures left !in g.p.values ==> r == 0
  {
    if left in g.p.values then Count(g.p.values[left]) else 0
  }

  /** `getAnyRuleForLeft(left)`: a rule with that left side, if any. */
  function AnyRuleForLeft(g: Grammar, left: string): (r: Option<Rule>)
    ensures r.Some? <==> RuleCountForLeft(g, left) > 0
    ensures r.Some? ==> r.value in g.p.values[left].values.Values
  {
    if left in g.p.values then AnyValue(g.p.values[left]) else None
  }

  /** `Grammar.tryCreate`: the start text must be nonempty; the constructor
      decides the rest. */
  function TryCreate(d: GrammarData): (r: Result<Grammar>)
    ensures r.Success? <==> Init(d).Success?
    ensures r.Success? ==> r == Init(d)
  {
    var s := if d.ObjectForm? then d.obj.s else d.arr.s;
    if s == "" then
      assert ReadData(d).Some? ==> ReadData(d).value.s == "";
      Failure("bad Grammar check")
    else Init(d)
  }

  // ----- fresh names -----

  /** desired followed by k copies of "/0". */
  function Suffixed(desired: string, k: nat): (r: string)
    ensures |r| == |desired| + 2 * k
  {
    if k == 0 then desired else Suffixed(desired, k - 1) + "/0"
  }

  function LongNames(used: set<string>, len: nat): set<string> {
    set x | x in used && |x| >= len
  }

  /** The least number of "/0" suffixes, from k on, that makes desired unused. */
  function FreshSuffix(desired: string, used: set<string>, k: nat): (r: nat)
    requires forall j :: 0 <= j < k ==> Suffixed(desired, j) in used
    ensures k <= r && Suffixed(desired, r) !in used
    ensures forall j :: 0 <= j < r ==> Suffixed(desired, j) in used
    decreases |LongNames(used, |Suffixed(desired, k)|)|
  {
    if Suffixed(desired, k) in used then
      var cur := Suffixed(desired, k);
      assert LongNames(used, |Suffixed(desired, k + 1)|) < LongNames(used, |cur|) by {
        assert cur in LongNames(used, |cur|) && cur !in LongNames(used, |Suffixed(desired, k + 1)|);
      }
      StrictSubsetSmaller(LongNames(used, |Suffixed(desired, k + 1)|), LongNames(used, |cur|));
      FreshSuffix(desired, used, k + 1)
    else k
  }

  lemma StrictSubsetSmaller<T>(a: set<T>, b: set<T>)
    requires a < b
    ensures |a| < |b|
  {
    assert b == a + (b - a);
    var x :| x in b - a;
  }

  /** `makeUpNewNonterminalName(desired, used)`: desired with as few "/0"
      suffixes as make it unused. */
  function MakeUpName(desired: string, used: set<string>): (r: string)
    ensures r !in used
    ensures exists k: nat :: r == Suffixed(desired, k) && forall j :: 0 <= j < k ==> Suffixed(desired, j) in used
  {
    var k := FreshSuffix(desired, used, 0);
    Suffixed(desired, k)
  }

  /** Without a set of used names the grammar's own symbols, and the end
      marker, count as used. */
  function SymbolTexts(g: Grammar): (r: set<string>)
    ensures forall x :: x in r <==> TryGetSymbol(g, x).Some?
  {
    g.n.values.Keys + g.t.values.Keys + {EndMarkerText}
  }

  // ----- enumeration -----

  function Min(a: nat, b: nat): nat { if a < b then a else b }

  /** The zero padding: as many zeros as the count has digits, at most ten. */
  function Padding(count: nat): (z: string)
    ensures AllZeros(z) && |z| <= 10
  {
    "0000000000"[..Min(|NatToString(count)|, 10)]
  }

  /** The i-th enumerated name: "N/" followed by i, padded on the left with
      zeros up to the width of the count. */
  function EnumName(i: nat, count: nat): (s: string)
    ensures |s| > 2 && s[..2] == "N/"
  {
    var pad := Padding(count);
    var d := NatToString(i);
    "N/" + pad[Min(|d|, |pad|)..] + d
  }

  /** An enumerated name is a valid nonterminal text. */
  lemma EnumNameIsNonterminal(i: nat, count: nat)
    ensures ValidText(EnumName(i, count), false)
  {
    var s := EnumName(i, count);
    var pad := Padding(count);
    var z := pad[Min(|NatToString(i)|, |pad|)..];
    var tail := s[2..];
    assert tail == z + NatToString(i);
    ZerosThenDigits(z, NatToString(i));
    forall j | 0 <= j < |s| ensures SymbolChar(s[j]) {
      if j >= 2 {
        assert s[j] == tail[j - 2];
        assert IsDigit(tail[j - 2]);
      }
    }
  }

  lemma ZerosThenDigits(z: string, d: string)
    requires AllZeros(z) && AllDigits(d)
    ensures AllDigits(z + d)
  {
    forall k | 0 <= k < |z + d| ensures IsDigit((z + d)[k]) {
      if k < |z| {
        assert (z + d)[k] == z[k];
      } else {
        assert (z + d)[k] == d[k - |z|];
      }
    }
  }

  /** The number an enumerated name stands for reads back from its text
      after "N/": leading zeros do not count. */
  lemma EnumNameNumber(i: nat, count: nat)
    ensures AllDigits(EnumName(i, count)[2..]) && ParseNat(EnumName(i, count)[2..]) == i
  {
    var pad := Padding(count);
    var z := pad[Min(|NatToString(i)|, |pad|)..];
    assert EnumName(i, count)[2..] == z + NatToString(i);
    ParseNatLeadingZeros(z, NatToString(i));
    ParseNatToString(i);
  }

  /** Different numbers get different names. */
  lemma EnumNameInjective(i: nat, j: nat, count: nat)
    requires EnumName(i, count) == EnumName(j, count)
    ensures i == j
  {
    EnumNameNumber(i, count);
    EnumNameNumber(j, count);
  }

  /** The first m enumerated names. */
  function EnumNames(count: nat, m: nat): (r: seq<string>)
    ensures |r| == m && Distinct(r)
    ensures forall j :: 0 <= j < m ==> r[j] == EnumName(j + 1, count)
  {
    var r := seq(m, j requires 0 <= j < m => EnumName(j + 1, count));
    EnumNamesDistinct(r, count);
    r
  }

  lemma EnumNamesDistinct(r: seq<string>, count: nat)
    requires forall j :: 0 <= j < |r| ==> r[j] == EnumName(j + 1, count)
    ensures Distinct(r)
  {
    forall i, j | 0 <= i < j < |r| ensures r[i] != r[j] {
      EnumNamesDiffer(i + 1, j + 1, count);
    }
  }

  lemma EnumNamesDiffer(i: nat, j: nat, count: nat)
    requires i != j
    ensures EnumName(i, count) != EnumName(j, count)
  {
    if EnumName(i, count) == EnumName(j, count) {
      EnumNameInjective(i, j, count);
    }
  }

  /** The map sending each of xs to the element of ys at the same position. */
  function Zip(xs: seq<string>, ys: seq<string>): (f: map<string, string>)
    requires Distinct(xs) && |xs| == |ys|
    ensures forall j :: 0 <= j < |xs| ==> xs[j] in f && f[xs[j]] == ys[j]
    ensures forall x :: x in f ==> x in xs
  {
    map j | 0 <= j < |xs| :: xs[j] := ys[j]
  }

  /** The outcome of `enumerateNonterminals`: the grammar afterwards and the
      object mapping each new name to the old one. */
  datatype Enumeration = Enumeration(grammar: Grammar, mapping: Dict<string>)

  /** Enumeration along a given visiting order: the j-th visited nonterminal
      gets the (j+1)-th name; with onlyPrepare the grammar is left alone. */
  function EnumerateAlong(g: Grammar, order: seq<string>, onlyPrepare: bool): (r: Enumeration)
    requires Distinct(order)
    ensures r.mapping.keys == EnumNames(|g.n.keys|, |order|)
    ensures forall j :: 0 <= j < |order| ==> r.mapping.keys[j] in r.mapping.values && r.mapping.values[r.mapping.keys[j]] == order[j]
    ensures onlyPrepare ==> r.grammar == g
  {
    var names := EnumNames(|g.n.keys|, |order|);
    var mapping := RawDict(names, Zip(names, order));
    if onlyPrepare then Enumeration(g, mapping)
    else Enumeration(Rehash(g, Renaming(Zip(order, names), map[])), mapping)
  }

  /** `enumerateNonterminals(onlyPrepare)` as written: the walk compares the
      other nonterminals with the start symbol's text after the start
      symbol has already been renamed, so a nonterminal that already reads
      like the first name is skipped. */
  function EnumerateAsWritten(g: Grammar, onlyPrepare: bool): (r: Enumeration)
    ensures onlyPrepare ==> r.grammar == g
  {
    var x := if onlyPrepare then g.start else EnumName(1, |g.n.keys|);
    var order := ForEachNonterminalOrder(g, x);
    assert Distinct(order) by {
      assert Distinct(Without(Without(g.n.keys, g.start), x));
      assert g.start !in Without(Without(g.n.keys, g.start), x);
    }
    EnumerateAlong(g, order, onlyPrepare)
  }

  /** The renaming `enumerateNonterminals` applies, with every nonterminal
      visited. */
  function EnumRenaming(g: Grammar): (f: map<string, string>)
    requires g.start in g.n.values
    ensures forall k :: k in g.n.values ==> k in f
  {
    var order := NonterminalOrder(g);
    Zip(order, EnumNames(|g.n.keys|, |order|))
  }

  /** `enumerateNonterminals(onlyPrepare)` with every nonterminal visited. */
  function Enumerate(g: Grammar, onlyPrepare: bool): (r: Enumeration)
    requires g.start in g.n.values
    ensures onlyPrepare ==> r.grammar == g
    ensures !onlyPrepare ==> r.grammar == Rehash(g, Renaming(EnumRenaming(g), map[]))
    ensures r.mapping.keys == EnumNames(|g.n.keys|, |g.n.keys|)
  {
    EnumerateAlong(g, NonterminalOrder(g), onlyPrepare)
  }

  /** After enumeration every nonterminal survives under its own new name,
      the start symbol is the first name, and the mapping leads each new
      name back to the old one. */
  lemma EnumerateRenamesAll(g: Grammar, k: string)
    requires Valid(g) && k in g.n.values
    ensures var r := Enumerate(g, false); var f := EnumRenaming(g);
            && r.grammar.start == EnumName(1, |g.n.keys|)
            && |r.grammar.n.keys| == |g.n.keys|
            && f[k] in r.grammar.n.values && r.grammar.n.values[f[k]] == g.n.values[k]
            && f[k] in r.mapping.values && r.mapping.values[f[k]] == k
  {
    EnumRenamingApart(g);
    EnumerateShape(g);
    EnumerateKeeps(g, k);
    var j :| 0 <= j < |NonterminalOrder(g)| && NonterminalOrder(g)[j] == k;
    EnumRenamingAt(g, j);
  }

  /** The enumeration renames the nonterminals apart. */
  lemma EnumRenamingApart(g: Grammar)
    requires g.start in g.n.values
    ensures Distinct(RenameAll(EnumRenaming(g), g.n.keys))
  {
    var order := NonterminalOrder(g);
    RenameAlongOrder(g.n.keys, order, EnumNames(|g.n.keys|, |order|));
  }

  /** After enumeration the start symbol is the first name and there are as
      many nonterminals as before. */
  lemma EnumerateShape(g: Grammar)
    requires g.start in g.n.values && Distinct(RenameAll(EnumRenaming(g), g.n.keys))
    ensures Enumerate(g, false).grammar.start == EnumName(1, |g.n.keys|)
    ensures |Enumerate(g, false).grammar.n.keys| == |g.n.keys|
  {
    var f := EnumRenaming(g);
    RehashAlphabetInjective(g.n.keys, g.n.values, f);
    RehashAlphabetOf(g, Renaming(f, map[]));
    EnumStartName(g);
  }

  /** After enumeration a nonterminal is present under its new name, with
      its old tag. */
  lemma EnumerateKeeps(g: Grammar, k: string)
    requires g.start in g.n.values && k in g.n.values && Distinct(RenameAll(EnumRenaming(g), g.n.keys))
    ensures var f := EnumRenaming(g); var n := Enumerate(g, false).grammar.n;
            f[k] in n.values && n.values[f[k]] == g.n.values[k]
  {
    var f := EnumRenaming(g);
    RehashAlphabetInjective(g.n.keys, g.n.values, f);
    RehashAlphabetOf(g, Renaming(f, map[]));
    var i :| 0 <= i < |g.n.keys| && g.n.keys[i] == k;
    assert RenameAll(f, g.n.keys)[i] == f[k];
  }

  /** The nonterminals after a rehash are the rebuilt alphabet, re-sorted. */
  lemma RehashAlphabetOf(g: Grammar, ren: Renaming)
    ensures Rehash(g, ren).n.values == RehashAlphabet(g.n.keys, g.n.values, ren.nt).values
    ensures |Rehash(g, ren).n.keys| == |RehashAlphabet(g.n.keys, g.n.values, ren.nt).keys|
  {
    var n := RehashAlphabet(g.n.keys, g.n.values, ren.nt);
    var s := SortObjectKeys(n, RehashOrder(RenameText(ren.nt, g.start)));
    assert |s.keys| == |multiset(s.keys)| == |multiset(n.keys)| == |n.keys|;
  }

  /** The start symbol gets the first name. */
  lemma EnumStartName(g: Grammar)
    requires g.start in g.n.values
    ensures EnumRenaming(g)[g.start] == EnumName(1, |g.n.keys|)
  {
    assert NonterminalOrder(g)[0] == g.start;
  }

  /** The j-th visited nonterminal gets the j-th name of the mapping, which
      leads back to it. */
  lemma EnumRenamingAt(g: Grammar, j: nat)
    requires g.start in g.n.values && j < |g.n.keys|
    ensures var f := EnumRenaming(g); var k := NonterminalOrder(g)[j]; var m := Enumerate(g, false).mapping;
            && f[k] == m.keys[j] && m.keys[j] in m.values && m.values[m.keys[j]] == k
  {
  }

  /** Renaming a permutation of the keys to distinct names keeps the keys
      apart. */
  lemma RenameAlongOrder(keys: seq<string>, order: seq<string>, names: seq<string>)
    requires Distinct(order) && Distinct(names) && |order| == |names|
    requires forall k :: k in keys ==> k in order
    requires Distinct(keys)
    ensures Distinct(RenameAll(Zip(order, names), keys))
  {
    var f := Zip(order, names);
    var r := RenameAll(f, keys);
    forall a, b | 0 <= a < b < |r| ensures r[a] != r[b] {
      assert keys[a] in keys && keys[b] in keys;
      var i :| 0 <= i < |order| && order[i] == keys[a];
      var j :| 0 <= j < |order| && order[j] == keys[b];
      assert r[a] == names[i] && r[b] == names[j];
    }
  }

  /** Preparing only gives the mapping the full enumeration would use. */
  lemma EnumeratePrepareAgrees(g: Grammar)
    requires g.start in g.n.values
    ensures Enumerate(g, true).mapping == Enumerate(g, false).mapping
    ensures Enumerate(g, true).grammar == g
  {
  }

  /** The grammar with nonterminals S (the start symbol) and N/1 and no rules. */
  function SkipExample(): (g: Grammar)
    ensures Valid(g) && |g.n.keys| == 2
  {
    var g := Grammar(RawDict(["S", "N/1"], map["S" := NONE, "N/1" := NONE]), Empty(), Empty(), "S");
    assert ValidText("N/1", false) by { assert SymbolChar("N/1"[1]); }
    g
  }

  /** As written, enumerating S, N/1 renames S to N/1 and skips the old N/1:
      the two now share a text and one nonterminal is lost, and the mapping
      no longer mentions the old N/1. */
  lemma EnumerateAsWrittenLosesNonterminal()
    ensures var g := SkipExample();
            var r := EnumerateAsWritten(g, false);
            && |r.grammar.n.keys| == 1 < |g.n.keys|
            && r.mapping.keys == ["N/1"] && r.mapping.values["N/1"] == "S"
  {
    var g := SkipExample();
    SkipExampleOrder();
    var f := map["S" := "N/1"];
    SkipExampleAlphabet(f);
    RehashAlphabetOf(g, Renaming(f, map[]));
  }

  /** The walk of the example visits only S, and S gets the first name. */
  lemma SkipExampleOrder()
    ensures var g := SkipExample();
            && EnumName(1, |g.n.keys|) == "N/1"
            && ForEachNonterminalOrder(g, "N/1") == ["S"]
            && EnumNames(2, 1) == ["N/1"]
            && Zip(["S"], ["N/1"]) == map["S" := "N/1"]
  {
    var g := SkipExample();
    assert EnumName(1, 2) == "N/1";
    assert Without(g.n.keys, "S") == ["N/1"];
    assert Without(["N/1"], "N/1") == [];
  }

  /** Renaming S to N/1 merges the two entries of the example's alphabet. */
  lemma SkipExampleAlphabet(f: map<string, string>)
    requires f == map["S" := "N/1"]
    ensures RehashAlphabet(SkipExample().n.keys, SkipExample().n.values, f).keys == ["N/1"]
  {
    var g := SkipExample();
    assert g.n.keys[..1] == ["S"];
    assert RehashAlphabet(["S"], g.n.values, f).keys == ["N/1"];
  }

  /** Visiting every nonterminal, the same grammar keeps both. */
  lemma EnumerateKeepsExample()
    ensures |Enumerate(SkipExample(), false).grammar.n.keys| == 2
  {
    var g := SkipExample();
    EnumerateRenamesAll(g, "S");
  }

  // ----- unenumeration -----

  /** `m[k]` is truthy: present and not the empty string. */
  predicate Mapped(m: map<string, string>, k: string) {
    k in m && m[k] != ""
  }

  /** The text the start symbol has once the walk's first callback renamed it
      by m; in the corrected walk the comparison uses the old text. */
  function StartTextAfter(g: Grammar, m: map<string, string>, asWritten: bool): string {
    if asWritten && Mapped(m, g.start) then m[g.start] else g.start
  }

  /** The visited keys that m maps, in order. */
  function MappedKeys(order: seq<string>, m: map<string, string>): (r: seq<string>)
    ensures forall k :: k in r <==> k in order && Mapped(m, k)
    ensures Distinct(order) ==> Distinct(r)
    decreases |order|
  {
    if |order| == 0 then []
    else
      var rest := MappedKeys(order[1..], m);
      assert forall k :: k in order <==> k == order[0] || k in order[1..];
      if Mapped(m, order[0]) then [order[0]] + rest else rest
  }

  /** The visited keys that m does not map, in order (`restOf`). */
  function UnmappedKeys(order: seq<string>, m: map<string, string>): (r: seq<string>)
    ensures forall k :: k in r <==> k in order && !Mapped(m, k)
    ensures Distinct(order) ==> Distinct(r)
    decreases |order|
  {
    if |order| == 0 then []
    else
      var rest := UnmappedKeys(order[1..], m);
      assert forall k :: k in order <==> k == order[0] || k in order[1..];
      if Mapped(m, order[0]) then rest else [order[0]] + rest
  }

  /** m restricted to the given keys. */
  function MapOn(m: map<string, string>, keys: seq<string>): (f: map<string, string>)
    requires forall k :: k in keys ==> k in m
    ensures forall k :: k in f <==> k in keys
    ensures forall k :: k in f ==> f[k] == m[k]
  {
    map k | k in keys :: m[k]
  }

  /** Every mapped key is renamed to a valid nonterminal text. */
  predicate RenamesValid(keys: seq<string>, m: map<string, string>)
    requires forall k :: k in keys ==> k in m
  {
    forall k :: k in keys ==> ValidText(m[k], false)
  }

  /** The first pass of `unenumerateNonterminals`: the nonterminals the
      auxiliary mapping names are renamed, then the grammar is rehashed; a
      rename to an invalid text raises an error. */
  function AuxiliaryPass(g: Grammar, aux: map<string, string>, asWritten: bool): (r: Result<Grammar>)
    ensures r.Success? <==> RenamesValid(MappedKeys(ForEachNonterminalOrder(g, StartTextAfter(g, aux, asWritten)), aux), aux)
  {
    var moved := MappedKeys(ForEachNonterminalOrder(g, StartTextAfter(g, aux, asWritten)), aux);
    if !RenamesValid(moved, aux) then Failure("bad renaming of symbol")
    else Success(Rehash(g, Renaming(MapOn(aux, moved), map[])))
  }

  /** Fresh names for the remaining nonterminals, one after another, each
      avoiding the names taken so far. */
  function MakeUpAll(rest: seq<string>, used: set<string>): (names: seq<string>)
    ensures |names| == |rest| && Distinct(names)
    ensures forall i :: 0 <= i < |names| ==> names[i] !in used
    decreases |rest|
  {
    if |rest| == 0 then []
    else
      var n := MakeUpName(rest[0], used);
      var tail := MakeUpAll(rest[1..], used + {n});
      var names := [n] + tail;
      assert forall i :: 1 <= i < |names| ==> names[i] == tail[i - 1];
      names
  }

  /** The names the mapped nonterminals receive. */
  function UsedNames(mapped: seq<string>, m: map<string, string>): (u: set<string>)
    requires forall k :: k in mapped ==> k in m
    ensures forall k :: k in mapped ==> m[k] in u
  {
    set k | k in mapped :: m[k]
  }

  /** `unenumerateNonterminals(mapping, auxiliaryMapping)`: after the
      optional auxiliary pass, each nonterminal the mapping names takes its
      mapped name; the others keep their text with as many "/0" suffixes as
      keep them apart from the names given so far; then the grammar is
      rehashed. With asWritten the walks compare with the start symbol's
      new text, as the source does. */
  function Unenumerate(g: Grammar, mapping: map<string, string>, aux: Option<map<string, string>>,
                       asWritten: bool): (r: Result<Grammar>)
    ensures aux.None? ==>
              (r.Success? <==> RenamesValid(MappedKeys(ForEachNonterminalOrder(g, StartTextAfter(g, mapping, asWritten)), mapping), mapping))
  {
    var g1 :- if aux.Some? then AuxiliaryPass(g, aux.value, asWritten) else Success(g);
    var order := ForEachNonterminalOrder(g1, StartTextAfter(g1, mapping, asWritten));
    var mapped := MappedKeys(order, mapping);
    var rest := UnmappedKeys(order, mapping);
    if !RenamesValid(mapped, mapping) then Failure("bad renaming of symbol")
    else
      var names := MakeUpAll(rest, UsedNames(mapped, mapping));
      Success(Rehash(g1, Renaming(UnenumRenaming(mapping, mapped, rest, names), map[])))
  }

  function UnenumRenaming(mapping: map<string, string>, mapped: seq<string>, rest: seq<string>,
                          names: seq<string>): (f: map<string, string>)
    requires forall k :: k in mapped ==> k in mapping
    requires Distinct(rest) && |rest| == |names|
  {
    MapOn(mapping, mapped) + Zip(rest, names)
  }

  /** The mapping renames the nonterminals it names to valid, pairwise
      different texts. */
  predicate MappingInjective(g: Grammar, mapping: map<string, string>) {
    (forall k :: k in g.n.values && Mapped(mapping, k) ==> ValidText(mapping[k], false))
    && forall a, b :: a in g.n.values && b in g.n.values && a != b && Mapped(mapping, a) && Mapped(mapping, b)
                      ==> mapping[a] != mapping[b]
  }

  /** Under an injective mapping, unenumeration (visiting every nonterminal)
      succeeds, keeps the number of nonterminals, and gives every mapped
      nonterminal its mapped name. */
  lemma UnenumerateKeepsNonterminals(g: Grammar, mapping: map<string, string>)
    requires Valid(g) && MappingInjective(g, mapping)
    ensures Unenumerate(g, mapping, None, false).Success?
    ensures var r := Unenumerate(g, mapping, None, false).value;
            && |r.n.keys| == |g.n.keys|
            && forall k :: k in g.n.values && Mapped(mapping, k) ==> mapping[k] in r.n.values
  {
    var order := ForEachNonterminalOrder(g, g.start);
    assert order == NonterminalOrder(g);
    var mapped := MappedKeys(order, mapping);
    var rest := UnmappedKeys(order, mapping);
    var names := MakeUpAll(rest, UsedNames(mapped, mapping));
    var f := UnenumRenaming(mapping, mapped, rest, names);
    assert RenamesValid(mapped, mapping);
    assert Unenumerate(g, mapping, None, false) == Success(Rehash(g, Renaming(f, map[])));
    UnenumRenamingApart(g, mapping, order, mapped, rest, names);
    RenamedKeepsNonterminals(g, mapping, mapped, f);
  }

  /** A renaming that keeps the nonterminals apart and follows the mapping
      on the mapped ones keeps their number and gives each its mapped name. */
  lemma RenamedKeepsNonterminals(g: Grammar, mapping: map<string, string>, mapped: seq<string>,
                                 f: map<string, string>)
    requires Valid(g) && Distinct(RenameAll(f, g.n.keys))
    requires forall k :: k in mapped <==> k in g.n.values && Mapped(mapping, k)
    requires forall k :: k in mapped ==> k in mapping && k in f && f[k] == mapping[k]
    ensures var r := Rehash(g, Renaming(f, map[]));
            && |r.n.keys| == |g.n.keys|
            && forall k :: k in g.n.values && Mapped(mapping, k) ==> mapping[k] in r.n.values
  {
    RehashAlphabetInjective(g.n.keys, g.n.values, f);
    RehashAlphabetOf(g, Renaming(f, map[]));
    var n := RehashAlphabet(g.n.keys, g.n.values, f);
    forall k | k in g.n.values && Mapped(mapping, k) ensures mapping[k] in n.values {
      var i :| 0 <= i < |g.n.keys| && g.n.keys[i] == k;
      assert RenameAll(f, g.n.keys)[i] == mapping[k];
    }
  }

  /** The renaming of unenumeration keeps the nonterminals apart: mapped
      names by injectivity, made-up names because they avoid the mapped
      ones and each other. */
  lemma UnenumRenamingApart(g: Grammar, mapping: map<string, string>, order: seq<string>,
                            mapped: seq<string>, rest: seq<string>, names: seq<string>)
    requires Valid(g) && MappingInjective(g, mapping)
    requires order == NonterminalOrder(g)
    requires mapped == MappedKeys(order, mapping) && rest == UnmappedKeys(order, mapping)
    requires names == MakeUpAll(rest, UsedNames(mapped, mapping))
    ensures Distinct(RenameAll(UnenumRenaming(mapping, mapped, rest, names), g.n.keys))
  {
    var f := UnenumRenaming(mapping, mapped, rest, names);
    var r := RenameAll(f, g.n.keys);
    var used := UsedNames(mapped, mapping);
    assert forall i, k :: 0 <= i < |names| && k in mapped ==> names[i] != mapping[k] by {
      forall i, k | 0 <= i < |names| && k in mapped ensures names[i] != mapping[k] {
        assert mapping[k] in used && names[i] !in used;
      }
    }
    forall a, b | 0 <= a < b < |r| ensures r[a] != r[b] {
      var x, y := g.n.keys[a], g.n.keys[b];
      assert x in g.n.values && y in g.n.values && x != y;
      UnenumRenamedApart(mapping, mapped, rest, names, x, y);
    }
  }

  /** Two different nonterminals, each either mapped or remaining, get
      different names. */
  lemma UnenumRenamedApart(mapping: map<string, string>, mapped: seq<string>, rest: seq<string>,
                           names: seq<string>, x: string, y: string)
    requires forall k :: k in mapped ==> k in mapping
    requires Distinct(rest) && |rest| == |names| && Distinct(names)
    requires forall i, k :: 0 <= i < |names| && k in mapped ==> names[i] != mapping[k]
    requires x != y
    requires (x in mapped) != (x in rest) && (y in mapped) != (y in rest)
    requires x in mapped && y in mapped ==> mapping[x] != mapping[y]
    ensures var f := UnenumRenaming(mapping, mapped, rest, names); RenameText(f, x) != RenameText(f, y)
  {
    if x in mapped && y in mapped {
      UnenumRenamingMapped(mapping, mapped, rest, names, x);
      UnenumRenamingMapped(mapping, mapped, rest, names, y);
    } else if x in mapped {
      var j := UnenumRenamingRest(mapping, mapped, rest, names, y);
      UnenumRenamingMapped(mapping, mapped, rest, names, x);
    } else if y in mapped {
      var i := UnenumRenamingRest(mapping, mapped, rest, names, x);
      UnenumRenamingMapped(mapping, mapped, rest, names, y);
    } else {
      var i := UnenumRenamingRest(mapping, mapped, rest, names, x);
      var j := UnenumRenamingRest(mapping, mapped, rest, names, y);
    }
  }

  /** A mapped nonterminal takes its mapped name. */
  lemma UnenumRenamingMapped(mapping: map<string, string>, mapped: seq<string>, rest: seq<string>,
                             names: seq<string>, x: string)
    requires forall k :: k in mapped ==> k in mapping
    requires Distinct(rest) && |rest| == |names|
    requires x in mapped && x !in rest
    ensures RenameText(UnenumRenaming(mapping, mapped, rest, names), x) == mapping[x]
  {
  }

  /** A remaining nonterminal takes the name made up at its position. */
  lemma UnenumRenamingRest(mapping: map<string, string>, mapped: seq<string>, rest: seq<string>,
                           names: seq<string>, x: string) returns (i: nat)
    requires forall k :: k in mapped ==> k in mapping
    requires Distinct(rest) && |rest| == |names|
    requires x in rest
    ensures i < |rest| && rest[i] == x
    ensures RenameText(UnenumRenaming(mapping, mapped, rest, names), x) == names[i]
  {
    i :| 0 <= i < |rest| && rest[i] == x;
  }

  /** The grammar with nonterminals S (the start symbol) and A and no rules. */
  function RestoreExample(): (g: Grammar)
    ensures Valid(g) && |g.n.keys| == 2
  {
    Grammar(RawDict(["S", "A"], map["S" := NONE, "A" := NONE]), Empty(), Empty(), "S")
  }

  /** As written, restoring S to the name A skips the old A, which keeps its
      text: the two merge and one nonterminal is lost. */
  lemma UnenumerateAsWrittenLosesNonterminal()
    ensures var r := Unenumerate(RestoreExample(), map["S" := "A"], None, true);
            r.Success? && |r.value.n.keys| == 1
  {
    var g := RestoreExample();
    var m := map["S" := "A"];
    RestoreExampleOrder();
    assert ValidText("A", false);
    var f := map["S" := "A"];
    UnenumerateAllMapped(g, m, true, ["S"], f);
    RestoreExampleAlphabet(f);
    RehashAlphabetOf(g, Renaming(f, map[]));
  }

  /** Without an auxiliary mapping, when the mapping names every visited
      nonterminal with a valid text, `unenumerate` renames by the mapping
      alone. */
  lemma UnenumerateAllMapped(g: Grammar, m: map<string, string>, asWritten: bool, mapped: seq<string>,
                             f: map<string, string>)
    requires var order := ForEachNonterminalOrder(g, StartTextAfter(g, m, asWritten));
             MappedKeys(order, m) == mapped && UnmappedKeys(order, m) == []
    requires forall k :: k in mapped ==> k in m && ValidText(m[k], false)
    requires f == MapOn(m, mapped)
    ensures Unenumerate(g, m, None, asWritten) == Success(Rehash(g, Renaming(f, map[])))
  {
    var names := MakeUpAll([], UsedNames(mapped, m));
    assert Zip([], names) == map[];
    assert UnenumRenaming(m, mapped, [], names) == f;
  }

  lemma RestoreExampleOrder()
    ensures var g := RestoreExample(); var m := map["S" := "A"];
            && ForEachNonterminalOrder(g, StartTextAfter(g, m, true)) == ["S"]
            && MappedKeys(["S"], m) == ["S"] && UnmappedKeys(["S"], m) == []
  {
    var g := RestoreExample();
    assert Without(g.n.keys, "S") == ["A"];
    assert Without(["A"], "A") == [];
  }

  lemma RestoreExampleAlphabet(f: map<string, string>)
    requires f == map["S" := "A"]
    ensures RehashAlphabet(RestoreExample().n.keys, RestoreExample().n.values, f).keys == ["A"]
  {
    var g := RestoreExample();
    assert g.n.keys[..1] == ["S"];
    assert RehashAlphabet(["S"], g.n.values, f).keys == ["A"];
  }

  /** Visiting every nonterminal, the old A is renamed to A/0 and both stay. */
  lemma UnenumerateKeepsExample()
    ensures var r := Unenumerate(RestoreExample(), map["S" := "A"], None, false);
            r.Success? && |r.value.n.keys| == 2
  {
    var m := map["S" := "A"];
    assert ValidText("A", false);
    UnenumerateKeepsNonterminals(RestoreExample(), m);
  }
}

=== FILE: highlight.dfy ===
/** Highlight tags: a closed enumeration with a decay step and a precedence
    rule. Every deferred edit of a conversion step is expressed by tagging an
    entity, and finalizing a step decays the tags. */
module Highlights {
  import opened Wrappers

  /** The tags in declaration order; a tag's `value` is its position. */
  datatype Highlight =
    | NONE | NEW | DUPLICATE | REMOVED | REPLACED | ATT_TEMP
    | ATT_PERS | ATT_NEW | ATT_OLD | SPECIAL_PERS | SPECIAL_TEMP

  /** How a tag evolves when a step is finalized. */
  datatype DecayType = Temporary | Persistent | ToNext

  /** The registration list `Highlight._list`. */
  const Declared: seq<Highlight> :=
    [NONE, NEW, DUPLICATE, REMOVED, REPLACED, ATT_TEMP,
     ATT_PERS, ATT_NEW, ATT_OLD, SPECIAL_PERS, SPECIAL_TEMP]

  function Value(h: Highlight): (v: nat)
    ensures v < |Declared| && Declared[v] == h
  {
    match h
    case NONE => 0
    case NEW => 1
    case DUPLICATE => 2
    case REMOVED => 3
    case REPLACED => 4
    case ATT_TEMP => 5
    case ATT_PERS => 6
    case ATT_NEW => 7
    case ATT_OLD => 8
    case SPECIAL_PERS => 9
    case SPECIAL_TEMP => 10
  }

  function DecayTypeOf(h: Highlight): DecayType {
    match h
    case NONE => Persistent
    case NEW => Temporary
    case DUPLICATE => Temporary
    case REMOVED => Temporary
    case REPLACED => Temporary
    case ATT_TEMP => Temporary
    case ATT_PERS => Persistent
    case ATT_NEW => ToNext
    case ATT_OLD => Persistent
    case SPECIAL_PERS => Persistent
    case SPECIAL_TEMP => Temporary
  }

  /** `Highlight.get(n)`: the n-th declared tag, absent (undefined) outside
      the declared range. */
  function Get(n: int): (r: Option<Highlight>)
    ensures r.Some? <==> 0 <= n < |Declared|
    ensures r.Some? ==> Value(r.value) == n
  {
    if 0 <= n < |Declared| then
      var h := Declared[n];
      assert Value(h) == n by {
        assert Declared[Value(h)] == h;
      }
      Some(h)
    else None
  }

  /** A data value read back into a tag, as `new Symbol(text, Highlight.get(v))`
      does: an undefined tag becomes NONE through `highlight || Highlight.NONE`. */
  function FromValue(v: int): (h: Highlight)
    ensures 0 <= v < |Declared| ==> Value(h) == v
    ensures !(0 <= v < |Declared|) ==> h == NONE
  {
    Get(v).GetOr(NONE)
  }

  /** The tag that follows a finalized step. */
  function Decay(h: Highlight): (r: Highlight)
    ensures DecayTypeOf(r) == Persistent
    ensures DecayTypeOf(h) == Temporary ==> r == NONE
    ensures DecayTypeOf(h) == Persistent ==> r == h
    ensures h == ATT_NEW ==> r == ATT_OLD
  {
    match DecayTypeOf(h)
    case Temporary => NONE
    case Persistent => h
    case ToNext => Get(Value(h) + 1).GetOr(NONE)
  }

  /** Precedence of tags: `original` is the current tag, `intended` the tag
      a step asks for; `None` stands for an argument that is not a Highlight. */
  function WhichShouldStay(original: Highlight, intended: Option<Highlight>): (r: Highlight)
    ensures r == original || intended == Some(r)
  {
    if intended.None? then original
    else if original == REMOVED then original
    else if intended.value == NONE then intended.value
    else if original == NEW && intended.value != REPLACED && intended.value != ATT_NEW then original
    else intended.value
  }

  /** Asking for a tag through the precedence rule. */
  function Apply(original: Highlight, intended: Highlight): Highlight {
    WhichShouldStay(original, Some(intended))
  }

  lemma ValuesAreDeclarationOrder(h: Highlight)
    ensures Get(Value(h)) == Some(h)
    ensures forall g: Highlight :: Value(g) == Value(h) ==> g == h
  {
  }

  lemma DecayIdempotent(h: Highlight)
    ensures Decay(Decay(h)) == Decay(h)
  {
  }

  lemma DecayOnlyToNextMoves(h: Highlight)
    ensures Decay(h) != NONE && Decay(h) != h ==> h == ATT_NEW
  {
  }

  lemma NotAHighlightKeepsOriginal(original: Highlight)
    ensures WhichShouldStay(original, None) == original
  {
  }

  lemma RemovedIsAbsorbing(intended: Option<Highlight>)
    ensures WhichShouldStay(REMOVED, intended) == REMOVED
  {
  }

  lemma NoneWinsOverAllButRemoved(original: Highlight)
    ensures WhichShouldStay(original, Some(NONE)) == (if original == REMOVED then REMOVED else NONE)
  {
  }

  /** NEW resists every candidate except REPLACED, ATT_NEW and NONE; in every
      remaining case the candidate wins. */
  lemma NewResists(original: Highlight, intended: Highlight)
    requires original != REMOVED
    ensures Apply(original, intended) == original <==>
              (intended == original
               || (original == NEW && intended != REPLACED && intended != ATT_NEW && intended != NONE))
    ensures Apply(original, intended) != original ==> Apply(original, intended) == intended
  {
  }

  /** Asking twice for the same tag is the same as asking once. */
  lemma ApplyIdempotent(original: Highlight, intended: Highlight)
    ensures Apply(Apply(original, intended), intended) == Apply(original, intended)
  {
  }

  /** A tag re-applied to an entity that already had `original` does not
      change the outcome: a rule's right-hand word, which starts with the
      rule's tag and receives every resulting rule tag, keeps mirroring it. */
  lemma ApplyResultAbsorbs(original: Highlight, intended: Highlight)
    ensures Apply(original, Apply(original, intended)) == Apply(original, intended)
  {
  }

  /** Finalizing through the precedence rule is plain decay, except that
      REMOVED is kept. */
  lemma DecayThroughPrecedence(h: Highlight)
    ensures Apply(h, Decay(h)) == (if h == REMOVED then REMOVED else Decay(h))
  {
  }
}

=== FILE: left_recursion.dfy ===
/** `NoLeftRecursionForm.check` (js/grammar_forms/NoLeftRecursionForm.js):
    the graph with an edge N -> M for every rule N -> M ..., and Kahn's
    algorithm deciding whether it has a topological order. */
module LeftRecursion {
  import opened Wrappers
  import opened Objects
  import opened Symbols
  import opened Words
  import opened Rules
  import opened Grammars
  import opened GrammarEdits
  import opened FormChecks
  import opened ReducedForms

  /** The graph `check` builds: every nonterminal with its successors, in
      the order the rules add them, and its in-degree. */
  datatype Graph = Graph(nodes: seq<string>, succ: map<string, seq<string>>, indeg: map<string, int>)

  predicate Edge(G: Graph, a: string, b: string) {
    a in G.succ && b in G.succ[a]
  }

  function NodeSet(G: Graph): set<string> {
    set v | v in G.nodes
  }

  /** How many nodes of xs outside `gone` have an edge to b. */
  function InCount(G: Graph, xs: seq<string>, b: string, gone: set<string>): nat
    decreases |xs|
  {
    if |xs| == 0 then 0
    else (if xs[0] !in gone && Edge(G, xs[0], b) then 1 else 0) + InCount(G, xs[1..], b, gone)
  }

  /** Successor lists without repeats inside the node list, and each
      in-degree counting every distinct predecessor once. */
  ghost predicate WellFormedGraph(G: Graph) {
    Distinct(G.nodes)
    && (forall a :: a in G.succ <==> a in G.nodes)
    && (forall a :: a in G.indeg <==> a in G.nodes)
    && (forall a :: a in G.succ ==> Distinct(G.succ[a]))
    && (forall a, b :: Edge(G, a, b) ==> b in G.nodes)
    && forall b :: b in G.indeg ==> G.indeg[b] == InCount(G, G.nodes, b, {})
  }

  lemma {:induction false} InCountWitness(G: Graph, xs: seq<string>, b: string, gone: set<string>)
    requires InCount(G, xs, b, gone) > 0
    ensures exists a :: a in xs && a !in gone && Edge(G, a, b)
    decreases |xs|
  {
    if !(xs[0] !in gone && Edge(G, xs[0], b)) {
      InCountWitness(G, xs[1..], b, gone);
    }
  }

  lemma {:induction false} InCountAtLeast(G: Graph, xs: seq<string>, b: string, gone: set<string>, a: string)
    requires a in xs && a !in gone && Edge(G, a, b)
    ensures InCount(G, xs, b, gone) > 0
    decreases |xs|
  {
    if xs[0] != a {
      InCountAtLeast(G, xs[1..], b, gone, a);
    }
  }

  /** Taking one more node out of the count drops it by one exactly when
      that node has an edge to b. */
  lemma {:induction false} InCountRemove(G: Graph, xs: seq<string>, b: string, gone: set<string>, n: string)
    requires Distinct(xs) && n in xs && n !in gone
    ensures InCount(G, xs, b, gone + {n}) == InCount(G, xs, b, gone) - (if Edge(G, n, b) then 1 else 0)
    decreases |xs|
  {
    if xs[0] == n {
      assert n !in xs[1..];
      InCountSame(G, xs[1..], b, gone, n);
    } else {
      InCountRemove(G, xs[1..], b, gone, n);
    }
  }

  lemma {:induction false} InCountSame(G: Graph, xs: seq<string>, b: string, gone: set<string>, n: string)
    requires n !in xs
    ensures InCount(G, xs, b, gone + {n}) == InCount(G, xs, b, gone)
    decreases |xs|
  {
    if |xs| > 0 {
      InCountSame(G, xs[1..], b, gone, n);
    }
  }

  /** A new edge a -> b counts once towards b and nowhere else. */
  lemma {:induction false} InCountAdd(G: Graph, r: Graph, xs: seq<string>, a: string, b: string, c: string, gone: set<string>)
    requires forall x, y :: Edge(r, x, y) <==> Edge(G, x, y) || (x == a && y == b)
    requires !Edge(G, a, b) && Distinct(xs)
    ensures InCount(r, xs, c, gone) == InCount(G, xs, c, gone) + (if c == b && a in xs && a !in gone then 1 else 0)
    decreases |xs|
  {
    if |xs| > 0 {
      assert Distinct(xs[1..]) && (xs[0] == a ==> a !in xs[1..]);
      InCountAdd(G, r, xs[1..], a, b, c, gone);
    }
  }

  lemma {:induction false} InCountNone(G: Graph, xs: seq<string>, b: string, gone: set<string>)
    requires forall x :: !Edge(G, x, b)
    ensures InCount(G, xs, b, gone) == 0
    decreases |xs|
  {
    if |xs| > 0 {
      InCountNone(G, xs[1..], b, gone);
    }
  }

  // ---------------------------------------------------------------------
  // Building the graph

  /** The edge a rule induces: from its left side to its first symbol, when
      that is a nonterminal. */
  function EdgeOf(x: Rule): Option<(string, string)> {
    if |x.right| > 0 && !IsTerminal(x.right[0]) then Some((x.left, x.right[0].Text())) else None
  }

  function EmptyGraph(nodes: seq<string>): (G: Graph)
    requires Distinct(nodes)
    ensures WellFormedGraph(G) && G.nodes == nodes
    ensures forall a, b :: !Edge(G, a, b)
  {
    var G := Graph(nodes, map v | v in nodes :: [], map v | v in nodes :: 0);
    forall b ensures InCount(G, nodes, b, {}) == 0 {
      InCountNone(G, nodes, b, {});
    }
    G
  }

  /** Recording one edge: a repeated edge changes nothing, a new one is
      appended to the successors and counted once in the in-degree. */
  function AddEdge(G: Graph, a: string, b: string): (r: Graph)
    requires WellFormedGraph(G) && a in G.nodes && b in G.nodes
    ensures WellFormedGraph(r) && r.nodes == G.nodes
    ensures forall x, y :: Edge(r, x, y) <==> Edge(G, x, y) || (x == a && y == b)
  {
    if b in G.succ[a] then G
    else
      var r := G.(succ := G.succ[a := G.succ[a] + [b]], indeg := G.indeg[b := G.indeg[b] + 1]);
      NewEdgeCounted(G, r, a, b);
      r
  }

  lemma NewEdgeCounted(G: Graph, r: Graph, a: string, b: string)
    requires WellFormedGraph(G) && a in G.nodes && b in G.nodes && b !in G.succ[a]
    requires r == G.(succ := G.succ[a := G.succ[a] + [b]], indeg := G.indeg[b := G.indeg[b] + 1])
    ensures forall x, y :: Edge(r, x, y) <==> Edge(G, x, y) || (x == a && y == b)
    ensures WellFormedGraph(r)
  {
    NewEdgeEdges(G, r, a, b);
    forall c | c in r.indeg ensures r.indeg[c] == InCount(r, r.nodes, c, {}) {
      InCountAdd(G, r, G.nodes, a, b, c, {});
    }
  }

  lemma NewEdgeEdges(G: Graph, r: Graph, a: string, b: string)
    requires WellFormedGraph(G) && a in G.nodes && b in G.nodes && b !in G.succ[a]
    requires r == G.(succ := G.succ[a := G.succ[a] + [b]], indeg := G.indeg[b := G.indeg[b] + 1])
    ensures forall x, y :: Edge(r, x, y) <==> Edge(G, x, y) || (x == a && y == b)
    ensures forall x :: x in r.succ ==> Distinct(r.succ[x])
  {
  }

  /** The rule loop of `check`, in `forEachRule` order. */
  function AddEdges(G: Graph, rules: seq<Rule>): (r: Graph)
    requires WellFormedGraph(G)
    requires forall x :: x in rules && EdgeOf(x).Some? ==> EdgeOf(x).value.0 in G.nodes && EdgeOf(x).value.1 in G.nodes
    ensures WellFormedGraph(r) && r.nodes == G.nodes
    ensures forall a, b :: Edge(r, a, b) <==> Edge(G, a, b) || exists x :: x in rules && EdgeOf(x) == Some((a, b))
    decreases |rules|
  {
    if |rules| == 0 then G
    else
      var G1 := if EdgeOf(rules[0]).Some? then AddEdge(G, EdgeOf(rules[0]).value.0, EdgeOf(rules[0]).value.1) else G;
      assert forall x :: x in rules ==> x == rules[0] || x in rules[1..];
      AddEdges(G1, rules[1..])
  }

  /** In a valid grammar every induced edge joins two nonterminals. */
  lemma EdgesKnown(g: Grammar)
    requires Valid(g)
    ensures forall x :: x in RulesOf(g) && EdgeOf(x).Some? ==>
              EdgeOf(x).value.0 in g.n.values && EdgeOf(x).value.1 in g.n.values
  {
    LeftsKnown(g);
    MentionedKnown(g);
    forall x | x in RulesOf(g) && EdgeOf(x).Some?
      ensures EdgeOf(x).value.0 in g.n.values && EdgeOf(x).value.1 in g.n.values
    {
      assert x.left in Lefts(RulesOf(g));
      assert x.right[0].Text() in Mentioned(RulesOf(g));
    }
  }

  /** The graph of a valid grammar: its nonterminals in `forEachNonterminal`
      order, with an edge N -> M exactly when some rule N -> M ... exists. */
  function GraphOf(g: Grammar): (G: Graph)
    requires Valid(g)
    ensures WellFormedGraph(G)
    ensures forall v :: v in G.nodes <==> v in g.n.values
    ensures forall a, b :: Edge(G, a, b) <==> exists x :: x in RulesOf(g) && EdgeOf(x) == Some((a, b))
  {
    EdgesKnown(g);
    AddEdges(EmptyGraph(NonterminalOrder(g)), RulesOf(g))
  }

  // ---------------------------------------------------------------------
  // Kahn's algorithm

  /** A numbering of the nodes that every edge goes forward in. */
  ghost predicate TopoRank(G: Graph, rank: map<string, nat>) {
    (forall v :: v in G.nodes ==> v in rank)
    && forall a, b :: a in G.nodes && Edge(G, a, b) ==> b in rank && rank[a] < rank[b]
  }

  /** The graph has a topological order, which is to say no cycle. */
  ghost predicate Acyclic(G: Graph) {
    exists rank :: TopoRank(G, rank)
  }

  /** A node on a cycle of length one rules out every topological order. */
  lemma SelfLoopCyclic(G: Graph, n: string)
    requires n in G.nodes && Edge(G, n, n)
    ensures !Acyclic(G)
  {
    if Acyclic(G) {
      assert false;
    }
  }

  /** If every node left over still has a predecessor left over, no
      topological order exists: follow predecessors down the ranks. */
  lemma {:induction false} Stuck(G: Graph, rest: set<string>, rank: map<string, nat>, v: string)
    requires TopoRank(G, rank)
    requires forall u :: u in rest ==> exists a :: a in rest && a in G.nodes && Edge(G, a, u)
    requires v in rest && v in G.nodes
    ensures false
    decreases rank[v]
  {
    var a :| a in rest && a in G.nodes && Edge(G, a, v);
    Stuck(G, rest, rank, a);
  }

  /** The first loop: the nodes of in-degree 0, in node order. */
  method ZeroInDegree(G: Graph) returns (queue: seq<string>)
    requires WellFormedGraph(G)
    ensures Distinct(queue)
    ensures forall v :: v in queue <==> v in G.nodes && G.indeg[v] == 0
  {
    queue := [];
    var k := 0;
    while k < |G.nodes|
      invariant 0 <= k <= |G.nodes|
      invariant Distinct(queue)
      invariant forall v :: v in queue <==> v in G.nodes[..k] && G.indeg[v] == 0
    {
      var v := G.nodes[k];
      assert v !in G.nodes[..k];
      if G.indeg[v] == 0 {
        queue := queue + [v];
      }
      k := k + 1;
      assert G.nodes[..k] == G.nodes[..k - 1] + [v];
    }
    assert G.nodes[..k] == G.nodes;
  }

  /** What holds between two rounds of the main loop: `popped` are the
      nodes taken off the queue so far, numbered in that order by `rank`,
      and each in-degree counts the predecessors not yet taken off. */
  ghost predicate Round(G: Graph, indeg: map<string, int>, queue: seq<string>,
                        popped: set<string>, rank: map<string, nat>, count: nat) {
    Distinct(queue)
    && (forall v :: v in queue ==> v in G.nodes && v !in popped)
    && popped <= NodeSet(G)
    && (forall v :: v in G.nodes ==> v in indeg && indeg[v] == InCount(G, G.nodes, v, popped))
    && (forall v :: v in G.nodes ==> ((v in queue || v in popped) <==> indeg[v] == 0))
    && (forall v :: v in popped ==> v in rank && rank[v] < count)
    && (forall a, b :: a in popped && b in popped && Edge(G, a, b) ==> rank[a] < rank[b])
  }

  /** The inner loop for a node n just taken off the queue, over its
      successors ms in order: each in-degree drops by one, and those
      reaching 0 join the queue. */
  function Decrement(indeg: map<string, int>, queue: seq<string>, ms: seq<string>): (r: (map<string, int>, seq<string>))
    requires Distinct(ms) && Distinct(queue)
    requires forall m :: m in ms ==> m in indeg && m !in queue
    ensures forall v :: v in r.0 <==> v in indeg
    ensures forall v :: v in indeg && v !in ms ==> r.0[v] == indeg[v]
    ensures forall v :: v in ms ==> r.0[v] == indeg[v] - 1
    ensures forall v :: v in r.1 <==> v in queue || (v in ms && indeg[v] == 1)
    ensures Distinct(r.1)
    decreases |ms|
  {
    if |ms| == 0 then (indeg, queue)
    else
      var m := ms[0];
      assert forall v :: v in ms <==> v == m || v in ms[1..];
      assert m !in ms[1..];
      var d := indeg[m := indeg[m] - 1];
      Decrement(d, if d[m] == 0 then queue + [m] else queue, ms[1..])
  }

  /** Releasing n: the counts now leave n out as well, and the queue holds
      exactly the nodes other than n whose count reached 0. */
  method Release(G: Graph, n: string, indeg0: map<string, int>, queue0: seq<string>, ghost popped: set<string>)
    returns (indeg: map<string, int>, queue: seq<string>)
    requires WellFormedGraph(G) && n in G.nodes && n !in popped
    requires Distinct(queue0) && n !in queue0
    requires forall v :: v in queue0 ==> v in G.nodes && v !in popped
    requires forall v :: v in G.nodes ==> v in indeg0 && indeg0[v] == InCount(G, G.nodes, v, popped)
    requires forall v :: v in G.nodes && v != n ==> ((v in queue0 || v in popped) <==> indeg0[v] == 0)
    requires indeg0[n] == 0
    ensures Distinct(queue) && n !in queue && n in indeg && indeg[n] == 0
    ensures forall v :: v in queue ==> v in G.nodes && v !in popped
    ensures forall v :: v in G.nodes ==> v in indeg && indeg[v] == InCount(G, G.nodes, v, popped + {n})
    ensures forall v :: v in G.nodes && v != n ==> ((v in queue || v in popped) <==> indeg[v] == 0)
  {
    var succ := G.succ[n];
    forall m | m in succ ensures m in G.nodes && indeg0[m] > 0 && m != n && m !in queue0 && m !in popped {
      assert Edge(G, n, m);
      InCountAtLeast(G, G.nodes, m, popped, n);
    }
    var r := Decrement(indeg0, queue0, succ);
    indeg, queue := r.0, r.1;
    forall v | v in G.nodes ensures indeg[v] == InCount(G, G.nodes, v, popped + {n}) {
      InCountRemove(G, G.nodes, v, popped, n);
    }
  }

  /** One round: take the head of the queue, number it, release it. */
  method Pop(G: Graph, indeg0: map<string, int>, queue0: seq<string>,
             ghost popped0: set<string>, ghost rank0: map<string, nat>, ghost count0: nat)
    returns (indeg: map<string, int>, queue: seq<string>,
             ghost popped: set<string>, ghost rank: map<string, nat>, ghost count: nat)
    requires WellFormedGraph(G) && |queue0| > 0
    requires Round(G, indeg0, queue0, popped0, rank0, count0)
    ensures Round(G, indeg, queue, popped, rank, count)
    ensures popped0 <= popped && queue0[0] in popped - popped0
  {
    var n := queue0[0];
    assert Distinct(queue0[1..]) && n !in queue0[1..];
    indeg, queue := Release(G, n, indeg0, queue0[1..], popped0);
    popped := popped0 + {n};
    rank := rank0[n := count0];
    count := count0 + 1;
    // a node of in-degree 0 has no edge to itself or to an earlier one
    forall b | b in popped ensures !Edge(G, n, b) {
      if Edge(G, n, b) {
        InCountAtLeast(G, G.nodes, b, popped0, n);
      }
    }
  }

  /** The last loop: no in-degree stays positive. */
  function NoneLeft(G: Graph, indeg: map<string, int>, k: nat): (r: bool)
    requires k <= |G.nodes| && forall v :: v in G.nodes ==> v in indeg
    ensures r <==> forall j :: 0 <= j < k ==> indeg[G.nodes[j]] <= 0
  {
    if k == 0 then true else indeg[G.nodes[k - 1]] <= 0 && NoneLeft(G, indeg, k - 1)
  }

  /** `check`'s graph part: queue the nodes of in-degree 0, then repeatedly
      take one off the queue and decrement its successors' in-degrees,
      queueing those that reach 0; the result is true iff no in-degree
      stays positive. That happens exactly when the graph is acyclic. */
  method Kahn(G: Graph) returns (good: bool)
    requires WellFormedGraph(G)
    ensures good <==> Acyclic(G)
  {
    var indeg := G.indeg;
    var queue := ZeroInDegree(G);
    ghost var popped: set<string> := {};
    ghost var rank: map<string, nat> := map[];
    ghost var count: nat := 0;
    while |queue| > 0
      invariant Round(G, indeg, queue, popped, rank, count)
      decreases |NodeSet(G) - popped|
    {
      ghost var before := popped;
      indeg, queue, popped, rank, count := Pop(G, indeg, queue, popped, rank, count);
      Shrinks(NodeSet(G), before, popped);
    }
    good := NoneLeft(G, indeg, |G.nodes|);
    Conclude(G, indeg, popped, rank, count, good);
  }

  /** After the main loop, the numbering is a topological order when every
      node was taken off the queue, and no topological order exists when
      some node was left. */
  lemma Conclude(G: Graph, indeg: map<string, int>, popped: set<string>, rank: map<string, nat>, count: nat, good: bool)
    requires WellFormedGraph(G) && Round(G, indeg, [], popped, rank, count)
    requires good == NoneLeft(G, indeg, |G.nodes|)
    ensures good <==> Acyclic(G)
  {
    if good {
      forall v | v in G.nodes ensures v in popped {
        var j :| 0 <= j < |G.nodes| && G.nodes[j] == v;
      }
      assert TopoRank(G, rank);
    } else {
      var j :| 0 <= j < |G.nodes| && indeg[G.nodes[j]] > 0;
      var rest := NodeSet(G) - popped;
      forall u | u in rest ensures exists a :: a in rest && a in G.nodes && Edge(G, a, u) {
        InCountWitness(G, G.nodes, u, popped);
      }
      if Acyclic(G) {
        var r :| TopoRank(G, r);
        Stuck(G, rest, r, G.nodes[j]);
      }
    }
  }

  /** `NoLeftRecursionForm.check`: the grammar passes iff its left-corner
      graph is acyclic. */
  method NoLeftRecursionCheck(g: Grammar) returns (good: bool)
    requires Valid(g)
    ensures good <==> Acyclic(GraphOf(g))
  {
    good := Kahn(GraphOf(g));
  }

  /** A rule N -> N ... makes the check fail. */
  lemma DirectLeftRecursion(g: Grammar, x: Rule)
    requires Valid(g) && x in RulesOf(g)
    requires |x.right| > 0 && !IsTerminal(x.right[0]) && x.right[0].Text() == x.left
    ensures !Acyclic(GraphOf(g))
  {
    var G := GraphOf(g);
    LeftsKnown(g);
    assert x.left in Lefts(RulesOf(g));
    assert EdgeOf(x) == Some((x.left, x.left));
    assert Edge(G, x.left, x.left);
    SelfLoopCyclic(G, x.left);
  }

  /** Greibach form has no left recursion: no rule starts with a
      nonterminal, so the graph has no edge. */
  lemma GreibachHasNoLeftRecursion(g: Grammar)
    requires Valid(g) && GreibachCheck(g)
    ensures Acyclic(GraphOf(g))
  {
    var G := GraphOf(g);
    var rank: map<string, nat> := map v | v in G.nodes :: 0;
    forall x | x in RulesOf(g) ensures EdgeOf(x) == None {
      assert GreibachShape(g, HasStartEps(g), x);
    }
    assert forall a, b :: !Edge(G, a, b);
    assert TopoRank(G, rank);
  }
}

=== FILE: ll_parser.dfy ===
/** The LL parser simulation (js/parsing/LLParserAlgorithm.js): a stack of
    grammar symbols starting with the start symbol, the input word with its
    end marker, and the LL table. A terminal on top is matched against the
    lookahead; a nonterminal on top is expanded by the single action of its
    table cell, emitting the rule. A `parseStep` and the tasks it schedules
    (`actionConsumeTerminal`, `actionProducePopStack`,
    `actionProducePushRight`) are taken together as one step. */
module LLParsers {
  import opened Wrappers
  import opened Symbols
  import opened Words
  import opened Rules
  import opened ParserActions
  import opened ParserStructures
  import opened Objects
  import opened Derivations
  import LLTables

  /** The LL parser stack holds symbols only. */
  datatype LLParser = LLParser(stack: Stack<()>, input: ParserInput, output: ParserOutput, verdict: Verdict)

  /** `init`: the start symbol on the stack, an empty output. */
  function Init(start: Symbol, word: Word): (p: LLParser)
    ensures PeekTop(p.stack) == Some(SymbolEntry(start)) && |p.stack| == 1
    ensures Lookahead(p.input) == Some(if |word| > 0 then word[0] else EndMarker)
  {
    LLParser(Push([], SymbolEntry(start)), NewInput(Some(word), true), NewOutput(), NotFinished)
  }

  /** Pushing the symbols of a word one after the other: the last one ends
      on top. */
  function PushAll(st: Stack<()>, w: Word): (r: Stack<()>)
    ensures |r| == |st| + |w| && r[..|st|] == st
    ensures forall i :: 0 <= i < |w| ==> r[|st| + i] == SymbolWrapper(w[i])
    decreases |w|
  {
    if |w| == 0 then st
    else
      PushAll(Push(st, SymbolEntry(w[0])), w[1..])
  }

  /** A terminal on top against the lookahead: equal texts consume both,
      different ones end the parse as unparsable. */
  function Match(p: LLParser, top: Symbol, la: Symbol): (r: Result<LLParser>)
    ensures r.Success? ==> r.value.output == p.output
    ensures la.Text() != top.Text() ==>
              r.Success? && r.value.verdict == Unparsable && r.value.stack == p.stack && r.value.input == p.input
    ensures la.Text() == top.Text() ==>
              && (r.Success? <==> p.input.pos + 1 != |p.input.w|)
              && (r.Success? ==> r.value.verdict == p.verdict && r.value.input.pos == p.input.pos + 1
                                 && r.value.stack == PopN(p.stack, 1))
  {
    if la.Text() == top.Text() then
      match Next(p.input)
      case Failure(e) => Failure(e)
      case Success((_, input')) => Success(p.(stack := PopN(p.stack, 1), input := input'))
    else Success(p.(verdict := Unparsable))
  }

  /** A nonterminal on top: the table cell PT[top, lookahead] must hold a
      single action, which must be a produce action; its rule is emitted,
      the top popped and the right side pushed so that its first symbol
      ends on top. */
  function Expand(t: Cells, p: LLParser, top: Symbol, la: Symbol): (r: Result<LLParser>)
    ensures r.Success? ==> r.value.input == p.input
    ensures r.Success? && r.value.verdict == NotFinished ==>
              exists x :: r.value.output == Emit(p.output, x) && (top.Text(), la.Text()) in t
                && t[(top.Text(), la.Text())] == [Produce(x)]
  {
    var key := (top.Text(), la.Text());
    if key !in t then Failure("no table cell for " + top.Text() + ", " + la.Text())
    else
      var cell := t[key];
      if |cell| < 1 then Success(p.(verdict := Unparsable))
      else if |cell| > 1 then Success(p.(verdict := Ambiguous))
      else match cell[0]
        case Error(_) => Success(p.(verdict := Unparsable))
        case Produce(x) =>
          assert cell == [Produce(x)];
          Success(p.(stack := PushAll(PopN(p.stack, 1), Reverse(x.right)), output := Emit(p.output, x)))
        case _ => Failure("what action?")
  }

  /** One parser step: finished parses stay as they are; an empty stack
      accepts exactly at the end marker. */
  function Step(t: Cells, p: LLParser): (r: Result<LLParser>)
    ensures p.verdict != NotFinished ==> r == Success(p)
    ensures r.Success? && p.verdict == NotFinished && r.value.verdict == Accepted ==>
              |p.stack| == 0 && Lookahead(p.input).Some? && Lookahead(p.input).value.Text() == EndMarkerText
    ensures r.Success? ==> r.value.output == p.output || exists x :: r.value.output == Emit(p.output, x)
  {
    if p.verdict != NotFinished then Success(p)
    else match Lookahead(p.input)
      case None => Failure("there is no lookahead")
      case Some(la) =>
        match PeekTop(p.stack)
        case None => Success(p.(verdict := if la.Text() == EndMarkerText then Accepted else Unparsable))
        case Some(ItemEntry(_)) => Failure("the stack top is not a symbol")
        case Some(SymbolEntry(top)) =>
          if IsTerminal(top) then Match(p, top, la) else Expand(t, p, top, la)
  }

  /** `parse`: steps repeated while the parse is not finished, at most
      `fuel` of them. */
  function Run(t: Cells, p: LLParser, fuel: nat): (r: Result<LLParser>)
    ensures p.verdict != NotFinished ==> r == Success(p)
    decreases fuel
  {
    if fuel == 0 || p.verdict != NotFinished then Success(p)
    else match Step(t, p)
      case Failure(e) => Failure(e)
      case Success(p') => Run(t, p', fuel - 1)
  }

  /** `result`: an accepted parse finishes its output in LL order. */
  function Finished(p: LLParser): (r: LLParser)
    ensures r.verdict == p.verdict && r.output.rules == p.output.rules
    ensures r.output.finished <==> p.output.finished || p.verdict == Accepted
  {
    if p.verdict == Accepted then p.(output := Finish(p.output, false)) else p
  }

  /** The whole simulation on the given table, start symbol and word. */
  function Parse(t: Cells, start: Symbol, word: Word, fuel: nat): Result<LLParser> {
    match Run(t, Init(start, word), fuel)
    case Failure(e) => Failure(e)
    case Success(p) => Success(Finished(p))
  }

  // ---------------------------------------------------------------------
  // Soundness

  /** The consumed input followed by the stack read from the top is the
      form the emitted rules derive, leftmost, from the start symbol. */
  predicate Inv(p: LLParser, start: Symbol, word: Word) {
    && p.input.w == word + [EndMarker] && p.input.pos <= |word|
    && (forall i :: 0 <= i < |p.stack| ==> p.stack[i].SymbolWrapper?)
    && DeriveLeft([start], p.output.rules) == Some(word[..p.input.pos] + Reverse(StackSymbols(p.stack)))
    && (p.verdict == Accepted ==> |p.stack| == 0 && p.input.pos == |word|)
  }

  lemma InitInv(start: Symbol, word: Word)
    ensures Inv(Init(start, word), start, word)
  {
    var p := Init(start, word);
    assert p.stack == [SymbolWrapper(start)];
    assert StackSymbols(p.stack) == [start] by {
      assert p.stack[..0] == [];
    }
    assert word[..0] == [];
  }

  /** The reversed stack is its top symbol followed by the rest reversed. */
  lemma TopFirst(st: Stack<()>)
    requires |st| > 0 && forall i :: 0 <= i < |st| ==> st[i].SymbolWrapper?
    ensures Reverse(StackSymbols(st)) == [st[|st| - 1].symbol] + Reverse(StackSymbols(st[..|st| - 1]))
  {
    var low := st[..|st| - 1];
    assert st == low + [st[|st| - 1]];
    StackSymbolsAppend(low, [st[|st| - 1]]);
    assert StackSymbols([st[|st| - 1]]) == [st[|st| - 1].symbol] by {
      assert [st[|st| - 1]][..0] == [];
    }
    ReverseAppend(StackSymbols(low), [st[|st| - 1].symbol]);
  }

  /** A terminal with the text of a word symbol is that symbol. */
  lemma SameTerminal(top: Symbol, a: Symbol)
    requires IsTerminal(top) && a.Terminal? && a.name != EndMarkerText && top.Text() == a.Text()
    ensures top == a
  {
  }

  /** Matching a terminal moves it from the stack top to the consumed input. */
  lemma ConsumeKeeps(word: Word, pos: nat, st: Stack<()>)
    requires pos < |word| && word[pos].Terminal? && word[pos].name != EndMarkerText
    requires |st| > 0 && forall i :: 0 <= i < |st| ==> st[i].SymbolWrapper?
    requires IsTerminal(st[|st| - 1].symbol) && st[|st| - 1].symbol.Text() == word[pos].Text()
    ensures word[..pos + 1] + Reverse(StackSymbols(PopN(st, 1))) == word[..pos] + Reverse(StackSymbols(st))
  {
    TopFirst(st);
    SameTerminal(st[|st| - 1].symbol, word[pos]);
    var rest := Reverse(StackSymbols(st[..|st| - 1]));
    assert PopN(st, 1) == st[..|st| - 1];
    PrefixGrows(word, pos, rest);
  }

  lemma PrefixGrows<T>(s: seq<T>, i: nat, rest: seq<T>)
    requires i < |s|
    ensures s[..i + 1] + rest == s[..i] + ([s[i]] + rest)
  {
    assert s[..i + 1] == s[..i] + [s[i]];
  }

  /** Pushing the reversed right side of x puts x's right side, read from
      the top, before what was on the stack. */
  lemma PushReversed(low: Stack<()>, x: Rule)
    requires forall i :: 0 <= i < |low| ==> low[i].SymbolWrapper?
    ensures var st' := PushAll(low, Reverse(x.right));
            && (forall i :: 0 <= i < |st'| ==> st'[i].SymbolWrapper?)
            && Reverse(StackSymbols(st')) == x.right + Reverse(StackSymbols(low))
  {
    var st' := PushAll(low, Reverse(x.right));
    var pushed := st'[|low|..];
    assert st' == low + pushed;
    assert forall i :: 0 <= i < |pushed| ==> pushed[i] == SymbolWrapper(Reverse(x.right)[i]);
    StackSymbolsAppend(low, pushed);
    StackSymbolsWrapped(pushed);
    assert StackSymbols(pushed) == Reverse(x.right);
    ReverseAppend(StackSymbols(low), Reverse(x.right));
    ReverseTwice(x.right);
  }

  /** Expanding the nonterminal on top by x is one leftmost step by x. */
  lemma ExpandKeeps(done: Word, st: Stack<()>, x: Rule)
    requires NoNonterminal(done)
    requires |st| > 0 && forall i :: 0 <= i < |st| ==> st[i].SymbolWrapper?
    requires st[|st| - 1].symbol == Nonterminal(x.left)
    ensures var st' := PushAll(PopN(st, 1), Reverse(x.right));
            && (forall i :: 0 <= i < |st'| ==> st'[i].SymbolWrapper?)
            && LeftStep(done + Reverse(StackSymbols(st)), x) == Some(done + Reverse(StackSymbols(st')))
  {
    var low := PopN(st, 1);
    TopFirst(st);
    var rest := Reverse(StackSymbols(low));
    LeftStepMeans(done, Nonterminal(x.left), rest, x);
    AppendAssoc(done, [Nonterminal(x.left)], rest);
    PushReversed(low, x);
    AppendAssoc(done, x.right, rest);
  }

  /** The consumed input has no nonterminal, and the lookahead is a word
      symbol before the end. */
  lemma InputFacts(p: LLParser, start: Symbol, word: Word)
    requires TerminalWord(word) && Inv(p, start, word)
    ensures NoNonterminal(word[..p.input.pos])
    ensures Lookahead(p.input) == Some((word + [EndMarker])[p.input.pos])
    ensures p.input.pos < |word| ==> Lookahead(p.input) == Some(word[p.input.pos])
  {
    var done := word[..p.input.pos];
    forall i | 0 <= i < |done| ensures !done[i].Nonterminal? {
      assert done[i] == word[i];
    }
  }

  lemma MatchKeepsInv(p: LLParser, start: Symbol, word: Word)
    requires TerminalWord(word) && Inv(p, start, word) && p.verdict == NotFinished
    requires PeekTop(p.stack).Some? && PeekTop(p.stack).value.SymbolEntry?
    requires IsTerminal(PeekTop(p.stack).value.symbol)
    requires Match(p, PeekTop(p.stack).value.symbol, Lookahead(p.input).value).Success?
    ensures Inv(Match(p, PeekTop(p.stack).value.symbol, Lookahead(p.input).value).value, start, word)
  {
    InputFacts(p, start, word);
    var top := PeekTop(p.stack).value.symbol;
    var la := Lookahead(p.input).value;
    if la.Text() == top.Text() {
      ConsumeKeeps(word, p.input.pos, p.stack);
    }
  }

  lemma ExpandKeepsInv(t: Cells, p: LLParser, start: Symbol, word: Word)
    requires TerminalWord(word) && LLTables.RowsKeyed(t) && Inv(p, start, word) && p.verdict == NotFinished
    requires PeekTop(p.stack).Some? && PeekTop(p.stack).value.SymbolEntry?
    requires !IsTerminal(PeekTop(p.stack).value.symbol)
    requires Expand(t, p, PeekTop(p.stack).value.symbol, Lookahead(p.input).value).Success?
    ensures Inv(Expand(t, p, PeekTop(p.stack).value.symbol, Lookahead(p.input).value).value, start, word)
  {
    InputFacts(p, start, word);
    var top := PeekTop(p.stack).value.symbol;
    var la := Lookahead(p.input).value;
    var q := Expand(t, p, top, la).value;
    if q.verdict == NotFinished {
      var x :| q.output == Emit(p.output, x) && (top.Text(), la.Text()) in t
               && t[(top.Text(), la.Text())] == [Produce(x)];
      assert t[(top.Text(), la.Text())][0] == Produce(x);
      assert x.left == top.Text();
      var done := word[..p.input.pos];
      DeriveLeftSnoc([start], p.output.rules, x, done + Reverse(StackSymbols(p.stack)));
      ExpandKeeps(done, p.stack, x);
    }
  }

  lemma StepKeepsInv(t: Cells, p: LLParser, start: Symbol, word: Word)
    requires TerminalWord(word) && LLTables.RowsKeyed(t) && Inv(p, start, word)
    requires Step(t, p).Success?
    ensures Inv(Step(t, p).value, start, word)
  {
    if p.verdict == NotFinished {
      InputFacts(p, start, word);
      match PeekTop(p.stack)
      case None =>
      case Some(SymbolEntry(top)) =>
        if IsTerminal(top) {
          MatchKeepsInv(p, start, word);
        } else {
          ExpandKeepsInv(t, p, start, word);
        }
    }
  }

  lemma {:induction false} RunKeepsInv(t: Cells, p: LLParser, start: Symbol, word: Word, fuel: nat)
    requires TerminalWord(word) && LLTables.RowsKeyed(t) && Inv(p, start, word)
    requires Run(t, p, fuel).Success?
    ensures Inv(Run(t, p, fuel).value, start, word)
    decreases fuel
  {
    if fuel > 0 && p.verdict == NotFinished {
      StepKeepsInv(t, p, start, word);
      RunKeepsInv(t, Step(t, p).value, start, word, fuel - 1);
    }
  }

  /** An accepted word is derived from the start symbol by the finished
      output, read as a leftmost derivation, when every produce action of
      the table sits in its rule's row. */
  lemma ParseSound(t: Cells, start: Symbol, word: Word, fuel: nat)
    requires TerminalWord(word) && LLTables.RowsKeyed(t)
    requires Parse(t, start, word, fuel).Success? && Parse(t, start, word, fuel).value.verdict == Accepted
    ensures Parse(t, start, word, fuel).value.output.finished
    ensures DeriveLeft([start], Parse(t, start, word, fuel).value.output.rules) == Some(word)
  {
    InitInv(start, word);
    RunKeepsInv(t, Init(start, word), start, word, fuel);
    var p := Run(t, Init(start, word), fuel).value;
    assert Parse(t, start, word, fuel) == Success(Finished(p));
    assert p.verdict == Accepted && Inv(p, start, word);
    assert |p.stack| == 0 && p.input.pos == |word|;
    assert word[..|word|] == word;
    assert StackSymbols(p.stack) == [];
    assert Reverse(StackSymbols(p.stack)) == [];
    assert word[..p.input.pos] + Reverse(StackSymbols(p.stack)) == word;
  }
}

=== FILE: ll_table.dfy ===
/** The LL parse table (js/parsing/LLParseTableCompute.js): a row for each
    nonterminal and a column for each terminal and the end marker; rule
    N -> w is entered into PT[N, t] for every terminal t of FIRST(w), and,
    when w produces epsilon, for every t of FOLLOW(N). The FIRST and FOLLOW
    columns are those of module FirstFollow. */
module LLTables {
  import opened Symbols
  import opened Words
  import opened Rules
  import opened Objects
  import opened ParserActions
  import opened FirstFollow

  /** `initTable`: an empty cell for every row and every column. */
  function InitTable(ns: set<string>, ts: set<string>): (r: Cells)
    ensures forall k :: k in r <==> k.0 in ns && (k.1 in ts || k.1 == EndMarkerText)
    ensures forall k :: k in r ==> r[k] == []
  {
    map k | k in Pairs(ns, ts + {EndMarkerText}) :: []
  }

  /** The columns `addRightFirsts` and `addLeftFollows` enter rule x into:
      the terminals of FIRST(x.right), computed into a fresh set that also
      records the empty word, and the FOLLOW items of x's left side when
      that set holds the empty word. */
  function Targets(first: Column, follow: Column, x: Rule): set<string> {
    var firsts := AddFirsts4Word(first, x.right, {}, false).added;
    (firsts - {EpsText}) + (if EpsText in firsts then Cell(follow, x.left) else {})
  }

  /** Targets by the definition of FIRST: the terminals some symbol of the
      right side contributes, and FOLLOW(left) when the right side produces
      epsilon. A terminal named like the empty word would be taken for it,
      so the right side is assumed to have none. */
  lemma TargetsMeans(first: Column, follow: Column, x: Rule, t: string)
    requires t != EpsText
    requires forall i :: 0 <= i < |x.right| && !x.right[i].Nonterminal? ==> x.right[i].Text() != EpsText
    ensures t in Targets(first, follow, x) <==>
              (exists i :: 0 <= i < |x.right| && Contributes(first, x.right, i, t))
              || (EpsProducing(first, x.right) && (x.left, t) in follow)
  {
    FirstOfWordMeans(first, x.right);
    forall i | 0 <= i < |x.right| ensures !Contributes(first, x.right, i, EpsText) {
    }
  }

  /** A set add: an action already in the cell is not added again. */
  function AddOnce(cell: seq<Action>, a: Action): (r: seq<Action>)
    ensures a in r && forall b :: b in r <==> b in cell || b == a
    ensures Distinct(cell) ==> Distinct(r)
  {
    if a in cell then cell else cell + [a]
  }

  /** `processRule` for x: a produce action for x in each of its target
      cells of x's row. */
  function ProcessRule(t: Cells, first: Column, follow: Column, x: Rule): (r: Cells)
    ensures r.Keys == t.Keys
  {
    var ts := Targets(first, follow, x);
    map k | k in t :: if k.0 == x.left && k.1 in ts then AddOnce(t[k], Produce(x)) else t[k]
  }

  /** `processRules`: the rules one after the other, in grammar order. */
  function ProcessRules(t: Cells, first: Column, follow: Column, rules: seq<Rule>): (r: Cells)
    ensures r.Keys == t.Keys
    decreases |rules|
  {
    if |rules| == 0 then t
    else ProcessRules(ProcessRule(t, first, follow, rules[0]), first, follow, rules[1..])
  }

  /** The whole table from the FIRST and FOLLOW columns. */
  function Build(ns: set<string>, ts: set<string>, first: Column, follow: Column, rules: seq<Rule>): (r: Cells)
    ensures forall k :: k in r <==> k.0 in ns && (k.1 in ts || k.1 == EndMarkerText)
  {
    ProcessRules(InitTable(ns, ts), first, follow, rules)
  }

  /** The rules a cell should hold: x is in PT[N, c] exactly when x is a
      rule for N whose targets include c. */
  predicate Belongs(first: Column, follow: Column, k: (string, string), x: Rule) {
    x.left == k.0 && k.1 in Targets(first, follow, x)
  }

  /** What the cells hold after some rules: the earlier contents and a
      produce action for each processed rule that belongs there, each once. */
  lemma {:induction false} ProcessRulesMeans(t: Cells, first: Column, follow: Column, rules: seq<Rule>, k: (string, string), a: Action)
    requires k in t
    ensures var r := ProcessRules(t, first, follow, rules);
            && (a in r[k] <==> a in t[k] || (a.Produce? && a.rule in rules && Belongs(first, follow, k, a.rule)))
            && (Distinct(t[k]) ==> Distinct(r[k]))
    decreases |rules|
  {
    if |rules| > 0 {
      var t' := ProcessRule(t, first, follow, rules[0]);
      ProcessRulesMeans(t', first, follow, rules[1..], k, a);
      assert forall x :: x in rules <==> x == rules[0] || x in rules[1..];
    }
  }

  /** The built table holds, in each cell, a produce action for exactly the
      rules that belong there, each once, and nothing else. */
  lemma BuildMeans(ns: set<string>, ts: set<string>, first: Column, follow: Column, rules: seq<Rule>,
                   k: (string, string), a: Action)
    requires k in Build(ns, ts, first, follow, rules)
    ensures var cell := Build(ns, ts, first, follow, rules)[k];
            && (a in cell <==> a.Produce? && a.rule in rules && Belongs(first, follow, k, a.rule))
            && Distinct(cell)
  {
    ProcessRulesMeans(InitTable(ns, ts), first, follow, rules, k, a);
  }

  /** Every produce action sits in the row of its rule's left side, which
      is what the LL parser relies on when it expands the stack top. */
  predicate RowsKeyed(t: Cells) {
    forall k: (string, string), i: int :: k in t && 0 <= i < |t[k]| && t[k][i].Produce? ==> t[k][i].rule.left == k.0
  }

  lemma BuildRowsKeyed(ns: set<string>, ts: set<string>, first: Column, follow: Column, rules: seq<Rule>)
    ensures RowsKeyed(Build(ns, ts, first, follow, rules))
  {
    var t: Cells := Build(ns, ts, first, follow, rules);
    forall k: (string, string), i: int | k in t && 0 <= i < |t[k]| && t[k][i].Produce? ensures t[k][i].rule.left == k.0 {
      BuildMeans(ns, ts, first, follow, rules, k, t[k][i]);
    }
  }

  /** A cell with more than one action is an LL(1) conflict: two different
      rules belong to it. */
  lemma ConflictMeans(ns: set<string>, ts: set<string>, first: Column, follow: Column, rules: seq<Rule>, k: (string, string))
    requires k in Build(ns, ts, first, follow, rules)
    ensures |Build(ns, ts, first, follow, rules)[k]| > 1 <==>
              exists x, y :: x in rules && y in rules && x != y
                && Belongs(first, follow, k, x) && Belongs(first, follow, k, y)
  {
    var cell := Build(ns, ts, first, follow, rules)[k];
    if |cell| > 1 {
      BuildMeans(ns, ts, first, follow, rules, k, cell[0]);
      BuildMeans(ns, ts, first, follow, rules, k, cell[1]);
      assert cell[0] != cell[1];
    }
    if x, y :| x in rules && y in rules && x != y && Belongs(first, follow, k, x) && Belongs(first, follow, k, y) {
      BuildMeans(ns, ts, first, follow, rules, k, Produce(x));
      BuildMeans(ns, ts, first, follow, rules, k, Produce(y));
      var i :| 0 <= i < |cell| && cell[i] == Produce(x);
      var j :| 0 <= j < |cell| && cell[j] == Produce(y);
      assert i != j;
    }
  }

  /** With the grammar's nonterminals as rows and its terminals as
      columns, every cell a rule is entered into exists: the FIRST items
      are right-side terminals and the FOLLOW items right-side terminals or
      the end marker. */
  lemma TargetsPresent(ns: set<string>, ts: set<string>, first: Column, follow: Column, rules: seq<Rule>, x: Rule, c: string)
    requires x in rules && Lefts(rules) <= ns && TerminalTexts(rules) <= ts
    requires forall p :: p in first ==> p.1 in TerminalTexts(rules) + {EpsText}
    requires forall p :: p in follow ==> p.1 in TerminalTexts(rules) + {EndMarkerText}
    requires c in Targets(first, follow, x)
    ensures (x.left, c) in Build(ns, ts, first, follow, rules)
  {
    assert x.right[0..] == x.right;
    FirstOfSuffixWithin(first, rules, x, 0);
  }
}

=== FILE: lr_automaton.dfy ===
/** LR automata (js/structures/LRAutomaton.js): states numbered in the order
    they are added and found again by their core hash, and labelled
    transitions between them. */
module LRAutomata {
  import opened Wrappers
  import opened Text
  import opened Objects
  import opened Symbols
  import opened LRItems
  import opened LRStates
  import Staging

  /** Edges: from-id to to-id to the symbols on that edge, keyed by text. */
  type Edges = Dict<Dict<Dict<Symbol>>>

  datatype Automaton = Automaton(header: Staging.Header, states: Dict<LRState>, ids: Dict<string>, edges: Edges)

  /** `new LRAutomaton(id, name)`. */
  function NewAutomaton(id: string, name: string): Automaton {
    Automaton(Staging.NewHeader(id, name), Empty(), Empty(), Empty())
  }

  /** `state.getCoreHash()`: called without an argument, so the item texts
      include their lookaheads. */
  function StateHash(st: LRState): string {
    CoreHash(st, false)
  }

  /** The id stored under the state's hash, read for truthiness: an empty id
      counts as none. This is `getStateID(state)`. */
  function IdOf(a: Automaton, st: LRState): (r: Option<string>)
    ensures r.Some? <==> StateHash(st) in a.ids.values && a.ids.values[StateHash(st)] != ""
    ensures r.Some? ==> r.value == a.ids.values[StateHash(st)]
  {
    match Objects.Get(a.ids, StateHash(st))
    case Some(id) => if id != "" then Some(id) else None
    case None => None
  }

  /** `containsState(state)`: the stored state with the same hash, or null. */
  function ContainsState(a: Automaton, st: LRState): (r: Option<LRState>)
    ensures r.Some? <==> IdOf(a, st).Some? && IdOf(a, st).value in a.states.values
    ensures r.Some? ==> r.value == a.states.values[IdOf(a, st).value]
  {
    match IdOf(a, st)
    case Some(id) => Objects.Get(a.states, id)
    case None => None
  }

  /** `getState(id)`: the state with that id, or null. */
  function GetState(a: Automaton, id: string): (r: Option<LRState>)
    ensures r.None? <==> id !in a.states.values
    ensures r.Some? ==> r.value == a.states.values[id]
  {
    Objects.Get(a.states, id)
  }

  /** The answer of `addState`. */
  datatype Added = Added(automaton: Automaton, isNew: bool, id: string)

  /** `addState(state)`: a state whose hash is known is not added and gets
      the known id; a new state gets the current number of states as its
      id and is named by it. */
  function AddState(a: Automaton, st: LRState): (r: Added)
    ensures IdOf(a, st).Some? ==> r == Added(a, false, IdOf(a, st).value)
    ensures IdOf(a, st).None? ==>
              && r.isNew && r.id == NatToString(Count(a.states))
              && r.automaton.states.values == a.states.values[r.id := st.(header := Staging.SetName(st.header, r.id))]
              && r.automaton.ids.values == a.ids.values[StateHash(st) := r.id]
              && r.automaton.edges == a.edges && r.automaton.header == a.header
  {
    match IdOf(a, st)
    case Some(id) => Added(a, false, id)
    case None =>
      var id := NatToString(Count(a.states));
      var named := st.(header := Staging.SetName(st.header, id));
      Added(a.(states := Put(a.states, id, named), ids := Put(a.ids, StateHash(st), id)), true, id)
  }

  /** After `addState` the state is known under the id it was given, so
      adding it again changes nothing. */
  lemma AddStateThenKnown(a: Automaton, st: LRState)
    ensures IdOf(AddState(a, st).automaton, st) == Some(AddState(a, st).id)
    ensures var r := AddState(a, st);
            AddState(r.automaton, st) == Added(r.automaton, false, r.id)
  {
  }

  /** Ids are the numbers below the number of states. This holds as long as
      states are only added. */
  ghost predicate Numbered(a: Automaton) {
    forall id :: id in a.states.values ==> exists i :: 0 <= i < Count(a.states) && id == NatToString(i)
  }

  /** In a numbered automaton a new state never overwrites a stored one, and
      the automaton stays numbered. */
  lemma AddStateFresh(a: Automaton, st: LRState)
    requires Numbered(a)
    requires IdOf(a, st).None?
    ensures AddState(a, st).id !in a.states.values
    ensures Count(AddState(a, st).automaton.states) == Count(a.states) + 1
    ensures Numbered(AddState(a, st).automaton)
  {
    var n := Count(a.states);
    var id := NatToString(n);
    if id in a.states.values {
      var i :| 0 <= i < n && id == NatToString(i);
      NatToStringInjective(i, n);
    }
    var b := AddState(a, st).automaton;
    forall k | k in b.states.values ensures exists i :: 0 <= i < Count(b.states) && k == NatToString(i) {
      if k == id {
        assert k == NatToString(n);
      } else {
        var i :| 0 <= i < n && k == NatToString(i);
        assert k == NatToString(i);
      }
    }
  }

  // ---------------------------------------------------------------------
  // Transitions

  /** The symbols on the edge from one id to another. */
  function EdgeSymbols(e: Edges, from: string, to: string): Dict<Symbol> {
    match Objects.Get(e, from)
    case None => Empty()
    case Some(row) => Objects.Get(row, to).GetOr(Empty())
  }

  /** Record a symbol on the from → to edge, creating the row and cell when
      they are missing. */
  function AddEdge(e: Edges, from: string, to: string, sym: Symbol): (r: Edges)
    ensures from in r.values && to in r.values[from].values
    ensures EdgeSymbols(r, from, to).values == EdgeSymbols(e, from, to).values[sym.Text() := sym]
    ensures forall f, t :: (f != from || t != to) ==> EdgeSymbols(r, f, t) == EdgeSymbols(e, f, t)
  {
    var row := Objects.Get(e, from).GetOr(Empty());
    var cell := Objects.Get(row, to).GetOr(Empty());
    Put(e, from, Put(row, to, Put(cell, sym.Text(), sym)))
  }

  /** The answer of `addStateTransition`. */
  datatype Transition = Transition(automaton: Automaton, fromId: string, toId: string, isNew: bool)

  /** `addStateTransition(fromState, symbol, toState)`: both states are
      added; a from-state that was not known is an error; otherwise the
      symbol is recorded on the edge and the answer says whether the
      to-state was new. */
  function AddStateTransition(a: Automaton, from: LRState, sym: Symbol, to: LRState): (r: Result<Transition>)
    ensures r.Failure? <==> IdOf(a, from).None?
    ensures r.Success? ==>
              && r.value.fromId == IdOf(a, from).value
              && r.value.toId == AddState(a, to).id
              && r.value.isNew == IdOf(a, to).None?
              && r.value.automaton.states == AddState(a, to).automaton.states
              && r.value.automaton.ids == AddState(a, to).automaton.ids
              && EdgeSymbols(r.value.automaton.edges, r.value.fromId, r.value.toId).values
                   == EdgeSymbols(a.edges, r.value.fromId, r.value.toId).values[sym.Text() := sym]
  {
    var f := AddState(a, from);
    var t := AddState(f.automaton, to);
    if f.isNew then Failure("fromState did not exist!")
    else
      var b := t.automaton;
      Success(Transition(b.(edges := AddEdge(b.edges, f.id, t.id, sym)), f.id, t.id, t.isNew))
  }

  /** A transition leaves every other edge as it was. */
  lemma TransitionKeepsOtherEdges(a: Automaton, from: LRState, sym: Symbol, to: LRState, f: string, t: string)
    requires AddStateTransition(a, from, sym, to).Success?
    ensures var r := AddStateTransition(a, from, sym, to).value;
            (f != r.fromId || t != r.toId) ==> EdgeSymbols(r.automaton.edges, f, t) == EdgeSymbols(a.edges, f, t)
  {
  }

  // ---------------------------------------------------------------------
  // mergeStates

  /** Adding items one after another, not immediately. */
  function AddAll(s: ItemSet, xs: seq<LRItem>): (r: ItemSet)
    ensures r.staged.values.Keys == s.staged.values.Keys + (set x | x in xs :: Hash(x, true))
    ensures r.visible == s.visible && r.header == s.header
    decreases |xs|
  {
    if |xs| == 0 then s
    else
      assert (set x | x in xs :: Hash(x, true)) == {Hash(xs[0], true)} + set x | x in xs[1..] :: Hash(x, true);
      AddAll(AddItem(s, xs[0], false).0, xs[1..])
  }

  /** In one row: the entry for the other state is moved to the main state. */
  function RedirectRow(row: Dict<Dict<Symbol>>, other: string, main: string): (r: Dict<Dict<Symbol>>)
    requires other != main
    ensures other !in r.values
    ensures other in row.values ==> main in r.values && r.values[main] == row.values[other]
    ensures forall t :: t in row.values && t != other && t != main ==> t in r.values && r.values[t] == row.values[t]
    ensures forall t :: t in r.values ==> t in row.values || t == main
  {
    if other in row.values then Objects.Remove(Put(row, main, row.values[other]), other) else row
  }

  /** Every edge into the other state is moved onto the main state. */
  function RedirectTargets(e: Edges, other: string, main: string): (r: Edges)
    requires other != main
    ensures r.keys == e.keys
    ensures forall f :: f in e.values ==> r.values[f] == RedirectRow(e.values[f], other, main)
  {
    MapValues(e, (row: Dict<Dict<Symbol>>) => RedirectRow(row, other, main))
  }

  /** The edges out of the other state are moved into the main state's row;
      the other state's row stays, emptied. The main state needs a row of
      its own when there is anything to move. */
  function MoveSources(e: Edges, other: string, main: string): (r: Result<Edges>)
    requires other != main
    ensures r.Failure? <==> other in e.values && |e.values[other].keys| > 0 && main !in e.values
    ensures r.Success? && other in e.values ==>
              && other in r.value.values && r.value.values[other].values == map[]
              && (|e.values[other].keys| > 0 ==>
                    main in e.values && main in r.value.values &&
                    r.value.values[main] == MoveRow(e.values[main], e.values[other], e.values[other].keys))
    ensures r.Success? ==> forall f :: f in e.values && f != other && f != main ==>
              f in r.value.values && r.value.values[f] == e.values[f]
  {
    match Objects.Get(e, other)
    case None => Success(e)
    case Some(row) =>
      if |row.keys| == 0 then
        assert row.values == map[];
        Success(e)
      else match Objects.Get(e, main)
        case None => Failure("no edges leave the main state")
        case Some(mainRow) =>
          var merged := MoveRow(mainRow, row, row.keys);
          PutTwiceElsewhere(e, main, merged, other, Empty());
          Success(Put(Put(e, main, merged), other, Empty()))
  }

  /** Moving the sources adds no row. */
  lemma MoveSourcesKeys(e: Edges, other: string, main: string, f: string)
    requires other != main && MoveSources(e, other, main).Success?
    requires f in MoveSources(e, other, main).value.values
    ensures f in e.values
  {
  }

  /** The entries under ks copied from one row into another. */
  function MoveRow(into: Dict<Dict<Symbol>>, from: Dict<Dict<Symbol>>, ks: seq<string>): (r: Dict<Dict<Symbol>>)
    requires forall k :: k in ks ==> k in from.values
    ensures forall k :: k in ks ==> k in r.values && r.values[k] == from.values[k]
    ensures forall k :: k in into.values && k !in ks ==> k in r.values && r.values[k] == into.values[k]
    ensures forall k :: k in r.values ==> k in into.values || k in ks
    decreases |ks|
  {
    if |ks| == 0 then into else MoveRow(Put(into, ks[0], from.values[ks[0]]), from, ks[1..])
  }

  /** `mergeStates(mainState, otherState)`. When both hashes lead to the same
      id (or to none) nothing happens. Otherwise the visible items of the
      other state are added (staged) to the main state, edges to and from
      the other state are moved to the main state, the other state and its
      hash are removed, and the main state is stored again under its new
      hash. A state without item sets, or a state that is not in the
      automaton, makes the merge fail. */
  function MergeStates(a: Automaton, main: LRState, other: LRState): (r: Result<Automaton>)
    ensures Objects.Get(a.ids, StateHash(main)) == Objects.Get(a.ids, StateHash(other)) ==> r == Success(a)
  {
    var mid := Objects.Get(a.ids, StateHash(main));
    var oid := Objects.Get(a.ids, StateHash(other));
    if mid == oid then Success(a)
    else if mid.None? || oid.None? then Failure("state is not in the automaton")
    else if main.items.None? || other.items.None? then Failure("state has no item sets")
    else
      match MergedEdges(a.edges, oid.value, mid.value)
      case Failure(msg) => Failure(msg)
      case Success(edges) =>
        var merged := MergedState(main, other);
        var ids := Objects.Remove(Objects.Remove(a.ids, StateHash(other)), StateHash(main));
        Success(Automaton(a.header,
                          Put(Objects.Remove(a.states, oid.value), mid.value, merged),
                          Put(ids, StateHash(merged), mid.value),
                          edges))
  }

  /** The main state with the visible items of the other state added (staged)
      to its core and non-core sets. */
  function MergedState(main: LRState, other: LRState): (r: LRState)
    requires main.items.Some? && other.items.Some?
    ensures r.items.Some? && r.header == main.header
    ensures r.items.value.core.staged.values.Keys
              == main.items.value.core.staged.values.Keys
                 + (set x | x in Values(other.items.value.core.visible) :: Hash(x, true))
    ensures r.items.value.nonCore.staged.values.Keys
              == main.items.value.nonCore.staged.values.Keys
                 + (set x | x in Values(other.items.value.nonCore.visible) :: Hash(x, true))
  {
    var m := main.items.value;
    var o := other.items.value;
    main.(items := Some(StateItems(AddAll(m.core, Values(o.core.visible)),
                                   AddAll(m.nonCore, Values(o.nonCore.visible)))))
  }

  /** The edge loop of `mergeStates`: every edge into the other state is
      moved onto the main state, the other state's edges leave from the main
      state instead, and the main state's self-loop is settled by the order
      in which the two rows are visited. */
  function MergedEdges(e: Edges, other: string, main: string): (r: Result<Edges>)
    requires other != main
    ensures r.Failure? <==> MoveSources(RedirectTargets(e, other, main), other, main).Failure?
  {
    match MoveSources(RedirectTargets(e, other, main), other, main)
    case Failure(msg) => Failure(msg)
    case Success(e2) => Success(MainRowLast(e2, e, other, main))
  }

  /** The edge loop visits the rows in enumeration order. When the other
      state's row comes first, its edges are moved before the main state's
      row is visited; that row's own edge to the other state is redirected
      last and so decides the main state's self-loop. */
  function MainRowLast(e2: Edges, e: Edges, other: string, main: string): (r: Edges)
    ensures r.keys == e2.keys
    ensures forall f :: f in e2.values && f != main ==> r.values[f] == e2.values[f]
    ensures main in e2.values ==>
              && main in r.values
              && (forall t :: t != main ==> Objects.Get(r.values[main], t) == Objects.Get(e2.values[main], t))
              && (main in e2.values[main].values ==> main in r.values[main].values)
    ensures (EnumeratesBefore(e, other, main) && main in e.values && other in e.values[main].values
             && main in e2.values) ==> EdgeSymbols(r, main, main) == e.values[main].values[other]
    ensures !(EnumeratesBefore(e, other, main) && main in e.values && other in e.values[main].values) ==> r == e2
  {
    if EnumeratesBefore(e, other, main) && main in e.values && other in e.values[main].values then
      match Objects.Get(e2, main)
      case None => e2
      case Some(row) => Put(e2, main, Put(row, main, e.values[main].values[other]))
    else e2
  }

  /** After the edge loop no edge leads to the other state. */
  lemma MergedEdgesAvoidOther(e: Edges, other: string, main: string, f: string)
    requires other != main && MergedEdges(e, other, main).Success?
    requires f in MergedEdges(e, other, main).value.values
    ensures other !in MergedEdges(e, other, main).value.values[f].values
  {
    var e1 := RedirectTargets(e, other, main);
    var e2 := MoveSources(e1, other, main).value;
    assert f in e2.values;
    if f == main && other in e1.values && |e1.values[other].keys| > 0 {
      assert other !in e1.values[other].keys;
    } else if f != other {
      assert f in e1.values;
    }
    assert other !in e2.values[f].values;
  }

  /** The edge loop leaves every edge between two third states as it was,
      and an edge from a third state into the other state now leads to the
      main state. */
  lemma MergedEdgesFrame(e: Edges, other: string, main: string, f: string, t: string)
    requires other != main && MergedEdges(e, other, main).Success?
    requires f != main && f != other
    ensures t != main && t != other ==> EdgeSymbols(MergedEdges(e, other, main).value, f, t) == EdgeSymbols(e, f, t)
    ensures f in e.values && other in e.values[f].values ==>
              EdgeSymbols(MergedEdges(e, other, main).value, f, main) == e.values[f].values[other]
  {
    var e1 := RedirectTargets(e, other, main);
    var e2 := MoveSources(e1, other, main).value;
    if f in e.values {
      assert f in e1.values && e1.values[f] == RedirectRow(e.values[f], other, main);
      assert f in e2.values && e2.values[f] == e1.values[f];
    } else if f in e2.values {
      MoveSourcesKeys(e1, other, main, f);
    }
  }

  /** After a merge of two stored states the other state's id is gone, the
      main state holds the other's items under its old id and is found by
      its new hash, and no edge leads to the other state any more. */
  lemma MergeStatesSpec(a: Automaton, main: LRState, other: LRState, f: string)
    requires MergeStates(a, main, other).Success?
    requires Objects.Get(a.ids, StateHash(main)) != Objects.Get(a.ids, StateHash(other))
    ensures var b := MergeStates(a, main, other).value;
            var mid := a.ids.values[StateHash(main)];
            var oid := a.ids.values[StateHash(other)];
            && mid in b.states.values && oid !in b.states.values
            && b.states.values[mid] == MergedState(main, other)
            && b.ids.values[StateHash(b.states.values[mid])] == mid
            && (f in b.edges.values ==> oid !in b.edges.values[f].values)
  {
    var mid := a.ids.values[StateHash(main)];
    var oid := a.ids.values[StateHash(other)];
    if f in MergedEdges(a.edges, oid, mid).value.values {
      MergedEdgesAvoidOther(a.edges, oid, mid, f);
    }
  }

  /** A merge leaves every third state, and every edge between third states,
      as it was; an edge from a third state into the other state now leads
      to the main state. */
  lemma MergeStatesFrame(a: Automaton, main: LRState, other: LRState, id: string, f: string, t: string)
    requires MergeStates(a, main, other).Success?
    requires Objects.Get(a.ids, StateHash(main)) != Objects.Get(a.ids, StateHash(other))
    ensures var b := MergeStates(a, main, other).value;
            var mid := a.ids.values[StateHash(main)];
            var oid := a.ids.values[StateHash(other)];
            && (id in a.states.values && id != mid && id != oid ==>
                  id in b.states.values && b.states.values[id] == a.states.values[id])
            && (f != mid && f != oid && t != mid && t != oid ==> EdgeSymbols(b.edges, f, t) == EdgeSymbols(a.edges, f, t))
            && (f != mid && f != oid && f in a.edges.values && oid in a.edges.values[f].values ==>
                  EdgeSymbols(b.edges, f, mid) == a.edges.values[f].values[oid])
  {
    var mid := a.ids.values[StateHash(main)];
    var oid := a.ids.values[StateHash(other)];
    MergeStatesParts(a, main, other);
    if f != mid && f != oid {
      MergedEdgesFrame(a.edges, oid, mid, f, t);
    }
  }

  /** The states and edges of a merge that goes through. */
  lemma MergeStatesParts(a: Automaton, main: LRState, other: LRState)
    requires MergeStates(a, main, other).Success?
    requires Objects.Get(a.ids, StateHash(main)) != Objects.Get(a.ids, StateHash(other))
    ensures var b := MergeStates(a, main, other).value;
            var mid := a.ids.values[StateHash(main)];
            var oid := a.ids.values[StateHash(other)];
            && mid != oid && MergedEdges(a.edges, oid, mid).Success?
            && b.edges == MergedEdges(a.edges, oid, mid).value
            && b.states == Put(Objects.Remove(a.states, oid), mid, MergedState(main, other))
  {
  }

  /** The merge order of the only caller: the states of a group are merged
      into the one with the lowest id, whose row is visited before the other
      state's, so the main state's self-loop is what the moved edges made
      it. */
  lemma LowestIdFirst(e: Edges, e2: Edges, m: nat, n: nat)
    requires m < n < 0xFFFF_FFFF
    ensures MainRowLast(e2, e, NatToString(n), NatToString(m)) == e2
  {
    NumberKeysInOrder(e, n, m);
  }

  /** `finalize()`: every state is finalized; the automaton's own tag is
      left as it is. */
  function FinalizeAutomaton(a: Automaton): (r: Automaton)
    ensures r.header == a.header && r.ids == a.ids && r.edges == a.edges
    ensures r.states.keys == a.states.keys
    ensures forall id :: id in a.states.values ==> r.states.values[id] == FinalizeState(a.states.values[id])
  {
    a.(states := MapValues(a.states, FinalizeState))
  }

  /** Finalizing keeps every stored state's hash, so the hash index still
      finds every state. */
  lemma FinalizeKeepsIndex(a: Automaton, id: string)
    requires id in a.states.values
    ensures StateHash(FinalizeAutomaton(a).states.values[id]) == StateHash(a.states.values[id])
  {
    FinalizeKeepsHash(a.states.values[id], false, _ => true);
  }
}

=== FILE: lr_item.dfy ===
/** LR items (js/structures/LRItem.js): a grammar rule with a dot position
    and a list of lookahead terminals (empty for an LR(0) item). */
module LRItems {
  import opened Wrappers
  import opened Text
  import opened Symbols
  import opened Words
  import opened Rules
  import opened Grammars

  datatype LRItem = LRItem(rule: Rule, index: nat, lookaheads: seq<Symbol>)

  /** `isFinal()`: the dot is at (or past) the end of the right side. */
  predicate IsFinal(it: LRItem) {
    it.index >= |it.rule.right|
  }

  /** `getSymbolAfterDot()`: the symbol right of the dot, none for a final item. */
  function SymbolAfterDot(it: LRItem): (r: Option<Symbol>)
    ensures r.None? <==> IsFinal(it)
    ensures r.Some? ==> r.value == it.rule.right[it.index]
  {
    Words.Get(it.rule.right, it.index)
  }

  /** `getWordAfterSymbolAfterDot()`: what follows the symbol after the dot. */
  function WordAfter(it: LRItem): (r: Word)
    ensures !IsFinal(it) ==> r == it.rule.right[it.index + 1..]
    ensures IsFinal(it) ==> r == []
  {
    Slice(it.rule.right, it.index + 1, None)
  }

  /** `createFollowingItem()`: the dot moved one symbol right, or none for a
      final item. */
  function Following(it: LRItem): (r: Option<LRItem>)
    ensures r.None? <==> IsFinal(it)
    ensures r.Some? ==> r.value.rule == it.rule && r.value.index == it.index + 1
                        && r.value.lookaheads == it.lookaheads
  {
    if IsFinal(it) then None else Some(LRItem(it.rule, it.index + 1, it.lookaheads))
  }

  /** The symbol after the dot and the word after it together are the rest
      of the right side, and moving the dot consumes exactly that symbol. */
  lemma DotSplitsRight(it: LRItem)
    requires !IsFinal(it)
    ensures [SymbolAfterDot(it).value] + WordAfter(it) == it.rule.right[it.index..]
    ensures Following(it).value.rule.right[Following(it).value.index..] == WordAfter(it)
  {
    var w := it.rule.right;
    assert w[it.index..] == [w[it.index]] + w[it.index + 1..];
  }

  /** Moving the dot |right| - index times from a non-final item reaches the
      final item of the same rule. */
  lemma {:induction false} FollowingReachesFinal(it: LRItem)
    ensures IsFinal(Advance(it, |it.rule.right| - it.index))
    ensures Advance(it, |it.rule.right| - it.index).rule == it.rule
    decreases |it.rule.right| - it.index
  {
    if !IsFinal(it) {
      FollowingReachesFinal(Following(it).value);
    }
  }

  /** The item after k dot moves, stopping at the final item. */
  function Advance(it: LRItem, k: int): LRItem
    decreases if k < 0 then 0 else k
  {
    if k <= 0 then it
    else match Following(it)
      case None => it
      case Some(next) => Advance(next, k - 1)
  }

  // ---------------------------------------------------------------------
  // The JSON text of `toString(noLookahead)`.

  /** The object `toString` serialises. */
  datatype ItemData = ItemData(l: string, r: string, i: nat, la: seq<string>)

  function ToData(it: LRItem, noLookahead: bool): ItemData {
    ItemData(it.rule.left, ToString(it.rule.right), it.index,
             if noLookahead then [] else Texts(it.lookaheads))
  }

  function Quote(s: string): string {
    "\"" + s + "\""
  }

  function QuotedList(xs: seq<string>): string {
    Join(seq(|xs|, k requires 0 <= k < |xs| => Quote(xs[k])), ",")
  }

  /** `JSON.stringify` of the object, with the keys in the order they are
      written. Symbol texts never need escaping, so none is modelled. */
  function Json(d: ItemData): string {
    "{\"l\":\"" + (d.l + ("\",\"r\":\"" + (d.r + ("\",\"i\":" + (NatToString(d.i)
      + (",\"la\":[" + (QuotedList(d.la) + "]}")))))))
  }

  /** `toString(noLookahead)`; `toString(true)` is the key of the item in an
      item set. */
  function Hash(it: LRItem, noLookahead: bool): string {
    Json(ToData(it, noLookahead))
  }

  /** Rule sides whose texts contain no double quote. */
  predicate QuoteFree(it: LRItem) {
    NoChar(it.rule.left, '"') && NoChar(ToString(it.rule.right), '"')
  }

  /** Equal JSON texts of quote-free data name the same rule sides and dot. */
  lemma JsonInjective(d1: ItemData, d2: ItemData)
    requires NoChar(d1.l, '"') && NoChar(d1.r, '"')
    requires NoChar(d2.l, '"') && NoChar(d2.r, '"')
    requires Json(d1) == Json(d2)
    ensures d1.l == d2.l && d1.r == d2.r && d1.i == d2.i
  {
    var p0 := "{\"l\":\"";
    var t1 := "\",\"r\":\"" + (d1.r + ("\",\"i\":" + (NatToString(d1.i) + (",\"la\":[" + (QuotedList(d1.la) + "]}")))));
    var t2 := "\",\"r\":\"" + (d2.r + ("\",\"i\":" + (NatToString(d2.i) + (",\"la\":[" + (QuotedList(d2.la) + "]}")))));
    assert d1.l + t1 == (p0 + (d1.l + t1))[|p0|..];
    assert d2.l + t2 == (p0 + (d2.l + t2))[|p0|..];
    SplitAtChar(d1.l, t1, d2.l, t2, '"');
    var p1 := "\",\"r\":\"";
    var u1 := "\",\"i\":" + (NatToString(d1.i) + (",\"la\":[" + (QuotedList(d1.la) + "]}")));
    var u2 := "\",\"i\":" + (NatToString(d2.i) + (",\"la\":[" + (QuotedList(d2.la) + "]}")));
    assert d1.r + u1 == t1[|p1|..];
    assert d2.r + u2 == t2[|p1|..];
    SplitAtChar(d1.r, u1, d2.r, u2, '"');
    var p2 := "\",\"i\":";
    var v1 := ",\"la\":[" + (QuotedList(d1.la) + "]}");
    var v2 := ",\"la\":[" + (QuotedList(d2.la) + "]}");
    assert NatToString(d1.i) + v1 == u1[|p2|..];
    assert NatToString(d2.i) + v2 == u2[|p2|..];
    DigitsAvoid(NatToString(d1.i), ',');
    DigitsAvoid(NatToString(d2.i), ',');
    SplitAtChar(NatToString(d1.i), v1, NatToString(d2.i), v2, ',');
    NatToStringInjective(d1.i, d2.i);
  }

  lemma DigitsAvoid(s: string, c: char)
    requires AllDigits(s) && !IsDigit(c)
    ensures NoChar(s, c)
  {
  }

  /** `toString(true)` ignores lookaheads: it tells apart exactly the items
      that differ in rule sides or dot position. */
  lemma HashIgnoresLookaheads(a: LRItem, b: LRItem)
    requires QuoteFree(a) && QuoteFree(b)
    ensures Hash(a, true) == Hash(b, true) <==>
              a.rule.left == b.rule.left && ToString(a.rule.right) == ToString(b.rule.right)
              && a.index == b.index
  {
    if Hash(a, true) == Hash(b, true) {
      JsonInjective(ToData(a, true), ToData(b, true));
    }
  }

  /** The full `toString()` determines the key `toString(true)`. */
  lemma FullHashDeterminesKey(a: LRItem, b: LRItem)
    requires QuoteFree(a) && QuoteFree(b)
    requires Hash(a, false) == Hash(b, false)
    ensures Hash(a, true) == Hash(b, true)
  {
    JsonInjective(ToData(a, false), ToData(b, false));
  }

  /** Items built from valid grammar symbols are quote-free. */
  lemma ValidItemQuoteFree(it: LRItem)
    requires Check(it.rule.left)
    requires forall i :: 0 <= i < |it.rule.right| ==> Check(it.rule.right[i].Text())
    ensures QuoteFree(it)
  {
    var w := it.rule.right;
    if |w| > 0 {
      var parts := Texts(w);
      forall i | 0 <= i < |parts| ensures NoChar(parts[i], '"') {
        assert Check(parts[i]);
      }
      JoinAvoids(parts, " ", '"');
    }
  }

  // ---------------------------------------------------------------------
  // `fromData`

  /** `$.map(texts, tryGetSymbol)`: jQuery's map drops the texts that do not
      name a symbol. */
  function ResolveAll(g: Grammar, texts: seq<string>): (r: seq<Symbol>)
    ensures |r| <= |texts|
    ensures forall x :: x in r ==> exists t :: t in texts && TryGetSymbol(g, t) == Some(x)
    decreases |texts|
  {
    if |texts| == 0 then []
    else
      var rest := ResolveAll(g, texts[1..]);
      match TryGetSymbol(g, texts[0])
      case None => rest
      case Some(s) => [s] + rest
  }

  /** `LRItem.fromData(data, grammar)`. The rule is looked up by its sides;
      when the grammar has no such rule the item cannot be built. */
  function FromData(g: Grammar, d: ItemData): (r: Result<LRItem>)
    ensures r.Success? <==> TryGetRule(g, d.l, d.r).Some?
    ensures r.Success? ==> r.value.rule == TryGetRule(g, d.l, d.r).value && r.value.index == d.i
  {
    match TryGetRule(g, d.l, d.r)
    case None => Failure("no such rule: " + d.l + " -> " + d.r)
    case Some(rule) => Success(LRItem(rule, d.i, ResolveAll(g, d.la)))
  }

  /** An item's lookaheads are read back when the grammar resolves each of
      their texts to that very symbol. */
  predicate Resolves(g: Grammar, la: seq<Symbol>) {
    forall k :: 0 <= k < |la| ==> TryGetSymbol(g, la[k].Text()) == Some(la[k])
  }

  lemma {:induction false} ResolveTexts(g: Grammar, la: seq<Symbol>)
    requires Resolves(g, la)
    ensures ResolveAll(g, Texts(la)) == la
    decreases |la|
  {
    if |la| > 0 {
      assert Texts(la)[1..] == Texts(la[1..]);
      ResolveTexts(g, la[1..]);
    }
  }

  /** `fromData` inverts `toString()` for an item whose rule is the one the
      grammar stores under its sides and whose lookaheads resolve. */
  lemma FromDataToData(g: Grammar, it: LRItem)
    requires TryGetRule(g, it.rule.left, ToString(it.rule.right)) == Some(it.rule)
    requires Resolves(g, it.lookaheads)
    ensures FromData(g, ToData(it, false)) == Success(it)
  {
    ResolveTexts(g, it.lookaheads);
  }
}

=== FILE: lr_parser.dfy ===
/** The LR parser simulation (js/parsing/LRParserAlgorithm.js): a stack of
    state ids starting with "0", a parallel stack of symbols starting with
    an unnamed marker state, the input word with its end marker, and an LR
    table (of any kind: SLR, LR(1) or LALR). The single action of cell
    ACTION[top state, lookahead] shifts, reduces, accepts or reports an
    error. A `parseStep` and the tasks it schedules are taken together as
    one step. */
module LRParsers {
  import opened Wrappers
  import opened Symbols
  import opened Words
  import opened Rules
  import opened Objects
  import opened ParserActions
  import opened ParserStructures
  import opened Derivations

  /** The symbol stack holds the marker (an item) and grammar symbols; the
      state stack holds state ids (items). */
  datatype LRParser = LRParser(symbols: Stack<string>, states: Stack<string>, input: ParserInput,
                               output: ParserOutput, verdict: Verdict)

  /** `init`: the marker state on the symbol stack, state "0" on the state
      stack, an empty output. */
  function Init(word: Word): (p: LRParser)
    ensures PeekTop(p.states) == Some(ItemEntry("0")) && |p.states| == |p.symbols| == 1
    ensures Lookahead(p.input) == Some(if |word| > 0 then word[0] else EndMarker)
  {
    LRParser(Push([], ItemEntry("")), Push([], ItemEntry("0")), NewInput(Some(word), true), NewOutput(), NotFinished)
  }

  /** `actionShiftPushSymbol` and `actionShiftGoto`: the lookahead is read
      from the input onto the symbol stack and the target state pushed. */
  function ShiftTo(p: LRParser, la: Symbol, s: string): (r: Result<LRParser>)
    ensures r.Success? ==> r.value.output == p.output && r.value.verdict == p.verdict
    ensures r.Success? ==> r.value.states == Push(p.states, ItemEntry(s))
                           && r.value.symbols == Push(p.symbols, SymbolEntry(la))
    ensures r.Failure? <==> p.input.pos + 1 == |p.input.w|
  {
    match Next(p.input)
    case Failure(e) => Failure(e)
    case Success((_, input')) =>
      Success(p.(symbols := Push(p.symbols, SymbolEntry(la)), states := Push(p.states, ItemEntry(s)), input := input'))
  }

  /** `actionReducePopStack`, `actionReducePushSymbol` and
      `actionReduceGoto`: both stacks lose as many entries as x's right
      side is long, the left side is pushed as a symbol, and the single
      entry of GOTO[uncovered state, left side] is pushed as the new state
      while x is emitted. The goto cell may also end the parse. */
  function ReduceBy(t: Cells, p: LRParser, x: Rule): (r: Result<LRParser>)
    requires p.verdict == NotFinished
    ensures r.Success? ==> r.value.input == p.input
    ensures r.Success? && r.value.verdict == NotFinished ==>
              && r.value.output == Emit(p.output, x)
              && r.value.symbols == Push(PopN(p.symbols, |x.right|), SymbolEntry(Nonterminal(x.left)))
              && |r.value.states| == |PopN(p.states, |x.right|)| + 1
              && r.value.states[..|r.value.states| - 1] == PopN(p.states, |x.right|)
    ensures r.Success? && r.value.verdict != NotFinished ==> r.value.output == p.output
  {
    var states' := PopN(p.states, |x.right|);
    var symbols' := PopN(p.symbols, |x.right|);
    match PeekTop(states')
    case None => Failure("there is no state under the popped ones")
    case Some(SymbolEntry(_)) => Failure("the stack top is not a state")
    case Some(ItemEntry(under)) =>
      var symbols'' := Push(symbols', SymbolEntry(Nonterminal(x.left)));
      var key := (under, x.left);
      if key !in t then Failure("no table cell for " + under + ", " + x.left)
      else
        var cell := t[key];
        if |cell| < 1 then Success(p.(states := states', symbols := symbols'', verdict := Unparsable))
        else if |cell| > 1 then Success(p.(states := states', symbols := symbols'', verdict := Ambiguous))
        else match cell[0]
          case Goto(s) =>
            Success(p.(states := Push(states', ItemEntry(s)), symbols := symbols'', output := Emit(p.output, x)))
          case _ => Failure("what goto?")
  }

  /** The single action of ACTION[top state, lookahead], if the cell has
      exactly one. */
  function Pending(t: Cells, p: LRParser): (r: Option<Action>)
    ensures r.Some? ==> exists id :: PeekTop(p.states) == Some(ItemEntry(id)) && Lookahead(p.input).Some?
                          && (id, Lookahead(p.input).value.Text()) in t
                          && t[(id, Lookahead(p.input).value.Text())] == [r.value]
  {
    match PeekTop(p.states)
    case Some(ItemEntry(id)) =>
      (match Lookahead(p.input)
       case Some(la) =>
         var key := (id, la.Text());
         if key in t && |t[key]| == 1 then
           assert t[key] == [t[key][0]];
           Some(t[key][0])
         else None
       case None => None)
    case _ => None
  }

  /** While the parse goes on, the stacks have the same height: the marker
      matches state "0" and every symbol matches the state pushed with it. */
  predicate Heights(p: LRParser) {
    p.verdict == NotFinished || p.verdict == Accepted ==> |p.states| == |p.symbols| >= 1
  }

  /** One parser step: finished parses stay as they are, and the stacks
      keep the same height. A shift pushes the lookahead itself, which is
      what `next` returns there. */
  function Step(t: Cells, p: LRParser): (r: Result<LRParser>)
    ensures p.verdict != NotFinished ==> r == Success(p)
    ensures Heights(p) && r.Success? ==> Heights(r.value)
    ensures r.Success? && p.verdict == NotFinished && r.value.verdict == Accepted ==>
              Pending(t, p) == Some(Accept) && r.value == p.(verdict := Accepted)
    ensures r.Success? && p.verdict == NotFinished && r.value.verdict == NotFinished ==>
              Pending(t, p).Some? && (Pending(t, p).value.Shift? || Pending(t, p).value.Reduce?)
  {
    if p.verdict != NotFinished then Success(p)
    else match PeekTop(p.states)
      case None => Failure("there is no current state")
      case Some(SymbolEntry(_)) => Failure("the stack top is not a state")
      case Some(ItemEntry(id)) =>
        match Lookahead(p.input)
        case None => Failure("there is no lookahead")
        case Some(la) =>
          var key := (id, la.Text());
          if key !in t then Failure("no table cell for " + id + ", " + la.Text())
          else
            var cell := t[key];
            if |cell| < 1 then Success(p.(verdict := Unparsable))
            else if |cell| > 1 then Success(p.(verdict := Ambiguous))
            else match cell[0]
              case Error(_) => Success(p.(verdict := Unparsable))
              case Accept => Success(p.(verdict := Accepted))
              case Shift(s) => ShiftTo(p, la, s)
              case Reduce(x) => ReduceBy(t, p, x)
              case _ => Failure("what action?")
  }

  /** `parse`: steps repeated while the parse is not finished, at most
      `fuel` of them. */
  function Run(t: Cells, p: LRParser, fuel: nat): (r: Result<LRParser>)
    ensures p.verdict != NotFinished ==> r == Success(p)
    ensures Heights(p) && r.Success? ==> Heights(r.value)
    decreases fuel
  {
    if fuel == 0 || p.verdict != NotFinished then Success(p)
    else match Step(t, p)
      case Failure(e) => Failure(e)
      case Success(p') => Run(t, p', fuel - 1)
  }

  /** `result`: an accepted parse finishes its output in LR order, which
      reverses the emitted rules. */
  function Finished(p: LRParser): (r: LRParser)
    ensures r.verdict == p.verdict && r.symbols == p.symbols && r.input == p.input
    ensures p.verdict == Accepted && !p.output.finished ==> r.output.rules == Reverse(p.output.rules)
    ensures p.verdict != Accepted ==> r == p
  {
    if p.verdict == Accepted then p.(output := Finish(p.output, true)) else p
  }

  /** The whole simulation on the given table and word. */
  function Parse(t: Cells, word: Word, fuel: nat): Result<LRParser> {
    match Run(t, Init(word), fuel)
    case Failure(e) => Failure(e)
    case Success(p) => Success(Finished(p))
  }

  // ---------------------------------------------------------------------
  // Soundness

  /** The right side of x is on top of the symbol stack, above the marker. */
  predicate Spells(p: LRParser, x: Rule) {
    var s := StackSymbols(p.symbols);
    |x.right| <= |s| && s[|s| - |x.right|..] == x.right
  }

  /** The LR parser never looks at the symbol stack: the table alone
      decides what is reduced. This holds when the next reduction, if any,
      finds its right side on top of the symbol stack. */
  predicate Matching(t: Cells, p: LRParser) {
    Pending(t, p).Some? && Pending(t, p).value.Reduce? ==> Spells(p, Pending(t, p).value.rule)
  }

  /** Every reduction of the run is matching. */
  predicate RunMatches(t: Cells, p: LRParser, fuel: nat)
    decreases fuel
  {
    fuel > 0 && p.verdict == NotFinished ==>
      Matching(t, p) && (Step(t, p).Success? ==> RunMatches(t, Step(t, p).value, fuel - 1))
  }

  /** The symbols on the stack followed by the unread input are the form
      the emitted rules, read backwards as a rightmost derivation, turn
      into the word. */
  predicate Inv(p: LRParser, word: Word) {
    && p.input.w == word + [EndMarker] && p.input.pos <= |word|
    && |p.symbols| >= 1 && p.symbols[0] == Plain("")
    && (forall i :: 1 <= i < |p.symbols| ==> p.symbols[i].SymbolWrapper?)
    && !p.output.finished
    && (p.verdict == NotFinished || p.verdict == Accepted ==>
          DeriveRight(StackSymbols(p.symbols) + word[p.input.pos..], Reverse(p.output.rules)) == Some(word))
  }

  lemma InitInv(word: Word)
    ensures Inv(Init(word), word)
  {
    var p := Init(word);
    assert p.symbols == [Plain("")];
    assert StackSymbols(p.symbols) == [] by {
      assert p.symbols[..0] == [];
    }
    assert p.output.rules == [] && Reverse(p.output.rules) == [];
    assert StackSymbols(p.symbols) + word[p.input.pos..] == word;
  }

  /** The symbol-stack contents above the marker. */
  lemma SymbolsAboveMarker(st: Stack<string>)
    requires |st| >= 1 && st[0] == Plain("")
    requires forall i :: 1 <= i < |st| ==> st[i].SymbolWrapper?
    ensures |StackSymbols(st)| == |st| - 1
    ensures forall i :: 1 <= i < |st| ==> StackSymbols(st)[i - 1] == st[i].symbol
  {
    assert st == [st[0]] + st[1..];
    StackSymbolsAppend([st[0]], st[1..]);
    assert StackSymbols([st[0]]) == [] by {
      assert [st[0]][..0] == [];
    }
    StackSymbolsWrapped(st[1..]);
  }

  /** Pushing a symbol adds it to the stack symbols. */
  lemma PushSymbol(st: Stack<string>, a: Symbol)
    ensures StackSymbols(Push(st, SymbolEntry(a))) == StackSymbols(st) + [a]
  {
    assert Push(st, SymbolEntry(a))[..|st|] == st;
  }

  /** Shifting moves the lookahead from the input onto the symbol stack. */
  lemma ShiftKeepsInv(p: LRParser, word: Word, s: string)
    requires TerminalWord(word) && Inv(p, word) && p.verdict == NotFinished
    requires ShiftTo(p, Lookahead(p.input).value, s).Success?
    ensures Inv(ShiftTo(p, Lookahead(p.input).value, s).value, word)
  {
    var la := Lookahead(p.input).value;
    var q := ShiftTo(p, la, s).value;
    var pos := p.input.pos;
    assert pos < |word| && la == word[pos];
    PushSymbol(p.symbols, la);
    assert word[pos..] == [la] + word[pos + 1..];
    AppendAssoc(StackSymbols(p.symbols), [la], word[pos + 1..]);
    assert q.symbols[..|p.symbols|] == p.symbols;
  }

  /** The unread input has no nonterminal. */
  lemma RestIsTerminal(word: Word, pos: nat)
    requires TerminalWord(word) && pos <= |word|
    ensures NoNonterminal(word[pos..])
  {
    forall j | 0 <= j < |word[pos..]| ensures !word[pos..][j].Nonterminal? {
      assert word[pos..][j] == word[pos + j];
    }
  }

  /** Reducing by x when its right side is on top undoes one rightmost
      step by x. */
  lemma ReduceStep(below: Word, x: Rule, rest: Word, out: seq<Rule>, word: Word)
    requires NoNonterminal(rest)
    requires DeriveRight(below + x.right + rest, out) == Some(word)
    ensures DeriveRight(below + [Nonterminal(x.left)] + rest, [x] + out) == Some(word)
  {
    RightStepMeans(below, Nonterminal(x.left), rest, x);
    DeriveRightCons(below + [Nonterminal(x.left)] + rest, x, out, below + x.right + rest);
  }

  /** The symbols left after popping the right side of x. */
  lemma PopSpelled(st: Stack<string>, x: Rule)
    requires |st| >= 1 && st[0] == Plain("")
    requires forall i :: 1 <= i < |st| ==> st[i].SymbolWrapper?
    requires |x.right| <= |StackSymbols(st)| && StackSymbols(st)[|StackSymbols(st)| - |x.right|..] == x.right
    ensures var low := PopN(st, |x.right|);
            && |low| >= 1 && low[0] == Plain("")
            && (forall i :: 1 <= i < |low| ==> low[i].SymbolWrapper?)
            && StackSymbols(st) == StackSymbols(low) + x.right
  {
    var low := PopN(st, |x.right|);
    var s := StackSymbols(st);
    SymbolsAboveMarker(st);
    SymbolsAboveMarker(low);
    forall i | 0 <= i < |low| - 1 ensures StackSymbols(low)[i] == s[i] {
      assert low[i + 1] == st[i + 1];
    }
    assert StackSymbols(low) == s[..|s| - |x.right|];
    assert s == s[..|s| - |x.right|] + s[|s| - |x.right|..];
  }

  /** The derivation invariant on the symbols alone: reducing by x, when
      its right side is on top, keeps the form deriving the word. */
  lemma ReduceForm(st: Stack<string>, x: Rule, rest: Word, out: seq<Rule>, word: Word)
    requires |st| >= 1 && st[0] == Plain("")
    requires forall i :: 1 <= i < |st| ==> st[i].SymbolWrapper?
    requires |x.right| <= |StackSymbols(st)| && StackSymbols(st)[|StackSymbols(st)| - |x.right|..] == x.right
    requires NoNonterminal(rest)
    requires DeriveRight(StackSymbols(st) + rest, Reverse(out)) == Some(word)
    ensures DeriveRight(StackSymbols(Push(PopN(st, |x.right|), SymbolEntry(Nonterminal(x.left)))) + rest,
                        Reverse(out + [x])) == Some(word)
  {
    var low := PopN(st, |x.right|);
    PopSpelled(st, x);
    PushSymbol(low, Nonterminal(x.left));
    AppendAssoc(StackSymbols(low), x.right, rest);
    ReduceStep(StackSymbols(low), x, rest, Reverse(out), word);
    ReverseAppend(out, [x]);
    assert Reverse([x]) == [x];
  }

  /** The marker stays at the bottom of the symbol stack and symbols above it. */
  lemma ReduceShape(st: Stack<string>, x: Rule)
    requires |st| >= 1 && st[0] == Plain("")
    requires forall i :: 1 <= i < |st| ==> st[i].SymbolWrapper?
    requires |x.right| <= |StackSymbols(st)| && StackSymbols(st)[|StackSymbols(st)| - |x.right|..] == x.right
    ensures var st' := Push(PopN(st, |x.right|), SymbolEntry(Nonterminal(x.left)));
            && |st'| >= 1 && st'[0] == Plain("")
            && (forall i :: 1 <= i < |st'| ==> st'[i].SymbolWrapper?)
  {
    var low := PopN(st, |x.right|);
    PopSpelled(st, x);
    var st' := Push(low, SymbolEntry(Nonterminal(x.left)));
    assert st'[..|low|] == low;
  }

  lemma ReduceKeepsInv(t: Cells, p: LRParser, word: Word, x: Rule)
    requires TerminalWord(word) && Inv(p, word) && p.verdict == NotFinished && Spells(p, x)
    requires ReduceBy(t, p, x).Success?
    ensures Inv(ReduceBy(t, p, x).value, word)
  {
    var q := ReduceBy(t, p, x).value;
    ReduceShape(p.symbols, x);
    if q.verdict == NotFinished {
      RestIsTerminal(word, p.input.pos);
      ReduceForm(p.symbols, x, word[p.input.pos..], p.output.rules, word);
    }
  }

  lemma StepKeepsInv(t: Cells, p: LRParser, word: Word)
    requires TerminalWord(word) && Inv(p, word) && Matching(t, p)
    requires Step(t, p).Success?
    ensures Inv(Step(t, p).value, word)
  {
    if p.verdict == NotFinished {
      match Pending(t, p)
      case Some(Shift(s)) => ShiftKeepsInv(p, word, s);
      case Some(Reduce(x)) => ReduceKeepsInv(t, p, word, x);
      case _ =>
    }
  }

  lemma {:induction false} RunKeepsInv(t: Cells, p: LRParser, word: Word, fuel: nat)
    requires TerminalWord(word) && Inv(p, word) && RunMatches(t, p, fuel)
    requires Run(t, p, fuel).Success?
    ensures Inv(Run(t, p, fuel).value, word)
    decreases fuel
  {
    if fuel > 0 && p.verdict == NotFinished {
      StepKeepsInv(t, p, word);
      RunKeepsInv(t, Step(t, p).value, word, fuel - 1);
    }
  }

  /** When every reduction of the run finds its right side on top of the
      symbol stack, and the parse accepts with only the start symbol on the
      stack and the input read up to the end marker, the finished output
      is a rightmost derivation of the word from the start symbol. */
  lemma ParseSound(t: Cells, start: string, word: Word, fuel: nat)
    requires TerminalWord(word) && RunMatches(t, Init(word), fuel)
    requires Parse(t, word, fuel).Success? && Parse(t, word, fuel).value.verdict == Accepted
    requires StackSymbols(Parse(t, word, fuel).value.symbols) == [Nonterminal(start)]
    requires Parse(t, word, fuel).value.input.pos == |word|
    ensures Parse(t, word, fuel).value.output.finished
    ensures DeriveRight([Nonterminal(start)], Parse(t, word, fuel).value.output.rules) == Some(word)
  {
    InitInv(word);
    RunKeepsInv(t, Init(word), word, fuel);
    var p := Run(t, Init(word), fuel).value;
    assert Parse(t, word, fuel) == Success(Finished(p));
    assert p.verdict == Accepted && Inv(p, word);
    assert word[|word|..] == [];
    assert StackSymbols(p.symbols) + word[p.input.pos..] == [Nonterminal(start)];
  }
}

=== FILE: lr_state.dfy ===
/** LR states (js/structures/LRState.js): a core and a non-core item set,
    each a staged set keyed by the lookahead-free text of its items, whose
    `add` merges the lookaheads of items with the same rule and dot. */
module LRStates {
  import opened Wrappers
  import opened Text
  import opened Objects
  import opened Symbols
  import opened LRItems
  import opened GrammarEdits
  import Staging

  type ItemSet = Staging.SetStructure<LRItem>

  /** `new LRItemSet()`: no id and no name. */
  function NewItemSet(): ItemSet {
    Staging.NewSet("", "")
  }

  /** Every item is stored under `getHashOfItem(item)`. */
  ghost predicate KeyedByHash(d: Dict<LRItem>) {
    forall k :: k in d.values ==> Hash(d.values[k], true) == k
  }

  ghost predicate AllQuoteFree(d: Dict<LRItem>) {
    forall k :: k in d.values ==> QuoteFree(d.values[k])
  }

  // ---------------------------------------------------------------------
  // The lookahead merge of `add`.

  function TextSet(la: seq<Symbol>): set<string> {
    set x | x in la :: x.Text()
  }

  /** Each symbol stored under its own text. */
  ghost predicate ByText(d: Dict<Symbol>) {
    forall k :: k in d.values ==> d.values[k].Text() == k
  }

  /** The first loop: every present lookahead stored under its text. */
  function StoreAll(d: Dict<Symbol>, la: seq<Symbol>): (r: Dict<Symbol>)
    ensures r.values.Keys == d.values.Keys + TextSet(la)
    ensures ByText(d) ==> ByText(r)
    decreases |la|
  {
    if |la| == 0 then d
    else
      assert TextSet(la) == {la[0].Text()} + TextSet(la[1..]);
      StoreAll(Put(d, la[0].Text(), la[0]), la[1..])
  }

  /** The second loop: the new lookaheads whose text is not stored yet, and
      whether there was any. */
  function StoreNew(d: Dict<Symbol>, la: seq<Symbol>): (r: (Dict<Symbol>, bool))
    ensures r.0.values.Keys == d.values.Keys + TextSet(la)
    ensures r.1 <==> !(TextSet(la) <= d.values.Keys)
    ensures !r.1 ==> r.0 == d
    ensures ByText(d) ==> ByText(r.0)
    decreases |la|
  {
    if |la| == 0 then (d, false)
    else
      assert TextSet(la) == {la[0].Text()} + TextSet(la[1..]);
      if la[0].Text() in d.values then StoreNew(d, la[1..])
      else (StoreNew(Put(d, la[0].Text(), la[0]), la[1..]).0, true)
  }

  lemma ValuesByText(d: Dict<Symbol>)
    requires ByText(d)
    ensures TextSet(Values(d)) == d.values.Keys
  {
    var vs := Values(d);
    forall k | k in d.values ensures k in TextSet(vs) {
      var i :| 0 <= i < |d.keys| && d.keys[i] == k;
      assert vs[i].Text() == k;
    }
  }

  /** The merged lookaheads: present ones first, then the new texts. Their
      texts are the union, and the answer is whether a new text appeared. */
  function MergeLookaheads(present: seq<Symbol>, added: seq<Symbol>): (r: (seq<Symbol>, bool))
    ensures TextSet(r.0) == TextSet(present) + TextSet(added)
    ensures r.1 <==> !(TextSet(added) <= TextSet(present))
  {
    var d0 := StoreAll(Empty(), present);
    var (d, changed) := StoreNew(d0, added);
    ValuesByText(d);
    (Values(d), changed)
  }

  // ---------------------------------------------------------------------
  // `LRItemSet.add`

  /** `add(newItem, immediately)`: an item with a new key is stored as it is
      and the answer is true; for a present key the lookaheads are merged:
      the stored texts become the union, the answer is whether the new item
      contributed a text, and with nothing new the stored item is kept. The
      staged map is always written, the visible one only when `immediately`. */
  function AddItem(s: ItemSet, it: LRItem, immediately: bool): (r: (ItemSet, bool))
    ensures r.0.header == s.header
    ensures r.0.staged.values.Keys == s.staged.values.Keys + {Hash(it, true)}
    ensures forall k :: k in s.staged.values && k != Hash(it, true) ==>
              r.0.staged.values[k] == s.staged.values[k]
    ensures immediately ==> r.0.visible.values == s.visible.values[Hash(it, true) := r.0.staged.values[Hash(it, true)]]
    ensures !immediately ==> r.0.visible == s.visible
    ensures Hash(it, true) !in s.staged.values ==> r.1 && r.0.staged.values[Hash(it, true)] == it
    ensures Hash(it, true) in s.staged.values ==>
              var present := s.staged.values[Hash(it, true)];
              var stored := r.0.staged.values[Hash(it, true)];
              && (r.1 <==> !(TextSet(it.lookaheads) <= TextSet(present.lookaheads)))
              && TextSet(stored.lookaheads) == TextSet(present.lookaheads) + TextSet(it.lookaheads)
              && (r.1 ==> stored.rule == it.rule && stored.index == it.index)
              && (!r.1 ==> stored == present)
  {
    var key := Hash(it, true);
    var (final, changed) := Merged(Objects.Get(s.staged, key), it);
    (Staging.Add(s, key, final, immediately).0, changed)
  }

  /** The item `add` stores given what is stored under the key, and its answer. */
  function Merged(present: Option<LRItem>, it: LRItem): (r: (LRItem, bool))
    ensures present.None? ==> r == (it, true)
    ensures present.Some? ==>
              && (r.1 <==> !(TextSet(it.lookaheads) <= TextSet(present.value.lookaheads)))
              && TextSet(r.0.lookaheads) == TextSet(present.value.lookaheads) + TextSet(it.lookaheads)
              && (r.1 ==> r.0.rule == it.rule && r.0.index == it.index)
              && (!r.1 ==> r.0 == present.value)
  {
    match present
    case None => (it, true)
    case Some(p) =>
      var (la, ch) := MergeLookaheads(p.lookaheads, it.lookaheads);
      (if ch then LRItem(it.rule, it.index, la) else p, ch)
  }

  /** `add` keeps every item under its own hash. */
  lemma AddItemKeyed(s: ItemSet, it: LRItem, immediately: bool)
    requires KeyedByHash(s.staged)
    ensures KeyedByHash(AddItem(s, it, immediately).0.staged)
  {
    var key := Hash(it, true);
    var stored := AddItem(s, it, immediately).0.staged.values[key];
    assert Hash(stored, true) == key by {
      if key in s.staged.values && AddItem(s, it, immediately).1 {
        assert ToData(stored, true) == ToData(it, true);
      }
    }
  }

  /** Adding the same item twice: the second add changes nothing and
      answers false. */
  lemma AddItemTwice(s: ItemSet, it: LRItem, immediately: bool)
    ensures var s1 := AddItem(s, it, immediately).0;
            AddItem(s1, it, immediately).1 == false
            && AddItem(s1, it, immediately).0.staged == s1.staged
  {
    var key := Hash(it, true);
    var s1 := AddItem(s, it, immediately).0;
    assert key in s1.staged.values;
    assert TextSet(it.lookaheads) <= TextSet(s1.staged.values[key].lookaheads);
    AddNothingNew(s1, it, immediately);
  }

  /** An add whose lookaheads are all present already answers false and
      leaves the staged map as it was. */
  lemma AddNothingNew(s: ItemSet, it: LRItem, immediately: bool)
    requires Hash(it, true) in s.staged.values
    requires TextSet(it.lookaheads) <= TextSet(s.staged.values[Hash(it, true)].lookaheads)
    ensures AddItem(s, it, immediately).1 == false
    ensures AddItem(s, it, immediately).0.staged == s.staged
  {
  }

  /** `getItemHashes(noLookahead)`: the keys, or the full text of every item,
      in set order. */
  function ItemHashes(s: ItemSet, noLookahead: bool): (r: seq<string>)
    ensures |r| == |s.staged.keys|
  {
    if noLookahead then s.staged.keys
    else seq(|s.staged.keys|, i requires 0 <= i < |s.staged.keys| =>
               Hash(s.staged.values[s.staged.keys[i]], false))
  }

  // ---------------------------------------------------------------------
  // LRState

  datatype StateItems = StateItems(core: ItemSet, nonCore: ItemSet)

  /** A state's header and its two item sets; a state built with `noItems`
      has none. */
  datatype LRState = LRState(header: Staging.Header, items: Option<StateItems>)

  /** `new LRState(id, name, noItems)`. */
  function NewState(id: string, name: string, noItems: bool): LRState {
    LRState(Staging.NewHeader(id, name),
            if noItems then None else Some(StateItems(NewItemSet(), NewItemSet())))
  }

  /** `getCoreHash(noLookahead)`: the sorted core item hashes between
      brackets; "[]" for a state without item sets. */
  function CoreHash(st: LRState, noLookahead: bool): string {
    match st.items
    case None => "[]"
    case Some(its) => "[" + Join(SortKeys(Natural, ItemHashes(its.core, noLookahead)), ",") + "]"
  }

  /** The core hash is "[]" exactly for a state without items or with an
      empty core. */
  lemma CoreHashEmpty(st: LRState, noLookahead: bool)
    requires st.items.Some? ==> KeyedByHash(st.items.value.core.staged)
    ensures CoreHash(st, noLookahead) == "[]" <==>
              st.items.None? || |st.items.value.core.staged.keys| == 0
  {
    if st.items.Some? {
      var core := st.items.value.core;
      var h := ItemHashes(core, noLookahead);
      var sorted := SortKeys(Natural, h);
      assert |sorted| == |multiset(sorted)| == |multiset(h)| == |h|;
      if |h| > 0 {
        assert sorted[0] in multiset(h);
        HashesNonEmpty(core, noLookahead, sorted[0]);
        JoinLength(sorted, ",");
      }
    }
  }

  lemma HashesNonEmpty(s: ItemSet, noLookahead: bool, x: string)
    requires KeyedByHash(s.staged) && x in ItemHashes(s, noLookahead)
    ensures |x| > 0
  {
    var i :| 0 <= i < |ItemHashes(s, noLookahead)| && ItemHashes(s, noLookahead)[i] == x;
    assert s.staged.keys[i] in s.staged.values;
  }

  lemma JoinLength(parts: seq<string>, sep: string)
    requires |parts| > 0
    ensures |Join(parts, sep)| >= |parts[0]|
  {
  }

  lemma {:induction false} DistinctMultiplicity(a: seq<string>, x: string)
    requires Distinct(a)
    ensures multiset(a)[x] == if x in a then 1 else 0
    decreases |a|
  {
    if |a| > 0 {
      assert a == [a[0]] + a[1..];
      assert a[0] !in a[1..];
      DistinctMultiplicity(a[1..], x);
    }
  }

  /** Two duplicate-free lists of the same strings sort to the same list. */
  lemma SortedHashesAgree(a: seq<string>, b: seq<string>)
    requires Distinct(a) && Distinct(b)
    requires forall x :: x in a <==> x in b
    ensures SortKeys(Natural, a) == SortKeys(Natural, b)
  {
    forall x ensures multiset(a)[x] == multiset(b)[x] {
      DistinctMultiplicity(a, x);
      DistinctMultiplicity(b, x);
    }
    assert multiset(a) == multiset(b);
    SortKeysSorted(Natural, a);
    SortKeysSorted(Natural, b);
    SortedUnique(Natural, SortKeys(Natural, a), SortKeys(Natural, b));
  }

  /** In a set keyed by item hashes of quote-free items, distinct keys have
      distinct full texts. */
  lemma FullHashesDistinct(s: ItemSet)
    requires KeyedByHash(s.staged) && AllQuoteFree(s.staged)
    ensures Distinct(ItemHashes(s, false))
  {
    var h := ItemHashes(s, false);
    var ks := s.staged.keys;
    forall i, j | 0 <= i < j < |h| ensures h[i] != h[j] {
      assert ks[i] in s.staged.values && ks[j] in s.staged.values;
      if h[i] == h[j] {
        FullHashDeterminesKey(s.staged.values[ks[i]], s.staged.values[ks[j]]);
      }
    }
  }

  /** `getCoreHash` sorts the item hashes, so it depends only on which items
      the core holds and not on the order they were added in. */
  lemma CoreHashOrderFree(a: LRState, b: LRState, noLookahead: bool)
    requires a.items.Some? && b.items.Some?
    requires a.items.value.core.staged.values == b.items.value.core.staged.values
    requires KeyedByHash(a.items.value.core.staged) && AllQuoteFree(a.items.value.core.staged)
    ensures CoreHash(a, noLookahead) == CoreHash(b, noLookahead)
  {
    var ca, cb := a.items.value.core, b.items.value.core;
    if noLookahead {
      assert forall x :: x in ca.staged.keys <==> x in cb.staged.keys;
    } else {
      FullHashesDistinct(ca);
      FullHashesDistinct(cb);
      FullHashesCovered(ca, cb);
      FullHashesCovered(cb, ca);
    }
    SortedHashesAgree(ItemHashes(ca, noLookahead), ItemHashes(cb, noLookahead));
  }

  lemma FullHashesCovered(ca: ItemSet, cb: ItemSet)
    requires ca.staged.values == cb.staged.values
    ensures forall x :: x in ItemHashes(ca, false) ==> x in ItemHashes(cb, false)
  {
    var ha, hb := ItemHashes(ca, false), ItemHashes(cb, false);
    forall x | x in ha ensures x in hb {
      var i :| 0 <= i < |ha| && ha[i] == x;
      var k := ca.staged.keys[i];
      assert k in cb.staged.values;
      var j :| 0 <= j < |cb.staged.keys| && cb.staged.keys[j] == k;
      assert hb[j] == x;
    }
  }

  // ---------------------------------------------------------------------
  // forEachItem and finalize

  /** `forEachItem(callback)`: the staged core items, then the staged
      non-core items unless the callback answered false in the core pass. */
  function ForEachItem(st: LRState, go: LRItem -> bool): (r: seq<LRItem>)
    ensures st.items.None? ==> r == []
    ensures st.items.Some? && (exists x :: x in Values(st.items.value.core.staged) && !go(x)) ==>
              r <= Values(st.items.value.core.staged)
  {
    match st.items
    case None => []
    case Some(its) =>
      var c := Values(its.core.staged);
      var v := VisitUntil(c, go);
      if |v| == |c| && (|c| == 0 || go(c[|c| - 1])) then v + VisitUntil(Values(its.nonCore.staged), go)
      else v
  }

  /** `forEachItem` is one visit of the core items followed by the non-core
      items, stopping after the first false. */
  lemma ForEachItemVisits(st: LRState, go: LRItem -> bool)
    requires st.items.Some?
    ensures ForEachItem(st, go) ==
              VisitUntil(Values(st.items.value.core.staged) + Values(st.items.value.nonCore.staged), go)
  {
    var c, n := Values(st.items.value.core.staged), Values(st.items.value.nonCore.staged);
    if forall i :: 0 <= i < |c| ==> go(c[i]) {
      VisitAll(c, go);
      VisitPasses(c, n, go);
    } else {
      VisitStops(c, n, go);
    }
  }

  /** A visit that stops inside c never reaches what follows c. */
  lemma {:induction false} VisitStops<T>(c: seq<T>, n: seq<T>, go: T -> bool)
    requires exists i :: 0 <= i < |c| && !go(c[i])
    ensures VisitUntil(c + n, go) == VisitUntil(c, go)
    ensures |VisitUntil(c, go)| < |c| || !go(c[|c| - 1])
    decreases |c|
  {
    var t := c[1..];
    assert c + n == [c[0]] + (t + n);
    if go(c[0]) {
      var i :| 0 <= i < |c| && !go(c[i]);
      assert t[i - 1] == c[i];
      VisitStops(t, n, go);
    }
  }

  /** A visit that passes all of c goes on into what follows. */
  lemma {:induction false} VisitPasses<T>(c: seq<T>, n: seq<T>, go: T -> bool)
    requires forall i :: 0 <= i < |c| ==> go(c[i])
    ensures VisitUntil(c + n, go) == c + VisitUntil(n, go)
    decreases |c|
  {
    if |c| == 0 {
      assert c + n == n;
    } else {
      var t := c[1..];
      assert c + n == [c[0]] + (t + n);
      VisitPasses(t, n, go);
    }
  }

  /** `finalize()`: both item sets show their staged items; the state's own
      tag is left as it is. */
  function FinalizeState(st: LRState): (r: LRState)
    ensures r.header == st.header
    ensures r.items.Some? <==> st.items.Some?
    ensures r.items.Some? ==>
              && r.items.value.core.visible == r.items.value.core.staged == st.items.value.core.staged
              && r.items.value.nonCore.visible == r.items.value.nonCore.staged == st.items.value.nonCore.staged
  {
    match st.items
    case None => st
    case Some(its) => st.(items := Some(StateItems(Staging.Finalize(its.core), Staging.Finalize(its.nonCore))))
  }

  /** Finalizing a state changes neither its hash nor the items it visits. */
  lemma FinalizeKeepsHash(st: LRState, noLookahead: bool, go: LRItem -> bool)
    ensures CoreHash(FinalizeState(st), noLookahead) == CoreHash(st, noLookahead)
    ensures ForEachItem(FinalizeState(st), go) == ForEachItem(st, go)
  {
  }
}

=== FILE: objects.dfy ===
/** JavaScript objects used as dictionaries, and the helpers of js/common.js
    that work on them. An object enumerates its (non-integer-like) keys in
    insertion order; assigning to an existing key keeps its position and
    `delete` removes it. */
module Objects {
  import opened Wrappers
  import opened Text

  /** Concatenation regroups freely. */
  lemma AppendAssoc<T>(a: seq<T>, b: seq<T>, c: seq<T>)
    ensures (a + b) + c == a + (b + c)
  {
  }

  /** No element occurs twice. */
  predicate Distinct<T(==)>(s: seq<T>) {
    forall i, j :: 0 <= i < j < |s| ==> s[i] != s[j]
  }

  datatype RawDict<V> = RawDict(keys: seq<string>, values: map<string, V>)

  ghost predicate WellFormed<V>(d: RawDict<V>) {
    Distinct(d.keys) && (forall k :: k in d.values <==> k in d.keys)
  }

  /** An object: its keys in enumeration order and its key/value pairs. */
  type Dict<V> = d: RawDict<V> | WellFormed(d) witness RawDict([], map[])

  function Empty<V>(): (d: Dict<V>)
    ensures d.keys == [] && d.values == map[]
  {
    RawDict([], map[])
  }

  /** `o[k] || null` for values that are always truthy (objects). */
  function Get<V>(d: Dict<V>, k: string): (r: Option<V>)
    ensures r.Some? <==> k in d.values
    ensures r.Some? ==> r.value == d.values[k]
  {
    if k in d.values then Some(d.values[k]) else None
  }

  /** `o[k] = v`. */
  function Put<V>(d: Dict<V>, k: string, v: V): (r: Dict<V>)
    ensures r.values == d.values[k := v]
    ensures k in d.values ==> r.keys == d.keys
    ensures k !in d.values ==> r.keys == d.keys + [k]
  {
    if k in d.values then RawDict(d.keys, d.values[k := v])
    else RawDict(d.keys + [k], d.values[k := v])
  }

  /** The keys without k, in order. */
  function Without(s: seq<string>, k: string): (r: seq<string>)
    ensures forall x :: x in r <==> x in s && x != k
    ensures Distinct(s) ==> Distinct(r)
    ensures k !in s ==> r == s
    decreases |s|
  {
    if |s| == 0 then []
    else if s[0] == k then Without(s[1..], k)
    else
      var rest := Without(s[1..], k);
      assert Distinct(s) ==> s[0] !in s[1..];
      [s[0]] + rest
  }

  /** `delete o[k]`. */
  function Remove<V>(d: Dict<V>, k: string): (r: Dict<V>)
    ensures r.values == d.values - {k}
    ensures r.keys == Without(d.keys, k)
  {
    RawDict(Without(d.keys, k), d.values - {k})
  }

  lemma {:induction false} DistinctCardinality(s: seq<string>)
    requires Distinct(s)
    ensures |set x | x in s| == |s|
    decreases |s|
  {
    if |s| > 0 {
      var tail := s[1..];
      DistinctCardinality(tail);
      assert (set x | x in s) == (set x | x in tail) + {s[0]};
      assert s[0] !in tail;
    }
  }

  /** Two puts leave every other key as it was. */
  lemma PutTwiceElsewhere<V>(d: Dict<V>, k1: string, v1: V, k2: string, v2: V)
    ensures forall f :: f in d.values && f != k1 && f != k2 ==>
              f in Put(Put(d, k1, v1), k2, v2).values && Put(Put(d, k1, v1), k2, v2).values[f] == d.values[f]
  {
  }

  /** A key JavaScript treats as an array index: a numeral without a leading
      zero below 2^32 - 1. */
  predicate IsIndexKey(k: string) {
    |k| > 0 && AllDigits(k) && (k[0] != '0' || |k| == 1) && ParseNat(k) < 0xFFFF_FFFF
  }

  /** Whether `for (k in d)` visits x before y: array-index keys come first,
      in ascending numeric order, and the other keys follow in insertion
      order. */
  predicate EnumeratesBefore<V>(d: Dict<V>, x: string, y: string) {
    if IsIndexKey(x) && IsIndexKey(y) then ParseNat(x) < ParseNat(y)
    else if IsIndexKey(x) || IsIndexKey(y) then IsIndexKey(x)
    else exists i, j :: 0 <= i < j < |d.keys| && d.keys[i] == x && d.keys[j] == y
  }

  /** Numbers printed as keys are enumerated in numeric order, whatever the
      order in which they were inserted. */
  lemma NumberKeysInOrder<V>(d: Dict<V>, m: nat, n: nat)
    requires n < 0xFFFF_FFFF
    ensures EnumeratesBefore(d, NatToString(m), NatToString(n)) <==> m < n
  {
    if m < 0xFFFF_FFFF {
      NumberKeyIsIndex(m);
    }
    NumberKeyIsIndex(n);
    ParseNatToString(m);
    ParseNatToString(n);
  }

  lemma NumberKeyIsIndex(n: nat)
    requires n < 0xFFFF_FFFF
    ensures IsIndexKey(NatToString(n))
  {
    NatToStringNoLeadingZero(n);
    ParseNatToString(n);
  }

  /** Putting a value under a new key adds one entry and changes no other
      lookup. */
  lemma PutFresh<V>(d: Dict<V>, key: string, v: V, n: nat)
    requires key !in d.values && |d.values| == n
    ensures |Put(d, key, v).values| == n + 1
    ensures Get(Put(d, key, v), key) == Some(v)
    ensures forall k :: k != key ==> Get(Put(d, key, v), k) == Get(d, k)
  {
    assert Put(d, key, v).values.Keys == d.values.Keys + {key};
  }

  /** `getPropertyCount(o)`: the number of enumerable keys. */
  function Count<V>(d: Dict<V>): (n: nat)
    ensures n == |d.values|
  {
    DistinctCardinality(d.keys);
    assert d.values.Keys == set x | x in d.keys;
    |d.keys|
  }

  /** `getAnyPropertyKey(o)`: the first key, or null for an empty object. */
  function AnyKey<V>(d: Dict<V>): (r: Option<string>)
    ensures r.None? <==> |d.values| == 0
    ensures r.Some? ==> r.value in d.values
  {
    if |d.keys| == 0 then
      assert Count(d) == |d.keys|;
      None
    else
      assert d.keys[0] in d.values;
      Some(d.keys[0])
  }

  /** `getAnyProperty(o)`: the value under the first key, or null. */
  function AnyValue<V>(d: Dict<V>): (r: Option<V>)
    ensures r.None? <==> |d.values| == 0
    ensures r.Some? ==> exists k :: k in d.values && d.values[k] == r.value
  {
    match AnyKey(d)
    case None => None
    case Some(k) => Some(d.values[k])
  }

  /** The values in enumeration order (`$.map(o, f)` with identity f). */
  function Values<V>(d: Dict<V>): (r: seq<V>)
    ensures |r| == |d.keys|
    ensures forall i :: 0 <= i < |r| ==> r[i] == d.values[d.keys[i]]
  {
    seq(|d.keys|, i requires 0 <= i < |d.keys| => d.values[d.keys[i]])
  }

  /** The given keys, in order, each with its value in F: an object built
      by storing F's entries one key after another. */
  function Restrict<V>(keys: seq<string>, F: map<string, V>): (d: Dict<V>)
    requires Distinct(keys) && forall k :: k in keys ==> k in F
    ensures d.keys == keys && forall k :: k in d.values ==> d.values[k] == F[k]
  {
    RawDict(keys, map k | k in keys :: F[k])
  }

  lemma DistinctPrefix<T>(s: seq<T>, m: nat)
    requires Distinct(s) && m <= |s|
    ensures Distinct(s[..m])
  {
    var init := s[..m];
    forall i, j | 0 <= i < j < |init| ensures init[i] != init[j] {
      assert init[i] == s[i] && init[j] == s[j];
    }
  }

  lemma DistinctPrefixStep<T>(s: seq<T>, m: nat)
    requires Distinct(s) && 0 < m <= |s|
    ensures s[m - 1] !in s[..m - 1]
  {
    var init := s[..m - 1];
    forall j | 0 <= j < |init| ensures init[j] != s[m - 1] {
      assert init[j] == s[j];
    }
  }

  /** The prefix of length m - 1 of the prefix of length m. */
  lemma PrefixInit<T>(s: seq<T>, m: nat)
    requires 0 < m <= |s|
    ensures s[..m][..m - 1] == s[..m - 1] && s[..m][m - 1] == s[m - 1]
  {
  }

  /** Storing the next key's value extends the object built from a prefix
      of the keys by one. */
  lemma RestrictStep<V>(keys: seq<string>, m: nat, F: map<string, V>)
    requires Distinct(keys) && 0 < m <= |keys| && forall k :: k in keys ==> k in F
    requires Distinct(keys[..m - 1]) && Distinct(keys[..m])
    ensures Put(Restrict(keys[..m - 1], F), keys[m - 1], F[keys[m - 1]]) == Restrict(keys[..m], F)
  {
    DistinctPrefixStep(keys, m);
    assert keys[..m] == keys[..m - 1] + [keys[m - 1]];
  }

  /** The same keys with every value transformed (`$.each` copying into a
      fresh object). */
  function MapValues<V, W>(d: Dict<V>, f: V -> W): (r: Dict<W>)
    ensures r.keys == d.keys && r.values.Keys == d.values.Keys
    ensures forall k :: k in d.values ==> r.values[k] == f(d.values[k])
  {
    RawDict(d.keys, map k | k in d.values :: f(d.values[k]))
  }

  /** The two key orders the program sorts objects by: natural string order
      (`sortObjectKeys` without a comparator), or natural order with one
      designated key first (the comparator of `Grammar.rehash`). */
  datatype KeyOrder = Natural | KeyFirst(first: string)

  /** Whether a sorts before b (for distinct a and b the comparators never
      answer 0). */
  predicate Precedes(o: KeyOrder, a: string, b: string) {
    match o
    case Natural => StrLess(a, b)
    case KeyFirst(f) => (a == f && b != f) || (a != f && b != f && StrLess(a, b))
  }

  lemma PrecedesTotal(o: KeyOrder, a: string, b: string)
    requires a != b
    ensures Precedes(o, a, b) || Precedes(o, b, a)
  {
    StrLessTotal(a, b);
  }

  lemma PrecedesTransitive(o: KeyOrder, a: string, b: string, c: string)
    requires Precedes(o, a, b) && Precedes(o, b, c)
    ensures Precedes(o, a, c)
  {
    match o
    case Natural => StrLessTransitive(a, b, c);
    case KeyFirst(f) =>
      if a != f && b != f && c != f {
        StrLessTransitive(a, b, c);
      }
  }

  lemma PrecedesIrreflexive(o: KeyOrder, a: string)
    ensures !Precedes(o, a, a)
  {
    StrLessIrreflexive(a);
  }

  predicate SortedBy(o: KeyOrder, s: seq<string>) {
    forall i, j :: 0 <= i < j < |s| ==> Precedes(o, s[i], s[j])
  }

  function Insert(o: KeyOrder, x: string, s: seq<string>): (r: seq<string>)
    ensures multiset(r) == multiset(s) + multiset{x}
    decreases |s|
  {
    if |s| == 0 then [x]
    else if Precedes(o, x, s[0]) then [x] + s
    else
      assert s == [s[0]] + s[1..];
      [s[0]] + Insert(o, x, s[1..])
  }

  /** Insertion sort of the key list. */
  function SortKeys(o: KeyOrder, s: seq<string>): (r: seq<string>)
    ensures multiset(r) == multiset(s)
    decreases |s|
  {
    if |s| == 0 then []
    else
      assert s == [s[0]] + s[1..];
      Insert(o, s[0], SortKeys(o, s[1..]))
  }

  lemma {:induction false} InsertSorted(o: KeyOrder, x: string, s: seq<string>)
    requires SortedBy(o, s) && x !in s
    ensures SortedBy(o, Insert(o, x, s))
    decreases |s|
  {
    if |s| == 0 {
    } else if Precedes(o, x, s[0]) {
      var r := [x] + s;
      forall i, j | 0 <= i < j < |r| ensures Precedes(o, r[i], r[j]) {
        if i == 0 && j > 1 {
          PrecedesTransitive(o, x, s[0], s[j - 1]);
        }
      }
    } else {
      PrecedesTotal(o, x, s[0]);
      assert SortedBy(o, s[1..]);
      InsertSorted(o, x, s[1..]);
      var t := Insert(o, x, s[1..]);
      var r := [s[0]] + t;
      forall i, j | 0 <= i < j < |r| ensures Precedes(o, r[i], r[j]) {
        if i == 0 {
          assert r[j] in multiset(t);
          assert r[j] == x || r[j] in s[1..];
          if r[j] != x {
            var k :| 1 <= k < |s| && s[k] == r[j];
          }
        }
      }
    }
  }

  lemma {:induction false} SortKeysSorted(o: KeyOrder, s: seq<string>)
    requires Distinct(s)
    ensures SortedBy(o, SortKeys(o, s))
    decreases |s|
  {
    if |s| > 0 {
      SortKeysSorted(o, s[1..]);
      var t := SortKeys(o, s[1..]);
      assert s[0] !in s[1..];
      assert s[0] !in multiset(t);
      InsertSorted(o, s[0], t);
    }
  }

  lemma SortedDistinct(o: KeyOrder, s: seq<string>)
    requires SortedBy(o, s)
    ensures Distinct(s)
  {
    forall i, j | 0 <= i < j < |s| ensures s[i] != s[j] {
      if s[i] == s[j] {
        PrecedesIrreflexive(o, s[i]);
      }
    }
  }

  /** The designated key of a `KeyFirst` order, when present, sorts first. */
  lemma KeyFirstIsFirst(f: string, s: seq<string>)
    requires SortedBy(KeyFirst(f), s) && f in s
    ensures s[0] == f
  {
    var k :| 0 <= k < |s| && s[k] == f;
    if k > 0 {
      assert Precedes(KeyFirst(f), s[0], s[k]);
    }
  }

  /** `sortObjectKeys(o, comparator)`: the same key/value pairs, keys in
      comparator order. */
  function SortObjectKeys<V>(d: Dict<V>, o: KeyOrder): (r: Dict<V>)
    ensures r.values == d.values
    ensures multiset(r.keys) == multiset(d.keys)
    ensures SortedBy(o, r.keys)
  {
    var ks := SortKeys(o, d.keys);
    SortKeysSorted(o, d.keys);
    SortedDistinct(o, ks);
    assert forall k :: k in ks <==> k in multiset(d.keys);
    RawDict(ks, d.values)
  }

  /** Two sorted orderings of the same keys are the same sequence, so the
      result does not depend on the sorting algorithm the browser uses. */
  lemma {:induction false} SortedUnique(o: KeyOrder, a: seq<string>, b: seq<string>)
    requires SortedBy(o, a) && SortedBy(o, b) && multiset(a) == multiset(b)
    ensures a == b
    decreases |a|
  {
    if |a| == 0 {
      assert |b| == |multiset(b)| == 0;
    } else {
      SortedSameHead(o, a, b);
      SortedTail(o, a);
      SortedTail(o, b);
      TailMultiset(a, b);
      SortedUnique(o, a[1..], b[1..]);
      SameHeadSameTail(a, b);
    }
  }

  lemma SortedTail(o: KeyOrder, s: seq<string>)
    requires |s| > 0 && SortedBy(o, s)
    ensures SortedBy(o, s[1..])
  {
    forall i, j | 0 <= i < j < |s| - 1
      ensures Precedes(o, s[1..][i], s[1..][j])
    {
      assert s[1..][i] == s[i + 1] && s[1..][j] == s[j + 1];
    }
  }

  lemma TailMultiset<T>(a: seq<T>, b: seq<T>)
    requires |a| > 0 && |b| > 0 && a[0] == b[0] && multiset(a) == multiset(b)
    ensures multiset(a[1..]) == multiset(b[1..])
  {
    assert a == [a[0]] + a[1..];
    assert b == [b[0]] + b[1..];
    assert multiset(a[1..]) == multiset(a) - multiset{a[0]};
    assert multiset(b[1..]) == multiset(b) - multiset{b[0]};
  }

  lemma SameHeadSameTail<T>(a: seq<T>, b: seq<T>)
    requires |a| > 0 && |b| > 0 && a[0] == b[0] && a[1..] == b[1..]
    ensures a == b
  {
    assert a == [a[0]] + a[1..];
    assert b == [b[0]] + b[1..];
  }

  /** Sorting an object whose keys are already in order changes nothing. */
  lemma SortSorted<V>(d: Dict<V>, o: KeyOrder)
    requires SortedBy(o, d.keys)
    ensures SortObjectKeys(d, o) == d
  {
    SortedUnique(o, SortObjectKeys(d, o).keys, d.keys);
  }

  /** An object restricted to all of its keys is itself. */
  lemma RestrictAll<V>(d: Dict<V>)
    ensures Restrict(d.keys, d.values) == d
  {
  }

  lemma SortedSameHead(o: KeyOrder, a: seq<string>, b: seq<string>)
    requires SortedBy(o, a) && SortedBy(o, b) && multiset(a) == multiset(b)
    requires |a| > 0
    ensures |b| > 0 && a[0] == b[0]
  {
    assert |multiset(b)| == |multiset(a)| == |a|;
    assert a[0] in multiset(b) && |b| > 0;
    assert b[0] in multiset(a);
    var i :| 0 <= i < |b| && b[i] == a[0];
    var j :| 0 <= j < |a| && a[j] == b[0];
    if a[0] != b[0] {
      assert Precedes(o, b[0], b[i]) && Precedes(o, a[0], a[j]);
      PrecedesTransitive(o, a[0], b[0], a[0]);
      PrecedesIrreflexive(o, a[0]);
    }
  }
}

=== FILE: parse_tree.dfy ===
/** The parse trees of js/parsing/CYKParseTree.js and the derivations they
    display. The tree itself is a parameter here (the CYK table picks one
    at random). `recursiveDerivation` writes out the current form
    prefix + right side + suffix for a node and then lets the node's
    `doTheRest` walk its children. The terminals already produced are kept
    in the prefix array (leftmost derivation) or the suffix array (rightmost
    derivation), which the walk extends in place; a `Walk` returns the
    final contents of both arrays next to the forms emitted. */
module ParseTrees {
  import opened Wrappers
  import opened Symbols
  import opened Words
  import opened Rules
  import opened Derivations
  import opened Objects

  /** The `dir` argument: "left" is leftmost, anything else rightmost. */
  datatype Direction = LeftDir | RightDir

  datatype PTNode =
    | EpsilonPT(rule: Rule)
    | TerminalPT(rule: Rule)
    | BinaryPT(rule: Rule, first: PTNode, second: PTNode)

  /** The forms a walk emitted and what it left in the prefix and suffix
      arrays it was handed. */
  datatype Walk = Walk(forms: seq<Word>, prefix: Word, suffix: Word)

  /** Every `getRight().get(i)` of the walk reads a symbol: a terminal node
      reads position 0, a binary node positions 0 and 1. */
  predicate Readable(n: PTNode) {
    match n
    case EpsilonPT(_) => true
    case TerminalPT(r) => |r.right| >= 1
    case BinaryPT(r, a, b) => |r.right| >= 2 && Readable(a) && Readable(b)
  }

  function Size(n: PTNode): (k: nat)
    ensures k >= 1
  {
    match n
    case BinaryPT(_, a, b) => 1 + Size(a) + Size(b)
    case _ => 1
  }

  /** The terminals a node's walk adds to the prefix or suffix: the symbol
      each terminal node reads, left to right. */
  function Yield(n: PTNode): (y: Word)
    requires Readable(n)
    ensures |y| <= (Size(n) + 1) / 2
  {
    match n
    case EpsilonPT(_) => []
    case TerminalPT(r) => [r.right[0]]
    case BinaryPT(_, a, b) => Yield(a) + Yield(b)
  }

  /** `recursiveDerivation`: emit the node's form, then walk its children. */
  function RecursiveDerivation(n: PTNode, dir: Direction, prefix: Word, suffix: Word): (w: Walk)
    requires Readable(n)
    ensures |w.forms| == Size(n)
    ensures dir == LeftDir ==> w.prefix == prefix + Yield(n) && w.suffix == suffix
    ensures dir == RightDir ==> w.prefix == prefix && w.suffix == Yield(n) + suffix
    decreases n, 1
  {
    var rest := DoTheRest(n, dir, prefix, suffix);
    Walk([prefix + n.rule.right + suffix] + rest.forms, rest.prefix, rest.suffix)
  }

  /** `doTheRest` of the three node classes. A leftmost walk shares the
      prefix array with the children and hands the first child a fresh
      suffix; a rightmost walk shares the suffix and hands the second child
      a fresh prefix. */
  function DoTheRest(n: PTNode, dir: Direction, prefix: Word, suffix: Word): (w: Walk)
    requires Readable(n)
    ensures |w.forms| == Size(n) - 1
    ensures dir == LeftDir ==> w.prefix == prefix + Yield(n) && w.suffix == suffix
    ensures dir == RightDir ==> w.prefix == prefix && w.suffix == Yield(n) + suffix
    decreases n, 0
  {
    match n
    case EpsilonPT(_) =>
      assert prefix + [] == prefix;
      Walk([], prefix, suffix)
    case TerminalPT(r) =>
      if dir == LeftDir then Walk([], prefix + [r.right[0]], suffix)
      else Walk([], prefix, [r.right[0]] + suffix)
    case BinaryPT(r, a, b) =>
      if dir == LeftDir then
        var x := RecursiveDerivation(a, dir, prefix, [r.right[1]] + suffix);
        var y := RecursiveDerivation(b, dir, x.prefix, suffix);
        AppendAssoc(prefix, Yield(a), Yield(b));
        Walk(x.forms + y.forms, y.prefix, y.suffix)
      else
        var x := RecursiveDerivation(b, dir, prefix + [r.right[0]], suffix);
        var y := RecursiveDerivation(a, dir, prefix, x.suffix);
        AppendAssoc(Yield(a), Yield(b), suffix);
        Walk(x.forms + y.forms, y.prefix, y.suffix)
  }

  /** `toDerivationElement`: the root's left side, then the emitted forms. */
  function DerivationForms(root: PTNode, dir: Direction): (forms: seq<Word>)
    requires Readable(root)
    ensures |forms| == Size(root) + 1
    ensures forms[0] == [Nonterminal(root.rule.left)]
  {
    [[Nonterminal(root.rule.left)]] + RecursiveDerivation(root, dir, [], []).forms
  }

  /** The trees whose displays are derivations of their yields. A terminal
      node's rule has one terminal on the right and a binary node's rule
      has its children's left sides on the right: the nodes
      `getRandomTreeFor` builds from a strict Chomsky grammar. The epsilon
      node must have an empty right side, the rule S -> eps. The epsilon
      node `parseEpsilon` builds holds the rule looked up under the key "0"
      instead, so that tree is not well formed; `EpsilonTreeShows` states
      what it displays. */
  predicate WellFormed(n: PTNode)
    ensures WellFormed(n) ==> Readable(n)
  {
    match n
    case EpsilonPT(r) => r.right == []
    case TerminalPT(r) => |r.right| == 1 && !r.right[0].Nonterminal?
    case BinaryPT(r, a, b) =>
      r.right == [Nonterminal(a.rule.left), Nonterminal(b.rule.left)] && WellFormed(a) && WellFormed(b)
  }

  /** The rules of the tree in preorder, first child before second. */
  function LeftOrder(n: PTNode): (rules: seq<Rule>)
    ensures |rules| == Size(n) && rules[0] == n.rule
  {
    match n
    case BinaryPT(r, a, b) => [r] + LeftOrder(a) + LeftOrder(b)
    case _ => [n.rule]
  }

  /** The rules of the tree in preorder, second child before first. */
  function RightOrder(n: PTNode): (rules: seq<Rule>)
    ensures |rules| == Size(n) && rules[0] == n.rule
  {
    match n
    case BinaryPT(r, a, b) => [r] + RightOrder(b) + RightOrder(a)
    case _ => [n.rule]
  }

  lemma {:induction false} YieldIsTerminal(n: PTNode)
    requires WellFormed(n)
    ensures NoNonterminal(Yield(n))
  {
    match n
    case EpsilonPT(_) =>
    case TerminalPT(_) =>
    case BinaryPT(_, a, b) =>
      YieldIsTerminal(a);
      YieldIsTerminal(b);
      assert forall j :: 0 <= j < |Yield(n)| ==> Yield(n)[j] == if j < |Yield(a)| then Yield(a)[j] else Yield(b)[j - |Yield(a)|];
  }

  lemma NoNonterminalAppend(u: Word, v: Word)
    requires NoNonterminal(u) && NoNonterminal(v)
    ensures NoNonterminal(u + v)
  {
    assert forall j :: 0 <= j < |u + v| ==> (u + v)[j] == if j < |u| then u[j] else v[j - |u|];
  }

  /** The node's own step: its left side, sitting between prefix and
      suffix, is rewritten by its rule into the form the walk emits first. */
  lemma NodeStep(leftmost: bool, n: PTNode, prefix: Word, suffix: Word)
    requires if leftmost then NoNonterminal(prefix) else NoNonterminal(suffix)
    ensures StepBy(leftmost, prefix + [Nonterminal(n.rule.left)] + suffix, n.rule)
            == Some(prefix + n.rule.right + suffix)
  {
    if leftmost {
      LeftStepMeans(prefix, Nonterminal(n.rule.left), suffix, n.rule);
    } else {
      RightStepMeans(prefix, Nonterminal(n.rule.left), suffix, n.rule);
    }
  }

  /** A leftmost walk from a form prefix A suffix, with A the node's left
      side and no nonterminal in the prefix, emits a leftmost derivation by
      the rules in preorder, ending in prefix + yield + suffix; the yield
      is appended to the shared prefix and the suffix is untouched. */
  lemma {:induction false} LeftWalk(n: PTNode, prefix: Word, suffix: Word)
    requires WellFormed(n) && NoNonterminal(prefix)
    ensures var w := RecursiveDerivation(n, LeftDir, prefix, suffix);
            var start := prefix + [Nonterminal(n.rule.left)] + suffix;
            && Chain(true, start, LeftOrder(n), w.forms)
            && Last(start, w.forms) == prefix + Yield(n) + suffix
    decreases n, 1
  {
    if n.BinaryPT? {
      LeftWalkBinary(n, prefix, suffix);
    } else {
      var start := prefix + [Nonterminal(n.rule.left)] + suffix;
      var form := prefix + n.rule.right + suffix;
      NodeStep(true, n, prefix, suffix);
      ChainOne(true, start, n.rule, form);
      assert RecursiveDerivation(n, LeftDir, prefix, suffix).forms == [form];
      assert n.rule.right == Yield(n);
    }
  }

  lemma {:induction false} LeftWalkBinary(n: PTNode, prefix: Word, suffix: Word)
    requires n.BinaryPT? && WellFormed(n) && NoNonterminal(prefix)
    ensures var w := RecursiveDerivation(n, LeftDir, prefix, suffix);
            var start := prefix + [Nonterminal(n.rule.left)] + suffix;
            && Chain(true, start, LeftOrder(n), w.forms)
            && Last(start, w.forms) == prefix + Yield(n) + suffix
    decreases n, 0
  {
    var r, a, b := n.rule, n.first, n.second;
    var b1, b2 := Nonterminal(a.rule.left), Nonterminal(b.rule.left);
    var start := prefix + [Nonterminal(r.left)] + suffix;
    var form := prefix + r.right + suffix;
    var x := RecursiveDerivation(a, LeftDir, prefix, [b2] + suffix);
    var y := RecursiveDerivation(b, LeftDir, x.prefix, suffix);
    NodeStep(true, n, prefix, suffix);
    assert r.right == [b1] + [b2];
    AppendAssoc(prefix, [b1], [b2]);
    AppendAssoc(prefix + [b1], [b2], suffix);
    LeftWalk(a, prefix, [b2] + suffix);
    YieldIsTerminal(a);
    NoNonterminalAppend(prefix, Yield(a));
    AppendAssoc(x.prefix, [b2], suffix);
    LeftWalk(b, x.prefix, suffix);
    ChainCompose(true, start, r, form, LeftOrder(a), x.forms, LeftOrder(b), y.forms);
    AppendAssoc([form], x.forms, y.forms);
    AppendAssoc(prefix, Yield(a), Yield(b));
  }

  /** A rightmost walk from prefix A suffix, with no nonterminal in the
      suffix, emits a rightmost derivation by the rules in preorder with
      the second child first; the yield is prepended to the shared suffix
      and the prefix is untouched. */
  lemma {:induction false} RightWalk(n: PTNode, prefix: Word, suffix: Word)
    requires WellFormed(n) && NoNonterminal(suffix)
    ensures var w := RecursiveDerivation(n, RightDir, prefix, suffix);
            var start := prefix + [Nonterminal(n.rule.left)] + suffix;
            && Chain(false, start, RightOrder(n), w.forms)
            && Last(start, w.forms) == prefix + Yield(n) + suffix
    decreases n, 1
  {
    if n.BinaryPT? {
      RightWalkBinary(n, prefix, suffix);
    } else {
      var start := prefix + [Nonterminal(n.rule.left)] + suffix;
      var form := prefix + n.rule.right + suffix;
      NodeStep(false, n, prefix, suffix);
      ChainOne(false, start, n.rule, form);
      assert RecursiveDerivation(n, RightDir, prefix, suffix).forms == [form];
      assert n.rule.right == Yield(n);
    }
  }

  lemma {:induction false} RightWalkBinary(n: PTNode, prefix: Word, suffix: Word)
    requires n.BinaryPT? && WellFormed(n) && NoNonterminal(suffix)
    ensures var w := RecursiveDerivation(n, RightDir, prefix, suffix);
            var start := prefix + [Nonterminal(n.rule.left)] + suffix;
            && Chain(false, start, RightOrder(n), w.forms)
            && Last(start, w.forms) == prefix + Yield(n) + suffix
    decreases n, 0
  {
    var r, a, b := n.rule, n.first, n.second;
    var b1, b2 := Nonterminal(a.rule.left), Nonterminal(b.rule.left);
    var start := prefix + [Nonterminal(r.left)] + suffix;
    var form := prefix + r.right + suffix;
    var x := RecursiveDerivation(b, RightDir, prefix + [b1], suffix);
    var y := RecursiveDerivation(a, RightDir, prefix, x.suffix);
    NodeStep(false, n, prefix, suffix);
    assert r.right == [b1] + [b2];
    AppendAssoc(prefix, [b1], [b2]);
    RightWalk(b, prefix + [b1], suffix);
    YieldIsTerminal(b);
    NoNonterminalAppend(Yield(b), suffix);
    AppendAssoc(prefix + [b1], Yield(b), suffix);
    AppendAssoc(prefix, [b1], x.suffix);
    RightWalk(a, prefix, x.suffix);
    ChainCompose(false, start, r, form, RightOrder(b), x.forms, RightOrder(a), y.forms);
    AppendAssoc([form], x.forms, y.forms);
    AppendAssoc(Yield(a), Yield(b), suffix);
    AppendAssoc(prefix, Yield(a), Yield(b) + suffix);
    AppendAssoc(prefix, Yield(a) + Yield(b), suffix);
  }

  lemma EmptyEnds(w: Word)
    ensures [] + w + [] == w
  {
  }

  lemma EmittedForms(root: PTNode, dir: Direction)
    requires Readable(root)
    ensures DerivationForms(root, dir)[1..] == RecursiveDerivation(root, dir, [], []).forms
  {
    var rest := RecursiveDerivation(root, dir, [], []).forms;
    assert ([[Nonterminal(root.rule.left)]] + rest)[1..] == rest;
  }

  /** The leftmost derivation a well-formed tree displays starts at the
      root's left side, takes each step by the next rule in preorder, and
      ends in the tree's yield, a word of terminals. */
  lemma LeftmostDerivation(root: PTNode)
    requires WellFormed(root)
    ensures var forms := DerivationForms(root, LeftDir);
            && Chain(true, [Nonterminal(root.rule.left)], LeftOrder(root), forms[1..])
            && DeriveLeft([Nonterminal(root.rule.left)], LeftOrder(root)) == Some(Yield(root))
            && forms[|forms| - 1] == Yield(root) && NoNonterminal(Yield(root))
  {
    var start: Word := [Nonterminal(root.rule.left)];
    var rest := RecursiveDerivation(root, LeftDir, [], []).forms;
    EmptyEnds(start);
    EmptyEnds(Yield(root));
    LeftWalk(root, [], []);
    EmittedForms(root, LeftDir);
    ChainDerivesLeft(start, LeftOrder(root), rest);
    YieldIsTerminal(root);
  }

  /** The rightmost derivation a well-formed tree displays starts at the
      root's left side, takes each step by the next rule in preorder with
      second children first, and ends in the tree's yield. */
  lemma RightmostDerivation(root: PTNode)
    requires WellFormed(root)
    ensures var forms := DerivationForms(root, RightDir);
            && Chain(false, [Nonterminal(root.rule.left)], RightOrder(root), forms[1..])
            && DeriveRight([Nonterminal(root.rule.left)], RightOrder(root)) == Some(Yield(root))
            && forms[|forms| - 1] == Yield(root) && NoNonterminal(Yield(root))
  {
    var start: Word := [Nonterminal(root.rule.left)];
    var rest := RecursiveDerivation(root, RightDir, [], []).forms;
    EmptyEnds(start);
    EmptyEnds(Yield(root));
    RightWalk(root, [], []);
    EmittedForms(root, RightDir);
    ChainDerivesRight(start, RightOrder(root), rest);
    YieldIsTerminal(root);
  }

  /** The tree `parseEpsilon` builds is the epsilon node alone, and its
      display in either direction is the start symbol followed by the rule's
      right side, whatever that is; its yield is the empty word. */
  lemma EpsilonTreeShows(r: Rule, d: Direction)
    ensures DerivationForms(EpsilonPT(r), d) == [[Nonterminal(r.left)], r.right]
    ensures Yield(EpsilonPT(r)) == []
  {
    EmptyEnds(r.right);
    assert RecursiveDerivation(EpsilonPT(r), d, [], []).forms == [r.right];
  }

  /** As written the epsilon node holds the rule S -> 0, so the display for
      the empty word ends in the one-symbol word "0", not in its yield: it
      shows no derivation of the word parsed. With the rule S -> eps the
      display ends in the yield. */
  lemma EpsilonTreeAsWritten(r: Rule, d: Direction)
    ensures var forms := DerivationForms(EpsilonPT(r), d);
            forms[|forms| - 1] == Yield(EpsilonPT(r)) <==> r.right == []
    ensures Texts(r.right) == ["0"] ==>
              var forms := DerivationForms(EpsilonPT(r), d);
              |forms[|forms| - 1]| == 1 && forms[|forms| - 1] != Yield(EpsilonPT(r))
  {
    EpsilonTreeShows(r, d);
  }

  /** Both displays of a well-formed tree end in the same word. */
  lemma DerivationsAgree(root: PTNode)
    requires WellFormed(root)
    ensures var l := DerivationForms(root, LeftDir);
            var r := DerivationForms(root, RightDir);
            l[|l| - 1] == r[|r| - 1]
  {
    LeftmostDerivation(root);
    RightmostDerivation(root);
  }
}

=== FILE: parser_actions.dfy ===
/** Parse-table cells (js/structures/ParserActions.js): a set structure of
    parser actions in which single actions can be switched off. A disabled
    action stays in the set but is hidden from every reader. */
module ParserActions {
  import opened Wrappers
  import opened Text
  import opened Objects
  import opened Symbols
  import opened Words
  import opened Rules
  import opened Grammars
  import Staging

  /** LR goto and shift name a target state; reduce and produce carry the
      grammar rule; an error entry carries its message. */
  datatype Action =
    | Goto(state: string)
    | Shift(state: string)
    | Reduce(rule: Rule)
    | Accept
    | Error(message: string)
    | Produce(rule: Rule)

  /** `toString()` of each action class, which is also its hash in the set. */
  function ActionText(a: Action): string {
    match a
    case Goto(s) => "g:" + s
    case Shift(s) => "s:" + s
    case Reduce(r) => "r:" + RuleText(r)
    case Accept => "a:"
    case Error(m) => "e:" + m
    case Produce(r) => "p:" + RuleText(r)
  }

  /** `str.split(' -> ')` followed by `tryGetRule(m[0], m[1])`: the left text
      is before the first arrow and the right text runs to the next arrow. */
  function RuleFromText(g: Grammar, str: string): (r: Option<Rule>)
    ensures r.Some? ==> exists L, k :: TryGetRule(g, L, k) == r
  {
    match SplitRuleText(str)
    case None => None
    case Some((left, rest)) =>
      var right := match SplitRuleText(rest) case Some((a, _)) => a case None => rest;
      TryGetRule(g, left, right)
  }

  /** `createSetItemFromText(text, grammar)`: the first character selects the
      action class and the text from the third character on is its
      argument. An unknown class raises; a reduce or produce naming a rule
      the grammar does not have is reported here as well. */
  function Decode(g: Grammar, text: string): (r: Result<Action>)
    ensures r.Success? ==> |text| > 0 && text[0] in "gsraep"
    ensures |text| > 0 && text[0] in "gsae" ==> r.Success?
  {
    var str := if |text| >= 2 then text[2..] else "";
    if |text| == 0 then Failure("invalid action string representation: " + text)
    else if text[0] == 'g' then Success(Goto(str))
    else if text[0] == 's' then Success(Shift(str))
    else if text[0] == 'a' then Success(Accept)
    else if text[0] == 'e' then Success(Error(str))
    else if text[0] == 'r' || text[0] == 'p' then
      match RuleFromText(g, str)
      case None => Failure("no such rule: " + str)
      case Some(rule) => Success(if text[0] == 'r' then Reduce(rule) else Produce(rule))
    else Failure("invalid action string representation: " + text)
  }

  /** The text of a word over valid symbols contains no '>' and hence no arrow. */
  lemma WordTextHasNoArrow(w: Word)
    requires forall i :: 0 <= i < |w| ==> Check(w[i].Text())
    ensures forall j :: 0 <= j <= |ToString(w)| ==> !ArrowAt(ToString(w), j)
  {
    var s := ToString(w);
    if |w| > 0 {
      var parts := Texts(w);
      forall i | 0 <= i < |parts| ensures NoChar(parts[i], '>') {
        forall j | 0 <= j < |parts[i]| ensures parts[i][j] != '>' {
          SymbolTextHasNoSeparator(parts[i], j);
        }
      }
      JoinAvoids(parts, " ", '>');
    }
    forall j | 0 <= j <= |s| ensures !ArrowAt(s, j) {
      assert j + 2 < |s| ==> s[j + 2] != '>';
    }
  }

  /** Whether a rule reads back from its own text through the grammar: its
      sides are valid symbols and it is the rule stored under them. */
  predicate Stored(g: Grammar, r: Rule) {
    Check(r.left)
    && (forall i :: 0 <= i < |r.right| ==> Check(r.right[i].Text()))
    && TryGetRule(g, r.left, ToString(r.right)) == Some(r)
  }

  /** An action is read back from its text. Goto, shift, accept and error
      actions always are; reduce and produce when their rule is stored. */
  lemma DecodeActionText(g: Grammar, a: Action)
    requires (a.Reduce? || a.Produce?) ==> Stored(g, a.rule)
    ensures Decode(g, ActionText(a)) == Success(a)
  {
    var t := ActionText(a);
    match a
    case Goto(s) => assert t[2..] == s;
    case Shift(s) => assert t[2..] == s;
    case Accept =>
    case Error(m) => assert t[2..] == m;
    case Reduce(r) => RuleTextReadsBack(g, r); assert t[2..] == RuleText(r);
    case Produce(r) => RuleTextReadsBack(g, r); assert t[2..] == RuleText(r);
  }

  lemma RuleTextReadsBack(g: Grammar, r: Rule)
    requires Stored(g, r)
    ensures RuleFromText(g, RuleText(r)) == Some(r)
  {
    SplitRuleTextInverts(r);
    WordTextHasNoArrow(r.right);
  }

  /** Distinct actions have distinct texts when their rules are stored, so
      the text is a faithful hash. */
  lemma ActionTextInjective(g: Grammar, a: Action, b: Action)
    requires (a.Reduce? || a.Produce?) ==> Stored(g, a.rule)
    requires (b.Reduce? || b.Produce?) ==> Stored(g, b.rule)
    ensures ActionText(a) == ActionText(b) ==> a == b
  {
    DecodeActionText(g, a);
    DecodeActionText(g, b);
  }

  // ---------------------------------------------------------------------
  // ParserActions: a set structure plus the disabled action texts.

  datatype ParserActions = ParserActions(actions: Staging.SetStructure<Action>, disabled: Dict<bool>)

  /** `new ParserActions(id, name)`. */
  function NewParserActions(id: string, name: string): ParserActions {
    ParserActions(Staging.NewSet(id, name), Empty())
  }

  predicate Disabled(pa: ParserActions, a: Action) {
    ActionText(a) in pa.disabled.values
  }

  /** `add(action, immediately)`. */
  function AddAction(pa: ParserActions, a: Action, immediately: bool): (r: (ParserActions, bool)) {
    var (s, changed) := Staging.Add(pa.actions, ActionText(a), a, immediately);
    (pa.(actions := s), changed)
  }

  /** `contains(action)`: null for a disabled action even when present. */
  function ContainsAction(pa: ParserActions, a: Action): (r: Option<Action>)
    ensures r.Some? <==> !Disabled(pa, a) && ActionText(a) in pa.actions.visible.values
  {
    if Disabled(pa, a) then None else Staging.Contains(pa.actions, ActionText(a))
  }

  /** `length()`: the visible count minus the number of disabled texts. */
  function Length(pa: ParserActions): int {
    Staging.Length(pa.actions) - Count(pa.disabled)
  }

  /** The visible actions whose text is not disabled, in set order. */
  function EnabledFrom(pa: ParserActions, keys: seq<string>): (r: seq<Action>)
    requires forall k :: k in keys ==> k in pa.actions.visible.values
    ensures forall a :: a in r ==> exists k :: k in keys && k !in pa.disabled.values && pa.actions.visible.values[k] == a
    ensures forall k :: k in keys && k !in pa.disabled.values ==> pa.actions.visible.values[k] in r
    decreases |keys|
  {
    if |keys| == 0 then []
    else
      var rest := EnabledFrom(pa, keys[1..]);
      if keys[0] in pa.disabled.values then rest else [pa.actions.visible.values[keys[0]]] + rest
  }

  /** The items `forEachItem` visits: it skips every disabled action. */
  function EnabledItems(pa: ParserActions): seq<Action> {
    EnabledFrom(pa, pa.actions.visible.keys)
  }

  /** `disableAction(action)`. */
  function DisableAction(pa: ParserActions, a: Action): ParserActions {
    pa.(disabled := Put(pa.disabled, ActionText(a), true))
  }

  /** `enableAction(action)`. */
  function EnableAction(pa: ParserActions, a: Action): ParserActions {
    pa.(disabled := Objects.Remove(pa.disabled, ActionText(a)))
  }

  /** A disabled action is hidden from `contains`; enabling it shows it again
      exactly when it is in the visible set. */
  lemma DisableHides(pa: ParserActions, a: Action)
    ensures ContainsAction(DisableAction(pa, a), a).None?
    ensures ContainsAction(EnableAction(pa, a), a) == Staging.Contains(pa.actions, ActionText(a))
  {
  }

  /** Enabling an action right after disabling it restores the previous
      disabled map, key order included, when it was enabled before. */
  lemma EnableUndoesDisable(pa: ParserActions, a: Action)
    requires !Disabled(pa, a)
    ensures EnableAction(DisableAction(pa, a), a) == pa
  {
    var k := ActionText(a);
    WithoutAppended(pa.disabled.keys, k);
  }

  lemma {:induction false} WithoutAppended(s: seq<string>, k: string)
    requires k !in s
    ensures Without(s + [k], k) == s
    decreases |s|
  {
    if |s| == 0 {
      assert [k][1..] == [];
    } else {
      assert (s + [k])[1..] == s[1..] + [k];
      WithoutAppended(s[1..], k);
    }
  }

  /** When every disabled text belongs to a visible action, `length()` is the
      number of actions `forEachItem` visits. */
  lemma LengthCountsEnabled(pa: ParserActions)
    requires forall k :: k in pa.disabled.values ==> k in pa.actions.visible.values
    ensures Length(pa) == |EnabledItems(pa)|
  {
    var ks := pa.actions.visible.keys;
    EnabledCount(pa, ks);
    var D := set k | k in ks && k in pa.disabled.values;
    assert D == pa.disabled.values.Keys;
    DistinctCardinality(pa.disabled.keys);
    assert pa.disabled.values.Keys == set x | x in pa.disabled.keys;
  }

  /** The number of enabled actions among distinct keys is their number
      less the disabled ones. */
  lemma {:induction false} EnabledCount(pa: ParserActions, keys: seq<string>)
    requires Distinct(keys) && forall k :: k in keys ==> k in pa.actions.visible.values
    ensures |EnabledFrom(pa, keys)| == |keys| - |set k | k in keys && k in pa.disabled.values|
    decreases |keys|
  {
    if |keys| > 0 {
      var tail := keys[1..];
      EnabledCount(pa, tail);
      var Dt := set k | k in tail && k in pa.disabled.values;
      var D := set k | k in keys && k in pa.disabled.values;
      assert keys[0] !in tail;
      if keys[0] in pa.disabled.values {
        assert D == Dt + {keys[0]};
      } else {
        assert D == Dt;
      }
    }
  }

  /** `finalize()` of the set part: staged actions become visible; the
      disabled map is kept. */
  function FinalizeActions(pa: ParserActions): (r: ParserActions)
    ensures r.disabled == pa.disabled
    ensures r.actions.visible == pa.actions.staged
  {
    pa.(actions := Staging.Finalize(pa.actions))
  }

  // ---------------------------------------------------------------------
  // Parse tables as the parsers read them.

  /** A parse table (`TableStructure` of `ParserActions` cells) keyed by
      row and column text; each cell is given by its enabled actions in
      set order, which is what `length()` counts and `getAnyItem()` takes
      the first of when no disabled text is missing from the set. */
  type Cells = map<(string, string), seq<Action>>
}

=== FILE: parser_structures.dfy ===
/** The structures the LL and LR parser simulations work on
    (js/structures/ParserStructures.js): the parser stack, the input with
    its end marker, the output rule sequence and the parse tree. */
module ParserStructures {
  import opened Wrappers
  import opened Symbols
  import opened Words
  import opened Rules
  import opened Trees

  /** The `result` field both parser simulations keep in their data. */
  datatype Verdict = NotFinished | Accepted | Unparsable | Ambiguous

  // ---------------------------------------------------------------------
  // ParserStack

  /** What a parser pushes: a grammar symbol or one of its own items (the
      LR parser pushes state markers). */
  datatype Entry<X> = SymbolEntry(symbol: Symbol) | ItemEntry(item: X)

  /** What the stack holds: a symbol is wrapped in a `SymbolWrapperStructure`
      on the way in. */
  datatype Stored<X> = SymbolWrapper(symbol: Symbol) | Plain(item: X)

  type Stack<X> = seq<Stored<X>>

  function Wrap<X>(e: Entry<X>): Stored<X> {
    match e
    case SymbolEntry(s) => SymbolWrapper(s)
    case ItemEntry(x) => Plain(x)
  }

  function Unwrap<X>(s: Stored<X>): Entry<X> {
    match s
    case SymbolWrapper(sym) => SymbolEntry(sym)
    case Plain(x) => ItemEntry(x)
  }

  /** `push(item)`. */
  function Push<X>(st: Stack<X>, e: Entry<X>): (r: Stack<X>)
    ensures |r| == |st| + 1 && r[..|st|] == st
    ensures r[|st|].SymbolWrapper? <==> e.SymbolEntry?
  {
    st + [Wrap(e)]
  }

  /** `peekTop()`: the top entry, unwrapped; none on an empty stack. */
  function PeekTop<X>(st: Stack<X>): (r: Option<Entry<X>>)
    ensures r.None? <==> |st| == 0
    ensures r.Some? ==> Wrap(r.value) == st[|st| - 1]
  {
    if |st| == 0 then None else Some(Unwrap(st[|st| - 1]))
  }

  /** A pushed entry is what `peekTop` returns next, symbols included. */
  lemma PeekAfterPush<X>(st: Stack<X>, e: Entry<X>)
    ensures PeekTop(Push(st, e)) == Some(e)
  {
  }

  function Max0(n: int): nat {
    if n < 0 then 0 else n
  }

  /** `popN(n)`: n pops, each of which does nothing on an empty stack. */
  function PopN<X>(st: Stack<X>, n: int): (r: Stack<X>)
    ensures |r| == if Max0(n) <= |st| then |st| - Max0(n) else 0
    ensures r == st[..|r|]
    decreases Max0(n)
  {
    if n <= 0 || |st| == 0 then st
    else PopN(st[..|st| - 1], n - 1)
  }

  /** Popping once undoes a push. */
  lemma PopUndoesPush<X>(st: Stack<X>, e: Entry<X>)
    ensures PopN(Push(st, e), 1) == st
  {
  }

  /** Two pops in a row remove as much as one pop of both counts. */
  lemma PopNTwice<X>(st: Stack<X>, a: nat, b: nat)
    ensures PopN(PopN(st, a), b) == PopN(st, a + b)
  {
    var r1 := PopN(st, a);
    var r2 := PopN(r1, b);
    var r := PopN(st, a + b);
    assert |r2| == |r|;
    assert r2 == r1[..|r2|] == st[..|r1|][..|r2|] == st[..|r2|];
  }

  /** The grammar symbols on a stack, bottom first; the parser's own items
      are skipped. */
  function StackSymbols<X>(st: Stack<X>): (r: seq<Symbol>)
    ensures |r| <= |st|
    decreases |st|
  {
    if |st| == 0 then []
    else StackSymbols(st[..|st| - 1]) + match st[|st| - 1] case SymbolWrapper(s) => [s] case Plain(_) => []
  }

  /** The symbols of two stacked parts are those of the lower part, then
      those of the upper part. */
  lemma {:induction false} StackSymbolsAppend<X>(a: Stack<X>, b: Stack<X>)
    ensures StackSymbols(a + b) == StackSymbols(a) + StackSymbols(b)
    decreases |b|
  {
    if |b| == 0 {
      assert a + b == a;
    } else {
      assert (a + b)[..|a + b| - 1] == a + b[..|b| - 1];
      StackSymbolsAppend(a, b[..|b| - 1]);
    }
  }

  /** A stack of symbols only gives back each of them in place. */
  lemma {:induction false} StackSymbolsWrapped<X>(st: Stack<X>)
    requires forall i :: 0 <= i < |st| ==> st[i].SymbolWrapper?
    ensures |StackSymbols(st)| == |st|
    ensures forall i :: 0 <= i < |st| ==> StackSymbols(st)[i] == st[i].symbol
    decreases |st|
  {
    if |st| > 0 {
      StackSymbolsWrapped(st[..|st| - 1]);
    }
  }

  // ---------------------------------------------------------------------
  // ParserInput

  datatype ParserInput = ParserInput(w: seq<Symbol>, pos: nat)

  /** `new ParserInput(id, name, word, grammar)`: the word followed by the
      end marker, read from the start; without a word or a grammar the
      input is empty. */
  function NewInput(word: Option<Word>, hasGrammar: bool): (r: ParserInput)
    ensures r.pos == 0
    ensures word.Some? && hasGrammar ==> r.w == word.value + [EndMarker]
    ensures !(word.Some? && hasGrammar) ==> r.w == []
  {
    if word.Some? && hasGrammar then ParserInput(word.value + [EndMarker], 0)
    else ParserInput([], 0)
  }

  /** A word the user parses: terminals only, none spelled like the end
      marker. */
  predicate TerminalWord(w: Word) {
    forall i :: 0 <= i < |w| ==> w[i].Terminal? && w[i].name != EndMarkerText
  }

  /** `getLookahead()`: the symbol at the reading position, none past the end. */
  function Lookahead(i: ParserInput): (r: Option<Symbol>)
    ensures r.Some? <==> i.pos < |i.w|
    ensures r.Some? ==> r.value == i.w[i.pos]
  {
    if i.pos < |i.w| then Some(i.w[i.pos]) else None
  }

  /** `next()`: the current symbol, moving the position one on; at the last
      position (the end marker) it is an error. */
  function Next(i: ParserInput): (r: Result<(Option<Symbol>, ParserInput)>)
    ensures r.Failure? <==> i.pos + 1 == |i.w|
    ensures r.Success? ==> r.value.0 == Lookahead(i) && r.value.1 == i.(pos := i.pos + 1)
  {
    if i.pos + 1 == |i.w| then Failure("parser input cannot go beyond the endmarker!")
    else Success((Lookahead(i), i.(pos := i.pos + 1)))
  }

  /** The reading position stays on the input: `next` never moves past the
      end marker. */
  predicate OnInput(i: ParserInput) {
    i.pos < |i.w|
  }

  lemma NextStaysOnInput(i: ParserInput)
    requires OnInput(i) && Next(i).Success?
    ensures OnInput(Next(i).value.1) && Next(i).value.0.Some?
  {
  }

  /** k calls of `next`, collecting what they return. */
  function NextN(i: ParserInput, k: nat): (r: Result<(seq<Symbol>, ParserInput)>)
    decreases k
  {
    if k == 0 then Success(([], i))
    else match Next(i)
      case Failure(e) => Failure(e)
      case Success((s, i')) =>
        match NextN(i', k - 1)
        case Failure(e) => Failure(e)
        case Success((ss, i'')) => Success((if s.Some? then [s.value] + ss else ss, i''))
  }

  /** Reading a fresh input consumes exactly the word, after which the
      lookahead is the end marker and a further `next` fails. */
  lemma ReadWholeWord(word: Word)
    ensures var i := NewInput(Some(word), true);
      NextN(i, |word|) == Success((word, ParserInput(word + [EndMarker], |word|)))
    ensures Lookahead(ParserInput(word + [EndMarker], |word|)) == Some(EndMarker)
    ensures Next(ParserInput(word + [EndMarker], |word|)).Failure?
  {
    ReadFrom(word, 0);
    assert word[0..] == word;
  }

  lemma {:induction false} ReadFrom(word: Word, j: nat)
    requires j <= |word|
    ensures NextN(ParserInput(word + [EndMarker], j), |word| - j)
            == Success((word[j..], ParserInput(word + [EndMarker], |word|)))
    decreases |word| - j
  {
    var w := word + [EndMarker];
    if j < |word| {
      var i := ParserInput(w, j);
      assert Next(i) == Success((Some(word[j]), ParserInput(w, j + 1)));
      ReadFrom(word, j + 1);
      assert word[j..] == [word[j]] + word[j + 1..];
    } else {
      assert word[j..] == [];
    }
  }

  // ---------------------------------------------------------------------
  // ParserOutput

  /** The traversal the parse tree is rebuilt with: unset before `finish`. */
  datatype Traversal = Unset | TraverseLL | TraverseLR

  datatype ParserOutput = ParserOutput(rules: seq<Rule>, finished: bool, traversal: Traversal)

  function NewOutput(): ParserOutput {
    ParserOutput([], false, Unset)
  }

  /** `emitRule(rule)`. */
  function Emit(o: ParserOutput, rule: Rule): (r: ParserOutput)
    ensures |r.rules| == |o.rules| + 1 && r.rules[..|o.rules|] == o.rules && r.rules[|o.rules|] == rule
    ensures r.finished == o.finished && r.traversal == o.traversal
  {
    o.(rules := o.rules + [rule])
  }

  function Reverse<T>(s: seq<T>): (r: seq<T>)
    ensures |r| == |s|
    ensures forall i :: 0 <= i < |s| ==> r[i] == s[|s| - 1 - i]
  {
    if |s| == 0 then [] else Reverse(s[1..]) + [s[0]]
  }

  lemma ReverseTwice<T>(s: seq<T>)
    ensures Reverse(Reverse(s)) == s
  {
  }

  lemma ReverseAppend<T>(a: seq<T>, b: seq<T>)
    ensures Reverse(a + b) == Reverse(b) + Reverse(a)
  {
    var l := Reverse(a + b);
    var r := Reverse(b) + Reverse(a);
    assert |l| == |r|;
    forall i | 0 <= i < |l| ensures l[i] == r[i] {
      if i < |b| { assert l[i] == (a + b)[|a| + |b| - 1 - i]; }
    }
  }

  /** `finish(isLR)`: the first call fixes the traversal and, for an LR
      parse, reverses the rules (the rightmost derivation was emitted
      backwards); later calls do nothing. */
  function Finish(o: ParserOutput, isLR: bool): (r: ParserOutput)
    ensures o.finished ==> r == o
    ensures !o.finished ==> r.finished && r.traversal == (if isLR then TraverseLR else TraverseLL)
    ensures !o.finished ==> r.rules == if isLR then Reverse(o.rules) else o.rules
  {
    if o.finished then o
    else ParserOutput(if isLR then Reverse(o.rules) else o.rules, true,
                      if isLR then TraverseLR else TraverseLL)
  }

  lemma FinishIdempotent(o: ParserOutput, a: bool, b: bool)
    ensures Finish(Finish(o, a), b) == Finish(o, a)
  {
  }

  // ---------------------------------------------------------------------
  // ParseTreeNode

  /** A node waiting for its rule, a node that formed a rule, or a terminal
      leaf (`TerminalParseTreeNode`). */
  datatype PNode = Unformed | Formed(rule: Rule) | TerminalLeaf(terminal: Symbol)

  type ParseTree = Tree<PNode>

  function NewParseTree(): ParseTree {
    Node(Unformed, [])
  }

  /** The child `formRule` creates for one right-side symbol. */
  function ChildFor(s: Symbol): (r: ParseTree)
    ensures r.children == []
    ensures r.item.TerminalLeaf? <==> IsTerminal(s)
  {
    if IsTerminal(s) then Node(TerminalLeaf(s), []) else Node(Unformed, [])
  }

  function ChildrenFor(w: Word): (r: seq<ParseTree>)
    ensures |r| == |w|
    ensures forall i :: 0 <= i < |w| ==> r[i] == ChildFor(w[i])
  {
    seq(|w|, i requires 0 <= i < |w| => ChildFor(w[i]))
  }

  /** Adopting the given nodes one after the other. */
  function AdoptAll(t: ParseTree, p: Path, cs: seq<ParseTree>): (r: ParseTree)
    requires ValidPath(t, p)
    ensures ValidPath(r, p) && At(r, p).item == At(t, p).item
    ensures At(r, p).children == At(t, p).children + cs
    decreases |cs|
  {
    if |cs| == 0 then t
    else
      var r := AdoptAll(Adopt(t, p, cs[0]), p, cs[1..]);
      assert [cs[0]] + cs[1..] == cs;
      r
  }

  /** `formRule(rule)`: a terminal leaf refuses; any other node records the
      rule and adopts one child per right-side symbol, a terminal leaf for
      each terminal and an unformed node for each nonterminal. */
  function FormRule(t: ParseTree, p: Path, rule: Rule): (r: (ParseTree, bool))
    requires ValidPath(t, p)
    ensures r.1 <==> !At(t, p).item.TerminalLeaf?
    ensures !r.1 ==> r.0 == t
    ensures r.1 ==> (ValidPath(r.0, p) && At(r.0, p).item == Formed(rule)
                     && At(r.0, p).children == At(t, p).children + ChildrenFor(rule.right))
  {
    if At(t, p).item.TerminalLeaf? then (t, false)
    else
      var t1 := AdoptAll(t, p, ChildrenFor(rule.right));
      (SetItem(t1, p, Formed(rule)), true)
  }

  /** On a fresh node, the formed children stand for the right side symbol
      by symbol: terminals as leaves that refuse any rule, nonterminals as
      nodes still to be formed. */
  lemma FormRuleChildren(t: ParseTree, p: Path, rule: Rule, i: nat)
    requires ValidPath(t, p) && At(t, p).item.Unformed? && |At(t, p).children| == 0
    requires i < |rule.right|
    ensures var t' := FormRule(t, p, rule).0;
      ValidPath(t', p + [i])
      && (At(t', p + [i]).item.TerminalLeaf? <==> IsTerminal(rule.right[i]))
      && (IsTerminal(rule.right[i]) ==> !FormRule(t', p + [i], rule).1)
      && (!IsTerminal(rule.right[i]) ==> FormRule(t', p + [i], rule).1)
  {
    var t' := FormRule(t, p, rule).0;
    ChildValid(t', p, i);
  }
}

=== FILE: reduced.dfy ===
/** Reduced form (js/grammar_forms/ReducedForm.js): the generating and the
    reachable nonterminals, computed both by the step programs (one round
    of staged additions per step, repeated while something new was found)
    and by the lightweight passes of `check` (additions visible at once),
    each characterised as the least set closed under its rule. */
module ReducedForms {
  import opened Wrappers
  import opened Objects
  import opened Symbols
  import opened Words
  import opened Rules
  import opened Grammars
  import opened GrammarEdits
  import opened FormChecks

  lemma {:induction false} SubsetSmaller<X>(a: set<X>, b: set<X>)
    requires a <= b
    ensures |a| <= |b|
    ensures |a| == |b| ==> a == b
    decreases |a|
  {
    if a != {} {
      var x :| x in a;
      SubsetSmaller(a - {x}, b - {x});
      assert a == (a - {x}) + {x} && b == (b - {x}) + {x};
    } else if |b| == 0 {
      assert b == {};
    }
  }

  /** Growth inside a finite universe U uses it up. */
  lemma Shrinks<X>(U: set<X>, s: set<X>, s': set<X>)
    requires s <= s' && s' - s <= U && s' != s
    ensures |U - s'| < |U - s|
  {
    if s' - s == {} {
      forall y | y in s' ensures y in s {
        assert y !in s' - s;
      }
    }
    var x :| x in s' - s;
    SubsetSmaller(U - s', U - s);
  }

  function Lefts(rules: seq<Rule>): set<string> {
    set x | x in rules :: x.left
  }

  /** Every nonterminal of w is in s (terminals do not matter). */
  predicate NonterminalsIn(w: Word, s: set<string>) {
    forall i :: 0 <= i < |w| && !IsTerminal(w[i]) ==> w[i].Text() in s
  }

  lemma NonterminalsInGrows(w: Word, s: set<string>, s': set<string>)
    requires NonterminalsIn(w, s) && s <= s'
    ensures NonterminalsIn(w, s')
  {
  }

  // ---------------------------------------------------------------------
  // Generating nonterminals

  /** A set closed under generation: a rule whose right side has all its
      nonterminals in X puts its left side in X. The generating
      nonterminals are the least such set. */
  predicate GenClosed(rules: seq<Rule>, X: set<string>) {
    forall x :: x in rules && NonterminalsIn(x.right, X) ==> x.left in X
  }

  /** One pass of `check`'s generating loop: each rule, in order, sees the
      additions of the rules before it. */
  function GenPass(rules: seq<Rule>, s: set<string>): (r: set<string>)
    ensures s <= r && r - s <= Lefts(rules)
    ensures forall x :: x in rules && NonterminalsIn(x.right, s) ==> x.left in r
    decreases |rules|
  {
    if |rules| == 0 then s
    else
      var s1 := if NonterminalsIn(rules[0].right, s) then s + {rules[0].left} else s;
      var r := GenPass(rules[1..], s1);
      assert forall x :: x in rules ==> x == rules[0] || x in rules[1..];
      assert Lefts(rules) == Lefts(rules[1..]) + {rules[0].left};
      forall x | x in rules[1..] && NonterminalsIn(x.right, s) ensures x.left in r {
        NonterminalsInGrows(x.right, s, s1);
      }
      r
  }

  /** A pass stays inside every closed set that contains its start. */
  lemma {:induction false} GenPassBelow(rules: seq<Rule>, s: set<string>, X: set<string>)
    requires GenClosed(rules, X) && s <= X
    ensures GenPass(rules, s) <= X
    decreases |rules|
  {
    if |rules| > 0 {
      var s1 := if NonterminalsIn(rules[0].right, s) then s + {rules[0].left} else s;
      if NonterminalsIn(rules[0].right, s) {
        NonterminalsInGrows(rules[0].right, s, X);
      }
      assert GenClosed(rules[1..], X);
      GenPassBelow(rules[1..], s1, X);
    }
  }

  /** `check`'s loop: passes until one adds nothing. */
  function GenFix(rules: seq<Rule>, s: set<string>): (r: set<string>)
    ensures s <= r && GenClosed(rules, r)
    decreases |Lefts(rules) - s|
  {
    var s' := GenPass(rules, s);
    if |s'| > |s| then
      SubsetSmaller(s, s');
      Shrinks(Lefts(rules), s, s');
      GenFix(rules, s')
    else
      SubsetSmaller(s, s');
      s'
  }

  lemma {:induction false} GenFixBelow(rules: seq<Rule>, s: set<string>, X: set<string>)
    requires GenClosed(rules, X) && s <= X
    ensures GenFix(rules, s) <= X
    decreases |Lefts(rules) - s|
  {
    var s' := GenPass(rules, s);
    GenPassBelow(rules, s, X);
    if |s'| > |s| {
      SubsetSmaller(s, s');
      Shrinks(Lefts(rules), s, s');
      GenFixBelow(rules, s', X);
    }
  }

  /** `generatingStep`: every rule is tested against the visible set; the
      left sides found are staged and the step asks to repeat iff one of
      them was not visible yet. */
  function GeneratingStep(rules: seq<Rule>, visible: set<string>): (r: (set<string>, bool))
    ensures visible <= r.0 && r.0 - visible <= Lefts(rules)
    ensures r.1 <==> r.0 != visible
    ensures r.1 <==> !GenClosed(rules, visible)
    ensures forall X :: GenClosed(rules, X) && visible <= X ==> r.0 <= X
    decreases |rules|
  {
    if |rules| == 0 then (visible, false)
    else
      var rest := GeneratingStep(rules[1..], visible);
      var x := rules[0];
      assert forall y :: y in rules ==> y == x || y in rules[1..];
      assert Lefts(rules) == Lefts(rules[1..]) + {x.left};
      if NonterminalsIn(x.right, visible) then (rest.0 + {x.left}, rest.1 || x.left !in visible)
      else rest
  }

  /** `initGenerating`: the left sides of the rules over terminals only,
      which is a step from the empty set. */
  function InitGenerating(rules: seq<Rule>): (r: set<string>)
    ensures forall n :: n in r <==> exists x :: x in rules && x.left == n && IsTerminalWord(x.right)
  {
    var r := set x | x in rules && IsTerminalWord(x.right) :: x.left;
    assert forall w: Word :: IsTerminalWord(w) <==> NonterminalsIn(w, {});
    r
  }

  lemma InitIsFirstStep(rules: seq<Rule>)
    ensures InitGenerating(rules) == GeneratingStep(rules, {}).0
  {
    var a := InitGenerating(rules);
    var b := GeneratingStep(rules, {}).0;
    assert forall w: Word :: IsTerminalWord(w) <==> NonterminalsIn(w, {});
    forall n | n in b ensures n in a {
      assert !GenClosed(rules, {}) || n in {};
    }
  }

  /** The step program's rounds: steps repeat while the last one asked to. */
  function GenRounds(rules: seq<Rule>, visible: set<string>): (r: set<string>)
    ensures visible <= r && GenClosed(rules, r)
    decreases |Lefts(rules) - visible|
  {
    var (staged, repeat) := GeneratingStep(rules, visible);
    if repeat then
      SubsetSmaller(visible, staged);
      Shrinks(Lefts(rules), visible, staged);
      GenRounds(rules, staged)
    else visible
  }

  lemma {:induction false} GenRoundsBelow(rules: seq<Rule>, s: set<string>, X: set<string>)
    requires GenClosed(rules, X) && s <= X
    ensures GenRounds(rules, s) <= X
    decreases |Lefts(rules) - s|
  {
    var (staged, repeat) := GeneratingStep(rules, s);
    if repeat {
      SubsetSmaller(s, staged);
      Shrinks(Lefts(rules), s, staged);
      GenRoundsBelow(rules, staged, X);
    }
  }

  /** The step program and `check` find the same generating set: both are
      the least closed set. */
  lemma GeneratingAgree(rules: seq<Rule>)
    ensures GenRounds(rules, InitGenerating(rules)) == GenFix(rules, {})
  {
    InitIsFirstStep(rules);
    var a := GenRounds(rules, InitGenerating(rules));
    var b := GenFix(rules, {});
    GenRoundsBelow(rules, InitGenerating(rules), b);
    GenFixBelow(rules, {}, a);
  }

  /** `removeNTSymbols`: the nonterminals, in `forEachNonterminal` order,
      that are asked to be removed: those not generating, the start symbol
      never. */
  function RemoveNongenerating(g: Grammar, gen: set<string>): (r: seq<string>)
    requires g.start in g.n.values
    ensures g.start !in r
    ensures forall n :: n in r <==> n in g.n.values && n !in gen && n != g.start
  {
    Filter(NonterminalOrder(g), n => n !in gen && n != g.start)
  }

  function Filter(s: seq<string>, keep: string -> bool): (r: seq<string>)
    ensures forall x :: x in r <==> x in s && keep(x)
    decreases |s|
  {
    if |s| == 0 then []
    else (if keep(s[0]) then [s[0]] else []) + Filter(s[1..], keep)
  }

  // ---------------------------------------------------------------------
  // Reachable nonterminals

  /** A set closed under reachability: a rule whose left side is in X puts
      all nonterminals of its right side in X. The reachable nonterminals
      are the least such set that holds the start symbol. */
  predicate ReachClosed(rules: seq<Rule>, X: set<string>) {
    forall x :: x in rules && x.left in X ==> NonterminalsIn(x.right, X)
  }

  function RightNonterminals(w: Word): (r: set<string>)
    ensures forall n :: n in r <==> exists i :: 0 <= i < |w| && !IsTerminal(w[i]) && w[i].Text() == n
  {
    set i | 0 <= i < |w| && !IsTerminal(w[i]) :: w[i].Text()
  }

  function Mentioned(rules: seq<Rule>): set<string> {
    set x, i | x in rules && 0 <= i < |x.right| && !IsTerminal(x.right[i]) :: x.right[i].Text()
  }

  lemma RightsMentioned(rules: seq<Rule>, x: Rule)
    requires x in rules
    ensures RightNonterminals(x.right) <= Mentioned(rules)
  {
  }

  /** One pass of `check`'s reachable loop. */
  function ReachPass(rules: seq<Rule>, s: set<string>): (r: set<string>)
    ensures s <= r && r - s <= Mentioned(rules)
    ensures forall x :: x in rules && x.left in s ==> NonterminalsIn(x.right, r)
    decreases |rules|
  {
    if |rules| == 0 then s
    else
      var s1 := if rules[0].left in s then s + RightNonterminals(rules[0].right) else s;
      var r := ReachPass(rules[1..], s1);
      RightsMentioned(rules, rules[0]);
      assert forall x :: x in rules ==> x == rules[0] || x in rules[1..];
      assert Mentioned(rules[1..]) <= Mentioned(rules);
      forall x | x in rules && x.left in s ensures NonterminalsIn(x.right, r) {
        if x == rules[0] {
          NonterminalsInGrows(x.right, s1, r);
        }
      }
      r
  }

  lemma {:induction false} ReachPassBelow(rules: seq<Rule>, s: set<string>, X: set<string>)
    requires ReachClosed(rules, X) && s <= X
    ensures ReachPass(rules, s) <= X
    decreases |rules|
  {
    if |rules| > 0 {
      var s1 := if rules[0].left in s then s + RightNonterminals(rules[0].right) else s;
      assert ReachClosed(rules[1..], X);
      ReachPassBelow(rules[1..], s1, X);
    }
  }

  function ReachFix(rules: seq<Rule>, s: set<string>): (r: set<string>)
    ensures s <= r && ReachClosed(rules, r)
    decreases |Mentioned(rules) - s|
  {
    var s' := ReachPass(rules, s);
    if |s'| > |s| then
      SubsetSmaller(s, s');
      Shrinks(Mentioned(rules), s, s');
      ReachFix(rules, s')
    else
      SubsetSmaller(s, s');
      s'
  }

  lemma {:induction false} ReachFixBelow(rules: seq<Rule>, s: set<string>, X: set<string>)
    requires ReachClosed(rules, X) && s <= X
    ensures ReachFix(rules, s) <= X
    decreases |Mentioned(rules) - s|
  {
    var s' := ReachPass(rules, s);
    ReachPassBelow(rules, s, X);
    if |s'| > |s| {
      SubsetSmaller(s, s');
      Shrinks(Mentioned(rules), s, s');
      ReachFixBelow(rules, s', X);
    }
  }

  /** `reachableStep`: the right-side nonterminals of every rule whose left
      side is visible are staged; repeat iff one was not visible yet. */
  function ReachableStep(rules: seq<Rule>, visible: set<string>): (r: (set<string>, bool))
    ensures visible <= r.0 && r.0 - visible <= Mentioned(rules)
    ensures r.1 <==> r.0 != visible
    ensures r.1 <==> !ReachClosed(rules, visible)
    ensures forall X :: ReachClosed(rules, X) && visible <= X ==> r.0 <= X
    decreases |rules|
  {
    if |rules| == 0 then (visible, false)
    else
      var rest := ReachableStep(rules[1..], visible);
      var x := rules[0];
      RightsMentioned(rules, x);
      assert forall y :: y in rules ==> y == x || y in rules[1..];
      assert Mentioned(rules[1..]) <= Mentioned(rules);
      if x.left in visible then
        var add := RightNonterminals(x.right);
        (rest.0 + add, rest.1 || !(add <= visible))
      else rest
  }

  function ReachRounds(rules: seq<Rule>, visible: set<string>): (r: set<string>)
    ensures visible <= r && ReachClosed(rules, r)
    decreases |Mentioned(rules) - visible|
  {
    var (staged, repeat) := ReachableStep(rules, visible);
    if repeat then
      SubsetSmaller(visible, staged);
      Shrinks(Mentioned(rules), visible, staged);
      ReachRounds(rules, staged)
    else visible
  }

  lemma {:induction false} ReachRoundsBelow(rules: seq<Rule>, s: set<string>, X: set<string>)
    requires ReachClosed(rules, X) && s <= X
    ensures ReachRounds(rules, s) <= X
    decreases |Mentioned(rules) - s|
  {
    var (staged, repeat) := ReachableStep(rules, s);
    if repeat {
      SubsetSmaller(s, staged);
      Shrinks(Mentioned(rules), s, staged);
      ReachRoundsBelow(rules, staged, X);
    }
  }

  /** `initReachable` puts the start symbol in H; from there the step
      program and `check` find the same reachable set. */
  lemma ReachableAgree(rules: seq<Rule>, start: string)
    ensures ReachRounds(rules, {start}) == ReachFix(rules, {start})
  {
    var a := ReachRounds(rules, {start});
    var b := ReachFix(rules, {start});
    ReachRoundsBelow(rules, {start}, b);
    ReachFixBelow(rules, {start}, a);
  }

  /** `removeNRSymbols`: the nonterminals that are not reachable. */
  function RemoveNonreachable(g: Grammar, reach: set<string>): (r: seq<string>)
    requires g.start in g.n.values
    ensures forall n :: n in r <==> n in g.n.values && n !in reach
  {
    Filter(NonterminalOrder(g), n => n !in reach)
  }

  // ---------------------------------------------------------------------
  // removeStupidRules and ReducedForm.check

  /** A rule X -> X: a one-symbol right with the left side's text. */
  predicate SelfRule(x: Rule) {
    |x.right| == 1 && x.right[0].Text() == x.left
  }

  /** `removeStupidRules`: the rules asked to be removed. */
  function RemoveSelfRules(rules: seq<Rule>): (r: seq<Rule>)
    ensures forall x :: x in r <==> x in rules && SelfRule(x)
    decreases |rules|
  {
    if |rules| == 0 then []
    else (if SelfRule(rules[0]) then [rules[0]] else []) + RemoveSelfRules(rules[1..])
  }

  /** `ReducedForm.check`: no rule X -> X; the generating set is every
      nonterminal, or every one but a non-generating start; the reachable
      set is every nonterminal. Sets are compared by size. */
  function ReducedCheck(g: Grammar): bool {
    var rules := RulesOf(g);
    if !Scan(rules, (x: Rule) => !SelfRule(x)) then false
    else
      var gen := GenFix(rules, {});
      var count := Count(g.n);
      if !(|gen| == count || (|gen| == count - 1 && g.start !in gen)) then false
      else |ReachFix(rules, {g.start})| == count
  }

  /** In a valid grammar the left sides are nonterminals. */
  lemma LeftsKnown(g: Grammar)
    requires Valid(g)
    ensures Lefts(RulesOf(g)) <= g.n.values.Keys
  {
    forall x | x in RulesOf(g) ensures x.left in g.n.values {
      RuleStored(g, x);
    }
  }

  /** In a valid grammar the nonterminals on right sides are nonterminals
      of the grammar. */
  lemma MentionedKnown(g: Grammar)
    requires Valid(g)
    ensures Mentioned(RulesOf(g)) <= g.n.values.Keys
  {
    forall n | n in Mentioned(RulesOf(g)) ensures n in g.n.values {
      var x, i :| x in RulesOf(g) && 0 <= i < |x.right| && !IsTerminal(x.right[i]) && x.right[i].Text() == n;
      RuleStored(g, x);
      var L := x.left;
      assert RuleWellFormed(g.n, g.t, L, ToString(x.right), x);
      assert InitLookup(g.n, g.t, x.right[i].Text()) == Some(x.right[i]);
    }
  }

  lemma GenFixKnown(g: Grammar)
    requires Valid(g)
    ensures GenFix(RulesOf(g), {}) <= g.n.values.Keys
  {
    LeftsKnown(g);
    GenFixInside(RulesOf(g), {}, g.n.values.Keys);
  }

  lemma {:induction false} GenFixInside(rules: seq<Rule>, s: set<string>, U: set<string>)
    requires s <= U && Lefts(rules) <= U
    ensures GenFix(rules, s) <= U
    decreases |Lefts(rules) - s|
  {
    var s' := GenPass(rules, s);
    if |s'| > |s| {
      SubsetSmaller(s, s');
      Shrinks(Lefts(rules), s, s');
      GenFixInside(rules, s', U);
    }
  }

  lemma {:induction false} ReachFixInside(rules: seq<Rule>, s: set<string>, U: set<string>)
    requires s <= U && Mentioned(rules) <= U
    ensures ReachFix(rules, s) <= U
    decreases |Mentioned(rules) - s|
  {
    var s' := ReachPass(rules, s);
    if |s'| > |s| {
      SubsetSmaller(s, s');
      Shrinks(Mentioned(rules), s, s');
      ReachFixInside(rules, s', U);
    }
  }

  /** In a valid grammar, `check` holds exactly when there is no rule
      X -> X, every nonterminal but possibly the start is generating, and
      every nonterminal is reachable from the start. */
  lemma ReducedCheckMeans(g: Grammar)
    requires Valid(g)
    ensures ReducedCheck(g) <==>
              (forall x :: x in RulesOf(g) ==> !SelfRule(x))
              && (forall n :: n in g.n.values && n != g.start ==> n in GenFix(RulesOf(g), {}))
              && (forall n :: n in g.n.values ==> n in ReachFix(RulesOf(g), {g.start}))
  {
    var rules := RulesOf(g);
    var N := g.n.values.Keys;
    var gen := GenFix(rules, {});
    var reach := ReachFix(rules, {g.start});
    assert Count(g.n) == |N|;
    GenFixKnown(g);
    GenAlmostAll(gen, N, g.start);
    ReachFixKnown(g);
    AllReached(reach, N);
  }

  lemma ReachFixKnown(g: Grammar)
    requires Valid(g)
    ensures ReachFix(RulesOf(g), {g.start}) <= g.n.values.Keys
  {
    MentionedKnown(g);
    ReachFixInside(RulesOf(g), {g.start}, g.n.values.Keys);
  }

  lemma AllReached(reach: set<string>, N: set<string>)
    requires reach <= N
    ensures |reach| == |N| <==> forall n :: n in N ==> n in reach
  {
    SubsetSmaller(reach, N);
  }

  lemma GenAlmostAll(gen: set<string>, N: set<string>, start: string)
    requires gen <= N && start in N
    ensures (|gen| == |N| || (|gen| == |N| - 1 && start !in gen))
            <==> forall n :: n in N && n != start ==> n in gen
  {
    SubsetSmaller(gen, N);
    if forall n :: n in N && n != start ==> n in gen {
      if start !in gen {
        assert gen == N - {start};
      } else {
        assert gen == N;
      }
    }
    if start !in gen {
      SubsetSmaller(gen, N - {start});
    }
  }
}

=== FILE: rich_input.dfy ===
/** The editing operations behind the rich grammar editor
    (js/gui/RichInput.js): renaming, adding and removing symbols, adding,
    editing and removing rules, and changing the start symbol. Each edit
    either refuses (the user is told why and the grammar is unchanged), or
    raises an error for a request that cannot come from the editor, or
    changes the grammar. */
module RichInputs {
  import opened Wrappers
  import opened Highlights
  import opened Objects
  import opened Symbols
  import opened Text
  import opened Words
  import opened Rules
  import opened Grammars
  import opened GrammarEdits

  /** The symbol kind an edit enforces ("Terminal" or "Nonterminal"). */
  datatype Kind = TerminalKind | NonterminalKind

  /** An edit's outcome: the grammar afterwards and the value returned. */
  datatype Outcome<T> = Outcome(grammar: Grammar, value: T)

  function Alphabet(g: Grammar, kind: Kind): Dict<Highlight> {
    if kind == TerminalKind then g.t else g.n
  }

  predicate KindText(text: string, kind: Kind) {
    if kind == TerminalKind then IsTerminalText(text) else IsNonterminalText(text)
  }

  function SymbolOf(kind: Kind, text: string): Symbol {
    if kind == TerminalKind then Terminal(text) else Nonterminal(text)
  }

  /** A symbol the constructors can make: a valid text of its own kind. */
  predicate Constructible(s: Symbol) {
    match s
    case Terminal(x) => Check(x) && IsTerminalText(x)
    case Nonterminal(x) => Check(x) && IsNonterminalText(x)
    case EndMarker => false
  }

  /** `tryGetSymbol` as the lookup of the word parser. */
  function SymbolLookup(g: Grammar): string -> Option<Symbol> {
    text => TryGetSymbol(g, text)
  }

  // ----- symbols -----

  /** `isGoodNew(text, type)`: a valid text of the kind, not yet in that
      kind's alphabet. */
  predicate IsGoodNew(g: Grammar, text: string, kind: Kind) {
    Check(text) && KindText(text, kind) && text !in Alphabet(g, kind).values
  }

  function KindRenaming(kind: Kind, was: string, now: string): (ren: Renaming)
    ensures kind == TerminalKind ==> ren.nt == map[] && ren.t == map[was := now]
    ensures kind == NonterminalKind ==> ren.t == map[] && ren.nt == map[was := now]
  {
    if kind == TerminalKind then Renaming(map[], map[was := now]) else Renaming(map[was := now], map[])
  }

  /** `renameSymbol(oldtext, newtext, type)`: renaming to the same text
      returns the existing symbol; the empty text or a text that is not a
      good new one is refused; otherwise the symbol of that kind is renamed
      everywhere and the grammar rehashed. A missing old symbol is an
      error. */
  function RenameSymbol(g: Grammar, oldtext: string, newtext: string, kind: Kind): (r: Result<Outcome<Option<Symbol>>>)
    ensures r.Success? && r.value.value.None? ==> r.value.grammar == g
    ensures oldtext == newtext ==> (r.Success? <==> oldtext in g.n.values || oldtext in g.t.values)
    ensures oldtext != newtext && r.Success? && r.value.value.Some? ==>
              IsGoodNew(g, newtext, kind) && oldtext in Alphabet(g, kind).values
              && r.value.value == Some(SymbolOf(kind, newtext))
    ensures oldtext != newtext && newtext != "" && IsGoodNew(g, newtext, kind) ==>
              (r.Success? <==> oldtext in Alphabet(g, kind).values)
  {
    if oldtext == newtext then
      if oldtext in g.n.values then Success(Outcome(g, Some(Nonterminal(oldtext))))
      else if oldtext in g.t.values then Success(Outcome(g, Some(Terminal(oldtext))))
      else Failure("The old symbol doesn't exist in this grammar")
    else if newtext == "" || !IsGoodNew(g, newtext, kind) then Success(Outcome(g, None))
    else if oldtext !in Alphabet(g, kind).values then Failure("The old symbol doesn't exist in this grammar")
    else Success(Outcome(Rehash(g, KindRenaming(kind, oldtext, newtext)), Some(SymbolOf(kind, newtext))))
  }

  /** `removeSymbol(symbol)`: refused for the start symbol, the last
      nonterminal and the last terminal; otherwise the symbol leaves both
      alphabets, and so do the rules with it on either side. */
  function RemoveSymbol(g: Grammar, s: Symbol): (r: Outcome<bool>)
    ensures !r.value ==> r.grammar == g
    ensures r.value <==> (s.Text() in g.n.values && |g.n.values| > 1 && s.Text() != g.start)
                         || (s.Text() in g.t.values && |g.t.values| > 1)
  {
    var x := s.Text();
    if (x in g.n.values && Count(g.n) > 1 && g.start != x) || (x in g.t.values && Count(g.t) > 1) then
      var g1 := g.(n := Remove(g.n, x), t := Remove(g.t, x));
      Outcome(RemoveRulesContainingRight(RemoveRulesLeft(g1, s), s), true)
    else Outcome(g, false)
  }

  /** `tryAddSymbol(text, type)`: a good new text is added at the end of its
      alphabet, untagged; anything else is refused. */
  function TryAddSymbol(g: Grammar, text: string, kind: Kind): (r: Outcome<Option<Symbol>>)
    ensures r.value.Some? <==> text != "" && IsGoodNew(g, text, kind)
    ensures r.value.None? ==> r.grammar == g
    ensures r.value.Some? ==> r.value.value == SymbolOf(kind, text)
                              && Alphabet(r.grammar, kind).keys == Alphabet(g, kind).keys + [text]
  {
    if text != "" && IsGoodNew(g, text, kind) then
      var a := Put(Alphabet(g, kind), text, NONE);
      var g' := if kind == TerminalKind then g.(t := a) else g.(n := a);
      Outcome(g', Some(SymbolOf(kind, text)))
    else Outcome(g, None)
  }

  /** `tryEditSymbol(prev, newtext, type)`: a rename; when that is refused,
      a nonempty text keeps the old symbol, and the empty text removes it
      (returning nothing) unless the removal is refused. */
  function TryEditSymbol(g: Grammar, prev: Symbol, newtext: string, kind: Kind): (r: Result<Outcome<Option<Symbol>>>)
    ensures r.Success? <==> RenameSymbol(g, prev.Text(), newtext, kind).Success?
    ensures r.Success? && newtext != "" && RenameSymbol(g, prev.Text(), newtext, kind).value.value.None? ==>
              r.value == Outcome(g, Some(prev))
    ensures r.Success? && newtext == "" && prev.Text() != "" ==>
              r.value.grammar == RemoveSymbol(g, prev).grammar
              && (r.value.value.None? <==> RemoveSymbol(g, prev).value)
  {
    var renamed :- RenameSymbol(g, prev.Text(), newtext, kind);
    if renamed.value.Some? then Success(renamed)
    else if newtext != "" then Success(Outcome(g, Some(prev)))
    else
      var removed := RemoveSymbol(g, prev);
      Success(Outcome(removed.grammar, if removed.value then None else Some(prev)))
  }

  // ----- rules -----

  /** `tryAddRule(left, right)`: the left side must be a nonterminal and the
      right side a word over the grammar's symbols that is not yet a right
      side of that left side; the rule is added untagged at the end of its
      group. A new group first appears empty and the grammar is rehashed. */
  function TryAddRule(g: Grammar, left: string, right: string): (r: Outcome<Option<Rule>>)
    ensures r.value.Some? ==>
              && left in g.n.values
              && TryParseString(right, SymbolLookup(g)).Some?
              && r.value.value == Rule(left, TryParseString(right, SymbolLookup(g)).value, NONE, NONE)
              && TryGetRule(g, left, ToString(r.value.value.right)).None?
    ensures r.value.None? ==> r.grammar == g
    ensures r.value.None? ==>
              || left == "" || right == "" || left !in g.n.values
              || TryParseString(right, SymbolLookup(g)).None?
              || TryGetRule(g, left, ToString(TryParseString(right, SymbolLookup(g)).value)).Some?
  {
    if left == "" || right == "" || left !in g.n.values then Outcome(g, None)
    else match TryParseString(right, SymbolLookup(g))
      case None => Outcome(g, None)
      case Some(w) =>
        var leftWasNew := left !in g.p.values;
        var group := if leftWasNew then Empty() else g.p.values[left];
        var key := ToString(w);
        if key in group.values then Outcome(g, None)
        else
          var rule := NewRule(Nonterminal(left), w, NONE).value;
          var g' := g.(p := Put(g.p, left, Put(group, key, rule)));
          Outcome(if leftWasNew then Rehash(g', NoRenaming) else g', Some(rule))
  }

  /** `tryAddRuleLeft(leftText, rightText)`: only for a left side that has
      no group yet. */
  function TryAddRuleLeft(g: Grammar, left: string, right: string): (r: Outcome<Option<Rule>>)
    ensures left in g.p.values ==> r == Outcome(g, None)
    ensures left !in g.p.values ==> r == TryAddRule(g, left, right)
  {
    if left in g.p.values then Outcome(g, None) else TryAddRule(g, left, right)
  }

  /** `tryEditRuleRight(oldRule, newtext)`: the empty text deletes the rule
      (rehashing only when its group became empty) and returns nothing; a
      text that does not parse, or parses to a right side already in the
      group, keeps the rule; otherwise the rule is replaced by an untagged
      one with the new right side, placed at the end of its group, and the
      grammar rehashed. A rule not in the grammar is an error. */
  function TryEditRuleRight(g: Grammar, prev: Rule, newtext: string): (r: Result<Outcome<Option<Rule>>>)
    ensures r.Success? <==> TryGetRule(g, prev.left, ToString(prev.right)).Some?
    ensures r.Success? && newtext == "" ==> r.value.value.None?
    ensures r.Success? && newtext != "" && TryParseString(newtext, SymbolLookup(g)).None? ==>
              r.value == Outcome(g, TryGetRule(g, prev.left, ToString(prev.right)))
  {
    var oldKey := ToString(prev.right);
    if prev.left !in g.p.values || oldKey !in g.p.values[prev.left].values then
      Failure("Old rule doesn't exist in this grammar")
    else
      var group := g.p.values[prev.left];
      var stored := group.values[oldKey];
      if newtext == "" then
        var group' := Remove(group, oldKey);
        var g' := g.(p := Put(g.p, prev.left, group'));
        Success(Outcome(if |group'.keys| == 0 then Rehash(g', NoRenaming) else g', None))
      else match TryParseString(newtext, SymbolLookup(g))
        case None => Success(Outcome(g, Some(stored)))
        case Some(w) =>
          var key := ToString(w);
          if key in group.values then Success(Outcome(g, Some(stored)))
          else
            var rule := Rule(stored.left, w, NONE, NONE);
            var group' := Put(Remove(group, oldKey), key, rule);
            Success(Outcome(Rehash(g.(p := Put(g.p, prev.left, group')), NoRenaming), Some(rule)))
  }

  /** `removeRule(rule)`. */
  function RemoveRule(g: Grammar, prev: Rule): (r: Result<Grammar>)
    ensures r.Success? <==> TryGetRule(g, prev.left, ToString(prev.right)).Some?
  {
    var e :- TryEditRuleRight(g, prev, "");
    Success(e.grammar)
  }

  /** `tryChangeStartingNonterminal(newText)`: an existing nonterminal
      becomes the start symbol and the grammar is rehashed; anything else
      is refused and the old start symbol returned. */
  function TryChangeStart(g: Grammar, newText: string): (r: Outcome<string>)
    ensures r.value == (if Check(newText) && newText in g.n.values then newText else g.start)
    ensures r.grammar.start == r.value
    ensures r.value == g.start ==> r.grammar == g || r.grammar == Rehash(g, NoRenaming)
  {
    if Check(newText) && newText in g.n.values then
      Outcome(Rehash(g.(start := newText), NoRenaming), newText)
    else Outcome(g, g.start)
  }

  // ----- what the edits keep -----

  /** A right side the constructor can read back: no end marker, and not a
      lone symbol that prints like the empty word. */
  predicate Storable(w: Word) {
    !IsEpsLookalike(w) && forall i :: 0 <= i < |w| ==> !w[i].EndMarker?
  }

  /** A removal that is not refused keeps the grammar well-formed, takes
      the symbol out of both alphabets, and keeps exactly the rules that do
      not mention it on either side. */
  lemma RemoveSymbolSpec(g: Grammar, s: Symbol, L: string, k: string)
    requires Valid(g) && Constructible(s)
    requires RemoveSymbol(g, s).value
    ensures var r := RemoveSymbol(g, s).grammar;
            && Valid(r)
            && s.Text() !in r.n.values && s.Text() !in r.t.values
            && (TryGetRule(r, L, k).Some?
                <==> TryGetRule(g, L, k).Some? && L != s.Text() && !Contains(g.p.values[L].values[k].right, s))
            && (TryGetRule(r, L, k).Some? ==> TryGetRule(r, L, k) == TryGetRule(g, L, k))
            && r.n.values == g.n.values - {s.Text()} && r.t.values == g.t.values - {s.Text()}
            && r.start == g.start
  {
    var x := s.Text();
    var g1 := g.(n := Remove(g.n, x), t := Remove(g.t, x));
    var g2 := RemoveRulesLeft(g1, s);
    assert s.Nonterminal? <==> x in g.n.values by {
      ExactlyOneKind(x);
    }
    assert g.start != x by {
      AlphabetsDisjoint(g.n, g.t, x);
    }
    forall L | L in g2.p.values ensures L != x {
      AlphabetsDisjoint(g.n, g.t, x);
    }
    RemovedSymbolLookups(g, s, g2);
    RemoveRulesContainingRightSpec(g2, s, L, k);
  }

  /** After the symbol left the alphabets and its group was deleted, every
      rule that does not mention it is still well-formed. */
  lemma RemovedSymbolLookups(g: Grammar, s: Symbol, g2: Grammar)
    requires Valid(g)
    requires g2.n.values == g.n.values - {s.Text()} && g2.t.values == g.t.values - {s.Text()}
    requires g2.start == g.start && g.start != s.Text()
    requires forall L :: L in g2.p.values ==> L in g.p.values && L != s.Text() && g2.p.values[L] == g.p.values[L]
    ensures ValidExceptContaining(g2, s)
  {
    forall L, k | L in g2.p.values && k in g2.p.values[L].values && !Contains(g2.p.values[L].values[k].right, s)
      ensures RuleWellFormed(g2.n, g2.t, L, k, g2.p.values[L].values[k])
    {
      var rule := g2.p.values[L].values[k];
      assert RuleWellFormed(g.n, g.t, L, k, rule);
      forall i | 0 <= i < |rule.right| ensures rule.right[i].Text() != s.Text() {
        assert !Equals(rule.right[i], s);
      }
      ShrinkKeepsRule(g.n, g.t, g2.n, g2.t, s.Text(), L, k, rule);
    }
  }

  /** A rule stays well-formed when one text leaves the alphabets, as long
      as its right side does not use that text. */
  lemma ShrinkKeepsRule(n: Dict<Highlight>, t: Dict<Highlight>, n2: Dict<Highlight>, t2: Dict<Highlight>,
                        x: string, L: string, k: string, rule: Rule)
    requires ValidAlphabets(n, t) && RuleWellFormed(n, t, L, k, rule)
    requires n2.values == n.values - {x} && t2.values == t.values - {x}
    requires forall i :: 0 <= i < |rule.right| ==> rule.right[i].Text() != x
    ensures RuleWellFormed(n2, t2, L, k, rule)
  {
    forall i | 0 <= i < |rule.right| ensures InitLookup(n2, t2, rule.right[i].Text()) == Some(rule.right[i]) {
      AlphabetsDisjoint(n, t, rule.right[i].Text());
    }
  }

  /** An added symbol is found under its text and the grammar stays
      well-formed. */
  lemma TryAddSymbolSpec(g: Grammar, text: string, kind: Kind)
    requires Valid(g)
    ensures Valid(TryAddSymbol(g, text, kind).grammar)
    ensures TryAddSymbol(g, text, kind).value.Some? ==>
              TryGetSymbol(TryAddSymbol(g, text, kind).grammar, text) == Some(SymbolOf(kind, text))
  {
    var r := TryAddSymbol(g, text, kind);
    if r.value.Some? {
      ExactlyOneKind(text);
      var g' := r.grammar;
      forall L, k | L in g'.p.values && k in g'.p.values[L].values
        ensures RuleWellFormed(g'.n, g'.t, L, k, g'.p.values[L].values[k])
      {
        var rule := g'.p.values[L].values[k];
        assert RuleWellFormed(g.n, g.t, L, k, rule);
        forall i | 0 <= i < |rule.right| ensures InitLookup(g'.n, g'.t, rule.right[i].Text()) == Some(rule.right[i]) {
          var y := rule.right[i].Text();
          assert y in g.n.values || y in g.t.values;
          AlphabetsDisjoint(g.n, g.t, y);
          ExactlyOneKind(y);
        }
      }
    }
  }

  /** A successful rename puts the new text in place of the old one in its
      alphabet, keeps the alphabet's size and leaves the other alphabet
      alone; a renamed start symbol stays the start symbol. */
  lemma RenameSymbolSpec(g: Grammar, oldtext: string, newtext: string, kind: Kind)
    requires Valid(g)
    requires oldtext != newtext
    requires RenameSymbol(g, oldtext, newtext, kind).Success?
    requires RenameSymbol(g, oldtext, newtext, kind).value.value.Some?
    ensures var r := RenameSymbol(g, oldtext, newtext, kind).value.grammar;
            && newtext in Alphabet(r, kind).values && oldtext !in Alphabet(r, kind).values
            && |Alphabet(r, kind).keys| == |Alphabet(g, kind).keys|
            && (kind == TerminalKind ==> r.n.values == g.n.values && r.start == g.start)
            && (kind == NonterminalKind ==> r.t == g.t && r.start == (if g.start == oldtext then newtext else g.start))
  {
    var ren := KindRenaming(kind, oldtext, newtext);
    var a := Alphabet(g, kind);
    RenameInAlphabet(a, oldtext, newtext);
    RehashAlphabetOf(g, ren);
    if kind == TerminalKind {
      RehashAlphabetIdentity(g.n.keys, g.n.values);
      RestrictAll(g.n);
      RehashTerminals(g, ren);
    } else {
      RehashAlphabetIdentity(g.t.keys, g.t.values);
      RestrictAll(g.t);
    }
  }

  /** Renaming one present text to an absent one in an alphabet. */
  lemma RenameInAlphabet(a: Dict<Highlight>, was: string, now: string)
    requires was in a.values && now !in a.values
    ensures var r := RehashAlphabet(a.keys, a.values, map[was := now]);
            now in r.values && was !in r.values && |r.keys| == |a.keys|
  {
    var f := map[was := now];
    RenameOneApart(a, was, now);
    RehashAlphabetInjective(a.keys, a.values, f);
    var i :| 0 <= i < |a.keys| && a.keys[i] == was;
    assert RenameAll(f, a.keys)[i] == now;
    forall j | 0 <= j < |a.keys| ensures RenameAll(f, a.keys)[j] != was {
      if a.keys[j] != was {
        assert RenameAll(f, a.keys)[j] == a.keys[j];
      }
    }
  }

  lemma RehashTerminals(g: Grammar, ren: Renaming)
    ensures Rehash(g, ren).t == RehashAlphabet(g.t.keys, g.t.values, ren.t)
  {
  }

  /** Renaming one key to a text not among the keys keeps the keys apart. */
  lemma RenameOneApart(a: Dict<Highlight>, was: string, now: string)
    requires now !in a.values
    ensures Distinct(RenameAll(map[was := now], a.keys))
  {
    var r := RenameAll(map[was := now], a.keys);
    forall i, j | 0 <= i < j < |r| ensures r[i] != r[j] {
      assert a.keys[i] != a.keys[j];
    }
  }

  /** The symbols of a parsed right side are found by the constructor's
      lookup as well, unless one is the end marker. */
  lemma ParsedWordResolves(g: Grammar, text: string, w: Word)
    requires ValidAlphabets(g.n, g.t)
    requires TryParseString(text, SymbolLookup(g)) == Some(w)
    requires forall i :: 0 <= i < |w| ==> !w[i].EndMarker?
    ensures forall i :: 0 <= i < |w| ==> InitLookup(g.n, g.t, w[i].Text()) == Some(w[i])
  {
    if !IsEpsPattern(text) {
      forall i | 0 <= i < |w| ensures InitLookup(g.n, g.t, w[i].Text()) == Some(w[i]) {
        var tok := Tokens(text)[i];
        assert Some(w[i]) == SymbolLookup(g)(tok);
        TryGetSymbolExtendsInitLookup(g, tok);
      }
    }
  }

  /** Replacing the group of a nonterminal by a well-formed group keeps the
      grammar well-formed and changes no other group. */
  lemma PutGroupSpec(g: Grammar, L: string, group: Dict<Rule>, L': string, k: string)
    requires Valid(g) && L in g.n.values && GroupWellFormed(g.n, g.t, L, group)
    ensures Valid(g.(p := Put(g.p, L, group)))
    ensures TryGetRule(g.(p := Put(g.p, L, group)), L', k) == (if L' == L then Objects.Get(group, k) else TryGetRule(g, L', k))
  {
  }

  lemma PutRuleWellFormed(g: Grammar, L: string, group: Dict<Rule>, key: string, rule: Rule)
    requires GroupWellFormed(g.n, g.t, L, group) && RuleWellFormed(g.n, g.t, L, key, rule)
    ensures GroupWellFormed(g.n, g.t, L, Put(group, key, rule))
  {
  }

  lemma RemoveRuleWellFormed(g: Grammar, L: string, group: Dict<Rule>, key: string)
    requires GroupWellFormed(g.n, g.t, L, group)
    ensures GroupWellFormed(g.n, g.t, L, Remove(group, key))
  {
  }

  /** The rule `tryAddRule` builds from a parsed, storable right side is well
      formed. */
  lemma NewRuleWellFormed(g: Grammar, left: string, text: string, w: Word)
    requires ValidAlphabets(g.n, g.t)
    requires TryParseString(text, SymbolLookup(g)) == Some(w) && Storable(w)
    ensures RuleWellFormed(g.n, g.t, left, ToString(w), Rule(left, w, NONE, NONE))
  {
    ParsedWordResolves(g, text, w);
  }

  /** A grammar with an updated group, rehashed or not, keeps every rule the
      update keeps. */
  lemma UpdateGroupSpec(g: Grammar, L: string, group: Dict<Rule>, rehash: bool, L': string, k: string)
    requires Valid(g) && L in g.n.values && GroupWellFormed(g.n, g.t, L, group)
    ensures var g' := g.(p := Put(g.p, L, group));
            var r := if rehash then Rehash(g', NoRenaming) else g';
            && Valid(r)
            && TryGetRule(r, L', k) == (if L' == L then Objects.Get(group, k) else TryGetRule(g, L', k))
            && r.n.values == g.n.values && r.t == g.t && r.start == g.start
  {
    var g' := g.(p := Put(g.p, L, group));
    PutGroupSpec(g, L, group, L', k);
    if rehash {
      RehashKeepsValid(g');
      RehashKeepsRules(g', L', k);
    }
  }

  /** A rule added to a well-formed grammar is found under its left side and
      the text of its right side, every other rule is as before, and the
      grammar stays well-formed when the new right side can be read back. */
  lemma TryAddRuleSpec(g: Grammar, left: string, right: string, L: string, k: string)
    requires Valid(g)
    requires TryAddRule(g, left, right).value.Some? ==> Storable(TryAddRule(g, left, right).value.value.right)
    ensures Valid(TryAddRule(g, left, right).grammar)
    ensures TryAddRule(g, left, right).value.Some? ==>
              TryGetRule(TryAddRule(g, left, right).grammar, left, ToString(TryAddRule(g, left, right).value.value.right))
              == TryAddRule(g, left, right).value
    ensures TryAddRule(g, left, right).value.Some? && (L, k) != (left, ToString(TryAddRule(g, left, right).value.value.right)) ==>
              TryGetRule(TryAddRule(g, left, right).grammar, L, k) == TryGetRule(g, L, k)
  {
    var r := TryAddRule(g, left, right);
    if r.value.Some? {
      var w := r.value.value.right;
      var key := ToString(w);
      var rule := r.value.value;
      var leftWasNew := left !in g.p.values;
      var group := if leftWasNew then Empty() else g.p.values[left];
      NewRuleWellFormed(g, left, right, w);
      TryAddRuleUnfold(g, left, right);
      AddedRuleSpec(g, left, group, key, rule, leftWasNew, L, k);
    }
  }

  /** Adding a rule and deleting it again restores every lookup. */
  lemma AddThenRemoveRule(g: Grammar, left: string, right: string, L: string, k: string)
    requires Valid(g)
    requires TryAddRule(g, left, right).value.Some? && Storable(TryAddRule(g, left, right).value.value.right)
    ensures var r := TryAddRule(g, left, right);
            && RemoveRule(r.grammar, r.value.value).Success?
            && TryGetRule(RemoveRule(r.grammar, r.value.value).value, L, k) == TryGetRule(g, L, k)
  {
    var r := TryAddRule(g, left, right);
    var rule := r.value.value;
    TryAddRuleSpec(g, left, right, L, k);
    TryAddRuleSpec(g, left, right, rule.left, ToString(rule.right));
    RemoveAddedRule(g, r.grammar, rule, L, k);
  }

  /** Deleting from g1 a rule that g lacks, where g1 otherwise looks up
      like g, gives g's lookups back. */
  lemma RemoveAddedRule(g: Grammar, g1: Grammar, rule: Rule, L: string, k: string)
    requires Valid(g1) && TryGetRule(g1, rule.left, ToString(rule.right)) == Some(rule)
    requires TryGetRule(g, rule.left, ToString(rule.right)).None?
    requires (L, k) != (rule.left, ToString(rule.right)) ==> TryGetRule(g1, L, k) == TryGetRule(g, L, k)
    ensures RemoveRule(g1, rule).Success? && TryGetRule(RemoveRule(g1, rule).value, L, k) == TryGetRule(g, L, k)
  {
    DeleteRuleSpec(g1, rule, L, k);
  }

  /** The grammar `tryAddRule` builds when it adds a rule. */
  lemma TryAddRuleUnfold(g: Grammar, left: string, right: string)
    requires TryAddRule(g, left, right).value.Some?
    ensures var rule := TryAddRule(g, left, right).value.value;
            var leftWasNew := left !in g.p.values;
            var group := if leftWasNew then Empty() else g.p.values[left];
            var g' := g.(p := Put(g.p, left, Put(group, ToString(rule.right), rule)));
            TryAddRule(g, left, right).grammar == if leftWasNew then Rehash(g', NoRenaming) else g'
  {
  }

  /** Putting a well-formed rule under a new key of a group: the rule is
      found there, and every other lookup is the grammar's own. */
  lemma AddedRuleSpec(g: Grammar, L0: string, group: Dict<Rule>, key: string, rule: Rule, rehash: bool,
                      L: string, k: string)
    requires Valid(g) && L0 in g.n.values && RuleWellFormed(g.n, g.t, L0, key, rule)
    requires rehash == (L0 !in g.p.values)
    requires group == (if rehash then Empty() else g.p.values[L0]) && key !in group.values
    ensures var g' := g.(p := Put(g.p, L0, Put(group, key, rule)));
            var r := if rehash then Rehash(g', NoRenaming) else g';
            && Valid(r)
            && TryGetRule(r, L0, key) == Some(rule)
            && ((L, k) != (L0, key) ==> TryGetRule(r, L, k) == TryGetRule(g, L, k))
  {
    PutRuleWellFormed(g, L0, group, key, rule);
    var group' := Put(group, key, rule);
    UpdateGroupSpec(g, L0, group', rehash, L, k);
    UpdateGroupSpec(g, L0, group', rehash, L0, key);
  }

  /** Deleting a rule of a well-formed grammar removes exactly that rule and
      keeps the grammar well-formed. */
  lemma DeleteRuleSpec(g: Grammar, prev: Rule, L: string, k: string)
    requires Valid(g)
    requires TryGetRule(g, prev.left, ToString(prev.right)).Some?
    ensures Valid(TryEditRuleRight(g, prev, "").value.grammar)
    ensures TryGetRule(TryEditRuleRight(g, prev, "").value.grammar, prev.left, ToString(prev.right)).None?
    ensures (L, k) != (prev.left, ToString(prev.right)) ==>
              TryGetRule(TryEditRuleRight(g, prev, "").value.grammar, L, k) == TryGetRule(g, L, k)
    ensures var r := TryEditRuleRight(g, prev, "").value.grammar;
            r.n.values == g.n.values && r.t == g.t && r.start == g.start
  {
    var oldKey := ToString(prev.right);
    var group := g.p.values[prev.left];
    var group' := Remove(group, oldKey);
    RemoveRuleWellFormed(g, prev.left, group, oldKey);
    var rehash := |group'.keys| == 0;
    assert TryEditRuleRight(g, prev, "").value.grammar ==
           (if rehash then Rehash(g.(p := Put(g.p, prev.left, group')), NoRenaming) else g.(p := Put(g.p, prev.left, group')));
    UpdateGroupSpec(g, prev.left, group', rehash, L, k);
    UpdateGroupSpec(g, prev.left, group', rehash, prev.left, oldKey);
  }

  /** Editing a rule's right side either leaves the grammar as it was (the
      text does not parse, or parses to a right side already in the group)
      or replaces exactly that rule by the new one; a well-formed grammar
      stays well-formed when the new right side can be read back. */
  lemma EditRuleRightSpec(g: Grammar, prev: Rule, newtext: string, L: string, k: string)
    requires Valid(g) && newtext != ""
    requires TryGetRule(g, prev.left, ToString(prev.right)).Some?
    requires TryParseString(newtext, SymbolLookup(g)).Some? ==> Storable(TryParseString(newtext, SymbolLookup(g)).value)
    ensures Valid(TryEditRuleRight(g, prev, newtext).value.grammar)
    ensures !EditReplaces(g, prev, newtext) ==> TryEditRuleRight(g, prev, newtext).value.grammar == g
    ensures EditReplaces(g, prev, newtext) ==>
              var r := TryEditRuleRight(g, prev, newtext).value.grammar;
              var w := TryParseString(newtext, SymbolLookup(g)).value;
              && TryGetRule(r, prev.left, ToString(w)) == Some(Rule(prev.left, w, NONE, NONE))
              && TryGetRule(r, prev.left, ToString(prev.right)).None?
              && ((L, k) != (prev.left, ToString(prev.right)) && (L, k) != (prev.left, ToString(w))
                  ==> TryGetRule(r, L, k) == TryGetRule(g, L, k))
  {
    if EditReplaces(g, prev, newtext) {
      var w := TryParseString(newtext, SymbolLookup(g)).value;
      EditReplacesStored(g, prev, newtext, w, L, k);
    }
  }

  lemma EditReplacesStored(g: Grammar, prev: Rule, newtext: string, w: Word, L: string, k: string)
    requires Valid(g) && TryGetRule(g, prev.left, ToString(prev.right)).Some?
    requires EditReplaces(g, prev, newtext) && TryParseString(newtext, SymbolLookup(g)) == Some(w) && Storable(w)
    ensures var r := TryEditRuleRight(g, prev, newtext).value.grammar;
            && Valid(r)
            && TryGetRule(r, prev.left, ToString(w)) == Some(Rule(prev.left, w, NONE, NONE))
            && TryGetRule(r, prev.left, ToString(prev.right)).None?
            && ((L, k) != (prev.left, ToString(prev.right)) && (L, k) != (prev.left, ToString(w))
                ==> TryGetRule(r, L, k) == TryGetRule(g, L, k))
  {
    var group' := EditedGroup(g, prev, newtext, w);
    UpdateGroupSpec(g, prev.left, group', true, L, k);
    UpdateGroupSpec(g, prev.left, group', true, prev.left, ToString(prev.right));
    UpdateGroupSpec(g, prev.left, group', true, prev.left, ToString(w));
  }

  /** The group an edit that replaces a rule leaves behind, and the grammar
      it builds from it. */
  lemma EditedGroup(g: Grammar, prev: Rule, newtext: string, w: Word) returns (group': Dict<Rule>)
    requires Valid(g) && TryGetRule(g, prev.left, ToString(prev.right)).Some?
    requires EditReplaces(g, prev, newtext) && TryParseString(newtext, SymbolLookup(g)) == Some(w) && Storable(w)
    ensures prev.left in g.n.values && GroupWellFormed(g.n, g.t, prev.left, group')
    ensures Objects.Get(group', ToString(w)) == Some(Rule(prev.left, w, NONE, NONE))
    ensures Objects.Get(group', ToString(prev.right)).None?
    ensures group'.values == (g.p.values[prev.left].values - {ToString(prev.right)})[ToString(w) := Rule(prev.left, w, NONE, NONE)]
    ensures TryEditRuleRight(g, prev, newtext).value.grammar == Rehash(g.(p := Put(g.p, prev.left, group')), NoRenaming)
  {
    var oldKey := ToString(prev.right);
    var group := g.p.values[prev.left];
    var rule := Rule(prev.left, w, NONE, NONE);
    assert group.values[oldKey].left == prev.left;
    NewRuleWellFormed(g, prev.left, newtext, w);
    RemoveRuleWellFormed(g, prev.left, group, oldKey);
    PutRuleWellFormed(g, prev.left, Remove(group, oldKey), ToString(w), rule);
    group' := Put(Remove(group, oldKey), ToString(w), rule);
  }

  /** The edit replaces the rule: the new text parses to a right side the
      group does not hold yet. */
  predicate EditReplaces(g: Grammar, prev: Rule, newtext: string)
    requires TryGetRule(g, prev.left, ToString(prev.right)).Some?
  {
    var parsed := TryParseString(newtext, SymbolLookup(g));
    newtext != "" && parsed.Some? && ToString(parsed.value) !in g.p.values[prev.left].values
  }

  lemma NonterminalChecks(g: Grammar, x: string)
    requires Valid(g) && x in g.n.values
    ensures Check(x)
  {
  }

  /** Changing the start symbol succeeds exactly for a nonterminal of the
      grammar, which then comes first among the nonterminals unless it is
      "N/1"; no rule and no symbol changes. */
  lemma TryChangeStartSpec(g: Grammar, newText: string, L: string, k: string)
    requires Valid(g)
    ensures Valid(TryChangeStart(g, newText).grammar)
    ensures TryChangeStart(g, newText).value == newText <==> newText in g.n.values
    ensures newText in g.n.values && newText != "N/1" ==> TryChangeStart(g, newText).grammar.n.keys[0] == newText
    ensures TryChangeStart(g, newText).grammar.n.values == g.n.values && TryChangeStart(g, newText).grammar.t == g.t
    ensures TryGetRule(TryChangeStart(g, newText).grammar, L, k) == TryGetRule(g, L, k)
  {
    if newText in g.n.values {
      NonterminalChecks(g, newText);
      var g' := g.(start := newText);
      assert Valid(g');
      var r := Rehash(g', NoRenaming);
      assert TryChangeStart(g, newText).grammar == r;
      RehashKeepsValid(g');
      RehashKeepsRules(g', L, k);
      assert RenameText(NoRenaming.nt, newText) == newText;
      assert newText in r.n.values;
      if newText != "N/1" {
        RehashPutsStartFirst(g', NoRenaming);
      }
    }
  }
}

=== FILE: rules.dfy ===
/** Rules `left -> right`. A rule carries its own highlight tag and a copy of
    its right-hand word, which has a tag of its own that mirrors the rule's. */
module Rules {
  import opened Wrappers
  import opened Text
  import opened Highlights
  import opened Symbols
  import opened Words

  /** `left` is the text of the left-hand nonterminal. */
  datatype Rule = Rule(left: string, right: Word, tag: Highlight, rightTag: Highlight)

  /** The constructor: the left side must be a nonterminal; the right word is
      copied and starts with the rule's tag. */
  function NewRule(left: Symbol, right: Word, h: Highlight): (r: Result<Rule>)
    ensures r.Success? <==> left.Nonterminal?
    ensures r.Success? ==> r.value.left == left.Text() && r.value.right == right
    ensures r.Success? ==> r.value.tag == h && r.value.rightTag == h
  {
    if left.Nonterminal? then Success(Rule(left.name, right, h, h))
    else Failure("bad Rule construction")
  }

  /** The tag invariant every rule keeps. */
  predicate Mirrored(r: Rule) {
    r.rightTag == r.tag
  }

  /** `rule.highlight(h)`: the rule's tag goes through the precedence rule
      and the outcome is then applied to the right word's tag. */
  function HighlightRule(r: Rule, h: Highlight): (r': Rule)
    ensures r'.left == r.left && r'.right == r.right
    ensures r'.tag == Apply(r.tag, h)
    ensures Mirrored(r) ==> Mirrored(r')
  {
    var t := Apply(r.tag, h);
    ApplyResultAbsorbs(r.tag, h);
    r.(tag := t, rightTag := Apply(r.rightTag, t))
  }

  const Arrow: string := " -> "

  /** `toString()`: `left -> right`. */
  function RuleText(r: Rule): string {
    r.left + Arrow + ToString(r.right)
  }

  /** Whether the arrow occurs at position i of s. */
  predicate ArrowAt(s: string, i: nat) {
    i + |Arrow| <= |s| && s[i..i + |Arrow|] == Arrow
  }

  /** Splits a rule text at the first arrow into the left text and the
      right text. */
  function SplitRuleText(s: string): (r: Option<(string, string)>)
    ensures r.Some? ==> s == r.value.0 + Arrow + r.value.1 && ArrowAt(s, |r.value.0|)
    ensures r.Some? ==> forall i :: 0 <= i < |r.value.0| ==> !ArrowAt(s, i)
    ensures r.None? ==> forall i :: 0 <= i <= |s| ==> !ArrowAt(s, i)
  {
    FirstArrow(s, 0)
  }

  function FirstArrow(s: string, i: nat): (r: Option<(string, string)>)
    requires i <= |s|
    ensures r.Some? ==> s == r.value.0 + Arrow + r.value.1 && i <= |r.value.0| && ArrowAt(s, |r.value.0|)
    ensures r.Some? ==> forall j :: i <= j < |r.value.0| ==> !ArrowAt(s, j)
    ensures r.None? ==> forall j :: i <= j <= |s| ==> !ArrowAt(s, j)
    decreases |s| - i
  {
    if ArrowAt(s, i) then
      assert s == s[..i] + Arrow + s[i + |Arrow|..];
      Some((s[..i], s[i + |Arrow|..]))
    else if i == |s| then None
    else FirstArrow(s, i + 1)
  }

  /** A rule whose left side is a valid symbol text splits back into its left
      side and the text of its right side, so the rule text determines the
      rule's sides. */
  lemma SplitRuleTextInverts(r: Rule)
    requires Check(r.left)
    ensures SplitRuleText(RuleText(r)) == Some((r.left, ToString(r.right)))
  {
    var s := RuleText(r);
    assert ArrowAt(s, |r.left|) by {
      assert s[|r.left|..|r.left| + |Arrow|] == Arrow;
    }
    forall i | 0 <= i < |r.left| ensures !ArrowAt(s, i) {
      if ArrowAt(s, i) {
        assert s[i] == ' ';
        assert s[i] == r.left[i];
        SymbolTextHasNoSeparator(r.left, i);
      }
    }
    var p := SplitRuleText(s);
    assert p.Some?;
    var (a, b) := p.value;
    assert ArrowAt(s, |a|) by {
      assert s[|a|..|a| + |Arrow|] == Arrow;
    }
    assert |a| == |r.left|;
    assert a == s[..|a|] == r.left;
    assert b == s[|a| + |Arrow|..] == ToString(r.right);
  }
}

=== FILE: staged.dfy ===
/** The auxiliary structures of a conversion step (js/structures/Structures.js).
    Every structure carries a highlight that decays when the step is
    finalized. A set structure keeps two maps from item hashes to items: the
    visible one that readers see during the step, and the staged one that
    collects the step's changes and becomes visible at finalize. A table
    structure holds one cell structure per row and column. */
module Staging {
  import opened Wrappers
  import opened Highlights
  import opened Objects

  /** The fields every structure has: id, display name, tag, priority. */
  datatype Header = Header(id: string, name: string, highlight: Highlight, priority: int)

  /** `initStructure(id, name)`. */
  function NewHeader(id: string, name: string): Header {
    Header(id, name, NONE, 1)
  }

  /** `name(newName)`: an empty name is a read, not a write. */
  function SetName(h: Header, newName: string): (r: Header)
    ensures r.name == (if newName == "" then h.name else newName)
    ensures r.(name := h.name) == h
  {
    if newName != "" then h.(name := newName) else h
  }

  /** `priority(p)`: a zero priority is a read, so it can never be set. */
  function SetPriority(h: Header, p: int): (r: Header)
    ensures r.priority == (if p == 0 then h.priority else p)
    ensures r.(priority := h.priority) == h
  {
    if p != 0 then h.(priority := p) else h
  }

  /** `highlight(arg)`: a Highlight argument goes through the precedence rule. */
  function HighlightHeader(h: Header, arg: Option<Highlight>): Header {
    h.(highlight := WhichShouldStay(h.highlight, arg))
  }

  /** `Structure.finalize`: the tag asks for its own decay. */
  function FinalizeHeader(h: Header): (r: Header)
    ensures r.(highlight := h.highlight) == h
    ensures r.highlight == (if h.highlight == REMOVED then REMOVED else Decay(h.highlight))
    ensures r.highlight == REMOVED || DecayTypeOf(r.highlight) == Persistent
  {
    DecayThroughPrecedence(h.highlight);
    HighlightHeader(h, Some(Decay(h.highlight)))
  }

  /** A second finalize changes nothing more. */
  lemma FinalizeHeaderIdempotent(h: Header)
    ensures FinalizeHeader(FinalizeHeader(h)) == FinalizeHeader(h)
  {
    DecayIdempotent(h.highlight);
  }

  // ---------------------------------------------------------------------
  // SetStructure

  /** `_set` (visible) and `_setFinalized` (staged), both keyed by the item's
      hash, which is its string form. */
  datatype SetStructure<T> = SetStructure(header: Header, visible: Dict<T>, staged: Dict<T>)

  /** `initSetStructure(id, name)`. */
  function NewSet<T>(id: string, name: string): SetStructure<T> {
    SetStructure(NewHeader(id, name), Empty(), Empty())
  }

  /** What a reader sees: the visible map only. */
  predicate SameView<T(==)>(a: SetStructure<T>, b: SetStructure<T>) {
    a.visible == b.visible
  }

  /** `add(object, immediately)` for an object whose hash is `key`: the item
      is always staged, made visible only when `immediately`, and the answer
      is whether it was not visible before. */
  function Add<T>(s: SetStructure<T>, key: string, item: T, immediately: bool): (r: (SetStructure<T>, bool))
    ensures r.1 <==> key !in s.visible.values
    ensures r.0.header == s.header
    ensures r.0.staged.values == s.staged.values[key := item]
    ensures r.0.visible.values == if immediately then s.visible.values[key := item] else s.visible.values
  {
    var staged := Put(s.staged, key, item);
    var visible := if immediately then Put(s.visible, key, item) else s.visible;
    (SetStructure(s.header, visible, staged), key !in s.visible.values)
  }

  /** `remove(object, immediately)`: the item is always unstaged, leaves the
      visible map only when `immediately`, and the answer is whether it was
      visible before. */
  function Remove<T>(s: SetStructure<T>, key: string, immediately: bool): (r: (SetStructure<T>, bool))
    ensures r.1 <==> key in s.visible.values
    ensures r.0.header == s.header
    ensures r.0.staged.values == s.staged.values - {key}
    ensures r.0.visible.values == if immediately then s.visible.values - {key} else s.visible.values
  {
    var staged := Objects.Remove(s.staged, key);
    var visible := if immediately then Objects.Remove(s.visible, key) else s.visible;
    (SetStructure(s.header, visible, staged), key in s.visible.values)
  }

  /** `contains(object)`: the visible item under the hash, or null. */
  function Contains<T>(s: SetStructure<T>, key: string): Option<T> {
    Objects.Get(s.visible, key)
  }

  /** `length()`: the number of visible items. */
  function Length<T>(s: SetStructure<T>): nat {
    Count(s.visible)
  }

  /** The items `forEachItem` visits, in order. */
  function Items<T>(s: SetStructure<T>): seq<T> {
    Values(s.visible)
  }

  /** `getAnyItem()`: the first visible item, or null. */
  function AnyItem<T(==)>(s: SetStructure<T>): (r: Option<T>)
    ensures r.None? <==> Length(s) == 0
    ensures r.Some? ==> r.value in Items(s)
  {
    if |s.visible.keys| == 0 then None
    else
      assert Items(s)[0] == s.visible.values[s.visible.keys[0]];
      Some(s.visible.values[s.visible.keys[0]])
  }

  /** `finalize()`: the staged map becomes the visible one and the tag decays. */
  function Finalize<T(==)>(s: SetStructure<T>): (r: SetStructure<T>)
    ensures r.visible == r.staged == s.staged
    ensures r.header == FinalizeHeader(s.header)
  {
    SetStructure(FinalizeHeader(s.header), s.staged, s.staged)
  }

  /** Staged changes stay invisible until finalize: an add or remove that is
      not immediate leaves every read of the set unchanged. */
  lemma DeferredChangesInvisible<T>(s: SetStructure<T>, key: string, item: T, other: string)
    ensures SameView(Add(s, key, item, false).0, s)
    ensures SameView(Remove(s, key, false).0, s)
    ensures Contains(Add(s, key, item, false).0, other) == Contains(s, other)
    ensures Length(Remove(s, key, false).0) == Length(s)
  {
  }

  /** ... and at finalize the visible set becomes exactly the staged one:
      an added item is then contained, a removed one is not, whether the
      change was immediate or not. */
  lemma FinalizeShowsStaged<T>(s: SetStructure<T>, key: string, item: T, immediately: bool, other: string)
    ensures Contains(Finalize(Add(s, key, item, immediately).0), key) == Some(item)
    ensures Contains(Finalize(Remove(s, key, immediately).0), key).None?
    ensures other != key ==>
              Contains(Finalize(Add(s, key, item, immediately).0), other) == Objects.Get(s.staged, other)
  {
  }

  /** An immediate change is visible at once and agrees with what finalize
      would show. */
  lemma ImmediateAgreesWithFinalize<T>(s: SetStructure<T>, key: string, item: T)
    requires s.visible == s.staged
    ensures var a := Add(s, key, item, true).0; a.visible == a.staged
    ensures var d := Remove(s, key, true).0; d.visible == d.staged
  {
  }

  /** Adding twice reports a change only the first time (when immediate). */
  lemma AddTwice<T>(s: SetStructure<T>, key: string, item: T)
    ensures !Add(Add(s, key, item, true).0, key, item, true).1
  {
  }

  // Serialisation: `toConcreteData` lists the string forms of the staged
  // items, and `fillStructureData` re-adds each parsed item immediately.

  /** `toConcreteData().set`. */
  function SetData<T>(s: SetStructure<T>, show: T -> string): (data: seq<string>)
    ensures |data| == |s.staged.keys|
  {
    seq(|s.staged.keys|, i requires 0 <= i < |s.staged.keys| => show(s.staged.values[s.staged.keys[i]]))
  }

  /** `fillStructureData`: every string is parsed (`createSetItemFromText`,
      which raises on a string it cannot read) and added immediately under
      its string form. */
  function Fill<T>(s: SetStructure<T>, data: seq<string>, parse: string -> Result<T>, show: T -> string)
    : (r: Result<SetStructure<T>>)
    ensures r.Success? ==> r.value.header == s.header
    decreases |data|
  {
    if |data| == 0 then Success(s)
    else
      var item :- parse(data[0]);
      Fill(Add(s, show(item), item, true).0, data[1..], parse, show)
  }

  /** Whether every staged item is stored under its own string form and
      parses back from it. */
  ghost predicate Readable<T>(staged: Dict<T>, parse: string -> Result<T>, show: T -> string) {
    forall k :: k in staged.values ==> show(staged.values[k]) == k && parse(k) == Success(staged.values[k])
  }

  /** Serialising a set and filling a fresh one from the data restores the
      staged items, in order, and makes them all visible: after a reload,
      visible == staged. */
  lemma FillSetData<T>(s: SetStructure<T>, h: Header, parse: string -> Result<T>, show: T -> string)
    requires Readable(s.staged, parse, show)
    ensures Fill(SetStructure(h, Empty(), Empty()), SetData(s, show), parse, show)
            == Success(SetStructure(h, s.staged, s.staged))
  {
    var ks := s.staged.keys;
    var data := SetData(s, show);
    FillPrefix(s.staged, h, |ks|, parse, show);
    assert ks[..|ks|] == ks;
    assert data[|ks|..] == [];
    RestrictAll(s.staged);
  }

  /** The set built from the staged items under the first m keys. */
  function Prefix<T>(staged: Dict<T>, m: nat): (d: Dict<T>)
    requires m <= |staged.keys|
  {
    DistinctPrefix(staged.keys, m);
    Restrict(staged.keys[..m], staged.values)
  }

  lemma {:induction false} FillPrefix<T>(staged: Dict<T>, h: Header, m: nat,
                                         parse: string -> Result<T>, show: T -> string)
    requires Readable(staged, parse, show) && m <= |staged.keys|
    ensures var data := seq(|staged.keys|, i requires 0 <= i < |staged.keys| => show(staged.values[staged.keys[i]]));
            Fill(SetStructure(h, Empty(), Empty()), data, parse, show)
            == Fill(SetStructure(h, Prefix(staged, m), Prefix(staged, m)), data[m..], parse, show)
    decreases m
  {
    if m > 0 {
      FillPrefix(staged, h, m - 1, parse, show);
      FillStep(staged, h, m, parse, show);
    }
  }

  lemma FillStep<T>(staged: Dict<T>, h: Header, m: nat, parse: string -> Result<T>, show: T -> string)
    requires Readable(staged, parse, show) && 0 < m <= |staged.keys|
    ensures var data := seq(|staged.keys|, i requires 0 <= i < |staged.keys| => show(staged.values[staged.keys[i]]));
            Fill(SetStructure(h, Prefix(staged, m - 1), Prefix(staged, m - 1)), data[m - 1..], parse, show)
            == Fill(SetStructure(h, Prefix(staged, m), Prefix(staged, m)), data[m..], parse, show)
  {
    var data := seq(|staged.keys|, i requires 0 <= i < |staged.keys| => show(staged.values[staged.keys[i]]));
    var k := staged.keys[m - 1];
    var rest := data[m - 1..];
    assert rest[0] == show(staged.values[k]) == k;
    assert rest[1..] == data[m..];
    DistinctPrefix(staged.keys, m - 1);
    DistinctPrefix(staged.keys, m);
    RestrictStep(staged.keys, m, staged.values);
  }

  // ---------------------------------------------------------------------
  // TableStructure

  /** Row ids to row names, column ids to column names, and the cells by row
      id, then column id. */
  datatype TableStructure<C> =
    TableStructure(header: Header, rows: Dict<string>, columns: Dict<string>, table: Dict<Dict<C>>)

  /** The invariant every table keeps: one cell for each row and column. */
  ghost predicate Rectangular<C>(t: TableStructure<C>) {
    (forall r :: r in t.table.values <==> r in t.rows.values)
    && (forall r, c :: r in t.table.values ==> (c in t.table.values[r].values <==> c in t.columns.values))
  }

  /** The id a new cell receives. */
  function CellId(rowId: string, colId: string): string {
    rowId + " " + colId
  }

  /** A row of fresh cells, one per column. */
  function BlankRow<C>(rowId: string, columns: Dict<string>, blank: string -> C): (row: Dict<C>)
    ensures row.keys == columns.keys
    ensures forall c :: c in row.values ==> row.values[c] == blank(CellId(rowId, c))
  {
    RawDict(columns.keys, map c | c in columns.values :: blank(CellId(rowId, c)))
  }

  /** `new TableStructure(id, name, ElementType, rows, columns)`: a fresh cell
      of the element type for every row and column. */
  function NewTable<C>(id: string, name: string, rows: Dict<string>, columns: Dict<string>, blank: string -> C)
    : TableStructure<C>
  {
    TableStructure(NewHeader(id, name), rows, columns,
                   RawDict(rows.keys, map r | r in rows.values :: BlankRow(r, columns, blank)))
  }

  /** `get(rowId, columnId)`: the cell, or null for a missing row or column. */
  function Cell<C>(t: TableStructure<C>, rowId: string, colId: string): Option<C> {
    if rowId in t.table.values && colId in t.table.values[rowId].values
    then Some(t.table.values[rowId].values[colId])
    else None
  }

  /** A new table is rectangular and every cell is the fresh cell named by
      its row and column. */
  lemma NewTableSpec<C>(id: string, name: string, rows: Dict<string>, columns: Dict<string>,
                        blank: string -> C, rowId: string, colId: string)
    ensures Rectangular(NewTable(id, name, rows, columns, blank))
    ensures Cell(NewTable(id, name, rows, columns, blank), rowId, colId)
            == if rowId in rows.values && colId in columns.values then Some(blank(CellId(rowId, colId))) else None
  {
  }

  /** Whether `_rows[id]` is truthy: a row or column given an empty name
      counts as absent. */
  predicate Named(names: Dict<string>, id: string) {
    id in names.values && names.values[id] != ""
  }

  /** `addRow(rowId, rowName)`: nothing when the row exists; otherwise the row
      and a fresh cell for every column. */
  function AddRow<C>(t: TableStructure<C>, rowId: string, rowName: string, blank: string -> C): TableStructure<C> {
    if Named(t.rows, rowId) then t
    else t.(rows := Put(t.rows, rowId, rowName), table := Put(t.table, rowId, BlankRow(rowId, t.columns, blank)))
  }

  /** `addColumn(colId, colName)`: nothing when the column exists; otherwise
      the column and a fresh cell in every row. */
  function AddColumn<C>(t: TableStructure<C>, colId: string, colName: string, blank: string -> C)
    : TableStructure<C>
  {
    if Named(t.columns, colId) then t
    else
      var table := RawDict(t.table.keys,
                           map r | r in t.table.values :: Put(t.table.values[r], colId, blank(CellId(r, colId))));
      t.(columns := Put(t.columns, colId, colName), table := table)
  }

  /** `removeRow(rowId)`. */
  function RemoveRow<C>(t: TableStructure<C>, rowId: string): TableStructure<C> {
    t.(rows := Objects.Remove(t.rows, rowId), table := Objects.Remove(t.table, rowId))
  }

  /** `TableStructure.finalize`: the table's tag decays and every cell is
      finalized. */
  function FinalizeTable<C>(t: TableStructure<C>, fin: C -> C): TableStructure<C> {
    var table := RawDict(t.table.keys, map r | r in t.table.values :: MapValues(t.table.values[r], fin));
    t.(header := FinalizeHeader(t.header), table := table)
  }

  /** Adding a row keeps the table rectangular; an absent row gets a fresh cell
      in every column, an existing one is left alone, other rows keep their
      cells. */
  lemma AddRowSpec<C>(t: TableStructure<C>, rowId: string, rowName: string, blank: string -> C,
                      r: string, c: string)
    requires Rectangular(t)
    ensures Rectangular(AddRow(t, rowId, rowName, blank))
    ensures Cell(AddRow(t, rowId, rowName, blank), r, c)
            == if r == rowId && !Named(t.rows, rowId) then
                 (if c in t.columns.values then Some(blank(CellId(r, c))) else None)
               else Cell(t, r, c)
  {
  }

  /** Adding a column keeps the table rectangular; an absent column gets a
      fresh cell in every row, other cells are unchanged. */
  lemma AddColumnSpec<C>(t: TableStructure<C>, colId: string, colName: string, blank: string -> C,
                         r: string, c: string)
    requires Rectangular(t)
    ensures Rectangular(AddColumn(t, colId, colName, blank))
    ensures Cell(AddColumn(t, colId, colName, blank), r, c)
            == if c == colId && !Named(t.columns, colId) then
                 (if r in t.rows.values then Some(blank(CellId(r, c))) else None)
               else Cell(t, r, c)
  {
  }

  /** Removing a row deletes the row with its cells and keeps the table
      rectangular. */
  lemma RemoveRowSpec<C>(t: TableStructure<C>, rowId: string, r: string, c: string)
    requires Rectangular(t)
    ensures Rectangular(RemoveRow(t, rowId))
    ensures Cell(RemoveRow(t, rowId), r, c) == if r == rowId then None else Cell(t, r, c)
  {
  }

  /** Finalizing a table finalizes each cell in place. */
  lemma FinalizeTableSpec<C>(t: TableStructure<C>, fin: C -> C, r: string, c: string)
    requires Rectangular(t)
    ensures Rectangular(FinalizeTable(t, fin))
    ensures Cell(FinalizeTable(t, fin), r, c) == if Cell(t, r, c).Some? then Some(fin(Cell(t, r, c).value)) else None
  {
  }

  // ---------------------------------------------------------------------
  // Structures: the step's collection of structures by id.

  /** `remove(id)`: deleted at once, not staged. */
  function RemoveStructure<S(==)>(list: Dict<S>, id: string): (r: Dict<S>)
    ensures id !in r.values
    ensures forall k :: k != id ==> Objects.Get(r, k) == Objects.Get(list, k)
  {
    Objects.Remove(list, id)
  }

  /** Every `new*(id, …)`: the new structure replaces any with the same id,
      and is what `get*(id)` returns afterwards. */
  function NewStructure<S(==)>(list: Dict<S>, id: string, s: S): (r: Dict<S>)
    ensures Objects.Get(r, id) == Some(s)
    ensures forall k :: k != id ==> Objects.Get(r, k) == Objects.Get(list, k)
    ensures id in list.values ==> r.keys == list.keys
  {
    Put(list, id, s)
  }

  /** `Structures.finalize`: each structure finalized in place. */
  function FinalizeAll<S(==)>(list: Dict<S>, fin: S -> S): (r: Dict<S>)
    ensures r.keys == list.keys
    ensures forall k :: Objects.Get(r, k) == if k in list.values then Some(fin(list.values[k])) else None
  {
    MapValues(list, fin)
  }
}

=== FILE: symbols.dfy ===
/** Grammar symbols: terminals, nonterminals and the end marker "$", with
    the static text classifiers of js/structures/Symbol.js. */
module Symbols {
  import opened Wrappers

  const EndMarkerText: string := "$"

  /** The class a terminal's first character must belong to. */
  predicate TermStartChar(c: char) {
    ('a' <= c <= 'z') || ('0' <= c <= '9')
    || c == '~' || c == '!' || c == '@' || c == '#' || c == '_' || c == '\''
    || c == ';' || c == ':' || c == '+' || c == '-' || c == '*' || c == '/'
    || c == '(' || c == ')' || c == '[' || c == ']' || c == '?'
  }

  /** The class a nonterminal's first character must belong to. */
  predicate NontermStartChar(c: char) {
    'A' <= c <= 'Z'
  }

  /** Characters allowed anywhere in a symbol (`singleStrRE`). */
  predicate SymbolChar(c: char) {
    TermStartChar(c) || NontermStartChar(c)
  }

  /** `Symbol.check`: one or more symbol characters. */
  predicate Check(text: string) {
    |text| > 0 && forall i :: 0 <= i < |text| ==> SymbolChar(text[i])
  }

  /** `Symbol.isTerminal(text)`: decided by the first character alone. */
  predicate IsTerminalText(text: string) {
    |text| > 0 && TermStartChar(text[0])
  }

  /** `Symbol.isNonterminal(text)`. */
  predicate IsNonterminalText(text: string) {
    |text| > 0 && NontermStartChar(text[0])
  }

  datatype Symbol = Terminal(name: string) | Nonterminal(name: string) | EndMarker {
    /** `toString()`. */
    function Text(): string {
      match this
      case Terminal(n) => n
      case Nonterminal(n) => n
      case EndMarker => EndMarkerText
    }
  }

  /** The end marker is a terminal by inheritance. */
  predicate IsTerminal(s: Symbol) {
    !s.Nonterminal?
  }

  /** `equals`: symbols compare by text only. */
  predicate Equals(a: Symbol, b: Symbol) {
    a.Text() == b.Text()
  }

  /** `new Terminal(text)`: a valid symbol text of terminal kind, else an error. */
  function NewTerminal(text: string): (r: Result<Symbol>)
    ensures r.Success? <==> Check(text) && IsTerminalText(text)
    ensures r.Success? ==> r.value == Terminal(text)
  {
    if Check(text) && IsTerminalText(text) then Success(Terminal(text))
    else Failure("bad Terminal construction: " + text)
  }

  /** `new Nonterminal(text)`. */
  function NewNonterminal(text: string): (r: Result<Symbol>)
    ensures r.Success? <==> Check(text) && IsNonterminalText(text)
    ensures r.Success? ==> r.value == Nonterminal(text)
  {
    if Check(text) && IsNonterminalText(text) then Success(Nonterminal(text))
    else Failure("bad Nonterminal construction: " + text)
  }

  /** `Symbol.create(text)`: a terminal when the first character says so,
      otherwise a nonterminal; either constructor may refuse the text. */
  function Create(text: string): (r: Result<Symbol>)
    ensures r.Success? <==> Check(text)
    ensures r.Success? ==> r.value.Text() == text
    ensures r.Success? ==> (r.value.Terminal? <==> IsTerminalText(text))
    ensures r.Success? ==> !r.value.EndMarker?
  {
    if IsTerminalText(text) then NewTerminal(text) else NewNonterminal(text)
  }

  /** `rename(text)`: allowed only to a valid text of the same kind. */
  function Rename(s: Symbol, text: string): (r: Result<Symbol>)
    ensures r.Success? <==> Check(text) && (IsTerminal(s) <==> IsTerminalText(text))
    ensures r.Success? ==> r.value.Text() == text && (IsTerminal(r.value) <==> IsTerminal(s))
  {
    if Check(text) && (IsTerminal(s) <==> IsTerminalText(text)) then
      Success(if s.Nonterminal? then Nonterminal(text) else Terminal(text))
    else Failure("bad renaming of symbol " + s.Text() + " to " + text)
  }

  /** For a valid symbol text exactly one of the two kinds applies. */
  lemma ExactlyOneKind(text: string)
    requires Check(text)
    ensures IsTerminalText(text) != IsNonterminalText(text)
  {
    assert SymbolChar(text[0]);
  }

  /** The end-marker text is not a valid symbol, so it never collides with a
      grammar symbol. */
  lemma EndMarkerIsNoSymbol()
    ensures !Check(EndMarkerText)
  {
    assert !SymbolChar(EndMarkerText[0]);
  }

  /** Valid symbol texts contain no blank, dot, bar or '>' character, which
      the textual formats use as separators. */
  lemma SymbolTextHasNoSeparator(text: string, i: int)
    requires Check(text) && 0 <= i < |text|
    ensures text[i] != ' ' && text[i] != '\n' && text[i] != '\t'
    ensures text[i] != '.' && text[i] != '|' && text[i] != '>' && text[i] != ','
  {
    assert SymbolChar(text[i]);
  }
}

=== FILE: text.dfy ===
/** String helpers shared by the model: JavaScript's string ordering,
    decimal numerals, joining, whitespace tokenising and the `_` template
    function of js/common.js. */
module Text {
  import opened Wrappers

  /** JavaScript `a < b` on strings: lexicographic on code units. */
  predicate StrLess(a: string, b: string) {
    if |a| == 0 then |b| > 0
    else if |b| == 0 then false
    else if a[0] != b[0] then a[0] < b[0]
    else StrLess(a[1..], b[1..])
  }

  lemma {:induction false} StrLessIrreflexive(a: string)
    ensures !StrLess(a, a)
  {
    if |a| > 0 {
      StrLessIrreflexive(a[1..]);
    }
  }

  lemma {:induction false} StrLessTransitive(a: string, b: string, c: string)
    requires StrLess(a, b) && StrLess(b, c)
    ensures StrLess(a, c)
  {
    if |a| > 0 && |b| > 0 && |c| > 0 && a[0] == b[0] && b[0] == c[0] {
      StrLessTransitive(a[1..], b[1..], c[1..]);
    }
  }

  lemma {:induction false} StrLessTotal(a: string, b: string)
    requires a != b
    ensures StrLess(a, b) || StrLess(b, a)
  {
    if |a| > 0 && |b| > 0 && a[0] == b[0] {
      assert a == [a[0]] + a[1..] && b == [b[0]] + b[1..];
      StrLessTotal(a[1..], b[1..]);
    }
  }

  lemma {:induction false} StrLessAsymmetric(a: string, b: string)
    requires StrLess(a, b)
    ensures !StrLess(b, a)
  {
    if StrLess(b, a) {
      StrLessTransitive(a, b, a);
      StrLessIrreflexive(a);
    }
  }

  predicate IsDigit(c: char) {
    '0' <= c <= '9'
  }

  predicate AllDigits(s: string) {
    forall i :: 0 <= i < |s| ==> IsDigit(s[i])
  }

  function DigitChar(d: nat): (c: char)
    requires d < 10
    ensures IsDigit(c)
  {
    "0123456789"[d]
  }

  function DigitValue(c: char): (d: nat)
    requires IsDigit(c)
    ensures d < 10
  {
    (c as int - '0' as int) as nat
  }

  lemma DigitRoundTrip(d: nat)
    requires d < 10
    ensures DigitValue(DigitChar(d)) == d
  {
  }

  /** JavaScript `n.toString()` for a non-negative integer. */
  function NatToString(n: nat): (s: string)
    ensures |s| > 0 && AllDigits(s)
    ensures n < 10 <==> |s| == 1
    decreases n
  {
    if n < 10 then [DigitChar(n)] else NatToString(n / 10) + [DigitChar(n % 10)]
  }

  /** The value of a digit string (`s * 1` on a numeral); "" reads as 0. */
  function ParseNat(s: string): nat
    requires AllDigits(s)
    decreases |s|
  {
    if |s| == 0 then 0 else 10 * ParseNat(s[..|s| - 1]) + DigitValue(s[|s| - 1])
  }

  lemma {:induction false} ParseNatToString(n: nat)
    ensures ParseNat(NatToString(n)) == n
    decreases n
  {
    var s := NatToString(n);
    if n < 10 {
      DigitRoundTrip(n);
    } else {
      ParseNatToString(n / 10);
      assert s[..|s| - 1] == NatToString(n / 10);
      DigitRoundTrip(n % 10);
    }
  }

  /** A printed number starts with a zero only when it is "0". */
  lemma {:induction false} NatToStringNoLeadingZero(n: nat)
    ensures NatToString(n)[0] != '0' || |NatToString(n)| == 1
    decreases n
  {
    if n >= 10 {
      NatToStringNoLeadingZero(n / 10);
      assert NatToString(n)[0] == NatToString(n / 10)[0];
      if n / 10 < 10 {
        assert NatToString(n / 10) == [DigitChar(n / 10)];
      }
    }
  }

  /** Two numbers print the same only if they are equal. */
  lemma NatToStringInjective(m: nat, n: nat)
    requires NatToString(m) == NatToString(n)
    ensures m == n
  {
    ParseNatToString(m);
    ParseNatToString(n);
  }

  /** A numeral without a leading zero (or "0" itself) is printed back as it was. */
  lemma {:induction false} NatToStringParse(s: string)
    requires |s| > 0 && AllDigits(s) && (s[0] != '0' || |s| == 1)
    ensures NatToString(ParseNat(s)) == s
    decreases |s|
  {
    if |s| == 1 {
    } else {
      var init := s[..|s| - 1];
      NatToStringParse(init);
      assert ParseNat(init) >= 1 by { NonZeroLeadingDigit(init); }
      var n := ParseNat(s);
      assert n / 10 == ParseNat(init) && n % 10 == DigitValue(s[|s| - 1]);
      assert DigitChar(DigitValue(s[|s| - 1])) == s[|s| - 1];
    }
  }

  predicate AllZeros(z: string) {
    forall i :: 0 <= i < |z| ==> z[i] == '0'
  }

  /** Leading zeros do not change the value of a numeral. */
  lemma {:induction false} ParseNatLeadingZeros(z: string, s: string)
    requires AllZeros(z) && AllDigits(s)
    ensures AllDigits(z + s) && ParseNat(z + s) == ParseNat(s)
    decreases |s|
  {
    if |s| == 0 {
      assert z + s == z;
      ParseNatZeros(z);
    } else {
      var init := s[..|s| - 1];
      ParseNatLeadingZeros(z, init);
      assert (z + s)[..|z + s| - 1] == z + init;
    }
  }

  lemma {:induction false} ParseNatZeros(z: string)
    requires AllZeros(z)
    ensures ParseNat(z) == 0
    decreases |z|
  {
    if |z| > 0 {
      ParseNatZeros(z[..|z| - 1]);
    }
  }

  lemma {:induction false} NonZeroLeadingDigit(s: string)
    requires |s| > 0 && AllDigits(s) && s[0] != '0'
    ensures ParseNat(s) >= 1
    decreases |s|
  {
    if |s| > 1 {
      NonZeroLeadingDigit(s[..|s| - 1]);
    }
  }

  /** `parts.join(sep)`. */
  function Join(parts: seq<string>, sep: string): string
    decreases |parts|
  {
    if |parts| == 0 then ""
    else if |parts| == 1 then parts[0]
    else parts[0] + sep + Join(parts[1..], sep)
  }

  /** The whitespace class used to tokenise words: space, newline, tab. */
  predicate IsBlank(c: char) {
    c == ' ' || c == '\n' || c == '\t'
  }

  predicate NoBlank(s: string) {
    forall i :: 0 <= i < |s| ==> !IsBlank(s[i])
  }

  /** `text.match(/[^ \n\t]+/g)`, with no match read as no tokens. */
  function Tokens(s: string): (r: seq<string>)
    ensures forall i :: 0 <= i < |r| ==> |r[i]| > 0 && NoBlank(r[i])
    decreases |s|
  {
    if |s| == 0 then []
    else if IsBlank(s[0]) then Tokens(s[1..])
    else
      var n := TokenLength(s);
      [s[..n]] + Tokens(s[n..])
  }

  /** Length of the maximal run of non-blank characters starting at s[0]. */
  function TokenLength(s: string): (n: nat)
    ensures n <= |s|
    ensures NoBlank(s[..n])
    ensures n < |s| ==> IsBlank(s[n])
    ensures |s| > 0 && !IsBlank(s[0]) ==> n > 0
    decreases |s|
  {
    if |s| == 0 || IsBlank(s[0]) then 0
    else
      var m := TokenLength(s[1..]);
      assert s[..m + 1] == [s[0]] + s[1..][..m];
      m + 1
  }

  /** Splitting words joined by single spaces gives the words back. */
  lemma {:induction false} TokensOfJoin(parts: seq<string>)
    requires forall i :: 0 <= i < |parts| ==> |parts[i]| > 0 && NoBlank(parts[i])
    ensures Tokens(Join(parts, " ")) == parts
    decreases |parts|
  {
    if |parts| == 0 {
    } else if |parts| == 1 {
      TokensOfWord(parts[0], "");
      assert parts[0] + "" == parts[0];
      assert Tokens("") == [];
    } else {
      var rest := Join(parts[1..], " ");
      TokensOfJoin(parts[1..]);
      TokensOfWord(parts[0], " " + rest);
      assert parts[0] + " " + rest == parts[0] + (" " + rest);
      assert Tokens(" " + rest) == Tokens(rest);
    }
  }

  lemma Regroup(a: string, b: string, c: string, d: string)
    ensures a + b + c + d == a + (b + (c + d))
  {
  }

  lemma ListRegroup(a: seq<string>, b: seq<string>, c: seq<string>)
    ensures a + (b + c) == (a + b) + c
  {
  }

  /** The same, with blanks or nothing after the last word. */
  lemma {:induction false} TokensOfJoinThen(parts: seq<string>, rest: string)
    requires |parts| > 0 && forall i :: 0 <= i < |parts| ==> |parts[i]| > 0 && NoBlank(parts[i])
    requires |rest| == 0 || IsBlank(rest[0])
    ensures Tokens(Join(parts, " ") + rest) == parts + Tokens(rest)
    decreases |parts|
  {
    if |parts| == 1 {
      TokensOfWord(parts[0], rest);
    } else {
      var tail := Join(parts[1..], " ");
      var after := " " + (tail + rest);
      assert Join(parts, " ") == parts[0] + " " + tail;
      Regroup(parts[0], " ", tail, rest);
      TokensOfWord(parts[0], after);
      assert after[1..] == tail + rest;
      assert Tokens(after) == Tokens(tail + rest);
      TokensOfJoinThen(parts[1..], rest);
      ListRegroup([parts[0]], parts[1..], Tokens(rest));
      assert [parts[0]] + parts[1..] == parts;
    }
  }

  lemma {:induction false} TokensOfWord(w: string, rest: string)
    requires |w| > 0 && NoBlank(w)
    requires |rest| == 0 || IsBlank(rest[0])
    ensures Tokens(w + rest) == [w] + Tokens(rest)
  {
    TokenLengthOfWord(w, rest);
    assert (w + rest)[..|w|] == w;
    assert (w + rest)[|w|..] == rest;
  }

  lemma {:induction false} TokenLengthOfWord(w: string, rest: string)
    requires NoBlank(w)
    requires |rest| == 0 || IsBlank(rest[0])
    ensures TokenLength(w + rest) == |w|
    decreases |w|
  {
    if |w| > 0 {
      assert (w + rest)[1..] == w[1..] + rest;
      TokenLengthOfWord(w[1..], rest);
    }
  }

  /** A trailing space adds no token. */
  lemma {:induction false} TokensBeforeSpace(x: string)
    ensures Tokens(x + " ") == Tokens(x)
    decreases |x|
  {
    if |x| == 0 {
      assert Tokens(" ") == Tokens(" "[1..]);
    } else if IsBlank(x[0]) {
      assert (x + " ")[1..] == x[1..] + " ";
      TokensBeforeSpace(x[1..]);
    } else {
      var n := TokenLength(x);
      var w := x[..n];
      assert x == w + x[n..];
      assert x + " " == w + (x[n..] + " ");
      TokensOfWord(w, x[n..]);
      TokensOfWord(w, x[n..] + " ");
      TokensBeforeSpace(x[n..]);
    }
  }

  /** A word character in the sense of the regular expression `\b`. */
  predicate IsWordChar(c: char) {
    ('a' <= c <= 'z') || ('A' <= c <= 'Z') || ('0' <= c <= '9') || c == '_'
  }

  /** Whether a `%s` placeholder starts at position i (`/%s\b/`). */
  predicate PlaceholderAt(s: string, i: nat) {
    i + 1 < |s| && s[i] == '%' && s[i + 1] == 's' && (i + 2 == |s| || !IsWordChar(s[i + 2]))
  }

  /** Number of placeholders in s from position i on. */
  function PlaceholderCount(s: string, i: nat): nat
    requires i <= |s|
    decreases |s| - i
  {
    if i == |s| then 0
    else if PlaceholderAt(s, i) then 1 + PlaceholderCount(s, i + 2)
    else PlaceholderCount(s, i + 1)
  }

  /** The template function `_(str, args...)`: without a (truthy) first
      argument the string is returned as is; otherwise each placeholder is
      replaced, left to right, by the next argument. Running out of
      arguments makes `undefined.toString()` throw. */
  function Format(str: string, args: seq<string>): (r: Result<string>)
    ensures |args| == 0 || args[0] == "" ==> r == Success(str)
    ensures |args| > 0 && args[0] != "" ==>
              (r.Success? <==> PlaceholderCount(str, 0) <= |args|)
  {
    if |args| == 0 || args[0] == "" then Success(str)
    else Substitute(str, 0, args)
  }

  function Substitute(s: string, i: nat, args: seq<string>): (r: Result<string>)
    requires i <= |s|
    ensures r.Success? <==> PlaceholderCount(s, i) <= |args|
    decreases |s| - i
  {
    if i == |s| then Success("")
    else if PlaceholderAt(s, i) then
      if |args| == 0 then Failure("undefined has no toString")
      else
        var rest := Substitute(s, i + 2, args[1..]);
        if rest.Failure? then rest else Success(args[0] + rest.value)
    else
      var rest := Substitute(s, i + 1, args);
      if rest.Failure? then rest else Success([s[i]] + rest.value)
  }

  /** A template without placeholders comes back unchanged. */
  lemma {:induction false} FormatWithoutPlaceholders(s: string, i: nat, args: seq<string>)
    requires i <= |s|
    requires PlaceholderCount(s, i) == 0
    ensures Substitute(s, i, args) == Success(s[i..])
    decreases |s| - i
  {
    if i < |s| {
      assert !PlaceholderAt(s, i);
      assert PlaceholderCount(s, i + 1) == 0;
      FormatWithoutPlaceholders(s, i + 1, args);
      assert s[i..] == [s[i]] + s[i + 1..];
    } else {
      assert s[i..] == "";
    }
  }

  /** Whether c does not occur in s. */
  predicate NoChar(s: string, c: char) {
    forall i :: 0 <= i < |s| ==> s[i] != c
  }

  lemma {:induction false} JoinAvoids(parts: seq<string>, sep: string, c: char)
    requires NoChar(sep, c)
    requires forall i :: 0 <= i < |parts| ==> NoChar(parts[i], c)
    ensures NoChar(Join(parts, sep), c) && c !in Join(parts, sep)
    decreases |parts|
  {
    if |parts| > 1 {
      JoinAvoids(parts[1..], sep, c);
      var rest := Join(parts[1..], sep);
      assert Join(parts, sep) == parts[0] + sep + rest;
      forall i | 0 <= i < |Join(parts, sep)| ensures Join(parts, sep)[i] != c {
        if i < |parts[0]| {
        } else if i < |parts[0]| + |sep| {
          assert Join(parts, sep)[i] == sep[i - |parts[0]|];
        } else {
          assert Join(parts, sep)[i] == rest[i - |parts[0]| - |sep|];
        }
      }
    }
  }

  /** The position of the first c in s at or after i, or |s| when there is none. */
  function IndexOf(s: string, c: char, i: nat): (r: nat)
    requires i <= |s|
    ensures i <= r <= |s|
    ensures r < |s| ==> s[r] == c
    ensures forall j :: i <= j < r ==> s[j] != c
    decreases |s| - i
  {
    if i == |s| || s[i] == c then i else IndexOf(s, c, i + 1)
  }

  /** A text that is a c-free piece followed by something starting with c
      splits after the piece in only one way. */
  lemma SplitAtChar(x1: string, y1: string, x2: string, y2: string, c: char)
    requires NoChar(x1, c) && NoChar(x2, c)
    requires |y1| > 0 && y1[0] == c && |y2| > 0 && y2[0] == c
    requires x1 + y1 == x2 + y2
    ensures x1 == x2 && y1 == y2
  {
    var s := x1 + y1;
    FirstCharAt(x1, y1, c);
    FirstCharAt(x2, y2, c);
    assert x1 == s[..|x1|] && y1 == s[|x1|..];
    assert x2 == s[..|x2|] && y2 == s[|x2|..];
  }

  lemma FirstCharAt(x: string, y: string, c: char)
    requires NoChar(x, c) && |y| > 0 && y[0] == c
    ensures IndexOf(x + y, c, 0) == |x|
  {
    var s := x + y;
    var r := IndexOf(s, c, 0);
    assert s[|x|] == c;
    assert forall j :: 0 <= j < |x| ==> s[j] == x[j] != c;
  }
}

=== FILE: trees.dfy ===
/** Ordered trees threaded by sibling and parent links, as used by the step
    tree of js/algorithm_framework/AlgorithmController.js (`ACTNode`) and by
    the parse tree of js/structures/ParserStructures.js (`ParseTreeNode`).

    A node is addressed by the child indices that lead to it from the root.
    The source's `parent`, `prev`, `next`, `firstChild` and `lastChild`
    links are all recovered from a path: the parent drops the last index,
    the siblings change it by one, the first and last child append 0 and
    the last index. */
module Trees {
  import opened Wrappers

  datatype Tree<T> = Node(item: T, children: seq<Tree<T>>)

  type Path = seq<nat>

  function Parent(p: Path): Path
    requires |p| > 0
  {
    p[..|p| - 1]
  }

  function Last(p: Path): nat
    requires |p| > 0
  {
    p[|p| - 1]
  }

  /** The subtree a path leads to, if every index on it exists. */
  function Find<T>(t: Tree<T>, p: Path): Option<Tree<T>>
    decreases |p|
  {
    if |p| == 0 then Some(t)
    else match Find(t, Parent(p))
      case None => None
      case Some(u) => if Last(p) < |u.children| then Some(u.children[Last(p)]) else None
  }

  predicate ValidPath<T>(t: Tree<T>, p: Path) {
    Find(t, p).Some?
  }

  function At<T>(t: Tree<T>, p: Path): Tree<T>
    requires ValidPath(t, p)
  {
    Find(t, p).value
  }

  /** Stepping to child i of the node at p. */
  lemma FindChild<T>(t: Tree<T>, p: Path, i: nat)
    ensures Find(t, p + [i]) ==
      if ValidPath(t, p) && i < |At(t, p).children| then Some(At(t, p).children[i]) else None
  {
    assert Parent(p + [i]) == p;
  }

  lemma ChildValid<T>(t: Tree<T>, p: Path, i: nat)
    requires ValidPath(t, p) && i < |At(t, p).children|
    ensures ValidPath(t, p + [i]) && At(t, p + [i]) == At(t, p).children[i]
  {
    assert Parent(p + [i]) == p;
  }

  /** The ancestors of a valid path are valid. */
  lemma ParentValid<T>(t: Tree<T>, p: Path)
    requires |p| > 0 && ValidPath(t, p)
    ensures ValidPath(t, Parent(p)) && Last(p) < |At(t, Parent(p)).children|
    ensures At(t, p) == At(t, Parent(p)).children[Last(p)]
  {
  }

  /** Reading a path front first: its first index selects a child of the root. */
  lemma {:induction false} FindFront<T>(t: Tree<T>, i: nat, q: Path)
    ensures Find(t, [i] + q) == if i < |t.children| then Find(t.children[i], q) else None
    decreases |q|
  {
    if |q| == 0 {
      assert [i] + q == [] + [i];
      FindChild(t, [], i);
    } else {
      var q0 := Parent(q);
      assert [i] + q == ([i] + q0) + [Last(q)];
      assert q == q0 + [Last(q)];
      FindFront(t, i, q0);
      FindChild(t, [i] + q0, Last(q));
      if i < |t.children| {
        FindChild(t.children[i], q0, Last(q));
      }
    }
  }

  // ---------------------------------------------------------------------
  // Chronological order: `after()` / `nextLL()` and `before()`.

  /** The next sibling of the nearest ancestor-or-self that has one. */
  function Up<T>(t: Tree<T>, p: Path): (r: Option<Path>)
    requires ValidPath(t, p)
    ensures r.Some? ==> ValidPath(t, r.value) && 0 < |r.value| <= |p| && r.value != p
    ensures r.Some? ==> Last(r.value) > 0
    decreases |p|
  {
    if |p| == 0 then None
    else
      var u := At(t, Parent(p));
      if Last(p) + 1 < |u.children| then
        ChildValid(t, Parent(p), Last(p) + 1);
        Some(Parent(p) + [Last(p) + 1])
      else Up(t, Parent(p))
  }

  /** `after()`: the first child, else the next sibling of the nearest
      ancestor-or-self that has one, else none. */
  function Next<T>(t: Tree<T>, p: Path): (r: Option<Path>)
    requires ValidPath(t, p)
    ensures r.Some? ==> ValidPath(t, r.value) && |r.value| > 0 && r.value != p
  {
    if |At(t, p).children| > 0 then
      ChildValid(t, p, 0);
      Some(p + [0])
    else Up(t, p)
  }

  /** The last node reached by following last children from p. */
  function Deepest<T>(t: Tree<T>, p: Path): (r: Path)
    requires ValidPath(t, p)
    ensures ValidPath(t, r) && |At(t, r).children| == 0
    decreases At(t, p)
  {
    var n := |At(t, p).children|;
    if n == 0 then p
    else
      ChildValid(t, p, n - 1);
      Deepest(t, p + [n - 1])
  }

  /** `before()`: the deepest last descendant of the previous sibling, else
      the parent; none for the root. */
  function Prev<T>(t: Tree<T>, p: Path): (r: Option<Path>)
    requires ValidPath(t, p)
    ensures r.Some? <==> |p| > 0
    ensures r.Some? ==> ValidPath(t, r.value)
  {
    if |p| == 0 then None
    else if Last(p) > 0 then
      ChildValid(t, Parent(p), Last(p) - 1);
      Some(Deepest(t, Parent(p) + [Last(p) - 1]))
    else Some(Parent(p))
  }

  lemma {:induction false} UpThenDeepest<T>(t: Tree<T>, p: Path)
    requires ValidPath(t, p) && Up(t, p).Some?
    ensures ValidPath(t, Parent(Up(t, p).value) + [Last(Up(t, p).value) - 1])
    ensures Deepest(t, Parent(Up(t, p).value) + [Last(Up(t, p).value) - 1]) == Deepest(t, p)
    decreases |p|
  {
    var q := Parent(p);
    if Last(p) + 1 < |At(t, q).children| {
      UpToSibling(t, p);
    } else {
      LastChildDeepest(t, p);
      UpThenDeepest(t, q);
    }
  }

  lemma UpToSibling<T>(t: Tree<T>, p: Path)
    requires ValidPath(t, p) && |p| > 0 && Last(p) + 1 < |At(t, Parent(p)).children|
    ensures Up(t, p) == Some(Parent(p) + [Last(p) + 1])
    ensures Parent(Up(t, p).value) + [Last(Up(t, p).value) - 1] == p
  {
    var r := Parent(p) + [Last(p) + 1];
    assert Parent(r) == Parent(p);
  }

  /** From a last child, `Up` and `Deepest` both pass to the parent. */
  lemma LastChildDeepest<T>(t: Tree<T>, p: Path)
    requires ValidPath(t, p) && |p| > 0 && Last(p) + 1 == |At(t, Parent(p)).children|
    ensures Up(t, p) == Up(t, Parent(p))
    ensures Deepest(t, Parent(p)) == Deepest(t, p)
  {
    LastChildUp(t, p);
    DeepestOfLastChild(t, p);
  }

  lemma LastChildUp<T>(t: Tree<T>, p: Path)
    requires ValidPath(t, p) && |p| > 0 && Last(p) + 1 == |At(t, Parent(p)).children|
    ensures Up(t, p) == Up(t, Parent(p))
  {
  }

  lemma DeepestOfLastChild<T>(t: Tree<T>, p: Path)
    requires ValidPath(t, p) && |p| > 0 && Last(p) + 1 == |At(t, Parent(p)).children|
    ensures Deepest(t, Parent(p)) == Deepest(t, p)
  {
    ParentLast(p);
  }

  lemma ParentLast(p: Path)
    requires |p| > 0
    ensures Parent(p) + [Last(p)] == p
  {
  }

  lemma ParentOfChild(p: Path, i: nat)
    ensures Parent(p + [i]) == p && Last(p + [i]) == i
  {
  }

  /** Stepping back from the node after p returns to p: `before(after(n)) == n`. */
  lemma PrevOfNext<T>(t: Tree<T>, p: Path)
    requires ValidPath(t, p) && Next(t, p).Some?
    ensures Prev(t, Next(t, p).value) == Some(p)
  {
    if |At(t, p).children| > 0 {
      assert Parent(p + [0]) == p;
    } else {
      UpThenDeepest(t, p);
    }
  }

  lemma {:induction false} DeepestThenUp<T>(t: Tree<T>, p: Path)
    requires ValidPath(t, p)
    ensures Up(t, Deepest(t, p)) == Up(t, p)
    decreases At(t, p)
  {
    var n := |At(t, p).children|;
    if n > 0 {
      ChildValid(t, p, n - 1);
      DeepestThenUp(t, p + [n - 1]);
      assert Parent(p + [n - 1]) == p;
    }
  }

  /** Stepping forward from the node before p returns to p: `after(before(n)) == n`. */
  lemma NextOfPrev<T>(t: Tree<T>, p: Path)
    requires ValidPath(t, p) && |p| > 0
    ensures Next(t, Prev(t, p).value) == Some(p)
  {
    var q := Parent(p);
    ChildValid(t, q, Last(p));
    assert p == q + [Last(p)];
    if Last(p) > 0 {
      var s := q + [Last(p) - 1];
      ChildValid(t, q, Last(p) - 1);
      DeepestThenUp(t, s);
      assert Parent(s) == q;
    }
  }

  // ---------------------------------------------------------------------
  // The mirror order `nextLR()`: last child, else the previous sibling of
  // the nearest ancestor-or-self that has one.

  function UpLR<T>(t: Tree<T>, p: Path): (r: Option<Path>)
    requires ValidPath(t, p)
    ensures r.Some? ==> ValidPath(t, r.value)
    decreases |p|
  {
    if |p| == 0 then None
    else if Last(p) > 0 then
      ChildValid(t, Parent(p), Last(p) - 1);
      Some(Parent(p) + [Last(p) - 1])
    else UpLR(t, Parent(p))
  }

  /** `nextLR()`. */
  function NextLR<T>(t: Tree<T>, p: Path): (r: Option<Path>)
    requires ValidPath(t, p)
    ensures r.Some? ==> ValidPath(t, r.value)
  {
    var n := |At(t, p).children|;
    if n > 0 then
      ChildValid(t, p, n - 1);
      Some(p + [n - 1])
    else UpLR(t, p)
  }

  /** The tree with every child list reversed. */
  function Mirror<T>(t: Tree<T>): (r: Tree<T>)
    ensures r.item == t.item && |r.children| == |t.children|
  {
    var n := |t.children|;
    Node(t.item, seq(n, i requires 0 <= i < n => Mirror(t.children[n - 1 - i])))
  }

  /** Where a node of t lies in the mirrored tree. */
  function MirrorPath<T>(t: Tree<T>, p: Path): (r: Path)
    requires ValidPath(t, p)
    ensures |r| == |p|
    decreases |p|
  {
    if |p| == 0 then []
    else MirrorPath(t, Parent(p)) + [|At(t, Parent(p)).children| - 1 - Last(p)]
  }

  lemma {:induction false} MirrorAt<T>(t: Tree<T>, p: Path)
    requires ValidPath(t, p)
    ensures ValidPath(Mirror(t), MirrorPath(t, p))
    ensures At(Mirror(t), MirrorPath(t, p)) == Mirror(At(t, p))
    decreases |p|
  {
    if |p| > 0 {
      var q := Parent(p);
      MirrorAt(t, q);
      var n := |At(t, q).children|;
      ChildValid(Mirror(t), MirrorPath(t, q), n - 1 - Last(p));
    }
  }

  function MirrorOption<T>(t: Tree<T>, r: Option<Path>): Option<Path>
    requires r.Some? ==> ValidPath(t, r.value)
  {
    match r
    case None => None
    case Some(q) => Some(MirrorPath(t, q))
  }

  lemma {:induction false} UpMirrored<T>(t: Tree<T>, p: Path)
    requires ValidPath(t, p)
    ensures ValidPath(Mirror(t), MirrorPath(t, p))
    ensures Up(Mirror(t), MirrorPath(t, p)) == MirrorOption(t, UpLR(t, p))
    decreases |p|
  {
    MirrorAt(t, p);
    if |p| > 0 {
      var q := Parent(p);
      var m := MirrorPath(t, p);
      MirrorAt(t, q);
      assert Parent(m) == MirrorPath(t, q);
      ChildValid(t, q, Last(p));
      if Last(p) > 0 {
        ChildValid(t, q, Last(p) - 1);
        assert Parent(q + [Last(p) - 1]) == q;
      } else {
        UpMirrored(t, q);
      }
    }
  }

  /** `nextLR` is `nextLL` read in the mirrored tree. */
  lemma NextLRIsMirroredNext<T>(t: Tree<T>, p: Path)
    requires ValidPath(t, p)
    ensures ValidPath(Mirror(t), MirrorPath(t, p))
    ensures Next(Mirror(t), MirrorPath(t, p)) == MirrorOption(t, NextLR(t, p))
  {
    MirrorAt(t, p);
    if |At(t, p).children| > 0 {
      MirrorLastChild(t, p);
    } else {
      UpMirrored(t, p);
    }
  }

  lemma MirrorLastChild<T>(t: Tree<T>, p: Path)
    requires ValidPath(t, p) && |At(t, p).children| > 0
    ensures NextLR(t, p) == Some(p + [|At(t, p).children| - 1])
    ensures MirrorPath(t, p + [|At(t, p).children| - 1]) == MirrorPath(t, p) + [0]
  {
    var n := |At(t, p).children|;
    MirrorPathChild(t, p, n - 1);
  }

  lemma MirrorPathChild<T>(t: Tree<T>, p: Path, i: nat)
    requires ValidPath(t, p) && i < |At(t, p).children|
    ensures ValidPath(t, p + [i])
    ensures MirrorPath(t, p + [i]) == MirrorPath(t, p) + [|At(t, p).children| - 1 - i]
  {
    ChildValid(t, p, i);
    ParentOfChild(p, i);
    MirrorPathUnfold(t, p + [i]);
  }

  lemma MirrorPathUnfold<T>(t: Tree<T>, c: Path)
    requires ValidPath(t, c) && |c| > 0
    ensures MirrorPath(t, c) == MirrorPath(t, Parent(c)) + [|At(t, Parent(c)).children| - 1 - Last(c)]
  {
  }

  // ---------------------------------------------------------------------
  // Edits. `Replace` puts a subtree at a path; the source's `adopt`,
  // sibling insertion and field writes are all replacements.

  function Replace<T>(t: Tree<T>, p: Path, s: Tree<T>): Tree<T>
    decreases |p|
  {
    if |p| == 0 then s
    else if p[0] < |t.children| then
      Node(t.item, t.children[p[0] := Replace(t.children[p[0]], p[1..], s)])
    else t
  }

  /** Paths through the replaced node read the new subtree. */
  lemma {:induction false} ReplaceBelow<T>(t: Tree<T>, p: Path, s: Tree<T>, x: Path)
    requires ValidPath(t, p)
    ensures Find(Replace(t, p, s), p + x) == Find(s, x)
    decreases |p|
  {
    if |p| > 0 {
      var i := p[0];
      assert p == [i] + p[1..];
      assert p + x == [i] + (p[1..] + x);
      FindFront(t, i, p[1..]);
      FindFront(Replace(t, p, s), i, p[1..] + x);
      ReplaceBelow(t.children[i], p[1..], s, x);
    } else {
      assert p + x == x;
    }
  }

  /** The strict ancestors of the replaced node keep their item and their
      number of children. */
  lemma {:induction false} ReplaceAbove<T>(t: Tree<T>, q: Path, x: Path, s: Tree<T>)
    requires ValidPath(t, q + x) && |x| > 0
    ensures ValidPath(t, q) && ValidPath(Replace(t, q + x, s), q)
    ensures At(Replace(t, q + x, s), q).item == At(t, q).item
    ensures |At(Replace(t, q + x, s), q).children| == |At(t, q).children|
    decreases |q|
  {
    var p := q + x;
    var i := p[0];
    assert p == [i] + p[1..];
    FindFront(t, i, p[1..]);
    if |q| > 0 {
      assert q == [i] + q[1..];
      assert p[1..] == q[1..] + x;
      FindFront(t, i, q[1..]);
      FindFront(Replace(t, p, s), i, q[1..]);
      ReplaceAbove(t.children[i], q[1..], x, s);
    }
  }

  /** Nodes off the replaced node's branch are untouched. */
  lemma {:induction false} ReplaceApart<T>(t: Tree<T>, c: Path, i: nat, y: Path, j: nat, x: Path, s: Tree<T>)
    requires ValidPath(t, c + [i] + y) && i != j
    ensures Find(Replace(t, c + [i] + y, s), c + [j] + x) == Find(t, c + [j] + x)
    decreases |c|
  {
    var p := c + [i] + y;
    var q := c + [j] + x;
    var r := Replace(t, p, s);
    var k := p[0];
    assert p == [k] + p[1..];
    assert q == [q[0]] + q[1..];
    FindFront(t, k, p[1..]);
    FindFront(r, q[0], q[1..]);
    FindFront(t, q[0], q[1..]);
    if |c| > 0 {
      assert q[0] == k;
      assert p[1..] == c[1..] + [i] + y;
      assert q[1..] == c[1..] + [j] + x;
      ReplaceApart(t.children[k], c[1..], i, y, j, x, s);
    }
  }

  /** The node at n is neither q nor one of q's ancestors, so replacing it
      leaves q's own node in place. */
  predicate Outside(n: Path, q: Path) {
    !(|n| <= |q| && q[..|n|] == n)
  }

  /** The node at q has the same item and number of children in r as in t. */
  ghost predicate Keeps<T>(t: Tree<T>, r: Tree<T>, q: Path) {
    ValidPath(t, q) && ValidPath(r, q) && At(r, q).item == At(t, q).item
    && |At(r, q).children| == |At(t, q).children|
  }

  /** A replacement outside q keeps q's item and child count. */
  lemma {:induction false} ReplaceOutside<T>(t: Tree<T>, n: Path, q: Path, s: Tree<T>)
    requires ValidPath(t, n) && ValidPath(t, q) && Outside(n, q)
    ensures Keeps(t, Replace(t, n, s), q)
    decreases |q|
  {
    var r := Replace(t, n, s);
    if |q| == 0 {
      assert n == [n[0]] + n[1..];
      FindFront(t, n[0], n[1..]);
    } else {
      var i := q[0];
      assert q == [i] + q[1..];
      assert n == [n[0]] + n[1..];
      FindFront(t, i, q[1..]);
      FindFront(r, i, q[1..]);
      FindFront(t, n[0], n[1..]);
      if n[0] == i {
        assert Outside(n[1..], q[1..]);
        ReplaceOutside(t.children[i], n[1..], q[1..], s);
      }
    }
  }

  /** Replacing a node by one with the same children leaves every node that
      is neither it nor one of its ancestors as it was. */
  lemma {:induction false} ReplaceSameChildren<T>(t: Tree<T>, p: Path, s: Tree<T>, q: Path)
    requires ValidPath(t, p) && ValidPath(t, q) && Outside(q, p)
    requires s.children == At(t, p).children
    ensures ValidPath(Replace(t, p, s), q) && At(Replace(t, p, s), q) == At(t, q)
    decreases |p|
  {
    var r := Replace(t, p, s);
    assert q == [q[0]] + q[1..];
    FindFront(t, q[0], q[1..]);
    FindFront(r, q[0], q[1..]);
    if |p| == 0 {
      FindFront(s, q[0], q[1..]);
    } else {
      var i := p[0];
      assert p == [i] + p[1..];
      FindFront(t, i, p[1..]);
      if q[0] == i {
        assert Outside(q[1..], p[1..]);
        ReplaceSameChildren(t.children[i], p[1..], s, q[1..]);
      }
    }
  }

  /** Replacing the node `after()` reaches keeps the node it started from. */
  lemma NextOutside<T>(t: Tree<T>, p: Path)
    requires ValidPath(t, p) && Next(t, p).Some?
    ensures Outside(Next(t, p).value, p)
  {
    if |At(t, p).children| == 0 {
      var c, i, y := UpApart(t, p);
      var n := Next(t, p).value;
      assert n == c + [i + 1];
      assert p[..|n|] == c + [i];
    }
  }

  lemma OutsideParent(n: Path, q: Path)
    requires Outside(n, q) && |q| > 0
    ensures Outside(n, Parent(q))
  {
    if |n| <= |Parent(q)| {
      assert q[..|n|] == Parent(q)[..|n|];
    }
  }

  /** The node at p is the new subtree. */
  lemma ReplaceAt<T>(t: Tree<T>, p: Path, s: Tree<T>)
    requires ValidPath(t, p)
    ensures ValidPath(Replace(t, p, s), p) && At(Replace(t, p, s), p) == s
  {
    ReplaceBelow(t, p, s, []);
    assert p + [] == p;
  }

  // ---------------------------------------------------------------------
  // Shape: the chronological order depends only on child counts.

  predicate SameShape<T>(a: Tree<T>, b: Tree<T>)
    decreases a
  {
    |a.children| == |b.children|
    && forall i :: 0 <= i < |a.children| ==> SameShape(a.children[i], b.children[i])
  }

  lemma {:induction false} SameShapeRefl<T>(a: Tree<T>)
    ensures SameShape(a, a)
    decreases a
  {
    forall i | 0 <= i < |a.children| ensures SameShape(a.children[i], a.children[i]) {
      SameShapeRefl(a.children[i]);
    }
  }

  /** Trees of the same shape have the same valid paths, and the subtrees
      there have the same shape again. */
  lemma {:induction false} SameShapeFind<T>(a: Tree<T>, b: Tree<T>, p: Path)
    requires SameShape(a, b)
    ensures ValidPath(a, p) <==> ValidPath(b, p)
    ensures ValidPath(a, p) ==> SameShape(At(a, p), At(b, p))
    decreases |p|
  {
    if |p| > 0 {
      SameShapeFind(a, b, Parent(p));
    }
  }

  lemma {:induction false} UpSameShape<T>(a: Tree<T>, b: Tree<T>, p: Path)
    requires SameShape(a, b) && ValidPath(a, p)
    ensures ValidPath(b, p) && Up(a, p) == Up(b, p)
    decreases |p|
  {
    SameShapeFind(a, b, p);
    if |p| > 0 {
      SameShapeFind(a, b, Parent(p));
      UpSameShape(a, b, Parent(p));
    }
  }

  /** `after()` is the same in trees of the same shape. */
  lemma NextSameShape<T>(a: Tree<T>, b: Tree<T>, p: Path)
    requires SameShape(a, b) && ValidPath(a, p)
    ensures ValidPath(b, p) && Next(a, p) == Next(b, p)
  {
    SameShapeFind(a, b, p);
    UpSameShape(a, b, p);
  }

  /** Replacing a node by one of the same shape keeps the tree's shape. */
  lemma {:induction false} ReplaceSameShape<T>(t: Tree<T>, p: Path, s: Tree<T>)
    requires ValidPath(t, p) && SameShape(s, At(t, p))
    ensures SameShape(Replace(t, p, s), t)
    decreases |p|
  {
    if |p| > 0 {
      var i := p[0];
      assert p == [i] + p[1..];
      FindFront(t, i, p[1..]);
      ReplaceSameShape(t.children[i], p[1..], s);
      var r := Replace(t, p, s);
      forall k | 0 <= k < |r.children| ensures SameShape(r.children[k], t.children[k]) {
        if k != i {
          SameShapeRefl(t.children[k]);
        }
      }
    }
  }

  // ---------------------------------------------------------------------
  // The edits the source performs.

  /** Writing the fields of the node at p. */
  function SetItem<T>(t: Tree<T>, p: Path, x: T): (r: Tree<T>)
    requires ValidPath(t, p)
    ensures ValidPath(r, p) && At(r, p) == Node(x, At(t, p).children)
    ensures SameShape(r, t)
  {
    var s := Node(x, At(t, p).children);
    ReplaceAt(t, p, s);
    SameShapeRefl(At(t, p));
    ReplaceSameShape(t, p, s);
    Replace(t, p, s)
  }

  /** `adopt(node)`: node becomes the last child of the node at p. */
  function Adopt<T>(t: Tree<T>, p: Path, c: Tree<T>): (r: Tree<T>)
    requires ValidPath(t, p)
    ensures ValidPath(r, p) && At(r, p).item == At(t, p).item
    ensures At(r, p).children == At(t, p).children + [c]
  {
    var u := At(t, p);
    ReplaceAt(t, p, Node(u.item, u.children + [c]));
    Replace(t, p, Node(u.item, u.children + [c]))
  }

  /** The adopted node's links: its parent is p and it is the last child. */
  lemma AdoptLinks<T>(t: Tree<T>, p: Path, c: Tree<T>)
    requires ValidPath(t, p)
    ensures var k := |At(t, p).children|;
      var r := Adopt(t, p, c);
      ValidPath(r, p + [k]) && At(r, p + [k]) == c && Parent(p + [k]) == p
      && Last(p + [k]) + 1 == |At(r, p).children|
  {
    var k := |At(t, p).children|;
    ChildValid(Adopt(t, p, c), p, k);
    assert Parent(p + [k]) == p;
  }

  /** When there were children, the first child stays and the former last
      child's next sibling is the adopted node. */
  lemma AdoptKeepsSiblings<T>(t: Tree<T>, p: Path, c: Tree<T>)
    requires ValidPath(t, p) && |At(t, p).children| > 0
    ensures var k := |At(t, p).children|;
      var r := Adopt(t, p, c);
      ValidPath(r, p + [0]) && ValidPath(t, p + [0]) && At(r, p + [0]) == At(t, p + [0])
      && ValidPath(r, p + [k - 1]) && Up(r, p + [k - 1]) == Some(p + [k])
  {
    var k := |At(t, p).children|;
    var r := Adopt(t, p, c);
    ChildValid(r, p, 0);
    ChildValid(t, p, 0);
    ChildValid(r, p, k - 1);
    assert Parent(p + [k - 1]) == p;
    UpToSibling(r, p + [k - 1]);
  }

  /** Inserting c as the next sibling of the node at p (the root has no
      siblings, so nothing happens there). */
  function InsertAfter<T>(t: Tree<T>, p: Path, c: Tree<T>): (r: Tree<T>)
    requires ValidPath(t, p)
    ensures |p| == 0 ==> r == t
    ensures |p| > 0 ==> ValidPath(r, Parent(p)) && At(r, Parent(p)).item == At(t, Parent(p)).item
    ensures |p| > 0 ==> (ValidPath(t, Parent(p)) && ValidPath(r, Parent(p)) &&
      At(r, Parent(p)).children
      == At(t, Parent(p)).children[..Last(p) + 1] + [c] + At(t, Parent(p)).children[Last(p) + 1..])
  {
    if |p| == 0 then t
    else
      var u := At(t, Parent(p));
      var k := Last(p) + 1;
      ParentValid(t, p);
      var s := Node(u.item, u.children[..k] + [c] + u.children[k..]);
      ReplaceAt(t, Parent(p), s);
      Replace(t, Parent(p), s)
  }

  /** After the insertion the node keeps its path and the inserted node is
      its next sibling, followed by the former next sibling. */
  lemma InsertAfterLinks<T>(t: Tree<T>, p: Path, c: Tree<T>)
    requires ValidPath(t, p) && |p| > 0
    ensures var r := InsertAfter(t, p, c);
      var q := Parent(p) + [Last(p) + 1];
      ValidPath(r, p) && At(r, p) == At(t, p)
      && ValidPath(r, q) && At(r, q) == c
      && Up(r, p) == Some(q)
  {
    var r := InsertAfter(t, p, c);
    var k := Last(p);
    ParentValid(t, p);
    ChildValid(r, Parent(p), k);
    ChildValid(r, Parent(p), k + 1);
    ParentLast(p);
    UpToSibling(r, p);
  }

  /** The node `Up` reaches and the node it starts from part at one index:
      the later one continues with the next sibling. */
  lemma {:induction false} UpApart<T>(t: Tree<T>, p: Path) returns (c: Path, i: nat, y: Path)
    requires ValidPath(t, p) && Up(t, p).Some?
    ensures p == c + [i] + y && Up(t, p).value == c + [i + 1] + []
    decreases |p|
  {
    var q := Parent(p);
    assert p == q + [Last(p)] + [];
    if Last(p) + 1 < |At(t, q).children| {
      c, i, y := q, Last(p), [];
    } else {
      var y0;
      c, i, y0 := UpApart(t, q);
      y := y0 + [Last(p)];
    }
  }
}

=== FILE: user_friendly.dfy ===
/** The "user friendly" text form of js/gui/TextInput.js, four
    declarations ended by ".":

      N = A, B.
      T = a, b.
      P = A -> a B | eps,
          B -> b.
      S = A.

    `toUserFriendlyString` prints a grammar in it, and `convertUserFriendly`
    reads such a text into grammar data in array form. The reader finds each
    declaration with an unanchored, case-insensitive regular expression
    (the first position where it matches), splits the lists with global
    matches and reads every rule with a third pattern. Each pattern is
    modelled by what it captures: the greedy choices and the backtracking
    the engine does are spelled out where they decide the result. */
module UserFriendly {
  import opened Wrappers
  import opened Text
  import opened Symbols
  import opened Words
  import opened Rules
  import opened Objects
  import opened Grammars
  import opened CfgcFormat

  const NonterminalListError: string := "Nonterminal list is missing or has incorrect syntax"
  const TerminalListError: string := "Terminal list is missing or has incorrect syntax"
  const StartError: string := "Starting nonterminal declaration is missing or has incorrect syntax"
  const RuleSyntaxError: string := "One of the rules has incorrect syntax"

  // ---------------------------------------------------------------------
  // Printing: `toUserFriendlyString`.

  /** One rule group: the left side of its first rule, then the right sides
      as `toString` prints them (the empty word as "eps"), separated by
      " | ". */
  function RuleGroupText(group: Dict<Rule>): string
    requires |group.keys| > 0
  {
    group.values[group.keys[0]].left + " -> " + Join(RightTexts(group), " | ")
  }

  function RuleGroupTexts(g: Grammar): (r: seq<string>)
    requires NoEmptyGroup(g)
    ensures |r| == |g.p.keys|
    ensures forall i :: 0 <= i < |r| ==> r[i] == RuleGroupText(g.p.values[g.p.keys[i]])
  {
    seq(|g.p.keys|, i requires 0 <= i < |g.p.keys| => RuleGroupText(g.p.values[g.p.keys[i]]))
  }

  /** One declaration "K = body.". */
  function Decl(key: char, body: string): string {
    [key] + " = " + body + "."
  }

  /** `toUserFriendlyString`: the nonterminals, terminals, rule groups and
      start symbol, in key order. A left side without rules has no rule to
      read the left side from, and the call throws. */
  function ToUserFriendlyString(g: Grammar): (r: Result<string>)
    ensures r.Success? <==> NoEmptyGroup(g)
  {
    if NoEmptyGroup(g) then
      Success(Decl('N', Join(g.n.keys, ", ")) + "\n"
              + Decl('T', Join(g.t.keys, ", ")) + "\n"
              + Decl('P', Join(RuleGroupTexts(g), ",\n    ")) + "\n"
              + Decl('S', g.start))
    else Failure("getAnyProperty(rights) is null")
  }

  // ---------------------------------------------------------------------
  // Global matches of a character class: `s.match(/[^...]+/g)`.

  /** The length of the run of characters outside `stops` at the start of
      s. */
  function RunLength(s: string, stops: set<char>): (n: nat)
    ensures n <= |s|
    ensures forall i :: 0 <= i < n ==> s[i] !in stops
    ensures n < |s| ==> s[n] in stops
    decreases |s|
  {
    if |s| == 0 || s[0] in stops then 0
    else 1 + RunLength(s[1..], stops)
  }

  /** `s.match(/[^stops]+/g)`: the maximal runs of characters outside
      `stops`, left to right; no run (`null` in the program) is the empty
      list. */
  function Runs(s: string, stops: set<char>): (r: seq<string>)
    ensures forall k :: 0 <= k < |r| ==> |r[k]| > 0 && forall i :: 0 <= i < |r[k]| ==> r[k][i] !in stops
    decreases |s|
  {
    if |s| == 0 then []
    else if s[0] in stops then Runs(s[1..], stops)
    else
      var n := RunLength(s, stops);
      [s[..n]] + Runs(s[n..], stops)
  }

  // ---------------------------------------------------------------------
  // The declaration patterns `K ?= ?(...)\.` with the `i` flag.

  function LowerCase(c: char): char {
    if 'A' <= c <= 'Z' then (c as int + 32) as char else c
  }

  /** The letter of a declaration in either case. */
  predicate IsKey(c: char, key: char) {
    c == key || c == LowerCase(key)
  }

  /** What follows "=": a list `((?:[^,.]+ ?, ?)*(?:[^,.]+ ?))\.` for N, T
      and P, a single item `([^,.]+) ?\.` for S. */
  datatype Shape = ListShape | ItemShape

  /** ` ?=` at the start of s: the text after the "=". */
  function AfterEquals(s: string): (r: Option<string>)
    ensures r.Some? ==> (s == "=" + r.value || s == " =" + r.value)
  {
    if |s| >= 2 && s[0] == ' ' && s[1] == '=' then
      assert s == " =" + s[2..];
      Some(s[2..])
    else if |s| >= 1 && s[0] == '=' then
      assert s == "=" + s[1..];
      Some(s[1..])
    else None
  }

  /** The position of the first character of s in `cs`, or |s|. */
  function FirstIn(s: string, cs: set<char>): (n: nat)
    ensures n <= |s|
    ensures forall i :: 0 <= i < n ==> s[i] !in cs
    ensures n < |s| ==> s[n] in cs
    decreases |s|
  {
    if |s| == 0 || s[0] in cs then 0
    else 1 + FirstIn(s[1..], cs)
  }

  /** Every item between commas is nonempty. */
  predicate NonemptyItems(b: string) {
    forall k :: 0 <= k < |Split(b, ',')| ==> |Split(b, ',')[k]| > 0
  }

  /** The list group followed by "." at the start of r. The group holds no
      "." and must end right before the first one; `[^,.]+` takes spaces,
      so the group matches exactly when no comma-separated item of it is
      empty. */
  function ListBody(r: string): (b: Option<string>)
    ensures b.Some? ==> '.' !in b.value && NonemptyItems(b.value)
                        && |b.value| < |r| && r[..|b.value| + 1] == b.value + "."
  {
    var d := FirstIn(r, {'.'});
    if d < |r| && NonemptyItems(r[..d]) then
      assert r[..d + 1] == r[..d] + ".";
      Some(r[..d])
    else None
  }

  /** The item group followed by "." at the start of r: the greedy
      `[^,.]+` runs to the first "," or "."; shorter runs cannot be
      followed by ".", so it is that text when it is nonempty and a "."
      ends it. */
  function ItemBody(r: string): (b: Option<string>)
    ensures b.Some? ==> |b.value| > 0 && ',' !in b.value && '.' !in b.value
                        && |b.value| < |r| && r[..|b.value| + 1] == b.value + "."
  {
    var d := FirstIn(r, {',', '.'});
    if 0 < d < |r| && r[d] == '.' then
      assert r[..d + 1] == r[..d] + ".";
      Some(r[..d])
    else None
  }

  function Body(r: string, shape: Shape): (b: Option<string>)
    ensures b.Some? && shape == ItemShape ==> |b.value| > 0
  {
    match shape
    case ListShape => ListBody(r)
    case ItemShape => ItemBody(r)
  }

  /** ` ?(group)`: the optional space is greedy, so the group is tried
      after it first and from it only when that fails. */
  function AfterSpace(r: string, shape: Shape): (b: Option<string>)
    ensures b.Some? && shape == ItemShape ==> |b.value| > 0
  {
    if |r| > 0 && r[0] == ' ' && Body(r[1..], shape).Some? then Body(r[1..], shape)
    else Body(r, shape)
  }

  /** The group of a match that starts at s[0]. */
  function MatchHere(s: string, key: char, shape: Shape): (b: Option<string>)
    ensures b.Some? && shape == ItemShape ==> |b.value| > 0
  {
    if |s| > 0 && IsKey(s[0], key) then
      match AfterEquals(s[1..])
      case None => None
      case Some(r) => AfterSpace(r, shape)
    else None
  }

  /** `s.match(re)` for an unanchored pattern: the group of the match at
      the first position where one starts. */
  function Search(s: string, key: char, shape: Shape): (b: Option<string>)
    ensures b.Some? && shape == ItemShape ==> |b.value| > 0
    decreases |s|
  {
    if MatchHere(s, key, shape).Some? then MatchHere(s, key, shape)
    else if |s| == 0 then None
    else Search(s[1..], key, shape)
  }

  // ---------------------------------------------------------------------
  // The rule pattern `([^>,. ]+) ?-> ?((?:[^|]+ ?\| ?)*(?:[^|]+ ?))`.

  /** The characters the left side stops at. */
  const LeftStops: set<char> := {'>', ',', '.', ' '}

  /** The left side and the text after the arrow, for a match starting at
      q[0]. The greedy left side is the whole run outside `LeftStops`, and
      it can only be followed by " ->", since "-" would belong to the run.
      Backtracking shortens it by one character at most: that shorter run
      is followed by "->" only when the run ends in "-" and ">" follows, as
      in "A->b". */
  function LeftAndArrow(q: string): (r: Option<(string, string)>)
    ensures r.Some? ==> |r.value.0| > 0 && (forall i :: 0 <= i < |r.value.0| ==> r.value.0[i] !in LeftStops)
                        && (q == r.value.0 + " ->" + r.value.1 || q == r.value.0 + "->" + r.value.1)
  {
    var e := RunLength(q, LeftStops);
    if e == 0 then None
    else if e + 3 <= |q| && q[e..e + 3] == " ->" then
      assert q == q[..e] + " ->" + q[e + 3..];
      Some((q[..e], q[e + 3..]))
    else if e >= 2 && e < |q| && q[e - 1] == '-' && q[e] == '>' then
      assert q == q[..e - 1] + "->" + q[e + 1..];
      Some((q[..e - 1], q[e + 1..]))
    else None
  }

  /** The longest prefix of nonempty pieces. */
  function Leading(ps: seq<string>): (r: seq<string>)
    ensures |r| <= |ps| && r == ps[..|r|]
    ensures forall k :: 0 <= k < |r| ==> |r[k]| > 0
    ensures |r| < |ps| ==> |ps[|r|]| == 0
    decreases |ps|
  {
    if |ps| == 0 || |ps[0]| == 0 then []
    else [ps[0]] + Leading(ps[1..])
  }

  /** The alternatives group at the start of u. Its star takes an
      alternative and its "|" while another nonempty alternative follows,
      and the last alternative must be nonempty; with nothing after the
      group, the match found first takes the alternatives up to the first
      empty one. The group fails only when the first alternative is
      empty. */
  function AltGroup(u: string): (r: Option<string>)
    ensures r.Some? <==> |Split(u, '|')[0]| > 0
  {
    var ps := Split(u, '|');
    if |ps[0]| > 0 then Some(Join(Leading(ps), "|")) else None
  }

  /** ` ?(group)` after the arrow. */
  function AltsAfterArrow(a: string): Option<string> {
    if |a| > 0 && a[0] == ' ' && AltGroup(a[1..]).Some? then AltGroup(a[1..])
    else AltGroup(a)
  }

  /** The left side and alternatives group of a match starting at q[0]. */
  function RuleHere(q: string): (r: Option<(string, string)>)
    ensures r.Some? ==> |r.value.0| > 0
  {
    match LeftAndArrow(q)
    case None => None
    case Some((left, a)) =>
      match AltsAfterArrow(a)
      case None => None
      case Some(grp) => Some((left, grp))
  }

  /** `q.match(rule pattern)`: the first position where a rule starts. */
  function RuleSearch(q: string): (r: Option<(string, string)>)
    ensures r.Some? ==> |r.value.0| > 0
    decreases |q|
  {
    if RuleHere(q).Some? then RuleHere(q)
    else if |q| == 0 then None
    else RuleSearch(q[1..])
  }

  /** One item of the rule list: its left side and its alternatives
      (`rx[2].match(/[^|]+/g)`). */
  function ReadRule(q: string): (r: Option<(string, seq<string>)>)
    ensures r.Some? ==> |r.value.0| > 0 && |r.value.1| > 0
    ensures r.Some? ==> forall k :: 0 <= k < |r.value.1| ==> |r.value.1[k]| > 0 && '|' !in r.value.1[k]
  {
    match RuleSearch(q)
    case None => None
    case Some((left, grp)) =>
      var alts := Runs(grp, {'|'});
      if |alts| == 0 then None
      else
        assert forall k :: 0 <= k < |alts| ==> '|' !in alts[k] by {
          forall k | 0 <= k < |alts| ensures '|' !in alts[k] {
            assert forall i :: 0 <= i < |alts[k]| ==> alts[k][i] != '|';
          }
        }
        Some((left, alts))
  }

  /** The rule list in order: each item sets its left side's alternatives
      (`o.P[rx[1]] = []`, then the pushes), so a left side given twice keeps
      its first position and its last alternatives. The first item that is
      not a rule is reported with its text. */
  function ReadRules(ps: seq<string>): (r: Result<Dict<seq<string>>>)
    ensures r.Success? ==> forall L :: L in r.value.values ==> |r.value.values[L]| > 0
    decreases |ps|
  {
    if |ps| == 0 then Success(Empty())
    else
      match ReadRules(ps[..|ps| - 1])
      case Failure(e) => Failure(e)
      case Success(P) =>
        var q := ps[|ps| - 1];
        match ReadRule(q)
        case None => Failure(RuleSyntaxError + ": \"" + q + "\"")
        case Some((left, alts)) => Success(Put(P, left, alts))
  }

  /** A declaration list: the global match `[^stops]+` over the group of
      the first match, which must find something. */
  function ReadList(s: string, key: char, stops: set<char>, err: string): (r: Result<seq<string>>)
    ensures r.Success? ==> |r.value| > 0 && Search(s, key, ListShape).Some?
    ensures r.Success? ==> forall k :: 0 <= k < |r.value| ==> |r.value[k]| > 0 && forall i :: 0 <= i < |r.value[k]| ==> r.value[k][i] !in stops
    ensures r.Failure? ==> r.error == err
  {
    match Search(s, key, ListShape)
    case None => Failure(err)
    case Some(b) =>
      var items := Runs(b, stops);
      if |items| == 0 then Failure(err) else Success(items)
  }

  /** `convertUserFriendly`: squeeze the blanks, find the four
      declarations in the order N, T, P, S, then read the rules. */
  function ConvertUserFriendly(str: string): (r: Result<ArrayData>)
    ensures r.Success? ==> |r.value.n| > 0 && |r.value.t| > 0 && |r.value.p.keys| > 0 && |r.value.s| > 0
    ensures r.Success? ==> forall k :: 0 <= k < |r.value.n| ==> ',' !in r.value.n[k] && ' ' !in r.value.n[k]
    ensures r.Success? ==> forall k :: 0 <= k < |r.value.t| ==> ',' !in r.value.t[k] && ' ' !in r.value.t[k]
    ensures r.Success? ==> forall L :: L in r.value.p.values ==> |r.value.p.values[L]| > 0
  {
    var s := Squeeze(str);
    match ReadList(s, 'N', {',', ' '}, NonterminalListError)
    case Failure(e) => Failure(e)
    case Success(n) =>
      match ReadList(s, 'T', {',', ' '}, TerminalListError)
      case Failure(e) => Failure(e)
      case Success(t) =>
        match ReadList(s, 'P', {','}, RuleListError)
        case Failure(e) => Failure(e)
        case Success(p) =>
          match Search(s, 'S', ItemShape)
          case None => Failure(StartError)
          case Some(start) =>
            match ReadRules(p)
            case Failure(e) => Failure(e)
            case Success(rules) =>
              ReadRulesKeys(p);
              Success(ArrayData(n, t, rules, start))
  }

  /** A nonempty rule list that reads gives at least one left side. */
  lemma ReadRulesKeys(ps: seq<string>)
    requires |ps| > 0 && ReadRules(ps).Success?
    ensures |ReadRules(ps).value.keys| > 0
  {
    var P := ReadRules(ps[..|ps| - 1]).value;
    var (left, alts) := ReadRule(ps[|ps| - 1]).value;
    assert left in Put(P, left, alts).values;
  }

  // ---------------------------------------------------------------------
  // What the patterns match.

  /** The search takes the first position with a match. */
  lemma {:induction false} SearchLeftmost(s: string, key: char, shape: Shape, i: nat)
    requires i <= |s| && MatchHere(s[i..], key, shape).Some?
    requires forall j :: 0 <= j < i ==> MatchHere(s[j..], key, shape).None?
    ensures Search(s, key, shape) == MatchHere(s[i..], key, shape)
    decreases i
  {
    if i == 0 {
      assert s[0..] == s;
    } else {
      assert s[0..] == s;
      forall j | 0 <= j < i - 1 ensures MatchHere(s[1..][j..], key, shape).None? {
        assert s[1..][j..] == s[j + 1..];
      }
      assert s[1..][i - 1..] == s[i..];
      SearchLeftmost(s[1..], key, shape, i - 1);
    }
  }

  /** With no position matching, the search finds nothing. */
  lemma {:induction false} SearchNone(s: string, key: char, shape: Shape)
    requires forall j :: 0 <= j <= |s| ==> MatchHere(s[j..], key, shape).None?
    ensures Search(s, key, shape).None?
    decreases |s|
  {
    assert s[0..] == s;
    if |s| > 0 {
      forall j | 0 <= j <= |s| - 1 ensures MatchHere(s[1..][j..], key, shape).None? {
        assert s[1..][j..] == s[j + 1..];
      }
      SearchNone(s[1..], key, shape);
    }
  }

  /** What the search finds is the match at some position, and no earlier
      position matches. */
  lemma SearchFinds(s: string, key: char, shape: Shape)
    requires Search(s, key, shape).Some?
    ensures exists i :: 0 <= i <= |s| && Search(s, key, shape) == MatchHere(s[i..], key, shape)
                        && forall j :: 0 <= j < i ==> MatchHere(s[j..], key, shape).None?
  {
    var i := FirstMatch(s, key, shape);
    FirstMatchFacts(s, key, shape);
    assert Search(s, key, shape) == MatchHere(s[i..], key, shape);
  }

  /** The number of positions the search passes over. */
  function FirstMatch(s: string, key: char, shape: Shape): nat
    decreases |s|
  {
    if MatchHere(s, key, shape).Some? || |s| == 0 then 0
    else 1 + FirstMatch(s[1..], key, shape)
  }

  lemma {:induction false} FirstMatchFacts(s: string, key: char, shape: Shape)
    requires Search(s, key, shape).Some?
    ensures FirstMatch(s, key, shape) <= |s|
    ensures Search(s, key, shape) == MatchHere(s[FirstMatch(s, key, shape)..], key, shape)
    ensures forall j :: 0 <= j < FirstMatch(s, key, shape) ==> MatchHere(s[j..], key, shape).None?
    decreases |s|
  {
    assert s[0..] == s;
    if MatchHere(s, key, shape).None? {
      var t := s[1..];
      FirstMatchFacts(t, key, shape);
      var i := FirstMatch(t, key, shape);
      assert t[i..] == s[i + 1..];
      forall j | 0 <= j < i + 1 ensures MatchHere(s[j..], key, shape).None? {
        if j > 0 {
          assert t[j - 1..] == s[j..];
        }
      }
    }
  }

  /** A list group followed by "." is read back exactly when its items
      are nonempty. */
  lemma ListBodyExact(b: string, rest: string)
    requires '.' !in b && NonemptyItems(b)
    ensures ListBody(b + "." + rest) == Some(b)
  {
    FirstInAt(b, '.', rest, {'.'});
    assert (b + "." + rest)[..|b|] == b;
  }

  /** An item followed by "." is read back exactly when it is nonempty and
      holds neither "," nor ".". */
  lemma ItemBodyExact(b: string, rest: string)
    requires |b| > 0 && ',' !in b && '.' !in b
    ensures ItemBody(b + "." + rest) == Some(b)
  {
    FirstInAt(b, '.', rest, {',', '.'});
    assert (b + "." + rest)[..|b|] == b;
  }

  lemma {:induction false} FirstInAt(a: string, c: char, b: string, cs: set<char>)
    requires c in cs && forall i :: 0 <= i < |a| ==> a[i] !in cs
    ensures FirstIn(a + [c] + b, cs) == |a|
    decreases |a|
  {
    if |a| > 0 {
      assert (a + [c] + b)[1..] == a[1..] + [c] + b;
      FirstInAt(a[1..], c, b, cs);
    }
  }

  // ---------------------------------------------------------------------
  // Joins and their pieces.

  /** A printed list item as the reader cuts it out: `lead` or a space in
      front, and `after` behind every item but the last. */
  function Padded(x: string, i: nat, n: nat, lead: string, after: string): string {
    (if i == 0 then lead else " ") + x + (if i + 1 < n then after else "")
  }

  /** The separator of a printed list: `after`, the character c, a space. */
  function ListSep(c: char, after: string): string {
    after + [c] + " "
  }

  /** The global match `[^c]+` over a printed list gives its items, each
      with the spaces around it. */
  lemma {:induction false} RunsOfList(parts: seq<string>, c: char, lead: string, after: string)
    requires lead == "" || lead == " "
    requires after == "" || after == " "
    requires c != ' '
    requires |parts| > 0 && forall k :: 0 <= k < |parts| ==> |parts[k]| > 0 && c !in parts[k]
    ensures |Runs(lead + Join(parts, ListSep(c, after)), {c})| == |parts|
    ensures forall i :: 0 <= i < |parts| ==>
              Runs(lead + Join(parts, ListSep(c, after)), {c})[i] == Padded(parts[i], i, |parts|, lead, after)
    decreases |parts|
  {
    var sep := ListSep(c, after);
    if |parts| == 1 {
      RunsOfRun(lead + parts[0], "", {c});
      assert lead + parts[0] + "" == lead + Join(parts, sep);
    } else {
      var tail := Join(parts[1..], sep);
      var first := lead + parts[0] + after;
      assert Join(parts, sep) == parts[0] + sep + tail;
      ListRegroup(lead, parts[0], after, c, tail);
      RunsOfRun(first, [c] + (" " + tail), {c});
      RunsSkip([c], " " + tail, {c});
      RunsOfList(parts[1..], c, " ", after);
      RunsListStep(parts, first, Runs(" " + tail, {c}), lead, after);
    }
  }

  lemma ListRegroup(lead: string, x: string, after: string, c: char, tail: string)
    ensures lead + (x + ListSep(c, after) + tail) == (lead + x + after) + ([c] + (" " + tail))
    ensures lead + (x + ListSep(c, after) + tail) == (lead + x + after) + [c] + (" " + tail)
  {
  }

  lemma RunsListStep(parts: seq<string>, first: string, rest: seq<string>, lead: string, after: string)
    requires |parts| > 1 && first == lead + parts[0] + after
    requires |rest| == |parts| - 1
    requires forall i :: 0 <= i < |rest| ==> rest[i] == Padded(parts[1..][i], i, |parts[1..]|, " ", after)
    ensures forall i :: 0 <= i < |parts| ==> ([first] + rest)[i] == Padded(parts[i], i, |parts|, lead, after)
  {
    forall i | 0 <= i < |parts| ensures ([first] + rest)[i] == Padded(parts[i], i, |parts|, lead, after) {
      if i > 0 {
        assert ([first] + rest)[i] == rest[i - 1];
        assert parts[1..][i - 1] == parts[i];
      }
    }
  }

  /** No item of a printed list is empty when split at c. */
  lemma {:induction false} SplitOfList(parts: seq<string>, c: char, lead: string, after: string)
    requires lead == "" || lead == " "
    requires after == "" || after == " "
    requires c != ' '
    requires |parts| > 0 && forall k :: 0 <= k < |parts| ==> |parts[k]| > 0 && c !in parts[k]
    ensures forall k :: 0 <= k < |Split(lead + Join(parts, ListSep(c, after)), c)| ==>
              |Split(lead + Join(parts, ListSep(c, after)), c)[k]| > 0
    decreases |parts|
  {
    var sep := ListSep(c, after);
    if |parts| == 1 {
      assert lead + Join(parts, sep) == lead + parts[0];
      SplitNone(lead + parts[0], c);
    } else {
      var tail := Join(parts[1..], sep);
      var first := lead + parts[0] + after;
      assert Join(parts, sep) == parts[0] + sep + tail;
      ListRegroup(lead, parts[0], after, c, tail);
      SplitAt(first, c, " " + tail);
      SplitOfList(parts[1..], c, " ", after);
    }
  }

  /** Pieces that are all nonempty lead the whole way. */
  lemma {:induction false} LeadingAll(ps: seq<string>)
    requires forall k :: 0 <= k < |ps| ==> |ps[k]| > 0
    ensures Leading(ps) == ps
    decreases |ps|
  {
    if |ps| > 0 {
      LeadingAll(ps[1..]);
    }
  }

  /** A run followed by a stop character or nothing is one match. */
  lemma {:induction false} RunLengthOf(w: string, rest: string, stops: set<char>)
    requires forall i :: 0 <= i < |w| ==> w[i] !in stops
    requires |rest| == 0 || rest[0] in stops
    ensures RunLength(w + rest, stops) == |w|
    decreases |w|
  {
    if |w| > 0 {
      assert (w + rest)[1..] == w[1..] + rest;
      RunLengthOf(w[1..], rest, stops);
    }
  }

  lemma RunsOfRun(w: string, rest: string, stops: set<char>)
    requires |w| > 0 && forall i :: 0 <= i < |w| ==> w[i] !in stops
    requires |rest| == 0 || rest[0] in stops
    ensures Runs(w + rest, stops) == [w] + Runs(rest, stops)
  {
    RunLengthOf(w, rest, stops);
    assert (w + rest)[..|w|] == w && (w + rest)[|w|..] == rest;
  }

  lemma {:induction false} RunsSkip(sep: string, rest: string, stops: set<char>)
    requires forall i :: 0 <= i < |sep| ==> sep[i] in stops
    ensures Runs(sep + rest, stops) == Runs(rest, stops)
    decreases |sep|
  {
    if |sep| > 0 {
      assert (sep + rest)[1..] == sep[1..] + rest;
      RunsSkip(sep[1..], rest, stops);
    } else {
      assert sep + rest == rest;
    }
  }

  /** The global match of a class gives back the texts joined with a
      separator made of its stop characters. */
  lemma {:induction false} RunsOfJoin(parts: seq<string>, sep: string, stops: set<char>)
    requires |parts| > 0
    requires forall k :: 0 <= k < |parts| ==> |parts[k]| > 0 && forall i :: 0 <= i < |parts[k]| ==> parts[k][i] !in stops
    requires |sep| > 0 && forall i :: 0 <= i < |sep| ==> sep[i] in stops
    ensures Runs(Join(parts, sep), stops) == parts
    decreases |parts|
  {
    if |parts| == 1 {
      RunsOfRun(parts[0], "", stops);
      assert parts[0] + "" == parts[0];
    } else {
      var tail := Join(parts[1..], sep);
      RunsOfJoin(parts[1..], sep, stops);
      AppendAssoc(parts[0], sep, tail);
      RunsOfRun(parts[0], sep + tail, stops);
      RunsSkip(sep, tail, stops);
      assert [parts[0]] + parts[1..] == parts;
    }
  }

  // ---------------------------------------------------------------------
  // Squeezing a printed grammar.

  /** Nonempty, with no blank at either end. */
  predicate Edged(s: string) {
    |s| > 0 && !IsBlank(s[0]) && !IsBlank(s[|s| - 1])
  }

  /** Squeezing works piecewise across a non-blank character. */
  lemma SqueezeCat(a: string, b: string)
    requires (|a| > 0 && !IsBlank(a[|a| - 1])) || (|b| > 0 && !IsBlank(b[0]))
    ensures Squeeze(a + b) == Squeeze(a) + Squeeze(b)
  {
    if |b| > 0 && !IsBlank(b[0]) {
      SqueezeCatRight(a, b[0], b[1..]);
      assert [b[0]] + b[1..] == b;
    } else {
      SqueezeCatLeft(a[..|a| - 1], a[|a| - 1], b);
      assert a[..|a| - 1] + [a[|a| - 1]] == a;
    }
  }

  lemma SqueezeCatRight(a: string, c: char, b: string)
    requires !IsBlank(c)
    ensures Squeeze(a + ([c] + b)) == Squeeze(a) + Squeeze([c] + b)
  {
    SqueezeAroundFront(a, c, b);
    SqueezeFront(c, b);
    CharRegroup(SqueezeFrom(a, false), c, SqueezeFrom(b, false));
    CharRegroup(a, c, b);
  }

  lemma SqueezeCatLeft(a: string, c: char, b: string)
    requires !IsBlank(c)
    ensures Squeeze(a + [c] + b) == Squeeze(a + [c]) + Squeeze(b)
  {
    SqueezeAroundFront(a, c, b);
    SqueezeAroundFront(a, c, []);
    EmptyTail(a + [c]);
    EmptyTail(SqueezeFrom(a, false) + [c]);
  }

  lemma SqueezeAroundFront(a: string, c: char, b: string)
    requires !IsBlank(c)
    ensures SqueezeFrom(a + [c] + b, false) == SqueezeFrom(a, false) + [c] + SqueezeFrom(b, false)
  {
    SqueezeAround(a, c, b, false);
  }

  lemma SqueezeFront(c: char, b: string)
    requires !IsBlank(c)
    ensures SqueezeFrom([c] + b, false) == [c] + SqueezeFrom(b, false)
  {
    var cb := [c] + b;
    assert cb[0] == c && cb[1..] == b;
  }

  lemma CharRegroup(x: string, c: char, y: string)
    ensures (x + [c]) + y == x + ([c] + y)
  {
  }

  lemma EmptyTail(x: string)
    ensures x + [] == x
  {
  }

  /** A run of blanks squeezes to one space, or to nothing while a run is
      already going on. */
  lemma {:induction false} SqueezeBlanks(gap: string, run: bool)
    requires |gap| > 0 && forall i :: 0 <= i < |gap| ==> IsBlank(gap[i])
    ensures SqueezeFrom(gap, run) == if run then "" else " "
    decreases |gap|
  {
    if |gap| > 1 {
      SqueezeBlanks(gap[1..], true);
    }
  }

  lemma SqueezeNoBlank(w: string)
    requires NoBlank(w)
    ensures Squeeze(w) == w
  {
    if |w| > 0 {
      SqueezeWord(w, "", false);
      assert w + "" == w;
    }
  }

  /** The separators of the printed form. */
  lemma SqueezeSpace()
    ensures Squeeze(" ") == " " && Squeeze("\n") == " "
  {
    SqueezeBlanks(" ", false);
    SqueezeBlanks("\n", false);
  }

  lemma SqueezeComma()
    ensures Squeeze(", ") == ", " && Squeeze(",\n    ") == ", "
  {
    SqueezeBlanks(" ", false);
    SqueezeBlanks("\n    ", false);
    SqueezeNoBlank(",");
    SqueezeCat(",", " ");
    SqueezeCat(",", "\n    ");
    assert ", " == "," + " " && ",\n    " == "," + "\n    ";
  }

  lemma SqueezeBar()
    ensures Squeeze(" | ") == " | "
  {
    SqueezeBlanks(" ", false);
    SqueezeNoBlank("|");
    SqueezeCat(" ", "|");
    SqueezeCat(" |", " ");
    assert " | " == " |" + " " && " |" == " " + "|";
  }

  lemma SqueezeArrowText()
    ensures Squeeze(" -> ") == " -> "
  {
    SqueezeBlanks(" ", false);
    SqueezeNoBlank("->");
    SqueezeCat(" ", "->");
    SqueezeCat(" ->", " ");
    assert " -> " == " ->" + " " && " ->" == " " + "->";
  }

  /** Joined texts begin with the first and end with the last. */
  lemma {:induction false} JoinEdges(parts: seq<string>, sep: string)
    requires |parts| > 0 && forall k :: 0 <= k < |parts| ==> |parts[k]| > 0
    ensures |Join(parts, sep)| > 0 && Join(parts, sep)[0] == parts[0][0]
    ensures Join(parts, sep)[|Join(parts, sep)| - 1] == parts[|parts| - 1][|parts[|parts| - 1]| - 1]
    decreases |parts|
  {
    if |parts| > 1 {
      JoinEdges(parts[1..], sep);
      assert parts[1..][|parts| - 2] == parts[|parts| - 1];
    }
  }

  lemma EdgedJoin(parts: seq<string>, sep: string)
    requires |parts| > 0 && forall k :: 0 <= k < |parts| ==> Edged(parts[k])
    ensures Edged(Join(parts, sep))
  {
    JoinEdges(parts, sep);
  }

  /** Squeezing edged texts joined by a separator squeezes the separator
      alone. */
  lemma {:induction false} SqueezeJoinEdged(parts: seq<string>, sep: string)
    requires |parts| > 0 && forall k :: 0 <= k < |parts| ==> Edged(parts[k]) && Squeeze(parts[k]) == parts[k]
    ensures Squeeze(Join(parts, sep)) == Join(parts, Squeeze(sep))
    decreases |parts|
  {
    if |parts| > 1 {
      var tail := Join(parts[1..], sep);
      SqueezeJoinEdged(parts[1..], sep);
      EdgedJoin(parts[1..], sep);
      SqueezeCat(parts[0], sep + tail);
      SqueezeCat(sep, tail);
      AppendAssoc(parts[0], sep, tail);
      AppendAssoc(parts[0], Squeeze(sep), Squeeze(tail));
    }
  }

  /** None of the characters the reader splits at. */
  predicate Unreserved(s: string) {
    '=' !in s && ',' !in s && '.' !in s && '|' !in s && '>' !in s
  }

  lemma SymbolTextUnreserved(text: string)
    requires Check(text)
    ensures Unreserved(text) && Edged(text) && NoBlank(text) && Squeeze(text) == text
  {
    forall i | 0 <= i < |text| ensures !IsBlank(text[i]) && text[i] !in {'=', ',', '.', '|', '>'} {
      assert SymbolChar(text[i]);
    }
    SqueezeNoBlank(text);
  }

  lemma {:induction false} JoinUnreserved(parts: seq<string>, sep: string)
    requires Unreserved(sep) && forall k :: 0 <= k < |parts| ==> Unreserved(parts[k])
    ensures Unreserved(Join(parts, sep))
  {
    JoinAvoids(parts, sep, '=');
    JoinAvoids(parts, sep, ',');
    JoinAvoids(parts, sep, '.');
    JoinAvoids(parts, sep, '|');
    JoinAvoids(parts, sep, '>');
  }

  /** A right side over symbol texts prints edged, squeezed and without
      the reader's separators. */
  lemma WordTextClean(w: Word)
    requires forall i :: 0 <= i < |w| ==> Check(w[i].Text())
    ensures Edged(ToString(w)) && Squeeze(ToString(w)) == ToString(w) && Unreserved(ToString(w))
  {
    if |w| == 0 {
      EpsClean();
    } else {
      TextsClean(Texts(w));
    }
  }

  lemma EpsClean()
    ensures Edged(EpsText) && Squeeze(EpsText) == EpsText && Unreserved(EpsText)
  {
    assert NoBlank(EpsText);
    SqueezeNoBlank(EpsText);
  }

  /** Symbol texts joined by single spaces. */
  lemma TextsClean(texts: seq<string>)
    requires |texts| > 0 && forall k :: 0 <= k < |texts| ==> Check(texts[k])
    ensures Edged(Join(texts, " ")) && Squeeze(Join(texts, " ")) == Join(texts, " ") && Unreserved(Join(texts, " "))
  {
    forall k | 0 <= k < |texts| ensures Edged(texts[k]) && Squeeze(texts[k]) == texts[k] && Unreserved(texts[k]) {
      SymbolTextUnreserved(texts[k]);
    }
    SqueezeJoinEdged(texts, " ");
    SqueezeSpace();
    EdgedJoin(texts, " ");
    JoinUnreserved(texts, " ");
  }

  /** A printed rule group "L -> r1 | ... | rn". */
  function GroupText(left: string, alts: seq<string>): string {
    left + " -> " + Join(alts, " | ")
  }

  /** A group over clean alternatives prints edged and squeezed, with
      neither "=" nor "," nor "." in it. */
  lemma GroupTextClean(left: string, alts: seq<string>)
    requires Check(left)
    requires |alts| > 0 && forall k :: 0 <= k < |alts| ==> Edged(alts[k]) && Squeeze(alts[k]) == alts[k] && Unreserved(alts[k])
    ensures Edged(GroupText(left, alts)) && Squeeze(GroupText(left, alts)) == GroupText(left, alts)
    ensures '=' !in GroupText(left, alts) && ',' !in GroupText(left, alts) && '.' !in GroupText(left, alts)
  {
    var j := Join(alts, " | ");
    SymbolTextUnreserved(left);
    SqueezeJoinEdged(alts, " | ");
    SqueezeBar();
    EdgedJoin(alts, " | ");
    JoinUnreserved(alts, " ");
    JoinAvoids(alts, " | ", '=');
    JoinAvoids(alts, " | ", ',');
    JoinAvoids(alts, " | ", '.');
    SqueezeCat(left, " -> " + j);
    SqueezeCat(" -> ", j);
    SqueezeArrowText();
    AppendAssoc(left, " -> ", j);
    GroupTextChars(left, j);
  }

  lemma GroupTextChars(left: string, j: string)
    requires Unreserved(left) && '=' !in j && ',' !in j && '.' !in j
    ensures '=' !in left + " -> " + j && ',' !in left + " -> " + j && '.' !in left + " -> " + j
  {
  }

  lemma SqueezeEquals()
    ensures Squeeze(" = ") == " = "
  {
    SqueezeBlanks(" ", false);
    SqueezeNoBlank("=");
    SqueezeCat(" ", "=");
    SqueezeCat(" =", " ");
    assert " = " == " =" + " " && " =" == " " + "=";
  }

  /** Empty, or starting with a non-blank character. */
  predicate Opens(b: string) {
    |b| == 0 || !IsBlank(b[0])
  }

  /** A declaration squeezes in its body alone. */
  lemma SqueezeDecl(key: char, b: string)
    requires !IsBlank(key) && Opens(b)
    ensures Squeeze(Decl(key, b)) == Decl(key, Squeeze(b))
  {
    var head := [key] + " = ";
    SqueezeEquals();
    SqueezeNoBlank([key]);
    SqueezeNoBlank(".");
    SqueezeCat([key], " = ");
    if |b| == 0 {
      assert Decl(key, b) == head + ".";
      SqueezeCat(head, ".");
      assert Decl(key, Squeeze(b)) == head + ".";
    } else {
      SqueezeCat(head, b);
      SqueezeCat(head + b, ".");
    }
  }

  /** A line break between two non-blank ends squeezes to one space. */
  lemma SqueezeLine(a: string, b: string)
    requires |a| > 0 && !IsBlank(a[|a| - 1]) && |b| > 0 && !IsBlank(b[0])
    ensures Squeeze(a + "\n" + b) == Squeeze(a) + " " + Squeeze(b)
  {
    SqueezeSpace();
    SqueezeCat(a, "\n");
    SqueezeCat(a + "\n", b);
  }

  /** A list of symbol texts joined by ", ". */
  lemma SymbolListClean(keys: seq<string>)
    requires forall k :: 0 <= k < |keys| ==> Check(keys[k])
    ensures Squeeze(Join(keys, ", ")) == Join(keys, ", ")
    ensures |keys| > 0 ==> Edged(Join(keys, ", "))
    ensures Opens(Join(keys, ", "))
    ensures '=' !in Join(keys, ", ") && '.' !in Join(keys, ", ")
  {
    SymbolsClean(keys);
    if |keys| > 0 {
      SqueezeJoinEdged(keys, ", ");
      SqueezeComma();
      EdgedJoin(keys, ", ");
    }
    SymbolListChars(keys);
  }

  lemma SymbolsClean(keys: seq<string>)
    requires forall k :: 0 <= k < |keys| ==> Check(keys[k])
    ensures forall k :: 0 <= k < |keys| ==> Edged(keys[k]) && Squeeze(keys[k]) == keys[k] && Unreserved(keys[k])
  {
    forall k | 0 <= k < |keys| ensures Edged(keys[k]) && Squeeze(keys[k]) == keys[k] && Unreserved(keys[k]) {
      SymbolTextUnreserved(keys[k]);
    }
  }

  lemma SymbolListChars(keys: seq<string>)
    requires forall k :: 0 <= k < |keys| ==> Unreserved(keys[k])
    ensures '=' !in Join(keys, ", ") && '.' !in Join(keys, ", ")
  {
    JoinAvoids(keys, ", ", '=');
    JoinAvoids(keys, ", ", '.');
  }

  /** The printed group of the i-th left side of a valid grammar. */
  lemma GroupTextOf(g: Grammar, i: nat)
    requires Valid(g) && NoEmptyGroup(g) && i < |g.p.keys|
    ensures RuleGroupTexts(g)[i] == GroupText(g.p.keys[i], RightTexts(g.p.values[g.p.keys[i]]))
    ensures Check(g.p.keys[i])
  {
    var L := g.p.keys[i];
    var group := g.p.values[L];
    RightTextsCheck(g, L, group.keys[0]);
  }

  /** The right sides of a group of a valid grammar print clean. */
  lemma GroupAltsClean(g: Grammar, L: string)
    requires Valid(g) && L in g.p.values
    ensures forall k :: 0 <= k < |RightTexts(g.p.values[L])| ==>
              var a := RightTexts(g.p.values[L])[k];
              Edged(a) && Squeeze(a) == a && Unreserved(a)
  {
    var group := g.p.values[L];
    forall k | 0 <= k < |group.keys|
      ensures Edged(RightTexts(group)[k]) && Squeeze(RightTexts(group)[k]) == RightTexts(group)[k] && Unreserved(RightTexts(group)[k])
    {
      RightTextsCheck(g, L, group.keys[k]);
      WordTextClean(group.values[group.keys[k]].right);
    }
  }

  /** A printed group: edged, squeezed, and with none of the characters
      that end a declaration or an item. */
  predicate CleanGroup(t: string) {
    Edged(t) && Squeeze(t) == t && '=' !in t && ',' !in t && '.' !in t
  }

  /** Every printed group of a valid grammar is clean. */
  lemma GroupTextsClean(g: Grammar)
    requires Valid(g) && NoEmptyGroup(g)
    ensures forall i :: 0 <= i < |RuleGroupTexts(g)| ==> CleanGroup(RuleGroupTexts(g)[i])
  {
    forall i | 0 <= i < |g.p.keys| ensures CleanGroup(RuleGroupTexts(g)[i]) {
      GroupTextOf(g, i);
      GroupAltsClean(g, g.p.keys[i]);
      GroupTextClean(g.p.keys[i], RightTexts(g.p.values[g.p.keys[i]]));
    }
  }

  /** The rule list squeezes to its groups joined by ", ". */
  lemma GroupListSqueezed(gts: seq<string>)
    requires forall i :: 0 <= i < |gts| ==> CleanGroup(gts[i])
    ensures Squeeze(Join(gts, ",\n    ")) == Join(gts, ", ")
    ensures Opens(Join(gts, ",\n    "))
    ensures |gts| == 0 || Edged(Join(gts, ", "))
  {
    if |gts| > 0 {
      SqueezeJoinEdged(gts, ",\n    ");
      SqueezeComma();
      EdgedJoin(gts, ",\n    ");
      EdgedJoin(gts, ", ");
    }
  }

  lemma GroupListChars(gts: seq<string>)
    requires forall i :: 0 <= i < |gts| ==> CleanGroup(gts[i])
    ensures '=' !in Join(gts, ", ") && '.' !in Join(gts, ", ")
  {
    JoinAvoids(gts, ", ", '=');
    JoinAvoids(gts, ", ", '.');
  }

  /** The symbols a valid grammar declares are symbol texts. */
  lemma DeclaredChecked(g: Grammar)
    requires Valid(g)
    ensures forall k :: 0 <= k < |g.n.keys| ==> Check(g.n.keys[k])
    ensures forall k :: 0 <= k < |g.t.keys| ==> Check(g.t.keys[k])
    ensures Check(g.start) && |g.n.keys| > 0
  {
    forall k | 0 <= k < |g.n.keys| ensures Check(g.n.keys[k]) {
      assert ValidText(g.n.keys[k], false);
    }
    forall k | 0 <= k < |g.t.keys| ensures Check(g.t.keys[k]) {
      assert ValidText(g.t.keys[k], true);
    }
    assert g.start in g.n.keys;
  }

  /** The printed grammar with its blanks squeezed: the declarations
      separated by single spaces, the rule groups by ", ". */
  function SqueezedText(g: Grammar): string
    requires NoEmptyGroup(g)
  {
    Declared(Join(g.n.keys, ", "), Join(g.t.keys, ", "), Join(RuleGroupTexts(g), ", "), g.start)
  }

  lemma DeclEdged(key: char, b: string)
    requires !IsBlank(key)
    ensures Edged(Decl(key, b))
  {
  }

  /** Four lines with non-blank ends squeeze to one line, single spaces
      between. */
  lemma SqueezeLines(a: string, b: string, c: string, d: string)
    requires Edged(a) && Edged(b) && Edged(c) && Edged(d)
    ensures Squeeze(a + "\n" + b + "\n" + c + "\n" + d)
            == Squeeze(a) + " " + Squeeze(b) + " " + Squeeze(c) + " " + Squeeze(d)
  {
    var ab := a + "\n" + b;
    var abc := ab + "\n" + c;
    assert ab[|ab| - 1] == b[|b| - 1];
    assert abc[|abc| - 1] == c[|c| - 1];
    SqueezeLine(a, b);
    SqueezeLine(ab, c);
    SqueezeLine(abc, d);
  }

  /** The four declarations with squeezed bodies. */
  lemma SqueezeDecls(jn: string, jt: string, jp: string, sp: string, st: string)
    requires Squeeze(jn) == jn && Squeeze(jt) == jt && Squeeze(jp) == sp && Squeeze(st) == st
    requires Opens(jn) && Opens(jt) && Opens(jp) && Opens(st)
    ensures Squeeze(Decl('N', jn) + "\n" + Decl('T', jt) + "\n" + Decl('P', jp) + "\n" + Decl('S', st))
            == Declared(jn, jt, sp, st)
  {
    DeclaredRegroup(jn, jt, sp, st);
    SqueezeDecl('N', jn);
    SqueezeDecl('T', jt);
    SqueezeDecl('P', jp);
    SqueezeDecl('S', st);
    DeclEdged('N', jn);
    DeclEdged('T', jt);
    DeclEdged('P', jp);
    DeclEdged('S', st);
    SqueezeLines(Decl('N', jn), Decl('T', jt), Decl('P', jp), Decl('S', st));
  }

  lemma PrintedSqueezed(g: Grammar)
    requires Valid(g) && NoEmptyGroup(g)
    ensures Squeeze(ToUserFriendlyString(g).value) == SqueezedText(g)
  {
    var gts := RuleGroupTexts(g);
    DeclaredChecked(g);
    SymbolListClean(g.n.keys);
    SymbolListClean(g.t.keys);
    GroupTextsClean(g);
    GroupListSqueezed(gts);
    SymbolTextUnreserved(g.start);
    SqueezeDecls(Join(g.n.keys, ", "), Join(g.t.keys, ", "), Join(gts, ",\n    "), Join(gts, ", "), g.start);
  }

  // ---------------------------------------------------------------------
  // Reading a printed grammar back.

  /** No match starts where neither of the next two characters is "=". */
  lemma NoMatchHere(s: string, key: char, shape: Shape)
    requires |s| >= 3 && s[1] != '=' && s[2] != '='
    ensures MatchHere(s, key, shape).None?
  {
  }

  /** The search passes over text without "=". */
  lemma {:induction false} SkipPlain(u: string, v: string, key: char, shape: Shape)
    requires '=' !in u && |v| >= 2 && v[0] != '=' && v[1] != '='
    ensures Search(u + v, key, shape) == Search(v, key, shape)
    decreases |u|
  {
    if |u| > 0 {
      var s := u + v;
      assert s[1] == (if |u| > 1 then u[1] else v[0]);
      assert s[2] == (if |u| > 2 then u[2] else v[2 - |u|]);
      NoMatchHere(s, key, shape);
      assert s[1..] == u[1..] + v;
      SkipPlain(u[1..], v, key, shape);
    } else {
      assert u + v == v;
    }
  }

  /** The search passes over a declaration of another letter. */
  lemma SkipDecl(k: char, b: string, v: string, key: char, shape: Shape)
    requires 'A' <= key <= 'Z' && !IsKey(k, key)
    requires '=' !in b && |v| >= 2 && v[0] != '=' && v[1] != '='
    ensures Search(Decl(k, b) + (" " + v), key, shape) == Search(v, key, shape)
  {
    var s := Decl(k, b) + (" " + v);
    var u := b + "." + " ";
    assert s == [k] + " = " + u + v;
    assert s[1..] == " = " + u + v;
    assert s[2..] == "= " + u + v;
    assert s[3..] == " " + u + v;
    assert s[4..] == u + v;
    assert s[1..][1..] == s[2..] && s[2..][1..] == s[3..] && s[3..][1..] == s[4..];
    assert Search(s, key, shape) == Search(s[1..], key, shape);
    assert Search(s[1..], key, shape) == Search(s[2..], key, shape);
    assert Search(s[2..], key, shape) == Search(s[3..], key, shape);
    assert Search(s[3..], key, shape) == Search(s[4..], key, shape);
    SkipPlain(u, v, key, shape);
  }

  /** A declaration of the letter searched for matches where it starts. */
  lemma FoundHere(key: char, b: string, rest: string, shape: Shape)
    requires 'A' <= key <= 'Z'
    ensures MatchHere(Decl(key, b) + rest, key, shape) == AfterSpace(" " + (b + "." + rest), shape)
  {
    var s := Decl(key, b) + rest;
    assert s[1..] == " =" + (" " + (b + "." + rest));
  }

  /** The optional space before a group that matches after it. */
  lemma SpaceTaken(x: string, shape: Shape)
    requires Body(x, shape).Some?
    ensures AfterSpace(" " + x, shape) == Body(x, shape)
  {
    assert (" " + x)[1..] == x;
  }

  lemma FoundList(key: char, b: string, rest: string)
    requires 'A' <= key <= 'Z' && '.' !in b && NonemptyItems(b)
    ensures Search(Decl(key, b) + rest, key, ListShape) == Some(b)
  {
    FoundHere(key, b, rest, ListShape);
    ListBodyExact(b, rest);
    SpaceTaken(b + "." + rest, ListShape);
  }

  lemma FoundItem(key: char, b: string)
    requires 'A' <= key <= 'Z' && |b| > 0 && ',' !in b && '.' !in b
    ensures Search(Decl(key, b), key, ItemShape) == Some(b)
  {
    assert Decl(key, b) + "" == Decl(key, b);
    FoundHere(key, b, "", ItemShape);
    ItemBodyExact(b, "");
    SpaceTaken(b + "." + "", ItemShape);
  }

  /** A declared symbol list reads back as the list. */
  lemma SymbolListRead(keys: seq<string>)
    requires |keys| > 0 && forall k :: 0 <= k < |keys| ==> Check(keys[k])
    ensures NonemptyItems(Join(keys, ", ")) && '.' !in Join(keys, ", ") && '=' !in Join(keys, ", ")
    ensures Runs(Join(keys, ", "), {',', ' '}) == keys
  {
    SymbolsClean(keys);
    SymbolListChars(keys);
    SymbolListItems(keys);
    SymbolsStop(keys);
    RunsOfJoin(keys, ", ", {',', ' '});
  }

  lemma SymbolListItems(keys: seq<string>)
    requires |keys| > 0 && forall k :: 0 <= k < |keys| ==> |keys[k]| > 0 && Unreserved(keys[k])
    ensures NonemptyItems(Join(keys, ", "))
  {
    assert ListSep(',', "") == ", ";
    SplitOfList(keys, ',', "", "");
    assert "" + Join(keys, ", ") == Join(keys, ", ");
  }

  lemma SymbolsStop(keys: seq<string>)
    requires forall k :: 0 <= k < |keys| ==> Check(keys[k])
    ensures forall k :: 0 <= k < |keys| ==> forall i :: 0 <= i < |keys[k]| ==> keys[k][i] !in {',', ' '}
  {
    forall k | 0 <= k < |keys| ensures forall i :: 0 <= i < |keys[k]| ==> keys[k][i] !in {',', ' '} {
      SymbolTextUnreserved(keys[k]);
      forall i | 0 <= i < |keys[k]| ensures keys[k][i] !in {',', ' '} {
        assert !IsBlank(keys[k][i]);
        assert keys[k][i] != ',' by {
          assert keys[k][i] in keys[k];
        }
      }
    }
  }

  /** The alternatives of a printed group as the reader keeps them: each
      with the spaces next to its bars. */
  function AltPieces(alts: seq<string>): (r: seq<string>)
    ensures |r| == |alts|
    ensures forall i :: 0 <= i < |r| ==> r[i] == Padded(alts[i], i, |alts|, "", " ")
  {
    seq(|alts|, i requires 0 <= i < |alts| => Padded(alts[i], i, |alts|, "", " "))
  }

  /** A printed left side is read whole, up to its " ->". */
  lemma LeftArrowRead(left: string, j: string)
    requires Check(left)
    ensures LeftAndArrow(left + " -> " + j) == Some((left, " " + j))
  {
    var q := left + " -> " + j;
    forall i | 0 <= i < |left| ensures left[i] !in LeftStops {
      assert SymbolChar(left[i]);
    }
    assert q == left + (" -> " + j);
    RunLengthOf(left, " -> " + j, LeftStops);
    assert q[..|left|] == left && q[|left|..|left| + 3] == " ->" && q[|left| + 3..] == " " + j;
  }

  /** Alternatives joined by " | " form the whole alternatives group. */
  lemma AltGroupRead(alts: seq<string>)
    requires |alts| > 0 && forall k :: 0 <= k < |alts| ==> |alts[k]| > 0 && '|' !in alts[k]
    ensures AltGroup(Join(alts, " | ")) == Some(Join(alts, " | "))
  {
    var j := Join(alts, " | ");
    assert ListSep('|', " ") == " | ";
    SplitOfList(alts, '|', "", " ");
    assert "" + j == j;
    LeadingAll(Split(j, '|'));
    JoinSplit(j, '|');
  }

  /** A printed group matches at its start, giving its left side and the
      joined alternatives. */
  lemma RuleHereRead(left: string, alts: seq<string>)
    requires Check(left)
    requires |alts| > 0 && forall k :: 0 <= k < |alts| ==> |alts[k]| > 0 && '|' !in alts[k]
    ensures RuleHere(GroupText(left, alts)) == Some((left, Join(alts, " | ")))
  {
    var j := Join(alts, " | ");
    LeftArrowRead(left, j);
    AltGroupRead(alts);
    assert (" " + j)[1..] == j;
  }

  /** A printed group, with or without the space after the comma before
      it, reads back as its left side and its padded alternatives. */
  lemma ReadPrintedRule(lead: string, left: string, alts: seq<string>)
    requires lead == "" || lead == " "
    requires Check(left)
    requires |alts| > 0 && forall k :: 0 <= k < |alts| ==> |alts[k]| > 0 && '|' !in alts[k]
    ensures ReadRule(lead + GroupText(left, alts)) == Some((left, AltPieces(alts)))
  {
    RuleSearchPrinted(lead, left, alts);
    AltRunsPrinted(alts);
  }

  lemma RuleSearchPrinted(lead: string, left: string, alts: seq<string>)
    requires lead == "" || lead == " "
    requires Check(left)
    requires |alts| > 0 && forall k :: 0 <= k < |alts| ==> |alts[k]| > 0 && '|' !in alts[k]
    ensures RuleSearch(lead + GroupText(left, alts)) == Some((left, Join(alts, " | ")))
  {
    var q := lead + GroupText(left, alts);
    RuleHereRead(left, alts);
    if lead == " " {
      assert q[0] == ' ' && q[1..] == GroupText(left, alts);
      assert RuleSearch(q) == RuleSearch(q[1..]);
    } else {
      assert q == GroupText(left, alts);
    }
  }

  /** The global match `[^|]+` over joined alternatives. */
  lemma AltRunsPrinted(alts: seq<string>)
    requires |alts| > 0 && forall k :: 0 <= k < |alts| ==> |alts[k]| > 0 && '|' !in alts[k]
    ensures Runs(Join(alts, " | "), {'|'}) == AltPieces(alts)
  {
    assert ListSep('|', " ") == " | ";
    assert "" + Join(alts, " | ") == Join(alts, " | ");
    RunsOfList(alts, '|', "", " ");
  }

  /** The rule list reads back as its groups, each but the first with the
      space after its comma. */
  lemma GroupListRead(gts: seq<string>)
    requires |gts| > 0 && forall i :: 0 <= i < |gts| ==> CleanGroup(gts[i])
    ensures NonemptyItems(Join(gts, ", "))
    ensures |Runs(Join(gts, ", "), {','})| == |gts|
    ensures forall i :: 0 <= i < |gts| ==> Runs(Join(gts, ", "), {','})[i] == Padded(gts[i], i, |gts|, "", "")
  {
    assert ListSep(',', "") == ", ";
    assert "" + Join(gts, ", ") == Join(gts, ", ");
    SplitOfList(gts, ',', "", "");
    RunsOfList(gts, ',', "", "");
  }

  /** The four declarations of a squeezed printed grammar, each found by
      its own pattern. */
  function Declared(jn: string, jt: string, jp: string, st: string): string {
    Decl('N', jn) + (" " + (Decl('T', jt) + (" " + (Decl('P', jp) + (" " + Decl('S', st))))))
  }

  /** What the declaration patterns ask of the bodies. */
  predicate ListOk(b: string) {
    '=' !in b && '.' !in b && NonemptyItems(b)
  }

  lemma DeclaredRegroup(jn: string, jt: string, jp: string, st: string)
    ensures Declared(jn, jt, jp, st)
            == Decl('N', jn) + " " + Decl('T', jt) + " " + Decl('P', jp) + " " + Decl('S', st)
  {
  }

  lemma FindN(jn: string, jt: string, jp: string, st: string)
    requires ListOk(jn)
    ensures Search(Declared(jn, jt, jp, st), 'N', ListShape) == Some(jn)
  {
    FoundList('N', jn, " " + (Decl('T', jt) + (" " + (Decl('P', jp) + (" " + Decl('S', st))))));
  }

  lemma FindT(jn: string, jt: string, jp: string, st: string)
    requires '=' !in jn && ListOk(jt)
    ensures Search(Declared(jn, jt, jp, st), 'T', ListShape) == Some(jt)
  {
    var pt := Decl('P', jp) + (" " + Decl('S', st));
    SkipDecl('N', jn, Decl('T', jt) + (" " + pt), 'T', ListShape);
    FoundList('T', jt, " " + pt);
  }

  lemma FindP(jn: string, jt: string, jp: string, st: string)
    requires '=' !in jn && '=' !in jt && ListOk(jp)
    ensures Search(Declared(jn, jt, jp, st), 'P', ListShape) == Some(jp)
  {
    var pt := Decl('P', jp) + (" " + Decl('S', st));
    SkipDecl('N', jn, Decl('T', jt) + (" " + pt), 'P', ListShape);
    SkipDecl('T', jt, pt, 'P', ListShape);
    FoundList('P', jp, " " + Decl('S', st));
  }

  lemma FindS(jn: string, jt: string, jp: string, st: string)
    requires '=' !in jn && '=' !in jt && '=' !in jp
    requires |st| > 0 && ',' !in st && '.' !in st
    ensures Search(Declared(jn, jt, jp, st), 'S', ItemShape) == Some(st)
  {
    var pt := Decl('P', jp) + (" " + Decl('S', st));
    SkipDecl('N', jn, Decl('T', jt) + (" " + pt), 'S', ItemShape);
    SkipDecl('T', jt, pt, 'S', ItemShape);
    SkipDecl('P', jp, Decl('S', st), 'S', ItemShape);
    FoundItem('S', st);
  }

  /** Rules that read as distinct left sides, in order, build the object
      of those left sides in that order. */
  lemma {:induction false} ReadRulesPrinted(ps: seq<string>, keys: seq<string>, F: map<string, seq<string>>, m: nat)
    requires |ps| == |keys| && Distinct(keys) && forall k :: k in keys ==> k in F
    requires forall i :: 0 <= i < |ps| ==> ReadRule(ps[i]) == Some((keys[i], F[keys[i]]))
    requires m <= |ps|
    ensures Distinct(keys[..m]) && ReadRules(ps[..m]) == Success(Restrict(keys[..m], F))
    decreases m
  {
    DistinctPrefix(keys, m);
    if m == 0 {
      assert ps[..0] == [] && keys[..0] == [];
      assert Restrict(keys[..0], F) == Empty();
    } else {
      ReadRulesPrinted(ps, keys, F, m - 1);
      PrefixInit(ps, m);
      RestrictStep(keys, m, F);
    }
  }

  lemma ReadRulesAll(ps: seq<string>, keys: seq<string>, F: map<string, seq<string>>)
    requires |ps| == |keys| && Distinct(keys) && forall k :: k in keys ==> k in F
    requires forall i :: 0 <= i < |ps| ==> ReadRule(ps[i]) == Some((keys[i], F[keys[i]]))
    ensures ReadRules(ps) == Success(Restrict(keys, F))
  {
    assert ps[..|ps|] == ps;
    assert keys[..|ps|] == keys;
    ReadRulesPrinted(ps, keys, F, |ps|);
  }

  /** For each left side of a grammar, the alternatives its printed group
      reads back as. */
  function ReadBack(g: Grammar): map<string, seq<string>> {
    map L | L in g.p.values :: AltPieces(RightTexts(g.p.values[L]))
  }

  lemma ReadBackCovers(g: Grammar)
    ensures forall k :: k in g.p.keys ==> k in ReadBack(g)
  {
  }

  /** The items of the printed rule list each read as their group. */
  lemma PiecesRead(g: Grammar)
    requires Valid(g) && NoEmptyGroup(g) && |g.p.keys| > 0
    ensures var ps := Runs(Join(RuleGroupTexts(g), ", "), {','});
            |ps| == |g.p.keys|
            && forall i :: 0 <= i < |ps| ==> ReadRule(ps[i]) == Some((g.p.keys[i], ReadBack(g)[g.p.keys[i]]))
  {
    var gts := RuleGroupTexts(g);
    GroupTextsClean(g);
    GroupListRead(gts);
    forall i | 0 <= i < |g.p.keys|
      ensures ReadRule(Padded(gts[i], i, |gts|, "", "")) == Some((g.p.keys[i], ReadBack(g)[g.p.keys[i]]))
    {
      PieceRead(g, i);
    }
  }

  /** The i-th item of the printed rule list. */
  lemma PieceRead(g: Grammar, i: nat)
    requires Valid(g) && NoEmptyGroup(g) && i < |g.p.keys|
    ensures ReadRule(Padded(RuleGroupTexts(g)[i], i, |g.p.keys|, "", ""))
            == Some((g.p.keys[i], ReadBack(g)[g.p.keys[i]]))
  {
    var L := g.p.keys[i];
    PieceFacts(g, i);
    PaddedRuleRead(RuleGroupTexts(g)[i], i, |g.p.keys|, L, RightTexts(g.p.values[L]));
  }

  lemma PaddedRuleRead(t: string, i: nat, n: nat, left: string, alts: seq<string>)
    requires t == GroupText(left, alts) && Check(left)
    requires |alts| > 0 && forall k :: 0 <= k < |alts| ==> |alts[k]| > 0 && '|' !in alts[k]
    ensures ReadRule(Padded(t, i, n, "", "")) == Some((left, AltPieces(alts)))
  {
    var lead := if i == 0 then "" else " ";
    assert Padded(t, i, n, "", "") == lead + t;
    ReadPrintedRule(lead, left, alts);
  }

  lemma PieceFacts(g: Grammar, i: nat)
    requires Valid(g) && NoEmptyGroup(g) && i < |g.p.keys|
    ensures var alts := RightTexts(g.p.values[g.p.keys[i]]);
            && RuleGroupTexts(g)[i] == GroupText(g.p.keys[i], alts)
            && Check(g.p.keys[i]) && ReadBack(g)[g.p.keys[i]] == AltPieces(alts)
            && |alts| > 0 && forall k :: 0 <= k < |alts| ==> |alts[k]| > 0 && '|' !in alts[k]
  {
    GroupTextOf(g, i);
    GroupAltsClean(g, g.p.keys[i]);
  }

  /** The printed rule list reads back as the rule groups, in order. */
  lemma RulesRead(g: Grammar)
    requires Valid(g) && NoEmptyGroup(g) && |g.p.keys| > 0
    ensures ReadRules(Runs(Join(RuleGroupTexts(g), ", "), {','})) == Success(Restrict(g.p.keys, ReadBack(g)))
  {
    var ps := Runs(Join(RuleGroupTexts(g), ", "), {','});
    PiecesRead(g);
    ReadBackCovers(g);
    ReadRulesAll(ps, g.p.keys, ReadBack(g));
  }

  /** Reading a text that squeezes to the four declarations. */
  lemma ConvertDeclared(x: string, jn: string, jt: string, jp: string, st: string)
    requires Squeeze(x) == Declared(jn, jt, jp, st)
    requires ListOk(jn) && ListOk(jt) && ListOk(jp)
    requires |st| > 0 && ',' !in st && '.' !in st
    requires |Runs(jn, {',', ' '})| > 0 && |Runs(jt, {',', ' '})| > 0 && |Runs(jp, {','})| > 0
    requires ReadRules(Runs(jp, {','})).Success?
    ensures ConvertUserFriendly(x)
            == Success(ArrayData(Runs(jn, {',', ' '}), Runs(jt, {',', ' '}), ReadRules(Runs(jp, {','})).value, st))
  {
    DeclaredRead(jn, jt, jp, st);
    ConvertRead(x, Runs(jn, {',', ' '}), Runs(jt, {',', ' '}), Runs(jp, {','}), st);
  }

  /** The lists and the start symbol of the four declarations. */
  lemma DeclaredRead(jn: string, jt: string, jp: string, st: string)
    requires ListOk(jn) && ListOk(jt) && ListOk(jp)
    requires |st| > 0 && ',' !in st && '.' !in st
    requires |Runs(jn, {',', ' '})| > 0 && |Runs(jt, {',', ' '})| > 0 && |Runs(jp, {','})| > 0
    ensures var u := Declared(jn, jt, jp, st);
            && ReadList(u, 'N', {',', ' '}, NonterminalListError) == Success(Runs(jn, {',', ' '}))
            && ReadList(u, 'T', {',', ' '}, TerminalListError) == Success(Runs(jt, {',', ' '}))
            && ReadList(u, 'P', {','}, RuleListError) == Success(Runs(jp, {','}))
            && Search(u, 'S', ItemShape) == Some(st)
  {
    var u := Declared(jn, jt, jp, st);
    FindN(jn, jt, jp, st);
    FindT(jn, jt, jp, st);
    FindP(jn, jt, jp, st);
    FindS(jn, jt, jp, st);
    ListFound(u, 'N', {',', ' '}, NonterminalListError, jn);
    ListFound(u, 'T', {',', ' '}, TerminalListError, jt);
    ListFound(u, 'P', {','}, RuleListError, jp);
  }

  /** `convertUserFriendly` once the declarations are read. */
  lemma ConvertRead(x: string, n: seq<string>, t: seq<string>, p: seq<string>, st: string)
    requires ReadList(Squeeze(x), 'N', {',', ' '}, NonterminalListError) == Success(n)
    requires ReadList(Squeeze(x), 'T', {',', ' '}, TerminalListError) == Success(t)
    requires ReadList(Squeeze(x), 'P', {','}, RuleListError) == Success(p)
    requires Search(Squeeze(x), 'S', ItemShape) == Some(st)
    requires ReadRules(p).Success?
    ensures ConvertUserFriendly(x) == Success(ArrayData(n, t, ReadRules(p).value, st))
  {
  }

  /** `toUserFriendlyString` followed by `convertUserFriendly`: a valid
      grammar with terminals and rules reads back as its nonterminals,
      terminals and start symbol, and its rule groups in order, each
      alternative as printed with the spaces next to its bars. */
  lemma UserFriendlyRoundTrip(g: Grammar)
    requires Valid(g) && NoEmptyGroup(g) && |g.t.keys| > 0 && |g.p.keys| > 0
    ensures ToUserFriendlyString(g).Success?
    ensures var r := ConvertUserFriendly(ToUserFriendlyString(g).value);
            && r.Success? && r.value.n == g.n.keys && r.value.t == g.t.keys && r.value.s == g.start
            && r.value.p.keys == g.p.keys
            && forall L :: L in g.p.values ==>
                 L in r.value.p.values && r.value.p.values[L] == AltPieces(RightTexts(g.p.values[L]))
  {
    var gts := RuleGroupTexts(g);
    var jn := Join(g.n.keys, ", ");
    var jt := Join(g.t.keys, ", ");
    var jp := Join(gts, ", ");
    PrintedSqueezed(g);
    DeclaredChecked(g);
    SymbolListRead(g.n.keys);
    SymbolListRead(g.t.keys);
    GroupTextsClean(g);
    GroupListChars(gts);
    GroupListRead(gts);
    SymbolTextUnreserved(g.start);
    RulesRead(g);
    ConvertDeclared(ToUserFriendlyString(g).value, jn, jt, jp, g.start);
  }

  /** An empty list declaration "K = ." matches with the group " ": the
      optional space gives itself back to the group. */
  lemma FoundEmptyList(key: char, v: string)
    requires 'A' <= key <= 'Z'
    ensures Search(Decl(key, "") + (" " + v), key, ListShape) == Some(" ")
  {
    FoundHere(key, "", " " + v, ListShape);
    EmptyAfterSpace(" " + v);
  }

  lemma EmptyAfterSpace(rest: string)
    ensures AfterSpace(" " + ("" + "." + rest), ListShape) == Some(" ")
  {
    assert "" + "." + rest == "." + rest;
    EmptyListBody(rest);
    SpaceGiven("." + rest, ListShape);
    SpaceKept(rest);
  }

  /** The optional space before a group that does not match after it. */
  lemma SpaceGiven(x: string, shape: Shape)
    requires Body(x, shape).None?
    ensures AfterSpace(" " + x, shape) == Body(" " + x, shape)
  {
    assert (" " + x)[1..] == x;
  }

  lemma SpaceKept(rest: string)
    ensures ListBody(" " + ("." + rest)) == Some(" ")
  {
    var r := " " + ("." + rest);
    assert r == " " + ['.'] + rest;
    FirstInAt(" ", '.', rest, {'.'});
    assert r[..1] == " ";
    assert NonemptyItems(" ") by {
      SplitNone(" ", ',');
      assert |Split(" ", ',')[0]| == 1;
    }
  }

  lemma EmptyListBody(rest: string)
    ensures ListBody("." + rest).None?
  {
    assert FirstIn("." + rest, {'.'}) == 0;
    assert ("." + rest)[..0] == "";
    assert !NonemptyItems("") by {
      assert Split("", ',') == [""];
      assert |Split("", ',')[0]| == 0;
    }
  }

  /** Reading declarations whose terminal list is empty. */
  lemma ConvertNoTerminals(x: string, jn: string, jp: string, st: string)
    requires Squeeze(x) == Declared(jn, "", jp, st)
    requires ListOk(jn) && |Runs(jn, {',', ' '})| > 0
    ensures ConvertUserFriendly(x) == Failure(TerminalListError)
  {
    NoTerminalsRead(jn, jp, st);
    ConvertStopsAtT(x, Runs(jn, {',', ' '}));
  }

  lemma NoTerminalsRead(jn: string, jp: string, st: string)
    requires ListOk(jn) && |Runs(jn, {',', ' '})| > 0
    ensures var u := Declared(jn, "", jp, st);
            && ReadList(u, 'N', {',', ' '}, NonterminalListError) == Success(Runs(jn, {',', ' '}))
            && ReadList(u, 'T', {',', ' '}, TerminalListError) == Failure(TerminalListError)
  {
    var u := Declared(jn, "", jp, st);
    var pt := Decl('P', jp) + (" " + Decl('S', st));
    FindN(jn, "", jp, st);
    SkipDecl('N', jn, Decl('T', "") + (" " + pt), 'T', ListShape);
    FoundEmptyList('T', pt);
    ListFound(u, 'N', {',', ' '}, NonterminalListError, jn);
    NoItems(u, 'T', {',', ' '}, TerminalListError);
  }

  lemma ConvertStopsAtT(x: string, n: seq<string>)
    requires ReadList(Squeeze(x), 'N', {',', ' '}, NonterminalListError) == Success(n)
    requires ReadList(Squeeze(x), 'T', {',', ' '}, TerminalListError) == Failure(TerminalListError)
    ensures ConvertUserFriendly(x) == Failure(TerminalListError)
  {
  }

  /** Reading declarations whose rule list is empty. */
  lemma ConvertNoRules(x: string, jn: string, jt: string, st: string)
    requires Squeeze(x) == Declared(jn, jt, "", st)
    requires ListOk(jn) && ListOk(jt) && |Runs(jn, {',', ' '})| > 0 && |Runs(jt, {',', ' '})| > 0
    requires |st| > 0 && ',' !in st && '.' !in st
    ensures ConvertUserFriendly(x) == Failure(RuleSyntaxError + ": \" \"")
  {
    NoRulesRead(jn, jt, st);
    NoRuleInSpace();
    ConvertRulesFail(x, Runs(jn, {',', ' '}), Runs(jt, {',', ' '}), [" "], st);
  }

  lemma NoRulesRead(jn: string, jt: string, st: string)
    requires ListOk(jn) && ListOk(jt) && |Runs(jn, {',', ' '})| > 0 && |Runs(jt, {',', ' '})| > 0
    requires |st| > 0 && ',' !in st && '.' !in st
    ensures var u := Declared(jn, jt, "", st);
            && ReadList(u, 'N', {',', ' '}, NonterminalListError) == Success(Runs(jn, {',', ' '}))
            && ReadList(u, 'T', {',', ' '}, TerminalListError) == Success(Runs(jt, {',', ' '}))
            && ReadList(u, 'P', {','}, RuleListError) == Success([" "])
            && Search(u, 'S', ItemShape) == Some(st)
  {
    var u := Declared(jn, jt, "", st);
    FindN(jn, jt, "", st);
    FindT(jn, jt, "", st);
    FindEmptyP(jn, jt, st);
    FindS(jn, jt, "", st);
    NoRuleInSpace();
    ListFound(u, 'N', {',', ' '}, NonterminalListError, jn);
    ListFound(u, 'T', {',', ' '}, TerminalListError, jt);
    ListFound(u, 'P', {','}, RuleListError, " ");
  }

  /** `convertUserFriendly` once the declarations are read and a rule is
      not. */
  lemma ConvertRulesFail(x: string, n: seq<string>, t: seq<string>, p: seq<string>, st: string)
    requires ReadList(Squeeze(x), 'N', {',', ' '}, NonterminalListError) == Success(n)
    requires ReadList(Squeeze(x), 'T', {',', ' '}, TerminalListError) == Success(t)
    requires ReadList(Squeeze(x), 'P', {','}, RuleListError) == Success(p)
    requires Search(Squeeze(x), 'S', ItemShape) == Some(st)
    requires ReadRules(p).Failure?
    ensures ConvertUserFriendly(x) == Failure(ReadRules(p).error)
  {
  }

  /** A list declaration found with items. */
  lemma ListFound(s: string, key: char, stops: set<char>, err: string, b: string)
    requires Search(s, key, ListShape) == Some(b) && |Runs(b, stops)| > 0
    ensures ReadList(s, key, stops, err) == Success(Runs(b, stops))
  {
  }

  /** A list declaration found with the lone space " " has no items. */
  lemma NoItems(s: string, key: char, stops: set<char>, err: string)
    requires Search(s, key, ListShape) == Some(" ") && ' ' in stops
    ensures ReadList(s, key, stops, err) == Failure(err)
  {
    assert Runs(" ", stops) == [] by {
      assert " "[1..] == "";
    }
  }

  lemma FindEmptyP(jn: string, jt: string, st: string)
    requires '=' !in jn && '=' !in jt
    ensures Search(Declared(jn, jt, "", st), 'P', ListShape) == Some(" ")
  {
    SkipDecl('N', jn, Decl('T', jt) + (" " + (Decl('P', "") + (" " + Decl('S', st)))), 'P', ListShape);
    SkipDecl('T', jt, Decl('P', "") + (" " + Decl('S', st)), 'P', ListShape);
    FoundEmptyList('P', Decl('S', st));
  }

  /** A grammar without terminals prints "T = ." and is refused on
      reading, so the round trip needs terminals. */
  lemma NoTerminalsRefused(g: Grammar)
    requires Valid(g) && NoEmptyGroup(g) && |g.t.keys| == 0
    ensures ToUserFriendlyString(g).Success?
    ensures ConvertUserFriendly(ToUserFriendlyString(g).value) == Failure(TerminalListError)
  {
    PrintedSqueezed(g);
    DeclaredChecked(g);
    SymbolListRead(g.n.keys);
    assert Join(g.t.keys, ", ") == "";
    ConvertNoTerminals(ToUserFriendlyString(g).value, Join(g.n.keys, ", "), Join(RuleGroupTexts(g), ", "), g.start);
  }

  /** A grammar without rule groups prints "P = ." and is refused on
      reading: the lone space is not a rule. */
  lemma NoRulesRefused(g: Grammar)
    requires Valid(g) && |g.t.keys| > 0 && |g.p.keys| == 0
    ensures ToUserFriendlyString(g).Success?
    ensures ConvertUserFriendly(ToUserFriendlyString(g).value) == Failure(RuleSyntaxError + ": \" \"")
  {
    assert NoEmptyGroup(g);
    assert Join(RuleGroupTexts(g), ", ") == "";
    PrintedSqueezed(g);
    DeclaredChecked(g);
    SymbolListRead(g.n.keys);
    SymbolListRead(g.t.keys);
    SymbolTextUnreserved(g.start);
    ConvertNoRules(ToUserFriendlyString(g).value, Join(g.n.keys, ", "), Join(g.t.keys, ", "), g.start);
  }

  lemma NoRuleInSpace()
    ensures Runs(" ", {','}) == [" "]
    ensures ReadRules(Runs(" ", {','})) == Failure(RuleSyntaxError + ": \" \"")
  {
    RunsOfRun(" ", "", {','});
    assert " " + "" == " ";
    assert [" "][..0] == [];
    assert RuleHere(" ").None?;
    assert RuleSearch(" "[1..]).None?;
    assert ReadRule(" ").None?;
  }

  // ---------------------------------------------------------------------
  // The rule loop on any input.

  /** The rule list reads exactly when every item is a rule. */
  lemma ReadRulesSucceeds(ps: seq<string>)
    ensures ReadRules(ps).Success? <==> forall i :: 0 <= i < |ps| ==> IsRule(ps[i])
  {
    if ReadRules(ps).Success? {
      ReadRulesAreRules(ps);
    } else if forall i :: 0 <= i < |ps| ==> IsRule(ps[i]) {
      ListOfRulesReads(ps);
    }
  }

  /** The item reads as a rule. */
  predicate IsRule(q: string)
  {
    ReadRule(q).Some?
  }

  /** Every item of a rule list that reads is a rule. */
  lemma {:induction false} ReadRulesAreRules(ps: seq<string>)
    requires ReadRules(ps).Success?
    ensures forall i :: 0 <= i < |ps| ==> IsRule(ps[i])
    decreases |ps|
  {
    if |ps| > 0 {
      var init := ps[..|ps| - 1];
      ReadRulesAreRules(init);
      AllOfInit(ps, init, IsRule);
    }
  }

  /** A property of the items before the last and of the last holds of
      all items. */
  lemma AllOfInit<T>(ps: seq<T>, init: seq<T>, P: T -> bool)
    requires |ps| > 0 && init == ps[..|ps| - 1] && P(ps[|ps| - 1])
    requires forall i :: 0 <= i < |init| ==> P(init[i])
    ensures forall i :: 0 <= i < |ps| ==> P(ps[i])
  {
    forall i | 0 <= i < |ps| ensures P(ps[i]) {
      if i < |init| {
        assert init[i] == ps[i];
      }
    }
  }

  /** Some item has a property iff some item before the last or the last
      has it. */
  lemma SomeOfInit<T>(ps: seq<T>, init: seq<T>, P: T -> bool)
    requires |ps| > 0 && init == ps[..|ps| - 1]
    ensures (exists i :: 0 <= i < |ps| && P(ps[i])) <==>
              (exists i :: 0 <= i < |init| && P(init[i])) || P(ps[|ps| - 1])
  {
    if exists i :: 0 <= i < |ps| && P(ps[i]) {
      var i :| 0 <= i < |ps| && P(ps[i]);
      if i < |init| {
        assert P(init[i]);
      }
    }
    if exists i :: 0 <= i < |init| && P(init[i]) {
      var i :| 0 <= i < |init| && P(init[i]);
      assert P(ps[i]);
    }
  }

  /** A list of rules reads. */
  lemma {:induction false} ListOfRulesReads(ps: seq<string>)
    requires forall i :: 0 <= i < |ps| ==> IsRule(ps[i])
    ensures ReadRules(ps).Success?
    decreases |ps|
  {
    if |ps| > 0 {
      var init := ps[..|ps| - 1];
      assert forall i :: 0 <= i < |init| ==> init[i] == ps[i];
      ListOfRulesReads(init);
      assert IsRule(ps[|ps| - 1]);
    }
  }

  /** The first item that is not a rule is the one reported. */
  lemma {:induction false} ReadRulesFirstError(ps: seq<string>, i: nat)
    requires i < |ps| && ReadRule(ps[i]).None?
    requires forall j :: 0 <= j < i ==> ReadRule(ps[j]).Some?
    ensures ReadRules(ps) == Failure(RuleSyntaxError + ": \"" + ps[i] + "\"")
    decreases |ps|
  {
    var init := ps[..|ps| - 1];
    if i < |ps| - 1 {
      assert init[i] == ps[i];
      assert forall j :: 0 <= j < i ==> init[j] == ps[j];
      ReadRulesFirstError(init, i);
    } else {
      assert forall j :: 0 <= j < |init| ==> init[j] == ps[j];
      ReadRulesSucceeds(init);
    }
  }

  /** A left side read from the rules is one some item gives, and every
      item's left side is read. */
  lemma {:induction false} ReadRulesLefts(ps: seq<string>, left: string)
    requires ReadRules(ps).Success?
    ensures left in ReadRules(ps).value.values <==>
              exists i :: 0 <= i < |ps| && RuleLeftIs(ps[i], left)
    decreases |ps|
  {
    if |ps| > 0 {
      var init := ps[..|ps| - 1];
      ReadRulesLefts(init, left);
      SomeOfInit(ps, init, q => RuleLeftIs(q, left));
    }
  }

  /** The item reads as a rule for the given left side. */
  predicate RuleLeftIs(q: string, left: string)
  {
    ReadRule(q).Some? && ReadRule(q).value.0 == left
  }

  /** A left side given more than once keeps the alternatives of its last
      item. */
  lemma {:induction false} ReadRulesLast(ps: seq<string>, i: nat, left: string, alts: seq<string>)
    requires ReadRules(ps).Success? && i < |ps| && ReadRule(ps[i]) == Some((left, alts))
    requires forall j :: i < j < |ps| ==> ReadRule(ps[j]).Some? ==> ReadRule(ps[j]).value.0 != left
    ensures left in ReadRules(ps).value.values && ReadRules(ps).value.values[left] == alts
    decreases |ps|
  {
    var init := ps[..|ps| - 1];
    if i < |ps| - 1 {
      assert init[i] == ps[i];
      assert forall j :: i < j < |init| ==> init[j] == ps[j];
      ReadRulesLast(init, i, left, alts);
    }
  }

  // ---------------------------------------------------------------------
  // What the read-back alternatives say.

  /** The spaces the reader keeps around an alternative add no token. */
  lemma PieceTokens(x: string, i: nat, n: nat)
    ensures Tokens(Padded(x, i, n, "", " ")) == Tokens(x)
  {
    var lead := if i == 0 then "" else " ";
    var y := lead + x;
    assert Tokens(y) == Tokens(x) by {
      if i > 0 {
        assert y[1..] == x;
      } else {
        assert y == x;
      }
    }
    if i + 1 < n {
      TokensBeforeSpace(y);
    } else {
      assert y + "" == y;
    }
  }

  /** A printed right side splits into its symbol texts, or "eps" for the
      empty word. */
  lemma WordTokens(w: Word)
    requires forall i :: 0 <= i < |w| ==> Check(w[i].Text())
    ensures Tokens(ToString(w)) == (if |w| == 0 then [EpsText] else Texts(w))
  {
    if |w| == 0 {
      assert NoBlank(EpsText);
      TokensOfWord(EpsText, "");
      assert EpsText + "" == EpsText;
    } else {
      var texts := Texts(w);
      forall k | 0 <= k < |texts| ensures |texts[k]| > 0 && NoBlank(texts[k]) {
        SymbolTextIsPlain(texts[k]);
      }
      TokensOfJoin(texts);
    }
  }

  /** After the round trip, each alternative of a group splits into the
      symbol texts of the rule it was printed from, in key order. */
  lemma UserFriendlyRoundTripWords(g: Grammar, L: string, k: nat)
    requires Valid(g) && NoEmptyGroup(g) && |g.t.keys| > 0 && |g.p.keys| > 0
    requires L in g.p.values && k < |g.p.values[L].keys|
    ensures var r := ConvertUserFriendly(ToUserFriendlyString(g).value);
            var w := g.p.values[L].values[g.p.values[L].keys[k]].right;
            && r.Success? && L in r.value.p.values && k < |r.value.p.values[L]|
            && Tokens(r.value.p.values[L][k]) == (if |w| == 0 then [EpsText] else Texts(w))
  {
    var group := g.p.values[L];
    var texts := RightTexts(group);
    UserFriendlyRoundTrip(g);
    PieceTokens(texts[k], k, |texts|);
    RightTextsCheck(g, L, group.keys[k]);
    WordTokens(group.values[group.keys[k]].right);
  }
}

=== FILE: words.dfy ===
/** Words: finite strings of grammar symbols, their text form ("eps" for the
    empty word, single spaces between symbols otherwise) and the parser that
    resolves each whitespace-separated token against an alphabet. */
module Words {
  import opened Wrappers
  import opened Text
  import opened Symbols

  type Word = seq<Symbol>

  const EpsText: string := "eps"

  /** The text of each symbol, in order. */
  function Texts(w: Word): (r: seq<string>)
    ensures |r| == |w|
    ensures forall i :: 0 <= i < |w| ==> r[i] == w[i].Text()
  {
    seq(|w|, i requires 0 <= i < |w| => w[i].Text())
  }

  /** `toString()`: the symbols joined by single spaces; the empty word
      prints as "eps". */
  function ToString(w: Word): string {
    if |w| > 0 then Join(Texts(w), " ") else EpsText
  }

  predicate AllSpaces(s: string) {
    forall i :: 0 <= i < |s| ==> s[i] == ' '
  }

  /** The number of leading spaces of s. */
  function LeadingSpaces(s: string): (n: nat)
    ensures n <= |s| && AllSpaces(s[..n])
    ensures n < |s| ==> s[n] != ' '
    decreases |s|
  {
    if |s| > 0 && s[0] == ' ' then
      var n := LeadingSpaces(s[1..]);
      assert s[..n + 1] == [' '] + s[1..][..n];
      n + 1
    else 0
  }

  /** The epsilon pattern `^ *eps *$`: "eps" surrounded by spaces only. */
  predicate IsEpsPattern(s: string) {
    var t := s[LeadingSpaces(s)..];
    |t| >= 3 && t[..3] == EpsText && AllSpaces(t[3..])
  }

  /** A token that a symbol of the alphabet can print as. */
  predicate Printable(s: Symbol) {
    |s.Text()| > 0 && NoBlank(s.Text())
  }

  lemma ValidTextIsPrintable(s: Symbol)
    requires Check(s.Text()) || s == EndMarker
    ensures Printable(s)
  {
    if s != EndMarker {
      forall i | 0 <= i < |s.Text()| ensures !IsBlank(s.Text()[i]) {
        SymbolTextHasNoSeparator(s.Text(), i);
      }
    }
  }

  /** Resolves every token, or fails if one of them is not a symbol. */
  function ResolveAll(tokens: seq<string>, lookup: string -> Option<Symbol>): (r: Option<Word>)
    ensures r.Some? <==> forall i :: 0 <= i < |tokens| ==> lookup(tokens[i]).Some?
    ensures r.Some? ==> |r.value| == |tokens|
                        && forall i :: 0 <= i < |tokens| ==> Some(r.value[i]) == lookup(tokens[i])
    decreases |tokens|
  {
    if |tokens| == 0 then Some([])
    else
      match lookup(tokens[0])
      case None => None
      case Some(s) =>
        match ResolveAll(tokens[1..], lookup)
        case None =>
          assert !lookup(tokens[1..][0]).Some? || exists i :: 0 <= i < |tokens| - 1 && !lookup(tokens[1..][i]).Some?;
          None
        case Some(rest) => Some([s] + rest)
  }

  /** `Word.tryParseString(text, grammar)`: the epsilon pattern is the empty
      word; otherwise every whitespace-separated token must be found by
      `lookup`. `lookup` is `grammar.tryGetSymbol`, or `GrammarFreeLookup`
      when no grammar is given. */
  function TryParseString(text: string, lookup: string -> Option<Symbol>): (r: Option<Word>)
    ensures IsEpsPattern(text) ==> r == Some([])
    ensures !IsEpsPattern(text) ==>
              (r.Some? <==> forall i :: 0 <= i < |Tokens(text)| ==> lookup(Tokens(text)[i]).Some?)
    ensures !IsEpsPattern(text) && r.Some? ==>
              |r.value| == |Tokens(text)|
              && forall i :: 0 <= i < |r.value| ==> Some(r.value[i]) == lookup(Tokens(text)[i])
  {
    if IsEpsPattern(text) then Some([])
    else
      var r := ResolveAll(Tokens(text), lookup);
      assert r.Some? ==> |r.value| == |Tokens(text)|;
      r
  }

  /** Without a grammar, a token is any valid symbol text, created by kind. */
  function GrammarFreeLookup(text: string): (r: Option<Symbol>)
    ensures r.Some? <==> Check(text)
    ensures r.Some? ==> r.value.Text() == text && (r.value.Terminal? <==> IsTerminalText(text))
    ensures r.Some? ==> !r.value.EndMarker?
  {
    if Check(text) then Some(Create(text).value) else None
  }

  /** `lookup` finds every symbol of w under its own text. */
  predicate ResolvesTo(w: Word, lookup: string -> Option<Symbol>) {
    forall i :: 0 <= i < |w| ==> Printable(w[i]) && lookup(w[i].Text()) == Some(w[i])
  }

  /** The single symbol named "eps" prints exactly like the empty word. */
  predicate IsEpsLookalike(w: Word) {
    |w| == 1 && w[0].Text() == EpsText
  }

  lemma {:induction false} AllSpacesHaveNoTokens(s: string)
    requires AllSpaces(s)
    ensures Tokens(s) == []
    decreases |s|
  {
    if |s| > 0 {
      AllSpacesHaveNoTokens(s[1..]);
    }
  }

  lemma {:induction false} LeadingSpacesAreSkipped(s: string)
    ensures Tokens(s) == Tokens(s[LeadingSpaces(s)..])
    decreases |s|
  {
    if |s| > 0 && s[0] == ' ' {
      LeadingSpacesAreSkipped(s[1..]);
      assert s[1..][LeadingSpaces(s[1..])..] == s[LeadingSpaces(s)..];
    }
  }

  /** Text matching the epsilon pattern holds the single token "eps". */
  lemma EpsPatternTokens(s: string)
    requires IsEpsPattern(s)
    ensures Tokens(s) == [EpsText]
  {
    var t := s[LeadingSpaces(s)..];
    LeadingSpacesAreSkipped(s);
    assert t == EpsText + t[3..];
    AllSpacesHaveNoTokens(t[3..]);
    assert NoBlank(EpsText);
    TokensOfWord(EpsText, t[3..]);
  }

  /** Printing a word and parsing the text back gives the word, provided the
      alphabet resolves each of its symbols and the word is not the lone
      symbol "eps", which reads back as the empty word. */
  lemma ParseToString(w: Word, lookup: string -> Option<Symbol>)
    requires ResolvesTo(w, lookup) && !IsEpsLookalike(w)
    ensures TryParseString(ToString(w), lookup) == Some(w)
  {
    if |w| > 0 {
      var texts := Texts(w);
      TokensOfJoin(texts);
      if IsEpsPattern(ToString(w)) {
        EpsPatternTokens(ToString(w));
        assert false;
      }
      assert Tokens(ToString(w)) == texts;
      assert forall i :: 0 <= i < |texts| ==> lookup(texts[i]) == Some(w[i]);
      var r := ResolveAll(texts, lookup);
      assert r.Some? && |r.value| == |w|;
      assert forall i :: 0 <= i < |w| ==> r.value[i] == w[i];
      assert r.value == w;
    } else {
      assert ToString(w) == EpsText && LeadingSpaces(EpsText) == 0;
    }
  }

  /** The lone "eps" symbol is the one word that does not survive the round
      trip. */
  lemma EpsLookalikeReadsAsEmpty(w: Word, lookup: string -> Option<Symbol>)
    requires IsEpsLookalike(w)
    ensures TryParseString(ToString(w), lookup) == Some([])
  {
    assert Texts(w) == [EpsText];
    assert LeadingSpaces(EpsText) == 0;
  }

  /** Parsing normalises the text: printing a parsed nonempty word gives its
      tokens joined by single spaces. */
  lemma ToStringOfParsed(text: string, lookup: string -> Option<Symbol>)
    requires forall t :: lookup(t).Some? ==> lookup(t).value.Text() == t
    requires TryParseString(text, lookup).Some?
    requires |TryParseString(text, lookup).value| > 0
    ensures ToString(TryParseString(text, lookup).value) == Join(Tokens(text), " ")
  {
    var w := TryParseString(text, lookup).value;
    assert Texts(w) == Tokens(text);
  }

  /** `word.get(i)`: the i-th symbol, or null outside the word. */
  function Get(w: Word, i: int): (r: Option<Symbol>)
    ensures r.Some? <==> 0 <= i < |w|
    ensures r.Some? ==> r.value == w[i]
  {
    if 0 <= i < |w| then Some(w[i]) else None
  }

  /** JavaScript's clamping of a slice bound: negative counts from the end. */
  function SliceBound(k: int, len: nat): (r: nat)
    ensures r <= len
  {
    if k < 0 then (if len + k < 0 then 0 else len + k) else if k > len then len else k
  }

  /** `word.slice(start, end)`; an absent end means the end of the word. The
      result is a contiguous piece of the word; between positions inside the
      word it is exactly the piece between them, and negative positions count
      from the end. */
  function Slice(w: Word, start: int, end: Option<int>): (r: Word)
    ensures exists a, b :: 0 <= a <= b <= |w| && r == w[a..b]
    ensures 0 <= start <= |w| && end.None? ==> r == w[start..]
    ensures 0 <= start <= |w| && end.Some? && start <= end.value <= |w| ==> r == w[start..end.value]
    ensures -|w| <= start < 0 && end.None? ==> r == w[|w| + start..]
    ensures end.Some? && 0 <= end.value <= start ==> r == []
  {
    var a := SliceBound(start, |w|);
    var b := SliceBound(end.GetOr(|w|), |w|);
    if a < b then
      w[a..b]
    else
      var r: Word := [];
      assert r == w[0..0];
      r
  }

  /** Slicing between two valid positions is the subsequence between them,
      and slicing a whole word copies it. */
  lemma SliceIsSubsequence(w: Word, a: nat, b: nat)
    requires a <= b <= |w|
    ensures Slice(w, a, Some(b)) == w[a..b]
    ensures Slice(w, 0, None) == w
  {
  }

  /** `isTerminal()`: every symbol is a terminal (the end marker counts). */
  predicate IsTerminalWord(w: Word) {
    forall i :: 0 <= i < |w| ==> IsTerminal(w[i])
  }

  /** `contains(symbol)`: some symbol has the same text. */
  predicate Contains(w: Word, s: Symbol) {
    exists i :: 0 <= i < |w| && Equals(w[i], s)
  }

  /** The first position of a symbol with the text of s, found by scanning
      from the left as the source does. */
  function FindFrom(w: Word, s: Symbol, k: nat): (r: Option<nat>)
    requires k <= |w|
    ensures r.Some? ==> k <= r.value < |w| && Equals(w[r.value], s)
                        && forall j :: k <= j < r.value ==> !Equals(w[j], s)
    ensures r.None? ==> forall j :: k <= j < |w| ==> !Equals(w[j], s)
    decreases |w| - k
  {
    if k == |w| then None
    else if Equals(w[k], s) then Some(k)
    else FindFrom(w, s, k + 1)
  }

  lemma ContainsIffFound(w: Word, s: Symbol)
    ensures Contains(w, s) <==> FindFrom(w, s, 0).Some?
  {
    if FindFrom(w, s, 0).Some? {
      assert Equals(w[FindFrom(w, s, 0).value], s);
    }
  }

  /** The class letter `match` gives a symbol: terminal, the start symbol, or
      another nonterminal. */
  datatype SymbolClass = T | S | R

  /** The class string `match` tests its regular expression against; an N in
      the expression stands for either S or R. */
  function Classify(w: Word, start: string): (r: seq<SymbolClass>)
    ensures |r| == |w|
    ensures forall i :: 0 <= i < |w| ==>
              (r[i] == T <==> IsTerminal(w[i]))
              && (r[i] == S <==> !IsTerminal(w[i]) && w[i].Text() == start)
  {
    seq(|w|, i requires 0 <= i < |w| =>
      if IsTerminal(w[i]) then T else if w[i].Text() == start then S else R)
  }

  /** The word written over a single class is all-terminal exactly when its
      classification has only T. */
  lemma ClassifyTerminalWord(w: Word, start: string)
    ensures IsTerminalWord(w) <==> forall i :: 0 <= i < |w| ==> Classify(w, start)[i] == T
  {
    var c := Classify(w, start);
    assert forall i :: 0 <= i < |w| ==> (c[i] == T <==> IsTerminal(w[i]));
  }
}

=== FILE: wrappers.dfy ===
/** Failure-compatible wrappers used throughout the model.
    `Option` stands for the source's `value || null` returns, `Result` for
    operations that either produce a value or raise an error (`MyError`,
    `UserError`, a thrown exception). */
module Wrappers {

  datatype Option<+T> = None | Some(value: T) {

    predicate IsFailure() {
      None?
    }

    function PropagateFailure<U>(): Option<U>
      requires None?
    {
      None
    }

    function Extract(): T
      requires Some?
    {
      value
    }

    function GetOr(default: T): T {
      match this
      case Some(v) => v
      case None => default
    }
  }

  datatype Result<+T> = Success(value: T) | Failure(error: string) {

    predicate IsFailure() {
      Failure?
    }

    function PropagateFailure<U>(): Result<U>
      requires Failure?
    {
      Failure(error)
    }

    function Extract(): T
      requires Success?
    {
      value
    }
  }
}
